=== FILE: README.md ===
# ast_tools passes in Dafny

This project models the code-transformation core of `ast_tools`, a Python
library that rewrites Python function definitions. The model is built
around the SSA conversion of `passes/ssa.py`, which runs five stages on one
function:

1. Hoist every attribute the function writes into a local alias.
2. Name every `if` test.
3. Turn `elif` into `else: if`.
4. Collapse every `return` into guarded assignments and one final folded
   `return`.
5. Give every store a fresh version, with multiplexer (`IfExp`)
   assignments where branches join.

The pieces around that core are modelled too:

- the older variants of the algorithm (`passes/ssa_cst.py`,
  `passes/single_assignment.py`, `passes/single_return.py`,
  `passes/write_attrs_once.py`);
- free-name generation (`common.py`);
- the two-way multimap and provenance tracking (`utils.py`,
  `transformers/node_tracker.py`);
- the symbol table (`stack.py`);
- the small tree rewrites and collectors: the normalisers, `bool_to_bit`,
  `if_to_phi`, common subexpression elimination, the node replacers, the
  renamer, the node finder, the assert remover and the name, target and
  call collectors;
- the AST pattern matcher (`pattern.py`);
- the decorator-stripping pass driver (`passes/util.py`).

Programs are values of a small closed grammar (module `Syntax`):

- Expressions: names with a load/store/delete context, attributes, `not`,
  `and`/`or`, binary operators, comparisons, conditional expressions, calls
  with keyword arguments, tuples and literals.
- Small statements: assignments, `return`, expression statements, `pass`
  and `assert`.
- Statements: lines of small statements, `if` with an `else` or `elif`,
  `for`, `while`, `with` and `try`, and nested function and class
  definitions. The loops, `with` and `try` exist so that the passes can
  reject or skip them.

Every pass is a pure function from a tree to a `Result`. Python's
exceptions become error values (`TypeError`, `NotImplementedError`,
`SyntaxError`, `KeyError`, …). Structural equality stands in wherever the
library compares nodes deeply or hashes immutable nodes.

Several passes take a `Policy` or `Variant` switch. `AsWritten` follows the
code line by line. `Corrected` repairs a defect listed under "## Findings",
and the corrected property is proved about it.

Where the library's documentation and its code disagree, the model follows
the code:

- Versions and aliases are kept free only of the names that `used_names`
  sees. On a function definition that is the function's own name, because
  the collector does not enter definitions. They are not kept free of every
  identifier of the tree.
- `gen_free_name` returns a free bare prefix as it is
  (`FreeNames.UnusedPrefixReturnedBare`), although `tests/test_common.py`
  expects a numbered name there.
- The CSE counter's `visit_IfExpr` and `vist_Call` are never called by the
  visitor. So conditional expressions and calls are not counted as
  candidates, though they are meant to be.

## Model

| member | source | states |
|---|---|---|
| Guards.SimplifyGuards | ast_tools/passes/ssa.py:26-83 | The first entry is kept, the output is never longer than the input, and a second run changes nothing: the assertion at line 82 always holds. |
| Guards.SimplifyStable | ast_tools/passes/ssa.py:59-82 | Once the simplified prefix has no unguarded entry before its last and no entry that merely negates its predecessor's guard, the loop keeps it that way to the end. |
| Guards.SimplifyPreservesPick | ast_tools/passes/ssa.py:59-79 | Under every valuation of the tests, the simplified sequence picks the same value as the original: the first entry whose guard holds. |
| Guards.SimplifyKeepsDefault | ast_tools/passes/ssa.py:59-79 | An unguarded entry survives simplification, so the simplified sequence still has a fallback. |
| Guards.FoldSucceeds | ast_tools/passes/ssa.py:89-120 | Folding succeeds exactly when the sequence has an unguarded entry, or, in non-strict mode, any entry at all. |
| Guards.FoldPicks | ast_tools/passes/ssa.py:89-120 | The strict fold evaluates to the value of the first entry whose guard holds, so the folded expression is the sequence's first-match choice. |
| Guards.NonStrictFold | ast_tools/passes/ssa.py:103-120 | Non-strict folding is strict folding with the last entry's guard dropped. |
| Guards.WriteBackNeverFails | ast_tools/passes/ssa.py:208-233 | The attribute write-back folds its saves followed by the unguarded alias, and that fold never fails, even in strict mode. |
| Guards.CstFoldIsStrict | ast_tools/passes/ssa_cst.py:139-169 | The fold of `ssa_cst.py` has no strict switch and is the strict fold of `ssa.py`. |
| Reachability.StmtClassified | ast_tools/metadata/always_returns_provider.py:5-42 | Soundness: a statement the classifier marks as always returning has no run that falls off its end. The classifier is exact for code without `with` or `try`. |
| Reachability.StmtsReturnIff | ast_tools/metadata/always_returns_provider.py:26-31 | A block always returns exactly when one of its statements does. |
| Reachability.WithNotCredited | ast_tools/metadata/always_returns_provider.py:5-42 | A `with` whose body always returns is not credited, so the classifier is incomplete there. |
| Conditions.StmtTags | ast_tools/metadata/condition_provider.py:5-40 | The node left last is tagged with the enclosing stack, and every tag extends that stack, so an `if` only ever pushes conditions on top of the ones in force. |
| Conditions.IfReturnConds | ast_tools/metadata/condition_provider.py:18-28 | The returns of an `if` are those of its body, under the stack with the test pushed, followed by those of its `orelse`, under the stack with `not test` pushed. |
| Conditions.IfExample | ast_tools/metadata/condition_provider.py:14-22 | Tagging `if c: return x` under a stack `S` tags the `return` with `S + [c]`. |
| NameTests.TestsStmt | ast_tools/passes/ssa.py:147-156 | An `if` becomes two statements: the assignment of its test to a fresh condition name, then an `if` on that name. Any other statement stays one statement. So a rewritten statement never starts with an `if`. |
| NameTests.UnhoistStmtInverse | ast_tools/passes/ssa.py:147-156 | Putting the hoisted tests back gives the original code, with each `elif` written as an `else` holding the inner `if`. |
| NameTests.NumberingStmt | ast_tools/passes/ssa.py:142-156 | Listed in post-order, the rewritten tests are exactly the names `k`, `k+1`, …, `next-1`. Each `if` is numbered once. |
| NameTests.CondNamesDistinct | ast_tools/passes/ssa.py:142-153 | Distinct counter values give distinct condition names. |
| Normalizers.ElifStmtFacts | ast_tools/transformers/normalizers.py:8-20 | After `ElifToElse` no `elif` is left. On code without `elif` it changes nothing. It keeps the always-returns classification. |
| Normalizers.ElifIdempotent | ast_tools/transformers/normalizers.py:8-20 | `ElifToElse` is idempotent. |
| Normalizers.ElifExample | tests/test_normalizers.py:10-34 | The `if x: … elif y: … else: …` example becomes nested `else: if`. |
| Normalizers.NormStmtFacts | ast_tools/transformers/normalizers.py:23-65 | Both block normalisers keep every small statement, in order, and keep the always-returns classification. `NormalizeBlocks` leaves no one-line suite. `NormalizeLines` leaves no line holding several statements. |
| Normalizers.NormModuleFacts | ast_tools/transformers/normalizers.py:51-55 | `NormalizeLines` on a module keeps its small statements and leaves each line holding one. |
| Normalizers.PartialLinesExample | tests/test_normalizers.py:106-126 | Only the suite holding two statements becomes a block. |
| FreeNames.FreeNameIn | ast_tools/common.py:189-206 | `gen_free_name`: the result is not taken. It is the candidate itself when that is free, and otherwise the candidate followed by the least free counter. |
| FreeNames.FreePrefixIn | ast_tools/common.py:209-230 | `gen_free_prefix`: no taken name starts with the result, and the result extends the candidate. |
| FreeNames.FreePrefixExtends | ast_tools/common.py:182-186 | Every name built on a free prefix is itself free. |
| FreeNames.GenFreeNameLoop | ast_tools/common.py:196-206 | The counting loop returns a name that is free. It is the bare candidate when that is free, and otherwise the candidate followed by the first counter whose name is not taken. |
| FreeNames.UnusedPrefixReturnedBare | tests/test_common.py:15-34 | On the test's module the free prefix `P` is returned bare. |
| AttrHoisting.HoistOutcome | ast_tools/passes/ssa.py:548-569 | The loop raises `NotImplementedError` exactly when some written attribute's owner is not a bare name. Otherwise the attributes met are exactly the distinct written attributes, in order. |
| AttrHoisting.AliasClash | ast_tools/passes/ssa.py:557-566 | As written, two distinct attributes that format to one alias share that alias, and the dictionary keeps only the second. |
| AttrHoisting.AliasClashCorrected | ast_tools/passes/ssa.py:557-566 | Under the correction, two distinct attributes keep two entries with two different aliases. |
| AttrHoisting.CorrectedAliasesDistinct | ast_tools/passes/ssa.py:548-569 | Under the correction, each distinct written attribute keeps its own entry, and no two attributes share an alias. |
| AttrHoisting.StmtReplaced | ast_tools/passes/ssa.py:571-572 | After the replacement no hoisted attribute is written anywhere in the tree. |
| AttrHoisting.HoistingUndone | ast_tools/passes/ssa.py:542-572 | Under the correction, with aliases drawn on a prefix no name of the definition starts with, no written attribute is left, and mapping every alias back to its attribute gives the definition back. |
| SsaRenaming.Mint | ast_tools/passes/ssa.py:359-367 | `_make_name`: the minted name is the version numbered by the name's counter. That counter grows by one and no other counter changes. Looking the name up afterwards gives the new version. |
| SsaRenaming.RenameName | ast_tools/passes/ssa.py:501-524 | `leave_Name`: a final name comes back unchanged and the table is untouched. A load is renamed to the name's current binding in the table, or kept as it is when the name is unbound, and the table is untouched. A store or delete is renamed to the name's next version. That version becomes the name's binding, the name's counter grows by one, and no other binding or counter changes. The walk fails exactly on a strict load of a name that is neither final nor bound, with the source's `SyntaxError` message for that name. |
| SsaReaching.LoadReadsLatest | ast_tools/passes/ssa.py:512-522 | A load of a name that is not final reads the definition reaching it. That is the version minted by the name's latest earlier store. When nothing stored the name yet, the load keeps the name itself. The load fails exactly when nothing stored the name, the name is neither a parameter nor an environment name, and the walk is strict. |
| SsaReaching.NameLatest | ast_tools/passes/ssa.py:523-524 | A store makes the version it mints the definition that reaches later loads of that name. Every other name keeps its reaching definition. |
| SsaReaching.ExprLatest | ast_tools/passes/ssa.py:485-524 | Renaming an expression keeps every name bound to its reaching definition. Each name's counter grows by exactly the number of stores to it in the expression. |
| SsaReaching.SmallLatest | ast_tools/passes/ssa.py:472-483 | An assignment's value is renamed before its targets. So the value's loads read the definitions from before the assignment, and afterwards the targets' new versions are the ones that reach. |
| SsaReaching.LinesLatest | ast_tools/passes/ssa.py:472-524 | Renaming straight-line statements keeps every name bound to its reaching definition. Each counter grows by the number of stores to that name in the statements. |
| SsaReaching.StartLatest | ast_tools/passes/ssa.py:378-386 | Before the body, every environment name and every parameter is bound to itself. Every other name is unbound and nothing has been stored. |
| SsaReaching.RenameStmtsAppend | ast_tools/passes/ssa.py:388-389 | The body is renamed statement by statement. Renaming `a + b` renames `a`, then renames `b` from the table `a` left behind. An error in `a` ends the walk. |
| SsaReaching.DefReaching | ast_tools/passes/ssa.py:378-391 | Reaching definitions in a straight-line body split into a prefix and a rest. The rest is renamed from a table in which each name that is not final is bound to the version of its latest store in the prefix. A name the prefix never stores is bound to itself when it is a parameter or an environment name, and is otherwise unbound. |
| SsaRenaming.RenameIf | ast_tools/passes/ssa.py:398-470 | `leave_If`: the renamed `if` is straight-line code with no control flow left. An `elif` still in place fails the assertion that the `orelse` is an `else`. |
| SsaRenaming.RenameDef | ast_tools/passes/ssa.py:369-391 | Only the root function's body is rewritten. Its parameters and decorators are kept. |
| SsaProperties.VersionInjective | ast_tools/passes/ssa.py:359-367 | `_make_name` never mints the same name twice. |
| SsaProperties.OriginOfVersion | ast_tools/passes/ssa.py:359-367 | Every version leads back to the name it was minted for. |
| SsaProperties.SingleAssignment | ast_tools/passes/ssa.py:325-524 | In the renamed body, every name stored outside the names earlier stages made final is stored exactly once, and it is a minted version. |
| SsaProperties.MuxesBind | ast_tools/passes/ssa.py:430-470 | The four-way join rule, name by name. A name bound in both arms, or in one arm and outside, gets a new version. A name new in one arm only is adopted in neither. A name bound nowhere is untouched. |
| SsaProperties.JoinReturning | ast_tools/passes/ssa.py:409-428 | When both arms always return, the outer table is unchanged. When exactly one does, the outer table takes the other arm's bindings as they are. |
| SsaProperties.JoinMuxes | ast_tools/passes/ssa.py:428-470 | When neither arm always returns, the join applies the four-way rule to every name either arm bound, and to no other name. |
| SsaProperties.StraightLineErases | ast_tools/passes/ssa.py:472-524 | On straight-line code the renamer changes nothing but names: mapping every name of the output back to its origin gives the input. |
| SsaProperties.DefErases | ast_tools/passes/ssa.py:369-391 | The same for a whole function, when the parameters, the environment and every name of the body are taken names. |
| SsaExamples.ReassignedArgument | tests/test_ssa.py:142-181 | The body the test expects for a reassigned argument is what the renamer produces. |
| SsaExamples.VersionClash | ast_tools/passes/ssa.py:359-367 | As written, in `def f(a, a_0): a = 1; return a_0` the store to `a` becomes `a_0`, the second parameter's name. |
| SsaPipeline.EntryErrors | ast_tools/passes/ssa.py:535-553 | Only a function definition is accepted (`TypeError`). The first stage raises `NotImplementedError` exactly when an attribute is written through a non-name owner. |
| SsaPipeline.RewriteSingleAssignment | ast_tools/passes/ssa.py:531-610 | A successful rewrite keeps the function's name and parameters. Its body is straight-line code in which every stored name that is not final is stored once and is a minted version. |
| SsaPipeline.CorrectedErases | ast_tools/passes/ssa.py:594-607 | With names kept free of the whole definition, renaming a body without branches only renames: mapping the output back to its origins gives the body handed to the renamer. |
| ReturnFlattening.StmtFlattened | ast_tools/passes/ssa.py:240-294 | After flattening, no `return` is left outside nested definitions. |
| ReturnFlattening.StmtRestored | ast_tools/passes/ssa.py:240-276 | Turning each return assignment back into a `return` and dropping the attribute saves gives back the original code, with a bare `return` written as `return None`. |
| ReturnFlattening.FlattenDef | ast_tools/passes/ssa.py:159-233 | `SingleReturn` on the root function, with the guards of `ConditionProvider` (see "## Left out"). The flattened definition has no `return` left. The tail starts with one write-back per hoisted attribute and adds the folded `return` only when a return was met. The only failure is the strict fold's `SyntaxError`. |
| ReturnFlattening.NonStrictFlattens | ast_tools/passes/ssa.py:208-233 | Non-strict flattening never fails. |
| ReturnFlattening.UnguardedReturnFlattens | ast_tools/passes/ssa.py:208-233 | A `return` outside every `if` makes the strict fold succeed. |
| ReturnFlattening.AlwaysReturningRejected | ast_tools/passes/ssa_cst.py:236-279 | Under the full condition stacks that `ssa_cst.py` takes from `ConditionProvider`, a function that returns on every path through an `if`/`else: if`/`else` chain is still rejected: its simplified guards have no unguarded entry, so the fold raises `SyntaxError`. |
| ReturnFlattening.CstSingleReturn | ast_tools/passes/ssa_cst.py:211-279 | The result is a definition with the same name and parameters. A failure is either the strict fold's `SyntaxError` or a construct outside the model. |
| ReturnFlattening.CstSingleReturnRestores | ast_tools/passes/ssa_cst.py:236-279 | The result has one `return`, at the end. Restoring the return assignments in the rest gives back the body. |
| SingleReturn.Rewrite | ast_tools/passes/single_return.py:97-127 | It fails with `TypeError` exactly when the root is not a synchronous function definition. Otherwise the result is one, with the same name, parameters and decorators. |
| SingleReturn.ReduceTruth | ast_tools/passes/single_return.py:74-87 | The reduced condition holds exactly when every condition of the stack holds. |
| SingleReturn.RewriteUnchangedIffNoReturn | ast_tools/passes/single_return.py:97-127 | `rewrite` leaves a function unchanged exactly when it has no return outside nested definitions. |
| SingleReturn.IfStacks | ast_tools/passes/single_return.py:44-63 | Returns in an `if` body are recorded under the test pushed on the enclosing stack, and those in its `orelse` under the negated test. The pushed entry is popped afterwards. |
| SingleReturn.ChainPicks | ast_tools/passes/single_return.py:104-127 | The chain copies the value of the first return, in the order met, whose whole condition stack holds. When none holds it copies nothing. |
| SingleReturn.MovedRestores | ast_tools/passes/single_return.py:65-72 | When no name of the body starts with the return prefix, turning the `__return_value` assignments back into returns gives the body. |
| SingleAssignment.StmtRejects | ast_tools/passes/single_assignment.py:129-147 | The renamer fails with `SyntaxError` exactly when it reaches a loop, `with` or `try`. Otherwise its output has no control flow left. |
| SingleAssignment.MuxRule | ast_tools/passes/single_assignment.py:43-113 | The join loop emits one multiplexer for every joined name and for nothing else. Each multiplexer mints the name's next version and selects the `then` arm's version when the test holds. |
| SingleAssignment.MuxBindings | ast_tools/passes/single_assignment.py:95-113 | After the join loop the joined names are bound to their new version and counted once more. Every other binding and counter is unchanged. |
| SingleAssignment.ProveLoads | ast_tools/passes/single_assignment.py:160-177 | On a load-only expression the check passes exactly when every name read is defined or in the environment, and it defines nothing. |
| SingleAssignmentScoping.CorrectedScoped | ast_tools/passes/single_assignment.py:16-184 | Corrected variant: in every accepted function body, each read at each point is of a name assigned earlier, a parameter or an environment name. |
| SingleAssignmentExamples.SelfAssignAsWritten | ast_tools/passes/single_assignment.py:114-124 | As written, `a = a + 1` becomes `a0 = a0 + 1`, which reads an undefined name. |
| SingleAssignmentExamples.SelfAssignCorrected | ast_tools/passes/single_assignment.py:114-124 | Corrected, it becomes `a0 = a + 1`, and every read is defined. |
| SingleAssignmentExamples.OneArmAsWritten | ast_tools/passes/single_assignment.py:160-177 | As written, `if c: x = 1` followed by `return x` passes the check, but the renamed body returns an unassigned `x`. |
| SingleAssignmentExamples.OneArmCorrected | ast_tools/passes/single_assignment.py:160-177 | Corrected, the check rejects that function. |
| WriteAttrsOnce.AttrTargetsCollected | ast_tools/passes/write_attrs_once.py:36-45 | The attribute targets are those the target collector gathers with the `ast.Attribute` filter. |
| WriteAttrsOnce.AliasFails | ast_tools/passes/write_attrs_once.py:45-58 | The alias loop fails with `NotImplementedError` exactly when a target's owner is not a bare name. |
| WriteAttrsOnce.AliasTable | ast_tools/passes/write_attrs_once.py:45-58 | When the loop succeeds, every target has an alias and each attribute is listed once. The aliases are free in the scope. Under the correction they are also distinct. |
| WriteAttrsOnce.SpreadGuards | ast_tools/passes/write_attrs_once.py:27-32 | After the insertion every `return` is immediately preceded by the writes. |
| WriteAttrsOnce.SpreadUndone | ast_tools/passes/write_attrs_once.py:27-32 | Removing the writes in front of the returns gives the statements back. |
| WriteAttrsOnce.Pass | ast_tools/passes/write_attrs_once.py:35-94 | It fails with `NotImplementedError` exactly when the root is not a synchronous function or an attribute target's owner is not a bare name. Otherwise the name and parameters are kept, and the environment and metadata pass through unchanged. |
| WriteAttrsOnce.PassShape | ast_tools/passes/write_attrs_once.py:61-93 | The rewritten body is the reads, then the body with the attributes replaced and the writes before each `return`, then the writes unless the body always returns. |
| WriteAttrsOnce.ReadsWritesCover | ast_tools/passes/write_attrs_once.py:61-85 | Each aliased attribute is read into its alias at entry and written back from it. |
| WriteAttrsOnce.CorrectedUndone | ast_tools/passes/write_attrs_once.py:61-93 | Under the correction, putting every attribute back in place of its alias with `replace_symbols` gives the input back. |
| WriteAttrsOnce.BasicExample | tests/test_write_attrs_once.py:36-53 | The attribute of `test_basic` is read once at entry and written once at the end. |
| WriteAttrsOnce.CollidingAliases | ast_tools/passes/write_attrs_once.py:45-58 | As written, `a_b.c` and `a.b_c` both get the alias `a_b_c`. |
| WriteAttrsOnce.CollidingCorrected | ast_tools/passes/write_attrs_once.py:45-58 | With the correction the second alias is `a_b_c0`. |
| WriteAttrsOnce.ShadowedParameter | ast_tools/passes/write_attrs_once.py:45-58 | As written, the alias of `t.x` in `def f(t, t_x)` is the parameter `t_x`. |
| WriteAttrsOnce.ShadowedCorrected | ast_tools/passes/write_attrs_once.py:45-58 | With the correction the alias is `t_x0`. |
| IfToPhi.PhiExpr | ast_tools/passes/if_to_phi.py:14-29 | Every conditional expression becomes a call of the phi name with the rewritten test, body and orelse as arguments. |
| IfToPhi.PhiUndone | ast_tools/passes/if_to_phi.py:18-29 | When the phi name is not a name of the expression, the rewrite can be undone. |
| IfToPhi.ChosenName | ast_tools/passes/if_to_phi.py:54-68 | A string is used as the name verbatim. Otherwise the name is made free in the tree and the environment. |
| IfToPhi.Pass | ast_tools/passes/if_to_phi.py:54-68 | The tree has every conditional turned into a phi call. A phi value is bound in the environment's locals. The metadata is unchanged. |
| IfToPhi.PassUndone | ast_tools/passes/if_to_phi.py:54-68 | When the chosen name is not a name of the tree's expressions, turning every phi call back into a conditional gives the tree back. |
| IfToPhi.CorrectedUndone | ast_tools/passes/if_to_phi.py:54-68 | With the corrected scope, a phi value's name is never a name of the tree, so the pass can always be undone. |
| IfToPhi.BasicRewrite | tests/test_if_to_phi.py:19-37 | `return 0 if s else 1` becomes `return phi(s, 0, 1)`. |
| IfToPhi.NestedRewrite | tests/test_if_to_phi.py:40-54 | `0 if s else 1 if t else 2` becomes `phi(s, 0, phi(t, 1, 2))`. |
| IfToPhi.ShadowedParameter | ast_tools/passes/if_to_phi.py:54-68 | As written, for `def f(__phi)` the name made free is `__phi`, the function's own parameter. |
| IfToPhi.ShadowedCorrected | ast_tools/passes/if_to_phi.py:54-68 | With the corrected scope the name is `__phi0`, which is not a parameter. |
| BoolToBit.Rewrite | ast_tools/passes/bool_to_bit.py:11-36 | It fails, failing the assertion, exactly when a `BoolOp` of the matched kind has no values. Otherwise no `BoolOp` of that kind is left, every other kind is kept, and the empty `BoolOp`s of other kinds are untouched. |
| BoolToBit.RewriteFails | ast_tools/passes/bool_to_bit.py:11-26 | The rewrite fails exactly when some node is a `BoolOp` of the matched kind without values. |
| BoolToBit.RewriteKeepsValue | ast_tools/passes/bool_to_bit.py:11-36 | On single bits, `and`/`or` and their chains of `&`/`\|` agree. |
| BoolToBit.InvertKeepsValue | ast_tools/passes/bool_to_bit.py:39-41 | On single bits, `not` and `~` agree. |
| BoolToBit.PassPointwise | ast_tools/passes/bool_to_bit.py:58-74 | Running the transformers over the tree one after the other does to each outermost expression what the three rewrites in turn do to it alone. |
| BoolToBit.PassMeaning | ast_tools/passes/bool_to_bit.py:44-74 | The pass fails exactly when a switched-on `and` or `or` has no values. Otherwise no switched-on operator remains, and on single bits every expression keeps its value. |
| BoolToBit.XorExample | tests/test_bool_to_bit.py:39-49 | `x and not y or not x and y` becomes `x & ~y \| ~x & y`. |
| BiMaps.Get | ast_tools/utils.py:32-33 | The value set of a key, or `KeyError`. |
| BiMaps.Set | ast_tools/utils.py:35-37 | The value is added to the key's values and the key to the value's keys. The map stays consistent. |
| BiMaps.Del | ast_tools/utils.py:39-44 | The key leaves the reverse set of each of its values, emptied reverse entries are dropped, and the key is removed. An absent key is `KeyError`. |
| BiMaps.InverseInvolution | ast_tools/utils.py:70-74 | Taking the inverse twice gives the map back. |
| BiMaps.ReverseFromForward | ast_tools/utils.py:81-88 | In a consistent map the reverse side is determined by the forward side. |
| BiMaps.EqualForwardMeansEqualReverse | ast_tools/utils.py:52-61 | The assertions inside `__eq__` hold for consistent maps. |
| BiMaps.Copy | ast_tools/utils.py:24-30 | Copying inserts every pair, and the result has the same contents as the source. |
| NodeTracking.Track | ast_tools/transformers/node_tracker.py:30-46 | `_track(o, u)` adds exactly the links from the origins of `o` to the updates of `u`. The invariant that no node is both an origin and a target survives unless a fresh node is linked to itself. |
| NodeTracking.TrackWithChildren | ast_tools/transformers/node_tracker.py:48-58 | Tracking either keeps the table free of chains and explains every updated node, or stops at a self-link: an original node with no earlier provenance that is also among the updated nodes is linked to itself. Without such an overlap, and always when corrected, it never stops early. Updated nodes that are all explained and not newly added change nothing. A node tracked against only itself (`on_leave(o, o)`) gets the link `o -> o`. |
| NodeTracking.TrackPair | ast_tools/transformers/node_tracker.py:52-58 | One pair of the inner loop: a node already explained and not newly added is skipped; any other is linked and then its children are tracked. |
| NodeTracking.ChainFreeCallsNearer | ast_tools/transformers/node_tracker.py:30-43 | On a table without chains every recursive call of `_track` is nearer to linking, so `_track` ends. |
| NodeTracking.SelfLinkRecurses | ast_tools/transformers/node_tracker.py:33-36 | Once the table holds `o -> o`, `_track(o, u)` calls `_track(o, u)` again with the table unchanged, so it never returns. |
| NodeTracking.PrunedVisit | ast_tools/transformers/node_tracker.py:21-58 | `on_leave(o, o)` on a node with a child links `o` to itself, and the next call `_track(o, child)` repeats itself. |
| NodeTracking.PrunedVisitCorrected | ast_tools/transformers/node_tracker.py:21-58 | With the self pair skipped, `on_leave(o, o)` records nothing. |
| NodeTracking.TrackResult | ast_tools/transformers/node_tracker.py:78-92 | A removal or an empty result records nothing. Otherwise the nodes are tracked with the per-call set of added nodes starting and ending empty. The outcome is a self-link only as `TrackWithChildren` allows. `on_leave(o, o)` for a node without provenance links it to itself as written, and records nothing when corrected. |
| NodeTracking.TraceOrigins | ast_tools/transformers/node_tracker.py:94-107 | Previous links are composed with current links, and previous links whose target was not updated are carried over. |
| SymbolTables.Lookup | ast_tools/stack.py:31-36 | Locals are consulted before globals. A key bound in neither is `KeyError`. |
| SymbolTables.Len | ast_tools/stack.py:38-43 | Iteration yields the union of the keys, and a key bound in both scopes counts once. |
| SymbolTables.LocalsShadowGlobals | ast_tools/stack.py:31-36 | A local binding shadows a global binding of the same key. |
| NodeReplacer.AddReplacement | ast_tools/transformers/node_replacer.py:16-20 | A node without a key is a `TypeError`. Otherwise the entry for its key is set, overwriting any earlier one. |
| NodeReplacer.SmallExprsReplaced | ast_tools/transformers/node_replacer.py:9-14 | The outermost expressions of a replaced tree are the tree's outermost expressions, replaced, in the same order. |
| SymbolReplacer.ExprSymbols | ast_tools/transformers/symbol_replacer.py:4-12 | When no replacement uses a bound name, no bound name survives the replacement, every unbound name survives it, and an expression with no bound name is unchanged. |
| SymbolReplacer.ExprRoundTrip | ast_tools/transformers/symbol_replacer.py:4-12 | When the replacements are names the tree does not use, and `symbols` maps them back, `replace_symbols` undoes the replacement. |
| Renamer.RenameName | ast_tools/transformers/renamer.py:9-18 | A name absent from the map is added, mapped to itself. The new node carries the mapped name and the original context. |
| Renamer.RenameExprMap | ast_tools/transformers/renamer.py:9-18 | The map after renaming is the map before, with every name of the expression that it lacked mapped to itself. |
| Renamer.RenameExprReplaces | ast_tools/transformers/renamer.py:9-18 | The threaded renaming equals replacing every `Name` node by its image under the final map, with the context kept. |
| Renamer.IdentityRename | ast_tools/transformers/renamer.py:5-18 | The identity on the tree's names leaves the tree as it is. |
| NodeFinder.NewFinder | ast_tools/visitors/node_finder.py:6-12 | The sought node must have a key. |
| NodeFinder.FindFirst | ast_tools/visitors/node_finder.py:14-22 | A fresh finder's target is the first node of the tree, in traversal order, whose key is the sought key. It stays empty when there is none. |
| NodeFinder.FoundIsFinal | ast_tools/visitors/node_finder.py:14-22 | Once a target is found, visiting further trees leaves it alone. |
| RemoveAsserts.StripAllUnchanged | ast_tools/passes/remove_asserts.py:8-13 | Stripping changes nothing exactly when there is no `assert`. |
| RemoveAsserts.RemoveUnchanged | ast_tools/passes/remove_asserts.py:16-24 | The remover changes a tree exactly when the tree has an `assert`, so it is idempotent. |
| RemoveAsserts.RemoveExample | tests/test_assert_remover.py:4-22 | The asserts of a function body, inside an `if`, inside a `for` and at the top level, all become `pass`. |
| CollectTargets.Collect | ast_tools/visitors/collect_targets.py:12-26 | An expression is collected exactly when some assignment of the tree has it as a target and the filter, if any, accepts it. |
| CollectTargets.TargetIsNode | ast_tools/visitors/collect_targets.py:19-20 | A collected target is one of the tree's expression nodes. |
| CollectCalls.CallsCover | ast_tools/visitors/collect_calls.py:6-11 | Every call node of an expression lies inside one of the listed calls. |
| CollectCalls.CollectComplete | ast_tools/visitors/collect_calls.py:14-17 | The collector lists some call exactly when the tree has a call node. Every call node is a listed call or nested in one. |
| UsedNames.TopLevelNamesExample | tests/test_visitors.py:24-40 | Nested definitions and the class body are not entered, so only the top-level names are collected. |
| CollectNames.Collect | ast_tools/collect_names.py:30-36 | The names whose context is an instance of the filter class, or all names when there is no filter. |
| CollectNames.AgreesWithUsedNames | ast_tools/collect_names.py:8-27 | Without a filter, the collector finds exactly the names the used-name visitor finds. |
| CollectNames.FooNames | tests/test_collect_names.py:8-20 | All names, the loaded names and the stored names of `foo`. |
| ContextNames.Collect | ast_tools/visitors/collect_names.py:44-51 | The names whose context the filter accepts. |
| ContextNames.DefaultIsAllContexts | ast_tools/visitors/collect_names.py:19-36 | The default filter and an explicit list of all three contexts collect the same names, which are those the class-filtered collector finds. |
| Cse.CandidatesMembers | ast_tools/passes/cse.py:47-73 | A node is listed exactly when it occurs and is a unary, binary, boolean or comparison operation. |
| Cse.MostCommonChosen | ast_tools/passes/cse.py:174-186 | The chosen candidate has the highest count. Among equal counts it is the first one met. |
| Cse.ElimStmt | ast_tools/passes/cse.py:105-150 | It fails with `SyntaxError('Cannot handle node')` exactly when a control statement comes before the first save. |
| Cse.ElimSmallsSplit | ast_tools/passes/cse.py:105-118 | The first assignment holding the candidate gets the save in front of it. That assignment and everything after it read the saved name instead. |
| Cse.ElimStmtsSplit | ast_tools/passes/cse.py:92-150 | Over a body, elimination is the closed form: an error when control flow comes first, the body unchanged when no line holds the candidate, otherwise the body split at the first such line. |
| Cse.ElimShape | ast_tools/passes/cse.py:92-102 | On a function with an indented body, elimination is that closed form applied to the body. |
| Cse.LoopResult | ast_tools/passes/cse.py:174-197 | When the as-written loop ends well, no counted expression occurs twice in the tree. When it fails, the error is the `SyntaxError('Cannot handle node')` of elimination, a construct outside the model, or the fuel bound running out, which stands for the loop not terminating. |
| Cse.Diverges | ast_tools/passes/cse.py:181-194 | As written, the loop never ends on `def f(a, b): p(a + b); p(a + b)`: every fuel bound is exhausted. |
| Cse.SettleResult | ast_tools/passes/cse.py:181-194 | When the corrected loop ends well, either no candidate is left or the last round could not lower their number. |
| Cse.DivergentSettles | ast_tools/passes/cse.py:181-194 | The corrected loop returns the diverging example unchanged. |
| Cse.Pass | ast_tools/passes/cse.py:174-197 | On success the as-written loop leaves no candidate that occurs twice. The corrected loop leaves none, or stops at a round that cannot lower their number, and fails only on control flow or a construct outside the model. The environment and metadata pass through unchanged. |
| PassUtil.StripCut | ast_tools/passes/util.py:42-68 | In written order, stripping removes exactly one run of decorators, bounded by the sentinels found, and keeps the rest. |
| PassUtil.Apply | ast_tools/passes/util.py:194-208 | The passes are threaded. The tree to execute is stripped with `(self, None)`: the innermost `self` decorator goes, with every decorator outside it. The tree to serialise is stripped with `(self, self)`: that one decorator goes. |
| PassUtil.EndRewrite | ast_tools/passes/util.py:140-157 | Only a function or class definition is accepted; anything else is an error. The tree to execute keeps only the decorators inside the innermost `begin_rewrite`. The tree to serialise loses the run from that decorator out to the nearest `end_rewrite` beyond it, or out to the outermost decorator when none closes it, and keeps the rest in order. |
| PassUtil.ChainStripped | tests/test_passes.py:8-27 | With decorators `w, end, begin, w`, the executed function keeps only the inner `w`, and the serialised one keeps both. |
| Pattern.Split | ast_tools/pattern.py:11-24 | `str.split` on one character: one more piece than there are occurrences, and no piece holds the character. |
| Pattern.SplitJoin | ast_tools/pattern.py:11-24 | Joining the pieces of a split gives the string back. |
| Pattern.JoinSplit | ast_tools/pattern.py:11-24 | Splitting joined pieces that are free of the separator gives the pieces back. |
| Pattern.ParseNode | ast_tools/pattern.py:11-24 | It fails the assertion exactly when the text between the braces holds two or more colons. |
| Pattern.ParseRender | ast_tools/pattern.py:11-24 | Parsing the written form `{name}` or `{name:Type}` of a hole gives the hole back. |
| Pattern.Scan | ast_tools/pattern.py:39-53 | Every hole text the substitution finds matches `{[^}]*}`. |
| Pattern.ScanFlatten | ast_tools/pattern.py:39-53 | Scanning loses nothing: the pieces spell the pattern text. |
| Pattern.ParseHoles | ast_tools/pattern.py:44-53 | The hole map's keys are `__hole1` … `__holeN`, one per hole in order. The first hole text that fails to parse raises. |
| Pattern.ParseHolesAt | ast_tools/pattern.py:44-51 | Hole `k` maps to the node pattern of the `k`-th hole text. |
| Pattern.ParsePattern | ast_tools/pattern.py:39-53 | Parsing fails exactly when some hole text fails. Otherwise the keys are the hole names `__hole1` to `__holeN`. |
| Pattern.MatchBinds | ast_tools/pattern.py:55-91 | A successful match binds only hole names, each to a part of the actual node, and keeps every other binding. |
| Pattern.MatchSelf | ast_tools/pattern.py:80-91 | A template without holes matches itself and binds nothing. |
| Pattern.MatchListShorter | ast_tools/pattern.py:89-90 | Lists are matched over the shorter length, and extra items on either side are never looked at. |
| Pattern.KindsDiffer | ast_tools/pattern.py:80-81 | A template node of one class never matches a node of another class, unless it is a hole. |
| Pattern.MatchErased | ast_tools/pattern.py:82-88 | Positions and `ctx` play no part: removing them from the template changes neither the outcome nor the bindings. |
| Pattern.CopyMatches | tests/test_pattern.py:11-19 | `{lhs:Name} = {rhs:Name}` matches `x = y`, binding `lhs` to `x` and `rhs` to `y`. |
| Pattern.CopyRejectsConstant | tests/test_pattern.py:21-22 | The same pattern does not match `x = 1`. |

## Left out

- Parsing, printing and source retrieval: trees are values of the grammar above. `ast.parse`, libcst parsing, code generation, `exec`, `inspect.getsource` and file writing are outside the model. The pattern text handed to `ast.parse` is an input, and so is its parsed template.
- Source positions: `copy_location`, line numbers and the libcst whitespace and parentheses. Deep and immutable node equality is Dafny's structural equality.
- Iteration order of Python sets: written attributes are taken in first-occurrence order, and the multiplexer names of `single_assignment.py` in sorted order.
- Live objects: the decorator lookup in `passes/util.py`, the class test behind `_issubclass`, the `NodePattern` type resolution through `getattr(ast, …)` and the pass objects are parameters. A type name that `ast` does not define (Python's `AttributeError`) is not modelled.
- Pattern.Match: an actual node lacking one of the template's fields makes the match fail, where Python would raise `AttributeError`. Two parsed nodes of the same class always have the same fields.
- SsaReaching.DefReaching: reaching definitions are proved for straight-line bodies only. Across an `if`, which names reach after the join is stated by `SsaProperties.MuxesBind` and `SsaProperties.JoinReturning` instead.
- SsaRenaming.RenameDef: `for`, `while`, `with`, `try` and nested classes inside the renamed body are rejected as outside the model, while `ssa.py` walks them generically.
- ReturnFlattening.FlattenDef: `ssa.py` tags returns with `IncrementalConditionProvider`, which is not part of this model. The model uses the full condition stacks of `ConditionProvider` (`metadata/condition_provider.py`) in its place. So strict flattening here can reject functions that `ssa.py` accepts, such as the nested all-returning `if` of `test_nested` (`tests/test_ssa.py:74-93`). `ReturnFlattening.AlwaysReturningRejected` is therefore stated about `ssa_cst.py` only, which does use `ConditionProvider`.
- SsaPipeline.Rewrite: a function whose body sits on its `def` line (a libcst `SimpleStatementSuite`, such as `def f(x): return x`) is an `Unmodelled` error. `passes/ssa.py:588-590` splices the initial reads, the write-backs and the final `return` into that suite; that splice is not modelled.
- SsaPipeline.Rewrite: the per-line symbol tables that `tests/test_ssa.py` expects are never produced by `rewrite`, so they are not modelled. Neither are the runtime-equivalence tests, which need Python execution.
- NodeReplacer: `ssa.py` builds its attribute replacer without a table and applies an `ast` transformer to a libcst tree. The model follows `tests/test_ssa.py:388-414` instead: equal attributes are one key and are all replaced.
- NodeTracking.TrackWithChildren: tracking stops at the first self-link and returns the table it has built, the one holding `o -> o`. `_track_with_children` goes on from there. When it next calls `_track` from `o`, for a child of `o` that is not yet explained, that call repeats itself until Python raises `RecursionError` (`NodeTracking.SelfLinkRecurses`). What it records after a self-link that no such call follows is not modelled. The table passed in is assumed free of chains; only tracking writes it, and tracking ends at the first self-link.
- NodeTracking: `node_tracker.track` uses undefined names and is not modelled. The source-position copying of `Renamer` is left out with the other positions.
- SingleReturn.Rewrite: a bare `return` becomes an assignment of the name `None`. `passes/single_return.py:65-72` builds an `ast.Assign` whose value is Python's `None` itself, a node with no value; the model has no such node.
- WriteAttrsOnce.Pass: `passes/write_attrs_once.py:14` imports `_always_returns` from `passes/ssa.py`, which defines no such name, so the module cannot load as written. The model uses the classifier of `metadata/always_returns_provider.py` (`Reachability.BlockReturns`) in its place to decide whether the writes follow the body (`passes/write_attrs_once.py:87-90`).
- SingleReturn.Reduce: only the `use_bool_ops` path is modelled. The other path builds a malformed `BoolOp` (`passes/single_return.py:82-85`).
- SingleAssignment.Rewrite: a root that is not a function definition is an `Unmodelled` error. Python binds no parameters for such a root (the `isinstance` test of `passes/single_assignment.py:33`), checks it and then renames its children one by one; that walk over other roots is not modelled.
- SingleAssignmentScoping.CorrectedScoped: proved only for trees whose names do not end in a digit. Otherwise a version `a0` of `a` can coincide with a parameter `a0`.
- ReturnFlattening.CstSingleReturn: its own contract states only the shape and the error kinds. The content is stated by `ReturnFlattening.CstSingleReturnRestores`.
- Cse.Pass: the as-written loop runs on an explicit fuel bound, because it does not terminate on every input. The error that the bound runs out (`OutOfFuel`) stands for that divergence. Roots other than a function or class definition are an `Unmodelled` error. Argument defaults and annotations are not scanned, and the unused `_is_leaf_expr`, which refers to an undefined name, is not modelled.
- Syntax: `for` and `while` have no `else` block, and `try` has no `else` or `finally` block. Assignments, asserts and calls in those blocks cannot be written, so the target, assert and call walkers are never applied to them.
- IfToPhi.Pass: the warning emitted when a prefix is given with a string phi is not modelled.
- Stack-frame inspection in `stack.py`, the import hook, instrumentation, `debug.py`, the loop unroller and the `if` inliner are not part of this model. They inspect the running process or evaluate user code.

## Findings

| source | as written | input that shows it | evidently intended | confidence | as-written member | corrected member |
|---|---|---|---|---|---|---|
| ast_tools/passes/ssa.py:359-367 | Version prefixes are kept free only of `used_names` of the root, which is just the function's name. | `def f(a, a_0): a = 1; return a_0` renames the store to `a_0` and returns 1. | Versions fresh against every name of the function. | not executed | SsaExamples.VersionClash | SsaPipeline.CorrectedErases |
| ast_tools/passes/ssa.py:557-566 | Alias names are keys of a dictionary, so two attributes that format to one alias keep only the second. | Writes to `a_b.c` and `a.b_c` share the alias `_attr_a_b_c`. | One distinct alias per written attribute. | not executed | AttrHoisting.AliasClash | AttrHoisting.AliasClashCorrected |
| ast_tools/passes/single_assignment.py:114-124 | Assignment targets are visited before the value, so a store is minted before the value's loads are renamed. | `def f(a): a = a + 1` becomes `a0 = a0 + 1`. | `a0 = a + 1`. | not executed | SingleAssignmentExamples.SelfAssignAsWritten | SingleAssignmentExamples.SelfAssignCorrected |
| ast_tools/passes/single_assignment.py:160-177 | Both branch scans of `_prove_names_defined` read `stmt.body`. The `orelse` is never checked. | `def f(c): if c: x = 1` then `return x` is accepted and returns an unassigned name. | Names defined on both the body and the `orelse`. | not executed | SingleAssignmentExamples.OneArmAsWritten | SingleAssignmentExamples.OneArmCorrected |
| ast_tools/passes/if_to_phi.py:54-68 | The phi name is made free of `used_names` of the root, which is just the function's name: on a function root it does not enter the definition, so the parameters are missed. | `def f(__phi): return 0 if __phi else 1` gets the phi name `__phi`, the parameter. | A phi name free of every name of the function. | not executed | IfToPhi.ShadowedParameter | IfToPhi.ShadowedCorrected |
| ast_tools/passes/write_attrs_once.py:45-58 | Each alias is made free of the tree alone, not of the aliases already chosen. | Writes to `a_b.c` and `a.b_c` both get the alias `a_b_c`. | Distinct aliases. | not executed | WriteAttrsOnce.CollidingAliases | WriteAttrsOnce.CollidingCorrected |
| ast_tools/passes/write_attrs_once.py:45-58 | The alias is made free of `used_names` of the root, which is just the function's name: on a function root it does not enter the definition, so the parameters are missed. | In `def f(t, t_x): t.x = t_x` the alias of `t.x` is the parameter `t_x`. | An alias free of every name of the function. | not executed | WriteAttrsOnce.ShadowedParameter | WriteAttrsOnce.ShadowedCorrected |
| ast_tools/transformers/node_tracker.py:30-58 | `_track` follows an original node's origins before linking, and `_track_with_children` links every updated node that is not yet explained, even the original node itself. | `on_leave(o, o)` for a node `o` with a child, as when a `visit_` method returns False: `o -> o` is recorded, then `_track(o, child)` calls itself until `RecursionError`. | A node left as it is records no link to itself. | not executed | NodeTracking.PrunedVisit | NodeTracking.PrunedVisitCorrected |
| ast_tools/passes/cse.py:181-194 | The loop continues while some candidate occurs twice, but elimination only rewrites assignments. | `def f(a, b): p(a + b); p(a + b)` loops forever. | Keep a round only when it lowers the number of counted nodes, and otherwise stop with the tree as it was before that round. | not executed | Cse.Diverges | Cse.DivergentSettles |

=== FILE: attr_hoisting.dfy ===
/**
 * The attribute hoisting at the head of `ssa.rewrite` in `passes/ssa.py`:
 * the attributes written anywhere in the function, one local alias per
 * distinct written attribute, the reads that initialise the aliases at
 * entry, and the replacement of every occurrence of a hoisted attribute
 * by its alias (a load where the attribute was read, a store where it was
 * written).
 *
 * The Python code keeps the aliases in a dictionary keyed by alias name.
 * Two distinct attributes can format to the same alias (`a_b.c` and
 * `a.b_c` both give `<prefix>_a_b_c`), and the later one then overwrites
 * the earlier: `Policy.AsWritten` models that, `Policy.Corrected` draws a
 * fresh alias instead, so that distinct attributes never share one.
 */
module AttrHoisting {
  import opened Results
  import opened Syntax
  import opened Strings
  import FreeNames
  import UsedNames
  import ReturnFlattening
  import opened Traversal
  import opened Seqs

  type Alias = ReturnFlattening.Alias

  // ---------------------------------------------------------------------
  // The written attributes (`WrittenAttrs`), in traversal order
  // ---------------------------------------------------------------------

  /** The attributes a target expression stores to; a tuple target stores to its elements. */
  function TargetAttrs(e: Expr): (r: seq<Expr>)
    ensures forall w | w in r :: w.Attr?
  {
    match e
    case Attr(_, _) => [e]
    case Tuple(elts) => TargetsAttrs(elts)
    case _ => []
  }

  function TargetsAttrs(es: seq<Expr>): (r: seq<Expr>)
    ensures forall w | w in r :: w.Attr?
  {
    if es == [] then [] else TargetAttrs(es[0]) + TargetsAttrs(es[1..])
  }

  function SmallsWritten(ss: seq<Small>): (r: seq<Expr>)
    ensures forall w | w in r :: w.Attr?
  {
    if ss == [] then []
    else (if ss[0].Assign? then TargetsAttrs(ss[0].targets) else []) + SmallsWritten(ss[1..])
  }

  /** The whole tree is scanned, nested definitions included. */
  function StmtWritten(s: Stmt): (r: seq<Expr>)
    ensures forall w | w in r :: w.Attr?
  {
    match s
    case Line(smalls) => SmallsWritten(smalls)
    case If(_, body, orelse) => BlockWritten(body) + OrElseWritten(orelse)
    case For(target, _, body, _) => TargetAttrs(target) + BlockWritten(body)
    case While(_, body) => BlockWritten(body)
    case With(_, body, _) => BlockWritten(body)
    case Try(body, handlers) => BlockWritten(body) + BlocksWritten(handlers)
    case Def(_, _, _, body, _) => BlockWritten(body)
    case Class(_, _, body) => BlockWritten(body)
  }

  function StmtsWritten(ss: seq<Stmt>): (r: seq<Expr>)
    ensures forall w | w in r :: w.Attr?
  {
    if ss == [] then [] else StmtWritten(ss[0]) + StmtsWritten(ss[1..])
  }

  function BlockWritten(b: Block): (r: seq<Expr>)
    ensures forall w | w in r :: w.Attr?
  {
    match b
    case Indented(stmts) => StmtsWritten(stmts)
    case Inline(smalls) => SmallsWritten(smalls)
  }

  function BlocksWritten(bs: seq<Block>): (r: seq<Expr>)
    ensures forall w | w in r :: w.Attr?
  {
    if bs == [] then [] else BlockWritten(bs[0]) + BlocksWritten(bs[1..])
  }

  function OrElseWritten(o: OrElse): (r: seq<Expr>)
    ensures forall w | w in r :: w.Attr?
  {
    match o
    case NoElse => []
    case Else(b) => BlockWritten(b)
    case Elif(s) => StmtWritten(s)
  }

  // ---------------------------------------------------------------------
  // One alias per distinct written attribute
  // ---------------------------------------------------------------------

  const NonNameWrite: string := "writing non name nodes is not supported"

  /** `attr_format.format(owner, field)`, with `attr_format = prefix + '_{}_{}'`. */
  function AliasName(prefix: string, owner: string, field: string): string
  {
    prefix + "_" + owner + "_" + field
  }

  datatype Policy = AsWritten | Corrected

  /**
   * The loop state: the distinct attributes met so far in order, the
   * alias chosen for each, and the `names_to_attr` dictionary as its
   * items in insertion order.
   */
  datatype Hoisted = Hoisted(attrs: seq<Expr>, table: map<Expr, string>, aliases: seq<Alias>)

  const NoneHoisted: Hoisted := Hoisted([], map[], [])

  predicate DistinctExprs(s: seq<Expr>)
  {
    forall i, j | 0 <= i < j < |s| :: s[i] != s[j]
  }

  predicate DistinctNames(d: seq<Alias>)
  {
    forall i, j | 0 <= i < j < |d| :: d[i].name != d[j].name
  }

  function AliasNames(d: seq<Alias>): set<string>
  {
    set a | a in d :: a.name
  }

  /** Every attribute met has a bare-name owner and one table entry, and none repeats. */
  predicate Wf(h: Hoisted)
  {
    && (forall k | k in h.table :: k.Attr? && k.owner.Name?)
    && (forall w | w in h.attrs :: w in h.table)
    && (forall k | k in h.table :: k in h.attrs)
    && DistinctExprs(h.attrs)
  }

  /**
   * `r` is `d` after `names_to_attr[a.name] = a`: the names are those of
   * `d` and `a`, `a` is present, every other item was already there,
   * distinct names stay distinct, and a new name goes to the end.
   */
  predicate DictUpdated(d: seq<Alias>, a: Alias, r: seq<Alias>)
  {
    && AliasNames(r) == AliasNames(d) + {a.name}
    && a in r
    && (forall b | b in r :: b == a || b in d)
    && (DistinctNames(d) ==> DistinctNames(r))
    && (a.name !in AliasNames(d) ==> r == d + [a])
  }

  /** `names_to_attr[a.name] = attr` on an insertion-ordered dictionary. */
  function DictSet(d: seq<Alias>, a: Alias): (r: seq<Alias>)
    ensures DictUpdated(d, a, r)
  {
    if d == [] then [a]
    else if d[0].name == a.name then
      DictSetHit(d, a);
      [a] + d[1..]
    else
      var t := DictSet(d[1..], a);
      DictSetMiss(d, a, t);
      [d[0]] + t
  }

  /** An existing name keeps its position and takes the new item. */
  lemma DictSetHit(d: seq<Alias>, a: Alias)
    requires d != [] && d[0].name == a.name
    ensures DictUpdated(d, a, [a] + d[1..])
  {
    assert d == [d[0]] + d[1..];
    assert AliasNames([a] + d[1..]) == AliasNames(d);
  }

  /** A different first name stays in front of the updated rest. */
  lemma DictSetMiss(d: seq<Alias>, a: Alias, t: seq<Alias>)
    requires d != [] && d[0].name != a.name && DictUpdated(d[1..], a, t)
    ensures DictUpdated(d, a, [d[0]] + t)
  {
    ConsIn(d);
    ConsNames(d);
    ConsNames([d[0]] + t);
    assert ([d[0]] + t)[1..] == t;
    if DistinctNames(d) {
      HeadNameFresh(d);
      MissDistinct(d[0], t);
    }
  }

  /** The names of a non-empty dictionary: its first name and the rest. */
  lemma ConsNames(d: seq<Alias>)
    requires d != []
    ensures AliasNames(d) == {d[0].name} + AliasNames(d[1..])
  {
    assert d == [d[0]] + d[1..];
  }

  /** With distinct names, the first name is not among the rest's, which stay distinct. */
  lemma HeadNameFresh(d: seq<Alias>)
    requires d != [] && DistinctNames(d)
    ensures d[0].name !in AliasNames(d[1..]) && DistinctNames(d[1..])
  {
    forall b | b in d[1..]
      ensures b.name != d[0].name
    {
      var j :| 0 <= j < |d[1..]| && d[1..][j] == b;
      assert d[j + 1] == b;
    }
    forall i, j | 0 <= i < j < |d[1..]|
      ensures d[1..][i].name != d[1..][j].name
    {
      assert d[1..][i] == d[i + 1] && d[1..][j] == d[j + 1];
    }
  }

  /** Distinct names stay distinct when a name not among them goes in front. */
  lemma MissDistinct(x: Alias, t: seq<Alias>)
    requires DistinctNames(t) && x.name !in AliasNames(t)
    ensures DistinctNames([x] + t)
  {
    var r := [x] + t;
    forall i, j | 0 <= i < j < |r|
      ensures r[i].name != r[j].name
    {
      assert r[j] == t[j - 1];
      if i == 0 {
        assert r[j] in t;
      } else {
        assert r[i] == t[i - 1];
      }
    }
  }

  /** The alias of a newly met attribute: the formatted name, made fresh under the correction. */
  function AliasFor(w: Expr, prefix: string, policy: Policy, h: Hoisted): string
    requires w.Attr? && w.owner.Name?
  {
    var candidate := AliasName(prefix, w.owner.id, w.field);
    if policy.AsWritten? then candidate else FreeNames.FreeNameIn(AliasNames(h.aliases), Some(candidate))
  }

  /** Record a newly met attribute under its alias. */
  function Meet(w: Expr, prefix: string, policy: Policy, h: Hoisted): Hoisted
    requires w.Attr? && w.owner.Name?
  {
    var name := AliasFor(w, prefix, policy, h);
    Hoisted(h.attrs + [w], h.table[w := name], DictSet(h.aliases, ReturnFlattening.Alias(name, w.owner.id, w.field)))
  }

  /**
   * The loop of `ssa.rewrite` over the written attributes: an attribute
   * equal to one already met is skipped, one whose owner is not a bare
   * name raises, any other gets the alias `<prefix>_<owner>_<field>`.
   */
  function HoistAttrs(ws: seq<Expr>, prefix: string, policy: Policy, h: Hoisted): (r: Result<Hoisted>)
    requires forall w | w in ws :: w.Attr?
  {
    if ws == [] then Ok(h)
    else
      var w := ws[0];
      if w in h.table then HoistAttrs(ws[1..], prefix, policy, h)
      else if !w.owner.Name? then Err(NotImplementedError(NonNameWrite))
      else HoistAttrs(ws[1..], prefix, policy, Meet(w, prefix, policy, h))
  }

  /** The initial reads `alias = owner.field`, one per distinct written attribute, in order. */
  function InitReads(h: Hoisted): (r: seq<Stmt>)
    requires forall w | w in h.attrs :: w in h.table
    ensures |r| == |h.attrs|
    ensures forall i | 0 <= i < |r| :: r[i] == AssignLine(StoreName(h.table[h.attrs[i]]), h.attrs[i])
  {
    seq(|h.attrs|, i requires 0 <= i < |h.attrs| => AssignLine(StoreName(h.table[h.attrs[i]]), h.attrs[i]))
  }

  /**
   * The loop raises exactly when some written attribute has an owner that
   * is not a bare name; otherwise the attributes met are exactly the
   * distinct written ones, each with a table entry.
   */
  lemma {:induction false} HoistOutcome(ws: seq<Expr>, prefix: string, policy: Policy, h: Hoisted)
    requires forall w | w in ws :: w.Attr?
    requires Wf(h)
    ensures HoistAttrs(ws, prefix, policy, h).Err? <==> exists w | w in ws :: !w.owner.Name?
    ensures var r := HoistAttrs(ws, prefix, policy, h);
      r.Err? ==> r.error == NotImplementedError(NonNameWrite)
    ensures var r := HoistAttrs(ws, prefix, policy, h);
      r.Ok? ==> Wf(r.value) && h.attrs <= r.value.attrs
    ensures var r := HoistAttrs(ws, prefix, policy, h);
      r.Ok? ==> forall w :: w in r.value.attrs <==> w in h.attrs || w in ws
    decreases |ws|, 1
  {
    if ws != [] {
      if ws[0] in h.table {
        HoistOutcomeSkip(ws, prefix, policy, h);
      } else if ws[0].owner.Name? {
        HoistOutcomeMeet(ws, prefix, policy, h);
      }
    }
  }

  /** An attribute already met is skipped. */
  lemma {:induction false} HoistOutcomeSkip(ws: seq<Expr>, prefix: string, policy: Policy, h: Hoisted)
    requires forall w | w in ws :: w.Attr?
    requires Wf(h) && ws != [] && ws[0] in h.table
    ensures HoistAttrs(ws, prefix, policy, h).Err? <==> exists w | w in ws :: !w.owner.Name?
    ensures var r := HoistAttrs(ws, prefix, policy, h);
      r.Err? ==> r.error == NotImplementedError(NonNameWrite)
    ensures var r := HoistAttrs(ws, prefix, policy, h);
      r.Ok? ==> Wf(r.value) && h.attrs <= r.value.attrs
    ensures var r := HoistAttrs(ws, prefix, policy, h);
      r.Ok? ==> forall w :: w in r.value.attrs <==> w in h.attrs || w in ws
    decreases |ws|, 0
  {
    assert HoistAttrs(ws, prefix, policy, h) == HoistAttrs(ws[1..], prefix, policy, h);
    ConsIn(ws);
    HoistOutcome(ws[1..], prefix, policy, h);
  }

  /** A new attribute with a bare-name owner is met, keeping the state well formed. */
  lemma {:induction false} HoistOutcomeMeet(ws: seq<Expr>, prefix: string, policy: Policy, h: Hoisted)
    requires forall w | w in ws :: w.Attr?
    requires Wf(h) && ws != [] && ws[0] !in h.table && ws[0].owner.Name?
    ensures HoistAttrs(ws, prefix, policy, h).Err? <==> exists w | w in ws :: !w.owner.Name?
    ensures var r := HoistAttrs(ws, prefix, policy, h);
      r.Err? ==> r.error == NotImplementedError(NonNameWrite)
    ensures var r := HoistAttrs(ws, prefix, policy, h);
      r.Ok? ==> Wf(r.value) && h.attrs <= r.value.attrs
    ensures var r := HoistAttrs(ws, prefix, policy, h);
      r.Ok? ==> forall w :: w in r.value.attrs <==> w in h.attrs || w in ws
    decreases |ws|, 0
  {
    var w := ws[0];
    var h' := Meet(w, prefix, policy, h);
    HoistMeetStep(ws, prefix, policy, h);
    ConsIn(ws);
    assert w !in h.attrs;
    assert Wf(h');
    HoistOutcome(ws[1..], prefix, policy, h');
  }


  /** The dictionary holds one alias per attribute met, in order, when the aliases are fresh. */
  predicate Aligned(h: Hoisted)
    requires forall w | w in h.attrs :: w in h.table
  {
    && |h.aliases| == |h.attrs|
    && forall i | 0 <= i < |h.attrs| ::
         h.attrs[i].Attr? && h.attrs[i].owner.Name?
         && h.aliases[i] == ReturnFlattening.Alias(h.table[h.attrs[i]], h.attrs[i].owner.id, h.attrs[i].field)
  }

  /**
   * With fresh aliases every distinct written attribute keeps its own
   * entry of the dictionary, so each is written back, and no two share
   * an alias.
   */
  lemma {:induction false} CorrectedAliasesDistinct(ws: seq<Expr>, prefix: string, h: Hoisted)
    requires forall w | w in ws :: w.Attr?
    requires Wf(h) && Aligned(h) && DistinctNames(h.aliases)
    ensures var r := HoistAttrs(ws, prefix, Corrected, h);
      r.Ok? ==> Wf(r.value) && Aligned(r.value) && DistinctNames(r.value.aliases)
  {
    if ws != [] {
      var w := ws[0];
      if w in h.table {
        CorrectedAliasesDistinct(ws[1..], prefix, h);
      } else if w.owner.Name? {
        HoistMeetStep(ws, prefix, Corrected, h);
        MeetAligned(w, prefix, h);
        CorrectedAliasesDistinct(ws[1..], prefix, Meet(w, prefix, Corrected, h));
      }
    }
  }

  /** Meeting a new attribute under the correction appends its fresh alias, keeping the state aligned. */
  lemma MeetAligned(w: Expr, prefix: string, h: Hoisted)
    requires w.Attr? && w.owner.Name? && w !in h.table
    requires Wf(h) && Aligned(h) && DistinctNames(h.aliases)
    ensures var h' := Meet(w, prefix, Corrected, h);
      Wf(h') && Aligned(h') && DistinctNames(h'.aliases)
  {
    var name := AliasFor(w, prefix, Corrected, h);
    var a := ReturnFlattening.Alias(name, w.owner.id, w.field);
    var h' := Meet(w, prefix, Corrected, h);
    assert h'.aliases == h.aliases + [a];
    assert w !in h.attrs;
    assert Wf(h');
    forall i | 0 <= i < |h.attrs|
      ensures h'.table[h'.attrs[i]] == h.table[h.attrs[i]]
    {
      assert h.attrs[i] != w;
    }
  }

  /** Distinct attributes get distinct aliases under the correction. */
  lemma CorrectedTableInjective(ws: seq<Expr>, prefix: string)
    requires forall w | w in ws :: w.Attr?
    ensures var r := HoistAttrs(ws, prefix, Corrected, NoneHoisted);
      r.Ok? ==> forall k1, k2 | k1 in r.value.table && k2 in r.value.table && k1 != k2 ::
        r.value.table[k1] != r.value.table[k2]
  {
    CorrectedAliasesDistinct(ws, prefix, NoneHoisted);
    var r := HoistAttrs(ws, prefix, Corrected, NoneHoisted);
    if r.Ok? {
      AlignedInjective(r.value);
    }
  }

  /** Aligned distinct aliases make the table injective. */
  lemma AlignedInjective(h: Hoisted)
    requires Wf(h) && Aligned(h) && DistinctNames(h.aliases)
    ensures forall k1, k2 | k1 in h.table && k2 in h.table && k1 != k2 :: h.table[k1] != h.table[k2]
  {
    forall k1, k2 | k1 in h.table && k2 in h.table && k1 != k2
      ensures h.table[k1] != h.table[k2]
    {
      var i :| 0 <= i < |h.attrs| && h.attrs[i] == k1;
      var j :| 0 <= j < |h.attrs| && h.attrs[j] == k2;
      assert h.aliases[i].name == h.table[k1];
      assert h.aliases[j].name == h.table[k2];
      assert i != j;
    }
  }


  /**
   * As written the dictionary loses an attribute: when two distinct
   * attributes format to the same alias, both are replaced by that one
   * alias and the dictionary keeps only the second, so the first is never
   * written back.
   */
  lemma AliasClash(x: Expr, y: Expr, prefix: string)
    requires x.Attr? && x.owner.Name? && y.Attr? && y.owner.Name? && x != y
    requires AliasName(prefix, x.owner.id, x.field) == AliasName(prefix, y.owner.id, y.field)
    ensures var r := HoistAttrs([x, y], prefix, AsWritten, NoneHoisted);
      && r.Ok? && r.value.attrs == [x, y]
      && x in r.value.table && y in r.value.table && r.value.table[x] == r.value.table[y]
      && r.value.aliases == [ReturnFlattening.Alias(AliasName(prefix, y.owner.id, y.field), y.owner.id, y.field)]
  {
    var name := AliasName(prefix, x.owner.id, x.field);
    var h1 := Hoisted([x], map[x := name], [ReturnFlattening.Alias(name, x.owner.id, x.field)]);
    assert HoistAttrs([x, y], prefix, AsWritten, NoneHoisted) == HoistAttrs([y], prefix, AsWritten, h1) by {
      assert [x, y][0] == x && [x, y][1..] == [y];
      assert x !in NoneHoisted.table;
      assert DictSet([], ReturnFlattening.Alias(name, x.owner.id, x.field)) == [ReturnFlattening.Alias(name, x.owner.id, x.field)];
      assert NoneHoisted.attrs + [x] == [x];
      assert NoneHoisted.table[x := name] == map[x := name];
    }
    var h2 := Hoisted([x, y], map[x := name, y := name], [ReturnFlattening.Alias(name, y.owner.id, y.field)]);
    assert HoistAttrs([y], prefix, AsWritten, h1) == HoistAttrs([], prefix, AsWritten, h2) by {
      assert [y][0] == y && [y][1..] == [];
      assert y !in h1.table;
      assert DictSet(h1.aliases, ReturnFlattening.Alias(name, y.owner.id, y.field)) == [ReturnFlattening.Alias(name, y.owner.id, y.field)];
      assert h1.attrs + [y] == [x, y];
    }
  }

  /** `a_b.c` and `a.b_c` both format to `_attr_a_b_c`. */
  lemma AliasClashExample()
    ensures var ab_c := Attr(LoadName("a_b"), "c");
      var a_bc := Attr(LoadName("a"), "b_c");
      var r := HoistAttrs([ab_c, a_bc], "_attr", AsWritten, NoneHoisted);
      r.Ok? && r.value.attrs == [ab_c, a_bc] && |r.value.aliases| == 1
  {
    var ab_c := Attr(LoadName("a_b"), "c");
    var a_bc := Attr(LoadName("a"), "b_c");
    assert AliasName("_attr", "a_b", "c") == AliasName("_attr", "a", "b_c");
    AliasClash(ab_c, a_bc, "_attr");
  }

  /** A newly met attribute with a bare-name owner is recorded before the rest are visited. */
  lemma HoistMeetStep(ws: seq<Expr>, prefix: string, policy: Policy, h: Hoisted)
    requires ws != [] && (forall w | w in ws :: w.Attr?) && ws[0] !in h.table && ws[0].owner.Name?
    ensures HoistAttrs(ws, prefix, policy, h) == HoistAttrs(ws[1..], prefix, policy, Meet(ws[0], prefix, policy, h))
  {
  }

  /** Under the correction any two distinct written attributes keep two entries with two aliases. */
  lemma AliasClashCorrected(x: Expr, y: Expr, prefix: string)
    requires x.Attr? && x.owner.Name? && y.Attr? && y.owner.Name? && x != y
    ensures var r := HoistAttrs([x, y], prefix, Corrected, NoneHoisted);
      && r.Ok? && r.value.attrs == [x, y] && |r.value.aliases| == 2
      && r.value.aliases[0].owner == x.owner.id && r.value.aliases[1].owner == y.owner.id
      && r.value.aliases[0].name != r.value.aliases[1].name
  {
    var n1 := FreeNames.FreeNameIn({}, Some(AliasName(prefix, x.owner.id, x.field)));
    var a1 := ReturnFlattening.Alias(n1, x.owner.id, x.field);
    var h1 := Meet(x, prefix, Corrected, NoneHoisted);
    HoistMeetStep([x, y], prefix, Corrected, NoneHoisted);
    assert [x, y][1..] == [y];
    assert AliasNames([]) == {};
    assert h1.attrs == [x] && h1.aliases == [a1] && y !in h1.table;
    assert AliasNames([a1]) == {n1};
    var n2 := FreeNames.FreeNameIn({n1}, Some(AliasName(prefix, y.owner.id, y.field)));
    var a2 := ReturnFlattening.Alias(n2, y.owner.id, y.field);
    var h2 := Meet(y, prefix, Corrected, h1);
    HoistMeetStep([y], prefix, Corrected, h1);
    assert [y][1..] == [];
    assert h2.attrs == [x, y] && h2.aliases == [a1, a2];
  }

  // ---------------------------------------------------------------------
  // Replacing every occurrence of a hoisted attribute (`AttrReplacer`)
  // ---------------------------------------------------------------------

  /**
   * An attribute in the table becomes its alias, in the context of the
   * position it occupies; other nodes are rebuilt from their rewritten
   * children. A replaced attribute is not entered.
   */
  function ReplaceExpr(e: Expr, tbl: map<Expr, string>, ctx: Ctx): Expr
  {
    if e.Attr? && e in tbl then Name(tbl[e], ctx)
    else
      match e
      case Name(_, _) => e
      case Attr(owner, f) => Attr(ReplaceExpr(owner, tbl, Load), f)
      case Unary(op, x) => Unary(op, ReplaceExpr(x, tbl, Load))
      case BoolOp(op, vs) => BoolOp(op, ReplaceExprs(vs, tbl, Load))
      case BinOp(l, op, r) => BinOp(ReplaceExpr(l, tbl, Load), op, ReplaceExpr(r, tbl, Load))
      case Compare(l, op, r) => Compare(ReplaceExpr(l, tbl, Load), op, ReplaceExpr(r, tbl, Load))
      case IfExp(t, b, o) => IfExp(ReplaceExpr(t, tbl, Load), ReplaceExpr(b, tbl, Load), ReplaceExpr(o, tbl, Load))
      case Call(f, args, kws) => Call(ReplaceExpr(f, tbl, Load), ReplaceExprs(args, tbl, Load), ReplaceKeywords(kws, tbl))
      case Tuple(elts) => Tuple(ReplaceExprs(elts, tbl, ctx))
      case Lit(_) => e
  }

  function ReplaceExprs(es: seq<Expr>, tbl: map<Expr, string>, ctx: Ctx): (r: seq<Expr>)
    ensures |r| == |es|
  {
    if es == [] then [] else [ReplaceExpr(es[0], tbl, ctx)] + ReplaceExprs(es[1..], tbl, ctx)
  }

  function ReplaceKeywords(ks: seq<Keyword>, tbl: map<Expr, string>): (r: seq<Keyword>)
    ensures |r| == |ks|
  {
    if ks == [] then []
    else [Keyword(ks[0].arg, ReplaceExpr(ks[0].value, tbl, Load))] + ReplaceKeywords(ks[1..], tbl)
  }

  function ReplaceSmall(s: Small, tbl: map<Expr, string>): Small
  {
    match s
    case Assign(targets, value) => Assign(ReplaceExprs(targets, tbl, Store), ReplaceExpr(value, tbl, Load))
    case Return(r) => Return(if r.Some? then Some(ReplaceExpr(r.value, tbl, Load)) else None)
    case ExprStmt(e) => ExprStmt(ReplaceExpr(e, tbl, Load))
    case Pass => Pass
    case Assert(c) => Assert(ReplaceExpr(c, tbl, Load))
  }

  function ReplaceSmalls(ss: seq<Small>, tbl: map<Expr, string>): (r: seq<Small>)
    ensures |r| == |ss|
  {
    if ss == [] then [] else [ReplaceSmall(ss[0], tbl)] + ReplaceSmalls(ss[1..], tbl)
  }

  function ReplaceStmt(s: Stmt, tbl: map<Expr, string>): Stmt
  {
    match s
    case Line(smalls) => Line(ReplaceSmalls(smalls, tbl))
    case If(test, body, orelse) => If(ReplaceExpr(test, tbl, Load), ReplaceBlock(body, tbl), ReplaceOrElse(orelse, tbl))
    case For(target, iter, body, isAsync) =>
      For(ReplaceExpr(target, tbl, Store), ReplaceExpr(iter, tbl, Load), ReplaceBlock(body, tbl), isAsync)
    case While(test, body) => While(ReplaceExpr(test, tbl, Load), ReplaceBlock(body, tbl))
    case With(items, body, isAsync) => With(ReplaceExprs(items, tbl, Load), ReplaceBlock(body, tbl), isAsync)
    case Try(body, handlers) => Try(ReplaceBlock(body, tbl), ReplaceBlocks(handlers, tbl))
    case Def(name, params, decorators, body, isAsync) =>
      Def(name, params, ReplaceExprs(decorators, tbl, Load), ReplaceBlock(body, tbl), isAsync)
    case Class(name, decorators, body) => Class(name, ReplaceExprs(decorators, tbl, Load), ReplaceBlock(body, tbl))
  }

  function ReplaceStmts(ss: seq<Stmt>, tbl: map<Expr, string>): (r: seq<Stmt>)
    ensures |r| == |ss|
  {
    if ss == [] then [] else [ReplaceStmt(ss[0], tbl)] + ReplaceStmts(ss[1..], tbl)
  }

  function ReplaceBlock(b: Block, tbl: map<Expr, string>): Block
  {
    match b
    case Indented(stmts) => Indented(ReplaceStmts(stmts, tbl))
    case Inline(smalls) => Inline(ReplaceSmalls(smalls, tbl))
  }

  function ReplaceBlocks(bs: seq<Block>, tbl: map<Expr, string>): (r: seq<Block>)
    ensures |r| == |bs|
  {
    if bs == [] then [] else [ReplaceBlock(bs[0], tbl)] + ReplaceBlocks(bs[1..], tbl)
  }

  function ReplaceOrElse(o: OrElse, tbl: map<Expr, string>): OrElse
  {
    match o
    case NoElse => NoElse
    case Else(b) => Else(ReplaceBlock(b, tbl))
    case Elif(s) => Elif(ReplaceStmt(s, tbl))
  }

  // ---------------------------------------------------------------------
  // No hoisted attribute is written after the replacement
  // ---------------------------------------------------------------------

  lemma {:induction false} TargetReplaced(e: Expr, tbl: map<Expr, string>)
    requires forall w | w in TargetAttrs(e) :: w in tbl
    ensures TargetAttrs(ReplaceExpr(e, tbl, Store)) == []
    decreases e, 1
  {
    if e.Tuple? {
      TargetsReplaced(e.elts, tbl);
    }
  }

  lemma {:induction false} TargetsReplaced(es: seq<Expr>, tbl: map<Expr, string>)
    requires forall w | w in TargetsAttrs(es) :: w in tbl
    ensures TargetsAttrs(ReplaceExprs(es, tbl, Store)) == []
    decreases es, 0
  {
    if es != [] {
      TargetReplaced(es[0], tbl);
      TargetsReplaced(es[1..], tbl);
    }
  }

  lemma {:induction false} SmallsReplaced(ss: seq<Small>, tbl: map<Expr, string>)
    requires forall w | w in SmallsWritten(ss) :: w in tbl
    ensures SmallsWritten(ReplaceSmalls(ss, tbl)) == []
  {
    if ss != [] {
      if ss[0].Assign? {
        TargetsReplaced(ss[0].targets, tbl);
      }
      SmallsReplaced(ss[1..], tbl);
    }
  }

  lemma {:induction false} StmtReplaced(s: Stmt, tbl: map<Expr, string>)
    requires forall w | w in StmtWritten(s) :: w in tbl
    ensures StmtWritten(ReplaceStmt(s, tbl)) == []
  {
    match s
    case Line(smalls) => SmallsReplaced(smalls, tbl);
    case If(_, body, orelse) =>
      BlockReplaced(body, tbl);
      OrElseReplaced(orelse, tbl);
    case For(target, _, body, _) =>
      TargetReplaced(target, tbl);
      BlockReplaced(body, tbl);
    case While(_, body) => BlockReplaced(body, tbl);
    case With(_, body, _) => BlockReplaced(body, tbl);
    case Try(body, handlers) =>
      BlockReplaced(body, tbl);
      BlocksReplaced(handlers, tbl);
    case Def(_, _, _, body, _) => BlockReplaced(body, tbl);
    case Class(_, _, body) => BlockReplaced(body, tbl);
  }

  lemma {:induction false} StmtsReplaced(ss: seq<Stmt>, tbl: map<Expr, string>)
    requires forall w | w in StmtsWritten(ss) :: w in tbl
    ensures StmtsWritten(ReplaceStmts(ss, tbl)) == []
  {
    if ss != [] {
      StmtReplaced(ss[0], tbl);
      StmtsReplaced(ss[1..], tbl);
    }
  }

  lemma {:induction false} BlockReplaced(b: Block, tbl: map<Expr, string>)
    requires forall w | w in BlockWritten(b) :: w in tbl
    ensures BlockWritten(ReplaceBlock(b, tbl)) == []
  {
    match b
    case Indented(stmts) => StmtsReplaced(stmts, tbl);
    case Inline(smalls) => SmallsReplaced(smalls, tbl);
  }

  lemma {:induction false} BlocksReplaced(bs: seq<Block>, tbl: map<Expr, string>)
    requires forall w | w in BlocksWritten(bs) :: w in tbl
    ensures BlocksWritten(ReplaceBlocks(bs, tbl)) == []
  {
    if bs != [] {
      BlockReplaced(bs[0], tbl);
      BlocksReplaced(bs[1..], tbl);
    }
  }

  lemma {:induction false} OrElseReplaced(o: OrElse, tbl: map<Expr, string>)
    requires forall w | w in OrElseWritten(o) :: w in tbl
    ensures OrElseWritten(ReplaceOrElse(o, tbl)) == []
  {
    match o
    case NoElse =>
    case Else(b) => BlockReplaced(b, tbl);
    case Elif(s) => StmtReplaced(s, tbl);
  }

  // ---------------------------------------------------------------------
  // Every name of a tree, nested definitions included
  // ---------------------------------------------------------------------

  function DeepSmalls(ss: seq<Small>): set<string>
  {
    UsedNames.SmallsNames(ss)
  }

  /** Unlike `used_names`, definitions are entered and contribute their parameters. */
  function DeepStmt(s: Stmt): set<string>
  {
    match s
    case Line(smalls) => DeepSmalls(smalls)
    case If(test, body, orelse) => UsedNames.ExprNames(test) + DeepBlock(body) + DeepOrElse(orelse)
    case For(target, iter, body, _) => UsedNames.ExprNames(target) + UsedNames.ExprNames(iter) + DeepBlock(body)
    case While(test, body) => UsedNames.ExprNames(test) + DeepBlock(body)
    case With(items, body, _) => UsedNames.ExprsNames(items) + DeepBlock(body)
    case Try(body, handlers) => DeepBlock(body) + DeepBlocks(handlers)
    case Def(name, params, decorators, body, _) =>
      {name} + (set p | p in params) + UsedNames.ExprsNames(decorators) + DeepBlock(body)
    case Class(name, decorators, body) => {name} + UsedNames.ExprsNames(decorators) + DeepBlock(body)
  }

  function DeepStmts(ss: seq<Stmt>): set<string>
  {
    if ss == [] then {} else DeepStmt(ss[0]) + DeepStmts(ss[1..])
  }

  function DeepBlock(b: Block): set<string>
  {
    match b
    case Indented(stmts) => DeepStmts(stmts)
    case Inline(smalls) => DeepSmalls(smalls)
  }

  function DeepBlocks(bs: seq<Block>): set<string>
  {
    if bs == [] then {} else DeepBlock(bs[0]) + DeepBlocks(bs[1..])
  }

  function DeepOrElse(o: OrElse): set<string>
  {
    match o
    case NoElse => {}
    case Else(b) => DeepBlock(b)
    case Elif(s) => DeepStmt(s)
  }

  /** Every used name is among the deep names. */
  lemma {:induction false} StmtNamesDeep(s: Stmt)
    ensures UsedNames.StmtNames(s) <= DeepStmt(s)
  {
    match s
    case Line(_) =>
    case If(_, body, orelse) =>
      BlockNamesDeep(body);
      OrElseNamesDeep(orelse);
    case For(_, _, body, _) => BlockNamesDeep(body);
    case While(_, body) => BlockNamesDeep(body);
    case With(_, body, _) => BlockNamesDeep(body);
    case Try(body, handlers) =>
      BlockNamesDeep(body);
      BlocksNamesDeep(handlers);
    case Def(_, _, _, _, _) =>
    case Class(_, _, _) =>
  }

  lemma {:induction false} StmtsNamesDeep(ss: seq<Stmt>)
    ensures UsedNames.StmtsNames(ss) <= DeepStmts(ss)
  {
    if ss != [] {
      StmtNamesDeep(ss[0]);
      StmtsNamesDeep(ss[1..]);
    }
  }

  lemma {:induction false} BlockNamesDeep(b: Block)
    ensures UsedNames.BlockNames(b) <= DeepBlock(b)
  {
    if b.Indented? {
      StmtsNamesDeep(b.stmts);
    }
  }

  lemma {:induction false} BlocksNamesDeep(bs: seq<Block>)
    ensures UsedNames.BlocksNames(bs) <= DeepBlocks(bs)
  {
    if bs != [] {
      BlockNamesDeep(bs[0]);
      BlocksNamesDeep(bs[1..]);
    }
  }

  lemma {:induction false} OrElseNamesDeep(o: OrElse)
    ensures UsedNames.OrElseNames(o) <= DeepOrElse(o)
  {
    match o
    case NoElse =>
    case Else(b) => BlockNamesDeep(b);
    case Elif(s) => StmtNamesDeep(s);
  }

  // ---------------------------------------------------------------------
  // The inverse of the replacement: every alias back to its attribute
  // ---------------------------------------------------------------------

  function RestoreExpr(e: Expr, inv: map<string, Expr>): Expr
  {
    match e
    case Name(id, _) => if id in inv then inv[id] else e
    case Attr(owner, f) => Attr(RestoreExpr(owner, inv), f)
    case Unary(op, x) => Unary(op, RestoreExpr(x, inv))
    case BoolOp(op, vs) => BoolOp(op, RestoreExprs(vs, inv))
    case BinOp(l, op, r) => BinOp(RestoreExpr(l, inv), op, RestoreExpr(r, inv))
    case Compare(l, op, r) => Compare(RestoreExpr(l, inv), op, RestoreExpr(r, inv))
    case IfExp(t, b, o) => IfExp(RestoreExpr(t, inv), RestoreExpr(b, inv), RestoreExpr(o, inv))
    case Call(f, args, kws) => Call(RestoreExpr(f, inv), RestoreExprs(args, inv), RestoreKeywords(kws, inv))
    case Tuple(elts) => Tuple(RestoreExprs(elts, inv))
    case Lit(_) => e
  }

  /** Every name an outermost expression of a statement uses is one of its deep names. */
  lemma {:induction false} StmtExprsDeep(s: Stmt)
    ensures UsedNames.ExprsNames(StmtExprs(s)) <= DeepStmt(s)
    decreases s, 1
  {
    match s
    case Line(smalls) => SmallsExprsNames(smalls);
    case If(test, body, orelse) =>
      BlockExprsDeep(body);
      OrElseExprsDeep(orelse);
      ExprsNamesAppend([test], BlockExprs(body));
      ExprsNamesAppend([test] + BlockExprs(body), OrElseExprs(orelse));
    case For(target, iter, body, _) =>
      BlockExprsDeep(body);
      ExprsNamesAppend([target, iter], BlockExprs(body));
      assert [target, iter][1..] == [iter];
    case While(test, body) =>
      BlockExprsDeep(body);
      ExprsNamesAppend([test], BlockExprs(body));
    case With(items, body, _) =>
      BlockExprsDeep(body);
      ExprsNamesAppend(items, BlockExprs(body));
    case Try(body, handlers) =>
      BlockExprsDeep(body);
      BlocksExprsDeep(handlers);
      ExprsNamesAppend(BlockExprs(body), BlocksExprs(handlers));
    case Def(_, _, decorators, body, _) =>
      BlockExprsDeep(body);
      ExprsNamesAppend(BlockExprs(body), decorators);
    case Class(_, decorators, body) =>
      BlockExprsDeep(body);
      ExprsNamesAppend(BlockExprs(body), decorators);
  }

  lemma {:induction false} ExprsNamesAppend(a: seq<Expr>, b: seq<Expr>)
    ensures UsedNames.ExprsNames(a + b) == UsedNames.ExprsNames(a) + UsedNames.ExprsNames(b)
  {
    if a == [] {
      assert a + b == b;
    } else {
      ExprsNamesAppend(a[1..], b);
      assert (a + b)[1..] == a[1..] + b;
    }
  }

  lemma {:induction false} SmallsExprsNames(ss: seq<Small>)
    ensures UsedNames.ExprsNames(SmallsExprs(ss)) == UsedNames.SmallsNames(ss)
  {
    if ss != [] {
      SmallsExprsNames(ss[1..]);
      ExprsNamesAppend(SmallExprs(ss[0]), SmallsExprs(ss[1..]));
      match ss[0]
      case Assign(targets, value) => ExprsNamesAppend(targets, [value]);
      case Return(r) =>
      case ExprStmt(_) =>
      case Pass =>
      case Assert(_) =>
    }
  }

  lemma {:induction false} StmtsExprsDeep(ss: seq<Stmt>)
    ensures UsedNames.ExprsNames(StmtsExprs(ss)) <= DeepStmts(ss)
    decreases ss, 0
  {
    if ss != [] {
      StmtExprsDeep(ss[0]);
      StmtsExprsDeep(ss[1..]);
      ExprsNamesAppend(StmtExprs(ss[0]), StmtsExprs(ss[1..]));
    }
  }

  lemma {:induction false} BlockExprsDeep(b: Block)
    ensures UsedNames.ExprsNames(BlockExprs(b)) <= DeepBlock(b)
    decreases b, 2
  {
    match b
    case Indented(stmts) => StmtsExprsDeep(stmts);
    case Inline(smalls) => SmallsExprsNames(smalls);
  }

  lemma {:induction false} BlocksExprsDeep(bs: seq<Block>)
    ensures UsedNames.ExprsNames(BlocksExprs(bs)) <= DeepBlocks(bs)
    decreases bs, 0
  {
    if bs != [] {
      BlockExprsDeep(bs[0]);
      BlocksExprsDeep(bs[1..]);
      ExprsNamesAppend(BlockExprs(bs[0]), BlocksExprs(bs[1..]));
    }
  }

  lemma {:induction false} OrElseExprsDeep(o: OrElse)
    ensures UsedNames.ExprsNames(OrElseExprs(o)) <= DeepOrElse(o)
    decreases o, 2
  {
    match o
    case NoElse =>
    case Else(b) => BlockExprsDeep(b);
    case Elif(s) => StmtExprsDeep(s);
  }

  function RestoreExprs(es: seq<Expr>, inv: map<string, Expr>): seq<Expr>
  {
    if es == [] then [] else [RestoreExpr(es[0], inv)] + RestoreExprs(es[1..], inv)
  }

  function RestoreKeywords(ks: seq<Keyword>, inv: map<string, Expr>): seq<Keyword>
  {
    if ks == [] then [] else [Keyword(ks[0].arg, RestoreExpr(ks[0].value, inv))] + RestoreKeywords(ks[1..], inv)
  }

  function RestoreSmall(s: Small, inv: map<string, Expr>): Small
  {
    match s
    case Assign(targets, value) => Assign(RestoreExprs(targets, inv), RestoreExpr(value, inv))
    case Return(r) => Return(if r.Some? then Some(RestoreExpr(r.value, inv)) else None)
    case ExprStmt(e) => ExprStmt(RestoreExpr(e, inv))
    case Pass => Pass
    case Assert(c) => Assert(RestoreExpr(c, inv))
  }

  function RestoreSmalls(ss: seq<Small>, inv: map<string, Expr>): seq<Small>
  {
    if ss == [] then [] else [RestoreSmall(ss[0], inv)] + RestoreSmalls(ss[1..], inv)
  }

  function RestoreStmt(s: Stmt, inv: map<string, Expr>): Stmt
  {
    match s
    case Line(smalls) => Line(RestoreSmalls(smalls, inv))
    case If(test, body, orelse) => If(RestoreExpr(test, inv), RestoreBlock(body, inv), RestoreOrElse(orelse, inv))
    case For(target, iter, body, isAsync) => For(RestoreExpr(target, inv), RestoreExpr(iter, inv), RestoreBlock(body, inv), isAsync)
    case While(test, body) => While(RestoreExpr(test, inv), RestoreBlock(body, inv))
    case With(items, body, isAsync) => With(RestoreExprs(items, inv), RestoreBlock(body, inv), isAsync)
    case Try(body, handlers) => Try(RestoreBlock(body, inv), RestoreBlocks(handlers, inv))
    case Def(name, params, decorators, body, isAsync) =>
      Def(name, params, RestoreExprs(decorators, inv), RestoreBlock(body, inv), isAsync)
    case Class(name, decorators, body) => Class(name, RestoreExprs(decorators, inv), RestoreBlock(body, inv))
  }

  function RestoreStmts(ss: seq<Stmt>, inv: map<string, Expr>): seq<Stmt>
  {
    if ss == [] then [] else [RestoreStmt(ss[0], inv)] + RestoreStmts(ss[1..], inv)
  }

  function RestoreBlock(b: Block, inv: map<string, Expr>): Block
  {
    match b
    case Indented(stmts) => Indented(RestoreStmts(stmts, inv))
    case Inline(smalls) => Inline(RestoreSmalls(smalls, inv))
  }

  function RestoreBlocks(bs: seq<Block>, inv: map<string, Expr>): seq<Block>
  {
    if bs == [] then [] else [RestoreBlock(bs[0], inv)] + RestoreBlocks(bs[1..], inv)
  }

  function RestoreOrElse(o: OrElse, inv: map<string, Expr>): OrElse
  {
    match o
    case NoElse => NoElse
    case Else(b) => Else(RestoreBlock(b, inv))
    case Elif(s) => Elif(RestoreStmt(s, inv))
  }

  /** `inv` undoes `tbl`: each alias leads back to the attribute it stands for. */
  predicate Undoes(inv: map<string, Expr>, tbl: map<Expr, string>)
  {
    forall k | k in tbl :: tbl[k] in inv && inv[tbl[k]] == k
  }

  lemma {:induction false} ExprRoundTrip(e: Expr, tbl: map<Expr, string>, inv: map<string, Expr>, ctx: Ctx)
    requires Undoes(inv, tbl) && UsedNames.ExprNames(e) !! inv.Keys
    ensures RestoreExpr(ReplaceExpr(e, tbl, ctx), inv) == e
    decreases e, 1
  {
    if !(e.Attr? && e in tbl) {
      match e
      case Name(_, _) =>
      case Attr(owner, _) => ExprRoundTrip(owner, tbl, inv, Load);
      case Unary(_, x) => ExprRoundTrip(x, tbl, inv, Load);
      case BoolOp(_, vs) => ExprsRoundTrip(vs, tbl, inv, Load);
      case BinOp(l, _, r) =>
        ExprRoundTrip(l, tbl, inv, Load);
        ExprRoundTrip(r, tbl, inv, Load);
      case Compare(l, _, r) =>
        ExprRoundTrip(l, tbl, inv, Load);
        ExprRoundTrip(r, tbl, inv, Load);
      case IfExp(t, b, o) =>
        ExprRoundTrip(t, tbl, inv, Load);
        ExprRoundTrip(b, tbl, inv, Load);
        ExprRoundTrip(o, tbl, inv, Load);
      case Call(f, args, kws) =>
        ExprRoundTrip(f, tbl, inv, Load);
        ExprsRoundTrip(args, tbl, inv, Load);
        KeywordsRoundTrip(kws, tbl, inv);
      case Tuple(elts) => ExprsRoundTrip(elts, tbl, inv, ctx);
      case Lit(_) =>
    }
  }

  lemma {:induction false} ExprsRoundTrip(es: seq<Expr>, tbl: map<Expr, string>, inv: map<string, Expr>, ctx: Ctx)
    requires Undoes(inv, tbl) && UsedNames.ExprsNames(es) !! inv.Keys
    ensures RestoreExprs(ReplaceExprs(es, tbl, ctx), inv) == es
    decreases es, 0
  {
    if es != [] {
      ExprRoundTrip(es[0], tbl, inv, ctx);
      ExprsRoundTrip(es[1..], tbl, inv, ctx);
    }
  }

  lemma {:induction false} KeywordsRoundTrip(ks: seq<Keyword>, tbl: map<Expr, string>, inv: map<string, Expr>)
    requires Undoes(inv, tbl) && UsedNames.KeywordsNames(ks) !! inv.Keys
    ensures RestoreKeywords(ReplaceKeywords(ks, tbl), inv) == ks
    decreases ks, 0
  {
    if ks != [] {
      ExprRoundTrip(ks[0].value, tbl, inv, Load);
      KeywordsRoundTrip(ks[1..], tbl, inv);
    }
  }

  lemma {:induction false} SmallsRoundTrip(ss: seq<Small>, tbl: map<Expr, string>, inv: map<string, Expr>)
    requires Undoes(inv, tbl) && UsedNames.SmallsNames(ss) !! inv.Keys
    ensures RestoreSmalls(ReplaceSmalls(ss, tbl), inv) == ss
  {
    if ss != [] {
      SmallsRoundTrip(ss[1..], tbl, inv);
      match ss[0]
      case Assign(targets, value) =>
        ExprsRoundTrip(targets, tbl, inv, Store);
        ExprRoundTrip(value, tbl, inv, Load);
      case Return(r) =>
        if r.Some? {
          ExprRoundTrip(r.value, tbl, inv, Load);
        }
      case ExprStmt(e) => ExprRoundTrip(e, tbl, inv, Load);
      case Pass =>
      case Assert(c) => ExprRoundTrip(c, tbl, inv, Load);
    }
  }

  lemma {:induction false} StmtRoundTrip(s: Stmt, tbl: map<Expr, string>, inv: map<string, Expr>)
    requires Undoes(inv, tbl) && DeepStmt(s) !! inv.Keys
    ensures RestoreStmt(ReplaceStmt(s, tbl), inv) == s
  {
    match s
    case Line(smalls) => SmallsRoundTrip(smalls, tbl, inv);
    case If(test, body, orelse) =>
      ExprRoundTrip(test, tbl, inv, Load);
      BlockRoundTrip(body, tbl, inv);
      OrElseRoundTrip(orelse, tbl, inv);
    case For(target, iter, body, _) =>
      ExprRoundTrip(target, tbl, inv, Store);
      ExprRoundTrip(iter, tbl, inv, Load);
      BlockRoundTrip(body, tbl, inv);
    case While(test, body) =>
      ExprRoundTrip(test, tbl, inv, Load);
      BlockRoundTrip(body, tbl, inv);
    case With(items, body, _) =>
      ExprsRoundTrip(items, tbl, inv, Load);
      BlockRoundTrip(body, tbl, inv);
    case Try(body, handlers) =>
      BlockRoundTrip(body, tbl, inv);
      BlocksRoundTrip(handlers, tbl, inv);
    case Def(_, _, decorators, body, _) =>
      ExprsRoundTrip(decorators, tbl, inv, Load);
      BlockRoundTrip(body, tbl, inv);
    case Class(_, decorators, body) =>
      ExprsRoundTrip(decorators, tbl, inv, Load);
      BlockRoundTrip(body, tbl, inv);
  }

  lemma {:induction false} StmtsRoundTrip(ss: seq<Stmt>, tbl: map<Expr, string>, inv: map<string, Expr>)
    requires Undoes(inv, tbl) && DeepStmts(ss) !! inv.Keys
    ensures RestoreStmts(ReplaceStmts(ss, tbl), inv) == ss
  {
    if ss != [] {
      StmtRoundTrip(ss[0], tbl, inv);
      StmtsRoundTrip(ss[1..], tbl, inv);
    }
  }

  lemma {:induction false} BlockRoundTrip(b: Block, tbl: map<Expr, string>, inv: map<string, Expr>)
    requires Undoes(inv, tbl) && DeepBlock(b) !! inv.Keys
    ensures RestoreBlock(ReplaceBlock(b, tbl), inv) == b
  {
    match b
    case Indented(stmts) => StmtsRoundTrip(stmts, tbl, inv);
    case Inline(smalls) => SmallsRoundTrip(smalls, tbl, inv);
  }

  lemma {:induction false} BlocksRoundTrip(bs: seq<Block>, tbl: map<Expr, string>, inv: map<string, Expr>)
    requires Undoes(inv, tbl) && DeepBlocks(bs) !! inv.Keys
    ensures RestoreBlocks(ReplaceBlocks(bs, tbl), inv) == bs
  {
    if bs != [] {
      BlockRoundTrip(bs[0], tbl, inv);
      BlocksRoundTrip(bs[1..], tbl, inv);
    }
  }

  lemma {:induction false} OrElseRoundTrip(o: OrElse, tbl: map<Expr, string>, inv: map<string, Expr>)
    requires Undoes(inv, tbl) && DeepOrElse(o) !! inv.Keys
    ensures RestoreOrElse(ReplaceOrElse(o, tbl), inv) == o
  {
    match o
    case NoElse =>
    case Else(b) => BlockRoundTrip(b, tbl, inv);
    case Elif(s) => StmtRoundTrip(s, tbl, inv);
  }

  // ---------------------------------------------------------------------
  // Under the correction the hoisting can be undone
  // ---------------------------------------------------------------------

  /** Each alias mapped back to its attribute. */
  function Inverse(attrs: seq<Expr>, tbl: map<Expr, string>): (inv: map<string, Expr>)
    requires forall w | w in attrs :: w in tbl
    ensures inv.Keys == set w | w in attrs :: tbl[w]
  {
    if attrs == [] then map[]
    else
      var last := attrs[|attrs| - 1];
      var init := attrs[..|attrs| - 1];
      assert forall w | w in init :: w in attrs;
      assert forall w :: w in attrs <==> w in init || w == last;
      Inverse(init, tbl)[tbl[last] := last]
  }

  lemma {:induction false} InverseUndoes(attrs: seq<Expr>, tbl: map<Expr, string>)
    requires forall w | w in attrs :: w in tbl
    requires forall k1, k2 | k1 in tbl && k2 in tbl && k1 != k2 :: tbl[k1] != tbl[k2]
    ensures var inv := Inverse(attrs, tbl);
      forall w | w in attrs :: inv[tbl[w]] == w
  {
    if attrs != [] {
      var last := attrs[|attrs| - 1];
      var init := attrs[..|attrs| - 1];
      assert forall w | w in init :: w in attrs;
      assert forall w :: w in attrs <==> w in init || w == last;
      InverseUndoes(init, tbl);
    }
  }

  /** A drawn alias extends its candidate, so it keeps the prefix. */
  lemma DrawnOnPrefix(names: set<string>, prefix: string, owner: string, field: string)
    ensures StartsWith(FreeNames.FreeNameIn(names, Some(AliasName(prefix, owner, field))), prefix)
  {
    var candidate := AliasName(prefix, owner, field);
    var name := FreeNames.FreeNameIn(names, Some(candidate));
    assert candidate == prefix + ("_" + owner + "_" + field);
    if name != candidate {
      var k: nat :| name == candidate + Str(k);
      assert name == prefix + ("_" + owner + "_" + field + Str(k));
    }
  }

  /** Every alias is built on the prefix. */
  lemma {:induction false} AliasesOnPrefix(ws: seq<Expr>, prefix: string, policy: Policy, h: Hoisted)
    requires forall w | w in ws :: w.Attr?
    requires forall k | k in h.table :: StartsWith(h.table[k], prefix)
    ensures var r := HoistAttrs(ws, prefix, policy, h);
      r.Ok? ==> forall k | k in r.value.table :: StartsWith(r.value.table[k], prefix)
  {
    if ws != [] {
      var w := ws[0];
      if w in h.table {
        AliasesOnPrefix(ws[1..], prefix, policy, h);
        assert HoistAttrs(ws, prefix, policy, h) == HoistAttrs(ws[1..], prefix, policy, h);
      } else if w.owner.Name? {
        DrawnOnPrefix(AliasNames(h.aliases), prefix, w.owner.id, w.field);
        assert StartsWith(AliasName(prefix, w.owner.id, w.field), prefix) by {
          assert AliasName(prefix, w.owner.id, w.field) == prefix + ("_" + w.owner.id + "_" + w.field);
        }
        var h' := Meet(w, prefix, policy, h);
        assert StartsWith(AliasFor(w, prefix, policy, h), prefix);
        assert forall k | k in h'.table :: k == w || k in h.table;
        AliasesOnPrefix(ws[1..], prefix, policy, h');
        var r := HoistAttrs(ws[1..], prefix, policy, h');
        assert HoistAttrs(ws, prefix, policy, h) == r;
        assert r.Ok? ==> forall k | k in r.value.table :: StartsWith(r.value.table[k], prefix);
      }
    }
  }

  /**
   * Hoisting the written attributes of a definition, with the aliases
   * drawn on a prefix that no name of the definition starts with and made
   * distinct, can be undone: putting every attribute back in place of its
   * alias gives the definition back, and no attribute is written any more.
   */
  lemma HoistingUndone(def: Stmt, prefix: string)
    requires def.Def? && FreeNames.PrefixFree(DeepStmt(def), prefix)
    ensures var r := HoistAttrs(StmtWritten(def), prefix, Corrected, NoneHoisted);
      r.Ok? ==>
        && Wf(r.value)
        && RestoreStmt(ReplaceStmt(def, r.value.table), Inverse(r.value.attrs, r.value.table)) == def
        && StmtWritten(ReplaceStmt(def, r.value.table)) == []
  {
    var ws := StmtWritten(def);
    var r := HoistAttrs(ws, prefix, Corrected, NoneHoisted);
    if r.Ok? {
      var h := r.value;
      HoistOutcome(ws, prefix, Corrected, NoneHoisted);
      CorrectedTableInjective(ws, prefix);
      AliasesOnPrefix(ws, prefix, Corrected, NoneHoisted);
      var inv := Inverse(h.attrs, h.table);
      InverseUndoes(h.attrs, h.table);
      assert Undoes(inv, h.table);
      forall x | x in inv.Keys
        ensures x !in DeepStmt(def)
      {
        var w :| w in h.attrs && x == h.table[w];
        assert StartsWith(x, prefix);
      }
      StmtRoundTrip(def, h.table, inv);
      StmtReplaced(def, h.table);
    }
  }
}

=== FILE: bimap.dfy ===
/**
 * The two-way multimap `BiMap` of `utils.py`: a forward map from keys to
 * sets of values and a reverse map from values to sets of keys, kept
 * consistent by every operation.
 */
module BiMaps {
  import opened Results

  datatype BiMap<K, V> = BiMap(fwd: map<K, set<V>>, rev: map<V, set<K>>)

  /** The consistency that `_attest` checks: `v in fwd[k]` exactly when `k in rev[v]`. */
  predicate Attested<K(!new), V(!new)>(b: BiMap<K, V>)
  {
    (forall k, v | k in b.fwd && v in b.fwd[k] :: v in b.rev && k in b.rev[v])
    && (forall v, k | v in b.rev && k in b.rev[v] :: k in b.fwd && v in b.fwd[k])
  }

  /**
   * The representation invariant: attested, and no entry maps to an empty
   * set (entries are created by an insertion and dropped when emptied).
   */
  predicate Valid<K(!new), V(!new)>(b: BiMap<K, V>)
  {
    Attested(b)
    && (forall k | k in b.fwd :: b.fwd[k] != {})
    && (forall v | v in b.rev :: b.rev[v] != {})
  }

  function Empty<K(!new), V(!new)>(): (b: BiMap<K, V>)
    ensures Valid(b) && |b.fwd| == 0
  {
    BiMap(map[], map[])
  }

  /** `b[k]`: the value set of `k`, or `KeyError`. */
  function Get<K(!new), V(!new)>(b: BiMap<K, V>, k: K): (r: Result<set<V>>)
    ensures r.Ok? <==> k in b.fwd
    ensures r.Ok? ==> r.value == b.fwd[k]
    ensures r.Err? ==> r.error == KeyError
  {
    if k in b.fwd then Ok(b.fwd[k]) else Err(KeyError)
  }

  /** `b[k] = v` adds `v` to the values of `k` and `k` to the keys of `v`. */
  function Set<K(!new), V(!new)>(b: BiMap<K, V>, k: K, v: V): (r: BiMap<K, V>)
    ensures k in r.fwd && r.fwd[k] == (if k in b.fwd then b.fwd[k] else {}) + {v}
    ensures v in r.rev && r.rev[v] == (if v in b.rev then b.rev[v] else {}) + {k}
    ensures forall k' | k' != k :: (k' in r.fwd <==> k' in b.fwd) && (k' in b.fwd ==> r.fwd[k'] == b.fwd[k'])
    ensures forall v' | v' != v :: (v' in r.rev <==> v' in b.rev) && (v' in b.rev ==> r.rev[v'] == b.rev[v'])
  {
    var vs := if k in b.fwd then b.fwd[k] else {};
    var ks := if v in b.rev then b.rev[v] else {};
    BiMap(b.fwd[k := vs + {v}], b.rev[v := ks + {k}])
  }

  lemma SetPreservesValid<K(!new), V(!new)>(b: BiMap<K, V>, k: K, v: V)
    requires Valid(b)
    ensures Valid(Set(b, k, v))
  {
  }

  /**
   * `del b[k]`: `k` leaves the reverse set of each of its values, emptied
   * reverse entries are dropped, then `k` is removed; `KeyError` if absent.
   */
  function Del<K(!new), V(!new)>(b: BiMap<K, V>, k: K): (r: Result<BiMap<K, V>>)
    requires Valid(b)
    ensures r.Err? <==> k !in b.fwd
    ensures r.Err? ==> r.error == KeyError
    ensures r.Ok? ==> k !in r.value.fwd && r.value.fwd.Keys == b.fwd.Keys - {k}
    ensures r.Ok? ==> forall k' | k' in r.value.fwd :: r.value.fwd[k'] == b.fwd[k']
    ensures r.Ok? ==> forall v | v in b.rev ::
      if b.rev[v] - {k} == {} then v !in r.value.rev
      else v in r.value.rev && r.value.rev[v] == b.rev[v] - {k}
  {
    if k !in b.fwd then Err(KeyError)
    else
      var rev := map v | v in b.rev && b.rev[v] - {k} != {} :: b.rev[v] - {k};
      Ok(BiMap(b.fwd - {k}, rev))
  }

  lemma DelPreservesValid<K(!new), V(!new)>(b: BiMap<K, V>, k: K)
    requires Valid(b) && k in b.fwd
    ensures Valid(Del(b, k).value)
  {
  }

  /** Iteration and length range over the forward keys only. */
  function Keys<K(!new), V(!new)>(b: BiMap<K, V>): (ks: set<K>)
    ensures forall k :: k in ks <==> Get(b, k).Ok?
  {
    b.fwd.Keys
  }

  function Len<K(!new), V(!new)>(b: BiMap<K, V>): (n: nat)
    ensures n == |Keys(b)|
  {
    |b.fwd|
  }

  /** `.i`: the same pairs seen from the value side. */
  function Inverse<K(!new), V(!new)>(b: BiMap<K, V>): (r: BiMap<V, K>)
    ensures forall v, k :: (v in r.fwd && k in r.fwd[v]) <==> (v in b.rev && k in b.rev[v])
  {
    BiMap(b.rev, b.fwd)
  }

  lemma InverseInvolution<K(!new), V(!new)>(b: BiMap<K, V>)
    ensures Inverse(Inverse(b)) == b
  {
  }

  lemma InversePreservesValid<K(!new), V(!new)>(b: BiMap<K, V>)
    requires Valid(b)
    ensures Valid(Inverse(b))
    ensures forall k, v :: (k in b.fwd && v in b.fwd[k]) <==> (v in Inverse(b).fwd && k in Inverse(b).fwd[v])
  {
  }

  /** `==` compares forward maps only. */
  predicate Equal<K(!new), V(!new)>(a: BiMap<K, V>, b: BiMap<K, V>)
  {
    a.fwd == b.fwd
  }

  /** In a valid map the reverse side is determined by the forward side. */
  lemma ReverseFromForward<K(!new), V(!new)>(a: BiMap<K, V>, b: BiMap<K, V>)
    requires Valid(a) && Valid(b) && a.fwd == b.fwd
    ensures a.rev == b.rev
  {
    forall v | v in a.rev ensures v in b.rev {
      var k :| k in a.rev[v];
      assert k in a.fwd && v in a.fwd[k];
    }
    forall v | v in b.rev ensures v in a.rev {
      var k :| k in b.rev[v];
      assert k in b.fwd && v in b.fwd[k];
    }
    forall v | v in a.rev ensures a.rev[v] == b.rev[v] {
      forall k ensures k in a.rev[v] <==> k in b.rev[v] {
        if k in a.rev[v] { assert k in a.fwd && v in a.fwd[k]; }
        if k in b.rev[v] { assert k in b.fwd && v in b.fwd[k]; }
      }
    }
  }

  /**
   * The assertions inside `__eq__` hold for valid maps: equal forward maps
   * force equal reverse maps, and different forward maps force different
   * reverse maps.
   */
  lemma {:induction false} EqualForwardMeansEqualReverse<K(!new), V(!new)>(a: BiMap<K, V>, b: BiMap<K, V>)
    requires Valid(a) && Valid(b)
    ensures Equal(a, b) <==> a.rev == b.rev
  {
    if a.fwd == b.fwd {
      ReverseFromForward(a, b);
    }
    if a.rev == b.rev {
      InversePreservesValid(a);
      InversePreservesValid(b);
      ReverseFromForward(Inverse(a), Inverse(b));
    }
  }

  lemma InsertStep<K(!new), V(!new)>(b0: BiMap<K, V>, b: BiMap<K, V>, k: K, done: set<V>, v: V)
    requires Valid(b) && k !in b0.fwd
    requires b.fwd == if done == {} then b0.fwd else b0.fwd[k := done]
    ensures Valid(Set(b, k, v)) && Set(b, k, v).fwd == b0.fwd[k := done + {v}]
  {
    SetPreservesValid(b, k, v);
    if done == {} {
      assert k !in b.fwd;
    } else {
      assert b.fwd[k] == done;
    }
  }

  /** Moving one value from the pending set to the finished one keeps the partition. */
  lemma MoveOne<V>(todo: set<V>, done: set<V>, vals: set<V>, v: V)
    requires todo + done == vals && todo !! done && v in todo
    ensures (todo - {v}) + (done + {v}) == vals && (todo - {v}) !! (done + {v}) && done + {v} != {}
    ensures |todo - {v}| < |todo|
  {
  }

  /** Insert `k -> vv` for every `vv` of a non-empty set, into a map without `k`. */
  method InsertAll<K(!new), V(!new)>(b0: BiMap<K, V>, k: K, vals: set<V>) returns (b: BiMap<K, V>)
    requires Valid(b0) && k !in b0.fwd && vals != {}
    ensures Valid(b) && b.fwd == b0.fwd[k := vals]
  {
    b := b0;
    var todo := vals;
    var done: set<V> := {};
    while todo != {}
      invariant todo + done == vals && todo !! done
      invariant Valid(b)
      invariant b.fwd == if done == {} then b0.fwd else b0.fwd[k := done]
      decreases |todo|
    {
      var v :| v in todo;
      InsertStep(b0, b, k, done, v);
      MoveOne(todo, done, vals, v);
      b := Set(b, k, v);
      todo := todo - {v};
      done := done + {v};
    }
  }

  /**
   * The copy constructor: every pair `(k, vv)` of `d` is inserted into an
   * empty map; the result has the same contents as `d`.
   */
  method Copy<K(!new), V(!new)>(d: BiMap<K, V>) returns (b: BiMap<K, V>)
    requires Valid(d)
    ensures Valid(b) && b == d
  {
    b := Empty();
    var todo := d.fwd.Keys;
    while todo != {}
      invariant todo <= d.fwd.Keys
      invariant Valid(b)
      invariant b.fwd == map k' | k' in d.fwd.Keys - todo :: d.fwd[k']
      decreases |todo|
    {
      var k :| k in todo;
      b := InsertAll(b, k, d.fwd[k]);
      todo := todo - {k};
      assert b.fwd == map k' | k' in d.fwd.Keys - todo :: d.fwd[k'];
    }
    assert b.fwd == d.fwd;
    ReverseFromForward(b, d);
  }
}

=== FILE: bool_to_bit.dfy ===
/**
 * The `bool_to_bit` pass of `passes/bool_to_bit.py`: `and` and `or` over
 * n values become left-nested chains of n - 1 `&` or `|` operations on
 * the rewritten values, and the `not` operator becomes `~`. Each of the
 * three rewrites is switched on by its own flag, and they run one after
 * the other over the whole tree.
 */
module BoolToBit {
  import opened Results
  import opened Syntax
  import opened Traversal
  import TreeMap

  /** `expr = values[0]; for v in values[1:]: expr = BinOp(expr, op, v)` */
  function LeftChain(acc: Expr, op: BinKind, rest: seq<Expr>): Expr
    decreases |rest|
  {
    if rest == [] then acc else LeftChain(BinOp(acc, op, rest[0]), op, rest[1..])
  }

  /** The operands along the left spine of `n` nested `op` operations. */
  function Spine(e: Expr, op: BinKind, n: nat): seq<Expr>
    decreases n
  {
    if n == 0 || !(e.BinOp? && e.binop == op) then [e] else Spine(e.left, op, n - 1) + [e.right]
  }

  /** The chain is `|rest|` nested operations whose operands are the values in order. */
  lemma {:induction false} ChainSpine(acc: Expr, op: BinKind, rest: seq<Expr>, k: nat)
    ensures Spine(LeftChain(acc, op, rest), op, k + |rest|) == Spine(acc, op, k) + rest
    decreases |rest|
  {
    if rest != [] {
      ChainSpine(BinOp(acc, op, rest[0]), op, rest[1..], k + 1);
      assert [rest[0]] + rest[1..] == rest;
    }
  }

  // ---------------------------------------------------------------------
  // `AndTransformer` / `OrTransformer`
  // ---------------------------------------------------------------------

  /** The kinds of the `BoolOp` nodes of an expression. */
  function BoolKinds(e: Expr): set<BoolKind>
    decreases e, 1
  {
    match e
    case Name(_, _) => {}
    case Attr(owner, _) => BoolKinds(owner)
    case Unary(_, x) => BoolKinds(x)
    case BoolOp(op, vs) => {op} + BoolKindsAll(vs)
    case BinOp(l, _, r) => BoolKinds(l) + BoolKinds(r)
    case Compare(l, _, r) => BoolKinds(l) + BoolKinds(r)
    case IfExp(t, b, o) => BoolKinds(t) + BoolKinds(b) + BoolKinds(o)
    case Call(f, args, kws) => BoolKinds(f) + BoolKindsAll(args) + BoolKindsKeywords(kws)
    case Tuple(elts) => BoolKindsAll(elts)
    case Lit(_) => {}
  }

  function BoolKindsAll(es: seq<Expr>): set<BoolKind>
    decreases es, 0
  {
    if es == [] then {} else BoolKinds(es[0]) + BoolKindsAll(es[1..])
  }

  function BoolKindsKeywords(ks: seq<Keyword>): set<BoolKind>
    decreases ks, 0
  {
    if ks == [] then {} else BoolKinds(ks[0].value) + BoolKindsKeywords(ks[1..])
  }

  /** A `BoolOp` of kind `m` without values, on which `assert values` fails. */
  predicate EmptyOp(x: Expr, m: BoolKind)
  {
    x.BoolOp? && x.bop == m && x.values == []
  }

  /** Some node of `nodes` is an empty `BoolOp` of kind `m`. */
  predicate AnyEmpty(nodes: seq<Expr>, m: BoolKind)
  {
    exists x | x in nodes :: EmptyOp(x, m)
  }

  lemma AnyEmptyAppend(a: seq<Expr>, b: seq<Expr>, m: BoolKind)
    ensures AnyEmpty(a + b, m) <==> AnyEmpty(a, m) || AnyEmpty(b, m)
  {
    if AnyEmpty(a + b, m) {
      var x :| x in a + b && EmptyOp(x, m);
    }
    if AnyEmpty(a, m) {
      var x :| x in a && EmptyOp(x, m);
      assert x in a + b;
    }
    if AnyEmpty(b, m) {
      var x :| x in b && EmptyOp(x, m);
      assert x in a + b;
    }
  }

  /** The kinds of the `BoolOp` nodes without values, by structure. */
  function EmptyKinds(e: Expr): set<BoolKind>
    decreases e, 1
  {
    match e
    case Name(_, _) => {}
    case Attr(owner, _) => EmptyKinds(owner)
    case Unary(_, x) => EmptyKinds(x)
    case BoolOp(op, vs) => (if vs == [] then {op} else {}) + EmptyKindsAll(vs)
    case BinOp(l, _, r) => EmptyKinds(l) + EmptyKinds(r)
    case Compare(l, _, r) => EmptyKinds(l) + EmptyKinds(r)
    case IfExp(t, b, o) => EmptyKinds(t) + EmptyKinds(b) + EmptyKinds(o)
    case Call(f, args, kws) => EmptyKinds(f) + EmptyKindsAll(args) + EmptyKindsKeywords(kws)
    case Tuple(elts) => EmptyKindsAll(elts)
    case Lit(_) => {}
  }

  function EmptyKindsAll(es: seq<Expr>): set<BoolKind>
    decreases es, 0
  {
    if es == [] then {} else EmptyKinds(es[0]) + EmptyKindsAll(es[1..])
  }

  function EmptyKindsKeywords(ks: seq<Keyword>): set<BoolKind>
    decreases ks, 0
  {
    if ks == [] then {} else EmptyKinds(ks[0].value) + EmptyKindsKeywords(ks[1..])
  }

  /** The structural reading agrees with a search of the expression's nodes. */
  lemma {:induction false} EmptyKindsNodes(e: Expr, m: BoolKind)
    ensures m in EmptyKinds(e) <==> AnyEmpty(ExprNodes(e), m)
    decreases e, 1
  {
    AnyEmptyAppend([e], ExprNodes(e)[1..], m);
    assert ExprNodes(e) == [e] + ExprNodes(e)[1..];
    assert AnyEmpty([e], m) <==> EmptyOp(e, m) by {
      assert e in [e];
    }
    match e
    case Name(_, _) =>
    case Lit(_) =>
    case Attr(owner, _) => EmptyKindsNodes(owner, m);
    case Unary(_, x) => EmptyKindsNodes(x, m);
    case BoolOp(_, vs) => EmptyKindsAllNodes(vs, m);
    case BinOp(l, _, r) =>
      EmptyKindsNodes(l, m);
      EmptyKindsNodes(r, m);
      AnyEmptyAppend(ExprNodes(l), ExprNodes(r), m);
    case Compare(l, _, r) =>
      EmptyKindsNodes(l, m);
      EmptyKindsNodes(r, m);
      AnyEmptyAppend(ExprNodes(l), ExprNodes(r), m);
    case IfExp(t, b, o) =>
      EmptyKindsNodes(t, m);
      EmptyKindsNodes(b, m);
      EmptyKindsNodes(o, m);
      AnyEmptyAppend(ExprNodes(t), ExprNodes(b), m);
      AnyEmptyAppend(ExprNodes(t) + ExprNodes(b), ExprNodes(o), m);
    case Call(f, args, kws) =>
      EmptyKindsNodes(f, m);
      EmptyKindsAllNodes(args, m);
      EmptyKindsKeywordsNodes(kws, m);
      AnyEmptyAppend(ExprNodes(f), ExprsNodes(args), m);
      AnyEmptyAppend(ExprNodes(f) + ExprsNodes(args), KeywordsNodes(kws), m);
    case Tuple(elts) => EmptyKindsAllNodes(elts, m);
  }

  lemma {:induction false} EmptyKindsAllNodes(es: seq<Expr>, m: BoolKind)
    ensures m in EmptyKindsAll(es) <==> AnyEmpty(ExprsNodes(es), m)
    decreases es, 0
  {
    if es != [] {
      EmptyKindsNodes(es[0], m);
      EmptyKindsAllNodes(es[1..], m);
      AnyEmptyAppend(ExprNodes(es[0]), ExprsNodes(es[1..]), m);
    }
  }

  lemma {:induction false} EmptyKindsKeywordsNodes(ks: seq<Keyword>, m: BoolKind)
    ensures m in EmptyKindsKeywords(ks) <==> AnyEmpty(KeywordsNodes(ks), m)
    decreases ks, 0
  {
    if ks != [] {
      EmptyKindsNodes(ks[0].value, m);
      EmptyKindsKeywordsNodes(ks[1..], m);
      AnyEmptyAppend(ExprNodes(ks[0].value), KeywordsNodes(ks[1..]), m);
    }
  }

  lemma ChainEmpty(acc: Expr, op: BinKind, rest: seq<Expr>)
    ensures EmptyKinds(LeftChain(acc, op, rest)) == EmptyKinds(acc) + EmptyKindsAll(rest)
    decreases |rest|
  {
    if rest != [] {
      ChainEmpty(BinOp(acc, op, rest[0]), op, rest[1..]);
    }
  }

  lemma ChainKinds(acc: Expr, op: BinKind, rest: seq<Expr>)
    ensures BoolKinds(LeftChain(acc, op, rest)) == BoolKinds(acc) + BoolKindsAll(rest)
    decreases |rest|
  {
    if rest != [] {
      ChainKinds(BinOp(acc, op, rest[0]), op, rest[1..]);
    }
  }

  /**
   * `BoolOpTransformer.visit`: a `BoolOp` of the matched kind becomes the
   * chain of its rewritten values, and must have values; every other node
   * is rebuilt from its rewritten children.
   */
  function Rewrite(e: Expr, m: BoolKind, rep: BinKind): (r: Result<Expr>)
    ensures r.Err? <==> m in EmptyKinds(e)
    ensures r.Err? ==> r.error == AssertionError
    ensures r.Ok? ==> BoolKinds(r.value) == BoolKinds(e) - {m}
    ensures r.Ok? ==> EmptyKinds(r.value) == EmptyKinds(e)
    decreases e, 1
  {
    match e
    case BoolOp(op, vs) =>
      if op == m then
        if vs == [] then Err(AssertionError)
        else
          var vs' :- RewriteAll(vs, m, rep);
          ChainAll(vs', rep);
          Ok(LeftChain(vs'[0], rep, vs'[1..]))
      else
        var vs' :- RewriteAll(vs, m, rep);
        Ok(BoolOp(op, vs'))
    case Name(_, _) => Ok(e)
    case Attr(owner, f) =>
      var o :- Rewrite(owner, m, rep);
      Ok(Attr(o, f))
    case Unary(op, x) =>
      var x' :- Rewrite(x, m, rep);
      Ok(Unary(op, x'))
    case BinOp(l, op, r) =>
      var l' :- Rewrite(l, m, rep);
      var r' :- Rewrite(r, m, rep);
      Ok(BinOp(l', op, r'))
    case Compare(l, op, r) =>
      var l' :- Rewrite(l, m, rep);
      var r' :- Rewrite(r, m, rep);
      Ok(Compare(l', op, r'))
    case IfExp(t, b, o) =>
      var t' :- Rewrite(t, m, rep);
      var b' :- Rewrite(b, m, rep);
      var o' :- Rewrite(o, m, rep);
      Ok(IfExp(t', b', o'))
    case Call(f, args, kws) =>
      var f' :- Rewrite(f, m, rep);
      var args' :- RewriteAll(args, m, rep);
      var kws' :- RewriteKeywords(kws, m, rep);
      Ok(Call(f', args', kws'))
    case Tuple(elts) =>
      var elts' :- RewriteAll(elts, m, rep);
      Ok(Tuple(elts'))
    case Lit(_) => Ok(e)
  }

  /** Chaining a non-empty list keeps the operator kinds of its operands, and their empty ones. */
  lemma ChainAll(vs: seq<Expr>, rep: BinKind)
    requires vs != []
    ensures BoolKinds(LeftChain(vs[0], rep, vs[1..])) == BoolKindsAll(vs)
    ensures EmptyKinds(LeftChain(vs[0], rep, vs[1..])) == EmptyKindsAll(vs)
  {
    ChainKinds(vs[0], rep, vs[1..]);
    ChainEmpty(vs[0], rep, vs[1..]);
    BoolKindsAllSplit(vs);
    assert EmptyKindsAll(vs) == EmptyKinds(vs[0]) + EmptyKindsAll(vs[1..]);
  }

  lemma BoolKindsAllSplit(vs: seq<Expr>)
    requires vs != []
    ensures BoolKindsAll(vs) == BoolKinds(vs[0]) + BoolKindsAll(vs[1..])
  {
  }

  function RewriteAll(es: seq<Expr>, m: BoolKind, rep: BinKind): (r: Result<seq<Expr>>)
    ensures r.Err? <==> m in EmptyKindsAll(es)
    ensures r.Err? ==> r.error == AssertionError
    ensures r.Ok? ==> |r.value| == |es| && BoolKindsAll(r.value) == BoolKindsAll(es) - {m}
    ensures r.Ok? ==> EmptyKindsAll(r.value) == EmptyKindsAll(es)
    decreases es, 0
  {
    if es == [] then Ok([])
    else
      var e :- Rewrite(es[0], m, rep);
      var rest :- RewriteAll(es[1..], m, rep);
      assert ([e] + rest)[1..] == rest;
      Ok([e] + rest)
  }

  function RewriteKeywords(ks: seq<Keyword>, m: BoolKind, rep: BinKind): (r: Result<seq<Keyword>>)
    ensures r.Err? <==> m in EmptyKindsKeywords(ks)
    ensures r.Err? ==> r.error == AssertionError
    ensures r.Ok? ==> |r.value| == |ks| && BoolKindsKeywords(r.value) == BoolKindsKeywords(ks) - {m}
    ensures r.Ok? ==> EmptyKindsKeywords(r.value) == EmptyKindsKeywords(ks)
    decreases ks, 0
  {
    if ks == [] then Ok([])
    else
      var v :- Rewrite(ks[0].value, m, rep);
      var rest :- RewriteKeywords(ks[1..], m, rep);
      assert ([Keyword(ks[0].arg, v)] + rest)[1..] == rest;
      Ok([Keyword(ks[0].arg, v)] + rest)
  }

  /** The rewrite fails exactly when some node is a `BoolOp` of the matched kind without values. */
  lemma RewriteFails(e: Expr, m: BoolKind, rep: BinKind)
    ensures Rewrite(e, m, rep).Err? <==> AnyEmpty(ExprNodes(e), m)
  {
    EmptyKindsNodes(e, m);
  }

  // ---------------------------------------------------------------------
  // `NotTransformer`
  // ---------------------------------------------------------------------

  /** The unary operators of an expression. */
  function UnaryKinds(e: Expr): set<UnaryKind>
    decreases e, 1
  {
    match e
    case Name(_, _) => {}
    case Attr(owner, _) => UnaryKinds(owner)
    case Unary(op, x) => {op} + UnaryKinds(x)
    case BoolOp(_, vs) => UnaryKindsAll(vs)
    case BinOp(l, _, r) => UnaryKinds(l) + UnaryKinds(r)
    case Compare(l, _, r) => UnaryKinds(l) + UnaryKinds(r)
    case IfExp(t, b, o) => UnaryKinds(t) + UnaryKinds(b) + UnaryKinds(o)
    case Call(f, args, kws) => UnaryKinds(f) + UnaryKindsAll(args) + UnaryKindsKeywords(kws)
    case Tuple(elts) => UnaryKindsAll(elts)
    case Lit(_) => {}
  }

  function UnaryKindsAll(es: seq<Expr>): set<UnaryKind>
    decreases es, 0
  {
    if es == [] then {} else UnaryKinds(es[0]) + UnaryKindsAll(es[1..])
  }

  function UnaryKindsKeywords(ks: seq<Keyword>): set<UnaryKind>
    decreases ks, 0
  {
    if ks == [] then {} else UnaryKinds(ks[0].value) + UnaryKindsKeywords(ks[1..])
  }

  /** `NotTransformer.visit`: the `Not` operator node becomes `Invert`. */
  function InvertNots(e: Expr): (r: Expr)
    ensures Not !in UnaryKinds(r)
    ensures BoolKinds(r) == BoolKinds(e)
    ensures Not !in UnaryKinds(e) ==> r == e
    decreases e, 1
  {
    match e
    case Name(_, _) => e
    case Attr(owner, f) => Attr(InvertNots(owner), f)
    case Unary(op, x) => Unary(if op == Not then Invert else op, InvertNots(x))
    case BoolOp(op, vs) => BoolOp(op, InvertAll(vs))
    case BinOp(l, op, r) => BinOp(InvertNots(l), op, InvertNots(r))
    case Compare(l, op, r) => Compare(InvertNots(l), op, InvertNots(r))
    case IfExp(t, b, o) => IfExp(InvertNots(t), InvertNots(b), InvertNots(o))
    case Call(f, args, kws) => Call(InvertNots(f), InvertAll(args), InvertKeywords(kws))
    case Tuple(elts) => Tuple(InvertAll(elts))
    case Lit(_) => e
  }

  function InvertAll(es: seq<Expr>): (r: seq<Expr>)
    ensures |r| == |es|
    ensures Not !in UnaryKindsAll(r)
    ensures BoolKindsAll(r) == BoolKindsAll(es)
    ensures Not !in UnaryKindsAll(es) ==> r == es
    decreases es, 0
  {
    if es == [] then []
    else
      var r := [InvertNots(es[0])] + InvertAll(es[1..]);
      assert r[1..] == InvertAll(es[1..]);
      r
  }

  function InvertKeywords(ks: seq<Keyword>): (r: seq<Keyword>)
    ensures |r| == |ks|
    ensures Not !in UnaryKindsKeywords(r)
    ensures BoolKindsKeywords(r) == BoolKindsKeywords(ks)
    ensures Not !in UnaryKindsKeywords(ks) ==> r == ks
    decreases ks, 0
  {
    if ks == [] then []
    else
      var r := [Keyword(ks[0].arg, InvertNots(ks[0].value))] + InvertKeywords(ks[1..]);
      assert r[1..] == InvertKeywords(ks[1..]);
      r
  }

  // ---------------------------------------------------------------------
  // Meaning on single bits
  // ---------------------------------------------------------------------

  /**
   * The value of an expression over single bits, where `~` negates and
   * `&`, `|`, `^` are the bitwise operators; `None` for anything this
   * reading does not cover.
   */
  function Eval(e: Expr, env: string -> bool): Option<bool>
    decreases e, 1
  {
    match e
    case Name(id, _) => Some(env(id))
    case Lit(text) => if text == "True" then Some(true) else if text == "False" then Some(false) else None
    case Unary(op, x) =>
      var v := Eval(x, env);
      if op != USub && v.Some? then Some(!v.value) else None
    case BoolOp(op, vs) =>
      if vs == [] then None
      else Fold(Eval(vs[0], env), if op == And then BitAnd else BitOr, vs[1..], env)
    case BinOp(l, op, r) => Combine(op, Eval(l, env), Eval(r, env))
    case _ => None
  }

  function Combine(op: BinKind, a: Option<bool>, b: Option<bool>): Option<bool>
  {
    if a.None? || b.None? then None
    else if op == BitAnd then Some(a.value && b.value)
    else if op == BitOr then Some(a.value || b.value)
    else if op == BitXor then Some(a.value != b.value)
    else None
  }

  /** The values combined from the left, as `and` and `or` do on bits. */
  function Fold(acc: Option<bool>, op: BinKind, rest: seq<Expr>, env: string -> bool): Option<bool>
    decreases rest, 0
  {
    if rest == [] then acc else Fold(Combine(op, acc, Eval(rest[0], env)), op, rest[1..], env)
  }

  lemma {:induction false} ChainEval(acc: Expr, op: BinKind, rest: seq<Expr>, env: string -> bool)
    ensures Eval(LeftChain(acc, op, rest), env) == Fold(Eval(acc, env), op, rest, env)
    decreases |rest|
  {
    if rest != [] {
      ChainEval(BinOp(acc, op, rest[0]), op, rest[1..], env);
    }
  }

  lemma {:induction false} FoldSame(acc: Option<bool>, op: BinKind, a: seq<Expr>, b: seq<Expr>, env: string -> bool)
    requires |a| == |b| && forall i | 0 <= i < |a| :: Eval(a[i], env) == Eval(b[i], env)
    ensures Fold(acc, op, a, env) == Fold(acc, op, b, env)
    decreases |a|
  {
    if a != [] {
      FoldSame(Combine(op, acc, Eval(a[0], env)), op, a[1..], b[1..], env);
    }
  }

  /** On single bits, `and`/`or` and their chains of `&`/`|` agree. */
  lemma {:induction false} RewriteKeepsValue(e: Expr, m: BoolKind, env: string -> bool)
    requires Rewrite(e, m, if m == And then BitAnd else BitOr).Ok?
    ensures Eval(Rewrite(e, m, if m == And then BitAnd else BitOr).value, env) == Eval(e, env)
    decreases e, 1
  {
    var rep := if m == And then BitAnd else BitOr;
    match e
    case BoolOp(op, vs) =>
      var vs' := RewriteAll(vs, m, rep).value;
      RewriteAllKeepsValue(vs, m, env);
      if vs != [] {
        FoldSame(Eval(vs'[0], env), if op == And then BitAnd else BitOr, vs'[1..], vs[1..], env);
        if op == m {
          ChainEval(vs'[0], rep, vs'[1..], env);
        }
      }
    case Name(_, _) =>
    case Lit(_) =>
    case Unary(_, x) => RewriteKeepsValue(x, m, env);
    case BinOp(l, _, r) =>
      RewriteKeepsValue(l, m, env);
      RewriteKeepsValue(r, m, env);
    case _ =>
  }

  lemma {:induction false} RewriteAllKeepsValue(es: seq<Expr>, m: BoolKind, env: string -> bool)
    requires RewriteAll(es, m, if m == And then BitAnd else BitOr).Ok?
    ensures forall i | 0 <= i < |es| ::
      Eval(RewriteAll(es, m, if m == And then BitAnd else BitOr).value[i], env) == Eval(es[i], env)
    decreases es, 0
  {
    if es != [] {
      RewriteKeepsValue(es[0], m, env);
      RewriteAllKeepsValue(es[1..], m, env);
    }
  }

  /** On single bits, `not` and `~` agree. */
  lemma {:induction false} InvertKeepsValue(e: Expr, env: string -> bool)
    ensures Eval(InvertNots(e), env) == Eval(e, env)
    decreases e, 1
  {
    match e
    case BoolOp(op, vs) =>
      InvertAllKeepsValue(vs, env);
      if vs != [] {
        FoldSame(Eval(InvertAll(vs)[0], env), if op == And then BitAnd else BitOr, InvertAll(vs)[1..], vs[1..], env);
      }
    case Name(_, _) =>
    case Lit(_) =>
    case Unary(_, x) => InvertKeepsValue(x, env);
    case BinOp(l, _, r) =>
      InvertKeepsValue(l, env);
      InvertKeepsValue(r, env);
    case _ =>
  }

  lemma {:induction false} InvertAllKeepsValue(es: seq<Expr>, env: string -> bool)
    ensures forall i | 0 <= i < |es| :: Eval(InvertAll(es)[i], env) == Eval(es[i], env)
    decreases es, 0
  {
    if es != [] {
      InvertKeepsValue(es[0], env);
      InvertAllKeepsValue(es[1..], env);
    }
  }

  // ---------------------------------------------------------------------
  // The pass
  // ---------------------------------------------------------------------

  datatype Flags = Flags(replaceAnd: bool, replaceOr: bool, replaceNot: bool)

  function AndStep(e: Expr): Result<Expr> { Rewrite(e, And, BitAnd) }
  function OrStep(e: Expr): Result<Expr> { Rewrite(e, Or, BitOr) }
  function NotStep(e: Expr): Result<Expr> { Ok(InvertNots(e)) }

  /** One switchable transformer on one expression. */
  function Step(e: Expr, on: bool, f: Expr -> Result<Expr>): Result<Expr>
  {
    if on then f(e) else Ok(e)
  }

  /** One switchable transformer over a whole tree. */
  function Stage(t: Stmt, on: bool, f: Expr -> Result<Expr>): Result<Stmt>
  {
    if on then TreeMap.MapStmt(t, f) else Ok(t)
  }

  /** The three switchable rewrites of one expression, in the pass's order. */
  function RewriteExpr(e: Expr, flags: Flags): (r: Result<Expr>)
    ensures r.Err? <==> (flags.replaceAnd && And in EmptyKinds(e)) || (flags.replaceOr && Or in EmptyKinds(e))
    ensures r.Err? ==> r.error == AssertionError
    ensures r.Ok? && flags.replaceAnd ==> And !in BoolKinds(r.value)
    ensures r.Ok? && flags.replaceOr ==> Or !in BoolKinds(r.value)
    ensures r.Ok? && flags.replaceNot ==> Not !in UnaryKinds(r.value)
    ensures r.Ok? ==> forall env :: Eval(r.value, env) == Eval(e, env)
  {
    var a :- Step(e, flags.replaceAnd, AndStep);
    var o :- Step(a, flags.replaceOr, OrStep);
    forall env ensures Eval(o, env) == Eval(e, env) {
      if flags.replaceAnd { RewriteKeepsValue(e, And, env); }
      if flags.replaceOr { RewriteKeepsValue(a, Or, env); }
    }
    forall env ensures Eval(InvertNots(o), env) == Eval(o, env) {
      InvertKeepsValue(o, env);
    }
    Step(o, flags.replaceNot, NotStep)
  }

  /**
   * `bool_to_bit.rewrite`: each switched-on transformer over the whole
   * tree in turn; the environment and metadata are handed on.
   */
  function Pass<E, M>(tree: Stmt, flags: Flags, env: E, metadata: M): (r: Result<(Stmt, E, M)>)
    ensures r.Ok? ==> r.value.1 == env && r.value.2 == metadata
  {
    var t1 :- Stage(tree, flags.replaceAnd, AndStep);
    var t2 :- Stage(t1, flags.replaceOr, OrStep);
    var t3 :- Stage(t2, flags.replaceNot, NotStep);
    Ok((t3, env, metadata))
  }

  lemma StagePointwise(t: Stmt, on: bool, f: Expr -> Result<Expr>)
    ensures Stage(t, on, f).Ok? <==> forall i | 0 <= i < |StmtExprs(t)| :: Step(StmtExprs(t)[i], on, f).Ok?
    ensures Stage(t, on, f).Ok? ==>
      |StmtExprs(Stage(t, on, f).value)| == |StmtExprs(t)| &&
      forall i | 0 <= i < |StmtExprs(t)| :: Step(StmtExprs(t)[i], on, f) == Ok(StmtExprs(Stage(t, on, f).value)[i])
  {
    if on {
      var es := StmtExprs(t);
      TreeMap.MapExprsPointwise(es, f);
      assert forall i | 0 <= i < |es| :: Step(es[i], on, f) == f(es[i]);
      var r := TreeMap.MapStmt(t, f);
      if r.Ok? {
        assert StmtExprs(r.value) == TreeMap.MapExprs(es, f).value;
      }
    }
  }

  /**
   * The passes over the whole tree, one after the other, do to every
   * outermost expression what the three rewrites in turn do to it alone.
   */
  lemma PassPointwise<E, M>(tree: Stmt, flags: Flags, env: E, metadata: M)
    ensures Pass(tree, flags, env, metadata).Ok? <==>
      forall i | 0 <= i < |StmtExprs(tree)| :: RewriteExpr(StmtExprs(tree)[i], flags).Ok?
    ensures Pass(tree, flags, env, metadata).Ok? ==>
      var es := StmtExprs(Pass(tree, flags, env, metadata).value.0);
      |es| == |StmtExprs(tree)| &&
      forall i | 0 <= i < |es| :: Ok(es[i]) == RewriteExpr(StmtExprs(tree)[i], flags)
  {
    var es := StmtExprs(tree);
    StagePointwise(tree, flags.replaceAnd, AndStep);
    var s1 := Stage(tree, flags.replaceAnd, AndStep);
    if s1.Ok? {
      var t1 := s1.value;
      StagePointwise(t1, flags.replaceOr, OrStep);
      var s2 := Stage(t1, flags.replaceOr, OrStep);
      if s2.Ok? {
        StagePointwise(s2.value, flags.replaceNot, NotStep);
        assert forall i | 0 <= i < |es| :: RewriteExpr(es[i], flags).Ok?;
      } else {
        var i :| 0 <= i < |StmtExprs(t1)| && Step(StmtExprs(t1)[i], flags.replaceOr, OrStep).Err?;
        assert RewriteExpr(es[i], flags).Err?;
      }
    } else {
      var i :| 0 <= i < |es| && Step(es[i], flags.replaceAnd, AndStep).Err?;
      assert RewriteExpr(es[i], flags).Err?;
    }
  }

  /**
   * The pass fails exactly when a switched-on `and` or `or` has no values;
   * otherwise no switched-off operator remains in the tree's expressions,
   * and each keeps its value on single bits.
   */
  lemma PassMeaning<E, M>(tree: Stmt, flags: Flags, env: E, metadata: M)
    ensures Pass(tree, flags, env, metadata).Err? <==>
      exists i | 0 <= i < |StmtExprs(tree)| ::
        (flags.replaceAnd && And in EmptyKinds(StmtExprs(tree)[i])) || (flags.replaceOr && Or in EmptyKinds(StmtExprs(tree)[i]))
    ensures Pass(tree, flags, env, metadata).Ok? ==>
      var es := StmtExprs(Pass(tree, flags, env, metadata).value.0);
      |es| == |StmtExprs(tree)| &&
      forall i | 0 <= i < |es| ::
        (flags.replaceAnd ==> And !in BoolKinds(es[i])) &&
        (flags.replaceOr ==> Or !in BoolKinds(es[i])) &&
        (flags.replaceNot ==> Not !in UnaryKinds(es[i])) &&
        forall b :: Eval(es[i], b) == Eval(StmtExprs(tree)[i], b)
  {
    PassPointwise(tree, flags, env, metadata);
    var es := StmtExprs(tree);
    if Pass(tree, flags, env, metadata).Err? {
      var i :| 0 <= i < |es| && RewriteExpr(es[i], flags).Err?;
    }
  }

  lemma RewriteAllPair(a: Expr, b: Expr, a': Expr, b': Expr, m: BoolKind, rep: BinKind)
    requires Rewrite(a, m, rep) == Ok(a') && Rewrite(b, m, rep) == Ok(b')
    ensures RewriteAll([a, b], m, rep) == Ok([a', b'])
  {
    assert [a, b][1..] == [b] && [b][1..] == [];
    assert RewriteAll([b], m, rep) == Ok([b'] + []);
    assert [b'] + [] == [b'] && [a'] + [b'] == [a', b'];
  }

  /** `x and not y or not x and y` becomes `x & ~y | ~x & y`. */
  lemma XorExample()
    ensures
      var x, y := LoadName("x"), LoadName("y");
      RewriteExpr(BoolOp(Or, [BoolOp(And, [x, NotExpr(y)]), BoolOp(And, [NotExpr(x), y])]), Flags(true, true, true))
      == Ok(BinOp(BinOp(x, BitAnd, Unary(Invert, y)), BitOr, BinOp(Unary(Invert, x), BitAnd, y)))
  {
    var x, y := LoadName("x"), LoadName("y");
    var nx, ny := NotExpr(x), NotExpr(y);
    assert Rewrite(x, And, BitAnd) == Ok(x);
    assert Rewrite(y, And, BitAnd) == Ok(y);
    assert Rewrite(nx, And, BitAnd) == Ok(nx);
    assert Rewrite(ny, And, BitAnd) == Ok(ny);
    RewriteAllPair(x, ny, x, ny, And, BitAnd);
    RewriteAllPair(nx, y, nx, y, And, BitAnd);
    var l, r := BoolOp(And, [x, ny]), BoolOp(And, [nx, y]);
    var l', r' := BinOp(x, BitAnd, ny), BinOp(nx, BitAnd, y);
    assert [x, ny][1..] == [ny] && [nx, y][1..] == [y];
    assert [ny][1..] == [] && [y][1..] == [];
    assert LeftChain(x, BitAnd, [ny]) == l';
    assert LeftChain(nx, BitAnd, [y]) == r';
    assert Rewrite(l, And, BitAnd) == Ok(l');
    assert Rewrite(r, And, BitAnd) == Ok(r');
    RewriteAllPair(l, r, l', r', And, BitAnd);
    var a := BoolOp(Or, [l', r']);
    assert Rewrite(BoolOp(Or, [l, r]), And, BitAnd) == Ok(a);
    assert Rewrite(nx, Or, BitOr) == Ok(nx);
    assert Rewrite(ny, Or, BitOr) == Ok(ny);
    assert Rewrite(l', Or, BitOr) == Ok(l');
    assert Rewrite(r', Or, BitOr) == Ok(r');
    RewriteAllPair(l', r', l', r', Or, BitOr);
    assert [l', r'][1..] == [r'] && [r'][1..] == [];
    assert LeftChain(l', BitOr, [r']) == BinOp(l', BitOr, r');
    assert Rewrite(a, Or, BitOr) == Ok(BinOp(l', BitOr, r'));
  }
}

=== FILE: collect_calls.dfy ===
/**
 * `CallCollector` and `collect_calls` of `visitors/collect_calls.py`: a
 * list of the calls met in visiting order. `visit_Call` does not go on
 * into the call, so a call nested in another call's function, arguments
 * or keywords is not listed; every other node is entered.
 */
module CollectCalls {
  import opened Results
  import opened Syntax
  import opened Traversal

  /** The calls of an expression, a call ending the descent. */
  function ExprCalls(e: Expr): (r: seq<Expr>)
    ensures forall c | c in r :: c.Call? && c in ExprNodes(e)
    ensures e.Call? ==> r == [e]
    decreases e, 1
  {
    match e
    case Call(_, _, _) => [e]
    case Name(_, _) => []
    case Attr(owner, _) => ExprCalls(owner)
    case Unary(_, x) => ExprCalls(x)
    case BoolOp(_, vs) => ExprsCalls(vs)
    case BinOp(l, _, r) => ExprCalls(l) + ExprCalls(r)
    case Compare(l, _, r) => ExprCalls(l) + ExprCalls(r)
    case IfExp(t, b, o) => ExprCalls(t) + ExprCalls(b) + ExprCalls(o)
    case Tuple(elts) => ExprsCalls(elts)
    case Lit(_) => []
  }

  function ExprsCalls(es: seq<Expr>): (r: seq<Expr>)
    ensures forall c | c in r :: c.Call? && c in ExprsNodes(es)
    decreases es, 0
  {
    if es == [] then [] else ExprCalls(es[0]) + ExprsCalls(es[1..])
  }

  /** `collect_calls(tree)` */
  function Collect(tree: Stmt): (r: seq<Expr>)
    ensures forall c | c in r :: c.Call? && c in TreeNodes(tree)
  {
    ExprsCalls(StmtExprs(tree))
  }

  /** Every call node of an expression lies inside one of the listed calls. */
  lemma {:induction false} CallsCover(e: Expr, c: Expr)
    requires c in ExprNodes(e) && c.Call?
    ensures exists d | d in ExprCalls(e) :: c in ExprNodes(d)
    decreases e, 1
  {
    if e.Call? {
      assert e in ExprCalls(e);
    } else {
      assert c != e;
      assert c in ExprNodes(e)[1..];
      match e
      case Attr(owner, _) => CallsCover(owner, c);
      case Unary(_, x) => CallsCover(x, c);
      case BoolOp(_, vs) => ExprsCallsCover(vs, c);
      case BinOp(l, _, r) =>
        if c in ExprNodes(l) { CallsCover(l, c); } else { CallsCover(r, c); }
      case Compare(l, _, r) =>
        if c in ExprNodes(l) { CallsCover(l, c); } else { CallsCover(r, c); }
      case IfExp(t, b, o) =>
        if c in ExprNodes(t) { CallsCover(t, c); }
        else if c in ExprNodes(b) { CallsCover(b, c); }
        else { CallsCover(o, c); }
      case Tuple(elts) => ExprsCallsCover(elts, c);
    }
  }

  lemma {:induction false} ExprsCallsCover(es: seq<Expr>, c: Expr)
    requires c in ExprsNodes(es) && c.Call?
    ensures exists d | d in ExprsCalls(es) :: c in ExprNodes(d)
    decreases es, 0
  {
    if c in ExprNodes(es[0]) {
      CallsCover(es[0], c);
    } else {
      ExprsCallsCover(es[1..], c);
    }
  }

  /**
   * The collector lists some call exactly when the tree has a call node,
   * and every call node is a listed call or nested in one.
   */
  lemma CollectComplete(tree: Stmt)
    ensures Collect(tree) == [] <==> forall x | x in TreeNodes(tree) :: !x.Call?
    ensures forall c | c in TreeNodes(tree) && c.Call? :: exists d | d in Collect(tree) :: c in ExprNodes(d)
  {
    forall c | c in TreeNodes(tree) && c.Call?
      ensures exists d | d in Collect(tree) :: c in ExprNodes(d)
    {
      ExprsCallsCover(StmtExprs(tree), c);
    }
    if Collect(tree) != [] {
      assert Collect(tree)[0] in Collect(tree);
    }
  }
}

=== FILE: collect_names.dfy ===
/**
 * `NameCollector` and `collect_names` of `collect_names.py`: the visitor
 * adds the identifier of every `Name` it meets whose context is an
 * instance of the filter class, or of every `Name` when there is no
 * filter. The result is a set, so repeated names collapse.
 */
module CollectNames {
  import opened Results
  import opened Syntax
  import opened Traversal
  import UsedNames

  /**
   * A context class the filter may name: one of `ast.Load`, `ast.Store`
   * and `ast.Del`, or their common base class `ast.expr_context`.
   */
  datatype CtxClass = CtxType(ctx: Ctx) | AnyContext

  lemma CtxCases(x: Ctx)
    ensures x == Load || x == Store || x == Del
  {
    match x
    case Load =>
    case Store =>
    case Del =>
  }

  /** `Load`, `Store` and `Del`. */
  function AllContexts(): (r: set<Ctx>)
    ensures forall x: Ctx :: x in r
  {
    var r := {Load, Store, Del};
    assert forall x: Ctx :: x in r by {
      forall x: Ctx
        ensures x in r
      {
        CtxCases(x);
      }
    }
    r
  }

  /** The contexts that are instances of a class. */
  function Instances(c: CtxClass): (r: set<Ctx>)
    ensures forall x: Ctx :: x in r <==> (c.AnyContext? || x == c.ctx)
  {
    match c
    case CtxType(x) => {x}
    case AnyContext => AllContexts()
  }

  /** The contexts the collector accepts: all of them when there is no filter. */
  function Accepted(filter: Option<CtxClass>): (r: set<Ctx>)
    ensures forall x: Ctx :: x in r <==> (filter.None? || x in Instances(filter.value))
  {
    if filter.None? then AllContexts() else Instances(filter.value)
  }

  /** The identifiers of the `Name` nodes among `nodes` whose context is accepted. */
  function NamesWhere(nodes: seq<Expr>, accept: set<Ctx>): set<string>
  {
    set x | x in nodes && x.Name? && x.ctx in accept :: x.id
  }

  /** The visitor: each node in visiting order, the set growing by `visit_Name`. */
  method CollectIn(nodes: seq<Expr>, accept: set<Ctx>) returns (names: set<string>)
    ensures forall n :: n in names <==> exists i | 0 <= i < |nodes| :: nodes[i].Name? && nodes[i].id == n && nodes[i].ctx in accept
    ensures names == NamesWhere(nodes, accept)
  {
    names := {};
    var i := 0;
    while i < |nodes|
      invariant 0 <= i <= |nodes|
      invariant forall n :: n in names <==> exists j | 0 <= j < i :: nodes[j].Name? && nodes[j].id == n && nodes[j].ctx in accept
    {
      var x := nodes[i];
      if x.Name? && x.ctx in accept {
        names := names + {x.id};
      }
      i := i + 1;
    }
    assert forall x | x in nodes :: exists j | 0 <= j < |nodes| :: nodes[j] == x;
  }

  /** `collect_names(tree, ctx)` */
  method Collect(tree: Stmt, filter: Option<CtxClass>) returns (names: set<string>)
    ensures forall n :: n in names <==> exists x | x in TreeNodes(tree) :: x.Name? && x.id == n && x.ctx in Accepted(filter)
    ensures filter.None? ==> names == NodeNames(TreeNodes(tree))
  {
    names := CollectIn(TreeNodes(tree), Accepted(filter));
  }

  /**
   * Without a filter the collector finds exactly the names the used-name
   * visitor finds in an expression.
   */
  lemma {:induction false} AgreesWithUsedNames(e: Expr)
    ensures NodeNames(ExprNodes(e)) == UsedNames.ExprNames(e)
    decreases e, 1
  {
    var rest := ExprNodes(e)[1..];
    assert ExprNodes(e) == [e] + rest;
    NodeNamesAppend([e], rest);
    assert NodeNames([e]) == if e.Name? then {e.id} else {} by {
      assert forall x | x in [e] :: x == e;
    }
    match e
    case Name(_, _) =>
    case Attr(owner, _) => AgreesWithUsedNames(owner);
    case Unary(_, x) => AgreesWithUsedNames(x);
    case BoolOp(_, vs) => ExprsAgreeWithUsedNames(vs);
    case BinOp(l, _, r) =>
      AgreesWithUsedNames(l);
      AgreesWithUsedNames(r);
      NodeNamesAppend(ExprNodes(l), ExprNodes(r));
    case Compare(l, _, r) =>
      AgreesWithUsedNames(l);
      AgreesWithUsedNames(r);
      NodeNamesAppend(ExprNodes(l), ExprNodes(r));
    case IfExp(t, b, o) =>
      AgreesWithUsedNames(t);
      AgreesWithUsedNames(b);
      AgreesWithUsedNames(o);
      NodeNamesAppend(ExprNodes(t), ExprNodes(b));
      NodeNamesAppend(ExprNodes(t) + ExprNodes(b), ExprNodes(o));
    case Call(f, args, kws) =>
      AgreesWithUsedNames(f);
      ExprsAgreeWithUsedNames(args);
      KeywordsAgreeWithUsedNames(kws);
      NodeNamesAppend(ExprNodes(f), ExprsNodes(args));
      NodeNamesAppend(ExprNodes(f) + ExprsNodes(args), KeywordsNodes(kws));
    case Tuple(elts) => ExprsAgreeWithUsedNames(elts);
    case Lit(_) =>
  }

  lemma {:induction false} ExprsAgreeWithUsedNames(es: seq<Expr>)
    ensures NodeNames(ExprsNodes(es)) == UsedNames.ExprsNames(es)
    decreases es, 0
  {
    if es != [] {
      AgreesWithUsedNames(es[0]);
      ExprsAgreeWithUsedNames(es[1..]);
      NodeNamesAppend(ExprNodes(es[0]), ExprsNodes(es[1..]));
    }
  }

  lemma {:induction false} KeywordsAgreeWithUsedNames(ks: seq<Keyword>)
    ensures NodeNames(KeywordsNodes(ks)) == UsedNames.KeywordsNames(ks)
    decreases ks, 0
  {
    if ks != [] {
      AgreesWithUsedNames(ks[0].value);
      KeywordsAgreeWithUsedNames(ks[1..]);
      NodeNamesAppend(ExprNodes(ks[0].value), KeywordsNodes(ks[1..]));
    }
  }

  /** The function `foo(bar, baz)` that stores `buzz = bar + baz` and returns `buzz`. */
  function Foo(): Stmt
  {
    Def("foo", ["bar", "baz"], [], Indented([
      AssignLine(StoreName("buzz"), BinOp(LoadName("bar"), Add, LoadName("baz"))),
      Line([Return(Some(LoadName("buzz")))])]), false)
  }

  /** The nodes of `foo`, in visiting order. */
  function FooNodeList(): seq<Expr>
  {
    [StoreName("buzz"), BinOp(LoadName("bar"), Add, LoadName("baz")), LoadName("bar"), LoadName("baz"), LoadName("buzz")]
  }

  lemma FooNodes()
    ensures TreeNodes(Foo()) == FooNodeList()
  {
    var a := Assign([StoreName("buzz")], BinOp(LoadName("bar"), Add, LoadName("baz")));
    var r := Return(Some(LoadName("buzz")));
    assert [a][1..] == [] && [r][1..] == [];
    var body := [Line([a]), Line([r])];
    assert body[1..] == [Line([r])] && body[1..][1..] == [];
    assert StmtExprs(Foo()) == [StoreName("buzz"), BinOp(LoadName("bar"), Add, LoadName("baz")), LoadName("buzz")];
    var es := StmtExprs(Foo());
    assert es[1..] == [BinOp(LoadName("bar"), Add, LoadName("baz")), LoadName("buzz")];
    assert es[1..][1..] == [LoadName("buzz")];
    assert es[1..][1..][1..] == [];
  }

  /** The names of `foo`: `buzz` when stores are accepted, all three when loads are. */
  lemma FooNamesWhere(accept: set<Ctx>)
    ensures NamesWhere(FooNodeList(), accept)
      == (if Store in accept then {"buzz"} else {}) + (if Load in accept then {"bar", "baz", "buzz"} else {})
  {
    var nodes := FooNodeList();
    assert nodes[0] == StoreName("buzz") && nodes[2] == LoadName("bar") && nodes[3] == LoadName("baz");
    assert nodes[4] == LoadName("buzz");
  }

  /** All names, the loaded names and the stored names of `foo`. */
  lemma FooNames()
    ensures NamesWhere(TreeNodes(Foo()), Accepted(None)) == {"bar", "baz", "buzz"}
    ensures NamesWhere(TreeNodes(Foo()), Accepted(Some(CtxType(Load)))) == {"bar", "baz", "buzz"}
    ensures NamesWhere(TreeNodes(Foo()), Accepted(Some(CtxType(Store)))) == {"buzz"}
  {
    FooNodes();
    var all, loads, stores := Accepted(None), Accepted(Some(CtxType(Load))), Accepted(Some(CtxType(Store)));
    assert Load in all && Store in all;
    assert Load in loads && Store !in loads;
    assert Store in stores && Load !in stores;
    FooNamesWhere(all);
    FooNamesWhere(loads);
    FooNamesWhere(stores);
    assert {"buzz"} + {"bar", "baz", "buzz"} == {"bar", "baz", "buzz"};
  }
}

=== FILE: collect_targets.dfy ===
/**
 * `TargetCollector` and `collect_targets` of `visitors/collect_targets.py`:
 * the direct targets of every assignment statement of the tree, nested
 * definitions included, kept when they pass the type filter (by default
 * every node passes), gathered into a set. An assignment is not entered,
 * so a target's sub-expressions are not targets themselves.
 */
module CollectTargets {
  import opened Results
  import opened Syntax
  import opened Traversal

  /** The type filter; `None` is the default, `ast.AST`, which every node passes. */
  function Passes(filter: Option<Expr -> bool>, x: Expr): bool
  {
    filter.None? || filter.value(x)
  }

  /** The reference: the filtered direct targets of the assignments among `smalls`. */
  predicate IsTarget(smalls: seq<Small>, filter: Option<Expr -> bool>, x: Expr)
  {
    exists i | 0 <= i < |smalls| :: smalls[i].Assign? && x in smalls[i].targets && Passes(filter, x)
  }

  /**
   * `collect_targets(tree, target_filter)`: `visit_Assign` adds the
   * filtered targets of each assignment met, in visiting order.
   */
  method Collect(tree: Stmt, filter: Option<Expr -> bool>) returns (targets: set<Expr>)
    ensures forall x :: x in targets <==> IsTarget(StmtSmalls(tree), filter, x)
  {
    var smalls := StmtSmalls(tree);
    targets := {};
    var i := 0;
    while i < |smalls|
      invariant 0 <= i <= |smalls|
      invariant forall x :: x in targets <==> IsTarget(smalls[..i], filter, x)
    {
      if smalls[i].Assign? {
        var ts := smalls[i].targets;
        var j := 0;
        while j < |ts|
          invariant 0 <= j <= |ts|
          invariant forall x :: x in targets <==> IsTarget(smalls[..i], filter, x) || (x in ts[..j] && Passes(filter, x))
        {
          if Passes(filter, ts[j]) {
            targets := targets + {ts[j]};
          }
          j := j + 1;
        }
        assert ts[..j] == ts;
      }
      assert forall x :: IsTarget(smalls[..i + 1], filter, x) <==>
        IsTarget(smalls[..i], filter, x) || (smalls[i].Assign? && x in smalls[i].targets && Passes(filter, x)) by {
        forall x
          ensures IsTarget(smalls[..i + 1], filter, x) <==>
            IsTarget(smalls[..i], filter, x) || (smalls[i].Assign? && x in smalls[i].targets && Passes(filter, x))
        {
          if IsTarget(smalls[..i + 1], filter, x) {
            var k :| 0 <= k < i + 1 && smalls[..i + 1][k].Assign? && x in smalls[..i + 1][k].targets && Passes(filter, x);
            if k < i {
              assert smalls[..i][k] == smalls[k];
            }
          }
          if IsTarget(smalls[..i], filter, x) {
            var k :| 0 <= k < i && smalls[..i][k].Assign? && x in smalls[..i][k].targets && Passes(filter, x);
            assert smalls[..i + 1][k] == smalls[k];
          }
        }
      }
      i := i + 1;
    }
    assert smalls[..i] == smalls;
  }

  // ---------------------------------------------------------------------
  // Every collected target is a node of the tree
  // ---------------------------------------------------------------------

  lemma {:induction false} InExprsNodes(es: seq<Expr>, x: Expr)
    requires x in es
    ensures x in ExprsNodes(es)
  {
    if es[0] != x {
      InExprsNodes(es[1..], x);
    }
  }

  lemma {:induction false} SmallsExprsHas(ss: seq<Small>, k: nat, x: Expr)
    requires k < |ss| && x in SmallExprs(ss[k])
    ensures x in SmallsExprs(ss)
  {
    if k > 0 {
      SmallsExprsHas(ss[1..], k - 1, x);
    }
  }

  lemma {:induction false} StmtSmallsInExprs(s: Stmt, k: nat, x: Expr)
    requires k < |StmtSmalls(s)| && x in SmallExprs(StmtSmalls(s)[k])
    ensures x in StmtExprs(s)
    decreases s, 1
  {
    match s
    case Line(smalls) => SmallsExprsHas(smalls, k, x);
    case If(_, body, orelse) =>
      if k < |BlockSmalls(body)| {
        BlockSmallsInExprs(body, k, x);
      } else {
        OrElseSmallsInExprs(orelse, k - |BlockSmalls(body)|, x);
      }
    case For(_, _, body, _) => BlockSmallsInExprs(body, k, x);
    case While(_, body) => BlockSmallsInExprs(body, k, x);
    case With(_, body, _) => BlockSmallsInExprs(body, k, x);
    case Try(body, handlers) =>
      if k < |BlockSmalls(body)| {
        BlockSmallsInExprs(body, k, x);
      } else {
        BlocksSmallsInExprs(handlers, k - |BlockSmalls(body)|, x);
      }
    case Def(_, _, _, body, _) => BlockSmallsInExprs(body, k, x);
    case Class(_, _, body) => BlockSmallsInExprs(body, k, x);
  }

  lemma {:induction false} StmtsSmallsInExprs(ss: seq<Stmt>, k: nat, x: Expr)
    requires k < |StmtsSmalls(ss)| && x in SmallExprs(StmtsSmalls(ss)[k])
    ensures x in StmtsExprs(ss)
    decreases ss, 0
  {
    if k < |StmtSmalls(ss[0])| {
      StmtSmallsInExprs(ss[0], k, x);
    } else {
      StmtsSmallsInExprs(ss[1..], k - |StmtSmalls(ss[0])|, x);
    }
  }

  lemma {:induction false} BlockSmallsInExprs(b: Block, k: nat, x: Expr)
    requires k < |BlockSmalls(b)| && x in SmallExprs(BlockSmalls(b)[k])
    ensures x in BlockExprs(b)
    decreases b, 2
  {
    match b
    case Indented(stmts) => StmtsSmallsInExprs(stmts, k, x);
    case Inline(smalls) => SmallsExprsHas(smalls, k, x);
  }

  lemma {:induction false} BlocksSmallsInExprs(bs: seq<Block>, k: nat, x: Expr)
    requires k < |BlocksSmalls(bs)| && x in SmallExprs(BlocksSmalls(bs)[k])
    ensures x in BlocksExprs(bs)
    decreases bs, 0
  {
    if k < |BlockSmalls(bs[0])| {
      BlockSmallsInExprs(bs[0], k, x);
    } else {
      BlocksSmallsInExprs(bs[1..], k - |BlockSmalls(bs[0])|, x);
    }
  }

  lemma {:induction false} OrElseSmallsInExprs(o: OrElse, k: nat, x: Expr)
    requires k < |OrElseSmalls(o)| && x in SmallExprs(OrElseSmalls(o)[k])
    ensures x in OrElseExprs(o)
    decreases o, 2
  {
    match o
    case Else(b) => BlockSmallsInExprs(b, k, x);
    case Elif(s) => StmtSmallsInExprs(s, k, x);
  }

  /** A collected target is one of the tree's expression nodes. */
  lemma TargetIsNode(tree: Stmt, filter: Option<Expr -> bool>, x: Expr)
    requires IsTarget(StmtSmalls(tree), filter, x)
    ensures x in TreeNodes(tree)
  {
    var smalls := StmtSmalls(tree);
    var k :| 0 <= k < |smalls| && smalls[k].Assign? && x in smalls[k].targets && Passes(filter, x);
    assert x in SmallExprs(smalls[k]);
    StmtSmallsInExprs(tree, k, x);
    InExprsNodes(StmtExprs(tree), x);
  }
}

=== FILE: conditions.dfy ===
/**
 * The condition tagging of `metadata/condition_provider.py`.
 *
 * The provider keeps a stack of conditions: the body of an `if` (and of a
 * conditional expression) runs with the test pushed, the `orelse` with
 * `not test` pushed, and every node is tagged, when it is left, with a
 * snapshot of the stack. The model threads the stack as a parameter and
 * returns the tags in the order the nodes are left, children in source
 * order (so a conditional expression `b if t else o` visits `b`, then
 * `t`, then `o`). Only the nodes of the modelled grammar are listed.
 */
module Conditions {
  import opened Results
  import opened Syntax

  datatype Node =
    | ExprNode(e: Expr)
    | SmallNode(s: Small)
    | StmtNode(st: Stmt)
    | BlockNode(b: Block)
    | ElseNode(o: OrElse)

  /** A node with the conditions under which it executes. */
  datatype Tag = Tag(node: Node, conds: seq<Expr>)

  /** Every tag extends the enclosing stack. */
  predicate Extends(tags: seq<Tag>, stack: seq<Expr>)
  {
    forall i | 0 <= i < |tags| :: stack <= tags[i].conds
  }

  lemma ExtendsAppend(a: seq<Tag>, b: seq<Tag>, stack: seq<Expr>)
    requires Extends(a, stack) && Extends(b, stack)
    ensures Extends(a + b, stack)
  {
    forall i | 0 <= i < |a + b|
      ensures stack <= (a + b)[i].conds
    {
      if i < |a| { assert (a + b)[i] == a[i]; } else { assert (a + b)[i] == b[i - |a|]; }
    }
  }

  lemma ExtendsPush(tags: seq<Tag>, stack: seq<Expr>, c: Expr)
    requires Extends(tags, stack + [c])
    ensures Extends(tags, stack)
  {
    forall i | 0 <= i < |tags|
      ensures stack <= tags[i].conds
    {
      assert stack <= stack + [c];
    }
  }

  function ExprTags(e: Expr, stack: seq<Expr>): (r: seq<Tag>)
    ensures |r| > 0 && r[|r| - 1] == Tag(ExprNode(e), stack)
    ensures Extends(r, stack)
    ensures ReturnConds(r) == []
  {
    var children := match e
      case Name(_, _) => []
      case Attr(owner, _) => ExprTags(owner, stack)
      case Unary(_, operand) => ExprTags(operand, stack)
      case BoolOp(_, values) => ExprsTags(values, stack)
      case BinOp(l, _, rt) => Concat3(ExprTags(l, stack), ExprTags(rt, stack), [], stack)
      case Compare(l, _, rt) => Concat3(ExprTags(l, stack), ExprTags(rt, stack), [], stack)
      case IfExp(t, b, o) => (
        var bt := ExprTags(b, stack + [t]);
        var ot := ExprTags(o, stack + [NotExpr(t)]);
        ExtendsPush(bt, stack, t);
        ExtendsPush(ot, stack, NotExpr(t));
        Concat3(bt, ExprTags(t, stack), ot, stack))
      case Call(f, args, kws) => Concat3(ExprTags(f, stack), ExprsTags(args, stack), KeywordsTags(kws, stack), stack)
      case Tuple(elts) => ExprsTags(elts, stack)
      case Lit(_) => [];
    Close(children, ExprNode(e), stack)
  }

  /** The children's tags followed by the node's own tag. */
  function Close(children: seq<Tag>, n: Node, stack: seq<Expr>): (r: seq<Tag>)
    requires Extends(children, stack)
    ensures |r| > 0 && r[|r| - 1] == Tag(n, stack)
    ensures r[..|r| - 1] == children
    ensures Extends(r, stack)
    ensures ReturnConds(r) == ReturnConds(children) + ReturnConds([Tag(n, stack)])
  {
    ExtendsAppend(children, [Tag(n, stack)], stack);
    ReturnCondsAppend(children, [Tag(n, stack)]);
    children + [Tag(n, stack)]
  }

  function ExprsTags(es: seq<Expr>, stack: seq<Expr>): (r: seq<Tag>)
    ensures Extends(r, stack)
    ensures ReturnConds(r) == []
  {
    if es == [] then []
    else
      Concat3(ExprTags(es[0], stack), ExprsTags(es[1..], stack), [], stack)
  }

  /** Keyword arguments contribute their values' tags. */
  function KeywordsTags(ks: seq<Keyword>, stack: seq<Expr>): (r: seq<Tag>)
    ensures Extends(r, stack)
    ensures ReturnConds(r) == []
  {
    if ks == [] then []
    else
      Concat3(ExprTags(ks[0].value, stack), KeywordsTags(ks[1..], stack), [], stack)
  }

  function SmallTags(s: Small, stack: seq<Expr>): (r: seq<Tag>)
    ensures |r| > 0 && r[|r| - 1] == Tag(SmallNode(s), stack)
    ensures Extends(r, stack)
    ensures ReturnConds(r) == if s.Return? then [stack] else []
  {
    var children := match s
      case Assign(targets, value) => Concat3(ExprsTags(targets, stack), ExprTags(value, stack), [], stack)
      case Return(result) => if result.Some? then ExprTags(result.value, stack) else []
      case ExprStmt(e) => ExprTags(e, stack)
      case Pass => []
      case Assert(c) => ExprTags(c, stack);
    Close(children, SmallNode(s), stack)
  }

  function SmallsTags(ss: seq<Small>, stack: seq<Expr>): (r: seq<Tag>)
    ensures Extends(r, stack)
  {
    if ss == [] then []
    else
      var h := SmallTags(ss[0], stack);
      var t := SmallsTags(ss[1..], stack);
      ExtendsAppend(h, t, stack);
      h + t
  }

  /**
   * An `if` tags its test under the enclosing stack, its body with the test
   * pushed and its `orelse` with `not test` pushed; the `if` itself is left
   * after both pops, so it gets the enclosing stack.
   */
  function StmtTags(s: Stmt, stack: seq<Expr>): (r: seq<Tag>)
    ensures |r| > 0 && r[|r| - 1] == Tag(StmtNode(s), stack)
    ensures Extends(r, stack)
    decreases s, 2
  {
    Close(StmtChildTags(s, stack), StmtNode(s), stack)
  }

  /** The tags of a statement's children, in the order they are left. */
  function StmtChildTags(s: Stmt, stack: seq<Expr>): (r: seq<Tag>)
    ensures Extends(r, stack)
    decreases s, 1
  {
    match s
    case Line(smalls) => SmallsTags(smalls, stack)
    case If(_, _, _) => IfChildTags(s, stack)
    case For(target, iter, body, _) =>
      Concat3(ExprTags(target, stack), ExprTags(iter, stack), BlockTags(body, stack), stack)
    case While(test, body) =>
      Concat3(ExprTags(test, stack), BlockTags(body, stack), [], stack)
    case With(items, body, _) =>
      Concat3(ExprsTags(items, stack), BlockTags(body, stack), [], stack)
    case Try(body, handlers) =>
      Concat3(BlockTags(body, stack), BlocksTags(handlers, stack), [], stack)
    case Def(_, _, decorators, body, _) =>
      Concat3(ExprsTags(decorators, stack), BlockTags(body, stack), [], stack)
    case Class(_, decorators, body) =>
      Concat3(ExprsTags(decorators, stack), BlockTags(body, stack), [], stack)
  }

  /** The test under the enclosing stack, the body with the test pushed, the `orelse` with its negation pushed. */
  function IfChildTags(s: Stmt, stack: seq<Expr>): (r: seq<Tag>)
    requires s.If?
    ensures r == ExprTags(s.test, stack) + BlockTags(s.body, stack + [s.test]) + OrElseTags(s.orelse, stack + [NotExpr(s.test)])
    ensures Extends(r, stack)
    decreases s, 0
  {
    var bt := BlockTags(s.body, stack + [s.test]);
    var ot := OrElseTags(s.orelse, stack + [NotExpr(s.test)]);
    ExtendsPush(bt, stack, s.test);
    ExtendsPush(ot, stack, NotExpr(s.test));
    Concat3(ExprTags(s.test, stack), bt, ot, stack)
  }

  function Concat3(a: seq<Tag>, b: seq<Tag>, c: seq<Tag>, stack: seq<Expr>): (r: seq<Tag>)
    requires Extends(a, stack) && Extends(b, stack) && Extends(c, stack)
    ensures r == a + b + c && Extends(r, stack)
    ensures ReturnConds(r) == ReturnConds(a) + ReturnConds(b) + ReturnConds(c)
  {
    ExtendsAppend(a, b, stack);
    ExtendsAppend(a + b, c, stack);
    ReturnCondsAppend(a, b);
    ReturnCondsAppend(a + b, c);
    a + b + c
  }

  function StmtsTags(ss: seq<Stmt>, stack: seq<Expr>): (r: seq<Tag>)
    ensures Extends(r, stack)
  {
    if ss == [] then []
    else
      var h := StmtTags(ss[0], stack);
      var t := StmtsTags(ss[1..], stack);
      ExtendsAppend(h, t, stack);
      h + t
  }

  function BlockTags(b: Block, stack: seq<Expr>): (r: seq<Tag>)
    ensures |r| > 0 && r[|r| - 1] == Tag(BlockNode(b), stack)
    ensures Extends(r, stack)
  {
    var children := match b
      case Indented(stmts) => StmtsTags(stmts, stack)
      case Inline(smalls) => SmallsTags(smalls, stack);
    Close(children, BlockNode(b), stack)
  }

  function BlocksTags(bs: seq<Block>, stack: seq<Expr>): (r: seq<Tag>)
    ensures Extends(r, stack)
  {
    if bs == [] then []
    else
      var h := BlockTags(bs[0], stack);
      var t := BlocksTags(bs[1..], stack);
      ExtendsAppend(h, t, stack);
      h + t
  }

  /** An `else` clause is a node of its own; an `elif` is the inner `if`. */
  function OrElseTags(o: OrElse, stack: seq<Expr>): (r: seq<Tag>)
    ensures Extends(r, stack)
  {
    match o
    case NoElse => []
    case Else(b) => Close(BlockTags(b, stack), ElseNode(o), stack)
    case Elif(s) => StmtTags(s, stack)
  }

  /** The conditions recorded for the `return` statements, in the order they are left. */
  function ReturnConds(tags: seq<Tag>): (r: seq<seq<Expr>>)
    ensures |r| <= |tags|
  {
    if tags == [] then []
    else
      var rest := ReturnConds(tags[1..]);
      if tags[0].node.SmallNode? && tags[0].node.s.Return? then [tags[0].conds] + rest else rest
  }

  lemma {:induction false} ReturnCondsAppend(a: seq<Tag>, b: seq<Tag>)
    ensures ReturnConds(a + b) == ReturnConds(a) + ReturnConds(b)
  {
    if a == [] {
      assert a + b == b;
    } else {
      assert (a + b)[0] == a[0];
      assert (a + b)[1..] == a[1..] + b;
      ReturnCondsAppend(a[1..], b);
    }
  }

  lemma {:induction false} SingleReturnTags(ret: Small, S: seq<Expr>)
    requires ret.Return?
    ensures ReturnConds(SmallsTags([ret], S)) == [S]
  {
    var st := SmallTags(ret, S);
    assert [ret][1..] == [];
    assert SmallsTags([ret], S) == st + SmallsTags([], S);
    assert st + [] == st;
  }

  /** A one-line suite holding only a `return` records one return, under the stack. */
  lemma {:induction false} ReturnSuiteTags(ret: Small, S: seq<Expr>)
    requires ret.Return?
    ensures ReturnConds(BlockTags(Inline([ret]), S)) == [S]
  {
    SingleReturnTags(ret, S);
    var b := Inline([ret]);
    assert BlockTags(b, S) == Close(SmallsTags([ret], S), BlockNode(b), S);
    assert ReturnConds([Tag(BlockNode(b), S)]) == [];
  }

  /**
   * The returns of an `if` are those of its body, under the stack with the
   * test pushed, then those of its `orelse`, under the stack with
   * `not test` pushed; the `if` itself is tagged with the stack alone.
   */
  lemma {:induction false} IfReturnConds(c: Expr, body: Block, orelse: OrElse, S: seq<Expr>)
    ensures var tags := StmtTags(If(c, body, orelse), S);
            ReturnConds(tags)
              == ReturnConds(BlockTags(body, S + [c])) + ReturnConds(OrElseTags(orelse, S + [NotExpr(c)]))
            && tags[|tags| - 1].conds == S
  {
    var s := If(c, body, orelse);
    var tags := StmtTags(s, S);
    IfTagsUnfold(c, body, orelse, S);
    StmtTagNoReturn(s, S);
    var et := ExprTags(c, S);
    ReturnConds4(et, BlockTags(body, S + [c]), OrElseTags(orelse, S + [NotExpr(c)]), Tag(StmtNode(s), S), tags);
  }

  /** A tag on a compound statement is no return. */
  lemma StmtTagNoReturn(s: Stmt, S: seq<Expr>)
    ensures ReturnConds([Tag(StmtNode(s), S)]) == []
  {
    assert [Tag(StmtNode(s), S)][1..] == [];
  }

  lemma ReturnConds4(a: seq<Tag>, b: seq<Tag>, c: seq<Tag>, t: Tag, tags: seq<Tag>)
    requires tags == a + b + c + [t]
    requires ReturnConds([t]) == [] && ReturnConds(a) == []
    ensures ReturnConds(tags) == ReturnConds(b) + ReturnConds(c)
  {
    var ab := a + b;
    var abc := ab + c;
    ReturnCondsAppend(a, b);
    assert ReturnConds(ab) == ReturnConds(b);
    ReturnCondsAppend(ab, c);
    ReturnCondsAppend(abc, [t]);
    assert ReturnConds(tags) == ReturnConds(abc);
  }

  lemma {:induction false} IfTagsUnfold(c: Expr, body: Block, orelse: OrElse, S: seq<Expr>)
    ensures StmtTags(If(c, body, orelse), S)
      == ExprTags(c, S) + BlockTags(body, S + [c]) + OrElseTags(orelse, S + [NotExpr(c)]) + [Tag(StmtNode(If(c, body, orelse)), S)]
  {
  }

  /** Tagging `if c: return x` under a stack `S` tags the return with `S + [c]`. */
  lemma {:induction false} IfExample(c: Expr, ret: Small, S: seq<Expr>)
    requires ret.Return?
    ensures ReturnConds(StmtTags(If(c, Inline([ret]), NoElse), S)) == [S + [c]]
  {
    ReturnSuiteTags(ret, S + [c]);
    IfReturnConds(c, Inline([ret]), NoElse, S);
  }
}

=== FILE: context_names.dfy ===
/**
 * The context-filtered `NameCollector` of `visitors/collect_names.py`:
 * the filter argument is normalised to a set of expression contexts (the
 * empty tuple meaning load, store and delete; any other iterable its
 * elements; anything else the one value), and a `Name` is collected when
 * its context is in that set. The context of a `Name` is the tag the
 * grammar carries; a context of `None`, which the filter may name, belongs
 * to no `Name` node here.
 */
module ContextNames {
  import opened Results
  import opened Syntax
  import opened Traversal
  import CollectNames

  /** The `ctx` argument: the default `()`, an iterable, or a single value. */
  datatype CtxArg = Default | Many(contexts: seq<Option<Ctx>>) | One(context: Option<Ctx>)

  /** `NameCollector.__init__`'s normalisation of the filter. */
  function FilterSet(arg: CtxArg): (r: set<Option<Ctx>>)
    ensures arg.Default? ==> forall c: Ctx :: Some(c) in r
    ensures arg.Default? ==> None !in r
    ensures arg.Many? ==> forall c :: c in r <==> c in arg.contexts
    ensures arg.One? ==> forall c :: c in r <==> c == arg.context
  {
    match arg
    case Default =>
      CollectNamesAllContexts();
      set c | c in CollectNames.AllContexts() :: Some(c)
    case Many(cs) => set c | c in cs
    case One(c) => {c}
  }

  lemma CollectNamesAllContexts()
    ensures forall c: Ctx :: c in CollectNames.AllContexts()
  {
  }

  /** The contexts of `Name` nodes that the filter accepts. */
  function AcceptedContexts(arg: CtxArg): (r: set<Ctx>)
    ensures forall c: Ctx :: c in r <==> Some(c) in FilterSet(arg)
  {
    var all := CollectNames.AllContexts();
    set c | c in all && Some(c) in FilterSet(arg)
  }

  /** `collect_names(tree, ctx)` */
  method Collect(tree: Stmt, arg: CtxArg) returns (names: set<string>)
    ensures forall n :: n in names <==> exists x | x in TreeNodes(tree) :: x.Name? && x.id == n && Some(x.ctx) in FilterSet(arg)
    ensures arg.Default? ==> names == NodeNames(TreeNodes(tree))
    ensures arg == One(None) || arg == Many([]) ==> names == {}
  {
    names := CollectNames.CollectIn(TreeNodes(tree), AcceptedContexts(arg));
  }

  /**
   * The default filter and an explicit list of all three contexts collect
   * the same names, which are those the class-filtered collector finds
   * without a filter.
   */
  lemma DefaultIsAllContexts(nodes: seq<Expr>)
    ensures AcceptedContexts(Default) == AcceptedContexts(Many([Some(Load), Some(Store), Some(Del)]))
    ensures CollectNames.NamesWhere(nodes, AcceptedContexts(Default)) == CollectNames.NamesWhere(nodes, CollectNames.Accepted(None))
  {
    CollectNames.CtxCases(Load);
    var a := AcceptedContexts(Default);
    var b := AcceptedContexts(Many([Some(Load), Some(Store), Some(Del)]));
    forall c: Ctx
      ensures c in a <==> c in b
    {
      CollectNames.CtxCases(c);
    }
    assert CollectNames.Accepted(None) == a;
  }
}

=== FILE: cse.dfy ===
/**
 * Common subexpression elimination of `passes/cse.py`. Each round counts
 * the unary, binary, boolean and comparison nodes of the tree by
 * structure (`ExprCounter`), takes the most frequent one, and, if it
 * occurs more than once, eliminates it (`CSEElim`): the first assignment
 * of the function body holding it is preceded by `<prefix><c> = expr`,
 * and from that assignment on every occurrence is replaced by the name.
 *
 * Conditional expressions and calls are not counted: the counter's
 * `visit_IfExpr` and `vist_Call` are misspelt and never dispatched.
 *
 * A round that finds its expression in no assignment changes nothing,
 * and the round after it makes the same choice, so the loop of `rewrite`
 * does not end. `Policy.AsWritten` models that loop; `Policy.Corrected`
 * keeps a round only when it lowers the number of counted nodes, and
 * otherwise stops with the tree as it was before that round.
 */
module Cse {
  import opened Results
  import opened Syntax
  import opened Traversal
  import opened Strings
  import opened NodeReplacer
  import FreeNames
  import SymbolTables
  import Seqs

  const DefaultPrefix: string := "__common_expr"
  const CannotHandle: string := "Cannot handle node"

  datatype Policy = AsWritten | Corrected

  // ---------------------------------------------------------------------
  // Counting (`ExprCounter`)
  // ---------------------------------------------------------------------

  /** The node kinds with a `visit_` method that fires. */
  predicate Counted(e: Expr)
  {
    e.Unary? || e.BinOp? || e.BoolOp? || e.Compare?
  }

  /** The counted nodes among `nodes`, in visiting order. */
  function Candidates(nodes: seq<Expr>): seq<Expr>
  {
    if nodes == [] then []
    else (if Counted(nodes[0]) then [nodes[0]] else []) + Candidates(nodes[1..])
  }

  /** A node is a candidate exactly when it occurs and is of a counted kind. */
  lemma {:induction false} CandidatesMembers(nodes: seq<Expr>)
    ensures forall x :: x in Candidates(nodes) <==> x in nodes && Counted(x)
    decreases |nodes|
  {
    if nodes != [] {
      CandidatesMembers(nodes[1..]);
      assert forall x :: x in nodes <==> x == nodes[0] || x in nodes[1..];
    }
  }

  /** The position of the first occurrence. */
  function FirstIndex(cs: seq<Expr>, x: Expr): (k: nat)
    requires x in cs
    ensures k < |cs| && cs[k] == x && forall j | 0 <= j < k :: cs[j] != x
  {
    if cs[0] == x then 0 else 1 + FirstIndex(cs[1..], x)
  }

  /** Scanning left to right, a later value replaces the leader only with a strictly higher count. */
  function Scan(cs: seq<Expr>, i: nat, best: Expr): (r: Expr)
    requires i <= |cs| && best in cs
    ensures r in cs
    decreases |cs| - i
  {
    if i == |cs| then best
    else if multiset(cs)[cs[i]] > multiset(cs)[best] then Scan(cs, i + 1, cs[i])
    else Scan(cs, i + 1, best)
  }

  /** `Counter.most_common()[0]`; `None` for an empty counter. */
  function MostCommon(cs: seq<Expr>): (r: Option<Expr>)
    ensures r.None? <==> cs == []
    ensures r.Some? ==> r.value in cs
  {
    if cs == [] then None else Some(Scan(cs, 1, cs[0]))
  }

  /** The leader so far: highest count among the first `i` values, first met among equals. */
  predicate Leads(cs: seq<Expr>, i: nat, best: Expr)
    requires i <= |cs| && best in cs
  {
    && FirstIndex(cs, best) < i
    && (forall j | 0 <= j < i :: multiset(cs)[cs[j]] <= multiset(cs)[best])
    && (forall j | 0 <= j < i && multiset(cs)[cs[j]] == multiset(cs)[best] :: FirstIndex(cs, best) <= j)
  }

  lemma {:induction false} ScanLeads(cs: seq<Expr>, i: nat, best: Expr)
    requires 0 < i <= |cs| && best in cs && Leads(cs, i, best)
    ensures Leads(cs, |cs|, Scan(cs, i, best))
    decreases |cs| - i
  {
    if i < |cs| {
      if multiset(cs)[cs[i]] > multiset(cs)[best] {
        var x := cs[i];
        assert FirstIndex(cs, x) <= i;
        assert Leads(cs, i + 1, x);
        ScanLeads(cs, i + 1, x);
      } else {
        ScanLeads(cs, i + 1, best);
      }
    }
  }

  /**
   * The value chosen occurs at least as often as any other, and of the
   * values occurring that often it is the one met first, as the counter
   * keeps first-insertion order among equal counts.
   */
  lemma MostCommonChosen(cs: seq<Expr>)
    requires cs != []
    ensures var m := MostCommon(cs).value;
      && (forall y | y in cs :: multiset(cs)[y] <= multiset(cs)[m])
      && (forall j | 0 <= j < |cs| && multiset(cs)[cs[j]] == multiset(cs)[m] :: FirstIndex(cs, m) <= j)
  {
    assert Leads(cs, 1, cs[0]);
    ScanLeads(cs, 1, cs[0]);
    var m := MostCommon(cs).value;
    forall y | y in cs ensures multiset(cs)[y] <= multiset(cs)[m] {
      var j := FirstIndex(cs, y);
    }
  }

  // ---------------------------------------------------------------------
  // One elimination (`CSEElim`)
  // ---------------------------------------------------------------------

  /** `ExprReplacer._get_key`: every expression is its own key. */
  function ExprKey(e: Expr): Option<Expr>
  {
    Some(e)
  }

  /** The replacement table: the expression becomes a load of its name. */
  function Slot(cse: Expr, name: string): map<Expr, Expr>
  {
    map[cse := LoadName(name)]
  }

  /** `name = expr`, put before the first assignment holding the expression. */
  function Save(cse: Expr, name: string): Small
  {
    Assign([StoreName(name)], cse)
  }

  /** An assignment in which `ExprFinder` finds the expression. */
  predicate Holds(s: Small, cse: Expr)
  {
    s.Assign? && cse in ExprsNodes(SmallExprs(s))
  }

  /**
   * The small statements visited in order: before recording an assignment
   * holding the expression is split into the save and itself with the
   * expression replaced, and recording starts; once recording, every
   * statement is replaced.
   */
  function ElimSmalls(ss: seq<Small>, cse: Expr, name: string, recorded: bool): (r: (seq<Small>, bool))
    decreases |ss|
  {
    if ss == [] then ([], recorded)
    else if recorded then (ReplaceSmalls(ss, ExprKey, Slot(cse, name)), true)
    else if Holds(ss[0], cse) then
      ([Save(cse, name), ReplaceSmall(ss[0], ExprKey, Slot(cse, name))] + ReplaceSmalls(ss[1..], ExprKey, Slot(cse, name)), true)
    else
      var rest := ElimSmalls(ss[1..], cse, name, false);
      ([ss[0]] + rest.0, rest.1)
  }

  /** Whether an assignment holds the expression, as a test on assignments. */
  function HolderTest(cse: Expr): Small -> bool
  {
    x => Holds(x, cse)
  }

  /** No assignment among the first `n` holds the expression. */
  predicate NoHolderBefore(ss: seq<Small>, cse: Expr, n: nat)
    requires n <= |ss|
  {
    Seqs.NoneBefore(ss, HolderTest(cse), n)
  }

  /** The first assignment holding the expression. */
  function FirstHolder(ss: seq<Small>, cse: Expr): (r: Option<nat>)
    ensures r.None? <==> NoHolderBefore(ss, cse, |ss|)
    ensures r.Some? ==> r.value < |ss| && Holds(ss[r.value], cse) && NoHolderBefore(ss, cse, r.value)
  {
    if ss == [] then None
    else if Holds(ss[0], cse) then Some(0)
    else
      var r := FirstHolder(ss[1..], cse);
      NoHolderShift(ss, cse, |ss| - 1);
      if r.None? then None
      else
        NoHolderShift(ss, cse, r.value);
        assert ss[r.value + 1] == ss[1..][r.value];
        Some(r.value + 1)
  }

  /** Past a leading statement that does not hold the expression, the prefix checked moves by one. */
  lemma NoHolderShift(ss: seq<Small>, cse: Expr, n: nat)
    requires ss != [] && !Holds(ss[0], cse) && n < |ss|
    ensures NoHolderBefore(ss, cse, n + 1) <==> NoHolderBefore(ss[1..], cse, n)
  {
    Seqs.NoneBeforeShift(ss, HolderTest(cse), n);
  }

  /** Splitting at the start keeps nothing in front. */
  lemma EmptyFront<T>(ss: seq<T>, l: seq<T>, b: seq<T>)
    ensures ss[..0] + l + b == l + b
  {
    assert ss[..0] == [];
  }

  /** Splitting at `i + 1` is keeping the head in front of splitting the tail at `i`. */
  lemma ShiftSplit<T>(ss: seq<T>, i: nat, l: seq<T>, b: seq<T>)
    requires i + 1 < |ss|
    ensures ss[1..][i] == ss[i + 1]
    ensures ss[1..][i..] == ss[i + 1..] && ss[1..][i + 1..] == ss[i + 2..]
    ensures ss[..i + 1] + l + b == [ss[0]] + (ss[1..][..i] + l + b)
  {
    assert ss[..i + 1] == [ss[0]] + ss[1..][..i];
  }

  /**
   * The closed form of small statements visited before recording: they
   * come out unchanged when none holds the expression; otherwise the
   * first assignment holding it is preceded by the save and every
   * statement from it on is replaced.
   */
  function SplitSmalls(ss: seq<Small>, cse: Expr, name: string): (seq<Small>, bool)
  {
    match FirstHolder(ss, cse)
    case None => (ss, false)
    case Some(k) => (ss[..k] + [Save(cse, name)] + ReplaceSmalls(ss[k..], ExprKey, Slot(cse, name)), true)
  }

  lemma SplitSmallsHere(ss: seq<Small>, cse: Expr, name: string)
    requires ss != [] && Holds(ss[0], cse)
    ensures SplitSmalls(ss, cse, name)
      == ([Save(cse, name), ReplaceSmall(ss[0], ExprKey, Slot(cse, name))] + ReplaceSmalls(ss[1..], ExprKey, Slot(cse, name)), true)
  {
    var tbl := Slot(cse, name);
    assert FirstHolder(ss, cse) == Some(0);
    var b := ReplaceSmalls(ss[1..], ExprKey, tbl);
    assert ss[0..] == ss;
    assert ReplaceSmalls(ss[0..], ExprKey, tbl) == [ReplaceSmall(ss[0], ExprKey, tbl)] + b;
    assert SplitSmalls(ss, cse, name) == (ss[..0] + [Save(cse, name)] + ([ReplaceSmall(ss[0], ExprKey, tbl)] + b), true);
    assert ss[..0] + [Save(cse, name)] + ([ReplaceSmall(ss[0], ExprKey, tbl)] + b)
      == [Save(cse, name), ReplaceSmall(ss[0], ExprKey, tbl)] + b;
  }

  lemma SplitSmallsStepSome(ss: seq<Small>, cse: Expr, name: string, k: nat)
    requires ss != [] && !Holds(ss[0], cse) && FirstHolder(ss[1..], cse) == Some(k)
    ensures var rest := SplitSmalls(ss[1..], cse, name);
      SplitSmalls(ss, cse, name) == ([ss[0]] + rest.0, rest.1)
  {
    assert FirstHolder(ss, cse) == Some(k + 1);
    ShiftSplit(ss, k, [Save(cse, name)], ReplaceSmalls(ss[k + 1..], ExprKey, Slot(cse, name)));
  }

  lemma SplitSmallsStep(ss: seq<Small>, cse: Expr, name: string)
    requires ss != [] && !Holds(ss[0], cse)
    ensures var rest := SplitSmalls(ss[1..], cse, name);
      SplitSmalls(ss, cse, name) == ([ss[0]] + rest.0, rest.1)
  {
    var f := FirstHolder(ss[1..], cse);
    if f.Some? {
      SplitSmallsStepSome(ss, cse, name, f.value);
    } else {
      assert FirstHolder(ss, cse).None?;
      assert [ss[0]] + ss[1..] == ss;
    }
  }

  /** Visiting small statements before recording agrees with the closed form. */
  lemma {:induction false} ElimSmallsSplit(ss: seq<Small>, cse: Expr, name: string)
    ensures ElimSmalls(ss, cse, name, false) == SplitSmalls(ss, cse, name)
    decreases |ss|
  {
    if ss == [] {
      assert FirstHolder(ss, cse).None?;
    } else if Holds(ss[0], cse) {
      SplitSmallsHere(ss, cse, name);
    } else {
      ElimSmallsSplit(ss[1..], cse, name);
      SplitSmallsStep(ss, cse, name);
    }
  }

  /** Statements other than lines and definitions stop the elimination before recording. */
  predicate Control(s: Stmt)
  {
    !(s.Line? || s.Def? || s.Class?)
  }

  /** A statement of the function body: nested definitions are returned as they are. */
  function ElimStmt(s: Stmt, cse: Expr, name: string, recorded: bool): (r: Result<(Stmt, bool)>)
    ensures r.Err? <==> !recorded && Control(s)
    ensures r.Err? ==> r.error == SyntaxError(CannotHandle)
  {
    if recorded then Ok((ReplaceStmt(s, ExprKey, Slot(cse, name)), true))
    else
      match s
      case Line(smalls) =>
        var r := ElimSmalls(smalls, cse, name, false);
        Ok((Line(r.0), r.1))
      case Def(_, _, _, _, _) => Ok((s, false))
      case Class(_, _, _) => Ok((s, false))
      case _ => Err(SyntaxError(CannotHandle))
  }

  function ElimStmts(ss: seq<Stmt>, cse: Expr, name: string, recorded: bool): Result<(seq<Stmt>, bool)>
    decreases |ss|
  {
    if ss == [] then Ok(([], recorded))
    else
      var h :- ElimStmt(ss[0], cse, name, recorded);
      var t :- ElimStmts(ss[1..], cse, name, h.1);
      Ok(([h.0] + t.0, t.1))
  }

  /** A line of the body whose small statements hold the expression in an assignment. */
  predicate LineHolds(s: Stmt, cse: Expr)
  {
    s.Line? && FirstHolder(s.smalls, cse).Some?
  }

  /** Whether a line holds the expression, as a test on statements. */
  function LineTest(cse: Expr): Stmt -> bool
  {
    s => LineHolds(s, cse)
  }

  /** No line among the first `n` holds the expression. */
  predicate NoLineBefore(ss: seq<Stmt>, cse: Expr, n: nat)
    requires n <= |ss|
  {
    Seqs.NoneBefore(ss, LineTest(cse), n)
  }

  /** The first line of the body holding the expression: where recording starts. */
  function FirstLine(ss: seq<Stmt>, cse: Expr): (r: Option<nat>)
    ensures r.None? <==> NoLineBefore(ss, cse, |ss|)
    ensures r.Some? ==> r.value < |ss| && LineHolds(ss[r.value], cse) && NoLineBefore(ss, cse, r.value)
  {
    if ss == [] then None
    else if LineHolds(ss[0], cse) then Some(0)
    else
      var r := FirstLine(ss[1..], cse);
      NoLineShift(ss, cse, |ss| - 1);
      if r.None? then None
      else
        NoLineShift(ss, cse, r.value);
        assert ss[r.value + 1] == ss[1..][r.value];
        Some(r.value + 1)
  }

  /** Past a leading statement that does not hold the expression, the prefix checked moves by one. */
  lemma NoLineShift(ss: seq<Stmt>, cse: Expr, n: nat)
    requires ss != [] && !LineHolds(ss[0], cse) && n < |ss|
    ensures NoLineBefore(ss, cse, n + 1) <==> NoLineBefore(ss[1..], cse, n)
  {
    Seqs.NoneBeforeShift(ss, LineTest(cse), n);
  }

  /** Once recording, every statement is replaced and nothing fails. */
  lemma {:induction false} ElimStmtsRecorded(ss: seq<Stmt>, cse: Expr, name: string)
    ensures ElimStmts(ss, cse, name, true) == Ok((ReplaceStmts(ss, ExprKey, Slot(cse, name)), true))
    decreases |ss|
  {
    if ss != [] {
      ElimStmtsRecorded(ss[1..], cse, name);
    }
  }

  /**
   * The closed form of a body visited before recording: it fails exactly
   * when a control statement comes before the first line holding the
   * expression (anywhere, when no line holds it). Otherwise the lines
   * before are unchanged, that line is split as its small statements are,
   * and every later statement is replaced; with no such line the body is
   * unchanged.
   */
  function SplitBody(ss: seq<Stmt>, cse: Expr, name: string): (r: Result<(seq<Stmt>, bool)>)
  {
    var k := FirstLine(ss, cse);
    var bound := if k.Some? then k.value else |ss|;
    if ControlBefore(ss, bound) then Err(SyntaxError(CannotHandle))
    else if k.None? then Ok((ss, false))
    else
      var i := k.value;
      Ok((ss[..i] + [Line(ElimSmalls(ss[i].smalls, cse, name, false).0)]
          + ReplaceStmts(ss[i + 1..], ExprKey, Slot(cse, name)), true))
  }

  /** A control statement among the first `n`. */
  predicate ControlBefore(ss: seq<Stmt>, n: nat)
    requires n <= |ss|
  {
    exists j | 0 <= j < n :: Control(ss[j])
  }

  /** Past a leading statement that does not hold the expression, the first holding line moves by one. */
  lemma FirstLineStep(ss: seq<Stmt>, cse: Expr)
    requires ss != [] && !LineHolds(ss[0], cse)
    ensures var k' := FirstLine(ss[1..], cse);
      FirstLine(ss, cse) == if k'.None? then None else Some(k'.value + 1)
  {
  }

  /** Past a leading statement that is not a control statement, the bound moves by one. */
  lemma ControlBeforeStep(ss: seq<Stmt>, n: nat)
    requires 0 < n <= |ss| && !Control(ss[0])
    ensures ControlBefore(ss, n) <==> ControlBefore(ss[1..], n - 1)
  {
    if ControlBefore(ss[1..], n - 1) {
      var j :| 0 <= j < n - 1 && Control(ss[1..][j]);
      assert Control(ss[j + 1]);
    }
    if ControlBefore(ss, n) {
      var j :| 0 <= j < n && Control(ss[j]);
      assert j > 0;
      assert Control(ss[1..][j - 1]);
    }
  }

  /** The closed form where recording starts at line `i`. */
  lemma SplitBodyAt(ss: seq<Stmt>, cse: Expr, name: string, i: nat)
    requires FirstLine(ss, cse) == Some(i) && !ControlBefore(ss, i)
    ensures SplitBody(ss, cse, name)
      == Ok((ss[..i] + [Line(ElimSmalls(ss[i].smalls, cse, name, false).0)] + ReplaceStmts(ss[i + 1..], ExprKey, Slot(cse, name)), true))
  {
  }

  lemma SplitBodyStepSome(ss: seq<Stmt>, cse: Expr, name: string, i: nat)
    requires ss != [] && FirstLine(ss[1..], cse) == Some(i) && FirstLine(ss, cse) == Some(i + 1)
    requires !ControlBefore(ss, i + 1) && !ControlBefore(ss[1..], i)
    ensures var rest := SplitBody(ss[1..], cse, name);
      rest.Ok? && SplitBody(ss, cse, name) == Ok(([ss[0]] + rest.value.0, rest.value.1))
  {
    SplitBodyAt(ss[1..], cse, name, i);
    SplitBodyAt(ss, cse, name, i + 1);
    ShiftSplit(ss, i, [Line(ElimSmalls(ss[i + 1].smalls, cse, name, false).0)],
      ReplaceStmts(ss[i + 2..], ExprKey, Slot(cse, name)));
  }

  /** A leading statement that neither fails nor starts recording is kept in front. */
  lemma SplitBodyStep(ss: seq<Stmt>, cse: Expr, name: string)
    requires ss != [] && !LineHolds(ss[0], cse) && !Control(ss[0])
    ensures var rest := SplitBody(ss[1..], cse, name);
      SplitBody(ss, cse, name) == if rest.Err? then rest else Ok(([ss[0]] + rest.value.0, rest.value.1))
  {
    FirstLineStep(ss, cse);
    var k' := FirstLine(ss[1..], cse);
    if k'.Some? {
      var i := k'.value;
      ControlBeforeStep(ss, i + 1);
      if ControlBefore(ss, i + 1) {
        SplitBodyStepFail(ss, cse, name, i);
      } else {
        SplitBodyStepSome(ss, cse, name, i);
      }
    } else {
      ControlBeforeStep(ss, |ss|);
      SplitBodyStepNone(ss, cse, name);
    }
  }

  lemma SplitBodyStepFail(ss: seq<Stmt>, cse: Expr, name: string, i: nat)
    requires ss != [] && FirstLine(ss[1..], cse) == Some(i) && FirstLine(ss, cse) == Some(i + 1)
    requires ControlBefore(ss, i + 1) && ControlBefore(ss[1..], i)
    ensures SplitBody(ss, cse, name) == Err(SyntaxError(CannotHandle))
    ensures SplitBody(ss[1..], cse, name) == Err(SyntaxError(CannotHandle))
  {
  }

  lemma SplitBodyStepNone(ss: seq<Stmt>, cse: Expr, name: string)
    requires ss != [] && FirstLine(ss[1..], cse).None? && FirstLine(ss, cse).None?
    requires ControlBefore(ss, |ss|) <==> ControlBefore(ss[1..], |ss| - 1)
    ensures var rest := SplitBody(ss[1..], cse, name);
      SplitBody(ss, cse, name) == if rest.Err? then rest else Ok(([ss[0]] + rest.value.0, rest.value.1))
  {
    assert [ss[0]] + ss[1..] == ss;
  }

  /** A leading line that holds the expression is where recording starts. */
  lemma SplitBodyHere(ss: seq<Stmt>, cse: Expr, name: string)
    requires ss != [] && LineHolds(ss[0], cse)
    ensures SplitBody(ss, cse, name)
      == Ok(([Line(ElimSmalls(ss[0].smalls, cse, name, false).0)] + ReplaceStmts(ss[1..], ExprKey, Slot(cse, name)), true))
  {
    assert FirstLine(ss, cse) == Some(0);
    SplitBodyAt(ss, cse, name, 0);
    EmptyFront(ss, [Line(ElimSmalls(ss[0].smalls, cse, name, false).0)], ReplaceStmts(ss[1..], ExprKey, Slot(cse, name)));
  }

  /** A leading control statement fails. */
  lemma SplitBodyControl(ss: seq<Stmt>, cse: Expr, name: string)
    requires ss != [] && Control(ss[0])
    ensures SplitBody(ss, cse, name) == Err(SyntaxError(CannotHandle))
  {
    var k := FirstLine(ss, cse);
    assert k.Some? ==> k.value > 0;
    assert ControlBefore(ss, if k.Some? then k.value else |ss|);
  }

  /** Visiting a body before recording agrees with the closed form. */
  lemma {:induction false} ElimStmtsSplit(ss: seq<Stmt>, cse: Expr, name: string)
    ensures ElimStmts(ss, cse, name, false) == SplitBody(ss, cse, name)
    decreases |ss|
  {
    if ss == [] {
      assert FirstLine(ss, cse).None?;
    } else {
      var s := ss[0];
      if Control(s) {
        SplitBodyControl(ss, cse, name);
      } else if LineHolds(s, cse) {
        ElimSmallsSplit(s.smalls, cse, name);
        ElimStmtsRecorded(ss[1..], cse, name);
        SplitBodyHere(ss, cse, name);
      } else {
        if s.Line? {
          ElimSmallsSplit(s.smalls, cse, name);
        }
        assert ElimStmt(s, cse, name, false) == Ok((s, false));
        ElimStmtsSplit(ss[1..], cse, name);
        SplitBodyStep(ss, cse, name);
      }
    }
  }

  function ElimBlock(b: Block, cse: Expr, name: string): Result<(Block, bool)>
  {
    match b
    case Indented(stmts) =>
      var r :- ElimStmts(stmts, cse, name, false);
      Ok((Indented(r.0), r.1))
    case Inline(smalls) =>
      var r := ElimSmalls(smalls, cse, name, false);
      Ok((Inline(r.0), r.1))
  }

  /**
   * `CSEElim(cse, name).visit(root)`: the root's body is visited, then its
   * decorators, which are replaced when recording started in the body.
   */
  function Elim(root: Stmt, cse: Expr, name: string): (r: Result<Stmt>)
    ensures r.Err? ==> r.error == SyntaxError(CannotHandle) || r.error.Unmodelled?
  {
    match root
    case Def(n, params, decorators, body, isAsync) =>
      ElimStmtsSplitCall(body, cse, name);
      var b :- ElimBlock(body, cse, name);
      Ok(Def(n, params, if b.1 then ReplaceExprs(decorators, ExprKey, Slot(cse, name)) else decorators, b.0, isAsync))
    case Class(n, decorators, body) =>
      ElimStmtsSplitCall(body, cse, name);
      var b :- ElimBlock(body, cse, name);
      Ok(Class(n, if b.1 then ReplaceExprs(decorators, ExprKey, Slot(cse, name)) else decorators, b.0))
    case _ => Err(Unmodelled("a root other than a definition"))
  }

  lemma ElimStmtsSplitCall(b: Block, cse: Expr, name: string)
    ensures ElimBlock(b, cse, name).Err? ==> ElimBlock(b, cse, name).error == SyntaxError(CannotHandle)
  {
    if b.Indented? {
      ElimStmtsSplit(b.stmts, cse, name);
    }
  }

  /**
   * On a function whose body is an indented block, a round fails exactly
   * when a control statement comes before the first line holding the
   * expression in an assignment; otherwise the body takes its closed form
   * and the decorators are replaced exactly when recording started.
   */
  lemma ElimShape(root: Stmt, cse: Expr, name: string)
    requires root.Def? && root.body.Indented?
    ensures var body := SplitBody(root.body.stmts, cse, name);
      var r := Elim(root, cse, name);
      && (r.Err? <==> body.Err?)
      && (r.Ok? ==> r.value == Def(root.name, root.params,
            if body.value.1 then ReplaceExprs(root.decorators, ExprKey, Slot(cse, name)) else root.decorators,
            Indented(body.value.0), root.isAsync))
  {
    ElimStmtsSplit(root.body.stmts, cse, name);
  }

  // ---------------------------------------------------------------------
  // The elimination loop (`cse.rewrite`)
  // ---------------------------------------------------------------------

  /** The counted nodes of a tree. */
  function TreeCandidates(tree: Stmt): seq<Expr>
  {
    Candidates(TreeNodes(tree))
  }

  /** No counted expression occurs twice: the loop's exit condition. */
  predicate NoCommon(tree: Stmt)
  {
    forall x | x in TreeCandidates(tree) :: multiset(TreeCandidates(tree))[x] <= 1
  }

  /** The loop exits exactly when no counted expression occurs twice. */
  lemma ExitIffNoCommon(tree: Stmt)
    ensures var cs := TreeCandidates(tree);
      var m := MostCommon(cs);
      (m.None? || multiset(cs)[m.value] <= 1) <==> NoCommon(tree)
  {
    var cs := TreeCandidates(tree);
    if cs != [] {
      MostCommonChosen(cs);
    }
  }

  const OutOfFuel: PyError := Unmodelled("elimination rounds beyond the fuel")

  /**
   * The loop of `rewrite` as written: the `c`-th round eliminates the
   * leader under the name `prefix + repr(c)`, until no counted expression
   * occurs twice. The fuel bounds the number of rounds.
   */
  function Loop(fuel: nat, tree: Stmt, prefix: string, c: nat): (r: Result<Stmt>)
    decreases fuel
  {
    var cs := TreeCandidates(tree);
    var m := MostCommon(cs);
    if m.None? || multiset(cs)[m.value] <= 1 then Ok(tree)
    else if fuel == 0 then Err(OutOfFuel)
    else
      var t :- Elim(tree, m.value, prefix + Str(c));
      Loop(fuel - 1, t, prefix, c + 1)
  }

  /** The loop's exit condition: no leader, or a leader occurring at most once. */
  predicate Exits(tree: Stmt)
  {
    var cs := TreeCandidates(tree);
    var m := MostCommon(cs);
    m.None? || multiset(cs)[m.value] <= 1
  }

  /** A round of the loop, when the exit condition fails and fuel remains. */
  lemma LoopRound(fuel: nat, tree: Stmt, prefix: string, c: nat)
    requires !Exits(tree) && fuel > 0
    ensures var t := Elim(tree, MostCommon(TreeCandidates(tree)).value, prefix + Str(c));
      Loop(fuel, tree, prefix, c) == if t.Err? then Err(t.error) else Loop(fuel - 1, t.value, prefix, c + 1)
  {
  }

  /** A loop that ends well ends at a tree meeting the exit condition. */
  lemma {:induction false} LoopExits(fuel: nat, tree: Stmt, prefix: string, c: nat)
    ensures var r := Loop(fuel, tree, prefix, c); r.Ok? ==> Exits(r.value)
    decreases fuel
  {
    if !Exits(tree) && fuel > 0 {
      LoopRound(fuel, tree, prefix, c);
      var t := Elim(tree, MostCommon(TreeCandidates(tree)).value, prefix + Str(c));
      if t.Ok? {
        LoopExits(fuel - 1, t.value, prefix, c + 1);
      }
    }
  }

  /** A loop that fails runs out of fuel or fails in a round. */
  lemma {:induction false} LoopErrors(fuel: nat, tree: Stmt, prefix: string, c: nat)
    ensures var r := Loop(fuel, tree, prefix, c);
      r.Err? ==> r.error == OutOfFuel || r.error == SyntaxError(CannotHandle) || r.error.Unmodelled?
    decreases fuel
  {
    if !Exits(tree) && fuel > 0 {
      LoopRound(fuel, tree, prefix, c);
      var t := Elim(tree, MostCommon(TreeCandidates(tree)).value, prefix + Str(c));
      if t.Ok? {
        LoopErrors(fuel - 1, t.value, prefix, c + 1);
      }
    }
  }

  /** A loop that ends leaves no counted expression occurring twice. */
  lemma LoopResult(fuel: nat, tree: Stmt, prefix: string, c: nat)
    ensures var r := Loop(fuel, tree, prefix, c);
      && (r.Ok? ==> NoCommon(r.value))
      && (r.Err? ==> r.error == OutOfFuel || r.error == SyntaxError(CannotHandle) || r.error.Unmodelled?)
  {
    LoopExits(fuel, tree, prefix, c);
    LoopErrors(fuel, tree, prefix, c);
    var r := Loop(fuel, tree, prefix, c);
    if r.Ok? {
      ExitIffNoCommon(r.value);
    }
  }

  /** The counted nodes of a tree, the measure the corrected loop lowers. */
  function Weight(tree: Stmt): nat
  {
    |TreeCandidates(tree)|
  }

  /**
   * The corrected loop: a round is kept only when it lowers the number
   * of counted nodes, and the loop stops with the tree as it was before
   * a round that does not. The measure makes it end on every input.
   */
  function Settle(tree: Stmt, prefix: string, c: nat): (r: Result<Stmt>)
    decreases Weight(tree)
  {
    var cs := TreeCandidates(tree);
    var m := MostCommon(cs);
    if m.None? || multiset(cs)[m.value] <= 1 then Ok(tree)
    else
      var t :- Elim(tree, m.value, prefix + Str(c));
      if Weight(t) < Weight(tree) then Settle(t, prefix, c + 1) else Ok(tree)
  }

  /** A round on the tree that would not lower its number of counted nodes. */
  ghost predicate Unproductive(tree: Stmt, prefix: string)
  {
    var m := MostCommon(TreeCandidates(tree));
    m.Some? && exists c: nat :: var t := Elim(tree, m.value, prefix + Str(c)); t.Ok? && Weight(t.value) >= Weight(tree)
  }

  /**
   * The corrected loop ends without fuel, with no counted expression
   * occurring twice or at a tree whose next round would not pay off, and
   * its only errors are those of a round.
   */
  lemma {:induction false} SettleResult(tree: Stmt, prefix: string, c: nat)
    ensures var r := Settle(tree, prefix, c);
      && (r.Ok? ==> NoCommon(r.value) || Unproductive(r.value, prefix))
      && (r.Err? ==> r.error == SyntaxError(CannotHandle) || r.error.Unmodelled?)
    decreases Weight(tree)
  {
    ExitIffNoCommon(tree);
    var cs := TreeCandidates(tree);
    var m := MostCommon(cs);
    if !(m.None? || multiset(cs)[m.value] <= 1) {
      var t := Elim(tree, m.value, prefix + Str(c));
      if t.Ok? {
        if Weight(t.value) < Weight(tree) {
          SettleResult(t.value, prefix, c + 1);
        } else {
          assert Settle(tree, prefix, c) == Ok(tree);
          assert Unproductive(tree, prefix);
        }
      }
    }
  }

  /**
   * `cse(cse_prefix).rewrite(tree, env, metadata)`: the names are drawn on
   * a prefix free in the tree and the environment; the environment and
   * metadata come back unchanged. The fuel bounds the rounds of the loop
   * as written and is not needed by the corrected one.
   */
  function Pass<V, M>(policy: Policy, fuel: nat, tree: Stmt, prefix: string, env: SymbolTables.SymbolTable<V>, metadata: M)
    : (r: Result<(Stmt, SymbolTables.SymbolTable<V>, M)>)
    ensures var p := FreeNames.GenFreePrefix(tree, SymbolTables.Keys(env), Some(prefix));
      && (r.Ok? && policy.AsWritten? ==> NoCommon(r.value.0))
      && (r.Ok? && policy.Corrected? ==> NoCommon(r.value.0) || Unproductive(r.value.0, p))
      && (r.Err? && policy.Corrected? ==> r.error == SyntaxError(CannotHandle) || r.error.Unmodelled?)
      && (r.Ok? ==> r.value.1 == env && r.value.2 == metadata)
  {
    var p := FreeNames.GenFreePrefix(tree, SymbolTables.Keys(env), Some(prefix));
    LoopResult(fuel, tree, p, 0);
    SettleResult(tree, p, 0);
    var t :- if policy.AsWritten? then Loop(fuel, tree, p, 0) else Settle(tree, p, 0);
    Ok((t, env, metadata))
  }

  // ---------------------------------------------------------------------
  // Finding: the loop as written does not end
  // ---------------------------------------------------------------------

  function AB(a: string, b: string): Expr
  {
    BinOp(LoadName(a), Add, LoadName(b))
  }

  function PrintAB(p: string, a: string, b: string): Small
  {
    ExprStmt(Call(LoadName(p), [AB(a, b)], []))
  }

  /** `def f(a, b): p(a + b); p(a + b)`, for any names. */
  function Divergent(f: string, p: string, a: string, b: string): Stmt
  {
    Def(f, [a, b], [], Indented([Line([PrintAB(p, a, b)]), Line([PrintAB(p, a, b)])]), false)
  }

  lemma {:induction false} CandidatesAppend(a: seq<Expr>, b: seq<Expr>)
    ensures Candidates(a + b) == Candidates(a) + Candidates(b)
    decreases |a|
  {
    if a != [] {
      assert (a + b)[0] == a[0];
      assert (a + b)[1..] == a[1..] + b;
      CandidatesAppend(a[1..], b);
      var h := if Counted(a[0]) then [a[0]] else [];
      assert h + (Candidates(a[1..]) + Candidates(b)) == (h + Candidates(a[1..])) + Candidates(b);
    } else {
      assert a + b == b;
    }
  }

  /** The nodes of the call `p(a + b)`, in visiting order. */
  function CallNodes(p: string, a: string, b: string): seq<Expr>
  {
    [Call(LoadName(p), [AB(a, b)], []), LoadName(p), AB(a, b), LoadName(a), LoadName(b)]
  }

  lemma DivergentNodes(f: string, p: string, a: string, b: string)
    ensures TreeNodes(Divergent(f, p, a, b)) == CallNodes(p, a, b) + CallNodes(p, a, b)
  {
    var call := Call(LoadName(p), [AB(a, b)], []);
    var ns := CallNodes(p, a, b);
    assert ExprNodes(AB(a, b)) == [AB(a, b), LoadName(a), LoadName(b)];
    assert ExprNodes(call) == ns by {
      assert ExprNodes(LoadName(p)) == [LoadName(p)];
      assert ExprsNodes([AB(a, b)]) == ExprNodes(AB(a, b)) by {
        assert [AB(a, b)][1..] == [];
      }
      assert KeywordsNodes([]) == [];
    }
    assert StmtExprs(Divergent(f, p, a, b)) == [call, call] by {
      var line := Line([PrintAB(p, a, b)]);
      assert SmallsExprs([PrintAB(p, a, b)]) == [call] by {
        assert [PrintAB(p, a, b)][1..] == [];
      }
      assert StmtExprs(line) == [call];
      assert StmtsExprs([line]) == [call] by {
        assert [line][1..] == [];
      }
      assert StmtsExprs([line, line]) == [call, call] by {
        assert [line, line][1..] == [line];
      }
    }
    assert ExprsNodes([call]) == ns;
    assert [call, call][1..] == [call];
  }

  lemma CallCandidates(p: string, a: string, b: string)
    ensures Candidates(CallNodes(p, a, b)) == [AB(a, b)]
  {
    var t4 := [LoadName(b)] + [];
    var t3 := [LoadName(a)] + t4;
    var t2 := [AB(a, b)] + t3;
    var t1 := [LoadName(p)] + t2;
    var call := Call(LoadName(p), [AB(a, b)], []);
    assert CallNodes(p, a, b) == [call] + t1;
    CandidatesCons(LoadName(b), []);
    CandidatesCons(LoadName(a), t4);
    CandidatesCons(AB(a, b), t3);
    CandidatesCons(LoadName(p), t2);
    CandidatesCons(call, t1);
  }

  /** One step of counting: the head is kept exactly when it is a counted kind. */
  lemma CandidatesCons(x: Expr, t: seq<Expr>)
    ensures Candidates([x] + t) == (if Counted(x) then [x] else []) + Candidates(t)
  {
    assert ([x] + t)[1..] == t;
  }

  lemma DivergentCounts(f: string, p: string, a: string, b: string)
    ensures TreeCandidates(Divergent(f, p, a, b)) == [AB(a, b), AB(a, b)]
    ensures MostCommon(TreeCandidates(Divergent(f, p, a, b))) == Some(AB(a, b))
  {
    var ns := CallNodes(p, a, b);
    DivergentNodes(f, p, a, b);
    CallCandidates(p, a, b);
    CandidatesAppend(ns, ns);
    var cs := [AB(a, b), AB(a, b)];
    assert multiset(cs)[AB(a, b)] == 2;
    assert Scan(cs, 1, AB(a, b)) == Scan(cs, 2, AB(a, b));
  }

  /** No assignment holds `a + b`, so a round leaves the tree as it is. */
  lemma DivergentRound(f: string, p: string, a: string, b: string, name: string)
    ensures Elim(Divergent(f, p, a, b), AB(a, b), name) == Ok(Divergent(f, p, a, b))
  {
    var ss := [Line([PrintAB(p, a, b)]), Line([PrintAB(p, a, b)])];
    assert !Holds(PrintAB(p, a, b), AB(a, b));
    assert FirstHolder([PrintAB(p, a, b)], AB(a, b)).None?;
    assert FirstLine(ss, AB(a, b)).None?;
    assert !ControlBefore(ss, |ss|);
    ElimStmtsSplit(ss, AB(a, b), name);
  }

  /** A round that changes nothing hands the same tree to the next round. */
  lemma LoopRepeats(fuel: nat, tree: Stmt, prefix: string, c: nat, m: Expr)
    requires MostCommon(TreeCandidates(tree)) == Some(m) && multiset(TreeCandidates(tree))[m] > 1
    requires Elim(tree, m, prefix + Str(c)) == Ok(tree)
    ensures Loop(fuel, tree, prefix, c) == if fuel == 0 then Err(OutOfFuel) else Loop(fuel - 1, tree, prefix, c + 1)
  {
  }

  /** One round on the divergent input hands the same tree to the next round. */
  lemma DivergentStep(f: string, p: string, a: string, b: string, fuel: nat, prefix: string, c: nat)
    ensures var tree := Divergent(f, p, a, b);
      Loop(fuel, tree, prefix, c) == if fuel == 0 then Err(OutOfFuel) else Loop(fuel - 1, tree, prefix, c + 1)
  {
    var tree := Divergent(f, p, a, b);
    DivergentCounts(f, p, a, b);
    assert multiset(TreeCandidates(tree))[AB(a, b)] == 2;
    DivergentRound(f, p, a, b, prefix + Str(c));
    LoopRepeats(fuel, tree, prefix, c, AB(a, b));
  }

  /** As written, the loop on this input runs out of any fuel. */
  lemma {:induction false} Diverges(f: string, p: string, a: string, b: string, fuel: nat, prefix: string, c: nat)
    ensures Loop(fuel, Divergent(f, p, a, b), prefix, c) == Err(OutOfFuel)
    decreases fuel
  {
    DivergentStep(f, p, a, b, fuel, prefix, c);
    if fuel > 0 {
      Diverges(f, p, a, b, fuel - 1, prefix, c + 1);
    }
  }

  /** A round that does not lower the weight ends the corrected loop. */
  lemma SettleStops(tree: Stmt, prefix: string, c: nat, m: Expr)
    requires MostCommon(TreeCandidates(tree)) == Some(m) && multiset(TreeCandidates(tree))[m] > 1
    requires Elim(tree, m, prefix + Str(c)) == Ok(tree)
    ensures Settle(tree, prefix, c) == Ok(tree)
  {
  }

  /** The corrected loop stops at once, leaving the tree unchanged. */
  lemma DivergentSettles(f: string, p: string, a: string, b: string, prefix: string, c: nat)
    ensures Settle(Divergent(f, p, a, b), prefix, c) == Ok(Divergent(f, p, a, b))
  {
    var tree := Divergent(f, p, a, b);
    DivergentCounts(f, p, a, b);
    assert multiset(TreeCandidates(tree))[AB(a, b)] == 2;
    DivergentRound(f, p, a, b, prefix + Str(c));
    SettleStops(tree, prefix, c, AB(a, b));
  }
}

=== FILE: free_names.dfy ===
/**
 * Free-name generation of `common.py`. The set of taken names is the used
 * names of the tree together with the keys of the environment; a candidate
 * is the prefix itself when free, otherwise the prefix followed by the
 * decimal counter 0, 1, 2, ... .
 */
module FreeNames {
  import opened Results
  import opened Syntax
  import opened Strings
  import UsedNames

  const DefaultNamePrefix: string := "_auto_name_"
  const DefaultPrefixPrefix: string := "_auto_prefix_"

  /** `used_names(tree) | env.keys()` */
  function Taken(tree: Stmt, env: set<string>): set<string>
  {
    UsedNames.StmtNames(tree) + env
  }

  /** `is_free_name`: the name is neither used in the tree nor bound in the environment. */
  predicate IsFreeName(tree: Stmt, env: set<string>, name: string)
  {
    name !in UsedNames.StmtNames(tree) && name !in env
  }

  /** No taken name starts with `prefix` (the check of `is_free_prefix` and `gen_free_prefix`). */
  predicate PrefixFree(names: set<string>, prefix: string)
  {
    forall n | n in names :: !StartsWith(n, prefix)
  }

  predicate IsFreePrefix(tree: Stmt, env: set<string>, prefix: string)
  {
    PrefixFree(UsedNames.StmtNames(tree) + env, prefix)
  }

  /** An upper bound on the length of every name in a set. */
  ghost function MaxLen(names: set<string>): (m: nat)
    ensures forall x | x in names :: |x| <= m
    decreases |names|
  {
    if names == {} then 0
    else
      var x :| x in names;
      var m := MaxLen(names - {x});
      if |x| > m then |x| else m
  }

  /** Beyond 10^MaxLen every candidate is longer than every taken name. */
  lemma CandidateTooLong(names: set<string>, p: string, c: nat)
    requires Pow10(MaxLen(names)) <= c
    ensures forall n | n in names :: |n| < |p + Str(c)|
  {
    StrLongerThan(c, MaxLen(names));
  }

  /** The smallest counter `k >= c` whose candidate name is not taken. */
  function FirstFreeIndex(names: set<string>, p: string, c: nat): (k: nat)
    ensures c <= k && p + Str(k) !in names
    ensures forall j | c <= j < k :: p + Str(j) in names
    decreases Pow10(MaxLen(names)) - c
  {
    if p + Str(c) !in names then c
    else
      CandidateTooLongBlocked(names, p, c);
      FirstFreeIndex(names, p, c + 1)
  }

  lemma CandidateTooLongBlocked(names: set<string>, p: string, c: nat)
    requires p + Str(c) in names
    ensures c < Pow10(MaxLen(names))
  {
    if Pow10(MaxLen(names)) <= c {
      CandidateTooLong(names, p, c);
    }
  }

  /** The smallest counter `k >= c` whose candidate prefix no taken name starts with. */
  function FirstFreePrefixIndex(names: set<string>, p: string, c: nat): (k: nat)
    ensures c <= k && PrefixFree(names, p + Str(k))
    ensures forall j | c <= j < k :: !PrefixFree(names, p + Str(j))
    decreases Pow10(MaxLen(names)) - c
  {
    if PrefixFree(names, p + Str(c)) then c
    else
      assert c < Pow10(MaxLen(names)) by {
        if Pow10(MaxLen(names)) <= c {
          CandidateTooLong(names, p, c);
        }
      }
      FirstFreePrefixIndex(names, p, c + 1)
  }

  /** `gen_free_name` over the taken set. */
  function FreeNameIn(names: set<string>, prefix: Option<string>): (r: string)
    ensures r !in names
    ensures prefix.Some? && prefix.value !in names ==> r == prefix.value
    ensures prefix.None? || prefix.value in names ==>
      var p := if prefix.Some? then prefix.value else DefaultNamePrefix;
      exists k: nat | r == p + Str(k) :: forall j: nat | j < k :: p + Str(j) in names
  {
    if prefix.Some? && prefix.value !in names then prefix.value
    else
      var p := if prefix.Some? then prefix.value else DefaultNamePrefix;
      p + Str(FirstFreeIndex(names, p, 0))
  }

  /** `gen_free_prefix` over the taken set. */
  function FreePrefixIn(names: set<string>, preprefix: Option<string>): (r: string)
    ensures PrefixFree(names, r)
    ensures preprefix.Some? && PrefixFree(names, preprefix.value) ==> r == preprefix.value
    ensures preprefix.None? || !PrefixFree(names, preprefix.value) ==>
      var p := if preprefix.Some? then preprefix.value else DefaultPrefixPrefix;
      exists k: nat | r == p + Str(k) :: forall j: nat | j < k :: !PrefixFree(names, p + Str(j))
  {
    if preprefix.Some? && PrefixFree(names, preprefix.value) then preprefix.value
    else
      var p := if preprefix.Some? then preprefix.value else DefaultPrefixPrefix;
      p + Str(FirstFreePrefixIndex(names, p, 0))
  }

  function GenFreeName(tree: Stmt, env: set<string>, prefix: Option<string>): string
  {
    FreeNameIn(Taken(tree, env), prefix)
  }

  function GenFreePrefix(tree: Stmt, env: set<string>, preprefix: Option<string>): string
  {
    FreePrefixIn(Taken(tree, env), preprefix)
  }

  /** Every name built on a free prefix is itself free. */
  lemma {:induction false} FreePrefixExtends(tree: Stmt, env: set<string>, preprefix: Option<string>, suffix: string)
    ensures IsFreeName(tree, env, GenFreePrefix(tree, env, preprefix) + suffix)
  {
    var r := GenFreePrefix(tree, env, preprefix);
    var n := r + suffix;
    assert StartsWith(n, r) by { assert n[..|r|] == r; }
  }

  /**
   * The loop of `gen_free_name`: count up from 0 until the candidate is
   * not taken.
   */
  method GenFreeNameLoop(names: set<string>, prefix: Option<string>) returns (name: string)
    ensures name !in names
    ensures prefix.Some? && prefix.value !in names ==> name == prefix.value
    ensures prefix.None? || prefix.value in names ==>
      var p := if prefix.Some? then prefix.value else DefaultNamePrefix;
      exists k: nat | name == p + Str(k) :: forall j: nat | j < k :: p + Str(j) in names
  {
    if prefix.Some? && prefix.value !in names {
      return prefix.value;
    }
    var p := if prefix.Some? then prefix.value else DefaultNamePrefix;
    var c: nat := 0;
    name := p + Str(c);
    while name in names
      invariant name == p + Str(c)
      invariant forall j: nat | j < c :: p + Str(j) in names
      decreases Pow10(MaxLen(names)) - c
    {
      CandidateTooLongBlocked(names, p, c);
      c := c + 1;
      name := p + Str(c);
    }
  }

  /**
   * `tests/test_common.py` expects `P3` here, but the prefix `P` itself is
   * free (the class body holding `P5` is not entered), so `P` is returned.
   */
  lemma UnusedPrefixReturnedBare()
    ensures FreeNameIn(UsedNames.StmtsNames([
      Class("P0", [], Indented([AssignLine(StoreName("P5"), Lit("1"))])),
      Def("P1", [], [], Indented([Line([Return(Some(Attr(LoadName("P0"), "P5")))])]), false),
      AssignLine(StoreName("P2"), Call(LoadName("P1"), [], []))
    ]), Some("P")) == "P"
  {
  }
}

=== FILE: guards.dfy ===
/**
 * Guarded-expression sequences of `passes/ssa.py` (shared verbatim by
 * `passes/ssa_cst.py`): a list of (guard, value) entries, where a guard is
 * the conjunction of its terms and the first entry whose guard holds
 * supplies the value.
 */
module Guards {
  import opened Results
  import opened Syntax

  datatype Guarded = Guarded(guard: seq<Expr>, value: Expr)

  /**
   * The pattern `_simplify_gaurds` rewrites: the guard ends in `not X`,
   * `X` is the last term of the previous guard, and the two guards agree on
   * everything before their last terms.
   */
  predicate Negates(g: seq<Expr>, last: seq<Expr>)
  {
    |g| > 0 && |last| > 0
    && g[|g| - 1].Unary? && g[|g| - 1].uop == Not
    && g[|g| - 1].operand == last[|last| - 1]
    && g[..|g| - 1] == last[..|last| - 1]
  }

  /** The loop of `impl`: `acc` is `new_seq`, `rest` the entries still to visit. */
  function SimplifyFrom(acc: seq<Guarded>, rest: seq<Guarded>): (r: seq<Guarded>)
    requires |acc| > 0
    ensures |acc| <= |r| && r[..|acc|] == acc
    decreases |rest|
  {
    if rest == [] then acc
    else
      var last := acc[|acc| - 1].guard;
      var g := rest[0].guard;
      if last == [] then acc
      else if g == [] then acc + [rest[0]]
      else if Negates(g, last) then SimplifyFrom(acc + [Guarded(g[..|g| - 1], rest[0].value)], rest[1..])
      else SimplifyFrom(acc + [rest[0]], rest[1..])
  }

  /** `impl(gaurded_seq)`; the caller always supplies at least one entry. */
  function SimplifyImpl(s: seq<Guarded>): seq<Guarded>
    requires |s| > 0
  {
    SimplifyFrom([s[0]], s[1..])
  }

  /**
   * `_simplify_gaurds`: the first entry is kept, and the assertion that a
   * second pass changes nothing always holds.
   */
  function SimplifyGuards(s: seq<Guarded>): (r: seq<Guarded>)
    requires |s| > 0
    ensures 0 < |r| <= |s| && r[0] == s[0]
    ensures SimplifyImpl(r) == r
  {
    var r := SimplifyImpl(s);
    SimplifyLength([s[0]], s[1..]);
    SimplifyStable([s[0]], s[1..]);
    StableFixed(r, 1);
    r
  }

  /** Three guarded entries where only the last negates its predecessor: the last two merge. */
  lemma SimplifyThree(a: Guarded, b: Guarded, c: Guarded)
    requires a.guard != [] && b.guard != []
    requires !Negates(b.guard, a.guard) && Negates(c.guard, b.guard)
    ensures SimplifyGuards([a, b, c]) == [a, b, Guarded(c.guard[..|c.guard| - 1], c.value)]
  {
    var m := Guarded(c.guard[..|c.guard| - 1], c.value);
    assert [a, b, c][1..] == [b, c] && [b, c][1..] == [c] && [c][1..] == [];
    assert SimplifyFrom([a, b], [c]) == SimplifyFrom([a, b] + [m], []);
    assert SimplifyFrom([a], [b, c]) == SimplifyFrom([a] + [b], [c]);
    assert [a] + [b] == [a, b] && [a, b] + [m] == [a, b, m];
  }

  /**
   * The shape every simplified sequence has: only the last entry may have an
   * empty guard, and no entry negates its predecessor's last term.
   */
  predicate Stable(n: seq<Guarded>)
  {
    forall k | 0 <= k < |n| - 1 :: n[k].guard != [] && !Negates(n[k + 1].guard, n[k].guard)
  }

  lemma {:induction false} SimplifyLength(acc: seq<Guarded>, rest: seq<Guarded>)
    requires |acc| > 0
    ensures |SimplifyFrom(acc, rest)| <= |acc| + |rest|
    decreases |rest|
  {
    if rest != [] && acc[|acc| - 1].guard != [] && rest[0].guard != [] {
      var g := rest[0].guard;
      if Negates(g, acc[|acc| - 1].guard) {
        SimplifyLength(acc + [Guarded(g[..|g| - 1], rest[0].value)], rest[1..]);
      } else {
        SimplifyLength(acc + [rest[0]], rest[1..]);
      }
    }
  }

  lemma {:induction false} SimplifyStable(acc: seq<Guarded>, rest: seq<Guarded>)
    requires |acc| > 0 && Stable(acc)
    ensures Stable(SimplifyFrom(acc, rest))
    decreases |rest|
  {
    if rest != [] && acc[|acc| - 1].guard != [] && rest[0].guard != [] {
      var last := acc[|acc| - 1].guard;
      var g := rest[0].guard;
      if Negates(g, last) {
        var e := Guarded(g[..|g| - 1], rest[0].value);
        StableSnoc(acc, e);
        SimplifyStable(acc + [e], rest[1..]);
      } else {
        StableSnoc(acc, rest[0]);
        SimplifyStable(acc + [rest[0]], rest[1..]);
      }
    }
  }

  lemma StableSnoc(acc: seq<Guarded>, e: Guarded)
    requires |acc| > 0 && Stable(acc)
    requires acc[|acc| - 1].guard != [] && !Negates(e.guard, acc[|acc| - 1].guard)
    ensures Stable(acc + [e])
  {
    var n := acc + [e];
    forall k | 0 <= k < |n| - 1 ensures n[k].guard != [] && !Negates(n[k + 1].guard, n[k].guard) {
      if k < |acc| - 1 {
        assert n[k] == acc[k] && n[k + 1] == acc[k + 1];
      }
    }
  }

  /** Running the loop over the tail of a stable sequence rebuilds it. */
  lemma {:induction false} StableFixed(n: seq<Guarded>, k: nat)
    requires Stable(n) && 1 <= k <= |n|
    ensures SimplifyFrom(n[..k], n[k..]) == n
    decreases |n| - k
  {
    if k < |n| {
      assert n[..k][k - 1] == n[k - 1];
      assert n[k..][0] == n[k];
      assert n[..k] + [n[k]] == n[..k + 1];
      assert n[k..][1..] == n[k + 1..];
      if n[k].guard != [] {
        StableFixed(n, k + 1);
      }
    } else {
      assert n[..k] == n;
    }
  }

  /** `ft.reduce(and_builder, gaurd)`: a left-nested `and` of the terms. */
  function AndChain(g: seq<Expr>): Expr
    requires |g| > 0
  {
    if |g| == 1 then g[0] else BoolOp(And, [AndChain(g[..|g| - 1]), g[|g| - 1]])
  }

  /**
   * `_fold_conditions(seq, strict)`: an exhausted sequence raises
   * `IncompleteGaurdError` in strict mode (and is an `IndexError` otherwise);
   * an empty guard, or the last entry in non-strict mode, gives the bare
   * value; any other entry becomes a conditional expression.
   */
  function Fold(s: seq<Guarded>, strict: bool): (r: Result<Expr>)
    ensures r.Err? ==> r.error == (if strict then IncompleteGuardError else IndexError)
    decreases |s|
  {
    if s == [] then
      if strict then Err(IncompleteGuardError) else Err(IndexError)
    else if s[0].guard == [] || (!strict && |s| == 1) then Ok(s[0].value)
    else
      var g := s[0].guard;
      var test := if |g| == 1 then g[0] else AndChain(g);
      match Fold(s[1..], strict)
      case Err(e) => Err(e)
      case Ok(orelse) => Ok(IfExp(test, s[0].value, orelse))
  }

  /** Some entry carries the empty (always true) guard. */
  predicate HasDefault(s: seq<Guarded>)
  {
    exists i | 0 <= i < |s| :: s[i].guard == []
  }

  /**
   * Folding succeeds exactly when there is something to fall back on: an
   * unguarded entry, or, in non-strict mode, any entry at all.
   */
  lemma {:induction false} FoldSucceeds(s: seq<Guarded>, strict: bool)
    ensures Fold(s, strict).Ok? <==> (!strict && |s| > 0) || HasDefault(s)
    decreases |s|
  {
    if s != [] && s[0].guard != [] && (strict || |s| != 1) {
      FoldSucceeds(s[1..], strict);
      if HasDefault(s) {
        var i :| 0 <= i < |s| && s[i].guard == [];
        assert s[1..][i - 1].guard == [];
      }
      if HasDefault(s[1..]) {
        var i :| 0 <= i < |s[1..]| && s[1..][i].guard == [];
        assert s[i + 1].guard == [];
      }
    }
  }

  /** Simplification keeps an unguarded entry (possibly an earlier one it produced). */
  lemma {:induction false} SimplifyKeepsDefault(acc: seq<Guarded>, rest: seq<Guarded>)
    requires |acc| > 0 && (HasDefault(acc) || HasDefault(rest))
    ensures HasDefault(SimplifyFrom(acc, rest))
    decreases |rest|
  {
    var r := SimplifyFrom(acc, rest);
    if HasDefault(acc) {
      var i :| 0 <= i < |acc| && acc[i].guard == [];
      assert r[..|acc|][i] == r[i];
    } else if rest != [] {
      var last := acc[|acc| - 1].guard;
      var g := rest[0].guard;
      if g == [] {
        assert r[|acc|].guard == [];
      } else {
        var i :| 0 <= i < |rest| && rest[i].guard == [];
        assert i > 0;
        assert rest[1..][i - 1].guard == [];
        if Negates(g, last) {
          SimplifyKeepsDefault(acc + [Guarded(g[..|g| - 1], rest[0].value)], rest[1..]);
        } else {
          SimplifyKeepsDefault(acc + [rest[0]], rest[1..]);
        }
      }
    }
  }

  /**
   * The attribute write-back of `SingleReturn.leave_FunctionDef` folds its
   * state followed by the unguarded alias; that fold never fails, even in
   * strict mode.
   */
  lemma WriteBackNeverFails(state: seq<Guarded>, alias: Expr, strict: bool)
    ensures Fold(SimplifyGuards(state + [Guarded([], alias)]), strict).Ok?
  {
    var s := state + [Guarded([], alias)];
    assert s[|s| - 1].guard == [];
    if |s| == 1 {
      assert SimplifyFrom([s[0]], s[1..]) == [s[0]];
      FoldSucceeds([s[0]], strict);
    } else {
      SimplifyKeepsDefault([s[0]], s[1..]);
      assert s[1..][|s| - 2].guard == [];
      FoldSucceeds(SimplifyGuards(s), strict);
    }
  }

  /*
   * Meaning of a guarded sequence. A valuation fixes the truth of every
   * atomic condition; `not` and `and` are interpreted as usual.
   */

  function Truth(val: Expr -> bool, e: Expr): bool
    decreases e
  {
    match e
    case Unary(op, x) => if op == Not then !Truth(val, x) else val(e)
    case BoolOp(op, vs) =>
      if op == And then (forall i | 0 <= i < |vs| :: Truth(val, vs[i])) else val(e)
    case _ => val(e)
  }

  /** A guard holds when every one of its terms does; the empty guard always holds. */
  predicate Holds(val: Expr -> bool, g: seq<Expr>)
  {
    forall i | 0 <= i < |g| :: Truth(val, g[i])
  }

  /** The value of the first entry whose guard holds, if any. */
  function Pick(val: Expr -> bool, s: seq<Guarded>): Option<Expr>
    decreases |s|
  {
    if s == [] then None
    else if Holds(val, s[0].guard) then Some(s[0].value)
    else Pick(val, s[1..])
  }

  lemma {:induction false} AndChainTruth(val: Expr -> bool, g: seq<Expr>)
    requires |g| > 0
    ensures Truth(val, AndChain(g)) == Holds(val, g)
    decreases |g|
  {
    if |g| == 1 {
      assert Holds(val, g) == Truth(val, g[0]);
    } else {
      var init := g[..|g| - 1];
      AndChainTruth(val, init);
      var vs := [AndChain(init), g[|g| - 1]];
      assert Truth(val, AndChain(g)) == (Truth(val, vs[0]) && Truth(val, vs[1]));
      assert Holds(val, g) == (Holds(val, init) && Truth(val, g[|g| - 1])) by {
        assert forall i | 0 <= i < |init| :: init[i] == g[i];
      }
    }
  }

  lemma {:induction false} PickAppend(val: Expr -> bool, a: seq<Guarded>, b: seq<Guarded>)
    ensures Pick(val, a + b) == if Pick(val, a).Some? then Pick(val, a) else Pick(val, b)
    decreases |a|
  {
    if a == [] {
      assert a + b == b;
    } else {
      assert (a + b)[0] == a[0];
      assert (a + b)[1..] == a[1..] + b;
      PickAppend(val, a[1..], b);
    }
  }

  /**
   * Simplification never changes which value is picked: a rewritten guard
   * `p` only replaces `p and not q` right after the failed guard `p and q`.
   */
  lemma {:induction false} SimplifyFromPicks(val: Expr -> bool, acc: seq<Guarded>, rest: seq<Guarded>)
    requires |acc| > 0
    ensures Pick(val, SimplifyFrom(acc, rest)) == Pick(val, acc + rest)
    decreases |rest|
  {
    var r := SimplifyFrom(acc, rest);
    PickAppend(val, acc, rest);
    PickAppend(val, acc, r[|acc|..]);
    assert r == acc + r[|acc|..];
    if rest == [] || Pick(val, acc).Some? {
      return;
    }
    PickLastFails(val, acc);
    var last := acc[|acc| - 1].guard;
    var g := rest[0].guard;
    if g == [] {
      assert r[|acc|..] == [rest[0]];
      assert Pick(val, [rest[0]]) == Pick(val, rest);
    } else {
      var e := if Negates(g, last) then Guarded(g[..|g| - 1], rest[0].value) else rest[0];
      if Negates(g, last) {
        NegatedGuard(val, g, last);
      }
      assert r == SimplifyFrom(acc + [e], rest[1..]);
      SimplifyFromPicks(val, acc + [e], rest[1..]);
      PickStep(val, acc, e, rest);
    }
  }

  lemma PickStep(val: Expr -> bool, acc: seq<Guarded>, e: Guarded, rest: seq<Guarded>)
    requires rest != [] && Pick(val, acc).None?
    requires e.value == rest[0].value && Holds(val, e.guard) == Holds(val, rest[0].guard)
    ensures Pick(val, acc + [e] + rest[1..]) == Pick(val, acc + rest)
  {
    assert acc + [e] + rest[1..] == acc + ([e] + rest[1..]);
    PickAppend(val, acc, [e] + rest[1..]);
    PickAppend(val, acc, rest);
    assert ([e] + rest[1..])[1..] == rest[1..];
  }

  lemma {:induction false} PickLastFails(val: Expr -> bool, acc: seq<Guarded>)
    requires |acc| > 0 && Pick(val, acc).None?
    ensures !Holds(val, acc[|acc| - 1].guard)
    decreases |acc|
  {
    if |acc| > 1 {
      PickLastFails(val, acc[1..]);
    }
  }

  lemma NegatedGuard(val: Expr -> bool, g: seq<Expr>, last: seq<Expr>)
    requires Negates(g, last) && !Holds(val, last)
    ensures Holds(val, g[..|g| - 1]) == Holds(val, g)
  {
    var p := g[..|g| - 1];
    assert Holds(val, last) == (Holds(val, p) && Truth(val, last[|last| - 1])) by {
      assert forall i | 0 <= i < |p| :: p[i] == last[i];
    }
    assert Holds(val, g) == (Holds(val, p) && Truth(val, g[|g| - 1])) by {
      assert forall i | 0 <= i < |p| :: p[i] == g[i];
    }
  }

  /** `_simplify_gaurds` picks the same value as its input under every valuation. */
  lemma SimplifyPreservesPick(val: Expr -> bool, s: seq<Guarded>)
    requires |s| > 0
    ensures Pick(val, SimplifyGuards(s)) == Pick(val, s)
  {
    SimplifyFromPicks(val, [s[0]], s[1..]);
    assert [s[0]] + s[1..] == s;
  }

  /** The index of the first unguarded entry: where the strict fold stops. */
  function FallbackIndex(s: seq<Guarded>): (i: nat)
    requires HasDefault(s)
    ensures i < |s| && s[i].guard == []
    ensures forall j | 0 <= j < i :: s[j].guard != []
    decreases |s|
  {
    if s[0].guard == [] then 0
    else
      assert HasDefault(s[1..]) by {
        var i :| 0 <= i < |s| && s[i].guard == [];
        assert s[1..][i - 1].guard == [];
      }
      1 + FallbackIndex(s[1..])
  }

  /** Evaluate the first `d` levels of a folded conditional chain. */
  function Select(val: Expr -> bool, e: Expr, d: nat): Expr
  {
    if d == 0 then e
    else match e
      case IfExp(t, b, o) => if Truth(val, t) then b else Select(val, o, d - 1)
      case _ => e
  }

  /**
   * A strict fold evaluates to the value of the first entry whose guard
   * holds: the chain it builds is exactly the sequence's first-match choice.
   */
  lemma {:induction false} FoldPicks(val: Expr -> bool, s: seq<Guarded>)
    requires HasDefault(s)
    ensures Fold(s, true).Ok?
    ensures Pick(val, s) == Some(Select(val, Fold(s, true).value, FallbackIndex(s)))
    decreases |s|
  {
    FoldSucceeds(s, true);
    if s[0].guard != [] {
      var g := s[0].guard;
      assert HasDefault(s[1..]) by {
        var i :| 0 <= i < |s| && s[i].guard == [];
        assert s[1..][i - 1].guard == [];
      }
      FoldPicks(val, s[1..]);
      AndChainTruth(val, g);
    }
  }

  /** Non-strict folding is strict folding with the last guard dropped. */
  lemma {:induction false} NonStrictFold(s: seq<Guarded>)
    requires |s| > 0
    ensures Fold(s, false) == Fold(s[..|s| - 1] + [Guarded([], s[|s| - 1].value)], true)
    decreases |s|
  {
    var t := s[..|s| - 1] + [Guarded([], s[|s| - 1].value)];
    if |s| > 1 && s[0].guard != [] {
      NonStrictFold(s[1..]);
      assert t[1..] == s[1..][..|s[1..]| - 1] + [Guarded([], s[1..][|s[1..]| - 1].value)];
    }
  }

  /**
   * The fold of `passes/ssa_cst.py`, which has no strict switch: an
   * exhausted sequence raises and an empty guard gives the bare value.
   */
  function CstFold(s: seq<Guarded>): Result<Expr>
    decreases |s|
  {
    if s == [] then Err(IncompleteGuardError)
    else if s[0].guard == [] then Ok(s[0].value)
    else
      var g := s[0].guard;
      match CstFold(s[1..])
      case Err(e) => Err(e)
      case Ok(orelse) => Ok(IfExp(if |g| == 1 then g[0] else AndChain(g), s[0].value, orelse))
  }

  /** It is the strict fold of `passes/ssa.py`. */
  lemma {:induction false} CstFoldIsStrict(s: seq<Guarded>)
    ensures CstFold(s) == Fold(s, true)
    decreases |s|
  {
    if s != [] && s[0].guard != [] {
      CstFoldIsStrict(s[1..]);
    }
  }
}

=== FILE: if_to_phi.dfy ===
/**
 * The `if_to_phi` pass of `passes/if_to_phi.py`: every conditional
 * expression `b if t else o` becomes the call `phi(t', b', o')` of one phi
 * function on the rewritten operands. A phi given as a string is called by
 * that name; a phi given as a value is bound in the environment's locals
 * under a name made free from the prefix (`__phi` by default).
 *
 * `Policy.AsWritten` makes that name free against `used_names` of the
 * root, which for a function definition is just its own name;
 * `Policy.Corrected` makes it free against every name of the definition,
 * its parameters included.
 */
module IfToPhi {
  import opened Results
  import opened Syntax
  import opened Traversal
  import opened Strings
  import UsedNames
  import FreeNames
  import SymbolTables
  import TreeMap
  import AttrHoisting

  const DefaultPrefix: string := "__phi"

  /** The `phi` argument: a name to call, or a function to bind. */
  datatype Phi<V> = PhiName(name: string) | PhiValue(value: V)

  datatype Policy = AsWritten | Corrected

  /** The number of conditional expressions in an expression. */
  function Conditionals(e: Expr): nat
    decreases e, 1
  {
    match e
    case Name(_, _) => 0
    case Attr(owner, _) => Conditionals(owner)
    case Unary(_, x) => Conditionals(x)
    case BoolOp(_, vs) => ConditionalsAll(vs)
    case BinOp(l, _, r) => Conditionals(l) + Conditionals(r)
    case Compare(l, _, r) => Conditionals(l) + Conditionals(r)
    case IfExp(t, b, o) => 1 + Conditionals(t) + Conditionals(b) + Conditionals(o)
    case Call(f, args, kws) => Conditionals(f) + ConditionalsAll(args) + ConditionalsKeywords(kws)
    case Tuple(elts) => ConditionalsAll(elts)
    case Lit(_) => 0
  }

  function ConditionalsAll(es: seq<Expr>): nat
    decreases es, 0
  {
    if es == [] then 0 else Conditionals(es[0]) + ConditionalsAll(es[1..])
  }

  function ConditionalsKeywords(ks: seq<Keyword>): nat
    decreases ks, 0
  {
    if ks == [] then 0 else Conditionals(ks[0].value) + ConditionalsKeywords(ks[1..])
  }

  /** `phi` among the names exactly when there was a conditional to rewrite. */
  function Added(phi: string, n: nat): set<string>
  {
    if n > 0 then {phi} else {}
  }

  // ---------------------------------------------------------------------
  // `IfExpTransformer`
  // ---------------------------------------------------------------------

  /** `visit_IfExp`: test, body and orelse are rewritten, then become the call's arguments. */
  function PhiExpr(e: Expr, phi: string): (r: Expr)
    ensures Conditionals(r) == 0
    ensures UsedNames.ExprNames(r) == UsedNames.ExprNames(e) + Added(phi, Conditionals(e))
    ensures Conditionals(e) == 0 ==> r == e
    decreases e, 1
  {
    match e
    case IfExp(t, b, o) =>
      PhiCall(phi, PhiExpr(t, phi), PhiExpr(b, phi), PhiExpr(o, phi))
    case Name(_, _) => e
    case Attr(owner, f) => Attr(PhiExpr(owner, phi), f)
    case Unary(op, x) => Unary(op, PhiExpr(x, phi))
    case BoolOp(op, vs) => BoolOp(op, PhiAll(vs, phi))
    case BinOp(l, op, r) => BinOp(PhiExpr(l, phi), op, PhiExpr(r, phi))
    case Compare(l, op, r) => Compare(PhiExpr(l, phi), op, PhiExpr(r, phi))
    case Call(f, args, kws) => Call(PhiExpr(f, phi), PhiAll(args, phi), PhiKeywords(kws, phi))
    case Tuple(elts) => Tuple(PhiAll(elts, phi))
    case Lit(_) => e
  }

  /** The call `phi(x, y, z)` that replaces a conditional expression. */
  function PhiCall(phi: string, x: Expr, y: Expr, z: Expr): (r: Expr)
    ensures Conditionals(r) == Conditionals(x) + Conditionals(y) + Conditionals(z)
    ensures UsedNames.ExprNames(r) == {phi} + UsedNames.ExprNames(x) + UsedNames.ExprNames(y) + UsedNames.ExprNames(z)
  {
    ThreeArgs(x, y, z);
    Call(LoadName(phi), [x, y, z], [])
  }

  /** The names and the conditionals of a three-argument list, argument by argument. */
  lemma ThreeArgs(x: Expr, y: Expr, z: Expr)
    ensures UsedNames.ExprsNames([x, y, z]) == UsedNames.ExprNames(x) + UsedNames.ExprNames(y) + UsedNames.ExprNames(z)
    ensures ConditionalsAll([x, y, z]) == Conditionals(x) + Conditionals(y) + Conditionals(z)
  {
    assert [x, y, z][1..] == [y, z] && [y, z][1..] == [z] && [z][1..] == [];
    var nx, ny, nz := UsedNames.ExprNames(x), UsedNames.ExprNames(y), UsedNames.ExprNames(z);
    assert UsedNames.ExprsNames([z]) == nz + {};
    assert UsedNames.ExprsNames([y, z]) == ny + (nz + {});
    assert UsedNames.ExprsNames([x, y, z]) == nx + (ny + (nz + {}));
    assert nx + (ny + (nz + {})) == nx + ny + nz;
    assert ConditionalsAll([z]) == Conditionals(z);
    assert ConditionalsAll([y, z]) == Conditionals(y) + Conditionals(z);
  }

  function PhiAll(es: seq<Expr>, phi: string): (r: seq<Expr>)
    ensures |r| == |es|
    ensures ConditionalsAll(r) == 0
    ensures UsedNames.ExprsNames(r) == UsedNames.ExprsNames(es) + Added(phi, ConditionalsAll(es))
    ensures ConditionalsAll(es) == 0 ==> r == es
    decreases es, 0
  {
    if es == [] then []
    else
      var r := [PhiExpr(es[0], phi)] + PhiAll(es[1..], phi);
      assert r[1..] == PhiAll(es[1..], phi);
      r
  }

  function PhiKeywords(ks: seq<Keyword>, phi: string): (r: seq<Keyword>)
    ensures |r| == |ks|
    ensures ConditionalsKeywords(r) == 0
    ensures UsedNames.KeywordsNames(r) == UsedNames.KeywordsNames(ks) + Added(phi, ConditionalsKeywords(ks))
    ensures ConditionalsKeywords(ks) == 0 ==> r == ks
    decreases ks, 0
  {
    if ks == [] then []
    else
      var r := [Keyword(ks[0].arg, PhiExpr(ks[0].value, phi))] + PhiKeywords(ks[1..], phi);
      assert r[1..] == PhiKeywords(ks[1..], phi);
      r
  }

  // ---------------------------------------------------------------------
  // The inverse: phi calls back to conditionals
  // ---------------------------------------------------------------------

  /** A call of `phi` on three arguments and no keywords becomes the conditional it encodes. */
  function Unphi(e: Expr, phi: string): Expr
    decreases e, 1
  {
    match e
    case Call(f, args, kws) =>
      if f.Name? && f.id == phi && |args| == 3 && kws == [] then
        IfExp(Unphi(args[0], phi), Unphi(args[1], phi), Unphi(args[2], phi))
      else Call(Unphi(f, phi), UnphiAll(args, phi), UnphiKeywords(kws, phi))
    case Name(_, _) => e
    case Attr(owner, f) => Attr(Unphi(owner, phi), f)
    case Unary(op, x) => Unary(op, Unphi(x, phi))
    case BoolOp(op, vs) => BoolOp(op, UnphiAll(vs, phi))
    case BinOp(l, op, r) => BinOp(Unphi(l, phi), op, Unphi(r, phi))
    case Compare(l, op, r) => Compare(Unphi(l, phi), op, Unphi(r, phi))
    case IfExp(t, b, o) => IfExp(Unphi(t, phi), Unphi(b, phi), Unphi(o, phi))
    case Tuple(elts) => Tuple(UnphiAll(elts, phi))
    case Lit(_) => e
  }

  function UnphiAll(es: seq<Expr>, phi: string): (r: seq<Expr>)
    ensures |r| == |es|
    decreases es, 0
  {
    if es == [] then [] else [Unphi(es[0], phi)] + UnphiAll(es[1..], phi)
  }

  function UnphiKeywords(ks: seq<Keyword>, phi: string): (r: seq<Keyword>)
    ensures |r| == |ks|
    decreases ks, 0
  {
    if ks == [] then [] else [Keyword(ks[0].arg, Unphi(ks[0].value, phi))] + UnphiKeywords(ks[1..], phi)
  }

  /** When `phi` is not a name of the expression, the rewrite can be undone. */
  lemma {:induction false} PhiUndone(e: Expr, phi: string)
    requires phi !in UsedNames.ExprNames(e)
    ensures Unphi(PhiExpr(e, phi), phi) == e
    decreases e, 1
  {
    match e
    case IfExp(t, b, o) =>
      PhiUndone(t, phi);
      PhiUndone(b, phi);
      PhiUndone(o, phi);
    case Name(_, _) =>
    case Attr(owner, _) => PhiUndone(owner, phi);
    case Unary(_, x) => PhiUndone(x, phi);
    case BoolOp(_, vs) => PhiAllUndone(vs, phi);
    case BinOp(l, _, r) =>
      PhiUndone(l, phi);
      PhiUndone(r, phi);
    case Compare(l, _, r) =>
      PhiUndone(l, phi);
      PhiUndone(r, phi);
    case Call(f, args, kws) =>
      PhiUndone(f, phi);
      PhiAllUndone(args, phi);
      PhiKeywordsUndone(kws, phi);
      assert PhiExpr(f, phi) != LoadName(phi) by {
        if Conditionals(f) == 0 {
          assert phi !in UsedNames.ExprNames(PhiExpr(f, phi));
        }
      }
      if PhiExpr(f, phi).Name? {
        assert phi in UsedNames.ExprNames(PhiExpr(f, phi)) || PhiExpr(f, phi).id != phi;
      }
    case Tuple(elts) => PhiAllUndone(elts, phi);
    case Lit(_) =>
  }

  lemma {:induction false} PhiAllUndone(es: seq<Expr>, phi: string)
    requires phi !in UsedNames.ExprsNames(es)
    ensures UnphiAll(PhiAll(es, phi), phi) == es
    decreases es, 0
  {
    if es != [] {
      PhiUndone(es[0], phi);
      PhiAllUndone(es[1..], phi);
      assert PhiAll(es, phi)[1..] == PhiAll(es[1..], phi);
    }
  }

  lemma {:induction false} PhiKeywordsUndone(ks: seq<Keyword>, phi: string)
    requires phi !in UsedNames.KeywordsNames(ks)
    ensures UnphiKeywords(PhiKeywords(ks, phi), phi) == ks
    decreases ks, 0
  {
    if ks != [] {
      PhiUndone(ks[0].value, phi);
      PhiKeywordsUndone(ks[1..], phi);
      assert PhiKeywords(ks, phi)[1..] == PhiKeywords(ks[1..], phi);
    }
  }

  // ---------------------------------------------------------------------
  // The pass
  // ---------------------------------------------------------------------

  /** The names the free phi name must avoid. */
  function Taken<V>(policy: Policy, tree: Stmt, env: SymbolTables.SymbolTable<V>): set<string>
  {
    (if policy.AsWritten? then UsedNames.StmtNames(tree) else AttrHoisting.DeepStmt(tree)) + SymbolTables.Keys(env)
  }

  /** `rewrite`'s choice of the name to call: verbatim for a string, otherwise made free. */
  function ChosenName<V>(policy: Policy, tree: Stmt, phi: Phi<V>, prefix: Option<string>, env: SymbolTables.SymbolTable<V>): (r: string)
    ensures phi.PhiName? ==> r == phi.name
    ensures phi.PhiValue? ==> r !in Taken(policy, tree, env)
    ensures phi.PhiValue? && policy.AsWritten? ==>
      r == FreeNames.GenFreeName(tree, SymbolTables.Keys(env), Some(if prefix.Some? then prefix.value else DefaultPrefix))
  {
    match phi
    case PhiName(name) => name
    case PhiValue(_) =>
      FreeNames.FreeNameIn(Taken(policy, tree, env), Some(if prefix.Some? then prefix.value else DefaultPrefix))
  }

  function PhiStep(phi: string): Expr -> Result<Expr>
  {
    e => Ok(PhiExpr(e, phi))
  }

  function UnphiStep(phi: string): Expr -> Result<Expr>
  {
    e => Ok(Unphi(e, phi))
  }

  /**
   * `if_to_phi.rewrite`: the tree with every conditional turned into a
   * phi call, the environment with a value phi bound in its locals, and
   * the metadata unchanged.
   */
  function Pass<V, M>(policy: Policy, tree: Stmt, phi: Phi<V>, prefix: Option<string>,
                      env: SymbolTables.SymbolTable<V>, metadata: M): (r: (Stmt, SymbolTables.SymbolTable<V>, M))
    ensures var name := ChosenName(policy, tree, phi, prefix, env);
      var es := StmtExprs(tree);
      |StmtExprs(r.0)| == |es| && forall i | 0 <= i < |es| :: StmtExprs(r.0)[i] == PhiExpr(es[i], name)
    ensures phi.PhiName? ==> r.1 == env
    ensures phi.PhiValue? ==>
      var name := ChosenName(policy, tree, phi, prefix, env);
      SymbolTables.Lookup(r.1, name) == Ok(phi.value) &&
      SymbolTables.Keys(r.1) == SymbolTables.Keys(env) + {name} &&
      forall k | k != name :: SymbolTables.Lookup(r.1, k) == SymbolTables.Lookup(env, k)
    ensures r.2 == metadata
  {
    var name := ChosenName(policy, tree, phi, prefix, env);
    TreeMap.MapExprsPointwise(StmtExprs(tree), PhiStep(name));
    var t := TreeMap.MapStmt(tree, PhiStep(name)).value;
    var env' := if phi.PhiValue? then SymbolTables.SymbolTable(env.locals[name := phi.value], env.globals) else env;
    (t, env', metadata)
  }

  lemma {:induction false} InExprsNames(es: seq<Expr>, e: Expr)
    requires e in es
    ensures UsedNames.ExprsNames([e]) <= UsedNames.ExprsNames(es)
  {
    if es[0] != e {
      InExprsNames(es[1..], e);
    }
  }

  /**
   * When the chosen name is not a name of the tree's expressions, turning
   * every phi call back into a conditional gives the tree back.
   */
  lemma PassUndone<V, M>(policy: Policy, tree: Stmt, phi: Phi<V>, prefix: Option<string>,
                         env: SymbolTables.SymbolTable<V>, metadata: M)
    requires ChosenName(policy, tree, phi, prefix, env) !in UsedNames.ExprsNames(StmtExprs(tree))
    ensures TreeMap.MapStmt(Pass(policy, tree, phi, prefix, env, metadata).0, UnphiStep(ChosenName(policy, tree, phi, prefix, env))) == Ok(tree)
  {
    var name := ChosenName(policy, tree, phi, prefix, env);
    forall e | e in StmtExprs(tree)
      ensures TreeMap.Undoes(PhiStep(name), UnphiStep(name), e)
    {
      InExprsNames(StmtExprs(tree), e);
      assert UsedNames.ExprsNames([e]) == UsedNames.ExprNames(e);
      PhiUndone(e, name);
    }
    TreeMap.MapStmtUndone(tree, PhiStep(name), UnphiStep(name));
  }

  /** With the corrected scope a value phi's name is never a name of the tree, so the pass can always be undone. */
  lemma CorrectedUndone<V, M>(tree: Stmt, v: V, prefix: Option<string>, env: SymbolTables.SymbolTable<V>, metadata: M)
    ensures ChosenName(Corrected, tree, PhiValue(v), prefix, env) !in AttrHoisting.DeepStmt(tree)
    ensures TreeMap.MapStmt(Pass(Corrected, tree, PhiValue(v), prefix, env, metadata).0,
                            UnphiStep(ChosenName(Corrected, tree, PhiValue(v), prefix, env))) == Ok(tree)
  {
    AttrHoisting.StmtExprsDeep(tree);
    PassUndone(Corrected, tree, PhiValue(v), prefix, env, metadata);
  }

  // ---------------------------------------------------------------------
  // Examples
  // ---------------------------------------------------------------------

  /** `return 0 if s else 1` becomes `return phi(s, 0, 1)`. */
  lemma BasicRewrite(phi: string)
    ensures PhiExpr(IfExp(LoadName("s"), Lit("0"), Lit("1")), phi) == Call(LoadName(phi), [LoadName("s"), Lit("0"), Lit("1")], [])
  {
  }

  /** `0 if s else 1 if t else 2` becomes `phi(s, 0, phi(t, 1, 2))`. */
  lemma NestedRewrite(phi: string)
    ensures PhiExpr(IfExp(LoadName("s"), Lit("0"), IfExp(LoadName("t"), Lit("1"), Lit("2"))), phi)
      == Call(LoadName(phi), [LoadName("s"), Lit("0"), Call(LoadName(phi), [LoadName("t"), Lit("1"), Lit("2")], [])], [])
  {
  }

  /** `def basic(s): return 0 if s else 1` */
  function Basic(): Stmt
  {
    Def("basic", ["s"], [], Indented([Line([Return(Some(IfExp(LoadName("s"), Lit("0"), Lit("1"))))])]), false)
  }

  /** A function value, a string, a function with a free prefix, and a function with a prefix bound in the globals. */
  lemma ChosenNameExamples<V>(v: V)
    ensures ChosenName(AsWritten, Basic(), PhiValue(v), None, SymbolTables.SymbolTable(map[], map[])) == "__phi"
    ensures ChosenName(AsWritten, Basic(), PhiName("mux"), None, SymbolTables.SymbolTable(map[], map["mux" := v])) == "mux"
    ensures ChosenName(AsWritten, Basic(), PhiValue(v), Some("foo"), SymbolTables.SymbolTable(map[], map["mux" := v])) == "foo"
    ensures ChosenName(AsWritten, Basic(), PhiValue(v), Some("mux"), SymbolTables.SymbolTable(map[], map["mux" := v])) == "mux0"
  {
    var env := SymbolTables.SymbolTable(map[], map["mux" := v]);
    assert Taken(AsWritten, Basic(), env) == {"basic", "mux"};
    assert Str(0) == "0";
    assert "mux" + Str(0) == "mux0";
    assert FreeNames.FirstFreeIndex({"basic", "mux"}, "mux", 0) == 0;
  }

  /** The pass on `basic` with a function value: `return __phi(s, 0, 1)`, and `__phi` is bound. */
  lemma BasicExample<V>(v: V)
    ensures var r := Pass(AsWritten, Basic(), PhiValue(v), None, SymbolTables.SymbolTable(map[], map[]), 0);
      StmtExprs(r.0) == [Call(LoadName("__phi"), [LoadName("s"), Lit("0"), Lit("1")], [])] &&
      SymbolTables.Lookup(r.1, "__phi") == Ok(v)
  {
    ChosenNameExamples(v);
    var ret := Return(Some(IfExp(LoadName("s"), Lit("0"), Lit("1"))));
    assert SmallsExprs([ret]) == [IfExp(LoadName("s"), Lit("0"), Lit("1"))] by {
      assert [ret][1..] == [];
    }
    assert StmtsExprs([Line([ret])]) == SmallsExprs([ret]) by {
      assert [Line([ret])][1..] == [];
    }
    BasicRewrite("__phi");
  }

  /**
   * `def f(__phi): return 0 if __phi else 1` with a function value: the
   * name made free is `__phi`, the function's own parameter, so the call
   * inserted in the body calls the argument rather than the bound phi.
   */
  function Shadowed(): Stmt
  {
    Def("f", ["__phi"], [], Indented([Line([Return(Some(IfExp(LoadName("__phi"), Lit("0"), Lit("1"))))])]), false)
  }

  lemma ShadowedParameter<V>(v: V)
    ensures ChosenName(AsWritten, Shadowed(), PhiValue(v), None, SymbolTables.SymbolTable(map[], map[])) == "__phi"
    ensures "__phi" in Shadowed().params
  {
  }

  /** With the corrected scope the parameter is avoided: the name is `__phi0`. */
  lemma ShadowedCorrected<V>(v: V)
    ensures ChosenName(Corrected, Shadowed(), PhiValue(v), None, SymbolTables.SymbolTable(map[], map[])) == "__phi0"
    ensures ChosenName(Corrected, Shadowed(), PhiValue(v), None, SymbolTables.SymbolTable(map[], map[])) !in Shadowed().params
  {
    var body := [Line([Return(Some(IfExp(LoadName("__phi"), Lit("0"), Lit("1"))))])];
    assert AttrHoisting.DeepBlock(Indented(body)) == {"__phi"} by {
      assert body[1..] == [];
    }
    var env: SymbolTables.SymbolTable<V> := SymbolTables.SymbolTable(map[], map[]);
    assert Taken(Corrected, Shadowed(), env) == {"f", "__phi"};
    assert Str(0) == "0";
    assert "__phi" + Str(0) == "__phi0";
    assert FreeNames.FirstFreeIndex({"f", "__phi"}, "__phi", 0) == 0;
  }
}

=== FILE: name_tests.dfy ===
/**
 * `NameTests` of `passes/ssa.py` (and of `passes/ssa_cst.py`): every `if`
 * test is hoisted into an assignment to a fresh condition name, and the
 * `if` then tests that bare name.
 *
 * Names are `pre + str(k)`, where `pre` is the free prefix followed by
 * `_` in `ssa.py` and the bare free prefix in `ssa_cst.py`, and `k`
 * counts the `if` statements already rewritten. The rewrite runs when an
 * `if` is left, so `k` follows post-order: the ifs inside the body, then
 * those inside the `orelse`, then the `if` itself. The assignment is
 * inserted before the statement being visited; for an `elif`, whose `if`
 * is not itself in a statement list, the assignment and the `if` end up
 * together in an `else` block (the `_cond_1` line of the `test_nstrict`
 * expected output in `tests/test_ssa.py`).
 */
module NameTests {
  import opened Syntax
  import opened Strings
  import Normalizers
  import opened Seqs

  datatype Out<T> = Out(code: T, next: nat)

  function CondName(pre: string, k: nat): string
  {
    pre + Str(k)
  }

  /** The hoisted assignment followed by the rewritten `if`. */
  function Hoist(pre: string, k: nat, test: Expr, body: Block, orelse: OrElse): seq<Stmt>
  {
    [AssignLine(StoreName(CondName(pre, k)), test), If(LoadName(CondName(pre, k)), body, orelse)]
  }

  /**
   * A statement becomes the statements that replace it: an `if` becomes
   * the assignment of its test to a fresh name followed by an `if` on that
   * name, anything else stays one statement. So the rewrite never starts
   * with an `if`.
   */
  function TestsStmt(s: Stmt, pre: string, k: nat): (r: Out<seq<Stmt>>)
    ensures k <= r.next
    ensures |r.code| > 0 && !r.code[0].If?
    ensures s.If? ==> r.next > 0 && var n := CondName(pre, r.next - 1);
      |r.code| == 2 && r.code[0] == AssignLine(StoreName(n), s.test) && r.code[1].If? && r.code[1].test == LoadName(n)
    ensures !s.If? ==> |r.code| == 1
  {
    match s
    case Line(_) => Out([s], k)
    case If(test, body, orelse) =>
      var b := TestsBlock(body, pre, k);
      var o := TestsOrElse(orelse, pre, b.next);
      Out(Hoist(pre, o.next, test, b.code, o.code), o.next + 1)
    case For(target, iter, body, isAsync) =>
      var b := TestsBlock(body, pre, k);
      Out([For(target, iter, b.code, isAsync)], b.next)
    case While(test, body) =>
      var b := TestsBlock(body, pre, k);
      Out([While(test, b.code)], b.next)
    case With(items, body, isAsync) =>
      var b := TestsBlock(body, pre, k);
      Out([With(items, b.code, isAsync)], b.next)
    case Try(body, handlers) =>
      var b := TestsBlock(body, pre, k);
      var h := TestsBlocks(handlers, pre, b.next);
      Out([Try(b.code, h.code)], h.next)
    case Def(name, params, decorators, body, isAsync) =>
      var b := TestsBlock(body, pre, k);
      Out([Def(name, params, decorators, b.code, isAsync)], b.next)
    case Class(name, decorators, body) =>
      var b := TestsBlock(body, pre, k);
      Out([Class(name, decorators, b.code)], b.next)
  }

  function TestsStmts(ss: seq<Stmt>, pre: string, k: nat): (r: Out<seq<Stmt>>)
    ensures k <= r.next
  {
    if ss == [] then Out([], k)
    else
      var h := TestsStmt(ss[0], pre, k);
      var t := TestsStmts(ss[1..], pre, h.next);
      Out(h.code + t.code, t.next)
  }

  /** A one-line suite holds no `if`. */
  function TestsBlock(b: Block, pre: string, k: nat): (r: Out<Block>)
    ensures k <= r.next
  {
    match b
    case Indented(stmts) =>
      var t := TestsStmts(stmts, pre, k);
      Out(Indented(t.code), t.next)
    case Inline(_) => Out(b, k)
  }

  function TestsBlocks(bs: seq<Block>, pre: string, k: nat): (r: Out<seq<Block>>)
    ensures k <= r.next
    ensures |r.code| == |bs|
  {
    if bs == [] then Out([], k)
    else
      var h := TestsBlock(bs[0], pre, k);
      var t := TestsBlocks(bs[1..], pre, h.next);
      Out([h.code] + t.code, t.next)
  }

  function TestsOrElse(o: OrElse, pre: string, k: nat): (r: Out<OrElse>)
    ensures k <= r.next
  {
    match o
    case NoElse => Out(NoElse, k)
    case Else(b) =>
      var t := TestsBlock(b, pre, k);
      Out(Else(t.code), t.next)
    case Elif(s) =>
      var t := TestsStmt(s, pre, k);
      Out(Else(Indented(t.code)), t.next)
  }

  /* ----- The inverse: put every hoisted test back into its `if`. ----- */

  /** `a` assigns some name `c` and `b` is an `if` testing exactly `c`. */
  predicate IsHoisted(a: Stmt, b: Stmt)
  {
    a.Line? && |a.smalls| == 1 && a.smalls[0].Assign? && |a.smalls[0].targets| == 1
    && a.smalls[0].targets[0].Name? && a.smalls[0].targets[0].ctx == Store
    && b.If? && b.test == LoadName(a.smalls[0].targets[0].id)
  }

  /** An assignment followed by the `if` testing its target becomes that `if` testing the assigned value. */
  function UnhoistStmts(ss: seq<Stmt>): seq<Stmt>
  {
    if ss == [] then []
    else if |ss| >= 2 && IsHoisted(ss[0], ss[1]) then
      var u := UnhoistStmt(ss[1]);
      [If(ss[0].smalls[0].value, u.body, u.orelse)] + UnhoistStmts(ss[2..])
    else [UnhoistStmt(ss[0])] + UnhoistStmts(ss[1..])
  }

  function UnhoistStmt(s: Stmt): (r: Stmt)
    ensures r.If? <==> s.If?
  {
    match s
    case Line(_) => s
    case If(test, body, orelse) => If(test, UnhoistBlock(body), UnhoistOrElse(orelse))
    case For(target, iter, body, isAsync) => For(target, iter, UnhoistBlock(body), isAsync)
    case While(test, body) => While(test, UnhoistBlock(body))
    case With(items, body, isAsync) => With(items, UnhoistBlock(body), isAsync)
    case Try(body, handlers) => Try(UnhoistBlock(body), UnhoistBlocks(handlers))
    case Def(name, params, decorators, body, isAsync) => Def(name, params, decorators, UnhoistBlock(body), isAsync)
    case Class(name, decorators, body) => Class(name, decorators, UnhoistBlock(body))
  }

  function UnhoistBlock(b: Block): Block
  {
    match b
    case Indented(stmts) => Indented(UnhoistStmts(stmts))
    case Inline(_) => b
  }

  function UnhoistBlocks(bs: seq<Block>): seq<Block>
  {
    if bs == [] then [] else [UnhoistBlock(bs[0])] + UnhoistBlocks(bs[1..])
  }

  function UnhoistOrElse(o: OrElse): OrElse
  {
    match o
    case NoElse => NoElse
    case Else(b) => Else(UnhoistBlock(b))
    case Elif(s) => Elif(UnhoistStmt(s))
  }

  lemma {:induction false} UnhoistAppend(a: seq<Stmt>, b: seq<Stmt>)
    requires b == [] || !b[0].If?
    ensures UnhoistStmts(a + b) == UnhoistStmts(a) + UnhoistStmts(b)
    decreases |a|, 1
  {
    if a == [] {
      NilAppend(a, b);
    } else if |a| >= 2 && IsHoisted(a[0], a[1]) {
      UnhoistAppendPair(a, b);
    } else {
      UnhoistAppendOne(a, b);
    }
  }

  lemma {:induction false} UnhoistAppendPair(a: seq<Stmt>, b: seq<Stmt>)
    requires b == [] || !b[0].If?
    requires |a| >= 2 && IsHoisted(a[0], a[1])
    ensures UnhoistStmts(a + b) == UnhoistStmts(a) + UnhoistStmts(b)
    decreases |a|, 0
  {
    var ab := a + b;
    PairAppend(a, b);
    UnhoistPairStep(a);
    UnhoistPairStep(ab);
    UnhoistAppend(a[2..], b);
    FrontAssoc([If(a[0].smalls[0].value, UnhoistStmt(a[1]).body, UnhoistStmt(a[1]).orelse)], UnhoistStmts(a[2..]), UnhoistStmts(b));
  }

  lemma {:induction false} UnhoistAppendOne(a: seq<Stmt>, b: seq<Stmt>)
    requires b == [] || !b[0].If?
    requires a != [] && !(|a| >= 2 && IsHoisted(a[0], a[1]))
    ensures UnhoistStmts(a + b) == UnhoistStmts(a) + UnhoistStmts(b)
    decreases |a|, 0
  {
    var ab := a + b;
    ConsAppend(a, b);
    UnhoistOneStep(a);
    UnhoistOneStep(ab);
    UnhoistAppend(a[1..], b);
    FrontAssoc([UnhoistStmt(a[0])], UnhoistStmts(a[1..]), UnhoistStmts(b));
  }

  lemma FrontAssoc(x: seq<Stmt>, y: seq<Stmt>, z: seq<Stmt>)
    ensures x + (y + z) == (x + y) + z
  {
  }

  /** A hoisted pair at the front is folded back into one `if`. */
  lemma UnhoistPairStep(ss: seq<Stmt>)
    requires |ss| >= 2 && IsHoisted(ss[0], ss[1])
    ensures UnhoistStmts(ss)
      == [If(ss[0].smalls[0].value, UnhoistStmt(ss[1]).body, UnhoistStmt(ss[1]).orelse)] + UnhoistStmts(ss[2..])
  {
  }

  /** Any other statement at the front is unhoisted on its own. */
  lemma UnhoistOneStep(ss: seq<Stmt>)
    requires ss != [] && !(|ss| >= 2 && IsHoisted(ss[0], ss[1]))
    ensures UnhoistStmts(ss) == [UnhoistStmt(ss[0])] + UnhoistStmts(ss[1..])
  {
  }


  /**
   * Putting the hoisted tests back gives the original code with every
   * `elif` written as an `else` holding the inner `if`: `NameTests` loses
   * nothing except the distinction between `elif c:` and
   * `else:` + `if c:`, which it maps to the same code.
   */
  lemma {:induction false} UnhoistStmtInverse(s: Stmt, pre: string, k: nat)
    ensures UnhoistStmts(TestsStmt(s, pre, k).code) == [Normalizers.ElifStmt(s)]
    decreases s, 1
  {
    match s
    case Line(_) =>
      assert UnhoistStmts([s]) == [UnhoistStmt(s)] + UnhoistStmts([]);
    case If(test, body, orelse) =>
      var b := TestsBlock(body, pre, k);
      var o := TestsOrElse(orelse, pre, b.next);
      UnhoistBlockInverse(body, pre, k);
      UnhoistOrElseInverse(orelse, pre, b.next);
      var h := Hoist(pre, o.next, test, b.code, o.code);
      assert IsHoisted(h[0], h[1]);
      assert h[2..] == [];
    case For(target, iter, body, isAsync) =>
      UnhoistBlockInverse(body, pre, k);
      OneUnhoisted(TestsStmt(s, pre, k).code[0]);
    case While(test, body) =>
      UnhoistBlockInverse(body, pre, k);
      OneUnhoisted(TestsStmt(s, pre, k).code[0]);
    case With(items, body, isAsync) =>
      UnhoistBlockInverse(body, pre, k);
      OneUnhoisted(TestsStmt(s, pre, k).code[0]);
    case Try(body, handlers) =>
      UnhoistBlockInverse(body, pre, k);
      UnhoistBlocksInverse(handlers, pre, TestsBlock(body, pre, k).next);
      OneUnhoisted(TestsStmt(s, pre, k).code[0]);
    case Def(name, params, decorators, body, isAsync) =>
      UnhoistBlockInverse(body, pre, k);
      OneUnhoisted(TestsStmt(s, pre, k).code[0]);
    case Class(name, decorators, body) =>
      UnhoistBlockInverse(body, pre, k);
      OneUnhoisted(TestsStmt(s, pre, k).code[0]);
  }

  lemma OneUnhoisted(s: Stmt)
    ensures UnhoistStmts([s]) == [UnhoistStmt(s)]
  {
    assert UnhoistStmts([s]) == [UnhoistStmt(s)] + UnhoistStmts([]);
  }

  lemma {:induction false} UnhoistStmtsInverse(ss: seq<Stmt>, pre: string, k: nat)
    ensures UnhoistStmts(TestsStmts(ss, pre, k).code) == Normalizers.ElifStmts(ss)
    decreases ss, 1
  {
    if ss != [] {
      var h := TestsStmt(ss[0], pre, k);
      var t := TestsStmts(ss[1..], pre, h.next);
      UnhoistStmtInverse(ss[0], pre, k);
      UnhoistStmtsInverse(ss[1..], pre, h.next);
      if t.code != [] {
        if ss[1..] != [] {
          var t0 := TestsStmt(ss[1..][0], pre, h.next);
          assert t.code == t0.code + TestsStmts(ss[1..][1..], pre, t0.next).code;
        }
      }
      UnhoistAppend(h.code, t.code);
    }
  }

  lemma {:induction false} UnhoistBlockInverse(b: Block, pre: string, k: nat)
    ensures UnhoistBlock(TestsBlock(b, pre, k).code) == Normalizers.ElifBlock(b)
    decreases b, 1
  {
    match b
    case Indented(stmts) => UnhoistStmtsInverse(stmts, pre, k);
    case Inline(_) =>
  }

  lemma {:induction false} UnhoistBlocksInverse(bs: seq<Block>, pre: string, k: nat)
    ensures UnhoistBlocks(TestsBlocks(bs, pre, k).code) == Normalizers.ElifBlocks(bs)
    decreases bs, 1
  {
    if bs != [] {
      var h := TestsBlock(bs[0], pre, k);
      UnhoistBlockInverse(bs[0], pre, k);
      UnhoistBlocksInverse(bs[1..], pre, h.next);
      var r := TestsBlocks(bs, pre, k).code;
      assert r[0] == h.code && r[1..] == TestsBlocks(bs[1..], pre, h.next).code;
    }
  }

  lemma {:induction false} UnhoistOrElseInverse(o: OrElse, pre: string, k: nat)
    ensures UnhoistOrElse(TestsOrElse(o, pre, k).code) == Normalizers.ElifOrElse(o)
    decreases o, 1
  {
    match o
    case NoElse =>
    case Else(b) => UnhoistBlockInverse(b, pre, k);
    case Elif(s) => UnhoistStmtInverse(s, pre, k);
  }

  /* ----- Numbering: the tests, listed in post-order, are the names k, k+1, ... ----- */

  /** The `if` tests of the code, each listed after the tests inside its body and `orelse`. */
  function PostTestsStmt(s: Stmt): seq<Expr>
  {
    match s
    case Line(_) => []
    case If(test, body, orelse) => PostTestsBlock(body) + PostTestsOrElse(orelse) + [test]
    case For(_, _, body, _) => PostTestsBlock(body)
    case While(_, body) => PostTestsBlock(body)
    case With(_, body, _) => PostTestsBlock(body)
    case Try(body, handlers) => PostTestsBlock(body) + PostTestsBlocks(handlers)
    case Def(_, _, _, body, _) => PostTestsBlock(body)
    case Class(_, _, body) => PostTestsBlock(body)
  }

  function PostTestsStmts(ss: seq<Stmt>): seq<Expr>
  {
    if ss == [] then [] else PostTestsStmt(ss[0]) + PostTestsStmts(ss[1..])
  }

  function PostTestsBlock(b: Block): seq<Expr>
  {
    match b
    case Indented(stmts) => PostTestsStmts(stmts)
    case Inline(_) => []
  }

  function PostTestsBlocks(bs: seq<Block>): seq<Expr>
  {
    if bs == [] then [] else PostTestsBlock(bs[0]) + PostTestsBlocks(bs[1..])
  }

  function PostTestsOrElse(o: OrElse): seq<Expr>
  {
    match o
    case NoElse => []
    case Else(b) => PostTestsBlock(b)
    case Elif(s) => PostTestsStmt(s)
  }

  /** The loaded condition names `pre + str(j)` for `lo <= j < hi`, in order. */
  function CondRange(pre: string, lo: nat, hi: nat): (r: seq<Expr>)
    requires lo <= hi
    ensures |r| == hi - lo
    ensures forall j | 0 <= j < |r| :: r[j] == LoadName(CondName(pre, lo + j))
    decreases hi - lo
  {
    if lo == hi then [] else [LoadName(CondName(pre, lo))] + CondRange(pre, lo + 1, hi)
  }

  lemma CondRangeSplit(pre: string, a: nat, b: nat, c: nat)
    requires a <= b <= c
    ensures CondRange(pre, a, b) + CondRange(pre, b, c) == CondRange(pre, a, c)
  {
  }

  /**
   * Listing the rewritten tests in post-order gives exactly the names
   * `k, k+1, ..., next-1`: the counter numbers the ifs in post-order, each
   * once.
   */
  lemma {:induction false} NumberingStmt(s: Stmt, pre: string, k: nat)
    ensures var r := TestsStmt(s, pre, k); PostTestsStmts(r.code) == CondRange(pre, k, r.next)
    decreases s, 1
  {
    var r := TestsStmt(s, pre, k);
    match s
    case Line(_) =>
      assert PostTestsStmts([s]) == PostTestsStmt(s) + PostTestsStmts([]);
    case If(_, _, _) => NumberingIf(s, pre, k);
    case For(_, _, body, _) =>
      NumberingBlock(body, pre, k);
      OneStmtTests(r.code[0]);
    case While(_, body) =>
      NumberingBlock(body, pre, k);
      OneStmtTests(r.code[0]);
    case With(_, body, _) =>
      NumberingBlock(body, pre, k);
      OneStmtTests(r.code[0]);
    case Try(body, handlers) =>
      var b := TestsBlock(body, pre, k);
      NumberingBlock(body, pre, k);
      NumberingBlocks(handlers, pre, b.next);
      CondRangeSplit(pre, k, b.next, r.next);
      OneStmtTests(r.code[0]);
    case Def(_, _, _, body, _) =>
      NumberingBlock(body, pre, k);
      OneStmtTests(r.code[0]);
    case Class(_, _, body) =>
      NumberingBlock(body, pre, k);
      OneStmtTests(r.code[0]);
  }

  /** An `if`: its body's and `orelse`'s tests come first, then its own, numbered last. */
  lemma {:induction false} NumberingIf(s: Stmt, pre: string, k: nat)
    requires s.If?
    ensures var r := TestsStmt(s, pre, k); PostTestsStmts(r.code) == CondRange(pre, k, r.next)
    decreases s, 0
  {
    var b := TestsBlock(s.body, pre, k);
    var o := TestsOrElse(s.orelse, pre, b.next);
    NumberingBlock(s.body, pre, k);
    NumberingOrElse(s.orelse, pre, b.next);
    var h := Hoist(pre, o.next, s.test, b.code, o.code);
    assert TestsStmt(s, pre, k) == Out(h, o.next + 1);
    HoistTests(pre, o.next, s.test, b.code, o.code);
    CondRangeSplit(pre, k, b.next, o.next);
    CondRangeSplit(pre, k, o.next, o.next + 1);
  }

  /** The hoisted pair lists the tests of the `if`'s parts, then its own condition name. */
  lemma HoistTests(pre: string, n: nat, test: Expr, body: Block, orelse: OrElse)
    ensures PostTestsStmts(Hoist(pre, n, test, body, orelse))
      == PostTestsBlock(body) + PostTestsOrElse(orelse) + [LoadName(CondName(pre, n))]
  {
    var h := Hoist(pre, n, test, body, orelse);
    assert PostTestsStmts(h) == PostTestsStmt(h[0]) + PostTestsStmts(h[1..]);
    assert PostTestsStmts(h[1..]) == PostTestsStmt(h[1]) + PostTestsStmts([]);
  }

  lemma OneStmtTests(s: Stmt)
    ensures PostTestsStmts([s]) == PostTestsStmt(s)
  {
    assert PostTestsStmts([s]) == PostTestsStmt(s) + PostTestsStmts([]);
  }

  lemma {:induction false} PostTestsAppend(a: seq<Stmt>, b: seq<Stmt>)
    ensures PostTestsStmts(a + b) == PostTestsStmts(a) + PostTestsStmts(b)
  {
    if a == [] {
      assert a + b == b;
    } else {
      assert a == [a[0]] + a[1..];
      assert a + b == [a[0]] + (a[1..] + b);
      PostTestsCons(a[0], a[1..]);
      PostTestsCons(a[0], a[1..] + b);
      PostTestsAppend(a[1..], b);
    }
  }

  lemma PostTestsCons(x: Stmt, t: seq<Stmt>)
    ensures PostTestsStmts([x] + t) == PostTestsStmt(x) + PostTestsStmts(t)
  {
    assert ([x] + t)[1..] == t;
  }

  lemma {:induction false} NumberingStmts(ss: seq<Stmt>, pre: string, k: nat)
    ensures var r := TestsStmts(ss, pre, k); PostTestsStmts(r.code) == CondRange(pre, k, r.next)
    decreases ss, 1
  {
    if ss != [] {
      var h := TestsStmt(ss[0], pre, k);
      var t := TestsStmts(ss[1..], pre, h.next);
      NumberingStmt(ss[0], pre, k);
      NumberingStmts(ss[1..], pre, h.next);
      PostTestsAppend(h.code, t.code);
      CondRangeSplit(pre, k, h.next, t.next);
    }
  }

  lemma {:induction false} NumberingBlock(b: Block, pre: string, k: nat)
    ensures var r := TestsBlock(b, pre, k); PostTestsBlock(r.code) == CondRange(pre, k, r.next)
    decreases b, 1
  {
    match b
    case Indented(stmts) => NumberingStmts(stmts, pre, k);
    case Inline(_) =>
  }

  lemma {:induction false} NumberingBlocks(bs: seq<Block>, pre: string, k: nat)
    ensures var r := TestsBlocks(bs, pre, k); PostTestsBlocks(r.code) == CondRange(pre, k, r.next)
    decreases bs, 1
  {
    if bs != [] {
      var h := TestsBlock(bs[0], pre, k);
      var t := TestsBlocks(bs[1..], pre, h.next);
      NumberingBlock(bs[0], pre, k);
      NumberingBlocks(bs[1..], pre, h.next);
      var r := TestsBlocks(bs, pre, k).code;
      assert r[0] == h.code && r[1..] == t.code;
      CondRangeSplit(pre, k, h.next, t.next);
    }
  }

  lemma {:induction false} NumberingOrElse(o: OrElse, pre: string, k: nat)
    ensures var r := TestsOrElse(o, pre, k); PostTestsOrElse(r.code) == CondRange(pre, k, r.next)
    decreases o, 1
  {
    match o
    case NoElse =>
    case Else(b) => NumberingBlock(b, pre, k);
    case Elif(s) => NumberingStmt(s, pre, k);
  }

  /** Distinct counters give distinct condition names. */
  lemma CondNamesDistinct(pre: string, i: nat, j: nat)
    requires i != j
    ensures CondName(pre, i) != CondName(pre, j)
  {
    if CondName(pre, i) == CondName(pre, j) {
      assert Str(i) == CondName(pre, i)[|pre|..];
      StrInjective(i, j);
    }
  }
}

=== FILE: node_finder.dfy ===
/**
 * `NodeFinder` of `visitors/node_finder.py`: a visitor that remembers the
 * first node whose key equals a sought key and ignores every node after
 * it. As with the replacer, the key function is the abstract `_get_key` of
 * the subclasses, which give statements no key.
 */
module NodeFinder {
  import opened Results
  import opened Syntax
  import opened Traversal

  /** A finder: the sought key and the target found so far. */
  datatype Finder<K> = Finder(sought: K, target: Option<Expr>)

  /** `NodeFinder.__init__`: the sought node must have a key. */
  function NewFinder<K>(key: Expr -> Option<K>, node: Expr): (r: Result<Finder<K>>)
    ensures r.Err? <==> key(node).None?
    ensures r.Err? ==> r.error.TypeError?
    ensures r.Ok? ==> Some(r.value.sought) == key(node) && r.value.target.None?
  {
    var k := key(node);
    if k.None? then Err(TypeError("Unsupported node")) else Ok(Finder(k.value, None))
  }

  /** The first of `nodes` whose key is `k`: the reference for the visitor. */
  function FirstMatch<K(==)>(nodes: seq<Expr>, key: Expr -> Option<K>, k: K): (r: Option<Expr>)
    ensures r.None? <==> forall x | x in nodes :: key(x) != Some(k)
    ensures r.Some? ==> exists i | 0 <= i < |nodes| ::
      nodes[i] == r.value && key(nodes[i]) == Some(k) && forall j | 0 <= j < i :: key(nodes[j]) != Some(k)
  {
    if nodes == [] then None
    else if key(nodes[0]) == Some(k) then Some(nodes[0])
    else
      var r := FirstMatch(nodes[1..], key, k);
      if r.Some? then
        ghost var i :| 0 <= i < |nodes[1..]| && nodes[1..][i] == r.value && key(nodes[1..][i]) == Some(k)
                       && forall j | 0 <= j < i :: key(nodes[1..][j]) != Some(k);
        assert nodes[i + 1] == r.value && forall j | 0 <= j < i + 1 :: key(nodes[j]) != Some(k);
        r
      else r
  }

  lemma {:induction false} FirstMatchAppend<K>(a: seq<Expr>, b: seq<Expr>, key: Expr -> Option<K>, k: K)
    ensures FirstMatch(a + b, key, k) == if FirstMatch(a, key, k).Some? then FirstMatch(a, key, k) else FirstMatch(b, key, k)
  {
    if a == [] {
      assert a + b == b;
    } else {
      assert (a + b)[1..] == a[1..] + b;
      FirstMatchAppend(a[1..], b, key, k);
    }
  }

  /**
   * `NodeFinder.visit` on an expression, threading the target: a visit
   * after the target is found does nothing, a node with the sought key
   * becomes the target and is not entered, any other node is entered.
   */
  function VisitExpr<K(==)>(e: Expr, key: Expr -> Option<K>, k: K, target: Option<Expr>): Option<Expr>
  {
    if target.Some? then target
    else if key(e) == Some(k) then Some(e)
    else
      match e
      case Name(_, _) => target
      case Attr(owner, _) => VisitExpr(owner, key, k, target)
      case Unary(_, x) => VisitExpr(x, key, k, target)
      case BoolOp(_, vs) => VisitExprs(vs, key, k, target)
      case BinOp(l, _, r) => VisitExpr(r, key, k, VisitExpr(l, key, k, target))
      case Compare(l, _, r) => VisitExpr(r, key, k, VisitExpr(l, key, k, target))
      case IfExp(t, b, o) => VisitExpr(o, key, k, VisitExpr(b, key, k, VisitExpr(t, key, k, target)))
      case Call(f, args, kws) => VisitKeywords(kws, key, k, VisitExprs(args, key, k, VisitExpr(f, key, k, target)))
      case Tuple(elts) => VisitExprs(elts, key, k, target)
      case Lit(_) => target
  }

  function VisitExprs<K(==)>(es: seq<Expr>, key: Expr -> Option<K>, k: K, target: Option<Expr>): Option<Expr>
  {
    if es == [] then target else VisitExprs(es[1..], key, k, VisitExpr(es[0], key, k, target))
  }

  function VisitKeywords<K(==)>(ks: seq<Keyword>, key: Expr -> Option<K>, k: K, target: Option<Expr>): Option<Expr>
  {
    if ks == [] then target else VisitKeywords(ks[1..], key, k, VisitExpr(ks[0].value, key, k, target))
  }

  /**
   * Visiting a tree: statements have no key, so every statement is
   * entered and its expressions are visited in traversal order.
   */
  function Find<K(==)>(f: Finder<K>, key: Expr -> Option<K>, tree: Stmt): (r: Finder<K>)
    ensures r.sought == f.sought
  {
    Finder(f.sought, VisitExprs(StmtExprs(tree), key, f.sought, f.target))
  }

  /** A leading node without the sought key is skipped. */
  lemma FirstMatchSkip<K>(e: Expr, rest: seq<Expr>, key: Expr -> Option<K>, k: K)
    requires key(e) != Some(k)
    ensures FirstMatch([e] + rest, key, k) == FirstMatch(rest, key, k)
  {
    assert ([e] + rest)[1..] == rest;
  }

  /** The visitor keeps an earlier target, and otherwise finds the first match in pre-order. */
  lemma {:induction false} VisitExprFirst<K>(e: Expr, key: Expr -> Option<K>, k: K, target: Option<Expr>)
    ensures VisitExpr(e, key, k, target) == if target.Some? then target else FirstMatch(ExprNodes(e), key, k)
    decreases e, 2
  {
    if target.None? && key(e) != Some(k) {
      match e
      case Name(_, _) =>
        FirstMatchSkip(e, [], key, k);
      case Attr(owner, _) => VisitOneFirst(e, owner, key, k);
      case Unary(_, x) => VisitOneFirst(e, x, key, k);
      case BoolOp(_, vs) => VisitManyFirst(e, vs, key, k);
      case BinOp(l, _, r) => VisitPairFirst(e, l, r, key, k);
      case Compare(l, _, r) => VisitPairFirst(e, l, r, key, k);
      case IfExp(_, _, _) => VisitIfExpFirst(e, key, k);
      case Call(_, _, _) => VisitCallFirst(e, key, k);
      case Tuple(elts) => VisitManyFirst(e, elts, key, k);
      case Lit(_) =>
        FirstMatchSkip(e, [], key, k);
    }
  }

  /** An attribute or a unary operation: its one child is entered. */
  lemma {:induction false} VisitOneFirst<K>(e: Expr, c: Expr, key: Expr -> Option<K>, k: K)
    requires (e.Attr? && e.owner == c) || (e.Unary? && e.operand == c)
    requires key(e) != Some(k)
    ensures VisitExpr(e, key, k, None) == FirstMatch(ExprNodes(e), key, k)
    decreases e, 1
  {
    assert VisitExpr(e, key, k, None) == VisitExpr(c, key, k, None);
    assert ExprNodes(e) == [e] + ExprNodes(c);
    FirstMatchSkip(e, ExprNodes(c), key, k);
    VisitExprFirst(c, key, k, None);
  }

  /** A boolean operation or a tuple: its children are entered in order. */
  lemma {:induction false} VisitManyFirst<K>(e: Expr, cs: seq<Expr>, key: Expr -> Option<K>, k: K)
    requires (e.BoolOp? && e.values == cs) || (e.Tuple? && e.elts == cs)
    requires key(e) != Some(k)
    ensures VisitExpr(e, key, k, None) == FirstMatch(ExprNodes(e), key, k)
    decreases e, 1
  {
    assert VisitExpr(e, key, k, None) == VisitExprs(cs, key, k, None);
    assert ExprNodes(e) == [e] + ExprsNodes(cs);
    FirstMatchSkip(e, ExprsNodes(cs), key, k);
    VisitExprsFirst(cs, key, k, None);
  }

  /** A binary operation or comparison: the left operand's outcome is handed to the right one. */
  lemma {:induction false} VisitPairFirst<K>(e: Expr, l: Expr, r: Expr, key: Expr -> Option<K>, k: K)
    requires (e.BinOp? && e.left == l && e.right == r) || (e.Compare? && e.lhs == l && e.rhs == r)
    requires key(e) != Some(k)
    ensures VisitExpr(e, key, k, None) == FirstMatch(ExprNodes(e), key, k)
    decreases e, 1
  {
    var t1 := VisitExpr(l, key, k, None);
    assert VisitExpr(e, key, k, None) == VisitExpr(r, key, k, t1);
    assert ExprNodes(e) == [e] + (ExprNodes(l) + ExprNodes(r));
    FirstMatchSkip(e, ExprNodes(l) + ExprNodes(r), key, k);
    VisitExprFirst(l, key, k, None);
    VisitExprFirst(r, key, k, t1);
    FirstMatchAppend(ExprNodes(l), ExprNodes(r), key, k);
  }

  lemma {:induction false} VisitIfExpFirst<K>(e: Expr, key: Expr -> Option<K>, k: K)
    requires e.IfExp? && key(e) != Some(k)
    ensures VisitExpr(e, key, k, None) == FirstMatch(ExprNodes(e), key, k)
    decreases e, 1
  {
    var t, b, o := e.test, e.body, e.orelse;
    var t1 := VisitExpr(t, key, k, None);
    var t2 := VisitExpr(b, key, k, t1);
    assert VisitExpr(e, key, k, None) == VisitExpr(o, key, k, t2);
    IfExpNodes(e);
    FirstMatchSkip(e, ExprNodes(t) + ExprNodes(b) + ExprNodes(o), key, k);
    VisitExprFirst(t, key, k, None);
    VisitExprFirst(b, key, k, t1);
    VisitExprFirst(o, key, k, t2);
    FirstMatchAppend(ExprNodes(t), ExprNodes(b), key, k);
    FirstMatchAppend(ExprNodes(t) + ExprNodes(b), ExprNodes(o), key, k);
  }

  lemma {:induction false} VisitCallFirst<K>(e: Expr, key: Expr -> Option<K>, k: K)
    requires e.Call? && key(e) != Some(k)
    ensures VisitExpr(e, key, k, None) == FirstMatch(ExprNodes(e), key, k)
    decreases e, 1
  {
    var fn, args, kws := e.func, e.args, e.keywords;
    var t1 := VisitExpr(fn, key, k, None);
    var t2 := VisitExprs(args, key, k, t1);
    assert VisitExpr(e, key, k, None) == VisitKeywords(kws, key, k, t2);
    assert ExprNodes(e) == [e] + (ExprNodes(fn) + ExprsNodes(args) + KeywordsNodes(kws));
    FirstMatchSkip(e, ExprNodes(fn) + ExprsNodes(args) + KeywordsNodes(kws), key, k);
    VisitExprFirst(fn, key, k, None);
    VisitExprsFirst(args, key, k, t1);
    VisitKeywordsFirst(kws, key, k, t2);
    FirstMatchAppend(ExprNodes(fn), ExprsNodes(args), key, k);
    FirstMatchAppend(ExprNodes(fn) + ExprsNodes(args), KeywordsNodes(kws), key, k);
  }

  lemma {:induction false} VisitExprsFirst<K>(es: seq<Expr>, key: Expr -> Option<K>, k: K, target: Option<Expr>)
    ensures VisitExprs(es, key, k, target) == if target.Some? then target else FirstMatch(ExprsNodes(es), key, k)
    decreases es, 0
  {
    if es != [] {
      VisitExprFirst(es[0], key, k, target);
      VisitExprsFirst(es[1..], key, k, VisitExpr(es[0], key, k, target));
      FirstMatchAppend(ExprNodes(es[0]), ExprsNodes(es[1..]), key, k);
    }
  }

  lemma {:induction false} VisitKeywordsFirst<K>(ks: seq<Keyword>, key: Expr -> Option<K>, k: K, target: Option<Expr>)
    ensures VisitKeywords(ks, key, k, target) == if target.Some? then target else FirstMatch(KeywordsNodes(ks), key, k)
    decreases ks, 0
  {
    if ks != [] {
      VisitExprFirst(ks[0].value, key, k, target);
      VisitKeywordsFirst(ks[1..], key, k, VisitExpr(ks[0].value, key, k, target));
      FirstMatchAppend(ExprNodes(ks[0].value), KeywordsNodes(ks[1..]), key, k);
    }
  }

  /**
   * A fresh finder's target is the first node of the tree, in traversal
   * order, whose key is the sought key, and stays empty when there is none.
   */
  lemma FindFirst<K>(f: Finder<K>, key: Expr -> Option<K>, tree: Stmt)
    requires f.target.None?
    ensures Find(f, key, tree).target == FirstMatch(TreeNodes(tree), key, f.sought)
    ensures Find(f, key, tree).target.None? <==> forall x | x in TreeNodes(tree) :: key(x) != Some(f.sought)
  {
    VisitExprsFirst(StmtExprs(tree), key, f.sought, None);
  }

  /** Once a target is found, visiting further trees leaves it alone. */
  lemma FoundIsFinal<K>(f: Finder<K>, key: Expr -> Option<K>, tree: Stmt)
    requires f.target.Some?
    ensures Find(f, key, tree) == f
  {
    VisitExprsFirst(StmtExprs(tree), key, f.sought, f.target);
  }
}

=== FILE: node_replacer.dfy ===
/**
 * `NodeReplacer` of `transformers/node_replacer.py`: a transformer driven
 * by a table from keys to replacement nodes. A node whose key is in the
 * table is replaced by (a copy of) the table's node and not entered; any
 * other node is rebuilt from its visited children. The key function is the
 * abstract `_get_key` of the subclasses; every subclass over expressions
 * gives statements no key, so statements are always entered.
 */
module NodeReplacer {
  import opened Results
  import opened Syntax
  import opened Traversal

  /** `NodeReplacer.visit` on an expression. */
  function ReplaceExpr<K>(e: Expr, key: Expr -> Option<K>, tbl: map<K, Expr>): Expr
  {
    var k := key(e);
    if k.Some? && k.value in tbl then tbl[k.value]
    else
      match e
      case Name(_, _) => e
      case Attr(owner, f) => Attr(ReplaceExpr(owner, key, tbl), f)
      case Unary(op, x) => Unary(op, ReplaceExpr(x, key, tbl))
      case BoolOp(op, vs) => BoolOp(op, ReplaceExprs(vs, key, tbl))
      case BinOp(l, op, r) => BinOp(ReplaceExpr(l, key, tbl), op, ReplaceExpr(r, key, tbl))
      case Compare(l, op, r) => Compare(ReplaceExpr(l, key, tbl), op, ReplaceExpr(r, key, tbl))
      case IfExp(t, b, o) => IfExp(ReplaceExpr(t, key, tbl), ReplaceExpr(b, key, tbl), ReplaceExpr(o, key, tbl))
      case Call(f, args, kws) => Call(ReplaceExpr(f, key, tbl), ReplaceExprs(args, key, tbl), ReplaceKeywords(kws, key, tbl))
      case Tuple(elts) => Tuple(ReplaceExprs(elts, key, tbl))
      case Lit(_) => e
  }

  /** A conditional expression without a replacement is rebuilt from its replaced parts. */
  lemma ReplaceIfExpStep<K>(e: Expr, key: Expr -> Option<K>, tbl: map<K, Expr>)
    requires e.IfExp? && (key(e).None? || key(e).value !in tbl)
    ensures ReplaceExpr(e, key, tbl)
      == IfExp(ReplaceExpr(e.test, key, tbl), ReplaceExpr(e.body, key, tbl), ReplaceExpr(e.orelse, key, tbl))
  {
  }

  function ReplaceExprs<K>(es: seq<Expr>, key: Expr -> Option<K>, tbl: map<K, Expr>): (r: seq<Expr>)
    ensures |r| == |es|
  {
    if es == [] then [] else [ReplaceExpr(es[0], key, tbl)] + ReplaceExprs(es[1..], key, tbl)
  }

  function ReplaceKeywords<K>(ks: seq<Keyword>, key: Expr -> Option<K>, tbl: map<K, Expr>): (r: seq<Keyword>)
    ensures |r| == |ks|
  {
    if ks == [] then []
    else [Keyword(ks[0].arg, ReplaceExpr(ks[0].value, key, tbl))] + ReplaceKeywords(ks[1..], key, tbl)
  }

  function ReplaceSmall<K>(s: Small, key: Expr -> Option<K>, tbl: map<K, Expr>): Small
  {
    match s
    case Assign(targets, value) => Assign(ReplaceExprs(targets, key, tbl), ReplaceExpr(value, key, tbl))
    case Return(r) => Return(if r.Some? then Some(ReplaceExpr(r.value, key, tbl)) else None)
    case ExprStmt(e) => ExprStmt(ReplaceExpr(e, key, tbl))
    case Pass => Pass
    case Assert(c) => Assert(ReplaceExpr(c, key, tbl))
  }

  function ReplaceSmalls<K>(ss: seq<Small>, key: Expr -> Option<K>, tbl: map<K, Expr>): (r: seq<Small>)
    ensures |r| == |ss|
  {
    if ss == [] then [] else [ReplaceSmall(ss[0], key, tbl)] + ReplaceSmalls(ss[1..], key, tbl)
  }

  function ReplaceStmt<K>(s: Stmt, key: Expr -> Option<K>, tbl: map<K, Expr>): Stmt
  {
    match s
    case Line(smalls) => Line(ReplaceSmalls(smalls, key, tbl))
    case If(test, body, orelse) => If(ReplaceExpr(test, key, tbl), ReplaceBlock(body, key, tbl), ReplaceOrElse(orelse, key, tbl))
    case For(target, iter, body, isAsync) =>
      For(ReplaceExpr(target, key, tbl), ReplaceExpr(iter, key, tbl), ReplaceBlock(body, key, tbl), isAsync)
    case While(test, body) => While(ReplaceExpr(test, key, tbl), ReplaceBlock(body, key, tbl))
    case With(items, body, isAsync) => With(ReplaceExprs(items, key, tbl), ReplaceBlock(body, key, tbl), isAsync)
    case Try(body, handlers) => Try(ReplaceBlock(body, key, tbl), ReplaceBlocks(handlers, key, tbl))
    case Def(name, params, decorators, body, isAsync) =>
      Def(name, params, ReplaceExprs(decorators, key, tbl), ReplaceBlock(body, key, tbl), isAsync)
    case Class(name, decorators, body) => Class(name, ReplaceExprs(decorators, key, tbl), ReplaceBlock(body, key, tbl))
  }

  function ReplaceStmts<K>(ss: seq<Stmt>, key: Expr -> Option<K>, tbl: map<K, Expr>): (r: seq<Stmt>)
    ensures |r| == |ss|
  {
    if ss == [] then [] else [ReplaceStmt(ss[0], key, tbl)] + ReplaceStmts(ss[1..], key, tbl)
  }

  function ReplaceBlock<K>(b: Block, key: Expr -> Option<K>, tbl: map<K, Expr>): Block
  {
    match b
    case Indented(stmts) => Indented(ReplaceStmts(stmts, key, tbl))
    case Inline(smalls) => Inline(ReplaceSmalls(smalls, key, tbl))
  }

  function ReplaceBlocks<K>(bs: seq<Block>, key: Expr -> Option<K>, tbl: map<K, Expr>): (r: seq<Block>)
    ensures |r| == |bs|
  {
    if bs == [] then [] else [ReplaceBlock(bs[0], key, tbl)] + ReplaceBlocks(bs[1..], key, tbl)
  }

  function ReplaceOrElse<K>(o: OrElse, key: Expr -> Option<K>, tbl: map<K, Expr>): OrElse
  {
    match o
    case NoElse => NoElse
    case Else(b) => Else(ReplaceBlock(b, key, tbl))
    case Elif(s) => Elif(ReplaceStmt(s, key, tbl))
  }

  /**
   * `add_replacement`: a node without a key is a `TypeError`; otherwise
   * the entry for its key is set, overwriting any earlier one.
   */
  function AddReplacement<K>(tbl: map<K, Expr>, key: Expr -> Option<K>, node: Expr, replacement: Expr): (r: Result<map<K, Expr>>)
    ensures r.Err? <==> key(node).None?
    ensures r.Err? ==> r.error.TypeError?
    ensures r.Ok? ==> r.value.Keys == tbl.Keys + {key(node).value}
    ensures r.Ok? ==> r.value[key(node).value] == replacement
    ensures r.Ok? ==> forall k | k in tbl && k != key(node).value :: r.value[k] == tbl[k]
    ensures r.Ok? ==> ReplaceExpr(node, key, r.value) == replacement
  {
    var k := key(node);
    if k.None? then Err(TypeError("Unsupported node")) else Ok(tbl[k.value := replacement])
  }

  // ---------------------------------------------------------------------
  // Replacement commutes with listing a tree's expressions
  // ---------------------------------------------------------------------

  lemma {:induction false} ReplaceExprsAppend<K>(a: seq<Expr>, b: seq<Expr>, key: Expr -> Option<K>, tbl: map<K, Expr>)
    ensures ReplaceExprs(a + b, key, tbl) == ReplaceExprs(a, key, tbl) + ReplaceExprs(b, key, tbl)
  {
    if a == [] {
      assert a + b == b;
    } else {
      assert (a + b)[1..] == a[1..] + b;
      ReplaceExprsAppend(a[1..], b, key, tbl);
    }
  }

  lemma ReplaceExprsOne<K>(e: Expr, key: Expr -> Option<K>, tbl: map<K, Expr>)
    ensures ReplaceExprs([e], key, tbl) == [ReplaceExpr(e, key, tbl)]
  {
    assert [e][1..] == [];
  }

  /**
   * The outermost expressions of a replaced tree are the replaced
   * outermost expressions of the tree, in the same order: the replacer
   * changes expressions only.
   */
  lemma {:induction false} SmallExprsReplaced<K>(s: Small, key: Expr -> Option<K>, tbl: map<K, Expr>)
    ensures SmallExprs(ReplaceSmall(s, key, tbl)) == ReplaceExprs(SmallExprs(s), key, tbl)
  {
    match s
    case Assign(targets, value) =>
      ReplaceExprsAppend(targets, [value], key, tbl);
      ReplaceExprsOne(value, key, tbl);
    case Return(r) =>
      if r.Some? {
        ReplaceExprsOne(r.value, key, tbl);
      }
    case ExprStmt(e) => ReplaceExprsOne(e, key, tbl);
    case Pass =>
    case Assert(c) => ReplaceExprsOne(c, key, tbl);
  }

  lemma {:induction false} SmallsExprsReplaced<K>(ss: seq<Small>, key: Expr -> Option<K>, tbl: map<K, Expr>)
    ensures SmallsExprs(ReplaceSmalls(ss, key, tbl)) == ReplaceExprs(SmallsExprs(ss), key, tbl)
  {
    if ss != [] {
      SmallExprsReplaced(ss[0], key, tbl);
      SmallsExprsReplaced(ss[1..], key, tbl);
      ReplaceExprsAppend(SmallExprs(ss[0]), SmallsExprs(ss[1..]), key, tbl);
    }
  }

  lemma {:induction false} StmtExprsReplaced<K>(s: Stmt, key: Expr -> Option<K>, tbl: map<K, Expr>)
    ensures StmtExprs(ReplaceStmt(s, key, tbl)) == ReplaceExprs(StmtExprs(s), key, tbl)
  {
    match s
    case Line(smalls) => SmallsExprsReplaced(smalls, key, tbl);
    case If(test, body, orelse) =>
      BlockExprsReplaced(body, key, tbl);
      OrElseExprsReplaced(orelse, key, tbl);
      ReplaceExprsOne(test, key, tbl);
      ReplaceExprsAppend([test], BlockExprs(body), key, tbl);
      ReplaceExprsAppend([test] + BlockExprs(body), OrElseExprs(orelse), key, tbl);
    case For(target, iter, body, _) =>
      BlockExprsReplaced(body, key, tbl);
      ReplaceExprsOne(iter, key, tbl);
      ReplaceExprsAppend([target], [iter], key, tbl);
      ReplaceExprsOne(target, key, tbl);
      assert [target, iter] == [target] + [iter];
      ReplaceExprsAppend([target, iter], BlockExprs(body), key, tbl);
    case While(test, body) =>
      BlockExprsReplaced(body, key, tbl);
      ReplaceExprsOne(test, key, tbl);
      ReplaceExprsAppend([test], BlockExprs(body), key, tbl);
    case With(items, body, _) =>
      BlockExprsReplaced(body, key, tbl);
      ReplaceExprsAppend(items, BlockExprs(body), key, tbl);
    case Try(body, handlers) =>
      BlockExprsReplaced(body, key, tbl);
      BlocksExprsReplaced(handlers, key, tbl);
      ReplaceExprsAppend(BlockExprs(body), BlocksExprs(handlers), key, tbl);
    case Def(_, _, decorators, body, _) =>
      BlockExprsReplaced(body, key, tbl);
      ReplaceExprsAppend(BlockExprs(body), decorators, key, tbl);
    case Class(_, decorators, body) =>
      BlockExprsReplaced(body, key, tbl);
      ReplaceExprsAppend(BlockExprs(body), decorators, key, tbl);
  }

  lemma {:induction false} StmtsExprsReplaced<K>(ss: seq<Stmt>, key: Expr -> Option<K>, tbl: map<K, Expr>)
    ensures StmtsExprs(ReplaceStmts(ss, key, tbl)) == ReplaceExprs(StmtsExprs(ss), key, tbl)
  {
    if ss != [] {
      StmtExprsReplaced(ss[0], key, tbl);
      StmtsExprsReplaced(ss[1..], key, tbl);
      ReplaceExprsAppend(StmtExprs(ss[0]), StmtsExprs(ss[1..]), key, tbl);
    }
  }

  lemma {:induction false} BlockExprsReplaced<K>(b: Block, key: Expr -> Option<K>, tbl: map<K, Expr>)
    ensures BlockExprs(ReplaceBlock(b, key, tbl)) == ReplaceExprs(BlockExprs(b), key, tbl)
  {
    match b
    case Indented(stmts) => StmtsExprsReplaced(stmts, key, tbl);
    case Inline(smalls) => SmallsExprsReplaced(smalls, key, tbl);
  }

  lemma {:induction false} BlocksExprsReplaced<K>(bs: seq<Block>, key: Expr -> Option<K>, tbl: map<K, Expr>)
    ensures BlocksExprs(ReplaceBlocks(bs, key, tbl)) == ReplaceExprs(BlocksExprs(bs), key, tbl)
  {
    if bs != [] {
      BlockExprsReplaced(bs[0], key, tbl);
      BlocksExprsReplaced(bs[1..], key, tbl);
      ReplaceExprsAppend(BlockExprs(bs[0]), BlocksExprs(bs[1..]), key, tbl);
    }
  }

  lemma {:induction false} OrElseExprsReplaced<K>(o: OrElse, key: Expr -> Option<K>, tbl: map<K, Expr>)
    ensures OrElseExprs(ReplaceOrElse(o, key, tbl)) == ReplaceExprs(OrElseExprs(o), key, tbl)
  {
    match o
    case NoElse =>
    case Else(b) => BlockExprsReplaced(b, key, tbl);
    case Elif(s) => StmtExprsReplaced(s, key, tbl);
  }
}

=== FILE: node_tracker.dfy ===
/**
 * Provenance tracking of `transformers/node_tracker.py`. The tracking
 * table is a `BiMap` from original nodes to updated nodes; it is modelled
 * here by the relation it stores, the set of (original, updated) pairs,
 * whose forward and reverse views are the two maps of the `BiMap`.
 *
 * Nodes are compared by value; a node carries an identity number so that
 * distinct objects of the same shape stay distinct.
 */
module NodeTracking {
  import opened Results

  datatype Node = Node(id: nat, children: seq<Node>)

  type Table = set<(Node, Node)>

  /** Nodes recorded as an origin (keys of the forward map). */
  function Sources(t: Table): set<Node> { set p | p in t :: p.0 }

  /** Nodes recorded as an update (keys of the reverse map, `.i`). */
  function Sinks(t: Table): set<Node> { set p | p in t :: p.1 }

  /** `table.i[n]`: the origins of `n`. */
  function OriginsOf(t: Table, n: Node): set<Node> { set p | p in t && p.1 == n :: p.0 }

  /** `table[n]`: the updates of `n`. */
  function UpdatesOf(t: Table, n: Node): set<Node> { set p | p in t && p.0 == n :: p.1 }

  /** The invariant: no node is both an origin and an update. */
  predicate NoChains(t: Table) { Sources(t) !! Sinks(t) }

  /** What `_track` links from: the origins of `o` when it has some, else `o` itself. */
  function Back(t: Table, o: Node): set<Node>
  {
    if o in Sinks(t) then OriginsOf(t, o) else {o}
  }

  /** What `_track` links to: the updates of `u` when it has some, else `u` itself. */
  function Fwd(t: Table, u: Node): set<Node>
  {
    if u in Sources(t) then UpdatesOf(t, u) else {u}
  }

  function Product(a: set<Node>, b: set<Node>): set<(Node, Node)>
  {
    set x, y | x in a && y in b :: (x, y)
  }

  lemma OriginsAreSources(t: Table, o: Node)
    ensures OriginsOf(t, o) <= Sources(t)
    ensures o in Sinks(t) <==> OriginsOf(t, o) != {}
  {
    if o in Sinks(t) {
      var p :| p in t && p.1 == o;
      assert p.0 in OriginsOf(t, o);
    }
  }

  lemma UpdatesAreSinks(t: Table, u: Node)
    ensures UpdatesOf(t, u) <= Sinks(t)
    ensures u in Sources(t) <==> UpdatesOf(t, u) != {}
  {
    if u in Sources(t) {
      var p :| p in t && p.0 == u;
      assert p.1 in UpdatesOf(t, u);
    }
  }

  /** Adding edges out of known sources and into known sinks keeps both views' shape. */
  lemma AddLinks(t: Table, a: set<Node>, b: set<Node>)
    ensures Sources(t + Product(a, b)) == Sources(t) + (if b == {} then {} else a)
    ensures Sinks(t + Product(a, b)) == Sinks(t) + (if a == {} then {} else b)
  {
    var t' := t + Product(a, b);
    if b != {} {
      forall x | x in a ensures x in Sources(t') {
        var y :| y in b;
        assert (x, y) in t';
      }
    }
    if a != {} {
      forall y | y in b ensures y in Sinks(t') {
        var x :| x in a;
        assert (x, y) in t';
      }
    }
  }

  /**
   * `_track(o, u)`. The result adds exactly the links from `Back(o)` to
   * `Fwd(u)`, and the invariant survives unless a fresh node is linked to
   * itself.
   */
  method Track(t: Table, o: Node, u: Node) returns (r: Table)
    requires NoChains(t)
    ensures r == t + Product(Back(t, o), Fwd(t, u))
    ensures NoChains(r) <==> (o != u || o in Sources(t) || o in Sinks(t))
    decreases Distance(t, o, u), 1
  {
    if o in Sinks(t) {
      OriginsAreSources(t, o);
      r := TrackFromOrigins(t, OriginsOf(t, o), u);
      AddLinks(t, OriginsOf(t, o), Fwd(t, u));
    } else if u in Sources(t) {
      UpdatesAreSinks(t, u);
      r := TrackToUpdates(t, o, UpdatesOf(t, u));
      AddLinks(t, {o}, UpdatesOf(t, u));
    } else {
      r := t + {(o, u)};
      assert Product({o}, {u}) == {(o, u)};
      AddLinks(t, {o}, {u});
    }
  }

  /** The first loop of `_track`: re-link from every origin of the original node. */
  method TrackFromOrigins(t: Table, origins: set<Node>, u: Node) returns (r: Table)
    requires NoChains(t) && origins <= Sources(t)
    ensures r == t + Product(origins, Fwd(t, u))
    ensures NoChains(r)
    decreases 2, 0
  {
    var todo := origins;
    r := t;
    while todo != {}
      invariant todo <= origins
      invariant r == t + Product(origins - todo, Fwd(t, u))
      invariant NoChains(r) && Sources(r) == Sources(t)
      invariant Fwd(r, u) == Fwd(t, u)
      decreases |todo|
    {
      var oo :| oo in todo;
      assert oo !in Sinks(r);
      r := Track(r, oo, u);
      FromOriginsStep(t, origins, todo, oo, u);
      todo := todo - {oo};
    }
  }

  lemma FromOriginsStep(t: Table, origins: set<Node>, todo: set<Node>, oo: Node, u: Node)
    requires NoChains(t) && origins <= Sources(t) && todo <= origins && oo in todo
    ensures t + Product(origins - todo, Fwd(t, u)) + Product({oo}, Fwd(t, u)) == t + Product(origins - (todo - {oo}), Fwd(t, u))
    ensures Sources(t + Product(origins - (todo - {oo}), Fwd(t, u))) == Sources(t)
    ensures Fwd(t + Product(origins - (todo - {oo}), Fwd(t, u)), u) == Fwd(t, u)
    ensures NoChains(t + Product(origins - (todo - {oo}), Fwd(t, u)))
  {
    var a := origins - (todo - {oo});
    assert Product(a, Fwd(t, u)) == Product(origins - todo, Fwd(t, u)) + Product({oo}, Fwd(t, u));
    AddLinks(t, a, Fwd(t, u));
    FwdStable(t, a, u);
    FwdFacts(t, u);
  }

  /** The second loop of `_track`: link the original node to every update of the updated node. */
  method TrackToUpdates(t: Table, o: Node, updates: set<Node>) returns (r: Table)
    requires NoChains(t) && updates <= Sinks(t) && o !in Sinks(t)
    ensures r == t + Product({o}, updates)
    ensures NoChains(r)
    decreases 1, 0
  {
    var todo := updates;
    r := t;
    while todo != {}
      invariant todo <= updates
      invariant r == t + Product({o}, updates - todo)
      invariant NoChains(r) && Sinks(r) == Sinks(t)
      decreases |todo|
    {
      var uu :| uu in todo;
      assert uu !in Sources(r);
      r := Track(r, o, uu);
      ToUpdatesStep(t, o, updates, todo, uu);
      todo := todo - {uu};
    }
  }

  lemma ToUpdatesStep(t: Table, o: Node, updates: set<Node>, todo: set<Node>, uu: Node)
    requires NoChains(t) && updates <= Sinks(t) && o !in Sinks(t) && todo <= updates && uu in todo
    ensures t + Product({o}, updates - todo) + Product({o}, {uu}) == t + Product({o}, updates - (todo - {uu}))
    ensures Sinks(t + Product({o}, updates - (todo - {uu}))) == Sinks(t)
    ensures NoChains(t + Product({o}, updates - (todo - {uu})))
  {
    var b := updates - (todo - {uu});
    assert Product({o}, b) == Product({o}, updates - todo) + Product({o}, {uu});
    AddLinks(t, {o}, b);
  }

  lemma FwdFacts(t: Table, u: Node)
    requires NoChains(t)
    ensures Fwd(t, u) <= Sinks(t) || Fwd(t, u) == {u}
    ensures u !in Sources(t) ==> Fwd(t, u) == {u}
  {
    UpdatesAreSinks(t, u);
  }

  /** Linking more origins that are already sources to `Fwd(u)` leaves `Fwd(u)` unchanged. */
  lemma FwdStable(t: Table, a: set<Node>, u: Node)
    requires a <= Sources(t)
    ensures Fwd(t + Product(a, Fwd(t, u)), u) == Fwd(t, u)
  {
    var t' := t + Product(a, Fwd(t, u));
    AddLinks(t, a, Fwd(t, u));
    if u in Sources(t) {
      assert u in Sources(t');
      forall y ensures y in UpdatesOf(t', u) <==> y in UpdatesOf(t, u) {
        if y in UpdatesOf(t', u) {
          var p :| p in t' && p.0 == u && p.1 == y;
          if p !in t {
            assert y in Fwd(t, u);
          }
        }
        if y in UpdatesOf(t, u) {
          var p :| p in t && p.0 == u && p.1 == y;
          assert p in t';
        }
      }
    } else {
      assert u !in a;
      assert u !in Sources(t');
    }
  }

  /** Every node of a forest, at any depth. */
  function AllNodes(ns: seq<Node>): set<Node>
    decreases ns
  {
    if ns == [] then {} else {ns[0]} + AllNodes(ns[0].children) + AllNodes(ns[1..])
  }

  function Size(ns: seq<Node>): nat
    decreases ns
  {
    if ns == [] then 0 else 1 + Size(ns[0].children) + Size(ns[1..])
  }

  lemma {:induction false} ChildrenSmaller(ns: seq<Node>, j: int)
    requires 0 <= j < |ns|
    ensures Size(ns[j].children) < Size(ns)
    ensures ns[j] in AllNodes(ns) && AllNodes(ns[j].children) <= AllNodes(ns)
    decreases ns
  {
    if j > 0 {
      ChildrenSmaller(ns[1..], j - 1);
    }
  }

  /**
   * Whether an unchanged node is linked to itself. `AsWritten` links every
   * pair as `_track_with_children` does, so `on_leave(o, o)` records
   * `o -> o`; `Corrected` skips the pair of a node with itself.
   */
  datatype Policy = AsWritten | Corrected

  /**
   * The outcome of tracking. `SelfLinked` is the table right after a node
   * without provenance was linked to itself: from then on `_track` started
   * from that node calls itself with the same arguments (`SelfLinkRecurses`).
   */
  datatype Tracked = Tracked(table: Table, added: set<Node>) | SelfLinked(table: Table, node: Node)

  /**
   * `_track_with_children(originals, updated)` with the per-call set
   * `added` (`self.new`). An updated node already explained and not added
   * during this call is skipped with its subtree; any other is linked from
   * every original node and its children are processed the same way.
   */
  method TrackWithChildren(policy: Policy, t: Table, added: set<Node>, originals: seq<Node>, updated: seq<Node>)
    returns (out: Tracked)
    requires NoChains(t)
    ensures out.Tracked? ==> NoChains(out.table) && t <= out.table && added <= out.added <= added + AllNodes(updated)
    ensures out.Tracked? && originals != [] ==>
      forall u | u in updated :: u in Sources(out.table) || u in Sinks(out.table) || (policy.Corrected? && u in originals)
    ensures out.SelfLinked? ==>
      && policy.AsWritten? && t <= out.table && (out.node, out.node) in out.table
      && out.node in originals && out.node in AllNodes(updated)
      && out.node !in Sources(t) && out.node !in Sinks(t)
    ensures (policy.Corrected? || forall o | o in originals :: o !in AllNodes(updated)) ==> out.Tracked?
    ensures (forall u | u in updated :: u in Sinks(t) && u !in added) ==> out == Tracked(t, added)
    ensures policy.Corrected? && |originals| == 1 && updated == originals ==> out == Tracked(t, added)
    ensures (policy.AsWritten? && |originals| == 1 && updated == originals
             && originals[0] !in Sources(t) && originals[0] !in Sinks(t)) ==>
      out == SelfLinked(t + {(originals[0], originals[0])}, originals[0])
    decreases Size(updated), 1
  {
    var r, add := t, added;
    ghost var single := |originals| == 1 && updated == originals;
    ghost var unseen := single && originals[0] !in Sources(t) && originals[0] !in Sinks(t);
    var i := 0;
    while i < |originals|
      invariant 0 <= i <= |originals|
      invariant NoChains(r) && t <= r && added <= add <= added + AllNodes(updated)
      invariant i > 0 ==> forall u | u in updated :: u in Sources(r) || u in Sinks(r) || (policy.Corrected? && u in originals)
      invariant (forall u | u in updated :: u in Sinks(t) && u !in added) ==> r == t && add == added
      invariant policy.Corrected? && single ==> r == t && add == added
      invariant policy.AsWritten? && unseen ==> i == 0 && r == t && add == added
    {
      var o := originals[i];
      var j := 0;
      while j < |updated|
        invariant 0 <= j <= |updated|
        invariant NoChains(r) && t <= r && added <= add <= added + AllNodes(updated)
        invariant forall k | 0 <= k < (if i > 0 then |updated| else j) ::
          updated[k] in Sources(r) || updated[k] in Sinks(r) || (policy.Corrected? && updated[k] in originals)
        invariant (forall u | u in updated :: u in Sinks(t) && u !in added) ==> r == t && add == added
        invariant policy.Corrected? && single ==> r == t && add == added
        invariant policy.AsWritten? && unseen ==> j == 0 && r == t && add == added
      {
        var u := updated[j];
        ChildrenSmaller(updated, j);
        out := TrackPair(policy, r, add, originals, o, u);
        if out.SelfLinked? {
          return;
        }
        r, add := out.table, out.added;
        j := j + 1;
      }
      i := i + 1;
    }
    return Tracked(r, add);
  }

  /**
   * One pass of the inner loop of `_track_with_children`: the pair of the
   * original `o` with the updated node `u`, then `u`'s children.
   */
  method TrackPair(policy: Policy, t: Table, added: set<Node>, originals: seq<Node>, o: Node, u: Node)
    returns (out: Tracked)
    requires NoChains(t) && o in originals
    ensures out.Tracked? ==> NoChains(out.table) && t <= out.table && added <= out.added <= added + {u} + AllNodes(u.children)
    ensures out.Tracked? ==> u in Sources(out.table) || u in Sinks(out.table) || (policy.Corrected? && u in originals)
    ensures out.SelfLinked? ==>
      && policy.AsWritten? && t <= out.table && (out.node, out.node) in out.table
      && out.node in originals && out.node in {u} + AllNodes(u.children)
      && out.node !in Sources(t) && out.node !in Sinks(t)
    ensures (policy.Corrected? || forall x | x in originals :: x != u && x !in AllNodes(u.children)) ==> out.Tracked?
    ensures (u in Sinks(t) && u !in added) || (policy.Corrected? && u == o) ==> out == Tracked(t, added)
    ensures (policy.AsWritten? && u == o && o !in Sources(t) && o !in Sinks(t)) ==> out == SelfLinked(t + {(o, o)}, o)
    decreases Size(u.children), 2
  {
    if policy.Corrected? && u == o {
      // a node left as it is: nothing to record
      return Tracked(t, added);
    }
    if u in Sinks(t) && u !in added {
      return Tracked(t, added);
    }
    var selfLink := o == u && o !in Sources(t) && o !in Sinks(t);
    var r := Track(t, o, u);
    Linked(t, o, u);
    if selfLink {
      SelfProduct(o);
      return SelfLinked(r, o);
    }
    out := TrackWithChildren(policy, r, added + {u}, originals, u.children);
    if out.Tracked? {
      Grows(r, out.table);
    }
  }

  lemma Grows(t: Table, t': Table)
    requires t <= t'
    ensures Sources(t) <= Sources(t') && Sinks(t) <= Sinks(t')
  {
  }

  lemma SelfProduct(o: Node)
    ensures Product({o}, {o}) == {(o, o)}
  {
  }

  /** After `_track(o, u)` the updated node is explained, as an update or as an origin. */
  lemma Linked(t: Table, o: Node, u: Node)
    requires NoChains(t)
    ensures var r := t + Product(Back(t, o), Fwd(t, u)); u in Sources(r) || u in Sinks(r)
  {
    var r := t + Product(Back(t, o), Fwd(t, u));
    if u !in Sources(t) {
      OriginsAreSources(t, o);
      var x :| x in Back(t, o);
      assert (x, u) in r;
    } else {
      var p :| p in t && p.0 == u;
      assert p in r;
    }
  }

  /**
   * `track_with_children`: a removal (`None`) or an empty result records
   * nothing; otherwise the nodes are tracked with `self.new` starting, and
   * ending, empty.
   */
  method TrackResult(policy: Policy, t: Table, originals: seq<Node>, updated: Option<seq<Node>>) returns (out: Tracked)
    requires NoChains(t)
    ensures out.Tracked? ==> NoChains(out.table) && t <= out.table && out.added == {}
    ensures updated.None? || updated.value == [] ==> out == Tracked(t, {})
    ensures out.Tracked? && updated.Some? && originals != [] ==>
      forall u | u in updated.value :: u in Sources(out.table) || u in Sinks(out.table) || (policy.Corrected? && u in originals)
    ensures out.SelfLinked? ==>
      && policy.AsWritten? && updated.Some? && t <= out.table && (out.node, out.node) in out.table
      && out.node in originals && out.node in AllNodes(updated.value)
    ensures (policy.Corrected? || updated.None? || forall o | o in originals :: o !in AllNodes(updated.value)) ==> out.Tracked?
    ensures |originals| == 1 && updated == Some(originals) && originals[0] !in Sources(t) && originals[0] !in Sinks(t) ==>
      out == if policy.AsWritten? then SelfLinked(t + {(originals[0], originals[0])}, originals[0]) else Tracked(t, {})
  {
    if updated.None? || updated.value == [] {
      return Tracked(t, {});
    }
    out := TrackWithChildren(policy, t, {}, originals, updated.value);
    if out.Tracked? {
      out := Tracked(out.table, {});
    }
  }

  /**
   * The calls `_track(o, u)` makes before linking anything: one per origin
   * of `o` when `o` has origins, else one per update of `u` when `u` has
   * updates, else none.
   */
  function TrackCalls(t: Table, o: Node, u: Node): set<(Node, Node)>
  {
    if o in Sinks(t) then set oo | oo in OriginsOf(t, o) :: (oo, u)
    else if u in Sources(t) then set uu | uu in UpdatesOf(t, u) :: (o, uu)
    else {}
  }

  /** How far `_track(o, u)` is from linking: 2 for following origins, 1 for following updates. */
  function Distance(t: Table, o: Node, u: Node): nat
  {
    (if o in Sinks(t) then 2 else 0) + (if u in Sources(t) then 1 else 0)
  }

  /** On a table without chains every call `_track` makes is nearer to linking, so the recursion ends. */
  lemma ChainFreeCallsNearer(t: Table, o: Node, u: Node)
    requires NoChains(t)
    ensures forall c | c in TrackCalls(t, o, u) :: Distance(t, c.0, c.1) < Distance(t, o, u)
  {
    forall c | c in TrackCalls(t, o, u) ensures Distance(t, c.0, c.1) < Distance(t, o, u) {
      if o in Sinks(t) {
        OriginsAreSources(t, o);
        assert c.0 in Sources(t) && c.1 == u;
      } else {
        UpdatesAreSinks(t, u);
        assert c.0 == o && c.1 in Sinks(t);
      }
    }
  }

  /** Once `o -> o` is recorded, `_track(o, u)` calls itself with the same arguments. */
  lemma SelfLinkRecurses(t: Table, o: Node, u: Node)
    requires (o, o) in t
    ensures (o, u) in TrackCalls(t, o, u)
  {
    assert o in Sinks(t);
    assert o in OriginsOf(t, o);
  }

  /** A node that has a child, standing for one whose `visit_` returned False. */
  function Pruned(): Node { Node(0, [Node(1, [])]) }

  /**
   * `on_leave(o, o)` on `Pruned()`: the table gets `o -> o`, and the
   * `_track(o, child)` that `_track_with_children` makes next repeats itself.
   */
  method PrunedVisit() returns (out: Tracked)
    ensures out == SelfLinked({(Pruned(), Pruned())}, Pruned())
    ensures (Pruned(), Pruned().children[0]) in TrackCalls(out.table, Pruned(), Pruned().children[0])
  {
    out := TrackResult(AsWritten, {}, [Pruned()], Some([Pruned()]));
    SelfLinkRecurses(out.table, Pruned(), Pruned().children[0]);
  }

  /** The corrected tracker records nothing for a node left as it is. */
  method PrunedVisitCorrected() returns (out: Tracked)
    ensures out == Tracked({}, {})
  {
    out := TrackResult(Corrected, {}, [Pruned()], Some([Pruned()]));
  }

  /**
   * `trace_origins(prev)`: the first loop composes a previous link `oo -> o`
   * with a current link `o -> u`; the second carries every previous link
   * `origin -> u` forward to the updates of `u`, or keeps it when `u` was
   * not re-tracked.
   */
  function TraceOrigins(cur: Table, prev: Table): (r: Table)
    ensures forall x, y :: (x, y) in r <==>
      (exists o :: (x, o) in prev && (o, y) in cur) || ((x, y) in prev && y !in Sources(cur))
  {
    var composed := set q, p | q in cur && p in prev && p.1 == q.0 :: (p.0, q.1);
    var carried := set p, uu | p in prev && uu in Fwd(cur, p.1) :: (p.0, uu);
    TraceCharacterised(cur, prev, composed, carried);
    composed + carried
  }

  lemma TraceCharacterised(cur: Table, prev: Table, composed: Table, carried: Table)
    requires composed == set q, p | q in cur && p in prev && p.1 == q.0 :: (p.0, q.1)
    requires carried == set p, uu | p in prev && uu in Fwd(cur, p.1) :: (p.0, uu)
    ensures composed <= carried
    ensures forall x, y :: (x, y) in composed + carried <==>
      (exists o :: (x, o) in prev && (o, y) in cur) || ((x, y) in prev && y !in Sources(cur))
  {
    forall e | e in composed ensures e in carried {
      var q, p :| q in cur && p in prev && p.1 == q.0 && e == (p.0, q.1);
      assert q.0 in Sources(cur);
      assert q.1 in UpdatesOf(cur, p.1);
    }
    forall x, y ensures (x, y) in carried <==>
      (exists o :: (x, o) in prev && (o, y) in cur) || ((x, y) in prev && y !in Sources(cur))
    {
      if (x, y) in carried {
        var p, uu :| p in prev && uu in Fwd(cur, p.1) && (x, y) == (p.0, uu);
        if p.1 in Sources(cur) {
          var q :| q in cur && q.0 == p.1 && q.1 == uu;
          assert (x, p.1) in prev && (p.1, y) in cur;
        }
      }
      if exists o :: (x, o) in prev && (o, y) in cur {
        var o :| (x, o) in prev && (o, y) in cur;
        assert o in Sources(cur) && y in UpdatesOf(cur, o);
        assert (x, y) in carried;
      }
      if (x, y) in prev && y !in Sources(cur) {
        assert y in Fwd(cur, y);
        assert (x, y) in carried;
      }
    }
  }
}

=== FILE: normalizers.dfy ===
/**
 * The block and `elif` normalisers of `transformers/normalizers.py`.
 *
 * All three rewrite bottom-up and reach every block of the tree,
 * including the bodies of loops, `with`, `try` and nested definitions.
 */
module Normalizers {
  import opened Syntax
  import opened Traversal
  import Reachability
  import UsedNames

  /* ----- ElifToElse ----- */

  /** `ElifToElse`: an `elif` becomes an `else` whose indented block holds exactly the inner `if`. */
  function ElifStmt(s: Stmt): Stmt
  {
    match s
    case Line(_) => s
    case If(test, body, orelse) => If(test, ElifBlock(body), ElifOrElse(orelse))
    case For(target, iter, body, isAsync) => For(target, iter, ElifBlock(body), isAsync)
    case While(test, body) => While(test, ElifBlock(body))
    case With(items, body, isAsync) => With(items, ElifBlock(body), isAsync)
    case Try(body, handlers) => Try(ElifBlock(body), ElifBlocks(handlers))
    case Def(name, params, decorators, body, isAsync) => Def(name, params, decorators, ElifBlock(body), isAsync)
    case Class(name, decorators, body) => Class(name, decorators, ElifBlock(body))
  }

  function ElifStmts(ss: seq<Stmt>): (r: seq<Stmt>)
    ensures |r| == |ss|
  {
    if ss == [] then [] else [ElifStmt(ss[0])] + ElifStmts(ss[1..])
  }

  function ElifBlock(b: Block): Block
  {
    match b
    case Indented(stmts) => Indented(ElifStmts(stmts))
    case Inline(_) => b
  }

  function ElifBlocks(bs: seq<Block>): (r: seq<Block>)
    ensures |r| == |bs|
  {
    if bs == [] then [] else [ElifBlock(bs[0])] + ElifBlocks(bs[1..])
  }

  function ElifOrElse(o: OrElse): OrElse
  {
    match o
    case NoElse => NoElse
    case Else(b) => Else(ElifBlock(b))
    case Elif(s) => Else(Indented([ElifStmt(s)]))
  }

  /** No `elif` anywhere in the code. */
  predicate StmtNoElif(s: Stmt)
  {
    match s
    case Line(_) => true
    case If(_, body, orelse) => BlockNoElif(body) && !orelse.Elif? && (orelse.Else? ==> BlockNoElif(orelse.block))
    case For(_, _, body, _) => BlockNoElif(body)
    case While(_, body) => BlockNoElif(body)
    case With(_, body, _) => BlockNoElif(body)
    case Try(body, handlers) => BlockNoElif(body) && BlocksNoElif(handlers)
    case Def(_, _, _, body, _) => BlockNoElif(body)
    case Class(_, _, body) => BlockNoElif(body)
  }

  predicate StmtsNoElif(ss: seq<Stmt>)
  {
    ss == [] || (StmtNoElif(ss[0]) && StmtsNoElif(ss[1..]))
  }

  predicate BlockNoElif(b: Block)
  {
    b.Indented? ==> StmtsNoElif(b.stmts)
  }

  predicate BlocksNoElif(bs: seq<Block>)
  {
    bs == [] || (BlockNoElif(bs[0]) && BlocksNoElif(bs[1..]))
  }

  /**
   * After `ElifToElse` no `elif` is left; on code without `elif` it
   * changes nothing (so applying it twice is applying it once); and it
   * keeps the always-returns classification and the used names.
   */
  lemma {:induction false} ElifStmtFacts(s: Stmt)
    ensures StmtNoElif(ElifStmt(s))
    ensures StmtNoElif(s) ==> ElifStmt(s) == s
    ensures Reachability.StmtReturns(ElifStmt(s)) == Reachability.StmtReturns(s)
    ensures UsedNames.StmtNames(ElifStmt(s)) == UsedNames.StmtNames(s)
    decreases s, 1
  {
    match s
    case Line(_) =>
    case If(test, body, orelse) =>
      ElifBlockFacts(body);
      ElifOrElseFacts(orelse);
    case For(_, _, body, _) => ElifBlockFacts(body);
    case While(_, body) => ElifBlockFacts(body);
    case With(_, body, _) => ElifBlockFacts(body);
    case Try(body, handlers) => ElifBlockFacts(body); ElifBlocksFacts(handlers);
    case Def(_, _, _, body, _) => ElifBlockFacts(body);
    case Class(_, _, body) => ElifBlockFacts(body);
  }

  lemma {:induction false} ElifOrElseFacts(o: OrElse)
    ensures !ElifOrElse(o).Elif?
    ensures ElifOrElse(o).Else? ==> BlockNoElif(ElifOrElse(o).block)
    ensures o.NoElse? <==> ElifOrElse(o).NoElse?
    ensures (o.Else? && BlockNoElif(o.block)) ==> ElifOrElse(o) == o
    ensures Reachability.OrElseReturns(ElifOrElse(o)) == Reachability.OrElseReturns(o)
    ensures UsedNames.OrElseNames(ElifOrElse(o)) == UsedNames.OrElseNames(o)
    decreases o, 1
  {
    match o
    case NoElse =>
    case Else(b) => ElifBlockFacts(b);
    case Elif(s) =>
      ElifStmtFacts(s);
      var s' := ElifStmt(s);
      assert ElifStmts([s']) == [ElifStmt(s')];
      assert Reachability.StmtsReturn([s']) == Reachability.StmtReturns(s') by {
        assert [s'][1..] == [];
      }
      assert UsedNames.StmtsNames([s']) == UsedNames.StmtNames(s') by {
        assert [s'][1..] == [];
      }
      assert StmtsNoElif([s']) by {
        assert [s'][1..] == [];
      }
  }

  lemma {:induction false} ElifStmtsFacts(ss: seq<Stmt>)
    ensures StmtsNoElif(ElifStmts(ss))
    ensures StmtsNoElif(ss) ==> ElifStmts(ss) == ss
    ensures Reachability.StmtsReturn(ElifStmts(ss)) == Reachability.StmtsReturn(ss)
    ensures UsedNames.StmtsNames(ElifStmts(ss)) == UsedNames.StmtsNames(ss)
    decreases ss, 1
  {
    if ss != [] {
      ElifStmtFacts(ss[0]);
      ElifStmtsFacts(ss[1..]);
      var r := ElifStmts(ss);
      assert r[0] == ElifStmt(ss[0]) && r[1..] == ElifStmts(ss[1..]);
    }
  }

  lemma {:induction false} ElifBlockFacts(b: Block)
    ensures BlockNoElif(ElifBlock(b))
    ensures BlockNoElif(b) ==> ElifBlock(b) == b
    ensures Reachability.BlockReturns(ElifBlock(b)) == Reachability.BlockReturns(b)
    ensures UsedNames.BlockNames(ElifBlock(b)) == UsedNames.BlockNames(b)
    decreases b, 1
  {
    match b
    case Indented(stmts) => ElifStmtsFacts(stmts);
    case Inline(_) =>
  }

  lemma {:induction false} ElifBlocksFacts(bs: seq<Block>)
    ensures BlocksNoElif(ElifBlocks(bs))
    ensures BlocksNoElif(bs) ==> ElifBlocks(bs) == bs
    ensures UsedNames.BlocksNames(ElifBlocks(bs)) == UsedNames.BlocksNames(bs)
    decreases bs, 1
  {
    if bs != [] {
      ElifBlockFacts(bs[0]);
      ElifBlocksFacts(bs[1..]);
      var r := ElifBlocks(bs);
      assert r[0] == ElifBlock(bs[0]) && r[1..] == ElifBlocks(bs[1..]);
    }
  }

  /** `ElifToElse` is idempotent. */
  lemma ElifIdempotent(s: Stmt)
    ensures ElifStmt(ElifStmt(s)) == ElifStmt(s)
  {
    ElifStmtFacts(s);
    ElifStmtFacts(ElifStmt(s));
  }

  /** The `if x: foo() elif y: bar() else: foo_bar()` example. */
  lemma ElifExample(x: Expr, y: Expr, a: Stmt, b: Stmt, c: Stmt)
    requires a.Line? && b.Line? && c.Line?
    ensures ElifStmt(If(x, Indented([a]), Elif(If(y, Indented([b]), Else(Indented([c]))))))
         == If(x, Indented([a]), Else(Indented([If(y, Indented([b]), Else(Indented([c])))])))
  {
    assert ElifStmts([a]) == [ElifStmt(a)] + ElifStmts([]) == [a];
    assert ElifStmts([b]) == [ElifStmt(b)] + ElifStmts([]) == [b];
    assert ElifStmts([c]) == [ElifStmt(c)] + ElifStmts([]) == [c];
    var inner := If(y, Indented([b]), Else(Indented([c])));
    assert ElifBlock(Indented([b])) == Indented([b]);
    assert ElifBlock(Indented([c])) == Indented([c]);
    assert ElifOrElse(Else(Indented([c]))) == Else(Indented([c]));
    assert ElifStmt(inner) == inner;
    assert ElifOrElse(Elif(inner)) == Else(Indented([inner]));
  }

  /* ----- NormalizeBlocks and NormalizeLines ----- */

  /**
   * The two block normalisers differ in one switch: `NormalizeBlocks`
   * (`split == false`) turns every one-line suite into an indented block;
   * `NormalizeLines` (`split == true`) does so only for suites of more
   * than one small statement, and also splits every line of an indented
   * block (and of the module) into one line per small statement.
   */
  function OneLineEach(ss: seq<Small>): (r: seq<Stmt>)
    ensures |r| == |ss|
    ensures forall i | 0 <= i < |ss| :: r[i] == Line([ss[i]])
  {
    if ss == [] then [] else [Line([ss[0]])] + OneLineEach(ss[1..])
  }

  function SplitLines(ss: seq<Stmt>): seq<Stmt>
  {
    if ss == [] then []
    else (if ss[0].Line? then OneLineEach(ss[0].smalls) else [ss[0]]) + SplitLines(ss[1..])
  }

  function NormStmt(s: Stmt, split: bool): Stmt
  {
    match s
    case Line(_) => s
    case If(test, body, orelse) => If(test, NormBlock(body, split), NormOrElse(orelse, split))
    case For(target, iter, body, isAsync) => For(target, iter, NormBlock(body, split), isAsync)
    case While(test, body) => While(test, NormBlock(body, split))
    case With(items, body, isAsync) => With(items, NormBlock(body, split), isAsync)
    case Try(body, handlers) => Try(NormBlock(body, split), NormBlocks(handlers, split))
    case Def(name, params, decorators, body, isAsync) => Def(name, params, decorators, NormBlock(body, split), isAsync)
    case Class(name, decorators, body) => Class(name, decorators, NormBlock(body, split))
  }

  function NormStmts(ss: seq<Stmt>, split: bool): (r: seq<Stmt>)
    ensures |r| == |ss|
  {
    if ss == [] then [] else [NormStmt(ss[0], split)] + NormStmts(ss[1..], split)
  }

  function NormBlock(b: Block, split: bool): Block
  {
    match b
    case Indented(stmts) =>
      var inner := NormStmts(stmts, split);
      Indented(if split then SplitLines(inner) else inner)
    case Inline(smalls) =>
      if !split || |smalls| > 1 then Indented(OneLineEach(smalls)) else b
  }

  function NormBlocks(bs: seq<Block>, split: bool): (r: seq<Block>)
    ensures |r| == |bs|
  {
    if bs == [] then [] else [NormBlock(bs[0], split)] + NormBlocks(bs[1..], split)
  }

  function NormOrElse(o: OrElse, split: bool): OrElse
  {
    match o
    case NoElse => NoElse
    case Else(b) => Else(NormBlock(b, split))
    case Elif(s) => Elif(NormStmt(s, split))
  }

  /** `NormalizeLines` on a module body. */
  function NormModule(ss: seq<Stmt>): seq<Stmt>
  {
    SplitLines(NormStmts(ss, true))
  }

  /** Every line of every indented block holds exactly one small statement, and no suite holds more than one. */
  predicate StmtLinesNormal(s: Stmt)
  {
    match s
    case Line(_) => true
    case If(_, body, orelse) => BlockLinesNormal(body) && OrElseLinesNormal(orelse)
    case For(_, _, body, _) => BlockLinesNormal(body)
    case While(_, body) => BlockLinesNormal(body)
    case With(_, body, _) => BlockLinesNormal(body)
    case Try(body, handlers) => BlockLinesNormal(body) && BlocksLinesNormal(handlers)
    case Def(_, _, _, body, _) => BlockLinesNormal(body)
    case Class(_, _, body) => BlockLinesNormal(body)
  }

  predicate StmtsLinesNormal(ss: seq<Stmt>)
  {
    ss == [] || ((ss[0].Line? ==> |ss[0].smalls| == 1) && StmtLinesNormal(ss[0]) && StmtsLinesNormal(ss[1..]))
  }

  predicate BlockLinesNormal(b: Block)
  {
    match b
    case Indented(stmts) => StmtsLinesNormal(stmts)
    case Inline(smalls) => |smalls| <= 1
  }

  predicate BlocksLinesNormal(bs: seq<Block>)
  {
    bs == [] || (BlockLinesNormal(bs[0]) && BlocksLinesNormal(bs[1..]))
  }

  predicate OrElseLinesNormal(o: OrElse)
  {
    match o
    case NoElse => true
    case Else(b) => BlockLinesNormal(b)
    case Elif(s) => StmtLinesNormal(s)
  }

  /** No one-line suite anywhere in the code. */
  predicate StmtNoInline(s: Stmt)
  {
    match s
    case Line(_) => true
    case If(_, body, orelse) => BlockNoInline(body) && OrElseNoInline(orelse)
    case For(_, _, body, _) => BlockNoInline(body)
    case While(_, body) => BlockNoInline(body)
    case With(_, body, _) => BlockNoInline(body)
    case Try(body, handlers) => BlockNoInline(body) && BlocksNoInline(handlers)
    case Def(_, _, _, body, _) => BlockNoInline(body)
    case Class(_, _, body) => BlockNoInline(body)
  }

  predicate StmtsNoInline(ss: seq<Stmt>)
  {
    ss == [] || (StmtNoInline(ss[0]) && StmtsNoInline(ss[1..]))
  }

  predicate BlockNoInline(b: Block)
  {
    b.Indented? && StmtsNoInline(b.stmts)
  }

  predicate BlocksNoInline(bs: seq<Block>)
  {
    bs == [] || (BlockNoInline(bs[0]) && BlocksNoInline(bs[1..]))
  }

  predicate OrElseNoInline(o: OrElse)
  {
    match o
    case NoElse => true
    case Else(b) => BlockNoInline(b)
    case Elif(s) => StmtNoInline(s)
  }

  lemma {:induction false} OneLineEachFacts(ss: seq<Small>)
    ensures StmtsSmalls(OneLineEach(ss)) == ss
    ensures StmtsLinesNormal(OneLineEach(ss))
    ensures StmtsNoInline(OneLineEach(ss))
    ensures Reachability.StmtsReturn(OneLineEach(ss)) == Reachability.SmallsReturn(ss)
  {
    if ss != [] {
      OneLineEachFacts(ss[1..]);
      var r := OneLineEach(ss);
      assert r[1..] == OneLineEach(ss[1..]);
      assert [ss[0]][1..] == [];
      assert ss == [ss[0]] + ss[1..];
      assert Reachability.SmallsReturn([ss[0]]) == ss[0].Return?;
      assert Reachability.StmtReturns(r[0]) == ss[0].Return?;
    }
  }

  lemma {:induction false} SplitLinesFacts(ss: seq<Stmt>)
    ensures StmtsSmalls(SplitLines(ss)) == StmtsSmalls(ss)
    ensures Reachability.StmtsReturn(SplitLines(ss)) == Reachability.StmtsReturn(ss)
    ensures StmtsNoInline(ss) ==> StmtsNoInline(SplitLines(ss))
    ensures (forall i | 0 <= i < |ss| :: StmtLinesNormal(ss[i])) ==> StmtsLinesNormal(SplitLines(ss))
  {
    if ss != [] {
      SplitLinesFacts(ss[1..]);
      var head := if ss[0].Line? then OneLineEach(ss[0].smalls) else [ss[0]];
      var rest := SplitLines(ss[1..]);
      StmtsAppend(head, rest);
      if ss[0].Line? {
        OneLineEachFacts(ss[0].smalls);
      } else {
        assert [ss[0]][1..] == [];
      }
      if forall i | 0 <= i < |ss| :: StmtLinesNormal(ss[i]) {
        assert forall i | 0 <= i < |ss[1..]| :: StmtLinesNormal(ss[1..][i]) by {
          forall i | 0 <= i < |ss[1..]| ensures StmtLinesNormal(ss[1..][i]) { assert ss[1..][i] == ss[i + 1]; }
        }
        assert StmtLinesNormal(ss[0]);
      }
    }
  }

  /** The statement-sequence views distribute over concatenation. */
  lemma {:induction false} StmtsAppend(a: seq<Stmt>, b: seq<Stmt>)
    ensures StmtsSmalls(a + b) == StmtsSmalls(a) + StmtsSmalls(b)
    ensures Reachability.StmtsReturn(a + b) == (Reachability.StmtsReturn(a) || Reachability.StmtsReturn(b))
    ensures StmtsNoInline(a + b) == (StmtsNoInline(a) && StmtsNoInline(b))
    ensures StmtsLinesNormal(a + b) == (StmtsLinesNormal(a) && StmtsLinesNormal(b))
  {
    if a == [] {
      assert a + b == b;
    } else {
      StmtsAppend(a[1..], b);
      assert (a + b)[0] == a[0];
      assert (a + b)[1..] == a[1..] + b;
    }
  }

  /**
   * Both normalisers keep every small statement, in order, keep the
   * always-returns classification, and leave no suite behind
   * (`NormalizeBlocks`) or no multi-statement line or suite behind
   * (`NormalizeLines`).
   */
  lemma {:induction false} NormStmtFacts(s: Stmt, split: bool)
    ensures StmtSmalls(NormStmt(s, split)) == StmtSmalls(s)
    ensures Reachability.StmtReturns(NormStmt(s, split)) == Reachability.StmtReturns(s)
    ensures !split ==> StmtNoInline(NormStmt(s, split))
    ensures split ==> StmtLinesNormal(NormStmt(s, split))
    ensures NormStmt(s, split).Line? <==> s.Line?
    decreases s, 1
  {
    match s
    case Line(_) =>
    case If(_, body, orelse) => NormBlockFacts(body, split); NormOrElseFacts(orelse, split);
    case For(_, _, body, _) => NormBlockFacts(body, split);
    case While(_, body) => NormBlockFacts(body, split);
    case With(_, body, _) => NormBlockFacts(body, split);
    case Try(body, handlers) => NormBlockFacts(body, split); NormBlocksFacts(handlers, split);
    case Def(_, _, _, body, _) => NormBlockFacts(body, split);
    case Class(_, _, body) => NormBlockFacts(body, split);
  }

  lemma {:induction false} NormStmtsFacts(ss: seq<Stmt>, split: bool)
    ensures StmtsSmalls(NormStmts(ss, split)) == StmtsSmalls(ss)
    ensures Reachability.StmtsReturn(NormStmts(ss, split)) == Reachability.StmtsReturn(ss)
    ensures !split ==> StmtsNoInline(NormStmts(ss, split))
    ensures split ==> forall i | 0 <= i < |ss| :: StmtLinesNormal(NormStmts(ss, split)[i])
    decreases ss, 1
  {
    if ss != [] {
      NormStmtFacts(ss[0], split);
      NormStmtsFacts(ss[1..], split);
      var r := NormStmts(ss, split);
      assert r[0] == NormStmt(ss[0], split) && r[1..] == NormStmts(ss[1..], split);
      if split {
        forall i | 0 <= i < |ss| ensures StmtLinesNormal(r[i]) {
          if i > 0 { assert r[i] == r[1..][i - 1]; }
        }
      }
    }
  }

  lemma {:induction false} NormBlockFacts(b: Block, split: bool)
    ensures BlockSmalls(NormBlock(b, split)) == BlockSmalls(b)
    ensures Reachability.BlockReturns(NormBlock(b, split)) == Reachability.BlockReturns(b)
    ensures !split ==> BlockNoInline(NormBlock(b, split))
    ensures split ==> BlockLinesNormal(NormBlock(b, split))
    decreases b, 1
  {
    match b
    case Indented(stmts) =>
      NormStmtsFacts(stmts, split);
      if split { SplitLinesFacts(NormStmts(stmts, split)); }
    case Inline(smalls) =>
      OneLineEachFacts(smalls);
  }

  lemma {:induction false} NormBlocksFacts(bs: seq<Block>, split: bool)
    ensures BlocksSmalls(NormBlocks(bs, split)) == BlocksSmalls(bs)
    ensures !split ==> BlocksNoInline(NormBlocks(bs, split))
    ensures split ==> BlocksLinesNormal(NormBlocks(bs, split))
    decreases bs, 1
  {
    if bs != [] {
      NormBlockFacts(bs[0], split);
      NormBlocksFacts(bs[1..], split);
      var r := NormBlocks(bs, split);
      assert r[0] == NormBlock(bs[0], split) && r[1..] == NormBlocks(bs[1..], split);
    }
  }

  lemma {:induction false} NormOrElseFacts(o: OrElse, split: bool)
    ensures OrElseSmalls(NormOrElse(o, split)) == OrElseSmalls(o)
    ensures Reachability.OrElseReturns(NormOrElse(o, split)) == Reachability.OrElseReturns(o)
    ensures !split ==> OrElseNoInline(NormOrElse(o, split))
    ensures split ==> OrElseLinesNormal(NormOrElse(o, split))
    ensures NormOrElse(o, split).NoElse? <==> o.NoElse?
    decreases o, 1
  {
    match o
    case NoElse =>
    case Else(b) => NormBlockFacts(b, split);
    case Elif(s) => NormStmtFacts(s, split);
  }

  /** `NormalizeLines` on a module keeps its small statements and leaves every line holding one. */
  lemma NormModuleFacts(ss: seq<Stmt>)
    ensures StmtsSmalls(NormModule(ss)) == StmtsSmalls(ss)
    ensures StmtsLinesNormal(NormModule(ss))
  {
    NormStmtsFacts(ss, true);
    SplitLinesFacts(NormStmts(ss, true));
  }

  /** `if x: y = 0; z = 0` / `else: z = 1`: only the two-statement suite becomes a block. */
  lemma PartialLinesExample(x: Expr, a: Small, b: Small, c: Small)
    ensures NormStmt(If(x, Inline([a, b]), Else(Inline([c]))), true)
         == If(x, Indented([Line([a]), Line([b])]), Else(Inline([c])))
  {
    assert OneLineEach([a, b]) == [Line([a]), Line([b])];
    assert NormBlock(Inline([a, b]), true) == Indented(OneLineEach([a, b]));
    assert NormBlock(Inline([c]), true) == Inline([c]);
  }
}

=== FILE: pass_util.dfy ===
/**
 * Pass threading and decorator stripping of `passes/util.py`.
 *
 * `apply_passes` feeds the (tree, environment, metadata) triple through
 * its passes in list order. It then strips its own decorators twice: once
 * with no end sentinel, which drops it and every decorator outside it, to
 * get the tree to execute, and once with itself as both sentinels, which
 * drops only it, to get the tree to serialise. `end_rewrite` does the
 * same with `begin_rewrite` and `end_rewrite` as sentinels.
 *
 * Resolving a decorator expression against the environment is runtime
 * work; it is a parameter here that says which class, if any, the
 * decorator is. The subclass relation is a parameter too.
 */
module PassUtil {
  import opened Results
  import opened Syntax

  /** What a decorator resolves to: a class, known by identity, or any other object. */
  datatype Value = ClassObj(id: nat) | OtherObj

  /**
   * `_issubclass(t, s)`: `issubclass` raises `TypeError` for an object that
   * is not a class and for a `None` sentinel, and the error counts as no.
   */
  function IsSubclass(t: Value, s: Option<nat>, sub: (nat, nat) -> bool): bool
  {
    t.ClassObj? && s.Some? && sub(t.id, s.value)
  }

  // ---------------------------------------------------------------------
  // Sequences
  // ---------------------------------------------------------------------

  function Reverse<T>(s: seq<T>): (r: seq<T>)
    ensures |r| == |s| && forall i | 0 <= i < |s| :: r[i] == s[|s| - 1 - i]
  {
    seq(|s|, i requires 0 <= i < |s| => s[|s| - 1 - i])
  }

  lemma ReverseReverse<T>(s: seq<T>)
    ensures Reverse(Reverse(s)) == s
  {
  }

  /** A cut of the reversal, reversed back, is the mirrored cut of the original. */
  lemma ReverseCutOf<T>(s: seq<T>, i: nat, j: nat)
    requires i <= j <= |s|
    ensures Reverse(Reverse(s)[..i] + Reverse(s)[j..]) == s[..|s| - j] + s[|s| - i..]
  {
    var r := Reverse(s);
    ReverseCut(r, i, j);
    ReverseReverse(s);
    assert Reverse(r) == s;
  }

  /** Reversal turns a cut into the mirrored cut. */
  lemma ReverseCut<T>(s: seq<T>, i: nat, j: nat)
    requires i <= j <= |s|
    ensures Reverse(s[..i] + s[j..]) == Reverse(s)[..|s| - j] + Reverse(s)[|s| - i..]
  {
    var a := s[..i] + s[j..];
    var r := Reverse(s);
    var n := |s|;
    var m := n - (j - i);
    var b := r[..n - j] + r[n - i..];
    assert |a| == m && |b| == m;
    var ra := Reverse(a);
    forall k | 0 <= k < m ensures ra[k] == b[k] {
      var p := m - 1 - k;
      assert ra[k] == a[p];
      if k < n - j {
        assert p >= i;
        assert j + (p - i) == n - 1 - k;
        assert a[p] == s[n - 1 - k];
        assert b[k] == r[k];
        assert r[k] == s[n - 1 - k];
      } else {
        assert p < i;
        assert a[p] == s[p];
        var q := k + j - i;
        assert b[k] == r[q];
        assert n - 1 - q == p;
        assert r[q] == s[p];
      }
    }
  }

  // ---------------------------------------------------------------------
  // `_DecoratorStripper.strip`
  // ---------------------------------------------------------------------

  /** The scan's state: the survivors so far, innermost first, and the two flags. */
  datatype Scan = Scan(kept: seq<Expr>, inGroup: bool, firstGroup: bool)

  /** The decorators a stripping round is about. */
  datatype Sentinels = Sentinels(start: Option<nat>, end: Option<nat>, sub: (nat, nat) -> bool)

  /** A decorator that opens the group: any one when there is no start sentinel. */
  predicate Opens(d: Value, s: Sentinels)
  {
    s.start.None? || IsSubclass(d, s.start, s.sub)
  }

  /** A decorator that closes an open group. */
  predicate Closes(d: Value, s: Sentinels)
  {
    IsSubclass(d, s.end, s.sub)
  }

  /** One iteration of the loop over the reversed decorator list. */
  function Step(st: Scan, node: Expr, d: Value, s: Sentinels): Scan
  {
    if !st.firstGroup then st.(kept := st.kept + [node])
    else if st.inGroup then
      if Closes(d, s) then st.(inGroup := false, firstGroup := false) else st
    else if Opens(d, s) then
      if s.start == s.end then st.(firstGroup := false) else st.(inGroup := true)
    else st.(kept := st.kept + [node])
  }

  function Run(rs: seq<Expr>, st: Scan, lookup: Expr -> Value, s: Sentinels): Scan
    decreases |rs|
  {
    if rs == [] then st else Run(rs[1..], Step(st, rs[0], lookup(rs[0]), s), lookup, s)
  }

  /** `strip` on a decorator list, outermost first as written. */
  function Strip(ds: seq<Expr>, lookup: Expr -> Value, s: Sentinels): seq<Expr>
  {
    Reverse(Run(Reverse(ds), Scan([], false, true), lookup, s).kept)
  }

  /** The first position from `i` on holding a decorator that satisfies `p`. */
  function FirstFrom(rs: seq<Expr>, i: nat, p: Expr -> bool): (r: Option<nat>)
    requires i <= |rs|
    ensures r.None? ==> forall k | i <= k < |rs| :: !p(rs[k])
    ensures r.Some? ==> i <= r.value < |rs| && p(rs[r.value]) && forall k | i <= k < r.value :: !p(rs[k])
    decreases |rs| - i
  {
    if i == |rs| then None else if p(rs[i]) then Some(i) else FirstFrom(rs, i + 1, p)
  }

  /**
   * The survivors, innermost first, in closed form: with no opening
   * decorator all survive; with equal sentinels only the first opener is
   * dropped; otherwise everything from the first opener up to and
   * including the first closer after it is dropped, and with no closer
   * everything from the opener outward is.
   */
  function Survivors(rs: seq<Expr>, lookup: Expr -> Value, s: Sentinels): seq<Expr>
  {
    match FirstFrom(rs, 0, d => Opens(lookup(d), s))
    case None => rs
    case Some(i) =>
      if s.start == s.end then rs[..i] + rs[i + 1..]
      else
        match FirstFrom(rs, i + 1, d => Closes(lookup(d), s))
        case None => rs[..i]
        case Some(j) => rs[..i] + rs[j + 1..]
  }

  /** Once the first group is closed, every remaining decorator survives. */
  lemma {:induction false} RunDone(rs: seq<Expr>, kept: seq<Expr>, g: bool, lookup: Expr -> Value, s: Sentinels)
    ensures Run(rs, Scan(kept, g, false), lookup, s) == Scan(kept + rs, g, false)
    decreases |rs|
  {
    if rs == [] {
      assert kept + rs == kept;
    } else {
      RunDone(rs[1..], kept + [rs[0]], g, lookup, s);
      assert kept + [rs[0]] + rs[1..] == kept + rs;
    }
  }

  /** Inside the group, decorators are dropped up to and including the first closer. */
  lemma {:induction false} RunInGroup(rs: seq<Expr>, i: nat, kept: seq<Expr>, lookup: Expr -> Value, s: Sentinels)
    requires i <= |rs|
    ensures Run(rs[i..], Scan(kept, true, true), lookup, s)
      == match FirstFrom(rs, i, d => Closes(lookup(d), s))
         case None => Scan(kept, true, true)
         case Some(j) => Scan(kept + rs[j + 1..], false, false)
    decreases |rs| - i
  {
    if i < |rs| {
      assert rs[i..][1..] == rs[i + 1..];
      if Closes(lookup(rs[i]), s) {
        RunDone(rs[i + 1..], kept, false, lookup, s);
      } else {
        RunInGroup(rs, i + 1, kept, lookup, s);
      }
    }
  }

  /** Before the group opens, non-openers survive in scanning order. */
  lemma {:induction false} RunOpen(rs: seq<Expr>, i: nat, lookup: Expr -> Value, s: Sentinels)
    requires i <= |rs|
    requires forall k | 0 <= k < i :: !Opens(lookup(rs[k]), s)
    ensures Run(rs[i..], Scan(rs[..i], false, true), lookup, s).kept == Survivors(rs, lookup, s)
    decreases |rs| - i
  {
    FirstFromSkip(rs, 0, i, d => Opens(lookup(d), s));
    if i == |rs| {
      assert rs[..i] == rs;
    } else if Opens(lookup(rs[i]), s) {
      RunOpenAt(rs, i, lookup, s);
    } else {
      assert rs[i..][1..] == rs[i + 1..];
      assert rs[..i] + [rs[i]] == rs[..i + 1];
      RunOpen(rs, i + 1, lookup, s);
    }
  }

  /** At the first opener the scan drops the group it opens. */
  lemma RunOpenAt(rs: seq<Expr>, i: nat, lookup: Expr -> Value, s: Sentinels)
    requires i < |rs| && Opens(lookup(rs[i]), s)
    requires FirstFrom(rs, 0, d => Opens(lookup(d), s)) == Some(i)
    ensures Run(rs[i..], Scan(rs[..i], false, true), lookup, s).kept == Survivors(rs, lookup, s)
  {
    assert rs[i..][1..] == rs[i + 1..];
    if s.start == s.end {
      RunDone(rs[i + 1..], rs[..i], false, lookup, s);
    } else {
      RunInGroup(rs, i + 1, rs[..i], lookup, s);
    }
  }

  /** Searching from `i` finds what searching from `lo` finds when nothing in between qualifies. */
  lemma {:induction false} FirstFromSkip(rs: seq<Expr>, lo: nat, i: nat, p: Expr -> bool)
    requires lo <= i <= |rs|
    requires forall k | lo <= k < i :: !p(rs[k])
    ensures FirstFrom(rs, lo, p) == FirstFrom(rs, i, p)
    decreases i - lo
  {
    if lo < i {
      FirstFromSkip(rs, lo + 1, i, p);
    }
  }

  /** The scan agrees with the closed form. */
  lemma StripSurvivors(ds: seq<Expr>, lookup: Expr -> Value, s: Sentinels)
    ensures Strip(ds, lookup, s) == Reverse(Survivors(Reverse(ds), lookup, s))
  {
    var rs := Reverse(ds);
    RunOpen(rs, 0, lookup, s);
    assert rs[0..] == rs && rs[..0] == [];
  }

  /** A cut of the reversed list is the mirrored cut of the list as written. */
  lemma StripAsCut(ds: seq<Expr>, lookup: Expr -> Value, s: Sentinels, i: nat, j: nat)
    requires i <= j <= |ds|
    requires Survivors(Reverse(ds), lookup, s) == Reverse(ds)[..i] + Reverse(ds)[j..]
    ensures Strip(ds, lookup, s) == ds[..|ds| - j] + ds[|ds| - i..]
  {
    StripSurvivors(ds, lookup, s);
    ReverseCutOf(ds, i, j);
  }

  /**
   * In the order written, stripping removes one run of adjacent
   * decorators and keeps the rest in their order: nothing when no
   * decorator opens a group, the innermost opener alone when the
   * sentinels are equal, and otherwise the innermost opener together
   * with every decorator outward of it up to the nearest closer, or up
   * to the outermost decorator when none closes.
   */
  lemma StripCut(ds: seq<Expr>, lookup: Expr -> Value, s: Sentinels)
    ensures var rs := Reverse(ds);
      var n := |ds|;
      var r := Strip(ds, lookup, s);
      match FirstFrom(rs, 0, d => Opens(lookup(d), s))
      case None => r == ds
      case Some(i) =>
        && Opens(lookup(ds[n - 1 - i]), s)
        && (forall k | n - i <= k < n :: !Opens(lookup(ds[k]), s))
        && (s.start == s.end ==> r == ds[..n - 1 - i] + ds[n - i..])
        && (s.start != s.end ==>
              match FirstFrom(rs, i + 1, d => Closes(lookup(d), s))
              case None => r == ds[n - i..]
              case Some(j) => r == ds[..n - 1 - j] + ds[n - i..])
  {
    var o := FirstFrom(Reverse(ds), 0, d => Opens(lookup(d), s));
    if o.Some? {
      StripCutOpener(ds, lookup, s, o.value);
      if s.start == s.end {
        StripCutEqual(ds, lookup, s, o.value);
      } else {
        StripCutGroup(ds, lookup, s, o.value);
      }
    } else {
      StripCutNone(ds, lookup, s);
    }
  }

  /** The opener found in the reversed list, seen in the order written. */
  lemma StripCutOpener(ds: seq<Expr>, lookup: Expr -> Value, s: Sentinels, i: nat)
    requires FirstFrom(Reverse(ds), 0, d => Opens(lookup(d), s)) == Some(i)
    ensures i < |ds| && Opens(lookup(ds[|ds| - 1 - i]), s)
    ensures forall k | |ds| - i <= k < |ds| :: !Opens(lookup(ds[k]), s)
  {
    var rs := Reverse(ds);
    var n := |ds|;
    forall k | n - i <= k < n ensures !Opens(lookup(ds[k]), s) {
      assert ds[k] == rs[n - 1 - k];
    }
    assert ds[n - 1 - i] == rs[i];
  }

  /** With no opener nothing is stripped. */
  lemma StripCutNone(ds: seq<Expr>, lookup: Expr -> Value, s: Sentinels)
    requires FirstFrom(Reverse(ds), 0, d => Opens(lookup(d), s)).None?
    ensures Strip(ds, lookup, s) == ds
  {
    var rs := Reverse(ds);
    StripSurvivors(ds, lookup, s);
    assert Survivors(rs, lookup, s) == rs;
    ReverseReverse(ds);
  }

  /** With equal sentinels the opener alone is stripped. */
  lemma StripCutEqual(ds: seq<Expr>, lookup: Expr -> Value, s: Sentinels, i: nat)
    requires FirstFrom(Reverse(ds), 0, d => Opens(lookup(d), s)) == Some(i)
    requires s.start == s.end
    ensures i < |ds| && Strip(ds, lookup, s) == ds[..|ds| - 1 - i] + ds[|ds| - i..]
  {
    StripAsCut(ds, lookup, s, i, i + 1);
  }

  /** With distinct sentinels the opener is stripped up to its closer, or to the end. */
  lemma StripCutGroup(ds: seq<Expr>, lookup: Expr -> Value, s: Sentinels, i: nat)
    requires FirstFrom(Reverse(ds), 0, d => Opens(lookup(d), s)) == Some(i)
    requires s.start != s.end
    ensures i < |ds|
    ensures var r := Strip(ds, lookup, s);
      match FirstFrom(Reverse(ds), i + 1, d => Closes(lookup(d), s))
      case None => r == ds[|ds| - i..]
      case Some(j) => r == ds[..|ds| - 1 - j] + ds[|ds| - i..]
  {
    var c := FirstFrom(Reverse(ds), i + 1, d => Closes(lookup(d), s));
    if c.None? {
      StripCutUnclosed(ds, lookup, s, i);
    } else {
      StripAsCut(ds, lookup, s, i, c.value + 1);
    }
  }

  /** A group that no decorator closes runs to the outermost decorator. */
  lemma StripCutUnclosed(ds: seq<Expr>, lookup: Expr -> Value, s: Sentinels, i: nat)
    requires FirstFrom(Reverse(ds), 0, d => Opens(lookup(d), s)) == Some(i)
    requires s.start != s.end
    requires FirstFrom(Reverse(ds), i + 1, d => Closes(lookup(d), s)).None?
    ensures Strip(ds, lookup, s) == ds[|ds| - i..]
  {
    var rs := Reverse(ds);
    var n := |ds|;
    assert rs[..i] + rs[n..] == rs[..i];
    StripAsCut(ds, lookup, s, i, n);
    assert ds[..0] + ds[n - i..] == ds[n - i..];
  }

  // ---------------------------------------------------------------------
  // `apply_passes.__call__` and `end_rewrite`
  // ---------------------------------------------------------------------

  /** A pass maps the triple to a triple, or raises. */
  type PassFn<!E, !M> = ((Stmt, E, M)) -> Result<(Stmt, E, M)>

  /** The passes applied in list order, each to the previous one's result. */
  function Thread<E, M>(passes: seq<PassFn<E, M>>, args: (Stmt, E, M)): Result<(Stmt, E, M)>
    decreases |passes|
  {
    if passes == [] then Ok(args)
    else
      var next :- passes[0](args);
      Thread(passes[1..], next)
  }

  /** Running two lists of passes one after the other is running their concatenation. */
  lemma {:induction false} ThreadAppend<E, M>(p: seq<PassFn<E, M>>, q: seq<PassFn<E, M>>, args: (Stmt, E, M))
    ensures Thread(p + q, args) == match Thread(p, args) case Err(e) => Err(e) case Ok(mid) => Thread(q, mid)
    decreases |p|
  {
    if p == [] {
      assert p + q == q;
    } else {
      assert (p + q)[1..] == p[1..] + q;
      var first := p[0](args);
      if first.Ok? {
        ThreadAppend(p[1..], q, first.value);
      }
    }
  }

  /** A pass that raises stops the chain with its error. */
  lemma ThreadSingle<E, M>(f: PassFn<E, M>, args: (Stmt, E, M))
    ensures Thread([f], args) == f(args)
  {
    var r := f(args);
    if r.Ok? {
      assert [f][1..] == [];
    }
  }

  /** The decorators of a definition; other trees have none to read. */
  function Decorators(tree: Stmt): Result<seq<Expr>>
  {
    match tree
    case Def(_, _, ds, _, _) => Ok(ds)
    case Class(_, ds, _) => Ok(ds)
    case _ => Err(Unmodelled("a tree without a decorator list"))
  }

  function SetDecorators(tree: Stmt, ds: seq<Expr>): (r: Stmt)
    requires tree.Def? || tree.Class?
  {
    match tree
    case Def(name, params, _, body, isAsync) => Def(name, params, ds, body, isAsync)
    case Class(name, _, body) => Class(name, ds, body)
  }

  /**
   * The two trees `apply_passes` builds after its passes: the tree to
   * execute, stripped from the innermost `self` decorator outward with no
   * end sentinel, and the tree to serialise, stripped of that decorator
   * alone. Executing them is left out.
   */
  function Apply<E, M>(passes: seq<PassFn<E, M>>, tree: Stmt, env: E, metadata: M, self: nat,
                       lookup: Expr -> Value, sub: (nat, nat) -> bool): (r: Result<(Stmt, Stmt, E)>)
    ensures r.Ok? ==>
      && Thread(passes, (tree, env, metadata)).Ok?
      && var out := Thread(passes, (tree, env, metadata)).value;
      && (out.0.Def? || out.0.Class?)
      && r.value.0 == SetDecorators(out.0, Strip(out.0.decorators, lookup, Sentinels(Some(self), None, sub)))
      && r.value.1 == SetDecorators(out.0, Strip(out.0.decorators, lookup, Sentinels(Some(self), Some(self), sub)))
      && r.value.2 == out.1
  {
    var out :- Thread(passes, (tree, env, metadata));
    var ds :- Decorators(out.0);
    var etree := SetDecorators(out.0, Strip(ds, lookup, Sentinels(Some(self), None, sub)));
    var stree := SetDecorators(out.0, Strip(ds, lookup, Sentinels(Some(self), Some(self), sub)));
    Ok((etree, stree, out.1))
  }

  /**
   * The trees `end_rewrite` builds, in the order written: the tree to
   * execute keeps only the decorators inside the innermost
   * `begin_rewrite`; the tree to serialise drops the run from that
   * decorator out to the nearest `end_rewrite`, or to the outermost
   * decorator when none closes it.
   */
  function EndRewrite(tree: Stmt, begin: nat, end: nat, lookup: Expr -> Value, sub: (nat, nat) -> bool)
    : (r: Result<(Stmt, Stmt)>)
    ensures r.Err? <==> !(tree.Def? || tree.Class?)
    ensures r.Ok? ==>
      && r.value.0 == SetDecorators(tree, ExecutedForm(tree.decorators, begin, lookup, sub))
      && r.value.1 == SetDecorators(tree, SerialisedForm(tree.decorators, begin, end, lookup, sub))
  {
    var ds :- Decorators(tree);
    ExecutedCut(ds, begin, lookup, sub);
    SerialisedCut(ds, begin, end, lookup, sub);
    Ok((SetDecorators(tree, Strip(ds, lookup, Sentinels(Some(begin), None, sub))),
        SetDecorators(tree, Strip(ds, lookup, Sentinels(Some(begin), Some(end), sub)))))
  }

  /** The decorators, as written, inside the innermost `begin` decorator: all of them when there is none. */
  function ExecutedForm(ds: seq<Expr>, begin: nat, lookup: Expr -> Value, sub: (nat, nat) -> bool): seq<Expr>
  {
    match FirstFrom(Reverse(ds), 0, d => Opens(lookup(d), Sentinels(Some(begin), None, sub)))
    case None => ds
    case Some(i) => ds[|ds| - i..]
  }

  /**
   * The decorators, as written, without the run from the innermost `begin`
   * decorator out to the nearest `end` decorator beyond it, or to the
   * outermost decorator when none closes; the opener alone when the two
   * sentinels are one class.
   */
  function SerialisedForm(ds: seq<Expr>, begin: nat, end: nat, lookup: Expr -> Value, sub: (nat, nat) -> bool)
    : seq<Expr>
  {
    var s := Sentinels(Some(begin), Some(end), sub);
    var n := |ds|;
    match FirstFrom(Reverse(ds), 0, d => Opens(lookup(d), s))
    case None => ds
    case Some(i) =>
      if begin == end then ds[..n - 1 - i] + ds[n - i..]
      else
        match FirstFrom(Reverse(ds), i + 1, d => Closes(lookup(d), s))
        case None => ds[n - i..]
        case Some(j) => ds[..n - 1 - j] + ds[n - i..]
  }

  /** Stripping with no end sentinel keeps what lies inside the innermost opener. */
  lemma ExecutedCut(ds: seq<Expr>, begin: nat, lookup: Expr -> Value, sub: (nat, nat) -> bool)
    ensures Strip(ds, lookup, Sentinels(Some(begin), None, sub)) == ExecutedForm(ds, begin, lookup, sub)
  {
    var s := Sentinels(Some(begin), None, sub);
    StripCut(ds, lookup, s);
    var o := FirstFrom(Reverse(ds), 0, d => Opens(lookup(d), s));
    if o.Some? {
      var c := FirstFrom(Reverse(ds), o.value + 1, d => Closes(lookup(d), s));
      assert c.None?;
    }
  }

  /** Stripping between two sentinels removes the run from the innermost opener to its closer. */
  lemma SerialisedCut(ds: seq<Expr>, begin: nat, end: nat, lookup: Expr -> Value, sub: (nat, nat) -> bool)
    ensures Strip(ds, lookup, Sentinels(Some(begin), Some(end), sub)) == SerialisedForm(ds, begin, end, lookup, sub)
  {
    var s := Sentinels(Some(begin), Some(end), sub);
    var o := FirstFrom(Reverse(ds), 0, d => Opens(lookup(d), s));
    if o.None? {
      StripCutNone(ds, lookup, s);
    } else if begin == end {
      StripCutEqual(ds, lookup, s, o.value);
    } else {
      StripCutGroup(ds, lookup, s, o.value);
    }
  }

  /**
   * The tree to serialise loses exactly one decorator, the innermost one
   * that resolves to a subclass of `self`, when there is one.
   */
  lemma ApplySerialisedLosesOne<E, M>(passes: seq<PassFn<E, M>>, tree: Stmt, env: E, metadata: M, self: nat,
                                      lookup: Expr -> Value, sub: (nat, nat) -> bool)
    requires Apply(passes, tree, env, metadata, self, lookup, sub).Ok?
    ensures var out := Thread(passes, (tree, env, metadata)).value.0;
      var ds := out.decorators;
      var stree := Apply(passes, tree, env, metadata, self, lookup, sub).value.1;
      var s := Sentinels(Some(self), Some(self), sub);
      match FirstFrom(Reverse(ds), 0, d => Opens(lookup(d), s))
      case None => stree.decorators == ds
      case Some(i) => stree.decorators == ds[..|ds| - 1 - i] + ds[|ds| - i..]
  {
    var out := Thread(passes, (tree, env, metadata)).value.0;
    StripCut(out.decorators, lookup, Sentinels(Some(self), Some(self), sub));
  }

  /**
   * With no end sentinel the group never closes: the tree to execute
   * keeps only the decorators inside the innermost `self` decorator.
   */
  lemma ApplyExecutedKeepsInner<E, M>(passes: seq<PassFn<E, M>>, tree: Stmt, env: E, metadata: M, self: nat,
                                      lookup: Expr -> Value, sub: (nat, nat) -> bool)
    requires Apply(passes, tree, env, metadata, self, lookup, sub).Ok?
    ensures var out := Thread(passes, (tree, env, metadata)).value.0;
      var ds := out.decorators;
      var etree := Apply(passes, tree, env, metadata, self, lookup, sub).value.0;
      var s := Sentinels(Some(self), None, sub);
      match FirstFrom(Reverse(ds), 0, d => Opens(lookup(d), s))
      case None => etree.decorators == ds
      case Some(i) => etree.decorators == ds[|ds| - i..]
  {
    ExecutedCut(Thread(passes, (tree, env, metadata)).value.0.decorators, self, lookup, sub);
  }

  // ---------------------------------------------------------------------
  // The `begin_rewrite`/`end_rewrite` example
  // ---------------------------------------------------------------------

  /**
   * `@wrapper @end_rewrite() @begin_rewrite() @wrapper` over any function:
   * with `wrapper` resolving to a function, the tree to execute keeps the
   * inner wrapper and the tree to serialise keeps both.
   */
  lemma ChainStripped(tree: Stmt, w: Expr, e: Expr, b: Expr, begin: nat, end: nat,
                      lookup: Expr -> Value, sub: (nat, nat) -> bool)
    requires tree.Def? && tree.decorators == [w, e, b, w]
    requires lookup(w) == OtherObj && lookup(b) == ClassObj(begin) && lookup(e) == ClassObj(end)
    requires sub(begin, begin) && sub(end, end) && begin != end
    ensures EndRewrite(tree, begin, end, lookup, sub)
      == Ok((SetDecorators(tree, [w]), SetDecorators(tree, [w, w])))
  {
    var ds := [w, e, b, w];
    var rs := [w, b, e, w];
    assert Reverse(ds) == rs;
    var exec := Sentinels(Some(begin), None, sub);
    var ser := Sentinels(Some(begin), Some(end), sub);
    assert FirstFrom(rs, 0, d => Opens(lookup(d), exec)) == Some(1) by {
      assert !Opens(lookup(rs[0]), exec) && Opens(lookup(rs[1]), exec);
    }
    assert FirstFrom(rs, 0, d => Opens(lookup(d), ser)) == Some(1) by {
      assert !Opens(lookup(rs[0]), ser) && Opens(lookup(rs[1]), ser);
    }
    assert FirstFrom(rs, 2, d => Closes(lookup(d), ser)) == Some(2) by {
      assert Closes(lookup(rs[2]), ser);
    }
    StripCut(ds, lookup, exec);
    StripCut(ds, lookup, ser);
    assert ds[3..] == [w];
    assert ds[..1] + ds[3..] == [w, w];
  }
}

=== FILE: pattern.dfy ===
/**
 * The AST pattern matcher of `pattern.py`.
 *
 * A pattern is program text in which pieces `{name}` or `{name:Type}`
 * stand for holes. Parsing replaces the holes left to right by the names
 * `__hole1`, `__hole2`, … and maps each name to its node pattern; the
 * rewritten text is then parsed as Python, which is left out here: the
 * parsed template is an input of the matcher.
 *
 * Matching walks the template and the actual node side by side by their
 * attributes, the way `vars()` and `getattr` do. A node is therefore
 * modelled generically, by its class name and its attribute list, rather
 * than by the typed grammar the passes use.
 */
module Pattern {
  import opened Results
  import opened Strings

  // ---------------------------------------------------------------------
  // Splitting on a character (`str.split`)
  // ---------------------------------------------------------------------

  /** The number of occurrences of `c`. */
  function Count(s: string, c: char): nat
  {
    if s == [] then 0 else (if s[0] == c then 1 else 0) + Count(s[1..], c)
  }

  /** `s.split(c)`: the pieces between occurrences of `c`, one more than there are of them. */
  function Split(s: string, c: char): (parts: seq<string>)
    ensures |parts| == Count(s, c) + 1
    ensures forall i | 0 <= i < |parts| :: c !in parts[i]
  {
    if s == [] then [""]
    else
      var rest := Split(s[1..], c);
      if s[0] == c then [""] + rest
      else [[s[0]] + rest[0]] + rest[1..]
  }

  /** `c.join(parts)`. */
  function Join(parts: seq<string>, c: char): string
    requires |parts| >= 1
  {
    if |parts| == 1 then parts[0] else parts[0] + [c] + Join(parts[1..], c)
  }

  /** Splitting, then joining, gives the string back. */
  lemma {:induction false} SplitJoin(s: string, c: char)
    ensures Join(Split(s, c), c) == s
    decreases |s|
  {
    if s != [] {
      var rest := Split(s[1..], c);
      SplitJoin(s[1..], c);
      if s[0] == c {
        assert ([""] + rest)[1..] == rest;
      } else {
        if |rest| > 1 {
          assert ([[s[0]] + rest[0]] + rest[1..])[1..] == rest[1..];
        }
      }
    }
  }

  /** Joining pieces free of `c`, then splitting, gives the pieces back. */
  lemma {:induction false} JoinSplit(parts: seq<string>, c: char)
    requires |parts| >= 1 && forall i | 0 <= i < |parts| :: c !in parts[i]
    ensures Split(Join(parts, c), c) == parts
    decreases |parts|, |parts[0]|
  {
    if |parts| == 1 {
      SplitFree(parts[0], c);
    } else {
      var tail := parts[1..];
      if parts[0] == [] {
        JoinSplit(tail, c);
        assert Join(parts, c) == [c] + Join(tail, c);
        assert ([c] + Join(tail, c))[1..] == Join(tail, c);
        assert [""] + tail == parts;
      } else {
        var p := parts[0];
        var shorter := [p[1..]] + tail;
        assert shorter[1..] == tail;
        assert c !in shorter[0] by {
          assert forall k | 0 <= k < |p[1..]| :: p[1..][k] == p[k + 1];
        }
        JoinSplit(shorter, c);
        var j := Join(parts, c);
        assert j == p + [c] + Join(tail, c);
        assert j[1..] == Join(shorter, c);
        assert j[0] == p[0] && p[0] != c;
        assert [p[0]] + p[1..] == p;
        assert [p] + tail == parts;
      }
    }
  }

  lemma {:induction false} SplitFree(s: string, c: char)
    requires c !in s
    ensures Split(s, c) == [s]
    decreases |s|
  {
    if s != [] {
      assert c !in s[1..] by {
        assert forall k | 0 <= k < |s[1..]| :: s[1..][k] == s[k + 1];
      }
      SplitFree(s[1..], c);
      assert [s[0]] + s[1..] == s;
    }
  }

  // ---------------------------------------------------------------------
  // `NodePattern._parse`
  // ---------------------------------------------------------------------

  /** A hole: the binding name and, when given, the node type it demands. */
  datatype NodePattern = NodePattern(name: string, ty: Option<string>)

  /** `s[1:-1]`, the text between the braces. */
  function Inner(s: string): string
  {
    if |s| >= 2 then s[1..|s| - 1] else ""
  }

  /**
   * A hole's text split on colons: one piece is an untyped hole, two a
   * typed one, more fail the assertion. Resolving the type name against
   * the `ast` module is left to the matcher's type test.
   */
  function ParseNode(s: string): (r: Result<NodePattern>)
    ensures r.Err? <==> Count(Inner(s), ':') >= 2
    ensures r.Err? ==> r.error == AssertionError
  {
    var parts := Split(Inner(s), ':');
    if |parts| == 1 then Ok(NodePattern(parts[0], None))
    else if |parts| == 2 then Ok(NodePattern(parts[0], Some(parts[1])))
    else Err(AssertionError)
  }

  /** The text a hole is written as. */
  function RenderNode(np: NodePattern): string
  {
    "{" + np.name + (if np.ty.Some? then ":" + np.ty.value else "") + "}"
  }

  /** Parsing the written form of a hole gives it back, when its parts hold no colon. */
  lemma ParseRender(np: NodePattern)
    requires ':' !in np.name && (np.ty.Some? ==> ':' !in np.ty.value)
    ensures ParseNode(RenderNode(np)) == Ok(np)
  {
    var s := RenderNode(np);
    if np.ty.Some? {
      assert Inner(s) == np.name + ":" + np.ty.value;
      assert Join([np.name, np.ty.value], ':') == np.name + [':'] + np.ty.value by {
        assert [np.name, np.ty.value][1..] == [np.ty.value];
      }
      JoinSplit([np.name, np.ty.value], ':');
    } else {
      assert Inner(s) == np.name;
      SplitFree(np.name, ':');
    }
  }

  // ---------------------------------------------------------------------
  // `ASTPattern._parse`: the substitution of `{[^}]*}`
  // ---------------------------------------------------------------------

  /** A piece of pattern text: a character kept as it is, or a hole's text. */
  datatype Piece = Char(c: char) | Group(text: string)

  /** Text the regular expression `{[^}]*}` matches. */
  predicate IsGroup(t: string)
  {
    |t| >= 2 && t[0] == '{' && t[|t| - 1] == '}' && '}' !in t[..|t| - 1]
  }

  /** The first `}` at or after `i`. */
  function CloseFrom(s: string, i: nat): (r: Option<nat>)
    requires i <= |s|
    ensures r.None? ==> forall k | i <= k < |s| :: s[k] != '}'
    ensures r.Some? ==> i <= r.value < |s| && s[r.value] == '}' && forall k | i <= k < r.value :: s[k] != '}'
    decreases |s| - i
  {
    if i == |s| then None else if s[i] == '}' then Some(i) else CloseFrom(s, i + 1)
  }

  /**
   * The text cut into pieces the way the substitution scans it, left to
   * right without overlaps: a `{` with a `}` after it starts a hole that
   * runs to the first such `}`.
   */
  function Scan(s: string): (ps: seq<Piece>)
    ensures forall k | 0 <= k < |ps| && ps[k].Group? :: IsGroup(ps[k].text)
    decreases |s|
  {
    if s == [] then []
    else
      var close := CloseFrom(s, 1);
      if s[0] == '{' && close.Some? then
        var j := close.value;
        assert IsGroup(s[..j + 1]) by {
          assert forall k | 0 <= k < j :: s[..j + 1][..j][k] == s[k];
          assert s[0] != '}';
        }
        [Group(s[..j + 1])] + Scan(s[j + 1..])
      else [Char(s[0])] + Scan(s[1..])
  }

  /** The text the pieces came from. */
  function Flatten(ps: seq<Piece>): string
  {
    if ps == [] then ""
    else (match ps[0] case Char(c) => [c] case Group(t) => t) + Flatten(ps[1..])
  }

  /** Scanning loses nothing: the pieces spell the pattern text. */
  lemma {:induction false} ScanFlatten(s: string)
    ensures Flatten(Scan(s)) == s
    decreases |s|
  {
    if s != [] {
      var close := CloseFrom(s, 1);
      if s[0] == '{' && close.Some? {
        var j := close.value;
        ScanFlatten(s[j + 1..]);
        assert ([Group(s[..j + 1])] + Scan(s[j + 1..]))[1..] == Scan(s[j + 1..]);
        assert s[..j + 1] + s[j + 1..] == s;
      } else {
        ScanFlatten(s[1..]);
        assert ([Char(s[0])] + Scan(s[1..]))[1..] == Scan(s[1..]);
        assert [s[0]] + s[1..] == s;
      }
    }
  }

  /** The holes' texts, in order. */
  function Groups(ps: seq<Piece>): (gs: seq<string>)
    ensures |gs| <= |ps|
  {
    if ps == [] then []
    else (if ps[0].Group? then [ps[0].text] else []) + Groups(ps[1..])
  }

  /** `'__hole{}'.format(k)`. */
  function HoleName(k: nat): string
  {
    "__hole" + Str(k)
  }

  lemma HoleNameInjective(a: nat, b: nat)
    ensures HoleName(a) == HoleName(b) ==> a == b
  {
    if HoleName(a) == HoleName(b) {
      assert Str(a) == HoleName(a)[6..] && Str(b) == HoleName(b)[6..];
      StrInjective(a, b);
    }
  }

  /** The text with the `k`-th hole, counting on from `n`, replaced by `__hole<k>`. */
  function Substitute(ps: seq<Piece>, n: nat): string
  {
    if ps == [] then ""
    else
      match ps[0]
      case Char(c) => [c] + Substitute(ps[1..], n)
      case Group(_) => HoleName(n + 1) + Substitute(ps[1..], n + 1)
  }

  /**
   * The hole map built while substituting: hole `n + i + 1` maps to the
   * node pattern of the `i`-th hole text. The first text that fails to
   * parse raises.
   */
  function ParseHoles(gs: seq<string>, n: nat): (r: Result<map<string, NodePattern>>)
    ensures r.Err? <==> exists i | 0 <= i < |gs| :: ParseNode(gs[i]).Err?
    ensures r.Err? ==> r.error == AssertionError
    ensures r.Ok? ==> r.value.Keys == set k: nat | n < k <= n + |gs| :: HoleName(k)
    decreases |gs|
  {
    if gs == [] then Ok(map[])
    else
      var np :- ParseNode(gs[0]);
      var rest :- ParseHolesStep(gs, n);
      Ok(rest[HoleName(n + 1) := np])
  }

  /** The recursive call of `ParseHoles`, with the facts about the tail it needs. */
  function ParseHolesStep(gs: seq<string>, n: nat): (r: Result<map<string, NodePattern>>)
    requires gs != [] && ParseNode(gs[0]).Ok?
    ensures r.Err? <==> exists i | 0 <= i < |gs| :: ParseNode(gs[i]).Err?
    ensures r.Err? ==> r.error == AssertionError
    ensures r.Ok? ==> r.value.Keys + {HoleName(n + 1)} == set k: nat | n < k <= n + |gs| :: HoleName(k)
    decreases |gs|, 0
  {
    var r := ParseHoles(gs[1..], n + 1);
    assert (exists i | 0 <= i < |gs| :: ParseNode(gs[i]).Err?) <==> (exists i | 0 <= i < |gs[1..]| :: ParseNode(gs[1..][i]).Err?) by {
      if exists i | 0 <= i < |gs| :: ParseNode(gs[i]).Err? {
        var i :| 0 <= i < |gs| && ParseNode(gs[i]).Err?;
        assert i > 0 && gs[1..][i - 1] == gs[i];
      }
    }
    assert (set k: nat | n + 1 < k <= n + 1 + |gs[1..]| :: HoleName(k)) + {HoleName(n + 1)}
        == set k: nat | n < k <= n + |gs| :: HoleName(k);
    r
  }

  /** Each hole name maps to the node pattern its text parses to. */
  lemma {:induction false} ParseHolesAt(gs: seq<string>, n: nat, i: nat)
    requires ParseHoles(gs, n).Ok? && i < |gs|
    ensures HoleName(n + i + 1) in ParseHoles(gs, n).value
    ensures ParseNode(gs[i]) == Ok(ParseHoles(gs, n).value[HoleName(n + i + 1)])
    decreases |gs|
  {
    var r := ParseHoles(gs, n).value;
    if i > 0 {
      ParseHolesAt(gs[1..], n + 1, i - 1);
      HoleNameInjective(n + 1, n + i + 1);
      assert gs[1..][i - 1] == gs[i];
    }
  }

  /**
   * `ASTPattern._parse` up to the call of the Python parser: the rewritten
   * text and the hole map.
   */
  function ParsePattern(s: string): (r: Result<(string, map<string, NodePattern>)>)
    ensures r.Err? <==> exists i | 0 <= i < |Groups(Scan(s))| :: ParseNode(Groups(Scan(s))[i]).Err?
    ensures r.Ok? ==> r.value.1.Keys == set k: nat | 0 < k <= |Groups(Scan(s))| :: HoleName(k)
  {
    var ps := Scan(s);
    match ParseHoles(Groups(ps), 0)
    case Err(e) => Err(e)
    case Ok(holes) => Ok((Substitute(ps, 0), holes))
  }

  // ---------------------------------------------------------------------
  // Values the matcher walks
  // ---------------------------------------------------------------------

  /** A Python value reached through `vars()`: an AST node, a list, or anything else. */
  datatype Value =
    | Node(kind: string, fields: seq<Field>)
    | List(items: seq<Value>)
    | Prim(ty: string, text: string)

  /** An attribute of a node, in `vars()` order. */
  datatype Field = Field(name: string, value: Value)

  /** The attributes the structural comparison skips. */
  const Ignored: set<string> := {"lineno", "col_offset", "end_lineno", "end_col_offset", "ctx", "_pp"}

  /** `getattr(node, name)` over an attribute list; the first attribute with the name. */
  function FieldOf(fs: seq<Field>, name: string): (r: Option<Value>)
    ensures r.Some? ==> exists j | 0 <= j < |fs| :: fs[j].name == name && fs[j].value == r.value
    ensures r.None? ==> forall j | 0 <= j < |fs| :: fs[j].name != name
  {
    if fs == [] then None
    else if fs[0].name == name then Some(fs[0].value)
    else FieldOf(fs[1..], name)
  }

  /** The identifier of a `Name` node. */
  function NameId(v: Value): Option<string>
  {
    if v.Node? && v.kind == "Name" then
      match FieldOf(v.fields, "id")
      case Some(Prim(_, x)) => Some(x)
      case _ => None
    else None
  }

  /** The variable a template node stands for: a `Name`, or an expression statement holding one. */
  function PatternVar(p: Value): Option<string>
  {
    if p.Node? && p.kind == "Name" then NameId(p)
    else if p.Node? && p.kind == "Expr" then
      match FieldOf(p.fields, "value")
      case Some(v) => NameId(v)
      case None => None
    else None
  }

  /** The hole a template node is, if any. */
  function HoleOf(p: Value, holes: map<string, NodePattern>): Option<NodePattern>
  {
    var v := PatternVar(p);
    if v.Some? && v.value in holes then Some(holes[v.value]) else None
  }

  /** A value inside another, the other included. */
  predicate Within(x: Value, v: Value)
  {
    x == v
    || (v.Node? && exists j | 0 <= j < |v.fields| :: Within(x, v.fields[j].value))
    || (v.List? && exists j | 0 <= j < |v.items| :: Within(x, v.items[j]))
  }

  // ---------------------------------------------------------------------
  // `ASTPattern._match` and `match`
  // ---------------------------------------------------------------------

  type Bindings = map<string, Value>

  /**
   * `_match`, threading the bindings. A hole accepts any value when
   * untyped and a node that `isA` the demanded type otherwise, and binds
   * the hole's name, over any earlier binding of that name. Otherwise the
   * two values must have the same type: nodes are compared attribute by
   * attribute over the template's attributes, skipping positions and
   * `ctx`; lists pairwise over the shorter one; anything else by equality.
   */
  function Match(p: Value, a: Value, holes: map<string, NodePattern>, isA: (string, string) -> bool, b: Bindings)
    : Option<Bindings>
    decreases p, 1
  {
    var h := HoleOf(p, holes);
    if h.Some? then
      if h.value.ty.None? || (a.Node? && isA(a.kind, h.value.ty.value)) then Some(b[h.value.name := a]) else None
    else
      match p
      case Node(k, fs) => if a.Node? && a.kind == k then MatchFields(fs, a, holes, isA, b) else None
      case List(ps) => if a.List? then MatchList(ps, a.items, holes, isA, b) else None
      case Prim(_, _) => if a == p then Some(b) else None
  }

  /**
   * The template's attributes in order against the actual node's
   * attributes of the same names. An attribute the actual node lacks
   * fails the match.
   */
  function MatchFields(fs: seq<Field>, a: Value, holes: map<string, NodePattern>, isA: (string, string) -> bool, b: Bindings)
    : Option<Bindings>
    requires a.Node?
    decreases fs, 0
  {
    if fs == [] then Some(b)
    else if fs[0].name in Ignored then MatchFields(fs[1..], a, holes, isA, b)
    else
      match FieldOf(a.fields, fs[0].name)
      case None => None
      case Some(v) =>
        match Match(fs[0].value, v, holes, isA, b)
        case None => None
        case Some(b') => MatchFields(fs[1..], a, holes, isA, b')
  }

  /** `all(starmap(_match, zip(ps, as)))`: pairwise, over the shorter list. */
  function MatchList(ps: seq<Value>, acts: seq<Value>, holes: map<string, NodePattern>, isA: (string, string) -> bool, b: Bindings)
    : Option<Bindings>
    decreases ps, 0
  {
    if ps == [] || acts == [] then Some(b)
    else
      match Match(ps[0], acts[0], holes, isA, b)
      case None => None
      case Some(b') => MatchList(ps[1..], acts[1..], holes, isA, b')
  }

  /** `ASTPattern.match`: a fresh binding map on success. */
  function MatchNode(template: Value, node: Value, holes: map<string, NodePattern>, isA: (string, string) -> bool)
    : Option<Bindings>
  {
    Match(template, node, holes, isA, map[])
  }

  // ---------------------------------------------------------------------
  // Properties of the matcher
  // ---------------------------------------------------------------------

  /** The names holes bind. */
  function HoleNames(holes: map<string, NodePattern>): set<string>
  {
    set h | h in holes :: holes[h].name
  }

  /** Every binding is an earlier one, or binds a hole's name to a value inside `a`. */
  predicate Extends(r: Bindings, b: Bindings, holes: map<string, NodePattern>, a: Value)
  {
    forall k | k in r :: (k in b && r[k] == b[k]) || (k in HoleNames(holes) && Within(r[k], a))
  }

  lemma ExtendsTrans(r2: Bindings, r1: Bindings, b: Bindings, holes: map<string, NodePattern>, a: Value)
    requires Extends(r1, b, holes, a) && Extends(r2, r1, holes, a)
    ensures Extends(r2, b, holes, a)
  {
  }

  lemma WithinField(x: Value, a: Value, j: nat)
    requires a.Node? && j < |a.fields| && Within(x, a.fields[j].value)
    ensures Within(x, a)
  {
  }

  lemma WithinItem(x: Value, a: Value, j: nat)
    requires a.List? && j < |a.items| && Within(x, a.items[j])
    ensures Within(x, a)
  {
  }

  /**
   * A successful match binds only hole names, each to a part of the
   * actual node, and keeps every other binding it was given.
   */
  lemma {:induction false} MatchBinds(p: Value, a: Value, holes: map<string, NodePattern>, isA: (string, string) -> bool, b: Bindings)
    ensures var r := Match(p, a, holes, isA, b);
      r.Some? ==> Extends(r.value, b, holes, a)
    decreases p, 1
  {
    var h := HoleOf(p, holes);
    if h.Some? {
      var hv := PatternVar(p).value;
      assert h.value == holes[hv];
      assert h.value.name in HoleNames(holes);
    } else {
      match p
      case Node(k, fs) =>
        if a.Node? && a.kind == k {
          MatchFieldsBinds(fs, a, holes, isA, b);
        }
      case List(ps) =>
        if a.List? {
          MatchListBinds(ps, a, 0, holes, isA, b);
          assert a.items[0..] == a.items;
        }
      case Prim(_, _) =>
    }
  }

  lemma {:induction false} MatchFieldsBinds(fs: seq<Field>, a: Value, holes: map<string, NodePattern>, isA: (string, string) -> bool, b: Bindings)
    requires a.Node?
    ensures var r := MatchFields(fs, a, holes, isA, b);
      r.Some? ==> Extends(r.value, b, holes, a)
    decreases fs, 0
  {
    if fs != [] {
      if fs[0].name in Ignored {
        MatchFieldsBinds(fs[1..], a, holes, isA, b);
      } else {
        var v := FieldOf(a.fields, fs[0].name);
        if v.Some? {
          var j :| 0 <= j < |a.fields| && a.fields[j].name == fs[0].name && a.fields[j].value == v.value;
          var m := Match(fs[0].value, v.value, holes, isA, b);
          MatchBinds(fs[0].value, v.value, holes, isA, b);
          if m.Some? {
            forall k | k in m.value && !(k in b && m.value[k] == b[k]) ensures k in HoleNames(holes) && Within(m.value[k], a) {
              WithinField(m.value[k], a, j);
            }
            MatchFieldsBinds(fs[1..], a, holes, isA, m.value);
            var r := MatchFields(fs, a, holes, isA, b);
            if r.Some? {
              ExtendsTrans(r.value, m.value, b, holes, a);
            }
          }
        }
      }
    }
  }

  /** Pairwise matching from position `i` of the actual list. */
  lemma {:induction false} MatchListBinds(ps: seq<Value>, a: Value, i: nat, holes: map<string, NodePattern>, isA: (string, string) -> bool, b: Bindings)
    requires a.List? && i <= |a.items|
    ensures var r := MatchList(ps, a.items[i..], holes, isA, b);
      r.Some? ==> Extends(r.value, b, holes, a)
    decreases ps, 0
  {
    var acts := a.items[i..];
    if ps != [] && acts != [] {
      var m := Match(ps[0], acts[0], holes, isA, b);
      MatchBinds(ps[0], acts[0], holes, isA, b);
      if m.Some? {
        forall k | k in m.value && !(k in b && m.value[k] == b[k]) ensures k in HoleNames(holes) && Within(m.value[k], a) {
          WithinItem(m.value[k], a, i);
        }
        assert acts[1..] == a.items[i + 1..];
        MatchListBinds(ps[1..], a, i + 1, holes, isA, m.value);
        var r := MatchList(ps, acts, holes, isA, b);
        if r.Some? {
          ExtendsTrans(r.value, m.value, b, holes, a);
        }
      }
    }
  }

  /** Attribute names of every node in a value are distinct, as in a `vars()` dictionary. */
  predicate Wf(v: Value)
  {
    match v
    case Node(_, fs) =>
      && (forall i, j | 0 <= i < j < |fs| :: fs[i].name != fs[j].name)
      && (forall j | 0 <= j < |fs| :: Wf(fs[j].value))
    case List(items) => forall j | 0 <= j < |items| :: Wf(items[j])
    case Prim(_, _) => true
  }

  /** No template node in the value stands for a hole. */
  predicate NoHoles(v: Value, holes: map<string, NodePattern>)
  {
    && HoleOf(v, holes).None?
    && match v
       case Node(_, fs) => forall j | 0 <= j < |fs| :: NoHoles(fs[j].value, holes)
       case List(items) => forall j | 0 <= j < |items| :: NoHoles(items[j], holes)
       case Prim(_, _) => true
  }

  /** A template without holes matches itself and binds nothing. */
  lemma {:induction false} MatchSelf(p: Value, holes: map<string, NodePattern>, isA: (string, string) -> bool, b: Bindings)
    requires Wf(p) && NoHoles(p, holes)
    ensures Match(p, p, holes, isA, b) == Some(b)
    decreases p, 1
  {
    match p
    case Node(k, fs) =>
      MatchFieldsSelf(p, 0, holes, isA, b);
      assert fs[0..] == fs;
    case List(ps) =>
      MatchListSelf(ps, holes, isA, b);
    case Prim(_, _) =>
  }

  lemma {:induction false} FieldOfUnique(fs: seq<Field>, j: nat)
    requires j < |fs| && forall i, k | 0 <= i < k < |fs| :: fs[i].name != fs[k].name
    ensures FieldOf(fs, fs[j].name) == Some(fs[j].value)
  {
    if j > 0 {
      assert fs[0].name != fs[j].name;
      FieldOfUnique(fs[1..], j - 1);
    }
  }

  lemma {:induction false} MatchFieldsSelf(p: Value, i: nat, holes: map<string, NodePattern>, isA: (string, string) -> bool, b: Bindings)
    requires p.Node? && Wf(p) && NoHoles(p, holes) && i <= |p.fields|
    ensures MatchFields(p.fields[i..], p, holes, isA, b) == Some(b)
    decreases p, 0, |p.fields| - i
  {
    var fs := p.fields[i..];
    if fs != [] {
      assert fs[1..] == p.fields[i + 1..];
      if fs[0].name !in Ignored {
        FieldOfUnique(p.fields, i);
        MatchSelf(fs[0].value, holes, isA, b);
      }
      MatchFieldsSelf(p, i + 1, holes, isA, b);
    }
  }

  lemma {:induction false} MatchListSelf(ps: seq<Value>, holes: map<string, NodePattern>, isA: (string, string) -> bool, b: Bindings)
    requires forall j | 0 <= j < |ps| :: Wf(ps[j]) && NoHoles(ps[j], holes)
    ensures MatchList(ps, ps, holes, isA, b) == Some(b)
    decreases ps, 0
  {
    if ps != [] {
      MatchSelf(ps[0], holes, isA, b);
      MatchListSelf(ps[1..], holes, isA, b);
    }
  }

  /**
   * Lists are matched over the shorter length: extra items on either side
   * are never looked at.
   */
  lemma {:induction false} MatchListShorter(ps: seq<Value>, acts: seq<Value>, holes: map<string, NodePattern>, isA: (string, string) -> bool, b: Bindings)
    ensures var m := if |ps| <= |acts| then |ps| else |acts|;
      MatchList(ps, acts, holes, isA, b) == MatchList(ps[..m], acts[..m], holes, isA, b)
    decreases |ps|
  {
    var m := if |ps| <= |acts| then |ps| else |acts|;
    if ps != [] && acts != [] {
      var r := Match(ps[0], acts[0], holes, isA, b);
      assert ps[..m][0] == ps[0] && acts[..m][0] == acts[0];
      assert ps[..m][1..] == ps[1..][..m - 1];
      assert acts[..m][1..] == acts[1..][..m - 1];
      if r.Some? {
        MatchListShorter(ps[1..], acts[1..], holes, isA, r.value);
      }
    }
  }

  /** A template node of one class never matches a node of another class, unless it is a hole. */
  lemma KindsDiffer(p: Value, a: Value, holes: map<string, NodePattern>, isA: (string, string) -> bool, b: Bindings)
    requires p.Node? && a.Node? && p.kind != a.kind && HoleOf(p, holes).None?
    ensures Match(p, a, holes, isA, b).None?
  {
  }

  /** The attributes the comparison skips, removed throughout. */
  function Erase(v: Value): (r: Value)
    decreases v, 1
  {
    match v
    case Node(k, fs) => Node(k, EraseFields(fs))
    case List(items) => List(EraseItems(items))
    case Prim(_, _) => v
  }

  function EraseFields(fs: seq<Field>): seq<Field>
    decreases fs, 0
  {
    if fs == [] then []
    else (if fs[0].name in Ignored then [] else [Field(fs[0].name, Erase(fs[0].value))]) + EraseFields(fs[1..])
  }

  function EraseItems(vs: seq<Value>): (r: seq<Value>)
    ensures |r| == |vs|
    decreases vs, 0
  {
    if vs == [] then [] else [Erase(vs[0])] + EraseItems(vs[1..])
  }

  lemma {:induction false} FieldOfErased(fs: seq<Field>, name: string)
    requires name !in Ignored
    ensures FieldOf(fs, name).None? ==> FieldOf(EraseFields(fs), name).None?
    ensures FieldOf(fs, name).Some? ==> FieldOf(EraseFields(fs), name) == Some(Erase(FieldOf(fs, name).value))
  {
    if fs != [] {
      var tail := EraseFields(fs[1..]);
      FieldOfErased(fs[1..], name);
      if fs[0].name in Ignored {
        assert EraseFields(fs) == tail;
        assert FieldOf(fs, name) == FieldOf(fs[1..], name);
      } else {
        var e := EraseFields(fs);
        assert e == [Field(fs[0].name, Erase(fs[0].value))] + tail;
        assert e[1..] == tail;
        if fs[0].name != name {
          assert FieldOf(e, name) == FieldOf(tail, name);
          assert FieldOf(fs, name) == FieldOf(fs[1..], name);
        }
      }
    }
  }

  lemma NameIdErased(v: Value)
    ensures NameId(Erase(v)) == NameId(v)
  {
    if v.Node? {
      FieldOfErased(v.fields, "id");
    }
  }

  /** The hole a template node is does not depend on skipped attributes. */
  lemma HoleOfErased(p: Value, holes: map<string, NodePattern>)
    ensures HoleOf(Erase(p), holes) == HoleOf(p, holes)
  {
    assert PatternVar(Erase(p)) == PatternVar(p) by {
      NameIdErased(p);
      if p.Node? && p.kind == "Expr" {
        FieldOfErased(p.fields, "value");
        var v := FieldOf(p.fields, "value");
        if v.Some? {
          NameIdErased(v.value);
        }
      }
    }
  }

  /**
   * Positions and `ctx` play no part: removing them from the template
   * changes neither the outcome nor the bindings.
   */
  lemma {:induction false} MatchErased(p: Value, a: Value, holes: map<string, NodePattern>, isA: (string, string) -> bool, b: Bindings)
    ensures Match(Erase(p), a, holes, isA, b) == Match(p, a, holes, isA, b)
    decreases p, 1
  {
    HoleOfErased(p, holes);
    if HoleOf(p, holes).None? {
      match p
      case Node(k, fs) =>
        if a.Node? && a.kind == k {
          MatchFieldsErased(fs, a, holes, isA, b);
        }
      case List(ps) =>
        if a.List? {
          MatchListErased(ps, a.items, holes, isA, b);
        }
      case Prim(_, _) =>
    }
  }

  lemma {:induction false} MatchFieldsErased(fs: seq<Field>, a: Value, holes: map<string, NodePattern>, isA: (string, string) -> bool, b: Bindings)
    requires a.Node?
    ensures MatchFields(EraseFields(fs), a, holes, isA, b) == MatchFields(fs, a, holes, isA, b)
    decreases fs, 0
  {
    if fs != [] {
      if fs[0].name in Ignored {
        assert EraseFields(fs) == EraseFields(fs[1..]);
        MatchFieldsErased(fs[1..], a, holes, isA, b);
      } else {
        var e := EraseFields(fs);
        assert e[0] == Field(fs[0].name, Erase(fs[0].value)) && e[1..] == EraseFields(fs[1..]);
        var v := FieldOf(a.fields, fs[0].name);
        if v.Some? {
          MatchErased(fs[0].value, v.value, holes, isA, b);
          var m := Match(fs[0].value, v.value, holes, isA, b);
          if m.Some? {
            MatchFieldsErased(fs[1..], a, holes, isA, m.value);
          }
        }
      }
    }
  }

  lemma {:induction false} MatchListErased(ps: seq<Value>, acts: seq<Value>, holes: map<string, NodePattern>, isA: (string, string) -> bool, b: Bindings)
    ensures MatchList(EraseItems(ps), acts, holes, isA, b) == MatchList(ps, acts, holes, isA, b)
    decreases ps, 0
  {
    if ps != [] && acts != [] {
      var e := EraseItems(ps);
      assert e[0] == Erase(ps[0]) && e[1..] == EraseItems(ps[1..]);
      MatchErased(ps[0], acts[0], holes, isA, b);
      var m := Match(ps[0], acts[0], holes, isA, b);
      if m.Some? {
        MatchListErased(ps[1..], acts[1..], holes, isA, m.value);
      }
    }
  }

  // ---------------------------------------------------------------------
  // The assignment examples
  // ---------------------------------------------------------------------

  function NameNode(x: string, ctx: string): Value
  {
    Node("Name", [Field("id", Prim("str", x)), Field("ctx", Node(ctx, []))])
  }

  function AssignNode(target: Value, value: Value): Value
  {
    Node("Assign", [Field("targets", List([target])), Field("value", value)])
  }

  /** `{lhs:Name} = {rhs:Name}` after substitution and parsing: `__hole1 = __hole2`. */
  function CopyTemplate(): Value
  {
    AssignNode(NameNode(HoleName(1), "Store"), NameNode(HoleName(2), "Load"))
  }

  function CopyHoles(): map<string, NodePattern>
  {
    map[HoleName(1) := NodePattern("lhs", Some("Name")), HoleName(2) := NodePattern("rhs", Some("Name"))]
  }

  /** The class test of `isinstance` for leaf classes. */
  function SameClass(kind: string, ty: string): bool
  {
    kind == ty
  }

  /** `x = y` matches, binding `lhs` to `x` and `rhs` to `y`. */
  lemma CopyMatches(x: string, y: string)
    ensures MatchNode(CopyTemplate(), AssignNode(NameNode(x, "Store"), NameNode(y, "Load")), CopyHoles(), SameClass)
      == Some(map["lhs" := NameNode(x, "Store"), "rhs" := NameNode(y, "Load")])
  {
    var holes := CopyHoles();
    var lhs := NameNode(HoleName(1), "Store");
    var rhs := NameNode(HoleName(2), "Load");
    var a := AssignNode(NameNode(x, "Store"), NameNode(y, "Load"));
    HoleNameInjective(1, 2);
    assert NameId(lhs) == Some(HoleName(1));
    assert NameId(rhs) == Some(HoleName(2));
    assert HoleOf(CopyTemplate(), holes).None?;
    assert HoleOf(lhs, holes) == Some(NodePattern("lhs", Some("Name")));
    assert HoleOf(rhs, holes) == Some(NodePattern("rhs", Some("Name")));
    var b1: Bindings := map["lhs" := NameNode(x, "Store")];
    assert Match(List([lhs]), List([NameNode(x, "Store")]), holes, SameClass, map[]) == Some(b1) by {
      assert MatchList([lhs], [NameNode(x, "Store")], holes, SameClass, map[])
        == MatchList([], [], holes, SameClass, b1);
    }
    assert FieldOf(a.fields, "targets") == Some(List([NameNode(x, "Store")]));
    assert FieldOf(a.fields, "value") == Some(NameNode(y, "Load"));
    var fs := CopyTemplate().fields;
    assert MatchFields(fs[1..], a, holes, SameClass, b1) == Some(b1["rhs" := NameNode(y, "Load")]) by {
      assert fs[1..][1..] == [];
    }
  }

  /** `x = 1` does not match: the right-hand side is a constant, not a `Name`. */
  lemma CopyRejectsConstant(x: string, one: Value)
    requires one.Node? && one.kind == "Constant"
    ensures MatchNode(CopyTemplate(), AssignNode(NameNode(x, "Store"), one), CopyHoles(), SameClass).None?
  {
    var holes := CopyHoles();
    var lhs := NameNode(HoleName(1), "Store");
    var rhs := NameNode(HoleName(2), "Load");
    var a := AssignNode(NameNode(x, "Store"), one);
    HoleNameInjective(1, 2);
    assert NameId(lhs) == Some(HoleName(1));
    assert NameId(rhs) == Some(HoleName(2));
    assert HoleOf(CopyTemplate(), holes).None?;
    assert HoleOf(rhs, holes) == Some(NodePattern("rhs", Some("Name")));
    var b1: Bindings := map["lhs" := NameNode(x, "Store")];
    assert Match(List([lhs]), List([NameNode(x, "Store")]), holes, SameClass, map[]) == Some(b1) by {
      assert HoleOf(lhs, holes) == Some(NodePattern("lhs", Some("Name")));
      assert MatchList([lhs], [NameNode(x, "Store")], holes, SameClass, map[])
        == MatchList([], [], holes, SameClass, b1);
    }
    assert FieldOf(a.fields, "targets") == Some(List([NameNode(x, "Store")]));
    assert FieldOf(a.fields, "value") == Some(one);
    assert Match(rhs, one, holes, SameClass, b1).None?;
  }
}

=== FILE: reachability.dfy ===
/**
 * The always-returns classifier of `metadata/always_returns_provider.py`
 * (repeated verbatim in `passes/ssa_cst.py`), and a path semantics it is
 * checked against.
 *
 * The classifier records a boolean for lines, suites, indented blocks,
 * `if` statements and `else` clauses; every other statement has no
 * recorded value and counts as false.
 */
module Reachability {
  import opened Syntax
  import Results

  /** A simple-statement line or one-line suite returns when one of its small statements is a `return`. */
  function SmallsReturn(ss: seq<Small>): bool
  {
    if ss == [] then false else ss[0].Return? || SmallsReturn(ss[1..])
  }

  function StmtReturns(s: Stmt): bool
  {
    match s
    case Line(smalls) => SmallsReturn(smalls)
    case If(_, body, orelse) =>
      if orelse.NoElse? then false else BlockReturns(body) && OrElseReturns(orelse)
    case _ => false
  }

  /** An indented block returns when some child statement does. */
  function StmtsReturn(ss: seq<Stmt>): bool
  {
    if ss == [] then false else StmtReturns(ss[0]) || StmtsReturn(ss[1..])
  }

  function BlockReturns(b: Block): bool
  {
    match b
    case Indented(stmts) => StmtsReturn(stmts)
    case Inline(smalls) => SmallsReturn(smalls)
  }

  /** An `else` inherits its body's value; an `elif` is the inner `if`'s value. */
  function OrElseReturns(o: OrElse): bool
  {
    match o
    case NoElse => false
    case Else(b) => BlockReturns(b)
    case Elif(s) => StmtReturns(s)
  }

  lemma {:induction false} SmallsReturnIff(ss: seq<Small>)
    ensures SmallsReturn(ss) <==> exists i | 0 <= i < |ss| :: ss[i].Return?
  {
    if ss != [] {
      SmallsReturnIff(ss[1..]);
      if exists i | 0 <= i < |ss| :: ss[i].Return? {
        var i :| 0 <= i < |ss| && ss[i].Return?;
        if i > 0 { assert ss[1..][i - 1].Return?; }
      }
    }
  }

  lemma {:induction false} StmtsReturnIff(ss: seq<Stmt>)
    ensures StmtsReturn(ss) <==> exists i | 0 <= i < |ss| :: StmtReturns(ss[i])
  {
    if ss != [] {
      StmtsReturnIff(ss[1..]);
      if exists i | 0 <= i < |ss| :: StmtReturns(ss[i]) {
        var i :| 0 <= i < |ss| && StmtReturns(ss[i]);
        if i > 0 { assert StmtReturns(ss[1..][i - 1]); }
      }
    }
  }

  /*
   * Path semantics. Tests may go either way, a loop may run zero times,
   * a `with` runs its body, a `try` may leave through its body or any
   * handler, and a nested definition only binds a name. "Falls" means some
   * run reaches the end of the code without executing a `return`.
   */

  predicate SmallsFall(ss: seq<Small>)
  {
    forall i | 0 <= i < |ss| :: !ss[i].Return?
  }

  predicate StmtFalls(s: Stmt)
  {
    match s
    case Line(smalls) => SmallsFall(smalls)
    case If(_, body, orelse) => BlockFalls(body) || OrElseFalls(orelse)
    case For(_, _, _, _) => true
    case While(_, _) => true
    case With(_, body, _) => BlockFalls(body)
    case Try(body, handlers) => BlockFalls(body) || SomeBlockFalls(handlers)
    case Def(_, _, _, _, _) => true
    case Class(_, _, _) => true
  }

  /** A statement sequence falls through when every statement in it does. */
  predicate StmtsFall(ss: seq<Stmt>)
  {
    ss == [] || (StmtFalls(ss[0]) && StmtsFall(ss[1..]))
  }

  predicate BlockFalls(b: Block)
  {
    match b
    case Indented(stmts) => StmtsFall(stmts)
    case Inline(smalls) => SmallsFall(smalls)
  }

  predicate SomeBlockFalls(bs: seq<Block>)
  {
    bs != [] && (BlockFalls(bs[0]) || SomeBlockFalls(bs[1..]))
  }

  /** A missing `else` is an empty branch, which falls through. */
  predicate OrElseFalls(o: OrElse)
  {
    match o
    case NoElse => true
    case Else(b) => BlockFalls(b)
    case Elif(s) => StmtFalls(s)
  }

  /** The code holds no `with` and no `try` statement outside nested definitions. */
  predicate StmtPlain(s: Stmt)
  {
    match s
    case Line(_) => true
    case If(_, body, orelse) => BlockPlain(body) && OrElsePlain(orelse)
    case For(_, _, body, _) => BlockPlain(body)
    case While(_, body) => BlockPlain(body)
    case With(_, _, _) => false
    case Try(_, _) => false
    case Def(_, _, _, _, _) => true
    case Class(_, _, _) => true
  }

  predicate StmtsPlain(ss: seq<Stmt>)
  {
    ss == [] || (StmtPlain(ss[0]) && StmtsPlain(ss[1..]))
  }

  predicate BlockPlain(b: Block)
  {
    match b
    case Indented(stmts) => StmtsPlain(stmts)
    case Inline(_) => true
  }

  predicate OrElsePlain(o: OrElse)
  {
    match o
    case NoElse => true
    case Else(b) => BlockPlain(b)
    case Elif(s) => StmtPlain(s)
  }

  lemma {:induction false} SmallsClassified(ss: seq<Small>)
    ensures SmallsReturn(ss) <==> !SmallsFall(ss)
  {
    SmallsReturnIff(ss);
  }

  /**
   * The classifier is sound for the path semantics: a statement it marks
   * as returning has no run that falls off its end. It is exact for code
   * without `with` and `try`, which it never credits.
   */
  lemma {:induction false} StmtClassified(s: Stmt)
    ensures StmtReturns(s) ==> !StmtFalls(s)
    ensures StmtPlain(s) ==> (StmtReturns(s) <==> !StmtFalls(s))
    decreases s, 1
  {
    match s
    case Line(smalls) => SmallsClassified(smalls);
    case If(_, body, orelse) =>
      BlockClassified(body);
      OrElseClassified(orelse);
    case _ =>
  }

  lemma {:induction false} StmtsClassified(ss: seq<Stmt>)
    ensures StmtsReturn(ss) ==> !StmtsFall(ss)
    ensures StmtsPlain(ss) ==> (StmtsReturn(ss) <==> !StmtsFall(ss))
    decreases ss, 1
  {
    if ss != [] {
      StmtClassified(ss[0]);
      StmtsClassified(ss[1..]);
    }
  }

  lemma {:induction false} BlockClassified(b: Block)
    ensures BlockReturns(b) ==> !BlockFalls(b)
    ensures BlockPlain(b) ==> (BlockReturns(b) <==> !BlockFalls(b))
    decreases b, 1
  {
    match b
    case Indented(stmts) => StmtsClassified(stmts);
    case Inline(smalls) => SmallsClassified(smalls);
  }

  lemma {:induction false} OrElseClassified(o: OrElse)
    ensures OrElseReturns(o) ==> !OrElseFalls(o)
    ensures OrElsePlain(o) ==> (OrElseReturns(o) <==> !OrElseFalls(o))
    decreases o, 1
  {
    match o
    case NoElse =>
    case Else(b) => BlockClassified(b);
    case Elif(s) => StmtClassified(s);
  }

  /** A `with` whose body always returns is not credited: the classifier is incomplete there. */
  lemma WithNotCredited()
    ensures var s := With([], Inline([Return(Results.None)]), false);
            !StmtReturns(s) && !StmtFalls(s)
  {
    var ss := [Return(Results.None)];
    assert ss[0].Return?;
  }
}

=== FILE: remove_asserts.dfy ===
/**
 * The `remove_asserts` pass of `passes/remove_asserts.py`: a node replacer
 * keyed by node type whose only entry maps `Assert` to `Pass`, so every
 * `assert` statement, at any depth, becomes `pass`; the environment and
 * the metadata are handed on as they are.
 */
module RemoveAsserts {
  import opened Results
  import opened Syntax
  import opened Traversal

  /** The replacement of one small statement. */
  function StripSmall(s: Small): (r: Small)
    ensures !r.Assert?
    ensures s.Assert? <==> r != s
  {
    if s.Assert? then Pass else s
  }

  /** Every small statement stripped, in order. */
  function StripAll(ss: seq<Small>): (r: seq<Small>)
    ensures |r| == |ss|
    ensures forall i | 0 <= i < |ss| :: r[i] == StripSmall(ss[i])
  {
    seq(|ss|, i requires 0 <= i < |ss| => StripSmall(ss[i]))
  }

  lemma StripAllAppend(a: seq<Small>, b: seq<Small>)
    ensures StripAll(a + b) == StripAll(a) + StripAll(b)
  {
    assert forall i | 0 <= i < |a + b| :: StripAll(a + b)[i] == (StripAll(a) + StripAll(b))[i];
  }

  /** No small statement among `ss` is an `assert`. */
  predicate NoAsserts(ss: seq<Small>)
  {
    forall i | 0 <= i < |ss| :: !ss[i].Assert?
  }

  lemma NoAssertsSplit(a: seq<Small>, b: seq<Small>)
    ensures NoAsserts(a + b) ==> NoAsserts(a) && NoAsserts(b)
  {
    if NoAsserts(a + b) {
      forall i | 0 <= i < |b|
        ensures !b[i].Assert?
      {
        assert (a + b)[|a| + i] == b[i];
      }
      forall i | 0 <= i < |a|
        ensures !a[i].Assert?
      {
        assert (a + b)[i] == a[i];
      }
    }
  }

  /** Stripping changes nothing exactly when there is no `assert`. */
  lemma StripAllUnchanged(ss: seq<Small>)
    ensures StripAll(ss) == ss <==> NoAsserts(ss)
  {
    if StripAll(ss) == ss {
      assert forall i | 0 <= i < |ss| :: StripSmall(ss[i]) == ss[i];
    }
  }

  /** `AssertRemover().visit(tree)` */
  function RemoveStmt(s: Stmt): (r: Stmt)
    ensures StmtSmalls(r) == StripAll(StmtSmalls(s))
    ensures NoAsserts(StmtSmalls(s)) ==> r == s
    decreases s, 1
  {
    match s
    case Line(smalls) => Line(RemoveSmalls(smalls))
    case If(test, body, orelse) =>
      var r := If(test, RemoveBlock(body), RemoveOrElse(orelse));
      StripAllAppend(BlockSmalls(body), OrElseSmalls(orelse));
      NoAssertsSplit(BlockSmalls(body), OrElseSmalls(orelse));
      r
    case For(target, iter, body, isAsync) => For(target, iter, RemoveBlock(body), isAsync)
    case While(test, body) => While(test, RemoveBlock(body))
    case With(items, body, isAsync) => With(items, RemoveBlock(body), isAsync)
    case Try(body, handlers) =>
      var r := Try(RemoveBlock(body), RemoveBlocks(handlers));
      StripAllAppend(BlockSmalls(body), BlocksSmalls(handlers));
      NoAssertsSplit(BlockSmalls(body), BlocksSmalls(handlers));
      r
    case Def(name, params, decorators, body, isAsync) => Def(name, params, decorators, RemoveBlock(body), isAsync)
    case Class(name, decorators, body) => Class(name, decorators, RemoveBlock(body))
  }

  function RemoveSmalls(ss: seq<Small>): (r: seq<Small>)
    ensures r == StripAll(ss)
    ensures NoAsserts(ss) ==> r == ss
  {
    StripAllUnchanged(ss);
    StripAll(ss)
  }

  function RemoveStmts(ss: seq<Stmt>): (r: seq<Stmt>)
    ensures StmtsSmalls(r) == StripAll(StmtsSmalls(ss))
    ensures NoAsserts(StmtsSmalls(ss)) ==> r == ss
    decreases ss, 0
  {
    if ss == [] then []
    else
      var r := [RemoveStmt(ss[0])] + RemoveStmts(ss[1..]);
      assert r[1..] == RemoveStmts(ss[1..]);
      StripAllAppend(StmtSmalls(ss[0]), StmtsSmalls(ss[1..]));
      NoAssertsSplit(StmtSmalls(ss[0]), StmtsSmalls(ss[1..]));
      r
  }

  function RemoveBlock(b: Block): (r: Block)
    ensures BlockSmalls(r) == StripAll(BlockSmalls(b))
    ensures NoAsserts(BlockSmalls(b)) ==> r == b
    decreases b, 2
  {
    match b
    case Indented(stmts) => Indented(RemoveStmts(stmts))
    case Inline(smalls) => Inline(RemoveSmalls(smalls))
  }

  function RemoveBlocks(bs: seq<Block>): (r: seq<Block>)
    ensures BlocksSmalls(r) == StripAll(BlocksSmalls(bs))
    ensures NoAsserts(BlocksSmalls(bs)) ==> r == bs
    decreases bs, 0
  {
    if bs == [] then []
    else
      var r := [RemoveBlock(bs[0])] + RemoveBlocks(bs[1..]);
      assert r[1..] == RemoveBlocks(bs[1..]);
      StripAllAppend(BlockSmalls(bs[0]), BlocksSmalls(bs[1..]));
      NoAssertsSplit(BlockSmalls(bs[0]), BlocksSmalls(bs[1..]));
      r
  }

  function RemoveOrElse(o: OrElse): (r: OrElse)
    ensures OrElseSmalls(r) == StripAll(OrElseSmalls(o))
    ensures NoAsserts(OrElseSmalls(o)) ==> r == o
    decreases o, 2
  {
    match o
    case NoElse => NoElse
    case Else(b) => Else(RemoveBlock(b))
    case Elif(s) => Elif(RemoveStmt(s))
  }

  /** The pass: the tree rewritten, the environment and metadata unchanged. */
  function RemoveAssertsPass<E, M>(tree: Stmt, env: E, metadata: M): (r: (Stmt, E, M))
    ensures NoAsserts(StmtSmalls(r.0))
    ensures r.1 == env && r.2 == metadata
  {
    (RemoveStmt(tree), env, metadata)
  }

  /** The remover changes a tree exactly when the tree has an `assert`; so it is idempotent. */
  lemma RemoveUnchanged(s: Stmt)
    ensures RemoveStmt(s) == s <==> NoAsserts(StmtSmalls(s))
    ensures RemoveStmt(RemoveStmt(s)) == RemoveStmt(s)
  {
    StripAllUnchanged(StmtSmalls(s));
    StripAllUnchanged(StmtSmalls(RemoveStmt(s)));
  }

  lemma AssertLine(c: Expr)
    ensures RemoveStmt(Line([Assert(c)])) == Line([Pass])
    ensures RemoveStmts([Line([Assert(c)])]) == [Line([Pass])]
  {
    assert [Assert(c)][1..] == [];
    assert [Line([Assert(c)])][1..] == [];
  }

  /**
   * The asserts of a function body, inside an `if`, inside a `for` and at
   * the top level, all become `pass`.
   */
  lemma RemoveExample()
    ensures
      var range := Call(LoadName("range"), [Lit("10")], []);
      var foo := Def("foo", [], [], Indented([
        If(Lit("True"), Indented([Line([Assert(Lit("False"))])]), NoElse),
        For(StoreName("i"), range, Indented([Line([Assert(Compare(LoadName("i"), Eq, Lit("0")))])]), false),
        Line([Assert(LoadName("name_error"))])]), false);
      RemoveStmt(foo) == Def("foo", [], [], Indented([
        If(Lit("True"), Indented([Line([Pass])]), NoElse),
        For(StoreName("i"), range, Indented([Line([Pass])]), false),
        Line([Pass])]), false)
  {
    var range := Call(LoadName("range"), [Lit("10")], []);
    var s1 := If(Lit("True"), Indented([Line([Assert(Lit("False"))])]), NoElse);
    var s2 := For(StoreName("i"), range, Indented([Line([Assert(Compare(LoadName("i"), Eq, Lit("0")))])]), false);
    var s3 := Line([Assert(LoadName("name_error"))]);
    AssertLine(Lit("False"));
    AssertLine(Compare(LoadName("i"), Eq, Lit("0")));
    AssertLine(LoadName("name_error"));
    var body := [s1, s2, s3];
    var p1 := If(Lit("True"), Indented([Line([Pass])]), NoElse);
    var p2 := For(StoreName("i"), range, Indented([Line([Pass])]), false);
    var p3 := Line([Pass]);
    assert RemoveStmt(s1) == p1;
    assert RemoveStmt(s2) == p2;
    RemoveStmtsThree(s1, s2, s3);
    RemoveDefBody("foo", Indented(body));
    assert RemoveBlock(Indented(body)) == Indented([p1, p2, p3]);
  }

  /** The remover on a three-statement body rewrites each statement. */
  lemma RemoveStmtsThree(a: Stmt, b: Stmt, c: Stmt)
    ensures RemoveStmts([a, b, c]) == [RemoveStmt(a), RemoveStmt(b), RemoveStmt(c)]
  {
    RemoveStmtsCons(c, []);
    RemoveStmtsCons(b, [c]);
    RemoveStmtsCons(a, [b, c]);
    assert [a, b, c] == [a] + [b, c] && [b, c] == [b] + [c] && [c] == [c] + [];
  }

  /** On a plain function definition the remover rewrites the body only. */
  lemma RemoveDefBody(name: string, body: Block)
    ensures RemoveStmt(Def(name, [], [], body, false)) == Def(name, [], [], RemoveBlock(body), false)
  {
  }

  lemma RemoveStmtsCons(s: Stmt, t: seq<Stmt>)
    ensures RemoveStmts([s] + t) == [RemoveStmt(s)] + RemoveStmts(t)
  {
    assert ([s] + t)[1..] == t;
  }
}

=== FILE: renamer.dfy ===
/**
 * `Renamer` of `transformers/renamer.py`: every `Name` takes the
 * identifier the name map gives it, keeping its context; a name the map
 * lacks keeps its identifier and is entered into the map as mapping to
 * itself (`setdefault`), so the map grows as the tree is visited.
 */
module Renamer {
  import opened Results
  import opened Syntax
  import opened Traversal
  import opened NodeReplacer

  type NameMap = map<string, string>

  /** `m` with every name of `names` it lacks mapped to itself. */
  function Extend(m: NameMap, names: set<string>): (r: NameMap)
    ensures r.Keys == m.Keys + names
  {
    map n | n in m.Keys + names :: if n in m then m[n] else n
  }

  /** `big` agrees with `small` on every key of `small`. */
  predicate Extends(big: NameMap, small: NameMap)
  {
    forall n | n in small :: n in big && big[n] == small[n]
  }

  /** `Renamer.visit_Name`: `setdefault` and a fresh node with the same context. */
  function RenameName(id: string, ctx: Ctx, m: NameMap): (r: (Expr, NameMap))
    ensures r.1 == Extend(m, {id})
    ensures r.0 == Name(r.1[id], ctx)
    ensures id in m ==> r.0.id == m[id]
    ensures id !in m ==> r.0.id == id
  {
    var m' := if id in m then m else m[id := id];
    (Name(m'[id], ctx), m')
  }

  /** `Renamer.visit` on an expression, threading the map in visiting order. */
  function RenameExpr(e: Expr, m: NameMap): (Expr, NameMap)
  {
    match e
    case Name(id, ctx) => RenameName(id, ctx, m)
    case Attr(owner, f) =>
      var (o, m1) := RenameExpr(owner, m); (Attr(o, f), m1)
    case Unary(op, x) =>
      var (x', m1) := RenameExpr(x, m); (Unary(op, x'), m1)
    case BoolOp(op, vs) =>
      var (vs', m1) := RenameExprs(vs, m); (BoolOp(op, vs'), m1)
    case BinOp(l, op, r) =>
      var (l', m1) := RenameExpr(l, m);
      var (r', m2) := RenameExpr(r, m1);
      (BinOp(l', op, r'), m2)
    case Compare(l, op, r) =>
      var (l', m1) := RenameExpr(l, m);
      var (r', m2) := RenameExpr(r, m1);
      (Compare(l', op, r'), m2)
    case IfExp(t, b, o) =>
      var (t', m1) := RenameExpr(t, m);
      var (b', m2) := RenameExpr(b, m1);
      var (o', m3) := RenameExpr(o, m2);
      (IfExp(t', b', o'), m3)
    case Call(f, args, kws) =>
      var (f', m1) := RenameExpr(f, m);
      var (args', m2) := RenameExprs(args, m1);
      var (kws', m3) := RenameKeywords(kws, m2);
      (Call(f', args', kws'), m3)
    case Tuple(elts) =>
      var (elts', m1) := RenameExprs(elts, m); (Tuple(elts'), m1)
    case Lit(_) => (e, m)
  }

  function RenameExprs(es: seq<Expr>, m: NameMap): (r: (seq<Expr>, NameMap))
    ensures |r.0| == |es|
  {
    if es == [] then ([], m)
    else
      var (e', m1) := RenameExpr(es[0], m);
      var (rest, m2) := RenameExprs(es[1..], m1);
      ([e'] + rest, m2)
  }

  function RenameKeywords(ks: seq<Keyword>, m: NameMap): (r: (seq<Keyword>, NameMap))
    ensures |r.0| == |ks|
  {
    if ks == [] then ([], m)
    else
      var (v, m1) := RenameExpr(ks[0].value, m);
      var (rest, m2) := RenameKeywords(ks[1..], m1);
      ([Keyword(ks[0].arg, v)] + rest, m2)
  }

  // ---------------------------------------------------------------------
  // Closed forms: the final map, and the renamed tree as a replacement
  // ---------------------------------------------------------------------

  lemma ExtendTwice(m: NameMap, a: set<string>, b: set<string>)
    ensures Extend(Extend(m, a), b) == Extend(m, a + b)
  {
  }

  lemma NodeNamesCons(e: Expr, rest: seq<Expr>)
    requires !e.Name?
    ensures NodeNames([e] + rest) == NodeNames(rest)
  {
    NodeNamesAppend([e], rest);
  }

  /**
   * The map after renaming an expression is the map before it with every
   * name of the expression that it lacked mapped to itself.
   */
  lemma {:induction false} RenameExprMap(e: Expr, m: NameMap)
    ensures RenameExpr(e, m).1 == Extend(m, NodeNames(ExprNodes(e)))
    decreases e, 2
  {
    match e
    case Name(id, _) =>
      assert NodeNames(ExprNodes(e)) == {id} by {
        assert ExprNodes(e) == [e];
      }
    case Attr(owner, _) =>
      RenameExprMap(owner, m);
      NodeNamesCons(e, ExprNodes(owner));
    case Unary(_, x) =>
      RenameExprMap(x, m);
      NodeNamesCons(e, ExprNodes(x));
    case BoolOp(_, vs) =>
      RenameExprsMap(vs, m);
      NodeNamesCons(e, ExprsNodes(vs));
    case BinOp(l, _, r) => RenamePairMap(e, l, r, m);
    case Compare(l, _, r) => RenamePairMap(e, l, r, m);
    case IfExp(_, _, _) => RenameIfExpMap(e, m);
    case Call(_, _, _) => RenameCallMap(e, m);
    case Tuple(elts) =>
      RenameExprsMap(elts, m);
      NodeNamesCons(e, ExprsNodes(elts));
    case Lit(_) =>
      NodeNamesCons(e, []);
  }

  /** A binary operation or comparison: the left operand's map is handed to the right one. */
  lemma {:induction false} RenamePairMap(e: Expr, l: Expr, r: Expr, m: NameMap)
    requires (e.BinOp? && e.left == l && e.right == r) || (e.Compare? && e.lhs == l && e.rhs == r)
    ensures RenameExpr(e, m).1 == Extend(m, NodeNames(ExprNodes(e)))
    decreases e, 1
  {
    var m1 := RenameExpr(l, m).1;
    assert RenameExpr(e, m).1 == RenameExpr(r, m1).1;
    assert ExprNodes(e) == [e] + (ExprNodes(l) + ExprNodes(r));
    RenameExprMap(l, m);
    RenameExprMap(r, m1);
    ExtendTwice(m, NodeNames(ExprNodes(l)), NodeNames(ExprNodes(r)));
    NodeNamesAppend(ExprNodes(l), ExprNodes(r));
    NodeNamesCons(e, ExprNodes(l) + ExprNodes(r));
  }

  lemma {:induction false} RenameIfExpMap(e: Expr, m: NameMap)
    requires e.IfExp?
    ensures RenameExpr(e, m).1 == Extend(m, NodeNames(ExprNodes(e)))
    decreases e, 1
  {
    var t, b, o := e.test, e.body, e.orelse;
    var m1 := RenameExpr(t, m).1;
    var m2 := RenameExpr(b, m1).1;
    assert RenameExpr(e, m).1 == RenameExpr(o, m2).1;
    assert ExprNodes(e) == [e] + (ExprNodes(t) + ExprNodes(b) + ExprNodes(o));
    RenameExprMap(t, m);
    RenameExprMap(b, m1);
    RenameExprMap(o, m2);
    ExtendTwice(m, NodeNames(ExprNodes(t)), NodeNames(ExprNodes(b)));
    ExtendTwice(m, NodeNames(ExprNodes(t)) + NodeNames(ExprNodes(b)), NodeNames(ExprNodes(o)));
    NodeNamesAppend(ExprNodes(t), ExprNodes(b));
    NodeNamesAppend(ExprNodes(t) + ExprNodes(b), ExprNodes(o));
    NodeNamesCons(e, ExprNodes(t) + ExprNodes(b) + ExprNodes(o));
  }

  lemma {:induction false} RenameCallMap(e: Expr, m: NameMap)
    requires e.Call?
    ensures RenameExpr(e, m).1 == Extend(m, NodeNames(ExprNodes(e)))
    decreases e, 1
  {
    var f, args, kws := e.func, e.args, e.keywords;
    var m1 := RenameExpr(f, m).1;
    var m2 := RenameExprs(args, m1).1;
    assert RenameExpr(e, m).1 == RenameKeywords(kws, m2).1;
    assert ExprNodes(e) == [e] + (ExprNodes(f) + ExprsNodes(args) + KeywordsNodes(kws));
    RenameExprMap(f, m);
    RenameExprsMap(args, m1);
    RenameKeywordsMap(kws, m2);
    ExtendTwice(m, NodeNames(ExprNodes(f)), NodeNames(ExprsNodes(args)));
    ExtendTwice(m, NodeNames(ExprNodes(f)) + NodeNames(ExprsNodes(args)), NodeNames(KeywordsNodes(kws)));
    NodeNamesAppend(ExprNodes(f), ExprsNodes(args));
    NodeNamesAppend(ExprNodes(f) + ExprsNodes(args), KeywordsNodes(kws));
    NodeNamesCons(e, ExprNodes(f) + ExprsNodes(args) + KeywordsNodes(kws));
  }

  lemma {:induction false} RenameExprsMap(es: seq<Expr>, m: NameMap)
    ensures RenameExprs(es, m).1 == Extend(m, NodeNames(ExprsNodes(es)))
    decreases es, 0
  {
    if es != [] {
      RenameExprMap(es[0], m);
      RenameExprsMap(es[1..], RenameExpr(es[0], m).1);
      ExtendTwice(m, NodeNames(ExprNodes(es[0])), NodeNames(ExprsNodes(es[1..])));
      NodeNamesAppend(ExprNodes(es[0]), ExprsNodes(es[1..]));
    }
  }

  lemma {:induction false} RenameKeywordsMap(ks: seq<Keyword>, m: NameMap)
    ensures RenameKeywords(ks, m).1 == Extend(m, NodeNames(KeywordsNodes(ks)))
    decreases ks, 0
  {
    if ks != [] {
      RenameExprMap(ks[0].value, m);
      RenameKeywordsMap(ks[1..], RenameExpr(ks[0].value, m).1);
      ExtendTwice(m, NodeNames(ExprNodes(ks[0].value)), NodeNames(KeywordsNodes(ks[1..])));
      NodeNamesAppend(ExprNodes(ks[0].value), KeywordsNodes(ks[1..]));
    }
  }

  /** Every node is its own key, as with the structural keys of the library. */
  function SelfKey(e: Expr): Option<Expr>
  {
    Some(e)
  }

  /** Each `Name` among `nodes` whose identifier `m` maps, to its renamed node. */
  function RenameTable(m: NameMap, nodes: seq<Expr>): (t: map<Expr, Expr>)
    ensures forall x | x in t :: x.Name? && x.id in m && t[x] == Name(m[x.id], x.ctx)
    ensures forall x | x in nodes && x.Name? && x.id in m :: x in t
  {
    map x | x in nodes && x.Name? && x.id in m :: Name(m[x.id], x.ctx)
  }

  lemma ExtendsTrans(a: NameMap, b: NameMap, c: NameMap)
    requires Extends(a, b) && Extends(b, c)
    ensures Extends(a, c)
  {
  }

  /** The map only grows: renaming never changes an existing entry. */
  lemma RenameExprGrows(e: Expr, m: NameMap)
    ensures Extends(RenameExpr(e, m).1, m)
  {
    RenameExprMap(e, m);
  }

  lemma RenameExprsGrows(es: seq<Expr>, m: NameMap)
    ensures Extends(RenameExprs(es, m).1, m)
  {
    RenameExprsMap(es, m);
  }

  lemma RenameKeywordsGrows(ks: seq<Keyword>, m: NameMap)
    ensures Extends(RenameKeywords(ks, m).1, m)
  {
    RenameKeywordsMap(ks, m);
  }

  /**
   * The threaded renaming equals a replacement of every `Name` node by the
   * same name under the final map, context kept: since entries are never
   * changed, the map at each visit already agrees with the final one.
   */
  lemma {:induction false} RenameExprReplaces(e: Expr, m: NameMap, final: NameMap, nodes: seq<Expr>)
    requires Extends(final, RenameExpr(e, m).1)
    requires forall x | x in ExprNodes(e) :: x in nodes
    ensures RenameExpr(e, m).0 == ReplaceExpr(e, SelfKey, RenameTable(final, nodes))
    decreases e, 2
  {
    assert e in ExprNodes(e);
    match e
    case Name(id, ctx) =>
    case Attr(owner, _) =>
      RenameExprReplaces(owner, m, final, nodes);
    case Unary(_, x) =>
      RenameExprReplaces(x, m, final, nodes);
    case BoolOp(_, vs) =>
      RenameExprsReplaces(vs, m, final, nodes);
    case BinOp(l, _, r) => RenamePairReplaces(e, l, r, m, final, nodes);
    case Compare(l, _, r) => RenamePairReplaces(e, l, r, m, final, nodes);
    case IfExp(_, _, _) => RenameIfExpReplaces(e, m, final, nodes);
    case Call(_, _, _) => RenameCallReplaces(e, m, final, nodes);
    case Tuple(elts) =>
      RenameExprsReplaces(elts, m, final, nodes);
    case Lit(_) =>
  }

  lemma {:induction false} RenamePairReplaces(e: Expr, l: Expr, r: Expr, m: NameMap, final: NameMap, nodes: seq<Expr>)
    requires (e.BinOp? && e.left == l && e.right == r) || (e.Compare? && e.lhs == l && e.rhs == r)
    requires Extends(final, RenameExpr(e, m).1)
    requires forall x | x in ExprNodes(e) :: x in nodes
    ensures RenameExpr(e, m).0 == ReplaceExpr(e, SelfKey, RenameTable(final, nodes))
    decreases e, 1
  {
    var t := RenameTable(final, nodes);
    var m1 := RenameExpr(l, m).1;
    assert ExprNodes(e) == [e] + (ExprNodes(l) + ExprNodes(r));
    assert e !in t;
    assert RenameExpr(e, m).1 == RenameExpr(r, m1).1;
    RenameExprGrows(r, m1);
    ExtendsTrans(final, RenameExpr(r, m1).1, m1);
    RenameExprReplaces(l, m, final, nodes);
    RenameExprReplaces(r, m1, final, nodes);
  }

  /** A conditional expression is renamed part by part, the map threaded from the test to the orelse. */
  lemma RenameIfExpStep(e: Expr, m: NameMap)
    requires e.IfExp?
    ensures var m1 := RenameExpr(e.test, m).1;
      var m2 := RenameExpr(e.body, m1).1;
      RenameExpr(e, m) == (IfExp(RenameExpr(e.test, m).0, RenameExpr(e.body, m1).0, RenameExpr(e.orelse, m2).0), RenameExpr(e.orelse, m2).1)
  {
  }

  lemma {:induction false} RenameIfExpReplaces(e: Expr, m: NameMap, final: NameMap, nodes: seq<Expr>)
    requires e.IfExp?
    requires Extends(final, RenameExpr(e, m).1)
    requires forall x | x in ExprNodes(e) :: x in nodes
    ensures RenameExpr(e, m).0 == ReplaceExpr(e, SelfKey, RenameTable(final, nodes))
    decreases e, 1
  {
    var t := RenameTable(final, nodes);
    var t0, b, o := e.test, e.body, e.orelse;
    var m1 := RenameExpr(t0, m).1;
    var m2 := RenameExpr(b, m1).1;
    IfExpNodes(e);
    assert e !in t;
    RenameIfExpStep(e, m);
    ReplaceIfExpStep(e, SelfKey, t);
    RenameExprGrows(o, m2);
    RenameExprGrows(b, m1);
    ExtendsTrans(final, RenameExpr(o, m2).1, m2);
    ExtendsTrans(final, m2, m1);
    RenameExprReplaces(t0, m, final, nodes);
    RenameExprReplaces(b, m1, final, nodes);
    RenameExprReplaces(o, m2, final, nodes);
  }

  lemma {:induction false} RenameCallReplaces(e: Expr, m: NameMap, final: NameMap, nodes: seq<Expr>)
    requires e.Call?
    requires Extends(final, RenameExpr(e, m).1)
    requires forall x | x in ExprNodes(e) :: x in nodes
    ensures RenameExpr(e, m).0 == ReplaceExpr(e, SelfKey, RenameTable(final, nodes))
    decreases e, 1
  {
    var t := RenameTable(final, nodes);
    var f, args, kws := e.func, e.args, e.keywords;
    var m1 := RenameExpr(f, m).1;
    var m2 := RenameExprs(args, m1).1;
    assert ExprNodes(e) == [e] + (ExprNodes(f) + ExprsNodes(args) + KeywordsNodes(kws));
    assert e !in t;
    assert RenameExpr(e, m).1 == RenameKeywords(kws, m2).1;
    RenameKeywordsGrows(kws, m2);
    RenameExprsGrows(args, m1);
    ExtendsTrans(final, RenameKeywords(kws, m2).1, m2);
    ExtendsTrans(final, m2, m1);
    RenameExprReplaces(f, m, final, nodes);
    RenameExprsReplaces(args, m1, final, nodes);
    RenameKeywordsReplaces(kws, m2, final, nodes);
  }

  lemma {:induction false} RenameExprsReplaces(es: seq<Expr>, m: NameMap, final: NameMap, nodes: seq<Expr>)
    requires Extends(final, RenameExprs(es, m).1)
    requires forall x | x in ExprsNodes(es) :: x in nodes
    ensures RenameExprs(es, m).0 == ReplaceExprs(es, SelfKey, RenameTable(final, nodes))
    decreases es, 0
  {
    if es != [] {
      var m1 := RenameExpr(es[0], m).1;
      RenameExprsGrows(es[1..], m1);
      ExtendsTrans(final, RenameExprs(es[1..], m1).1, m1);
      RenameExprReplaces(es[0], m, final, nodes);
      RenameExprsReplaces(es[1..], m1, final, nodes);
    }
  }

  lemma {:induction false} RenameKeywordsReplaces(ks: seq<Keyword>, m: NameMap, final: NameMap, nodes: seq<Expr>)
    requires Extends(final, RenameKeywords(ks, m).1)
    requires forall x | x in KeywordsNodes(ks) :: x in nodes
    ensures RenameKeywords(ks, m).0 == ReplaceKeywords(ks, SelfKey, RenameTable(final, nodes))
    decreases ks, 0
  {
    if ks != [] {
      var m1 := RenameExpr(ks[0].value, m).1;
      RenameKeywordsGrows(ks[1..], m1);
      ExtendsTrans(final, RenameKeywords(ks[1..], m1).1, m1);
      RenameExprReplaces(ks[0].value, m, final, nodes);
      RenameKeywordsReplaces(ks[1..], m1, final, nodes);
    }
  }

  // ---------------------------------------------------------------------
  // `Renamer(name_map).visit(tree)`
  // ---------------------------------------------------------------------

  /**
   * Renaming a tree: statements are entered, so the map is threaded
   * through the tree's expressions in visiting order; every `Name` node is
   * renamed under the final map. Parameters and definition names are
   * strings, not `Name` nodes, and keep their identifiers.
   */
  function Rename(tree: Stmt, m: NameMap): (r: (Stmt, NameMap))
    ensures r.1 == Extend(m, NodeNames(TreeNodes(tree)))
    ensures StmtExprs(r.0) == RenameExprs(StmtExprs(tree), m).0
  {
    var final := RenameExprs(StmtExprs(tree), m).1;
    RenameExprsMap(StmtExprs(tree), m);
    RenameExprsReplaces(StmtExprs(tree), m, final, TreeNodes(tree));
    StmtExprsReplaced(tree, SelfKey, RenameTable(final, TreeNodes(tree)));
    (ReplaceStmt(tree, SelfKey, RenameTable(final, TreeNodes(tree))), final)
  }

  /** Renaming with a map that already covers the tree is a pure relabelling: the map is unchanged. */
  lemma RenameCovered(tree: Stmt, m: NameMap)
    requires NodeNames(TreeNodes(tree)) <= m.Keys
    ensures Rename(tree, m).1 == m
  {
  }

  /** The identity on the tree's names leaves the tree as it is. */
  lemma {:induction false} IdentityRename(e: Expr, m: NameMap)
    requires forall n | n in m :: m[n] == n
    ensures RenameExpr(e, m).0 == e
    decreases e, 2
  {
    match e
    case Name(_, _) =>
    case Attr(owner, _) => IdentityRename(owner, m);
    case Unary(_, x) => IdentityRename(x, m);
    case BoolOp(_, vs) => IdentityRenames(vs, m);
    case BinOp(l, _, r) => IdentityPair(e, l, r, m);
    case Compare(l, _, r) => IdentityPair(e, l, r, m);
    case IfExp(_, _, _) => IdentityIfExp(e, m);
    case Call(_, _, _) => IdentityCall(e, m);
    case Tuple(elts) => IdentityRenames(elts, m);
    case Lit(_) =>
  }

  lemma {:induction false} IdentityPair(e: Expr, l: Expr, r: Expr, m: NameMap)
    requires (e.BinOp? && e.left == l && e.right == r) || (e.Compare? && e.lhs == l && e.rhs == r)
    requires forall n | n in m :: m[n] == n
    ensures RenameExpr(e, m).0 == e
    decreases e, 1
  {
    IdentityRename(l, m);
    RenameExprMap(l, m);
    IdentityRename(r, RenameExpr(l, m).1);
  }

  lemma {:induction false} IdentityIfExp(e: Expr, m: NameMap)
    requires e.IfExp?
    requires forall n | n in m :: m[n] == n
    ensures RenameExpr(e, m).0 == e
    decreases e, 1
  {
    var t, b, o := e.test, e.body, e.orelse;
    var m1 := RenameExpr(t, m).1;
    RenameExprMap(t, m);
    RenameExprMap(b, m1);
    IdentityRename(t, m);
    IdentityRename(b, m1);
    IdentityRename(o, RenameExpr(b, m1).1);
  }

  lemma {:induction false} IdentityCall(e: Expr, m: NameMap)
    requires e.Call?
    requires forall n | n in m :: m[n] == n
    ensures RenameExpr(e, m).0 == e
    decreases e, 1
  {
    var f, args, kws := e.func, e.args, e.keywords;
    var m1 := RenameExpr(f, m).1;
    RenameExprMap(f, m);
    RenameExprsMap(args, m1);
    IdentityRename(f, m);
    IdentityRenames(args, m1);
    IdentityKeywords(kws, RenameExprs(args, m1).1);
  }

  lemma {:induction false} IdentityRenames(es: seq<Expr>, m: NameMap)
    requires forall n | n in m :: m[n] == n
    ensures RenameExprs(es, m).0 == es
    decreases es, 0
  {
    if es != [] {
      IdentityRename(es[0], m);
      RenameExprMap(es[0], m);
      IdentityRenames(es[1..], RenameExpr(es[0], m).1);
    }
  }

  lemma {:induction false} IdentityKeywords(ks: seq<Keyword>, m: NameMap)
    requires forall n | n in m :: m[n] == n
    ensures RenameKeywords(ks, m).0 == ks
    decreases ks, 0
  {
    if ks != [] {
      IdentityRename(ks[0].value, m);
      RenameExprMap(ks[0].value, m);
      IdentityKeywords(ks[1..], RenameExpr(ks[0].value, m).1);
    }
  }
}

=== FILE: results.dfy ===
/**
 * Optional values, Python exceptions and a result type, shared by every
 * module of the model. An operation of the Python code that may raise
 * returns a `Result`; the raised exception becomes the `Err` payload.
 */
module Results {

  datatype Option<T> = None | Some(value: T)
  {
    predicate IsNone() { this.None? }
  }

  /** The Python exceptions that the modelled passes raise. */
  datatype PyError =
    | TypeError(message: string)
    | NotImplementedError(message: string)
    | SyntaxError(message: string)
    | IncompleteGuardError
    | KeyError
    | IndexError
    | AssertionError
      /** a construct the Python code walks generically but this model does not follow */
    | Unmodelled(construct: string)

  datatype Result<T> = Ok(value: T) | Err(error: PyError)
  {
    predicate IsFailure() { this.Err? }

    function PropagateFailure<U>(): Result<U>
      requires IsFailure()
    {
      Err(error)
    }

    function Extract(): T
      requires !IsFailure()
    {
      value
    }
  }
}

=== FILE: return_flattening.dfy ===
/**
 * `SingleReturn` of `passes/ssa.py` and of `passes/ssa_cst.py`: every
 * `return` of the root function (outside nested definitions and classes)
 * becomes an assignment to a fresh return name, recorded with the
 * condition stack it runs under, and one final `return` of the folded
 * guard sequence replaces them all.
 *
 * In `ssa.py` the `k`-th return also saves every aliased attribute into a
 * fresh "final" name, and the attribute write-backs are built from those
 * names. The assignments take the place of the `return` inside its line.
 *
 * The condition stacks are those of `ConditionProvider`
 * (`metadata/condition_provider.py`), which `ssa_cst.py` uses. `ssa.py`
 * asks `IncrementalConditionProvider` instead; that provider is not part
 * of this model, and the same stacks stand in for it.
 */
module ReturnFlattening {
  import opened Results
  import opened Syntax
  import opened Strings
  import opened Guards
  import Reachability
  import UsedNames
  import FreeNames

  /** An entry of `names_to_attr`: the alias standing for `owner.field`. */
  datatype Alias = Alias(name: string, owner: string, field: string)

  /**
   * The names a flattening creates: return names `ret + str(k)` and, for
   * the `k`-th return and each alias, `final + owner + "_" + field + "_" + str(k)`.
   */
  datatype Naming = Naming(ret: string, final: string, aliases: seq<Alias>)

  function ReturnName(n: Naming, k: nat): string
  {
    n.ret + Str(k)
  }

  function FinalName(n: Naming, a: Alias, k: nat): string
  {
    n.final + a.owner + "_" + a.field + "_" + Str(k)
  }

  /** The value a `return` assigns: its expression, or `None`. */
  function ReturnValue(v: Option<Expr>): Expr
  {
    if v.Some? then v.value else LoadName("None")
  }

  /** The saves of every alias at the `k`-th return, in alias order. */
  function FinalAssigns(n: Naming, k: nat): (r: seq<Small>)
    ensures |r| == |n.aliases|
    ensures forall i | 0 <= i < |r| :: r[i] == Assign([StoreName(FinalName(n, n.aliases[i], k))], LoadName(n.aliases[i].name))
  {
    seq(|n.aliases|, i requires 0 <= i < |n.aliases| => Assign([StoreName(FinalName(n, n.aliases[i], k))], LoadName(n.aliases[i].name)))
  }

  /** What the `k`-th `return v` becomes. */
  function ReturnAssigns(n: Naming, k: nat, v: Option<Expr>): seq<Small>
  {
    FinalAssigns(n, k) + [Assign([StoreName(ReturnName(n, k))], ReturnValue(v))]
  }

  /**
   * The state threaded through the walk: the condition stack of each
   * return met so far (so the next return is number `|conds|`), and the
   * rewritten blocks whose original block always returns.
   */
  datatype Acc = Acc(conds: seq<seq<Expr>>, returning: set<Block>)

  datatype Out<T> = Out(code: T, acc: Acc)

  /** The walk only adds to the state. */
  predicate Grows(a: Acc, b: Acc)
  {
    a.conds <= b.conds && a.returning <= b.returning
  }

  function FlattenSmalls(ss: seq<Small>, n: Naming, stack: seq<Expr>, acc: Acc): (r: Out<seq<Small>>)
    ensures Grows(acc, r.acc)
  {
    if ss == [] then Out([], acc)
    else
      var h := match ss[0]
        case Return(v) => Out(ReturnAssigns(n, |acc.conds|, v), acc.(conds := acc.conds + [stack]))
        case _ => Out([ss[0]], acc);
      var t := FlattenSmalls(ss[1..], n, stack, h.acc);
      Out(h.code + t.code, t.acc)
  }

  /**
   * The condition stack grows by the test inside an `if` body and by its
   * negation inside the `orelse`, as `ConditionProvider` tags them; nested
   * definitions and classes are not entered.
   */
  function FlattenStmt(s: Stmt, n: Naming, stack: seq<Expr>, acc: Acc): (r: Out<Stmt>)
    ensures Grows(acc, r.acc)
  {
    match s
    case Line(smalls) =>
      var o := FlattenSmalls(smalls, n, stack, acc);
      Out(Line(o.code), o.acc)
    case If(test, body, orelse) =>
      var b := FlattenBlock(body, n, stack + [test], acc);
      var o := FlattenOrElse(orelse, n, stack + [NotExpr(test)], b.acc);
      Out(If(test, b.code, o.code), o.acc)
    case For(target, iter, body, isAsync) =>
      var b := FlattenBlock(body, n, stack, acc);
      Out(For(target, iter, b.code, isAsync), b.acc)
    case While(test, body) =>
      var b := FlattenBlock(body, n, stack, acc);
      Out(While(test, b.code), b.acc)
    case With(items, body, isAsync) =>
      var b := FlattenBlock(body, n, stack, acc);
      Out(With(items, b.code, isAsync), b.acc)
    case Try(body, handlers) =>
      var b := FlattenBlock(body, n, stack, acc);
      var h := FlattenBlocks(handlers, n, stack, b.acc);
      Out(Try(b.code, h.code), h.acc)
    case Def(_, _, _, _, _) => Out(s, acc)
    case Class(_, _, _) => Out(s, acc)
  }

  function FlattenStmts(ss: seq<Stmt>, n: Naming, stack: seq<Expr>, acc: Acc): (r: Out<seq<Stmt>>)
    ensures Grows(acc, r.acc)
    ensures |r.code| == |ss|
  {
    if ss == [] then Out([], acc)
    else
      var h := FlattenStmt(ss[0], n, stack, acc);
      var t := FlattenStmts(ss[1..], n, stack, h.acc);
      Out([h.code] + t.code, t.acc)
  }

  /** A rewritten block is recorded when the original always returns. */
  function FlattenBlock(b: Block, n: Naming, stack: seq<Expr>, acc: Acc): (r: Out<Block>)
    ensures Grows(acc, r.acc)
    ensures Reachability.BlockReturns(b) ==> r.code in r.acc.returning
  {
    var o := match b
      case Indented(stmts) =>
        var t := FlattenStmts(stmts, n, stack, acc);
        Out(Indented(t.code), t.acc)
      case Inline(smalls) =>
        var t := FlattenSmalls(smalls, n, stack, acc);
        Out(Inline(t.code), t.acc);
    if Reachability.BlockReturns(b) then Out(o.code, o.acc.(returning := o.acc.returning + {o.code})) else o
  }

  function FlattenBlocks(bs: seq<Block>, n: Naming, stack: seq<Expr>, acc: Acc): (r: Out<seq<Block>>)
    ensures Grows(acc, r.acc)
    ensures |r.code| == |bs|
  {
    if bs == [] then Out([], acc)
    else
      var h := FlattenBlock(bs[0], n, stack, acc);
      var t := FlattenBlocks(bs[1..], n, stack, h.acc);
      Out([h.code] + t.code, t.acc)
  }

  function FlattenOrElse(o: OrElse, n: Naming, stack: seq<Expr>, acc: Acc): (r: Out<OrElse>)
    ensures Grows(acc, r.acc)
  {
    match o
    case NoElse => Out(NoElse, acc)
    case Else(b) =>
      var t := FlattenBlock(b, n, stack, acc);
      Out(Else(t.code), t.acc)
    case Elif(s) =>
      var t := FlattenStmt(s, n, stack, acc);
      Out(Elif(t.code), t.acc)
  }

  /* ----- No `return` survives outside nested definitions. ----- */

  predicate SmallsReturnFree(ss: seq<Small>)
  {
    forall i | 0 <= i < |ss| :: !ss[i].Return?
  }

  predicate StmtReturnFree(s: Stmt)
  {
    match s
    case Line(smalls) => SmallsReturnFree(smalls)
    case If(_, body, orelse) => BlockReturnFree(body) && OrElseReturnFree(orelse)
    case For(_, _, body, _) => BlockReturnFree(body)
    case While(_, body) => BlockReturnFree(body)
    case With(_, body, _) => BlockReturnFree(body)
    case Try(body, handlers) => BlockReturnFree(body) && BlocksReturnFree(handlers)
    case Def(_, _, _, _, _) => true
    case Class(_, _, _) => true
  }

  predicate StmtsReturnFree(ss: seq<Stmt>)
  {
    forall i | 0 <= i < |ss| :: StmtReturnFree(ss[i])
  }

  predicate BlockReturnFree(b: Block)
  {
    match b
    case Indented(stmts) => StmtsReturnFree(stmts)
    case Inline(smalls) => SmallsReturnFree(smalls)
  }

  predicate BlocksReturnFree(bs: seq<Block>)
  {
    forall i | 0 <= i < |bs| :: BlockReturnFree(bs[i])
  }

  predicate OrElseReturnFree(o: OrElse)
  {
    match o
    case NoElse => true
    case Else(b) => BlockReturnFree(b)
    case Elif(s) => StmtReturnFree(s)
  }

  lemma {:induction false} SmallsFlattened(ss: seq<Small>, n: Naming, stack: seq<Expr>, acc: Acc)
    ensures SmallsReturnFree(FlattenSmalls(ss, n, stack, acc).code)
  {
    if ss != [] {
      var h := match ss[0]
        case Return(v) => Out(ReturnAssigns(n, |acc.conds|, v), acc.(conds := acc.conds + [stack]))
        case _ => Out([ss[0]], acc);
      SmallsFlattened(ss[1..], n, stack, h.acc);
      var t := FlattenSmalls(ss[1..], n, stack, h.acc);
      assert SmallsReturnFree(h.code);
      assert FlattenSmalls(ss, n, stack, acc).code == h.code + t.code;
    }
  }

  lemma {:induction false} StmtFlattened(s: Stmt, n: Naming, stack: seq<Expr>, acc: Acc)
    ensures StmtReturnFree(FlattenStmt(s, n, stack, acc).code)
    decreases s, 1
  {
    match s
    case Line(smalls) => SmallsFlattened(smalls, n, stack, acc);
    case If(test, body, orelse) =>
      var b := FlattenBlock(body, n, stack + [test], acc);
      BlockFlattened(body, n, stack + [test], acc);
      OrElseFlattened(orelse, n, stack + [NotExpr(test)], b.acc);
    case For(_, _, body, _) => BlockFlattened(body, n, stack, acc);
    case While(_, body) => BlockFlattened(body, n, stack, acc);
    case With(_, body, _) => BlockFlattened(body, n, stack, acc);
    case Try(body, handlers) =>
      var b := FlattenBlock(body, n, stack, acc);
      BlockFlattened(body, n, stack, acc);
      BlocksFlattened(handlers, n, stack, b.acc);
    case Def(_, _, _, _, _) =>
    case Class(_, _, _) =>
  }

  lemma {:induction false} StmtsFlattened(ss: seq<Stmt>, n: Naming, stack: seq<Expr>, acc: Acc)
    ensures StmtsReturnFree(FlattenStmts(ss, n, stack, acc).code)
    decreases ss, 1
  {
    if ss != [] {
      var h := FlattenStmt(ss[0], n, stack, acc);
      StmtFlattened(ss[0], n, stack, acc);
      StmtsFlattened(ss[1..], n, stack, h.acc);
      var r := FlattenStmts(ss, n, stack, acc).code;
      var t := FlattenStmts(ss[1..], n, stack, h.acc).code;
      assert r == [h.code] + t;
      forall i | 0 <= i < |r| ensures StmtReturnFree(r[i]) {
        if i > 0 { assert r[i] == t[i - 1]; }
      }
    }
  }

  lemma {:induction false} BlockFlattened(b: Block, n: Naming, stack: seq<Expr>, acc: Acc)
    ensures BlockReturnFree(FlattenBlock(b, n, stack, acc).code)
    decreases b, 1
  {
    match b
    case Indented(stmts) => StmtsFlattened(stmts, n, stack, acc);
    case Inline(smalls) => SmallsFlattened(smalls, n, stack, acc);
  }

  lemma {:induction false} BlocksFlattened(bs: seq<Block>, n: Naming, stack: seq<Expr>, acc: Acc)
    ensures BlocksReturnFree(FlattenBlocks(bs, n, stack, acc).code)
    decreases bs, 1
  {
    if bs != [] {
      var h := FlattenBlock(bs[0], n, stack, acc);
      BlockFlattened(bs[0], n, stack, acc);
      BlocksFlattened(bs[1..], n, stack, h.acc);
      var r := FlattenBlocks(bs, n, stack, acc).code;
      var t := FlattenBlocks(bs[1..], n, stack, h.acc).code;
      assert r == [h.code] + t;
      forall i | 0 <= i < |r| ensures BlockReturnFree(r[i]) {
        if i > 0 { assert r[i] == t[i - 1]; }
      }
    }
  }

  lemma {:induction false} OrElseFlattened(o: OrElse, n: Naming, stack: seq<Expr>, acc: Acc)
    ensures OrElseReturnFree(FlattenOrElse(o, n, stack, acc).code)
    decreases o, 1
  {
    match o
    case NoElse =>
    case Else(b) => BlockFlattened(b, n, stack, acc);
    case Elif(s) => StmtFlattened(s, n, stack, acc);
  }

  /* ----- The inverse: turn the return assignments back into returns. ----- */

  /** The single plain-name target of an assignment, if it has one. */
  function SoleTarget(s: Small): Option<string>
  {
    if s.Assign? && |s.targets| == 1 && s.targets[0].Name? then Some(s.targets[0].id) else None
  }

  function RestoreSmalls(ss: seq<Small>, n: Naming): seq<Small>
  {
    if ss == [] then []
    else
      var t := SoleTarget(ss[0]);
      var h := if t.Some? && StartsWith(t.value, n.ret) then [Return(Some(ss[0].value))]
               else if t.Some? && StartsWith(t.value, n.final) then []
               else [ss[0]];
      h + RestoreSmalls(ss[1..], n)
  }

  function RestoreStmt(s: Stmt, n: Naming): Stmt
  {
    match s
    case Line(smalls) => Line(RestoreSmalls(smalls, n))
    case If(test, body, orelse) => If(test, RestoreBlock(body, n), RestoreOrElse(orelse, n))
    case For(target, iter, body, isAsync) => For(target, iter, RestoreBlock(body, n), isAsync)
    case While(test, body) => While(test, RestoreBlock(body, n))
    case With(items, body, isAsync) => With(items, RestoreBlock(body, n), isAsync)
    case Try(body, handlers) => Try(RestoreBlock(body, n), RestoreBlocks(handlers, n))
    case Def(_, _, _, _, _) => s
    case Class(_, _, _) => s
  }

  function RestoreStmts(ss: seq<Stmt>, n: Naming): (r: seq<Stmt>)
    ensures |r| == |ss|
  {
    if ss == [] then [] else [RestoreStmt(ss[0], n)] + RestoreStmts(ss[1..], n)
  }

  function RestoreBlock(b: Block, n: Naming): Block
  {
    match b
    case Indented(stmts) => Indented(RestoreStmts(stmts, n))
    case Inline(smalls) => Inline(RestoreSmalls(smalls, n))
  }

  function RestoreBlocks(bs: seq<Block>, n: Naming): seq<Block>
  {
    if bs == [] then [] else [RestoreBlock(bs[0], n)] + RestoreBlocks(bs[1..], n)
  }

  function RestoreOrElse(o: OrElse, n: Naming): OrElse
  {
    match o
    case NoElse => NoElse
    case Else(b) => Else(RestoreBlock(b, n))
    case Elif(s) => Elif(RestoreStmt(s, n))
  }

  /** `return` written as `return None`, outside nested definitions. */
  function ExplicitSmalls(ss: seq<Small>): (r: seq<Small>)
    ensures |r| == |ss|
  {
    if ss == [] then []
    else [if ss[0].Return? then Return(Some(ReturnValue(ss[0].result))) else ss[0]] + ExplicitSmalls(ss[1..])
  }

  function ExplicitStmt(s: Stmt): Stmt
  {
    match s
    case Line(smalls) => Line(ExplicitSmalls(smalls))
    case If(test, body, orelse) => If(test, ExplicitBlock(body), ExplicitOrElse(orelse))
    case For(target, iter, body, isAsync) => For(target, iter, ExplicitBlock(body), isAsync)
    case While(test, body) => While(test, ExplicitBlock(body))
    case With(items, body, isAsync) => With(items, ExplicitBlock(body), isAsync)
    case Try(body, handlers) => Try(ExplicitBlock(body), ExplicitBlocks(handlers))
    case Def(_, _, _, _, _) => s
    case Class(_, _, _) => s
  }

  function ExplicitStmts(ss: seq<Stmt>): seq<Stmt>
  {
    if ss == [] then [] else [ExplicitStmt(ss[0])] + ExplicitStmts(ss[1..])
  }

  function ExplicitBlock(b: Block): Block
  {
    match b
    case Indented(stmts) => Indented(ExplicitStmts(stmts))
    case Inline(smalls) => Inline(ExplicitSmalls(smalls))
  }

  function ExplicitBlocks(bs: seq<Block>): seq<Block>
  {
    if bs == [] then [] else [ExplicitBlock(bs[0])] + ExplicitBlocks(bs[1..])
  }

  function ExplicitOrElse(o: OrElse): OrElse
  {
    match o
    case NoElse => NoElse
    case Else(b) => Else(ExplicitBlock(b))
    case Elif(s) => Elif(ExplicitStmt(s))
  }

  /** Neither name prefix is a prefix of the other, so they name disjoint sets. */
  predicate Incomparable(a: string, b: string)
  {
    exists i | 0 <= i < |a| && i < |b| :: a[i] != b[i]
  }

  /** The created names can be told apart by prefix. */
  predicate Separated(n: Naming)
  {
    n.aliases == [] || Incomparable(n.ret, n.final)
  }

  lemma FinalNotReturn(n: Naming, a: Alias, k: nat)
    requires Incomparable(n.ret, n.final)
    ensures !StartsWith(FinalName(n, a, k), n.ret)
  {
    var i :| 0 <= i < |n.ret| && i < |n.final| && n.ret[i] != n.final[i];
    assert FinalName(n, a, k)[i] == n.final[i];
  }

  lemma {:induction false} RestoreAppend(a: seq<Small>, b: seq<Small>, n: Naming)
    ensures RestoreSmalls(a + b, n) == RestoreSmalls(a, n) + RestoreSmalls(b, n)
  {
    if a != [] {
      assert (a + b)[0] == a[0];
      assert (a + b)[1..] == a[1..] + b;
      RestoreAppend(a[1..], b, n);
    } else {
      assert a + b == b;
    }
  }

  /** The saves of the final names disappear. */
  lemma {:induction false} RestoreFinals(n: Naming, k: nat, j: nat)
    requires Separated(n) && j <= |n.aliases|
    ensures RestoreSmalls(FinalAssigns(n, k)[j..], n) == []
    decreases |n.aliases| - j
  {
    var f := FinalAssigns(n, k);
    if j < |f| {
      FinalNotReturn(n, n.aliases[j], k);
      var t := FinalName(n, n.aliases[j], k);
      assert StartsWith(t, n.final) by { assert t[..|n.final|] == n.final; }
      assert f[j..][0] == f[j] && f[j..][1..] == f[j + 1..];
      RestoreFinals(n, k, j + 1);
    }
  }

  lemma ReturnRestored(n: Naming, k: nat, v: Option<Expr>)
    requires Separated(n)
    ensures RestoreSmalls(ReturnAssigns(n, k, v), n) == [Return(Some(ReturnValue(v)))]
  {
    var last := Assign([StoreName(ReturnName(n, k))], ReturnValue(v));
    RestoreAppend(FinalAssigns(n, k), [last], n);
    RestoreFinals(n, k, 0);
    assert FinalAssigns(n, k)[0..] == FinalAssigns(n, k);
    assert StartsWith(ReturnName(n, k), n.ret) by { assert ReturnName(n, k)[..|n.ret|] == n.ret; }
    assert RestoreSmalls([last], n) == [Return(Some(ReturnValue(v)))] + RestoreSmalls([], n);
  }

  /** No assignment of the code targets a name with either prefix. */
  predicate Clear(names: set<string>, n: Naming)
  {
    FreeNames.PrefixFree(names, n.ret) && FreeNames.PrefixFree(names, n.final)
  }

  lemma {:induction false} SmallsRestored(ss: seq<Small>, n: Naming, stack: seq<Expr>, acc: Acc)
    requires Separated(n) && Clear(UsedNames.SmallsNames(ss), n)
    ensures RestoreSmalls(FlattenSmalls(ss, n, stack, acc).code, n) == ExplicitSmalls(ss)
  {
    if ss != [] {
      var h := match ss[0]
        case Return(v) => Out(ReturnAssigns(n, |acc.conds|, v), acc.(conds := acc.conds + [stack]))
        case _ => Out([ss[0]], acc);
      var t := FlattenSmalls(ss[1..], n, stack, h.acc);
      assert FlattenSmalls(ss, n, stack, acc).code == h.code + t.code;
      RestoreAppend(h.code, t.code, n);
      SmallsRestored(ss[1..], n, stack, h.acc);
      if ss[0].Return? {
        ReturnRestored(n, |acc.conds|, ss[0].result);
      } else {
        var x := SoleTarget(ss[0]);
        if x.Some? {
          assert x.value in UsedNames.ExprsNames(ss[0].targets) by {
            assert UsedNames.ExprsNames(ss[0].targets) == UsedNames.ExprNames(ss[0].targets[0]) + UsedNames.ExprsNames(ss[0].targets[1..]);
          }
        }
        assert RestoreSmalls([ss[0]], n) == [ss[0]] + RestoreSmalls([], n);
      }
    }
  }

  /**
   * Turning every return assignment back into a `return` and dropping the
   * attribute saves gives back the original code, with a bare `return`
   * spelt `return None`: flattening loses nothing else, provided the
   * code does not already use names with the created prefixes.
   */
  lemma {:induction false} StmtRestored(s: Stmt, n: Naming, stack: seq<Expr>, acc: Acc)
    requires Separated(n) && Clear(UsedNames.StmtNames(s), n)
    ensures RestoreStmt(FlattenStmt(s, n, stack, acc).code, n) == ExplicitStmt(s)
    decreases s, 1
  {
    match s
    case Line(smalls) => SmallsRestored(smalls, n, stack, acc);
    case If(test, body, orelse) =>
      var b := FlattenBlock(body, n, stack + [test], acc);
      BlockRestored(body, n, stack + [test], acc);
      OrElseRestored(orelse, n, stack + [NotExpr(test)], b.acc);
    case For(_, _, body, _) => BlockRestored(body, n, stack, acc);
    case While(_, body) => BlockRestored(body, n, stack, acc);
    case With(_, body, _) => BlockRestored(body, n, stack, acc);
    case Try(body, handlers) =>
      var b := FlattenBlock(body, n, stack, acc);
      BlockRestored(body, n, stack, acc);
      BlocksRestored(handlers, n, stack, b.acc);
    case Def(_, _, _, _, _) =>
    case Class(_, _, _) =>
  }

  lemma {:induction false} StmtsRestored(ss: seq<Stmt>, n: Naming, stack: seq<Expr>, acc: Acc)
    requires Separated(n) && Clear(UsedNames.StmtsNames(ss), n)
    ensures RestoreStmts(FlattenStmts(ss, n, stack, acc).code, n) == ExplicitStmts(ss)
    decreases ss, 1
  {
    if ss != [] {
      var h := FlattenStmt(ss[0], n, stack, acc);
      StmtRestored(ss[0], n, stack, acc);
      StmtsRestored(ss[1..], n, stack, h.acc);
      var r := FlattenStmts(ss, n, stack, acc).code;
      assert r[0] == h.code && r[1..] == FlattenStmts(ss[1..], n, stack, h.acc).code;
    }
  }

  lemma {:induction false} BlockRestored(b: Block, n: Naming, stack: seq<Expr>, acc: Acc)
    requires Separated(n) && Clear(UsedNames.BlockNames(b), n)
    ensures RestoreBlock(FlattenBlock(b, n, stack, acc).code, n) == ExplicitBlock(b)
    decreases b, 1
  {
    match b
    case Indented(stmts) => StmtsRestored(stmts, n, stack, acc);
    case Inline(smalls) => SmallsRestored(smalls, n, stack, acc);
  }

  lemma {:induction false} BlocksRestored(bs: seq<Block>, n: Naming, stack: seq<Expr>, acc: Acc)
    requires Separated(n) && Clear(UsedNames.BlocksNames(bs), n)
    ensures RestoreBlocks(FlattenBlocks(bs, n, stack, acc).code, n) == ExplicitBlocks(bs)
    decreases bs, 1
  {
    if bs != [] {
      var h := FlattenBlock(bs[0], n, stack, acc);
      BlockRestored(bs[0], n, stack, acc);
      BlocksRestored(bs[1..], n, stack, h.acc);
      var r := FlattenBlocks(bs, n, stack, acc).code;
      assert r[0] == h.code && r[1..] == FlattenBlocks(bs[1..], n, stack, h.acc).code;
    }
  }

  lemma {:induction false} OrElseRestored(o: OrElse, n: Naming, stack: seq<Expr>, acc: Acc)
    requires Separated(n) && Clear(UsedNames.OrElseNames(o), n)
    ensures RestoreOrElse(FlattenOrElse(o, n, stack, acc).code, n) == ExplicitOrElse(o)
    decreases o, 1
  {
    match o
    case NoElse =>
    case Else(b) => BlockRestored(b, n, stack, acc);
    case Elif(s) => StmtRestored(s, n, stack, acc);
  }

  /* ----- The whole function. ----- */

  /** The recorded `(guard, name)` pairs of the returns, in order. */
  function ReturnsSeq(n: Naming, conds: seq<seq<Expr>>): (r: seq<Guarded>)
    ensures |r| == |conds|
    ensures forall j | 0 <= j < |r| :: r[j] == Guarded(conds[j], LoadName(ReturnName(n, j)))
  {
    seq(|conds|, j requires 0 <= j < |conds| => Guarded(conds[j], LoadName(ReturnName(n, j))))
  }

  /** The state of an alias: its save at every return, then the alias itself, unguarded. */
  function AttrState(n: Naming, a: Alias, conds: seq<seq<Expr>>): (r: seq<Guarded>)
    ensures |r| == |conds| + 1 && r[|conds|] == Guarded([], LoadName(a.name))
    ensures forall j | 0 <= j < |conds| :: r[j] == Guarded(conds[j], LoadName(FinalName(n, a, j)))
  {
    seq(|conds|, j requires 0 <= j < |conds| => Guarded(conds[j], LoadName(FinalName(n, a, j))))
      + [Guarded([], LoadName(a.name))]
  }

  /** The write-back of an alias: `owner.field = <fold of its state>`. */
  function WriteBack(n: Naming, a: Alias, conds: seq<seq<Expr>>, strict: bool): Stmt
  {
    var state := AttrState(n, a, conds);
    assert state == state[..|conds|] + [Guarded([], LoadName(a.name))];
    WriteBackNeverFails(state[..|conds|], LoadName(a.name), strict);
    AssignLine(Attr(LoadName(a.owner), a.field), Fold(SimplifyGuards(state), strict).value)
  }

  function WriteBacks(n: Naming, conds: seq<seq<Expr>>, strict: bool): (r: seq<Stmt>)
    ensures |r| == |n.aliases|
    ensures forall i | 0 <= i < |r| :: r[i] == WriteBack(n, n.aliases[i], conds, strict)
  {
    seq(|n.aliases|, i requires 0 <= i < |n.aliases| => WriteBack(n, n.aliases[i], conds, strict))
  }

  /** Every name the flattening introduced. */
  function Introduced(n: Naming, k: nat): set<string>
  {
    (set j: nat | j < k :: ReturnName(n, j))
      + (set j: nat, i | j < k && 0 <= i < |n.aliases| :: FinalName(n, n.aliases[i], j))
  }

  /** The definition with its body replaced. */
  function WithBody(def: Stmt, body: Block): (r: Stmt)
    requires def.Def?
    ensures r.Def? && r.body == body
  {
    Def(def.name, def.params, def.decorators, body, def.isAsync)
  }

  datatype Flattened = Flattened(def: Stmt, tail: seq<Stmt>, added: set<string>, returning: set<Block>)

  const CannotProveReturn: string := "Cannot prove function always returns"

  /** The names `passes/ssa.py` uses: `p_return_k` and `p_final_owner_field_k` for the free prefix `p`. */
  function SsaNaming(p: string, aliases: seq<Alias>): (n: Naming)
    ensures Separated(n)
  {
    var n := Naming(p + "_return_", p + "_final_", aliases);
    assert n.ret[|p| + 1] != n.final[|p| + 1];
    n
  }

  /**
   * `SingleReturn` of `passes/ssa.py` on the root function, given the
   * prefix chosen for it: the flattened definition, and the tail holding
   * the write-back of every alias followed, when the function had any
   * return, by the one `return`.
   */
  function FlattenDef(def: Stmt, p: string, aliases: seq<Alias>, strict: bool): (r: Result<Flattened>)
    requires def.Def?
    ensures r.Err? ==> r.error == SyntaxError(CannotProveReturn)
    ensures r.Ok? ==>
      var o := FlattenBlock(def.body, SsaNaming(p, aliases), [], Acc([], {}));
      && r.value.def == WithBody(def, o.code) && BlockReturnFree(o.code)
      && |r.value.tail| == |aliases| + (if o.acc.conds == [] then 0 else 1)
      && r.value.tail[..|aliases|] == WriteBacks(SsaNaming(p, aliases), o.acc.conds, strict)
  {
    var n := SsaNaming(p, aliases);
    var o := FlattenBlock(def.body, n, [], Acc([], {}));
    BlockFlattened(def.body, n, [], Acc([], {}));
    var conds := o.acc.conds;
    var backs := WriteBacks(n, conds, strict);
    var flat := WithBody(def, o.code);
    var added := Introduced(n, |conds|);
    if conds == [] then
      assert backs[..|aliases|] == backs;
      Ok(Flattened(flat, backs, added, o.acc.returning))
    else
      match Fold(SimplifyGuards(ReturnsSeq(n, conds)), strict)
      case Err(_) => Err(SyntaxError(CannotProveReturn))
      case Ok(v) =>
        assert (backs + [Line([Return(Some(v))])])[..|aliases|] == backs;
        Ok(Flattened(flat, backs + [Line([Return(Some(v))])], added, o.acc.returning))
  }

  /** `SingleReturn` of `passes/ssa.py`, the prefix being the free prefix for `__`. */
  function SsaSingleReturn(def: Stmt, env: set<string>, aliases: seq<Alias>, strict: bool): Result<Flattened>
    requires def.Def?
  {
    FlattenDef(def, FreeNames.GenFreePrefix(def, env, Some("__")), aliases, strict)
  }

  /** Non-strict flattening never fails: the last return is taken as the fallback. */
  lemma NonStrictFlattens(def: Stmt, p: string, aliases: seq<Alias>)
    requires def.Def?
    ensures FlattenDef(def, p, aliases, false).Ok?
  {
    var n := SsaNaming(p, aliases);
    var conds := FlattenBlock(def.body, n, [], Acc([], {})).acc.conds;
    if conds != [] {
      FoldSucceeds(SimplifyGuards(ReturnsSeq(n, conds)), false);
    }
  }

  /**
   * A `return` outside every `if` makes the strict fold succeed: its
   * empty guard survives simplification as the fallback.
   */
  lemma UnguardedReturnFlattens(def: Stmt, p: string, aliases: seq<Alias>, strict: bool)
    requires def.Def?
    requires var conds := FlattenBlock(def.body, SsaNaming(p, aliases), [], Acc([], {})).acc.conds;
             exists j | 0 <= j < |conds| :: conds[j] == []
    ensures FlattenDef(def, p, aliases, strict).Ok?
  {
    var n := SsaNaming(p, aliases);
    var conds := FlattenBlock(def.body, n, [], Acc([], {})).acc.conds;
    var s := ReturnsSeq(n, conds);
    var j :| 0 <= j < |conds| && conds[j] == [];
    assert s[j].guard == [];
    if |s| == 1 {
      assert SimplifyFrom([s[0]], s[1..]) == [s[0]];
    } else if j == 0 {
      assert [s[0]][0].guard == [];
      SimplifyKeepsDefault([s[0]], s[1..]);
    } else {
      assert s[1..][j - 1].guard == [];
      SimplifyKeepsDefault([s[0]], s[1..]);
    }
    FoldSucceeds(SimplifyGuards(s), strict);
  }

  /** A one-line suite `return k`. */
  function ReturnSuite(k: string): Block
  {
    Inline([Return(Some(Lit(k)))])
  }

  /** `if c: return 0` / `elif d: return 1` / `else: return 2`, the `elif` already an `else` holding an `if`. */
  function ElifChain(): Stmt
  {
    Def("f", [], [], Indented([
      If(LoadName("c"), ReturnSuite("0"), Else(Indented([
        If(LoadName("d"), ReturnSuite("1"), Else(ReturnSuite("2")))])))]), false)
  }

  lemma ElifChainReturns()
    ensures Reachability.BlockReturns(ElifChain().body)
  {
    var r0, r1, r2 := ReturnSuite("0"), ReturnSuite("1"), ReturnSuite("2");
    var inner := If(LoadName("d"), r1, Else(r2));
    var outer := If(LoadName("c"), r0, Else(Indented([inner])));
    assert Reachability.BlockReturns(r0) by { assert r0.smalls[0].Return?; }
    assert Reachability.BlockReturns(r1) by { assert r1.smalls[0].Return?; }
    assert Reachability.BlockReturns(r2) by { assert r2.smalls[0].Return?; }
    assert Reachability.StmtReturns(inner);
    assert Reachability.BlockReturns(Indented([inner])) by {
      assert Reachability.StmtsReturn([inner]) == (Reachability.StmtReturns(inner) || Reachability.StmtsReturn([]));
    }
    assert Reachability.StmtReturns(outer);
    assert Reachability.StmtsReturn([outer]) == (Reachability.StmtReturns(outer) || Reachability.StmtsReturn([]));
  }

  lemma ReturnSuiteConds(k: string, n: Naming, stack: seq<Expr>, acc: Acc)
    ensures FlattenBlock(ReturnSuite(k), n, stack, acc).acc.conds == acc.conds + [stack]
  {
    var ss := ReturnSuite(k).smalls;
    assert FlattenSmalls(ss, n, stack, acc).acc.conds == acc.conds + [stack] by {
      assert ss[0].Return? && ss[1..] == [];
    }
  }

  lemma InnerConds(n: Naming, c: Expr, d: Expr, acc: Acc)
    ensures FlattenBlock(Indented([If(d, ReturnSuite("1"), Else(ReturnSuite("2")))]), n, [NotExpr(c)], acc).acc.conds
            == acc.conds + [[NotExpr(c), d], [NotExpr(c), NotExpr(d)]]
  {
    var inner := If(d, ReturnSuite("1"), Else(ReturnSuite("2")));
    var s1, s2 := [NotExpr(c)] + [d], [NotExpr(c)] + [NotExpr(d)];
    ReturnSuiteConds("1", n, s1, acc);
    var a1 := FlattenBlock(ReturnSuite("1"), n, s1, acc).acc;
    ReturnSuiteConds("2", n, s2, a1);
    var a2 := FlattenBlock(ReturnSuite("2"), n, s2, a1).acc;
    assert FlattenOrElse(Else(ReturnSuite("2")), n, s2, a1).acc == a2;
    assert FlattenStmt(inner, n, [NotExpr(c)], acc).acc == a2;
    assert FlattenStmts([inner], n, [NotExpr(c)], acc).acc == a2;
    assert FlattenBlock(Indented([inner]), n, [NotExpr(c)], acc).acc.conds == a2.conds;
    assert s1 == [NotExpr(c), d] && s2 == [NotExpr(c), NotExpr(d)];
    assert a2.conds == acc.conds + [s1, s2];
  }

  lemma ElifChainConds(n: Naming)
    ensures FlattenBlock(ElifChain().body, n, [], Acc([], {})).acc.conds
            == [[LoadName("c")], [NotExpr(LoadName("c")), LoadName("d")], [NotExpr(LoadName("c")), NotExpr(LoadName("d"))]]
  {
    var c, d := LoadName("c"), LoadName("d");
    var inner := If(d, ReturnSuite("1"), Else(ReturnSuite("2")));
    var outer := If(c, ReturnSuite("0"), Else(Indented([inner])));
    var acc0 := Acc([], {});
    ReturnSuiteConds("0", n, [] + [c], acc0);
    var a0 := FlattenBlock(ReturnSuite("0"), n, [] + [c], acc0).acc;
    assert [] + [NotExpr(c)] == [NotExpr(c)];
    InnerConds(n, c, d, a0);
    var ai := FlattenBlock(Indented([inner]), n, [NotExpr(c)], a0).acc;
    assert FlattenOrElse(Else(Indented([inner])), n, [] + [NotExpr(c)], a0).acc == ai;
    assert FlattenStmt(outer, n, [], acc0).acc == ai;
    assert FlattenStmts([outer], n, [], acc0).acc == ai;
    assert FlattenBlock(Indented([outer]), n, [], acc0).acc.conds == ai.conds;
    assert [] + [c] == [c];
    assert a0.conds == [[c]];
    assert ElifChain().body == Indented([outer]);
  }

  /* ----- `SingleReturn` of `passes/ssa_cst.py`. ----- */

  /**
   * Returns become assignments to `prefix + str(k)` (there are no
   * aliases), and a `return` of the strict fold is appended to the body
   * only when there was a return.
   */
  function CstSingleReturn(def: Stmt, env: set<string>): (r: Result<Stmt>)
    requires def.Def?
    ensures r.Ok? ==> r.value.Def? && r.value.name == def.name && r.value.params == def.params
    ensures r.Err? ==> r.error == SyntaxError(CannotProveReturn) || r.error.Unmodelled?
  {
    var p := FreeNames.GenFreePrefix(def, env, Some("__return_value"));
    var n := Naming(p, p, []);
    var o := FlattenBlock(def.body, n, [], Acc([], {}));
    var conds := o.acc.conds;
    if conds == [] then Ok(WithBody(def, o.code))
    else if o.code.Inline? then Err(Unmodelled("return appended to a one-line function body"))
    else
      match CstFold(SimplifyGuards(ReturnsSeq(n, conds)))
      case Err(_) => Err(SyntaxError(CannotProveReturn))
      case Ok(v) => Ok(WithBody(def, Indented(o.code.stmts + [Line([Return(Some(v))])])))
  }

  /**
   * Flattening in `passes/ssa_cst.py` leaves one `return`, at the end,
   * and restoring the return assignments in the rest gives back the body.
   */
  lemma CstSingleReturnRestores(def: Stmt, env: set<string>)
    requires def.Def? && def.body.Indented?
    requires Clear(UsedNames.BlockNames(def.body), Naming(FreeNames.GenFreePrefix(def, env, Some("__return_value")), FreeNames.GenFreePrefix(def, env, Some("__return_value")), []))
    requires CstSingleReturn(def, env).Ok?
    ensures var b := CstSingleReturn(def, env).value.body;
            var p := FreeNames.GenFreePrefix(def, env, Some("__return_value"));
            b.Indented? && |b.stmts| >= |def.body.stmts|
            && StmtsReturnFree(b.stmts[..|def.body.stmts|])
            && RestoreStmts(b.stmts[..|def.body.stmts|], Naming(p, p, [])) == ExplicitStmts(def.body.stmts)
  {
    var p := FreeNames.GenFreePrefix(def, env, Some("__return_value"));
    var n := Naming(p, p, []);
    var o := FlattenBlock(def.body, n, [], Acc([], {}));
    BlockRestored(def.body, n, [], Acc([], {}));
    BlockFlattened(def.body, n, [], Acc([], {}));
    var b := CstSingleReturn(def, env).value.body;
    assert b.stmts[..|def.body.stmts|] == o.code.stmts;
  }

  /**
   * `passes/ssa_cst.py` tags returns with the full condition stacks of
   * `metadata/condition_provider.py`, so a function that returns on every
   * path through an `if`/`else: if`/`else` chain is still rejected: the
   * simplification merges only the last two guards, no unguarded entry
   * appears, and the fold raises.
   */
  lemma AlwaysReturningRejected(env: set<string>)
    ensures Reachability.BlockReturns(ElifChain().body)
    ensures CstSingleReturn(ElifChain(), env) == Err(SyntaxError(CannotProveReturn))
  {
    ElifChainReturns();
    var p := FreeNames.GenFreePrefix(ElifChain(), env, Some("__return_value"));
    var n := Naming(p, p, []);
    var o := FlattenBlock(ElifChain().body, n, [], Acc([], {}));
    ElifChainNoDefault(n);
    var simp := SimplifyGuards(ReturnsSeq(n, o.acc.conds));
    FoldSucceeds(simp, true);
    CstFoldIsStrict(simp);
  }

  /** The chain's guards, simplified, have no unguarded entry, whatever the naming. */
  lemma ElifChainNoDefault(n: Naming)
    ensures var o := FlattenBlock(ElifChain().body, n, [], Acc([], {}));
      && o.code.Indented? && o.acc.conds != []
      && !HasDefault(SimplifyGuards(ReturnsSeq(n, o.acc.conds)))
  {
    ElifChainConds(n);
    var c := LoadName("c");
    var o := FlattenBlock(ElifChain().body, n, [], Acc([], {}));
    var s := ReturnsSeq(n, o.acc.conds);
    assert !Negates(s[1].guard, s[0].guard);
    assert Negates(s[2].guard, s[1].guard);
    assert s == [s[0], s[1], s[2]];
    SimplifyThree(s[0], s[1], s[2]);
    assert s[2].guard[..1] == [NotExpr(c)];
  }
}

=== FILE: seqs.dfy ===
/**
 * Facts about concatenation that the traversal proofs use at one step
 * each, stated once for every element type.
 */
module Seqs {
  /** Nothing in front leaves the back as it is. */
  lemma NilAppend<T>(a: seq<T>, b: seq<T>)
    requires a == []
    ensures a + b == b
  {
  }

  /** The head and tail of a concatenation whose front is not empty. */
  lemma ConsAppend<T>(a: seq<T>, b: seq<T>)
    requires a != []
    ensures (a + b)[0] == a[0] && (a + b)[1..] == a[1..] + b
    ensures |a| >= 2 ==> (a + b)[1] == a[1]
    ensures |a| == 1 && b != [] ==> (a + b)[1] == b[0]
  {
    assert (a + b)[1..] == a[1..] + b;
  }

  /** The first two elements and the rest of a concatenation whose front holds two or more. */
  lemma PairAppend<T>(a: seq<T>, b: seq<T>)
    requires |a| >= 2
    ensures (a + b)[0] == a[0] && (a + b)[1] == a[1] && (a + b)[2..] == a[2..] + b
  {
    assert (a + b)[2..] == a[2..] + b;
  }

  /** Membership in a non-empty sequence: its head or its tail. */
  lemma ConsIn<T>(s: seq<T>)
    requires s != []
    ensures forall x :: x in s <==> x == s[0] || x in s[1..]
  {
    assert s == [s[0]] + s[1..];
  }

  /** A sequence rebuilt from its head, a middle slice and the rest. */
  lemma HeadMidTail<T>(s: seq<T>, m: seq<T>, j: int)
    requires 1 <= j <= |s| && m == s[1..j]
    ensures s == [s[0]] + (m + s[j..])
  {
    assert s == [s[0]] + s[1..j] + s[j..];
  }

  /** No element among the first `n` satisfies `p`. */
  predicate NoneBefore<T>(s: seq<T>, p: T -> bool, n: nat)
    requires n <= |s|
  {
    forall i | 0 <= i < n :: !p(s[i])
  }

  /** Past a head that fails `p`, the prefix checked moves by one. */
  lemma NoneBeforeShift<T>(s: seq<T>, p: T -> bool, n: nat)
    requires s != [] && !p(s[0]) && n < |s|
    ensures NoneBefore(s, p, n + 1) <==> NoneBefore(s[1..], p, n)
  {
    if NoneBefore(s[1..], p, n) {
      forall i | 0 <= i < n + 1
        ensures !p(s[i])
      {
        if i > 0 {
          assert s[i] == s[1..][i - 1];
        }
      }
    }
    if NoneBefore(s, p, n + 1) {
      forall i | 0 <= i < n
        ensures !p(s[1..][i])
      {
        assert s[1..][i] == s[i + 1];
      }
    }
  }

  /** The set of a non-empty sequence's elements: its head and those of its tail. */
  lemma SetOfCons<T>(s: seq<T>)
    requires s != []
    ensures (set x | x in s) == {s[0]} + (set x | x in s[1..])
  {
    ConsIn(s);
  }
}

=== FILE: single_assignment.dfy ===
/**
 * The older `ast`-based single-assignment pass of
 * `passes/single_assignment.py`.
 *
 * Every store of a name `n` is renamed to `n` followed by a per-name
 * counter (`n0`, `n1`, ...), and the name is rebound to that version in a
 * `ChainMap` of scopes. A load reads the current binding; an unbound load
 * binds the name to itself. An `if` is flattened: both arms are emitted in
 * sequence, each under a fresh child scope, and then one multiplexer
 * `v = t if test else f` is added for every name known to at least two of
 * the outer scope, the `then` arm and the `else` arm. Loops, `with` and
 * `try` are rejected; nested definitions are left as they are.
 *
 * Before renaming, `_prove_names_defined` checks that every load reads a
 * name that is defined on every path. Two details of the Python code are
 * modelled under `Variant.AsWritten` and repaired under `Variant.Corrected`
 * (see the scoping module for both halves of each):
 *  - an assignment's targets are visited before its value (the field order
 *    of `ast.Assign`), in the renamer and in the check alike;
 *  - the check walks the `if` body twice and never the test or the
 *    `else` arm, and it walks into nested definitions.
 */
module SingleAssignment {
  import Seqs
  import opened Results
  import opened Syntax
  import opened Strings
  import UsedNames

  datatype Variant = AsWritten | Corrected

  // ---------------------------------------------------------------------
  // The scope chain (`ChainMap`) and the version counters (`Counter`)
  // ---------------------------------------------------------------------

  /** A `ChainMap`: the innermost scope first. */
  type Chain = seq<map<string, string>>

  function Lookup(c: Chain, n: string): Option<string>
  {
    if c == [] then None else if n in c[0] then Some(c[0][n]) else Lookup(c[1..], n)
  }

  /** `ChainMap.keys()`: the names bound in some scope. */
  function Keys(c: Chain): set<string>
  {
    if c == [] then {} else c[0].Keys + Keys(c[1..])
  }

  lemma {:induction false} LookupKeys(c: Chain, n: string)
    ensures Lookup(c, n).Some? <==> n in Keys(c)
  {
    if c != [] && n !in c[0] {
      LookupKeys(c[1..], n);
    }
  }

  /** The renamer's state: the innermost scope (the only one it writes) and the counters. */
  datatype St = St(top: map<string, string>, idx: map<string, nat>)

  datatype Out<T> = Out(code: T, st: St)

  function Count(idx: map<string, nat>, n: string): nat
  {
    if n in idx then idx[n] else 0
  }

  /** The `k`-th version of `n`: no separator, no freshness check. */
  function Version(n: string, k: nat): string
  {
    n + Str(k)
  }

  /** `_make_name`: the next version of `n`, bound in the innermost scope. */
  function MakeName(n: string, st: St): Out<string>
  {
    var v := Version(n, Count(st.idx, n));
    Out(v, St(st.top[n := v], st.idx[n := Count(st.idx, n) + 1]))
  }

  // ---------------------------------------------------------------------
  // The renamer (`SingleAssign`)
  // ---------------------------------------------------------------------

  /**
   * `visit_Name` and the generic walk of an expression, children in `ast`
   * field order. A load of an unbound name binds it to itself
   * (`setdefault`); any other context mints a version.
   */
  function RenameExpr(e: Expr, outer: Chain, st: St): Out<Expr>
    decreases e, 1
  {
    match e
    case Name(id, ctx) =>
      if ctx == Ctx.Load then
        match Lookup([st.top] + outer, id)
        case Some(v) => Out(Name(v, ctx), st)
        case None => Out(e, st.(top := st.top[id := id]))
      else
        var m := MakeName(id, st);
        Out(Name(m.code, ctx), m.st)
    case Attr(owner, f) =>
      var o := RenameExpr(owner, outer, st);
      Out(Attr(o.code, f), o.st)
    case Unary(op, x) =>
      var o := RenameExpr(x, outer, st);
      Out(Unary(op, o.code), o.st)
    case BoolOp(op, values) =>
      var o := RenameExprs(values, outer, st);
      Out(BoolOp(op, o.code), o.st)
    case BinOp(l, op, r) =>
      var a := RenameExpr(l, outer, st);
      var b := RenameExpr(r, outer, a.st);
      Out(BinOp(a.code, op, b.code), b.st)
    case Compare(l, op, r) =>
      var a := RenameExpr(l, outer, st);
      var b := RenameExpr(r, outer, a.st);
      Out(Compare(a.code, op, b.code), b.st)
    case IfExp(t, b, o) =>
      var x := RenameExpr(t, outer, st);
      var y := RenameExpr(b, outer, x.st);
      var z := RenameExpr(o, outer, y.st);
      Out(IfExp(x.code, y.code, z.code), z.st)
    case Call(f, args, kws) =>
      var x := RenameExpr(f, outer, st);
      var y := RenameExprs(args, outer, x.st);
      var z := RenameKeywords(kws, outer, y.st);
      Out(Call(x.code, y.code, z.code), z.st)
    case Tuple(elts) =>
      var o := RenameExprs(elts, outer, st);
      Out(Tuple(o.code), o.st)
    case Lit(_) => Out(e, st)
  }

  function RenameExprs(es: seq<Expr>, outer: Chain, st: St): Out<seq<Expr>>
    decreases es, 0
  {
    if es == [] then Out([], st)
    else
      var h := RenameExpr(es[0], outer, st);
      var t := RenameExprs(es[1..], outer, h.st);
      Out([h.code] + t.code, t.st)
  }

  function RenameKeywords(ks: seq<Keyword>, outer: Chain, st: St): Out<seq<Keyword>>
    decreases ks, 0
  {
    if ks == [] then Out([], st)
    else
      var h := RenameExpr(ks[0].value, outer, st);
      var t := RenameKeywords(ks[1..], outer, h.st);
      Out([Keyword(ks[0].arg, h.code)] + t.code, t.st)
  }

  function RenameSmall(s: Small, v: Variant, outer: Chain, st: St): Out<Small>
  {
    match s
    case Assign(targets, value) =>
      if v == AsWritten then
        var t := RenameExprs(targets, outer, st);
        var x := RenameExpr(value, outer, t.st);
        Out(Assign(t.code, x.code), x.st)
      else
        var x := RenameExpr(value, outer, st);
        var t := RenameExprs(targets, outer, x.st);
        Out(Assign(t.code, x.code), t.st)
    case Return(r) =>
      if r.Some? then
        var x := RenameExpr(r.value, outer, st);
        Out(Return(Some(x.code)), x.st)
      else Out(s, st)
    case ExprStmt(e) =>
      var x := RenameExpr(e, outer, st);
      Out(ExprStmt(x.code), x.st)
    case Pass => Out(s, st)
    case Assert(c) =>
      var x := RenameExpr(c, outer, st);
      Out(Assert(x.code), x.st)
  }

  function RenameSmalls(ss: seq<Small>, v: Variant, outer: Chain, st: St): Out<seq<Small>>
  {
    if ss == [] then Out([], st)
    else
      var h := RenameSmall(ss[0], v, outer, st);
      var t := RenameSmalls(ss[1..], v, outer, h.st);
      Out([h.code] + t.code, t.st)
  }

  /** The message of the `SyntaxError` raised for a loop, `with` or `try` (the node's repr is not modelled). */
  const CannotHandle: string := "Cannot handle node"

  /** A name is joined after an `if` when at least two of the outer chain and the two arms know it. */
  predicate Joined(n: string, c: Chain, tm: map<string, string>, fm: map<string, string>)
  {
    (if n in Keys(c) then 1 else 0) + (if n in tm then 1 else 0) + (if n in fm then 1 else 0) >= 2
  }

  /** What a load of `n` reads under the chain `c`; an unbound name reads itself. */
  function Current(c: Chain, n: string): string
  {
    match Lookup(c, n)
    case Some(x) => x
    case None => n
  }

  /** One side of a multiplexer: the arm's own binding, or else the outer one. */
  function Side(n: string, c: Chain, arm: map<string, string>): string
  {
    if n in arm then arm[n] else Current(c, n)
  }

  /** `v = t if test else f`; the Python code tags the target `Load`. */
  function MuxLine(target: string, test: Expr, t: string, f: string): Stmt
  {
    AssignLine(Name(target, Ctx.Load), IfExp(test, LoadName(t), LoadName(f)))
  }

  function MuxFor(n: string, test: Expr, c: Chain, tm: map<string, string>, fm: map<string, string>, idx: map<string, nat>): Stmt
  {
    MuxLine(Version(n, Count(idx, n)), test, Side(n, c, tm), Side(n, c, fm))
  }

  /**
   * The join loop of `visit_If` over `names`. The chain `c` is the one
   * before the loop: each name is read before its own multiplexer rebinds
   * it, and no multiplexer rebinds another name, so reading `c` is the
   * same as reading the live chain.
   */
  function Muxes(names: seq<string>, test: Expr, c: Chain, tm: map<string, string>, fm: map<string, string>, st: St): Out<seq<Stmt>>
  {
    if names == [] then Out([], st)
    else
      var n := names[0];
      if Joined(n, c, tm, fm) then
        var m := MakeName(n, st);
        var rest := Muxes(names[1..], test, c, tm, fm, m.st);
        Out([MuxLine(m.code, test, Side(n, c, tm), Side(n, c, fm))] + rest.code, rest.st)
      else Muxes(names[1..], test, c, tm, fm, st)
  }

  /**
   * A statement becomes a list of statements. An `if` becomes its `then`
   * arm, its `else` arm and the multiplexers; the Python code iterates
   * the joined names in set order, which is modelled as sorted order.
   */
  function RenameStmt(s: Stmt, v: Variant, outer: Chain, st: St): Result<Out<seq<Stmt>>>
  {
    match s
    case Line(smalls) =>
      var r := RenameSmalls(smalls, v, outer, st);
      Ok(Out([Line(r.code)], r.st))
    case If(test, body, orelse) =>
      var t := RenameExpr(test, outer, st);
      var c := [t.st.top] + outer;
      var tb :- RenameSuite(body, v, c, St(map[], t.st.idx));
      var fb :- RenameOrElse(orelse, v, c, St(map[], tb.st.idx));
      var names := SortedSet(Keys(c) + tb.st.top.Keys + fb.st.top.Keys);
      var m := Muxes(names, t.code, c, tb.st.top, fb.st.top, St(t.st.top, fb.st.idx));
      Ok(Out(tb.code + fb.code + m.code, m.st))
    case For(_, _, _, _) => Err(SyntaxError(CannotHandle))
    case While(_, _) => Err(SyntaxError(CannotHandle))
    case With(_, _, _) => Err(SyntaxError(CannotHandle))
    case Try(_, _) => Err(SyntaxError(CannotHandle))
    case Def(_, _, _, _, _) => Ok(Out([s], st))
    case Class(_, _, _) => Ok(Out([s], st))
  }

  function RenameStmts(ss: seq<Stmt>, v: Variant, outer: Chain, st: St): Result<Out<seq<Stmt>>>
  {
    if ss == [] then Ok(Out([], st))
    else
      var h :- RenameStmt(ss[0], v, outer, st);
      var t :- RenameStmts(ss[1..], v, outer, h.st);
      Ok(Out(h.code + t.code, t.st))
  }

  /** An arm of an `if`, flattened into the enclosing statement list. */
  function RenameSuite(b: Block, v: Variant, outer: Chain, st: St): Result<Out<seq<Stmt>>>
  {
    match b
    case Indented(stmts) => RenameStmts(stmts, v, outer, st)
    case Inline(smalls) =>
      var r := RenameSmalls(smalls, v, outer, st);
      Ok(Out([Line(r.code)], r.st))
  }

  function RenameOrElse(o: OrElse, v: Variant, outer: Chain, st: St): Result<Out<seq<Stmt>>>
  {
    match o
    case NoElse => Ok(Out([], st))
    case Else(b) => RenameSuite(b, v, outer, st)
    case Elif(s) => RenameStmt(s, v, outer, st)
  }

  /** The body of the root function keeps its block shape. */
  function RenameBody(b: Block, v: Variant, outer: Chain, st: St): Result<Out<Block>>
  {
    match b
    case Indented(stmts) =>
      var r :- RenameStmts(stmts, v, outer, st);
      Ok(Out(Indented(r.code), r.st))
    case Inline(smalls) =>
      var r := RenameSmalls(smalls, v, outer, st);
      Ok(Out(Inline(r.code), r.st))
  }

  // ---------------------------------------------------------------------
  // The definedness check (`_prove_names_defined`)
  // ---------------------------------------------------------------------

  /** The message names the identifier; the line number is not modelled. */
  function Undefined(id: string): PyError
  {
    SyntaxError("Cannot prove name, " + id + ", is defined")
  }

  /** A store defines the name; a load or delete must read a defined or environment name. */
  function ProveExpr(e: Expr, env: set<string>, names: set<string>): Result<set<string>>
    decreases e, 1
  {
    match e
    case Name(id, ctx) =>
      if ctx == Ctx.Store then Ok(names + {id})
      else if id in names || id in env then Ok(names)
      else Err(Undefined(id))
    case Attr(owner, _) => ProveExpr(owner, env, names)
    case Unary(_, x) => ProveExpr(x, env, names)
    case BoolOp(_, values) => ProveExprs(values, env, names)
    case BinOp(l, _, r) =>
      var a :- ProveExpr(l, env, names);
      ProveExpr(r, env, a)
    case Compare(l, _, r) =>
      var a :- ProveExpr(l, env, names);
      ProveExpr(r, env, a)
    case IfExp(t, b, o) =>
      var x :- ProveExpr(t, env, names);
      var y :- ProveExpr(b, env, x);
      ProveExpr(o, env, y)
    case Call(f, args, kws) =>
      var x :- ProveExpr(f, env, names);
      var y :- ProveExprs(args, env, x);
      ProveKeywords(kws, env, y)
    case Tuple(elts) => ProveExprs(elts, env, names)
    case Lit(_) => Ok(names)
  }

  function ProveExprs(es: seq<Expr>, env: set<string>, names: set<string>): Result<set<string>>
    decreases es, 0
  {
    if es == [] then Ok(names)
    else
      var h :- ProveExpr(es[0], env, names);
      ProveExprs(es[1..], env, h)
  }

  function ProveKeywords(ks: seq<Keyword>, env: set<string>, names: set<string>): Result<set<string>>
    decreases ks, 0
  {
    if ks == [] then Ok(names)
    else
      var h :- ProveExpr(ks[0].value, env, names);
      ProveKeywords(ks[1..], env, h)
  }

  function ProveSmall(s: Small, v: Variant, env: set<string>, names: set<string>): Result<set<string>>
  {
    match s
    case Assign(targets, value) =>
      if v == AsWritten then
        var t :- ProveExprs(targets, env, names);
        ProveExpr(value, env, t)
      else
        var x :- ProveExpr(value, env, names);
        ProveExprs(targets, env, x)
    case Return(r) => if r.Some? then ProveExpr(r.value, env, names) else Ok(names)
    case ExprStmt(e) => ProveExpr(e, env, names)
    case Pass => Ok(names)
    case Assert(c) => ProveExpr(c, env, names)
  }

  function ProveSmalls(ss: seq<Small>, v: Variant, env: set<string>, names: set<string>): Result<set<string>>
  {
    if ss == [] then Ok(names)
    else
      var h :- ProveSmall(ss[0], v, env, names);
      ProveSmalls(ss[1..], v, env, h)
  }

  /**
   * After an `if`, a name counts as defined when both branch scans define
   * it. As written both scans walk the body, and the test is not checked.
   */
  function ProveStmt(s: Stmt, v: Variant, env: set<string>, names: set<string>): Result<set<string>>
  {
    match s
    case Line(smalls) => ProveSmalls(smalls, v, env, names)
    case If(test, body, orelse) =>
      if v == AsWritten then
        // the second scan repeats the first, so the two scans agree
        var t :- ProveSuite(body, v, env, names);
        Ok(names + (t * t))
      else
        var n :- ProveExpr(test, env, names);
        var t :- ProveSuite(body, v, env, n);
        var f :- ProveOrElse(orelse, v, env, n);
        Ok(n + (t * f))
    case For(target, iter, body, _) =>
      var a :- ProveExpr(target, env, names);
      var b :- ProveExpr(iter, env, a);
      ProveSuite(body, v, env, b)
    case While(test, body) =>
      var a :- ProveExpr(test, env, names);
      ProveSuite(body, v, env, a)
    case With(items, body, _) =>
      var a :- ProveExprs(items, env, names);
      ProveSuite(body, v, env, a)
    case Try(body, handlers) =>
      var a :- ProveSuite(body, v, env, names);
      ProveSuites(handlers, v, env, a)
    case Def(_, _, decorators, body, _) =>
      if v == AsWritten then
        var a :- ProveSuite(body, v, env, names);
        ProveExprs(decorators, env, a)
      else Ok(names)
    case Class(_, decorators, body) =>
      if v == AsWritten then
        var a :- ProveSuite(body, v, env, names);
        ProveExprs(decorators, env, a)
      else Ok(names)
  }

  function ProveStmts(ss: seq<Stmt>, v: Variant, env: set<string>, names: set<string>): Result<set<string>>
  {
    if ss == [] then Ok(names)
    else
      var h :- ProveStmt(ss[0], v, env, names);
      ProveStmts(ss[1..], v, env, h)
  }

  function ProveSuite(b: Block, v: Variant, env: set<string>, names: set<string>): Result<set<string>>
  {
    match b
    case Indented(stmts) => ProveStmts(stmts, v, env, names)
    case Inline(smalls) => ProveSmalls(smalls, v, env, names)
  }

  function ProveSuites(bs: seq<Block>, v: Variant, env: set<string>, names: set<string>): Result<set<string>>
  {
    if bs == [] then Ok(names)
    else
      var h :- ProveSuite(bs[0], v, env, names);
      ProveSuites(bs[1..], v, env, h)
  }

  function ProveOrElse(o: OrElse, v: Variant, env: set<string>, names: set<string>): Result<set<string>>
  {
    match o
    case NoElse => Ok(names)
    case Else(b) => ProveSuite(b, v, env, names)
    case Elif(s) => ProveStmt(s, v, env, names)
  }

  // ---------------------------------------------------------------------
  // The pass (`single_assignment.rewrite`)
  // ---------------------------------------------------------------------

  const NonFunctionRoot: string := "single_assignment on a root that is not a function definition"

  function Identity(params: seq<string>): (m: map<string, string>)
    ensures m.Keys == set p | p in params
    ensures forall p | p in m :: m[p] == p
  {
    map p | p in params :: p
  }

  /**
   * Parameters of a (non-async) function root are bound to themselves; the
   * check runs over the whole root, body then decorators; the body is
   * renamed, and the decorators are renamed afterwards, under the final
   * bindings of the body (the generic walk visits `decorator_list` after
   * `body`).
   */
  function Rewrite(v: Variant, tree: Stmt, env: set<string>): Result<Stmt>
  {
    if !tree.Def? then Err(Unmodelled(NonFunctionRoot))
    else
      var bound := if tree.isAsync then map[] else Identity(tree.params);
      var checked :- ProveSuite(tree.body, v, env, bound.Keys);
      var _ :- ProveExprs(tree.decorators, env, checked);
      var body :- RenameBody(tree.body, v, [], St(bound, map[]));
      var decs := RenameExprs(tree.decorators, [], body.st);
      Ok(Def(tree.name, tree.params, decs.code, body.code, tree.isAsync))
  }

  // ---------------------------------------------------------------------
  // The check on loads: an error exactly when some load is undefined
  // ---------------------------------------------------------------------

  /** Every `Name` of the expression is a load. */
  predicate LoadsOnly(e: Expr)
    decreases e, 1
  {
    match e
    case Name(_, ctx) => ctx == Ctx.Load
    case Attr(owner, _) => LoadsOnly(owner)
    case Unary(_, x) => LoadsOnly(x)
    case BoolOp(_, values) => AllLoadsOnly(values)
    case BinOp(l, _, r) => LoadsOnly(l) && LoadsOnly(r)
    case Compare(l, _, r) => LoadsOnly(l) && LoadsOnly(r)
    case IfExp(t, b, o) => LoadsOnly(t) && LoadsOnly(b) && LoadsOnly(o)
    case Call(f, args, kws) => LoadsOnly(f) && AllLoadsOnly(args) && KeywordsLoadsOnly(kws)
    case Tuple(elts) => AllLoadsOnly(elts)
    case Lit(_) => true
  }

  predicate AllLoadsOnly(es: seq<Expr>)
    decreases es, 0
  {
    es == [] || (LoadsOnly(es[0]) && AllLoadsOnly(es[1..]))
  }

  predicate KeywordsLoadsOnly(ks: seq<Keyword>)
    decreases ks, 0
  {
    ks == [] || (LoadsOnly(ks[0].value) && KeywordsLoadsOnly(ks[1..]))
  }

  /** On a load-only expression the check passes exactly when every name read is defined or in the environment, and defines nothing. */
  lemma {:induction false} ProveLoads(e: Expr, env: set<string>, names: set<string>)
    requires LoadsOnly(e)
    ensures ProveExpr(e, env, names).Ok? <==> UsedNames.ExprNames(e) <= names + env
    ensures ProveExpr(e, env, names).Ok? ==> ProveExpr(e, env, names).value == names
    decreases e, 1
  {
    match e
    case Name(_, _) =>
    case Attr(owner, _) => ProveLoads(owner, env, names);
    case Unary(_, x) => ProveLoads(x, env, names);
    case BoolOp(_, values) => ProveLoadsAll(values, env, names);
    case BinOp(l, _, r) => ProveLoads(l, env, names); ProveLoads(r, env, names);
    case Compare(l, _, r) => ProveLoads(l, env, names); ProveLoads(r, env, names);
    case IfExp(t, b, o) => ProveLoads(t, env, names); ProveLoads(b, env, names); ProveLoads(o, env, names);
    case Call(f, args, kws) =>
      ProveLoads(f, env, names); ProveLoadsAll(args, env, names); ProveLoadsKeywords(kws, env, names);
    case Tuple(elts) => ProveLoadsAll(elts, env, names);
    case Lit(_) =>
  }

  lemma {:induction false} ProveLoadsAll(es: seq<Expr>, env: set<string>, names: set<string>)
    requires AllLoadsOnly(es)
    ensures ProveExprs(es, env, names).Ok? <==> UsedNames.ExprsNames(es) <= names + env
    ensures ProveExprs(es, env, names).Ok? ==> ProveExprs(es, env, names).value == names
    decreases es, 0
  {
    if es != [] {
      ProveLoads(es[0], env, names);
      ProveLoadsAll(es[1..], env, names);
    }
  }

  lemma {:induction false} ProveLoadsKeywords(ks: seq<Keyword>, env: set<string>, names: set<string>)
    requires KeywordsLoadsOnly(ks)
    ensures ProveKeywords(ks, env, names).Ok? <==> UsedNames.KeywordsNames(ks) <= names + env
    ensures ProveKeywords(ks, env, names).Ok? ==> ProveKeywords(ks, env, names).value == names
    decreases ks, 0
  {
    if ks != [] {
      ProveLoads(ks[0].value, env, names);
      ProveLoadsKeywords(ks[1..], env, names);
    }
  }

  // ---------------------------------------------------------------------
  // Loop rejection and the shape of the output
  // ---------------------------------------------------------------------

  /** Some loop, `with` or `try` is reached by the renamer (nested definitions are not entered). */
  predicate StmtHasLoop(s: Stmt)
  {
    match s
    case Line(_) => false
    case If(_, body, orelse) => SuiteHasLoop(body) || OrElseHasLoop(orelse)
    case Def(_, _, _, _, _) => false
    case Class(_, _, _) => false
    case _ => true
  }

  predicate StmtsHaveLoop(ss: seq<Stmt>)
  {
    ss != [] && (StmtHasLoop(ss[0]) || StmtsHaveLoop(ss[1..]))
  }

  predicate SuiteHasLoop(b: Block)
  {
    b.Indented? && StmtsHaveLoop(b.stmts)
  }

  predicate OrElseHasLoop(o: OrElse)
  {
    match o
    case NoElse => false
    case Else(b) => SuiteHasLoop(b)
    case Elif(s) => StmtHasLoop(s)
  }

  /** Output without control flow: simple-statement lines and untouched definitions. */
  predicate Flat(ss: seq<Stmt>)
  {
    forall i | 0 <= i < |ss| :: ss[i].Line? || ss[i].Def? || ss[i].Class?
  }

  lemma FlatAppend(a: seq<Stmt>, b: seq<Stmt>)
    requires Flat(a) && Flat(b)
    ensures Flat(a + b)
  {
    assert forall i | |a| <= i < |a + b| :: (a + b)[i] == b[i - |a|];
  }

  lemma MuxesFlat(names: seq<string>, test: Expr, c: Chain, tm: map<string, string>, fm: map<string, string>, st: St)
    ensures Flat(Muxes(names, test, c, tm, fm, st).code)
    decreases |names|
  {
    if names != [] {
      var n := names[0];
      if Joined(n, c, tm, fm) {
        var m := MakeName(n, st);
        MuxesFlat(names[1..], test, c, tm, fm, m.st);
        FlatAppend([MuxLine(m.code, test, Side(n, c, tm), Side(n, c, fm))], Muxes(names[1..], test, c, tm, fm, m.st).code);
      } else {
        MuxesFlat(names[1..], test, c, tm, fm, st);
      }
    }
  }

  /**
   * The renamer fails exactly when it reaches a loop, `with` or `try`,
   * with `SyntaxError`; otherwise its output has no control flow left.
   */
  lemma {:induction false} StmtRejects(s: Stmt, v: Variant, outer: Chain, st: St)
    ensures RenameStmt(s, v, outer, st).Err? <==> StmtHasLoop(s)
    ensures RenameStmt(s, v, outer, st).Err? ==> RenameStmt(s, v, outer, st).error == SyntaxError(CannotHandle)
    ensures RenameStmt(s, v, outer, st).Ok? ==> Flat(RenameStmt(s, v, outer, st).value.code)
  {
    match s
    case Line(_) =>
    case If(test, body, orelse) =>
      var t := RenameExpr(test, outer, st);
      var c := [t.st.top] + outer;
      SuiteRejects(body, v, c, St(map[], t.st.idx));
      var tb := RenameSuite(body, v, c, St(map[], t.st.idx));
      if tb.Ok? {
        OrElseRejects(orelse, v, c, St(map[], tb.value.st.idx));
        var fb := RenameOrElse(orelse, v, c, St(map[], tb.value.st.idx));
        if fb.Ok? {
          var names := SortedSet(Keys(c) + tb.value.st.top.Keys + fb.value.st.top.Keys);
          MuxesFlat(names, t.code, c, tb.value.st.top, fb.value.st.top, St(t.st.top, fb.value.st.idx));
          var m := Muxes(names, t.code, c, tb.value.st.top, fb.value.st.top, St(t.st.top, fb.value.st.idx));
          FlatAppend(tb.value.code, fb.value.code);
          FlatAppend(tb.value.code + fb.value.code, m.code);
        }
      }
    case For(_, _, _, _) =>
    case While(_, _) =>
    case With(_, _, _) =>
    case Try(_, _) =>
    case Def(_, _, _, _, _) =>
    case Class(_, _, _) =>
  }

  lemma {:induction false} StmtsRejects(ss: seq<Stmt>, v: Variant, outer: Chain, st: St)
    ensures RenameStmts(ss, v, outer, st).Err? <==> StmtsHaveLoop(ss)
    ensures RenameStmts(ss, v, outer, st).Err? ==> RenameStmts(ss, v, outer, st).error == SyntaxError(CannotHandle)
    ensures RenameStmts(ss, v, outer, st).Ok? ==> Flat(RenameStmts(ss, v, outer, st).value.code)
  {
    if ss != [] {
      StmtRejects(ss[0], v, outer, st);
      var h := RenameStmt(ss[0], v, outer, st);
      if h.Ok? {
        StmtsRejects(ss[1..], v, outer, h.value.st);
        var t := RenameStmts(ss[1..], v, outer, h.value.st);
        if t.Ok? {
          FlatAppend(h.value.code, t.value.code);
        }
      }
    }
  }

  lemma {:induction false} SuiteRejects(b: Block, v: Variant, outer: Chain, st: St)
    ensures RenameSuite(b, v, outer, st).Err? <==> SuiteHasLoop(b)
    ensures RenameSuite(b, v, outer, st).Err? ==> RenameSuite(b, v, outer, st).error == SyntaxError(CannotHandle)
    ensures RenameSuite(b, v, outer, st).Ok? ==> Flat(RenameSuite(b, v, outer, st).value.code)
  {
    match b
    case Indented(stmts) => StmtsRejects(stmts, v, outer, st);
    case Inline(_) =>
  }

  lemma {:induction false} OrElseRejects(o: OrElse, v: Variant, outer: Chain, st: St)
    ensures RenameOrElse(o, v, outer, st).Err? <==> OrElseHasLoop(o)
    ensures RenameOrElse(o, v, outer, st).Err? ==> RenameOrElse(o, v, outer, st).error == SyntaxError(CannotHandle)
    ensures RenameOrElse(o, v, outer, st).Ok? ==> Flat(RenameOrElse(o, v, outer, st).value.code)
  {
    match o
    case NoElse =>
    case Else(b) => SuiteRejects(b, v, outer, st);
    case Elif(s) => StmtRejects(s, v, outer, st);
  }

  // ---------------------------------------------------------------------
  // The join rule
  // ---------------------------------------------------------------------

  predicate Distinct(names: seq<string>)
  {
    forall i, j | 0 <= i < j < |names| :: names[i] != names[j]
  }

  /**
   * The join loop emits, for every joined name and for nothing else, one
   * multiplexer that mints the name's next version and selects the `then`
   * arm's binding or the `else` arm's, falling back to the outer binding
   * on a side that did not bind the name.
   */
  lemma {:induction false} MuxRule(names: seq<string>, test: Expr, c: Chain, tm: map<string, string>, fm: map<string, string>, st: St)
    requires Distinct(names)
    ensures forall n | n in names && Joined(n, c, tm, fm) :: MuxFor(n, test, c, tm, fm, st.idx) in Muxes(names, test, c, tm, fm, st).code
    ensures forall s | s in Muxes(names, test, c, tm, fm, st).code :: exists n | n in names && Joined(n, c, tm, fm) :: s == MuxFor(n, test, c, tm, fm, st.idx)
    decreases |names|
  {
    if names != [] {
      var n0 := names[0];
      var rest := names[1..];
      assert Distinct(rest);
      assert n0 !in rest;
      if Joined(n0, c, tm, fm) {
        var m := MakeName(n0, st);
        MuxRule(rest, test, c, tm, fm, m.st);
        var r := Muxes(rest, test, c, tm, fm, m.st);
        assert Muxes(names, test, c, tm, fm, st).code == [MuxFor(n0, test, c, tm, fm, st.idx)] + r.code;
        forall n | n in rest
          ensures MuxFor(n, test, c, tm, fm, m.st.idx) == MuxFor(n, test, c, tm, fm, st.idx)
        {
          assert Count(m.st.idx, n) == Count(st.idx, n);
        }
      } else {
        MuxRule(rest, test, c, tm, fm, st);
      }
    }
  }

  /** A name among `names` that the join rebinds. */
  predicate JoinedIn(n: string, names: seq<string>, c: Chain, tm: map<string, string>, fm: map<string, string>)
  {
    n in names && Joined(n, c, tm, fm)
  }

  /**
   * `after` is `before` with every joined name among `names` rebound to
   * its next version and counted once more, and every other binding and
   * counter unchanged.
   */
  ghost predicate Rebound(names: seq<string>, c: Chain, tm: map<string, string>, fm: map<string, string>, before: St, after: St)
  {
    && ReboundKeys(names, c, tm, fm, before, after)
    && ReboundNew(names, c, tm, fm, before, after)
    && ReboundKept(names, c, tm, fm, before, after)
    && ReboundCounts(names, c, tm, fm, before, after)
  }

  ghost predicate ReboundKeys(names: seq<string>, c: Chain, tm: map<string, string>, fm: map<string, string>, before: St, after: St)
  {
    forall n :: n in after.top <==> n in before.top || JoinedIn(n, names, c, tm, fm)
  }

  ghost predicate ReboundNew(names: seq<string>, c: Chain, tm: map<string, string>, fm: map<string, string>, before: St, after: St)
  {
    forall n | JoinedIn(n, names, c, tm, fm) :: n in after.top && after.top[n] == Version(n, Count(before.idx, n))
  }

  ghost predicate ReboundKept(names: seq<string>, c: Chain, tm: map<string, string>, fm: map<string, string>, before: St, after: St)
  {
    forall n | n in before.top && !JoinedIn(n, names, c, tm, fm) :: n in after.top && after.top[n] == before.top[n]
  }

  ghost predicate ReboundCounts(names: seq<string>, c: Chain, tm: map<string, string>, fm: map<string, string>, before: St, after: St)
  {
    forall n :: Count(after.idx, n) == Count(before.idx, n) + if JoinedIn(n, names, c, tm, fm) then 1 else 0
  }

  /** After the join loop the joined names are rebound and counted once more; nothing else changes. */
  lemma {:induction false} MuxBindings(names: seq<string>, test: Expr, c: Chain, tm: map<string, string>, fm: map<string, string>, st: St)
    requires Distinct(names)
    ensures Rebound(names, c, tm, fm, st, Muxes(names, test, c, tm, fm, st).st)
    decreases |names|
  {
    if names != [] {
      var rest := names[1..];
      assert Distinct(rest);
      assert names[0] !in rest;
      var r := Muxes(names, test, c, tm, fm, st);
      if Joined(names[0], c, tm, fm) {
        var m := MakeName(names[0], st);
        MuxBindings(rest, test, c, tm, fm, m.st);
        ReboundJoined(names, c, tm, fm, st, r.st);
      } else {
        MuxBindings(rest, test, c, tm, fm, st);
        ReboundSkip(names, c, tm, fm, st, r.st);
      }
    }
  }

  /** A joined name in front is rebound by `_make_name` before the rest are. */
  lemma ReboundJoined(names: seq<string>, c: Chain, tm: map<string, string>, fm: map<string, string>, st: St, after: St)
    requires names != [] && names[0] !in names[1..] && Joined(names[0], c, tm, fm)
    requires Rebound(names[1..], c, tm, fm, MakeName(names[0], st).st, after)
    ensures Rebound(names, c, tm, fm, st, after)
  {
    var mid := MakeName(names[0], st).st;
    Seqs.ConsIn(names);
    assert ReboundKeys(names, c, tm, fm, st, after);
    JoinedNew(names, c, tm, fm, st, mid, after);
    JoinedKept(names, c, tm, fm, st, mid, after);
    JoinedCounts(names, c, tm, fm, st, mid, after);
  }

  lemma JoinedNew(names: seq<string>, c: Chain, tm: map<string, string>, fm: map<string, string>, st: St, mid: St, after: St)
    requires names != [] && names[0] !in names[1..] && Joined(names[0], c, tm, fm) && mid == MakeName(names[0], st).st
    requires ReboundNew(names[1..], c, tm, fm, mid, after) && ReboundKept(names[1..], c, tm, fm, mid, after)
    ensures ReboundNew(names, c, tm, fm, st, after)
  {
    Seqs.ConsIn(names);
    assert !JoinedIn(names[0], names[1..], c, tm, fm);
  }

  lemma JoinedKept(names: seq<string>, c: Chain, tm: map<string, string>, fm: map<string, string>, st: St, mid: St, after: St)
    requires names != [] && Joined(names[0], c, tm, fm) && mid == MakeName(names[0], st).st
    requires ReboundKept(names[1..], c, tm, fm, mid, after)
    ensures ReboundKept(names, c, tm, fm, st, after)
  {
    Seqs.ConsIn(names);
  }

  lemma JoinedCounts(names: seq<string>, c: Chain, tm: map<string, string>, fm: map<string, string>, st: St, mid: St, after: St)
    requires names != [] && names[0] !in names[1..] && Joined(names[0], c, tm, fm) && mid == MakeName(names[0], st).st
    requires ReboundCounts(names[1..], c, tm, fm, mid, after)
    ensures ReboundCounts(names, c, tm, fm, st, after)
  {
    Seqs.ConsIn(names);
    assert !JoinedIn(names[0], names[1..], c, tm, fm);
  }

  /** A name in front that is not joined leaves the state to the rest. */
  lemma ReboundSkip(names: seq<string>, c: Chain, tm: map<string, string>, fm: map<string, string>, st: St, after: St)
    requires names != [] && !Joined(names[0], c, tm, fm)
    requires Rebound(names[1..], c, tm, fm, st, after)
    ensures Rebound(names, c, tm, fm, st, after)
  {
    Seqs.ConsIn(names);
  }
}



=== FILE: single_assignment_examples.dfy ===
/**
 * Two small functions on which the single-assignment pass as written
 * produces a body that reads a name nothing assigned, and what the
 * corrected variant does with them.
 */
module SingleAssignmentExamples {
  import opened Results
  import opened Syntax
  import opened Strings
  import opened SingleAssignment
  import opened SingleAssignmentScoping

  // ---------------------------------------------------------------------
  // Walks over one-element lists and over a root without decorators
  // ---------------------------------------------------------------------

  lemma RenameExprsOne(e: Expr, outer: Chain, st: St)
    ensures RenameExprs([e], outer, st) == Out([RenameExpr(e, outer, st).code], RenameExpr(e, outer, st).st)
  {
    var h := RenameExpr(e, outer, st);
    assert [e][1..] == [];
    assert RenameExprs([], outer, h.st) == Out([], h.st);
    assert [h.code] + [] == [h.code];
  }

  lemma RenameSmallsOne(x: Small, v: Variant, outer: Chain, st: St)
    ensures RenameSmalls([x], v, outer, st) == Out([RenameSmall(x, v, outer, st).code], RenameSmall(x, v, outer, st).st)
  {
    var h := RenameSmall(x, v, outer, st);
    assert [x][1..] == [];
    assert RenameSmalls([], v, outer, h.st) == Out([], h.st);
    assert [h.code] + [] == [h.code];
  }

  lemma RenameLineOne(x: Small, v: Variant, outer: Chain, st: St)
    ensures RenameStmts([Line([x])], v, outer, st)
         == Ok(Out([Line([RenameSmall(x, v, outer, st).code])], RenameSmall(x, v, outer, st).st))
  {
    var r := RenameSmall(x, v, outer, st);
    RenameSmallsOne(x, v, outer, st);
    assert [Line([x])][1..] == [];
    assert RenameStmt(Line([x]), v, outer, st) == Ok(Out([Line([r.code])], r.st));
    assert RenameStmts([], v, outer, r.st) == Ok(Out([], r.st));
    assert [Line([r.code])] + [] == [Line([r.code])];
  }

  lemma ProveExprsOne(e: Expr, env: set<string>, names: set<string>)
    ensures ProveExprs([e], env, names) == ProveExpr(e, env, names)
  {
    assert [e][1..] == [];
  }

  lemma ProveLineOne(x: Small, v: Variant, env: set<string>, names: set<string>)
    ensures ProveStmts([Line([x])], v, env, names) == ProveSmall(x, v, env, names)
  {
    assert [x][1..] == [];
    assert [Line([x])][1..] == [];
    match ProveSmall(x, v, env, names)
    case Ok(h) =>
      assert ProveSmalls([], v, env, h) == Ok(h);
      assert ProveStmt(Line([x]), v, env, names) == Ok(h);
      assert ProveStmts([], v, env, h) == Ok(h);
    case Err(_) =>
  }

  lemma TargetsDefineOne(id: string, d: set<string>)
    requires id !in d
    ensures TargetsDefine([StoreName(id)], d) == Some(d + {id})
  {
    assert [StoreName(id)][1..] == [];
  }

  /** A non-async root without decorators: the check, then the body's renaming. */
  lemma RewriteRoot(v: Variant, tree: Stmt, env: set<string>)
    requires tree.Def? && !tree.isAsync && tree.decorators == []
    ensures var bound := Identity(tree.params);
      Rewrite(v, tree, env)
        == match ProveSuite(tree.body, v, env, bound.Keys)
           case Err(e) => Err(e)
           case Ok(_) =>
             match RenameBody(tree.body, v, [], St(bound, map[]))
             case Err(e) => Err(e)
             case Ok(b) => Ok(Def(tree.name, tree.params, [], b.code, false))
  {
  }

  // ---------------------------------------------------------------------
  // `def f(a): a = a + 1`
  // ---------------------------------------------------------------------

  function SelfAssign(): Stmt
  {
    Def("f", ["a"], [], Indented([AssignLine(StoreName("a"), BinOp(LoadName("a"), Add, Lit("1")))]), false)
  }

  /** What the value of the renamed assignment reads: its own new version as written, the argument when corrected. */
  function SelfAssignOut(v: Variant): Block
  {
    var read := if v == AsWritten then "a0" else "a";
    Indented([AssignLine(StoreName("a0"), BinOp(LoadName(read), Add, Lit("1")))])
  }

  lemma SelfAssignChecked(v: Variant)
    ensures ProveSuite(SelfAssign().body, v, {}, {"a"}) == Ok({"a"})
  {
    var value := BinOp(LoadName("a"), Add, Lit("1"));
    ProveExprsOne(StoreName("a"), {}, {"a"});
    assert {"a"} + {"a"} == {"a"};
    assert ProveExpr(value, {}, {"a"}) == Ok({"a"});
    ProveLineOne(Assign([StoreName("a")], value), v, {}, {"a"});
  }

  lemma SelfAssignRenamed(v: Variant)
    ensures var r := RenameBody(SelfAssign().body, v, [], St(map["a" := "a"], map[]));
      r.Ok? && r.value.code == SelfAssignOut(v)
  {
    assert Str(0) == "0";
    var st := St(map["a" := "a"], map[]);
    var value := BinOp(LoadName("a"), Add, Lit("1"));
    var m := MakeName("a", st);
    assert m.code == "a0";
    RenameExprsOne(StoreName("a"), [], st);
    RenameLineOne(Assign([StoreName("a")], value), v, [], st);
    if v == AsWritten {
      assert Lookup([m.st.top] + [], "a") == Some("a0");
      assert RenameExpr(LoadName("a"), [], m.st) == Out(LoadName("a0"), m.st);
    } else {
      assert Lookup([st.top] + [], "a") == Some("a");
      assert RenameExpr(LoadName("a"), [], st) == Out(LoadName("a"), st);
    }
  }

  /**
   * As written, the targets are renamed before the value, so the value
   * reads the version its own assignment introduces: `a0 = a0 + 1`, a
   * read of a name nothing assigned before.
   */
  lemma SelfAssignAsWritten()
    ensures Rewrite(AsWritten, SelfAssign(), {}) == Ok(Def("f", ["a"], [], SelfAssignOut(AsWritten), false))
    ensures BodyDefines(SelfAssignOut(AsWritten), {"a"}) == None
  {
    var tree := SelfAssign();
    assert Identity(tree.params) == map["a" := "a"];
    assert Identity(tree.params).Keys == {"a"};
    SelfAssignChecked(AsWritten);
    SelfAssignRenamed(AsWritten);
    RewriteRoot(AsWritten, tree, {});
    var r := RenameBody(tree.body, AsWritten, [], St(Identity(tree.params), map[]));
    assert r.Ok? && r.value.code == SelfAssignOut(AsWritten);
    var out := Assign([StoreName("a0")], BinOp(LoadName("a0"), Add, Lit("1")));
    assert "a0" !in {"a"};
    assert [out][1..] == [];
    assert SmallDefines(out, {"a"}) == None;
  }

  /** Corrected, the value is renamed first: `a0 = a + 1`, and every read is defined. */
  lemma SelfAssignCorrected()
    ensures Rewrite(Corrected, SelfAssign(), {}) == Ok(Def("f", ["a"], [], SelfAssignOut(Corrected), false))
    ensures BodyDefines(SelfAssignOut(Corrected), {"a"}) == Some({"a", "a0"})
  {
    var tree := SelfAssign();
    assert Identity(tree.params) == map["a" := "a"];
    assert Identity(tree.params).Keys == {"a"};
    SelfAssignChecked(Corrected);
    SelfAssignRenamed(Corrected);
    RewriteRoot(Corrected, tree, {});
    var r := RenameBody(tree.body, Corrected, [], St(Identity(tree.params), map[]));
    assert r.Ok? && r.value.code == SelfAssignOut(Corrected);
    SelfAssignOutDefines();
  }

  /** Corrected output reads only the parameter and defines `a0`. */
  lemma SelfAssignOutDefines()
    ensures BodyDefines(SelfAssignOut(Corrected), {"a"}) == Some({"a", "a0"})
  {
    var out := Assign([StoreName("a0")], BinOp(LoadName("a"), Add, Lit("1")));
    TargetsDefineOne("a0", {"a"});
    assert {"a"} + {"a0"} == {"a", "a0"};
    assert UsedNames.ExprNames(out.value) == {"a"};
    assert SmallDefines(out, {"a"}) == Some({"a", "a0"});
    OneLineDefines(out, {"a"});
  }

  /** A body of one line holding one small statement defines what that statement does. */
  lemma OneLineDefines(s: Small, d: set<string>)
    ensures BodyDefines(Indented([Line([s])]), d) == SmallDefines(s, d)
  {
    assert [s][1..] == [];
    assert [Line([s])][1..] == [];
    assert SmallsDefine([s], d) == SmallDefines(s, d);
    assert StmtsDefine([Line([s])], d) == SmallsDefine([s], d);
  }

  // ---------------------------------------------------------------------
  // `def f(c):` / `if c: x = 1` / `return x`
  // ---------------------------------------------------------------------

  function SetX(): Small { Assign([StoreName("x")], Lit("1")) }
  function ReturnX(): Small { Return(Some(LoadName("x"))) }
  function OneArmIf(): Stmt { If(LoadName("c"), Indented([Line([SetX()])]), NoElse) }

  function OneArm(): Stmt
  {
    Def("f", ["c"], [], Indented([OneArmIf(), Line([ReturnX()])]), false)
  }

  lemma SetXChecked(v: Variant)
    ensures ProveStmts([Line([SetX()])], v, {}, {"c"}) == Ok({"c", "x"})
  {
    ProveExprsOne(StoreName("x"), {}, {"c"});
    assert ProveExpr(Name("x", Ctx.Store), {}, {"c"}) == Ok({"c"} + {"x"});
    assert {"c"} + {"x"} == {"c", "x"};
    assert ProveSmall(SetX(), v, {}, {"c"}) == Ok({"c", "x"});
    ProveLineOne(SetX(), v, {}, {"c"});
  }

  /** As written, the `if` counts `x` as defined: its body is scanned twice and its missing `else` never. */
  lemma OneArmCheckedAsWritten()
    ensures ProveSuite(OneArm().body, AsWritten, {}, {"c"}) == Ok({"c", "x"})
  {
    SetXChecked(AsWritten);
    assert {"c"} + ({"c", "x"} * {"c", "x"}) == {"c", "x"};
    assert ProveStmt(OneArmIf(), AsWritten, {}, {"c"}) == Ok({"c", "x"});
    assert ProveExpr(LoadName("x"), {}, {"c", "x"}) == Ok({"c", "x"});
    ProveLineOne(ReturnX(), AsWritten, {}, {"c", "x"});
    assert [OneArmIf(), Line([ReturnX()])][1..] == [Line([ReturnX()])];
  }

  /** Corrected, only `c` is defined after the `if`, and the `return` fails. */
  lemma OneArmCheckedCorrected()
    ensures ProveSuite(OneArm().body, Corrected, {}, {"c"}) == Err(Undefined("x"))
  {
    SetXChecked(Corrected);
    assert ProveExpr(LoadName("c"), {}, {"c"}) == Ok({"c"});
    assert {"c"} + ({"c", "x"} * {"c"}) == {"c"};
    assert ProveStmt(OneArmIf(), Corrected, {}, {"c"}) == Ok({"c"});
    assert ProveExpr(LoadName("x"), {}, {"c"}) == Err(Undefined("x"));
    ProveLineOne(ReturnX(), Corrected, {}, {"c"});
    assert [OneArmIf(), Line([ReturnX()])][1..] == [Line([ReturnX()])];
  }

  /** With no joined name, the join loop emits nothing and binds nothing. */
  lemma {:induction false} NoMuxes(names: seq<string>, test: Expr, c: Chain, tm: map<string, string>, fm: map<string, string>, st: St)
    requires forall i | 0 <= i < |names| :: !Joined(names[i], c, tm, fm)
    ensures Muxes(names, test, c, tm, fm, st) == Out([], st)
  {
    if names != [] {
      NoMuxes(names[1..], test, c, tm, fm, st);
    }
  }

  /** The arm `x = 1`, renamed inside the `if`, binds `x` to `x0`. */
  lemma ArmRenamed(c: Chain)
    ensures RenameSuite(Indented([Line([SetX()])]), AsWritten, c, St(map[], map[]))
         == Ok(Out([AssignLine(StoreName("x0"), Lit("1"))], St(map["x" := "x0"], map["x" := 1])))
  {
    assert Str(0) == "0";
    var inner := St(map[], map[]);
    var m := MakeName("x", inner);
    assert m.code == "x0";
    assert m.st == St(map["x" := "x0"], map["x" := 1]);
    RenameExprsOne(StoreName("x"), c, inner);
    RenameLineOne(SetX(), AsWritten, c, inner);
    assert RenameSmall(SetX(), AsWritten, c, inner) == Out(Assign([StoreName("x0")], Lit("1")), m.st);
  }

  /** The `if` renames to its arm alone, `x0 = 1`: no name is joined, and `x` stays unbound outside. */
  lemma OneArmIfRenamed()
    ensures var r := RenameStmt(OneArmIf(), AsWritten, [], St(map["c" := "c"], map[]));
      r.Ok? && r.value.code == [AssignLine(StoreName("x0"), Lit("1"))] && r.value.st.top.Keys == {"c"}
  {
    var st := St(map["c" := "c"], map[]);
    var test := LoadName("c");
    assert Lookup([st.top] + [], "c") == Some("c");
    assert RenameExpr(test, [], st) == Out(test, st);
    var c := [st.top] + [];
    ArmRenamed(c);
    var tb := Out([AssignLine(StoreName("x0"), Lit("1"))], St(map["x" := "x0"], map["x" := 1]));
    var none: map<string, string> := map[];
    var fb := Out([], St(none, tb.st.idx));
    assert RenameOrElse(NoElse, AsWritten, c, St(map[], tb.st.idx)) == Ok(fb);
    RenameIfOk(test, Indented([Line([SetX()])]), NoElse, AsWritten, [], st, tb, fb);
    OneArmNoJoin(test);
    assert tb.code + [] + [] == tb.code;
  }

  /** An `if` whose arms both rename is its arms followed by the multiplexers. */
  lemma RenameIfOk(test: Expr, body: Block, orelse: OrElse, v: Variant, outer: Chain, st: St, tb: Out<seq<Stmt>>, fb: Out<seq<Stmt>>)
    requires var t := RenameExpr(test, outer, st);
      RenameSuite(body, v, [t.st.top] + outer, St(map[], t.st.idx)) == Ok(tb)
    requires var t := RenameExpr(test, outer, st);
      RenameOrElse(orelse, v, [t.st.top] + outer, St(map[], tb.st.idx)) == Ok(fb)
    ensures var t := RenameExpr(test, outer, st);
      var c := [t.st.top] + outer;
      var m := Muxes(SortedSet(Keys(c) + tb.st.top.Keys + fb.st.top.Keys), t.code, c, tb.st.top, fb.st.top, St(t.st.top, fb.st.idx));
      RenameStmt(If(test, body, orelse), v, outer, st) == Ok(Out(tb.code + fb.code + m.code, m.st))
  {
  }

  /** Neither `c` nor `x` is joined after the one-armed `if`. */
  lemma OneArmNoJoin(test: Expr)
    ensures var top := map["c" := "c"];
      var c := [top] + [];
      var tm := map["x" := "x0"];
      var none: map<string, string> := map[];
      var idx := map["x" := 1];
      Muxes(SortedSet(Keys(c) + tm.Keys + none.Keys), test, c, tm, none, St(top, idx)) == Out([], St(top, idx))
  {
    var top := map["c" := "c"];
    var c := [top] + [];
    var tm := map["x" := "x0"];
    var none: map<string, string> := map[];
    ChainCons(top, []);
    assert Keys(c) == {"c"};
    var names := SortedSet(Keys(c) + tm.Keys + none.Keys);
    assert !Joined("c", c, tm, none);
    assert !Joined("x", c, tm, none);
    assert forall i | 0 <= i < |names| :: names[i] in names;
    NoMuxes(names, test, c, tm, none, St(top, map["x" := 1]));
  }

  /** `return x` with `x` unbound renames to itself. */
  lemma ReturnXRenamed(st: St)
    requires "x" !in st.top
    ensures var r := RenameStmts([Line([ReturnX()])], AsWritten, [], st);
      r.Ok? && r.value.code == [Line([ReturnX()])]
  {
    assert Lookup([st.top] + [], "x") == None;
    assert RenameExpr(LoadName("x"), [], st).code == LoadName("x");
    RenameLineOne(ReturnX(), AsWritten, [], st);
  }

  /** The output of the pass as written on `OneArm`. */
  function OneArmOut(): Block
  {
    Indented([AssignLine(StoreName("x0"), Lit("1")), Line([ReturnX()])])
  }

  lemma OneArmBodyRenamed()
    ensures var r := RenameBody(OneArm().body, AsWritten, [], St(map["c" := "c"], map[]));
      r.Ok? && r.value.code == OneArmOut()
  {
    var st := St(map["c" := "c"], map[]);
    OneArmIfRenamed();
    var h := RenameStmt(OneArmIf(), AsWritten, [], st).value;
    assert "x" !in h.st.top;
    ReturnXRenamed(h.st);
    var x0 := AssignLine(StoreName("x0"), Lit("1"));
    assert [OneArmIf(), Line([ReturnX()])][1..] == [Line([ReturnX()])];
    assert [x0] + [Line([ReturnX()])] == [x0, Line([ReturnX()])];
  }

  /** The `return` reads `x`, which neither the parameters nor the body's assignment `x0 = 1` define. */
  lemma OneArmOutReadsUnbound()
    ensures BodyDefines(OneArmOut(), {"c"}) == None
  {
    var x0 := Assign([StoreName("x0")], Lit("1"));
    TargetsDefineOne("x0", {"c"});
    assert {"c"} + {"x0"} == {"c", "x0"};
    assert [x0][1..] == [];
    assert SmallsDefine([x0], {"c"}) == Some({"c", "x0"});
    assert "x" !in {"c", "x0"};
    assert [ReturnX()][1..] == [];
    assert SmallsDefine([ReturnX()], {"c", "x0"}) == None;
    assert OneArmOut().stmts[1..] == [Line([ReturnX()])];
  }

  /**
   * As written, the definedness check accepts the function; the renamed
   * body assigns `x0` in the arm, emits no multiplexer and returns the
   * unrenamed `x`, which nothing assigned when `c` is false.
   */
  lemma OneArmAsWritten()
    ensures Rewrite(AsWritten, OneArm(), {}) == Ok(Def("f", ["c"], [], OneArmOut(), false))
    ensures BodyDefines(OneArmOut(), {"c"}) == None
  {
    var tree := OneArm();
    assert Identity(tree.params) == map["c" := "c"];
    assert Identity(tree.params).Keys == {"c"};
    OneArmCheckedAsWritten();
    OneArmBodyRenamed();
    RewriteRoot(AsWritten, tree, {});
    OneArmOutReadsUnbound();
  }

  /** Corrected, the check rejects the function. */
  lemma OneArmCorrected()
    ensures Rewrite(Corrected, OneArm(), {}) == Err(Undefined("x"))
  {
    var tree := OneArm();
    assert Identity(tree.params) == map["c" := "c"];
    assert Identity(tree.params).Keys == {"c"};
    OneArmCheckedCorrected();
    RewriteRoot(Corrected, tree, {});
  }
}

=== FILE: single_assignment_scoping.dfy ===
/**
 * What the single-assignment pass of `passes/single_assignment.py` is
 * for, stated on its output: walking the flattened body from top to
 * bottom, every name read has been assigned earlier, or is a parameter or
 * an environment name, and every name assigned is new. The corrected
 * variant has that property for every well-tagged function it accepts;
 * the variant as written does not, on two small inputs.
 *
 * Versions are the name followed by its counter, with no separator and no
 * freshness check, so the property needs the names of the input not to
 * end in a digit (`x` and `x1` would otherwise share the version `x10`).
 */
module SingleAssignmentScoping {
  import opened Results
  import opened Syntax
  import opened Strings
  import UsedNames
  import opened SingleAssignment

  // ---------------------------------------------------------------------
  // The property, on flattened output
  // ---------------------------------------------------------------------

  /**
   * An assignment target: a bare name must be new and is then defined; an
   * attribute or other target only reads. `None` marks a violation.
   */
  function TargetDefines(t: Expr, d: set<string>): Option<set<string>>
    decreases t, 1
  {
    match t
    case Name(id, _) => if id in d then None else Some(d + {id})
    case Tuple(elts) => TargetsDefine(elts, d)
    case _ => if UsedNames.ExprNames(t) <= d then Some(d) else None
  }

  /** Targets are assigned left to right. */
  function TargetsDefine(ts: seq<Expr>, d: set<string>): Option<set<string>>
    decreases ts, 0
  {
    if ts == [] then Some(d)
    else match TargetDefines(ts[0], d)
      case None => None
      case Some(d1) => TargetsDefine(ts[1..], d1)
  }

  /** The value is read before any target is assigned. */
  function SmallDefines(s: Small, d: set<string>): Option<set<string>>
  {
    match s
    case Assign(targets, value) =>
      if UsedNames.ExprNames(value) <= d then TargetsDefine(targets, d) else None
    case Return(r) => if r.None? || UsedNames.ExprNames(r.value) <= d then Some(d) else None
    case ExprStmt(e) => if UsedNames.ExprNames(e) <= d then Some(d) else None
    case Pass => Some(d)
    case Assert(c) => if UsedNames.ExprNames(c) <= d then Some(d) else None
  }

  function SmallsDefine(ss: seq<Small>, d: set<string>): Option<set<string>>
  {
    if ss == [] then Some(d)
    else match SmallDefines(ss[0], d)
      case None => None
      case Some(d1) => SmallsDefine(ss[1..], d1)
  }

  /**
   * Flattened statements; nested definitions are passed over, since the
   * pass leaves them as they are, and any remaining control flow fails.
   */
  function StmtsDefine(ss: seq<Stmt>, d: set<string>): Option<set<string>>
  {
    if ss == [] then Some(d)
    else match ss[0]
      case Line(smalls) =>
        (match SmallsDefine(smalls, d)
         case None => None
         case Some(d1) => StmtsDefine(ss[1..], d1))
      case Def(_, _, _, _, _) => StmtsDefine(ss[1..], d)
      case Class(_, _, _) => StmtsDefine(ss[1..], d)
      case _ => None
  }

  function BodyDefines(b: Block, d: set<string>): Option<set<string>>
  {
    match b
    case Indented(stmts) => StmtsDefine(stmts, d)
    case Inline(smalls) => SmallsDefine(smalls, d)
  }

  lemma {:induction false} StmtsDefineAppend(a: seq<Stmt>, b: seq<Stmt>, d: set<string>)
    ensures StmtsDefine(a + b, d) == match StmtsDefine(a, d) case None => None case Some(d1) => StmtsDefine(b, d1)
  {
    if a != [] {
      assert (a + b)[0] == a[0] && (a + b)[1..] == a[1..] + b;
      match a[0]
      case Line(smalls) =>
        if SmallsDefine(smalls, d).Some? {
          StmtsDefineAppend(a[1..], b, SmallsDefine(smalls, d).value);
        }
      case Def(_, _, _, _, _) => StmtsDefineAppend(a[1..], b, d);
      case Class(_, _, _) => StmtsDefineAppend(a[1..], b, d);
      case _ =>
    } else {
      assert a + b == b;
    }
  }

  lemma OneLine(smalls: seq<Small>, d: set<string>)
    ensures StmtsDefine([Line(smalls)], d) == SmallsDefine(smalls, d)
  {
    assert [Line(smalls)][1..] == [];
  }

  // ---------------------------------------------------------------------
  // Well-tagged input
  // ---------------------------------------------------------------------

  /** A store target: a stored name, an attribute of a read expression, or a tuple of targets. */
  predicate TargetOk(t: Expr)
    decreases t, 1
  {
    match t
    case Name(_, ctx) => ctx == Ctx.Store
    case Attr(owner, _) => LoadsOnly(owner)
    case Tuple(elts) => TargetsOk(elts)
    case _ => false
  }

  predicate TargetsOk(ts: seq<Expr>)
    decreases ts, 0
  {
    ts == [] || (TargetOk(ts[0]) && TargetsOk(ts[1..]))
  }

  predicate SmallOk(s: Small)
  {
    match s
    case Assign(targets, value) => TargetsOk(targets) && LoadsOnly(value)
    case Return(r) => r.None? || LoadsOnly(r.value)
    case ExprStmt(e) => LoadsOnly(e)
    case Pass => true
    case Assert(c) => LoadsOnly(c)
  }

  predicate SmallsOk(ss: seq<Small>)
  {
    ss == [] || (SmallOk(ss[0]) && SmallsOk(ss[1..]))
  }

  predicate StmtOk(s: Stmt)
  {
    match s
    case Line(smalls) => SmallsOk(smalls)
    case If(test, body, orelse) => LoadsOnly(test) && SuiteOk(body) && OrElseOk(orelse)
    case _ => true
  }

  predicate StmtsOk(ss: seq<Stmt>)
  {
    ss == [] || (StmtOk(ss[0]) && StmtsOk(ss[1..]))
  }

  predicate SuiteOk(b: Block)
  {
    match b
    case Indented(stmts) => StmtsOk(stmts)
    case Inline(smalls) => SmallsOk(smalls)
  }

  predicate OrElseOk(o: OrElse)
  {
    match o
    case NoElse => true
    case Else(b) => SuiteOk(b)
    case Elif(s) => StmtOk(s)
  }

  // ---------------------------------------------------------------------
  // Versions of names that do not end in a digit
  // ---------------------------------------------------------------------

  predicate EndsInDigit(n: string)
  {
    |n| > 0 && IsDigit(n[|n| - 1])
  }

  predicate Plain(names: set<string>)
  {
    forall n | n in names :: !EndsInDigit(n)
  }

  lemma VersionDigit(n: string, k: nat)
    ensures EndsInDigit(Version(n, k))
  {
    var s := Str(k);
    assert Version(n, k)[|Version(n, k)| - 1] == s[|s| - 1];
  }

  lemma VersionDigitAt(n: string, k: nat, i: nat)
    requires |n| <= i < |Version(n, k)|
    ensures IsDigit(Version(n, k)[i])
  {
    assert Version(n, k)[i] == Str(k)[i - |n|];
  }

  /** Versions of names not ending in a digit determine the name and the counter. */
  lemma VersionInjective(n: string, j: nat, m: string, k: nat)
    requires !EndsInDigit(n) && !EndsInDigit(m) && Version(n, j) == Version(m, k)
    ensures n == m && j == k
  {
    var s := Version(n, j);
    if |n| < |m| {
      VersionDigitAt(n, j, |m| - 1);
      assert false;
    }
    if |m| < |n| {
      VersionDigitAt(m, k, |n| - 1);
      assert false;
    }
    assert n == s[..|n|] == m;
    assert Str(j) == s[|n|..] == Str(k);
    StrInjective(j, k);
  }

  /** `x` is a version already minted under the counters `idx`. */
  ghost predicate Minted(x: string, idx: map<string, nat>)
  {
    exists n: string, j: nat | !EndsInDigit(n) && j < Count(idx, n) :: x == Version(n, j)
  }

  // ---------------------------------------------------------------------
  // The invariant linking the check, the renamer and the output
  // ---------------------------------------------------------------------

  /**
   * `P` is the set of names the check has proved defined, `c` the
   * renamer's chain, `idx` its counters and `d` the names the output has
   * defined so far. Every proved name is bound; every bound name reads a
   * defined name; environment names count as defined; and every defined
   * name that ends in a digit is a version already minted.
   */
  ghost predicate Inv(P: set<string>, c: Chain, idx: map<string, nat>, d: set<string>, env: set<string>)
  {
    && P <= Keys(c)
    && (forall n | n in Keys(c) :: !EndsInDigit(n) && Current(c, n) in d)
    && env <= d
    && (forall x | x in d && EndsInDigit(x) :: Minted(x, idx))
  }

  lemma ChainCons(top: map<string, string>, outer: Chain)
    ensures Keys([top] + outer) == top.Keys + Keys(outer)
    ensures forall n :: Current([top] + outer, n) == if n in top then top[n] else Current(outer, n)
  {
    assert ([top] + outer)[0] == top;
    assert ([top] + outer)[1..] == outer;
  }

  /** A fresh child scope changes no lookup. */
  lemma ChildScope(P: set<string>, c: Chain, idx: map<string, nat>, d: set<string>, env: set<string>)
    requires Inv(P, c, idx, d, env)
    ensures Inv(P, [map[]] + c, idx, d, env)
  {
    ChainCons(map[], c);
  }

  /** An older chain stays consistent with the counters and names of a later point. */
  lemma Rebase(P: set<string>, c: Chain, idx: map<string, nat>, d: set<string>, P2: set<string>, c2: Chain, idx2: map<string, nat>, d2: set<string>, env: set<string>)
    requires Inv(P, c, idx, d, env) && Inv(P2, c2, idx2, d2, env) && d <= d2
    ensures Inv(P, c, idx2, d2, env)
  {
  }

  /** `_make_name` under the invariant: the version is new, and binding it keeps the invariant. */
  lemma MintStep(n: string, outer: Chain, st: St, P: set<string>, d: set<string>, env: set<string>)
    requires !EndsInDigit(n)
    requires Inv(P, [st.top] + outer, st.idx, d, env)
    ensures var m := MakeName(n, st);
      && m.code !in d
      && Inv(P + {n}, [m.st.top] + outer, m.st.idx, d + {m.code}, env)
  {
    var m := MakeName(n, st);
    var v := m.code;
    var k := Count(st.idx, n);
    VersionDigit(n, k);
    if v in d {
      var n2: string, j: nat :| !EndsInDigit(n2) && j < Count(st.idx, n2) && v == Version(n2, j);
      VersionInjective(n, k, n2, j);
      assert false;
    }
    ChainCons(st.top, outer);
    ChainCons(m.st.top, outer);
    assert forall x :: Count(st.idx, x) <= Count(m.st.idx, x);
    forall x | x in d + {v} && EndsInDigit(x)
      ensures Minted(x, m.st.idx)
    {
      if x == v {
        assert !EndsInDigit(n) && k < Count(m.st.idx, n) && x == Version(n, k);
      } else {
        var n2: string, j: nat :| !EndsInDigit(n2) && j < Count(st.idx, n2) && x == Version(n2, j);
        assert j < Count(m.st.idx, n2);
      }
    }
  }

  // ---------------------------------------------------------------------
  // Expressions
  // ---------------------------------------------------------------------

  /** Renaming a read expression reads defined names only and mints nothing. */
  lemma {:induction false} LoadScoped(e: Expr, outer: Chain, st: St, P: set<string>, d: set<string>, env: set<string>)
    requires LoadsOnly(e) && Plain(UsedNames.ExprNames(e)) && UsedNames.ExprNames(e) <= P + env
    requires Inv(P, [st.top] + outer, st.idx, d, env)
    ensures var r := RenameExpr(e, outer, st);
      && UsedNames.ExprNames(r.code) <= d
      && r.st.idx == st.idx
      && Inv(P, [r.st.top] + outer, r.st.idx, d, env)
    decreases e, 1
  {
    match e
    case Name(id, _) =>
      ChainCons(st.top, outer);
      LookupKeys([st.top] + outer, id);
      if Lookup([st.top] + outer, id).None? {
        ChainCons(st.top[id := id], outer);
      }
    case Attr(owner, _) => LoadScoped(owner, outer, st, P, d, env);
    case Unary(_, x) => LoadScoped(x, outer, st, P, d, env);
    case BoolOp(_, values) => LoadsScoped(values, outer, st, P, d, env);
    case BinOp(l, _, r) =>
      LoadScoped(l, outer, st, P, d, env);
      LoadScoped(r, outer, RenameExpr(l, outer, st).st, P, d, env);
    case Compare(l, _, r) =>
      LoadScoped(l, outer, st, P, d, env);
      LoadScoped(r, outer, RenameExpr(l, outer, st).st, P, d, env);
    case IfExp(t, b, o) =>
      LoadScoped(t, outer, st, P, d, env);
      var x := RenameExpr(t, outer, st);
      LoadScoped(b, outer, x.st, P, d, env);
      LoadScoped(o, outer, RenameExpr(b, outer, x.st).st, P, d, env);
    case Call(f, args, kws) =>
      LoadScoped(f, outer, st, P, d, env);
      var x := RenameExpr(f, outer, st);
      LoadsScoped(args, outer, x.st, P, d, env);
      KeywordsScoped(kws, outer, RenameExprs(args, outer, x.st).st, P, d, env);
    case Tuple(elts) => LoadsScoped(elts, outer, st, P, d, env);
    case Lit(_) =>
  }

  lemma {:induction false} LoadsScoped(es: seq<Expr>, outer: Chain, st: St, P: set<string>, d: set<string>, env: set<string>)
    requires AllLoadsOnly(es) && Plain(UsedNames.ExprsNames(es)) && UsedNames.ExprsNames(es) <= P + env
    requires Inv(P, [st.top] + outer, st.idx, d, env)
    ensures var r := RenameExprs(es, outer, st);
      && UsedNames.ExprsNames(r.code) <= d
      && r.st.idx == st.idx
      && Inv(P, [r.st.top] + outer, r.st.idx, d, env)
    decreases es, 0
  {
    if es != [] {
      LoadScoped(es[0], outer, st, P, d, env);
      var h := RenameExpr(es[0], outer, st);
      LoadsScoped(es[1..], outer, h.st, P, d, env);
      var t := RenameExprs(es[1..], outer, h.st);
      assert ([h.code] + t.code)[0] == h.code && ([h.code] + t.code)[1..] == t.code;
    }
  }

  lemma {:induction false} KeywordsScoped(ks: seq<Keyword>, outer: Chain, st: St, P: set<string>, d: set<string>, env: set<string>)
    requires KeywordsLoadsOnly(ks) && Plain(UsedNames.KeywordsNames(ks)) && UsedNames.KeywordsNames(ks) <= P + env
    requires Inv(P, [st.top] + outer, st.idx, d, env)
    ensures var r := RenameKeywords(ks, outer, st);
      && UsedNames.KeywordsNames(r.code) <= d
      && r.st.idx == st.idx
      && Inv(P, [r.st.top] + outer, r.st.idx, d, env)
    decreases ks, 0
  {
    if ks != [] {
      LoadScoped(ks[0].value, outer, st, P, d, env);
      var h := RenameExpr(ks[0].value, outer, st);
      KeywordsScoped(ks[1..], outer, h.st, P, d, env);
      var t := RenameKeywords(ks[1..], outer, h.st);
      var k := Keyword(ks[0].arg, h.code);
      assert ([k] + t.code)[0] == k && ([k] + t.code)[1..] == t.code;
    }
  }

  /** Renaming a target mints new versions, defines them, and binds the names the check proves. */
  lemma {:induction false} TargetScoped(t: Expr, outer: Chain, st: St, P: set<string>, d: set<string>, env: set<string>)
    requires TargetOk(t) && Plain(UsedNames.ExprNames(t)) && ProveExpr(t, env, P).Ok?
    requires Inv(P, [st.top] + outer, st.idx, d, env)
    ensures var r := RenameExpr(t, outer, st);
      && TargetDefines(r.code, d).Some?
      && d <= TargetDefines(r.code, d).value
      && Inv(ProveExpr(t, env, P).value, [r.st.top] + outer, r.st.idx, TargetDefines(r.code, d).value, env)
    decreases t, 1
  {
    match t
    case Name(id, _) => MintStep(id, outer, st, P, d, env);
    case Attr(owner, _) =>
      ProveLoads(owner, env, P);
      LoadScoped(owner, outer, st, P, d, env);
    case Tuple(elts) => TargetsScoped(elts, outer, st, P, d, env);
  }

  lemma {:induction false} TargetsScoped(ts: seq<Expr>, outer: Chain, st: St, P: set<string>, d: set<string>, env: set<string>)
    requires TargetsOk(ts) && Plain(UsedNames.ExprsNames(ts)) && ProveExprs(ts, env, P).Ok?
    requires Inv(P, [st.top] + outer, st.idx, d, env)
    ensures var r := RenameExprs(ts, outer, st);
      && TargetsDefine(r.code, d).Some?
      && d <= TargetsDefine(r.code, d).value
      && Inv(ProveExprs(ts, env, P).value, [r.st.top] + outer, r.st.idx, TargetsDefine(r.code, d).value, env)
    decreases ts, 0
  {
    if ts != [] {
      TargetScoped(ts[0], outer, st, P, d, env);
      var h := RenameExpr(ts[0], outer, st);
      var P1 := ProveExpr(ts[0], env, P).value;
      var d1 := TargetDefines(h.code, d).value;
      TargetsScoped(ts[1..], outer, h.st, P1, d1, env);
      var t := RenameExprs(ts[1..], outer, h.st);
      assert ([h.code] + t.code)[0] == h.code && ([h.code] + t.code)[1..] == t.code;
    }
  }

  // ---------------------------------------------------------------------
  // Small statements
  // ---------------------------------------------------------------------

  lemma {:induction false} SmallScoped(s: Small, outer: Chain, st: St, P: set<string>, d: set<string>, env: set<string>)
    requires SmallOk(s) && Plain(UsedNames.SmallNames(s)) && ProveSmall(s, Corrected, env, P).Ok?
    requires Inv(P, [st.top] + outer, st.idx, d, env)
    ensures var r := RenameSmall(s, Corrected, outer, st);
      && SmallDefines(r.code, d).Some?
      && d <= SmallDefines(r.code, d).value
      && Inv(ProveSmall(s, Corrected, env, P).value, [r.st.top] + outer, r.st.idx, SmallDefines(r.code, d).value, env)
  {
    match s
    case Assign(targets, value) =>
      ProveLoads(value, env, P);
      LoadScoped(value, outer, st, P, d, env);
      var x := RenameExpr(value, outer, st);
      TargetsScoped(targets, outer, x.st, P, d, env);
    case Return(r) =>
      if r.Some? {
        ProveLoads(r.value, env, P);
        LoadScoped(r.value, outer, st, P, d, env);
      }
    case ExprStmt(e) =>
      ProveLoads(e, env, P);
      LoadScoped(e, outer, st, P, d, env);
    case Pass =>
    case Assert(c) =>
      ProveLoads(c, env, P);
      LoadScoped(c, outer, st, P, d, env);
  }

  lemma {:induction false} SmallsScoped(ss: seq<Small>, outer: Chain, st: St, P: set<string>, d: set<string>, env: set<string>)
    requires SmallsOk(ss) && Plain(UsedNames.SmallsNames(ss)) && ProveSmalls(ss, Corrected, env, P).Ok?
    requires Inv(P, [st.top] + outer, st.idx, d, env)
    ensures var r := RenameSmalls(ss, Corrected, outer, st);
      && SmallsDefine(r.code, d).Some?
      && d <= SmallsDefine(r.code, d).value
      && Inv(ProveSmalls(ss, Corrected, env, P).value, [r.st.top] + outer, r.st.idx, SmallsDefine(r.code, d).value, env)
  {
    if ss != [] {
      SmallScoped(ss[0], outer, st, P, d, env);
      var h := RenameSmall(ss[0], Corrected, outer, st);
      var P1 := ProveSmall(ss[0], Corrected, env, P).value;
      var d1 := SmallDefines(h.code, d).value;
      SmallsScoped(ss[1..], outer, h.st, P1, d1, env);
      var t := RenameSmalls(ss[1..], Corrected, outer, h.st);
      assert ([h.code] + t.code)[0] == h.code && ([h.code] + t.code)[1..] == t.code;
    }
  }

  // ---------------------------------------------------------------------
  // The join
  // ---------------------------------------------------------------------

  /**
   * The multiplexers read the renamed test and the two sides, all defined
   * already, and each assigns a new version.
   */
  lemma {:induction false} MuxesScoped(names: seq<string>, test: Expr, c: Chain, tm: map<string, string>, fm: map<string, string>,
                                       outer: Chain, st: St, P: set<string>, d: set<string>, env: set<string>)
    requires UsedNames.ExprNames(test) <= d
    requires forall n | n in names && Joined(n, c, tm, fm) :: !EndsInDigit(n) && Side(n, c, tm) in d && Side(n, c, fm) in d
    requires Inv(P, [st.top] + outer, st.idx, d, env)
    ensures var r := Muxes(names, test, c, tm, fm, st);
      && StmtsDefine(r.code, d).Some?
      && d <= StmtsDefine(r.code, d).value
      && Inv(P, [r.st.top] + outer, r.st.idx, StmtsDefine(r.code, d).value, env)
    decreases |names|
  {
    if names != [] {
      var n := names[0];
      if Joined(n, c, tm, fm) {
        var m := MakeName(n, st);
        MintStep(n, outer, st, P, d, env);
        var line := MuxLine(m.code, test, Side(n, c, tm), Side(n, c, fm));
        var value := IfExp(test, LoadName(Side(n, c, tm)), LoadName(Side(n, c, fm)));
        assert UsedNames.ExprNames(value) <= d;
        assert [Name(m.code, Ctx.Load)][1..] == [];
        assert TargetDefines(Name(m.code, Ctx.Load), d) == Some(d + {m.code});
        assert TargetsDefine([Name(m.code, Ctx.Load)], d) == Some(d + {m.code});
        assert SmallDefines(Assign([Name(m.code, Ctx.Load)], value), d) == Some(d + {m.code});
        OneLine([Assign([Name(m.code, Ctx.Load)], value)], d);
        assert [Assign([Name(m.code, Ctx.Load)], value)][1..] == [];
        assert StmtsDefine([line], d) == Some(d + {m.code});
        MuxesScoped(names[1..], test, c, tm, fm, outer, m.st, P + {n}, d + {m.code}, env);
        var rest := Muxes(names[1..], test, c, tm, fm, m.st);
        StmtsDefineAppend([line], rest.code, d);
      } else {
        MuxesScoped(names[1..], test, c, tm, fm, outer, st, P, d, env);
      }
    }
  }

  /** The arms of an `if` and its multiplexers keep the invariant; names proved on both arms end up bound. */
  lemma {:induction false} IfScoped(test: Expr, body: Block, orelse: OrElse, outer: Chain, st: St, P: set<string>, d: set<string>, env: set<string>)
    requires LoadsOnly(test) && SuiteOk(body) && OrElseOk(orelse)
    requires Plain(UsedNames.StmtNames(If(test, body, orelse)))
    requires ProveStmt(If(test, body, orelse), Corrected, env, P).Ok?
    requires Inv(P, [st.top] + outer, st.idx, d, env)
    ensures var r := RenameStmt(If(test, body, orelse), Corrected, outer, st);
      r.Ok? ==>
        && StmtsDefine(r.value.code, d).Some?
        && d <= StmtsDefine(r.value.code, d).value
        && Inv(ProveStmt(If(test, body, orelse), Corrected, env, P).value, [r.value.st.top] + outer, r.value.st.idx, StmtsDefine(r.value.code, d).value, env)
    decreases If(test, body, orelse), 0
  {
    ProveLoads(test, env, P);
    LoadScoped(test, outer, st, P, d, env);
    var tt := RenameExpr(test, outer, st);
    var c := [tt.st.top] + outer;
    var idx0 := st.idx;
    ChildScope(P, c, idx0, d, env);
    SuiteScoped(body, c, St(map[], idx0), P, d, env);
    var tb := RenameSuite(body, Corrected, c, St(map[], idx0));
    if tb.Ok? {
      var t := ProveSuite(body, Corrected, env, P).value;
      var tm := tb.value.st.top;
      var idx1 := tb.value.st.idx;
      var d1 := StmtsDefine(tb.value.code, d).value;
      Rebase(P, c, idx0, d, t, [tm] + c, idx1, d1, env);
      ChildScope(P, c, idx1, d1, env);
      OrElseScoped(orelse, c, St(map[], idx1), P, d1, env);
      var fb := RenameOrElse(orelse, Corrected, c, St(map[], idx1));
      if fb.Ok? {
        var f := ProveOrElse(orelse, Corrected, env, P).value;
        var fm := fb.value.st.top;
        var idx2 := fb.value.st.idx;
        var d2 := StmtsDefine(fb.value.code, d1).value;
        Rebase(P, c, idx1, d1, f, [fm] + c, idx2, d2, env);
        ChainCons(tm, c);
        ChainCons(fm, c);
        ChainCons(tt.st.top, outer);
        var names := SortedSet(Keys(c) + tm.Keys + fm.Keys);
        forall n | n in names && Joined(n, c, tm, fm)
          ensures !EndsInDigit(n) && Side(n, c, tm) in d2 && Side(n, c, fm) in d2
        {
          assert n in Keys([tm] + c) && n in Keys([fm] + c);
          if n in tm {
            assert tm[n] == Current([tm] + c, n);
          } else {
            assert n in Keys(c);
          }
          if n in fm {
            assert fm[n] == Current([fm] + c, n);
          } else {
            assert n in Keys(c);
          }
        }
        var st2 := St(tt.st.top, idx2);
        MuxesScoped(names, tt.code, c, tm, fm, outer, st2, P, d2, env);
        MuxBindings(names, tt.code, c, tm, fm, st2);
        var m := Muxes(names, tt.code, c, tm, fm, st2);
        StmtsDefineAppend(tb.value.code, fb.value.code, d);
        StmtsDefineAppend(tb.value.code + fb.value.code, m.code, d);
        ChainCons(m.st.top, outer);
        forall n | n in t * f
          ensures n in Keys([m.st.top] + outer)
        {
          if n !in Keys(c) {
            assert n in tm && n in fm;
            assert n in names;
          }
        }
      }
    }
  }

  lemma {:induction false} StmtScoped(s: Stmt, outer: Chain, st: St, P: set<string>, d: set<string>, env: set<string>)
    requires StmtOk(s) && Plain(UsedNames.StmtNames(s)) && ProveStmt(s, Corrected, env, P).Ok?
    requires Inv(P, [st.top] + outer, st.idx, d, env)
    ensures var r := RenameStmt(s, Corrected, outer, st);
      r.Ok? ==>
        && StmtsDefine(r.value.code, d).Some?
        && d <= StmtsDefine(r.value.code, d).value
        && Inv(ProveStmt(s, Corrected, env, P).value, [r.value.st.top] + outer, r.value.st.idx, StmtsDefine(r.value.code, d).value, env)
    decreases s, 1
  {
    match s
    case Line(smalls) =>
      SmallsScoped(smalls, outer, st, P, d, env);
      OneLine(RenameSmalls(smalls, Corrected, outer, st).code, d);
    case If(test, body, orelse) => IfScoped(test, body, orelse, outer, st, P, d, env);
    case For(_, _, _, _) =>
    case While(_, _) =>
    case With(_, _, _) =>
    case Try(_, _) =>
    case Def(_, _, _, _, _) => assert [s][1..] == [];
    case Class(_, _, _) => assert [s][1..] == [];
  }

  lemma {:induction false} StmtsScoped(ss: seq<Stmt>, outer: Chain, st: St, P: set<string>, d: set<string>, env: set<string>)
    requires StmtsOk(ss) && Plain(UsedNames.StmtsNames(ss)) && ProveStmts(ss, Corrected, env, P).Ok?
    requires Inv(P, [st.top] + outer, st.idx, d, env)
    ensures var r := RenameStmts(ss, Corrected, outer, st);
      r.Ok? ==>
        && StmtsDefine(r.value.code, d).Some?
        && d <= StmtsDefine(r.value.code, d).value
        && Inv(ProveStmts(ss, Corrected, env, P).value, [r.value.st.top] + outer, r.value.st.idx, StmtsDefine(r.value.code, d).value, env)
    decreases ss, 0
  {
    if ss != [] {
      StmtScoped(ss[0], outer, st, P, d, env);
      var h := RenameStmt(ss[0], Corrected, outer, st);
      if h.Ok? {
        var P1 := ProveStmt(ss[0], Corrected, env, P).value;
        var d1 := StmtsDefine(h.value.code, d).value;
        StmtsScoped(ss[1..], outer, h.value.st, P1, d1, env);
        var t := RenameStmts(ss[1..], Corrected, outer, h.value.st);
        if t.Ok? {
          StmtsDefineAppend(h.value.code, t.value.code, d);
        }
      }
    }
  }

  lemma {:induction false} SuiteScoped(b: Block, outer: Chain, st: St, P: set<string>, d: set<string>, env: set<string>)
    requires SuiteOk(b) && Plain(UsedNames.BlockNames(b)) && ProveSuite(b, Corrected, env, P).Ok?
    requires Inv(P, [st.top] + outer, st.idx, d, env)
    ensures var r := RenameSuite(b, Corrected, outer, st);
      r.Ok? ==>
        && StmtsDefine(r.value.code, d).Some?
        && d <= StmtsDefine(r.value.code, d).value
        && Inv(ProveSuite(b, Corrected, env, P).value, [r.value.st.top] + outer, r.value.st.idx, StmtsDefine(r.value.code, d).value, env)
    decreases b, 2
  {
    match b
    case Indented(stmts) => StmtsScoped(stmts, outer, st, P, d, env);
    case Inline(smalls) =>
      SmallsScoped(smalls, outer, st, P, d, env);
      OneLine(RenameSmalls(smalls, Corrected, outer, st).code, d);
  }

  lemma {:induction false} OrElseScoped(o: OrElse, outer: Chain, st: St, P: set<string>, d: set<string>, env: set<string>)
    requires OrElseOk(o) && Plain(UsedNames.OrElseNames(o)) && ProveOrElse(o, Corrected, env, P).Ok?
    requires Inv(P, [st.top] + outer, st.idx, d, env)
    ensures var r := RenameOrElse(o, Corrected, outer, st);
      r.Ok? ==>
        && StmtsDefine(r.value.code, d).Some?
        && d <= StmtsDefine(r.value.code, d).value
        && Inv(ProveOrElse(o, Corrected, env, P).value, [r.value.st.top] + outer, r.value.st.idx, StmtsDefine(r.value.code, d).value, env)
    decreases o, 2
  {
    match o
    case NoElse =>
    case Else(b) => SuiteScoped(b, outer, st, P, d, env);
    case Elif(s) => StmtScoped(s, outer, st, P, d, env);
  }

  // ---------------------------------------------------------------------
  // The pass
  // ---------------------------------------------------------------------

  /**
   * Under the corrected variant, the body of every well-tagged function
   * the pass accepts reads, at each point, only names assigned earlier in
   * the output, parameters and environment names, and assigns each name
   * once, never a parameter or environment name.
   */
  lemma CorrectedScoped(tree: Stmt, env: set<string>)
    requires tree.Def? && !tree.isAsync && SuiteOk(tree.body)
    requires Plain(UsedNames.BlockNames(tree.body) + (set p | p in tree.params) + env)
    requires Rewrite(Corrected, tree, env).Ok?
    ensures BodyDefines(Rewrite(Corrected, tree, env).value.body, (set p | p in tree.params) + env).Some?
  {
    var bound := Identity(tree.params);
    var P0 := bound.Keys;
    var d0 := (set p | p in tree.params) + env;
    ChainCons(bound, []);
    assert Keys([]) == {};
    assert Inv(P0, [bound] + [], map[], d0, env);
    var st0 := St(bound, map[]);
    match tree.body
    case Indented(stmts) =>
      StmtsScoped(stmts, [], st0, P0, d0, env);
    case Inline(smalls) =>
      SmallsScoped(smalls, [], st0, P0, d0, env);
  }
}

=== FILE: single_return.dfy ===
/**
 * `passes/single_return.py`: the older single-return pass. `ReturnMover`
 * turns the `k`-th `return e` of the root function into
 * `__return_value<k> = e`, recording the condition stack it runs under;
 * `rewrite` then appends an `if`/`elif` chain that copies the value of
 * the first return whose conditions hold into `__return_value`, and one
 * `return __return_value`.
 *
 * The walk is the one `ReturnFlattening` defines for `ssa.py`, with no
 * attribute aliases: the test is pushed for an `if` body and its
 * negation (`not`, since the pass builds its mover with bool ops) for the
 * `orelse`; loops, `with` and `try` are walked without pushing anything;
 * nested definitions and classes are not entered.
 */
module SingleReturn {
  import opened Results
  import opened Syntax
  import opened Strings
  import opened Guards
  import opened ReturnFlattening
  import UsedNames
  import FreeNames

  const ValuePrefix: string := "__return_value"
  const NotAFunctionDef: string := "ReturnMover expects a FunctionDef"

  /** The names the mover creates: `__return_value` followed by the return's index. */
  function MoverNaming(): Naming
  {
    Naming(ValuePrefix, ValuePrefix, [])
  }

  /** `_reduce_cond_stack`: `True`, the only condition, or an `and` over the whole stack. */
  function Reduce(stack: seq<Expr>): Expr
  {
    if |stack| == 0 then Lit("True")
    else if |stack| == 1 then stack[0]
    else BoolOp(And, stack)
  }

  /** The reduced condition holds exactly when every condition of the stack does. */
  lemma ReduceTruth(val: Expr -> bool, stack: seq<Expr>)
    requires val(Lit("True"))
    ensures Truth(val, Reduce(stack)) == Holds(val, stack)
  {
    if |stack| == 1 {
      assert Holds(val, stack) == Truth(val, stack[0]);
    }
  }

  /** One arm of the appended chain: `__return_value = __return_value<i>`. */
  function ChainArm(i: nat): Block
  {
    Indented([AssignLine(StoreName(ValuePrefix), LoadName(ReturnName(MoverNaming(), i)))])
  }

  /**
   * The chain `rewrite` builds from the recorded returns, from the `i`-th
   * on: it folds them from the last, so the first return is tested first
   * and each later one sits in the `orelse` of the one before.
   */
  function Chain(conds: seq<seq<Expr>>, i: nat): Stmt
    requires i < |conds|
    decreases |conds| - i
  {
    if i + 1 == |conds| then If(Reduce(conds[i]), ChainArm(i), NoElse)
    else If(Reduce(conds[i]), ChainArm(i), Elif(Chain(conds, i + 1)))
  }

  /** A body followed by more statements; a one-line body becomes a block. */
  function Extend(b: Block, tail: seq<Stmt>): Block
  {
    match b
    case Indented(stmts) => Indented(stmts + tail)
    case Inline(smalls) => Indented([Line(smalls)] + tail)
  }

  /**
   * `single_return.rewrite`. The root must be a (non-async) function
   * definition. Without returns the visited tree is the result; otherwise
   * the chain and the final return are appended to its body.
   */
  function Rewrite(tree: Stmt): (r: Result<Stmt>)
    ensures r.Err? <==> !tree.Def? || tree.isAsync
    ensures r.Err? ==> r.error == TypeError(NotAFunctionDef)
    ensures r.Ok? ==> r.value.Def? && r.value.name == tree.name && r.value.params == tree.params
                      && r.value.decorators == tree.decorators && !r.value.isAsync
  {
    if !tree.Def? || tree.isAsync then Err(TypeError(NotAFunctionDef))
    else
      var moved := FlattenBlock(tree.body, MoverNaming(), [], Acc([], {}));
      var conds := moved.acc.conds;
      if |conds| == 0 then Ok(Def(tree.name, tree.params, tree.decorators, moved.code, false))
      else Ok(Def(tree.name, tree.params, tree.decorators, Extend(moved.code, [Chain(conds, 0), Line([Return(Some(LoadName(ValuePrefix)))])]), false))
  }

  // ---------------------------------------------------------------------
  // A body without returns is left as it is
  // ---------------------------------------------------------------------

  lemma {:induction false} SmallsUntouched(ss: seq<Small>, n: Naming, stack: seq<Expr>, acc: Acc)
    ensures var r := FlattenSmalls(ss, n, stack, acc);
      && (|r.acc.conds| == |acc.conds| <==> SmallsReturnFree(ss))
      && (SmallsReturnFree(ss) ==> r.code == ss)
  {
    if ss != [] {
      var h := match ss[0]
        case Return(v) => Out(ReturnAssigns(n, |acc.conds|, v), acc.(conds := acc.conds + [stack]))
        case _ => Out([ss[0]], acc);
      SmallsUntouched(ss[1..], n, stack, h.acc);
      var t := FlattenSmalls(ss[1..], n, stack, h.acc);
      assert FlattenSmalls(ss, n, stack, acc) == Out(h.code + t.code, t.acc);
      assert SmallsReturnFree(ss) <==> !ss[0].Return? && SmallsReturnFree(ss[1..]) by {
        if SmallsReturnFree(ss) {
          forall i | 0 <= i < |ss[1..]| ensures !ss[1..][i].Return? { assert ss[1..][i] == ss[i + 1]; }
        }
        if !ss[0].Return? && SmallsReturnFree(ss[1..]) {
          forall i | 0 <= i < |ss| ensures !ss[i].Return? { if i > 0 { assert ss[i] == ss[1..][i - 1]; } }
        }
      }
      if SmallsReturnFree(ss) {
        assert [ss[0]] + ss[1..] == ss;
      }
    }
  }

  lemma {:induction false} StmtUntouched(s: Stmt, n: Naming, stack: seq<Expr>, acc: Acc)
    ensures var r := FlattenStmt(s, n, stack, acc);
      && (|r.acc.conds| == |acc.conds| <==> StmtReturnFree(s))
      && (StmtReturnFree(s) ==> r.code == s)
    decreases s, 1
  {
    match s
    case Line(smalls) => SmallsUntouched(smalls, n, stack, acc);
    case If(test, body, orelse) =>
      var b := FlattenBlock(body, n, stack + [test], acc);
      BlockUntouched(body, n, stack + [test], acc);
      OrElseUntouched(orelse, n, stack + [NotExpr(test)], b.acc);
    case For(_, _, body, _) => BlockUntouched(body, n, stack, acc);
    case While(_, body) => BlockUntouched(body, n, stack, acc);
    case With(_, body, _) => BlockUntouched(body, n, stack, acc);
    case Try(body, handlers) =>
      var b := FlattenBlock(body, n, stack, acc);
      BlockUntouched(body, n, stack, acc);
      BlocksUntouched(handlers, n, stack, b.acc);
    case Def(_, _, _, _, _) =>
    case Class(_, _, _) =>
  }

  lemma {:induction false} StmtsUntouched(ss: seq<Stmt>, n: Naming, stack: seq<Expr>, acc: Acc)
    ensures var r := FlattenStmts(ss, n, stack, acc);
      && (|r.acc.conds| == |acc.conds| <==> StmtsReturnFree(ss))
      && (StmtsReturnFree(ss) ==> r.code == ss)
    decreases ss, 1
  {
    if ss != [] {
      var h := FlattenStmt(ss[0], n, stack, acc);
      StmtUntouched(ss[0], n, stack, acc);
      StmtsUntouched(ss[1..], n, stack, h.acc);
      var t := FlattenStmts(ss[1..], n, stack, h.acc);
      assert FlattenStmts(ss, n, stack, acc) == Out([h.code] + t.code, t.acc);
      assert StmtsReturnFree(ss) <==> StmtReturnFree(ss[0]) && StmtsReturnFree(ss[1..]) by {
        if StmtsReturnFree(ss) {
          forall i | 0 <= i < |ss[1..]| ensures StmtReturnFree(ss[1..][i]) { assert ss[1..][i] == ss[i + 1]; }
        }
        if StmtReturnFree(ss[0]) && StmtsReturnFree(ss[1..]) {
          forall i | 0 <= i < |ss| ensures StmtReturnFree(ss[i]) { if i > 0 { assert ss[i] == ss[1..][i - 1]; } }
        }
      }
      if StmtsReturnFree(ss) {
        assert [ss[0]] + ss[1..] == ss;
      }
    }
  }

  lemma {:induction false} BlockUntouched(b: Block, n: Naming, stack: seq<Expr>, acc: Acc)
    ensures var r := FlattenBlock(b, n, stack, acc);
      && (|r.acc.conds| == |acc.conds| <==> BlockReturnFree(b))
      && (BlockReturnFree(b) ==> r.code == b)
    decreases b, 1
  {
    match b
    case Indented(stmts) => StmtsUntouched(stmts, n, stack, acc);
    case Inline(smalls) => SmallsUntouched(smalls, n, stack, acc);
  }

  lemma {:induction false} BlocksUntouched(bs: seq<Block>, n: Naming, stack: seq<Expr>, acc: Acc)
    ensures var r := FlattenBlocks(bs, n, stack, acc);
      && (|r.acc.conds| == |acc.conds| <==> BlocksReturnFree(bs))
      && (BlocksReturnFree(bs) ==> r.code == bs)
    decreases bs, 1
  {
    if bs != [] {
      var h := FlattenBlock(bs[0], n, stack, acc);
      BlockUntouched(bs[0], n, stack, acc);
      BlocksUntouched(bs[1..], n, stack, h.acc);
      var t := FlattenBlocks(bs[1..], n, stack, h.acc);
      assert FlattenBlocks(bs, n, stack, acc) == Out([h.code] + t.code, t.acc);
      assert BlocksReturnFree(bs) <==> BlockReturnFree(bs[0]) && BlocksReturnFree(bs[1..]) by {
        if BlocksReturnFree(bs) {
          forall i | 0 <= i < |bs[1..]| ensures BlockReturnFree(bs[1..][i]) { assert bs[1..][i] == bs[i + 1]; }
        }
        if BlockReturnFree(bs[0]) && BlocksReturnFree(bs[1..]) {
          forall i | 0 <= i < |bs| ensures BlockReturnFree(bs[i]) { if i > 0 { assert bs[i] == bs[1..][i - 1]; } }
        }
      }
      if BlocksReturnFree(bs) {
        assert [bs[0]] + bs[1..] == bs;
      }
    }
  }

  lemma {:induction false} OrElseUntouched(o: OrElse, n: Naming, stack: seq<Expr>, acc: Acc)
    ensures var r := FlattenOrElse(o, n, stack, acc);
      && (|r.acc.conds| == |acc.conds| <==> OrElseReturnFree(o))
      && (OrElseReturnFree(o) ==> r.code == o)
    decreases o, 1
  {
    match o
    case NoElse =>
    case Else(b) => BlockUntouched(b, n, stack, acc);
    case Elif(s) => StmtUntouched(s, n, stack, acc);
  }

  /**
   * `rewrite` leaves a function without returns (outside nested
   * definitions) exactly as it was, and appends the chain and the final
   * `return __return_value` to every other function.
   */
  lemma RewriteUnchangedIffNoReturn(tree: Stmt)
    requires tree.Def? && !tree.isAsync
    ensures Rewrite(tree) == Ok(tree) <==> BlockReturnFree(tree.body)
    ensures !BlockReturnFree(tree.body) ==>
      var moved := FlattenBlock(tree.body, MoverNaming(), [], Acc([], {}));
      && |moved.acc.conds| > 0
      && Rewrite(tree) == Ok(Def(tree.name, tree.params, tree.decorators, Extend(moved.code, [Chain(moved.acc.conds, 0), Line([Return(Some(LoadName(ValuePrefix)))])]), false))
  {
    BlockUntouched(tree.body, MoverNaming(), [], Acc([], {}));
    var moved := FlattenBlock(tree.body, MoverNaming(), [], Acc([], {}));
    BlockFlattened(tree.body, MoverNaming(), [], Acc([], {}));
    if !BlockReturnFree(tree.body) {
      // the result has two more statements than the body it came from
      var tail := [Chain(moved.acc.conds, 0), Line([Return(Some(LoadName(ValuePrefix)))])];
      match tree.body
      case Indented(stmts) =>
        assert |Extend(moved.code, tail).stmts| == |stmts| + 2;
      case Inline(_) =>
    }
  }

  // ---------------------------------------------------------------------
  // The condition stack
  // ---------------------------------------------------------------------

  /** Every condition stack recorded from index `from` on extends `stack`. */
  predicate ExtendsFrom(conds: seq<seq<Expr>>, from: nat, stack: seq<Expr>)
  {
    forall i | from <= i < |conds| :: stack <= conds[i]
  }

  lemma {:induction false} SmallsStacks(ss: seq<Small>, n: Naming, stack: seq<Expr>, acc: Acc)
    ensures ExtendsFrom(FlattenSmalls(ss, n, stack, acc).acc.conds, |acc.conds|, stack)
  {
    if ss != [] {
      var h := match ss[0]
        case Return(v) => Out(ReturnAssigns(n, |acc.conds|, v), acc.(conds := acc.conds + [stack]))
        case _ => Out([ss[0]], acc);
      SmallsStacks(ss[1..], n, stack, h.acc);
      var r := FlattenSmalls(ss[1..], n, stack, h.acc).acc.conds;
      assert h.acc.conds <= r;
      assert forall i | |acc.conds| <= i < |h.acc.conds| :: r[i] == stack;
    }
  }

  lemma {:induction false} StmtStacks(s: Stmt, n: Naming, stack: seq<Expr>, acc: Acc)
    ensures ExtendsFrom(FlattenStmt(s, n, stack, acc).acc.conds, |acc.conds|, stack)
    decreases s, 1
  {
    match s
    case Line(smalls) => SmallsStacks(smalls, n, stack, acc);
    case If(test, body, orelse) => IfStacks(test, body, orelse, n, stack, acc);
    case For(_, _, body, _) => BlockStacks(body, n, stack, acc);
    case While(_, body) => BlockStacks(body, n, stack, acc);
    case With(_, body, _) => BlockStacks(body, n, stack, acc);
    case Try(body, handlers) =>
      var b := FlattenBlock(body, n, stack, acc);
      BlockStacks(body, n, stack, acc);
      BlocksStacks(handlers, n, stack, b.acc);
      var r := FlattenBlocks(handlers, n, stack, b.acc).acc.conds;
      assert b.acc.conds <= r;
      assert forall i | |acc.conds| <= i < |b.acc.conds| :: r[i] == b.acc.conds[i];
    case Def(_, _, _, _, _) =>
    case Class(_, _, _) =>
  }

  /**
   * Returns in the body of an `if` are recorded under the test pushed on
   * the enclosing stack, those in its `orelse` under the test's negation;
   * the one pushed for the body is popped before the `orelse` is walked.
   */
  lemma {:induction false} IfStacks(test: Expr, body: Block, orelse: OrElse, n: Naming, stack: seq<Expr>, acc: Acc)
    ensures var j := |FlattenBlock(body, n, stack + [test], acc).acc.conds|;
      var r := FlattenStmt(If(test, body, orelse), n, stack, acc).acc.conds;
      && |acc.conds| <= j <= |r|
      && (forall i | |acc.conds| <= i < j :: stack + [test] <= r[i])
      && (forall i | j <= i < |r| :: stack + [NotExpr(test)] <= r[i])
      && ExtendsFrom(r, |acc.conds|, stack)
    decreases If(test, body, orelse), 0
  {
    var b := FlattenBlock(body, n, stack + [test], acc);
    BlockStacks(body, n, stack + [test], acc);
    OrElseStacks(orelse, n, stack + [NotExpr(test)], b.acc);
    var r := FlattenOrElse(orelse, n, stack + [NotExpr(test)], b.acc).acc.conds;
    assert b.acc.conds <= r;
    assert forall i | |acc.conds| <= i < |b.acc.conds| :: r[i] == b.acc.conds[i];
  }

  lemma {:induction false} StmtsStacks(ss: seq<Stmt>, n: Naming, stack: seq<Expr>, acc: Acc)
    ensures ExtendsFrom(FlattenStmts(ss, n, stack, acc).acc.conds, |acc.conds|, stack)
    decreases ss, 1
  {
    if ss != [] {
      var h := FlattenStmt(ss[0], n, stack, acc);
      StmtStacks(ss[0], n, stack, acc);
      StmtsStacks(ss[1..], n, stack, h.acc);
      var r := FlattenStmts(ss[1..], n, stack, h.acc).acc.conds;
      assert h.acc.conds <= r;
      assert forall i | |acc.conds| <= i < |h.acc.conds| :: r[i] == h.acc.conds[i];
    }
  }

  lemma {:induction false} BlockStacks(b: Block, n: Naming, stack: seq<Expr>, acc: Acc)
    ensures ExtendsFrom(FlattenBlock(b, n, stack, acc).acc.conds, |acc.conds|, stack)
    decreases b, 1
  {
    match b
    case Indented(stmts) => StmtsStacks(stmts, n, stack, acc);
    case Inline(smalls) => SmallsStacks(smalls, n, stack, acc);
  }

  lemma {:induction false} BlocksStacks(bs: seq<Block>, n: Naming, stack: seq<Expr>, acc: Acc)
    ensures ExtendsFrom(FlattenBlocks(bs, n, stack, acc).acc.conds, |acc.conds|, stack)
    decreases bs, 1
  {
    if bs != [] {
      var h := FlattenBlock(bs[0], n, stack, acc);
      BlockStacks(bs[0], n, stack, acc);
      BlocksStacks(bs[1..], n, stack, h.acc);
      var r := FlattenBlocks(bs[1..], n, stack, h.acc).acc.conds;
      assert h.acc.conds <= r;
      assert forall i | |acc.conds| <= i < |h.acc.conds| :: r[i] == h.acc.conds[i];
    }
  }

  lemma {:induction false} OrElseStacks(o: OrElse, n: Naming, stack: seq<Expr>, acc: Acc)
    ensures ExtendsFrom(FlattenOrElse(o, n, stack, acc).acc.conds, |acc.conds|, stack)
    decreases o, 1
  {
    match o
    case NoElse =>
    case Else(b) => BlockStacks(b, n, stack, acc);
    case Elif(s) => StmtStacks(s, n, stack, acc);
  }

  // ---------------------------------------------------------------------
  // The appended chain picks the first return whose conditions hold
  // ---------------------------------------------------------------------

  /** The value an arm of the chain copies into `__return_value`. */
  function ArmValue(b: Block): Option<Expr>
  {
    if b.Indented? && |b.stmts| == 1 && b.stmts[0].Line? && |b.stmts[0].smalls| == 1 && b.stmts[0].smalls[0].Assign?
    then Some(b.stmts[0].smalls[0].value)
    else None
  }

  /** Running an `if`/`elif` chain of such arms under a valuation of its tests. */
  function Run(val: Expr -> bool, s: Stmt): Option<Expr>
  {
    match s
    case If(test, body, orelse) =>
      if Truth(val, test) then ArmValue(body)
      else if orelse.Elif? then Run(val, orelse.branch)
      else None
    case _ => None
  }

  /**
   * The chain copies in the value of the first return, in the order the
   * returns were met, whose whole condition stack holds; when none holds
   * it copies nothing. This is the entry `ssa.py`'s fold selects from the
   * same guard sequence.
   */
  lemma {:induction false} ChainPicks(val: Expr -> bool, conds: seq<seq<Expr>>, i: nat)
    requires val(Lit("True")) && i < |conds|
    ensures Run(val, Chain(conds, i)) == Pick(val, ReturnsSeq(MoverNaming(), conds)[i..])
    decreases |conds| - i
  {
    ReduceTruth(val, conds[i]);
    var s := ReturnsSeq(MoverNaming(), conds)[i..];
    assert s[0] == Guarded(conds[i], LoadName(ReturnName(MoverNaming(), i)));
    if i + 1 < |conds| {
      ChainPicks(val, conds, i + 1);
      assert s[1..] == ReturnsSeq(MoverNaming(), conds)[i + 1..];
    } else {
      assert s[1..] == [];
    }
  }

  // ---------------------------------------------------------------------
  // Returns become assignments that can be read back
  // ---------------------------------------------------------------------

  /**
   * Each return of the body became an assignment to a `__return_value`
   * name: when no name of the body starts with that prefix, turning those
   * assignments back into returns gives the original body (with bare
   * `return`s written `return None`).
   */
  lemma MovedRestores(tree: Stmt)
    requires tree.Def? && FreeNames.PrefixFree(UsedNames.BlockNames(tree.body), ValuePrefix)
    ensures RestoreBlock(FlattenBlock(tree.body, MoverNaming(), [], Acc([], {})).code, MoverNaming()) == ExplicitBlock(tree.body)
  {
    BlockRestored(tree.body, MoverNaming(), [], Acc([], {}));
  }
}

=== FILE: ssa_examples.dfy ===
/**
 * The renamer on the body `tests/test_ssa.py` expects for a reassigned
 * argument, after the tests are named and the return is flattened:
 *
 *     _cond_0 = b                      _cond_0 = b
 *     if _cond_0:                      a_0 = len(a)
 *         a = len(a)          ==>      a_1 = a_0 if _cond_0 else a
 *     __0_return_0 = a                 __0_return_0 = a_1
 *     return __0_return_0              return __0_return_0
 */
module SsaExamples {
  import opened Results
  import opened Syntax
  import opened Strings
  import FreeNames
  import UsedNames
  import opened SsaRenaming
  import Seqs

  const Cond: string := "_cond_0"
  const Ret: string := "__0_return_0"

  function ExampleConfig(): Config
  {
    Config({"foo", "len", "bar"}, {"len", "bar"}, {Cond, Ret}, {}, true)
  }

  function Len(x: Expr): Expr { Call(LoadName("len"), [x], []) }

  function Branch(): Block
  {
    Indented([AssignLine(StoreName("a"), Len(LoadName("a")))])
  }

  function TheIfStmt(): Stmt
  {
    If(LoadName(Cond), Branch(), NoElse)
  }

  function Before(): seq<Stmt>
  {
    [ AssignLine(StoreName(Cond), LoadName("b")),
      TheIfStmt(),
      AssignLine(StoreName(Ret), LoadName("a")),
      Line([Return(Some(LoadName(Ret)))]) ]
  }

  function After(): seq<Stmt>
  {
    [ AssignLine(StoreName(Cond), LoadName("b")),
      AssignLine(StoreName("a_0"), Len(LoadName("a"))),
      MuxLine("a_1", LoadName(Cond), "a_0", "a"),
      AssignLine(StoreName(Ret), LoadName("a_1")),
      Line([Return(Some(LoadName(Ret)))]) ]
  }

  lemma ExprsOne(e: Expr, c: Config, st: St)
    requires |st.table| > 0
    ensures var h := RenameExpr(e, c, st);
      RenameExprs([e], c, st) == if h.Ok? then Ok(Out([h.value.code], h.value.st)) else Err(h.error)
  {
    assert [e][1..] == [];
    var h := RenameExpr(e, c, st);
    if h.Ok? {
      assert [h.value.code] + [] == [h.value.code];
    }
  }

  lemma SmallsOne(s: Small, c: Config, st: St)
    requires |st.table| > 0
    ensures var h := RenameSmall(s, c, st);
      RenameSmalls([s], c, st) == if h.Ok? then Ok(Out([h.value.code], h.value.st)) else Err(h.error)
  {
    assert [s][1..] == [];
    var h := RenameSmall(s, c, st);
    if h.Ok? {
      assert [h.value.code] + [] == [h.value.code];
    }
  }

  lemma StmtsOne(s: Stmt, c: Config, st: St)
    requires |st.table| > 0
    ensures var h := RenameStmt(s, c, st);
      RenameStmts([s], c, st) == if h.Ok? then Ok(Out(h.value.code, h.value.st)) else Err(h.error)
  {
    assert [s][1..] == [];
    var h := RenameStmt(s, c, st);
    if h.Ok? {
      assert h.value.code + [] == h.value.code;
    }
  }

  lemma VersionsOfA()
    ensures Version(ExampleConfig(), "a", 0) == "a_0"
    ensures Version(ExampleConfig(), "a", 1) == "a_1"
  {
    var c := ExampleConfig();
    assert FreeNames.PrefixFree(c.taken, "a_") by {
      assert "foo"[0] != 'a' && "len"[0] != 'a' && "bar"[0] != 'a';
    }
    assert VersionPrefix(c, "a") == "a_";
    assert Str(0) == "0" && Str(1) == "1";
  }

  /** The first line only reads the parameter `b` and writes a condition name. */
  lemma FirstLine(st: St)
    requires |st.table| > 0 && Lookup(st.table, "b") == Some("b")
    ensures RenameStmt(Before()[0], ExampleConfig(), st) == Ok(Out([Before()[0]], st))
  {
    var c := ExampleConfig();
    assert RenameExpr(LoadName("b"), c, st) == Ok(Out(LoadName("b"), st));
    ExprsOne(StoreName(Cond), c, st);
    var smalls := Before()[0].smalls;
    SmallsOne(smalls[0], c, st);
  }

  /** Inside the branch `a = len(a)` reads the parameter and mints `a_0`. */
  lemma BranchBody(st: St)
    requires |st.table| > 0 && st.table[0] == map[]
    requires Lookup(st.table, "a") == Some("a") && Lookup(st.table, "len") == Some("len") && Count(st, "a") == 0
    ensures var r := RenameBlock(Branch(), ExampleConfig(), st);
      r.Ok? && r.value.code == [AssignLine(StoreName("a_0"), Len(LoadName("a")))]
      && r.value.st.table[0] == map["a" := "a_0"] && r.value.st.idx == st.idx["a" := 1]
  {
    var c := ExampleConfig();
    var line := AssignLine(StoreName("a"), Len(LoadName("a")));
    BranchLine(st);
    StmtsOne(line, c, st);
    VersionsOfA();
    MintFirst(c, "a", st);
    var m := Mint(c, "a", st);
    assert RenameBlock(Branch(), c, st) == Ok(Out([AssignLine(StoreName("a_0"), Len(LoadName("a")))], m.st));
  }

  /** The first version of a name: bound in the innermost map and counted once. */
  lemma MintFirst(c: Config, n: string, st: St)
    requires |st.table| > 0 && Count(st, n) == 0
    ensures Mint(c, n, st).st.idx == st.idx[n := 1]
    ensures Mint(c, n, st).st.table[0] == st.table[0][n := Version(c, n, 0)]
  {
  }

  /** The branch's one line, renamed: the read keeps the parameter, the store mints. */
  lemma BranchLine(st: St)
    requires |st.table| > 0
    requires Lookup(st.table, "a") == Some("a") && Lookup(st.table, "len") == Some("len") && Count(st, "a") == 0
    ensures RenameStmt(AssignLine(StoreName("a"), Len(LoadName("a"))), ExampleConfig(), st)
      == Ok(Out([AssignLine(StoreName("a_0"), Len(LoadName("a")))], Mint(ExampleConfig(), "a", st).st))
  {
    var c := ExampleConfig();
    VersionsOfA();
    ExprsOne(LoadName("a"), c, st);
    assert RenameExpr(Len(LoadName("a")), c, st) == Ok(Out(Len(LoadName("a")), st));
    var m := Mint(c, "a", st);
    assert m.code == "a_0";
    ExprsOne(StoreName("a"), c, st);
    SmallsOne(Assign([StoreName("a")], Len(LoadName("a"))), c, st);
    assert RenameSmalls([Assign([StoreName("a")], Len(LoadName("a")))], c, st)
      == Ok(Out([Assign([StoreName("a_0")], Len(LoadName("a")))], m.st));
  }

  /** After the branch, `a` was bound in the body and outside, so one mux mints `a_1`. */
  lemma TheJoin(st: St, test: Expr)
    requires |st.table| > 0 && Lookup(st.table, "a") == Some("a") && Count(st, "a") == 1
    ensures var r := Muxes(SortedSet({"a"}), test, map["a" := "a_0"], map[], ExampleConfig(), st);
      r.code == [MuxLine("a_1", test, "a_0", "a")] && Lookup(r.st.table, "a") == Some("a_1")
  {
    var c := ExampleConfig();
    VersionsOfA();
    var names := SortedSet({"a"});
    assert names == ["a"] by {
      assert |names| == 1 && "a" in names;
    }
    var h := MuxOne("a", test, map["a" := "a_0"], map[], c, st);
    assert h.code == [MuxLine("a_1", test, "a_0", "a")];
    assert names[1..] == [];
    assert Lookup(h.st.table, "a") == Some("a_1");
  }

  /** The state after the join, with `st` the state before the `if`. */
  function AfterJoin(st: St): St
    requires |st.table| > 0
  {
    Muxes(SortedSet({"a"}), LoadName(Cond), map["a" := "a_0"], map[], ExampleConfig(), St(st.table, st.idx["a" := 1])).st
  }

  lemma IfBody(st: St)
    requires |st.table| > 0 && Count(st, "a") == 0
    requires Lookup(st.table, "a") == Some("a") && Lookup(st.table, "len") == Some("len")
    ensures RenameBlock(Branch(), ExampleConfig(), St([map[]] + st.table, st.idx))
      == Ok(Out([AssignLine(StoreName("a_0"), Len(LoadName("a")))], St([map["a" := "a_0"]] + st.table, st.idx["a" := 1])))
  {
    var inner := St([map[]] + st.table, st.idx);
    assert inner.table[1..] == st.table;
    BranchBody(inner);
    var r := RenameBlock(Branch(), ExampleConfig(), inner).value;
    assert r.st.table == [r.st.table[0]] + r.st.table[1..];
  }

  lemma IfJoin(st: St)
    requires |st.table| > 0 && Lookup(st.table, "a") == Some("a")
    ensures var empty: map<string, string> := map[];
      Join(TheIfStmt(), LoadName(Cond), map["a" := "a_0"], empty, ExampleConfig(), St(st.table, st.idx["a" := 1]))
      == Out([MuxLine("a_1", LoadName(Cond), "a_0", "a")], AfterJoin(st))
    ensures Lookup(AfterJoin(st).table, "a") == Some("a_1")
  {
    var empty: map<string, string> := map[];
    var tmap := map["a" := "a_0"];
    assert tmap.Keys + empty.Keys == {"a"};
    TheJoin(St(st.table, st.idx["a" := 1]), LoadName(Cond));
  }

  /** `RenameIf` from the results of its three parts. */
  lemma RenameIfParts(s: Stmt, c: Config, st: St, nt: Out<Expr>, tb: Out<seq<Stmt>>, fb: Out<seq<Stmt>>)
    requires s.If? && !s.orelse.Elif? && |st.table| > 0
    requires RenameExpr(s.test, c, st) == Ok(nt) && |nt.st.table| > 0
    requires RenameBlock(s.body, c, St([map[]] + nt.st.table, nt.st.idx)) == Ok(tb) && |tb.st.table| > 0
    requires RenameElse(s.orelse, c, St([map[]] + nt.st.table, tb.st.idx)) == Ok(fb) && |fb.st.table| > 0
    ensures var j := Join(s, nt.code, tb.st.table[0], fb.st.table[0], c, St(nt.st.table, fb.st.idx));
      RenameIf(s, c, st) == Ok(Out(tb.code + fb.code + j.code, j.st))
  {
  }

  /** The two lines the `if` becomes: the renamed arm and the multiplexer. */
  function IfCode(): seq<Stmt>
  {
    [AssignLine(StoreName("a_0"), Len(LoadName("a"))), MuxLine("a_1", LoadName(Cond), "a_0", "a")]
  }

  lemma TheIf(st: St)
    requires |st.table| > 0 && Count(st, "a") == 0
    requires Lookup(st.table, "a") == Some("a") && Lookup(st.table, "len") == Some("len")
    ensures RenameIf(TheIfStmt(), ExampleConfig(), st) == Ok(Out(IfCode(), AfterJoin(st)))
    ensures Lookup(AfterJoin(st).table, "a") == Some("a_1")
  {
    var s := TheIfStmt();
    var c := ExampleConfig();
    var test := LoadName(Cond);
    var idx1 := st.idx["a" := 1];
    assert RenameExpr(test, c, st) == Ok(Out(test, st));
    IfBody(st);
    var tb := Out([AssignLine(StoreName("a_0"), Len(LoadName("a")))], St([map["a" := "a_0"]] + st.table, idx1));
    var fb := Out([], St([map[]] + st.table, idx1));
    assert RenameElse(NoElse, c, St([map[]] + st.table, idx1)) == Ok(fb);
    RenameIfParts(s, c, st, Out(test, st), tb, fb);
    IfJoin(st);
    IfCodeParts();
  }

  lemma IfCodeParts()
    ensures [AssignLine(StoreName("a_0"), Len(LoadName("a")))] + [] + [MuxLine("a_1", LoadName(Cond), "a_0", "a")] == IfCode()
  {
  }

  lemma Tail(st: St)
    requires |st.table| > 0 && Lookup(st.table, "a") == Some("a_1")
    ensures RenameStmts(Before()[2..], ExampleConfig(), st) == Ok(Out(After()[3..], st))
  {
    var c := ExampleConfig();
    assert RenameExpr(LoadName("a"), c, st) == Ok(Out(LoadName("a_1"), st));
    ExprsOne(StoreName(Ret), c, st);
    SmallsOne(Before()[2].smalls[0], c, st);
    assert RenameStmt(Before()[2], c, st) == Ok(Out([After()[3]], st));
    assert RenameExpr(LoadName(Ret), c, st) == Ok(Out(LoadName(Ret), st));
    SmallsOne(Return(Some(LoadName(Ret))), c, st);
    assert RenameStmt(Before()[3], c, st) == Ok(Out([After()[4]], st));
    assert Before()[2..][1..] == [Before()[3]];
    StmtsOne(Before()[3], c, st);
    assert After()[3..] == [After()[3]] + [After()[4]];
  }

  /** `tests/test_ssa.py`'s expected output for the reassigned argument, from the renamer's side. */
  lemma ReassignedArgument()
    ensures RenameDef(Def("foo", ["a", "b"], [], Indented(Before()), false), ExampleConfig())
      == Ok(Def("foo", ["a", "b"], [], Indented(After()), false))
  {
    var c := ExampleConfig();
    var st := St(InitialTable(c.env, ["a", "b"]), map[]);
    FirstLine(st);
    TheIf(st);
    var r1 := RenameStmt(TheIfStmt(), c, st).value;
    Tail(r1.st);
    var ss := Before();
    assert ss[1..][0] == TheIfStmt() && ss[1..][1..] == ss[2..];
    assert RenameStmts(ss[1..], c, st) == Ok(Out(r1.code + After()[3..], r1.st));
    assert RenameStmts(ss, c, st) == Ok(Out([After()[0]] + (r1.code + After()[3..]), r1.st));
    AfterMiddle();
    Seqs.HeadMidTail(After(), r1.code, 3);
  }

  /** The two lines the `if` becomes, in the expected output. */
  lemma AfterMiddle()
    ensures After()[1..3] == IfCode()
  {
    var a := After();
    assert a[1..3][0] == a[1] && a[1..3][1] == a[2];
  }

  /* ----- A version that collides with a parameter ----- */

  /** `def f(a, a_0): a = 1; return a_0` */
  function ClashBody(): seq<Stmt>
  {
    [AssignLine(StoreName("a"), Lit("1")), Line([Return(Some(LoadName("a_0")))])]
  }

  /** The renamer as `rewrite` configures it: versions avoid only the function's own name. */
  function ClashConfig(): Config
  {
    Config(UsedNames.StmtNames(Def("f", ["a", "a_0"], [], Indented(ClashBody()), false)), {}, {}, {}, true)
  }

  lemma ClashVersion()
    ensures Version(ClashConfig(), "a", 0) == "a_0"
  {
    var c := ClashConfig();
    assert c.taken == {"f"};
    assert FreeNames.PrefixFree(c.taken, "a_") by {
      assert "f"[0] != 'a';
    }
    assert Str(0) == "0";
  }

  /**
   * The store to `a` is renamed to `a_0`, the very name of the second
   * parameter, so the rewritten function returns 1 instead of its second
   * argument.
   */
  /** The first line of the clash body stores `a` as `a_0`, which leaves the parameter `a_0` bound to itself. */
  lemma ClashFirst(st: St)
    requires st == St(InitialTable(ClashConfig().env, ["a", "a_0"]), map[])
    ensures var m := Mint(ClashConfig(), "a", st);
      m.code == "a_0" && Lookup(m.st.table, "a_0") == Some("a_0")
      && RenameStmt(ClashBody()[0], ClashConfig(), st) == Ok(Out([AssignLine(StoreName("a_0"), Lit("1"))], m.st))
  {
    var c := ClashConfig();
    ClashVersion();
    assert RenameExpr(Lit("1"), c, st) == Ok(Out(Lit("1"), st));
    var m := Mint(c, "a", st);
    assert m.code == "a_0";
    ExprsOne(StoreName("a"), c, st);
    SmallsOne(Assign([StoreName("a")], Lit("1")), c, st);
  }

  lemma VersionClash()
    ensures RenameDef(Def("f", ["a", "a_0"], [], Indented(ClashBody()), false), ClashConfig())
      == Ok(Def("f", ["a", "a_0"], [], Indented([AssignLine(StoreName("a_0"), Lit("1")), Line([Return(Some(LoadName("a_0")))])]), false))
  {
    var c := ClashConfig();
    var d := Def("f", ["a", "a_0"], [], Indented(ClashBody()), false);
    var st := St(InitialTable(c.env, d.params), map[]);
    ClashFirst(st);
    var m := Mint(c, "a", st);
    assert RenameExpr(LoadName("a_0"), c, m.st) == Ok(Out(LoadName("a_0"), m.st));
    SmallsOne(Return(Some(LoadName("a_0"))), c, m.st);
    var second := ClashBody()[1];
    assert RenameStmt(second, c, m.st) == Ok(Out([second], m.st));
    StmtsOne(second, c, m.st);
    assert ClashBody()[1..] == [second];
    assert RenameStmts(ClashBody()[1..], c, m.st) == Ok(Out([second], m.st));
    assert RenameStmts(ClashBody(), c, st) == Ok(Out([AssignLine(StoreName("a_0"), Lit("1"))] + [second], m.st));
    assert RenameDef(d, c) == Ok(Def("f", ["a", "a_0"], [], Indented([AssignLine(StoreName("a_0"), Lit("1"))] + [second]), false));
    assert [AssignLine(StoreName("a_0"), Lit("1"))] + [second] == [AssignLine(StoreName("a_0"), Lit("1")), Line([Return(Some(LoadName("a_0")))])];
  }
}

=== FILE: ssa_pipeline.dfy ===
/**
 * `ssa.rewrite` of `passes/ssa.py`: the whole pass on one function
 * definition. The stages run in this order:
 *
 *   1. the written attributes are hoisted into local aliases, read at entry;
 *   2. every `if` test is named by `NameTests`;
 *   3. `elif` becomes `else: if` (`ElifToElse`);
 *   4. every `return` is flattened by `SingleReturn`, whose tail holds the
 *      attribute write-backs and the one folded `return`;
 *   5. the body `init reads + flattened body + tail` is renamed by
 *      `SSATransformer`, the names minted by stages 2 and 4 being final.
 *
 * Every free prefix (`_attr`, `_cond`, `__` and the version prefixes of
 * the renamer) is computed against `used_names` of the definition, which
 * does not enter the definition's body: `Policy.AsWritten` models that.
 * `Policy.Corrected` computes them against every name of the definition
 * and also makes the attribute aliases distinct.
 */
module SsaPipeline {
  import opened Results
  import opened Syntax
  import opened Strings
  import FreeNames
  import UsedNames
  import NameTests
  import Normalizers
  import ReturnFlattening
  import opened AttrHoisting
  import SsaRenaming
  import SsaProperties

  const NotAFunction: string := "ssa must be run on a FunctionDef"
  const OneLineBody: string := "one-line function body"

  /** The names a free prefix is checked against, besides the environment. */
  function ScopeNames(policy: Policy, def: Stmt): set<string>
  {
    if policy.AsWritten? then UsedNames.StmtNames(def) else DeepStmt(def)
  }

  /** `gen_free_prefix(def, env, pre)` */
  function Prefix(policy: Policy, def: Stmt, env: set<string>, pre: string): (r: string)
    ensures FreeNames.PrefixFree(ScopeNames(policy, def) + env, r)
    ensures policy.AsWritten? ==> r == FreeNames.GenFreePrefix(def, env, Some(pre))
  {
    FreeNames.FreePrefixIn(ScopeNames(policy, def) + env, Some(pre))
  }

  /** The names `NameTests` introduced: `<pre>0`, ..., `<pre>(k-1)`. */
  function CondNames(pre: string, k: nat): set<string>
  {
    set i: nat | i < k :: NameTests.CondName(pre, i)
  }

  /** Everything `rewrite` builds before the renamer runs. */
  datatype Prepared = Prepared(hoisted: Hoisted, def: Stmt, config: SsaRenaming.Config)

  /** Stage 1: the aliases of the written attributes. */
  function Hoist(policy: Policy, tree: Stmt, env: set<string>): (r: Result<Hoisted>)
    ensures r.Err? <==> exists w | w in StmtWritten(tree) :: !w.owner.Name?
    ensures r.Err? ==> r.error == NotImplementedError(NonNameWrite)
    ensures r.Ok? ==> Wf(r.value) && forall w :: w in r.value.attrs <==> w in StmtWritten(tree)
  {
    HoistOutcome(StmtWritten(tree), Prefix(policy, tree, env, "_attr"), policy, NoneHoisted);
    HoistAttrs(StmtWritten(tree), Prefix(policy, tree, env, "_attr"), policy, NoneHoisted)
  }

  /** The outcome of stages 2 and 3: the definition and the naming of its tests. */
  datatype Named = Named(def: Stmt, pre: string, count: nat)

  /** Stages 2 and 3 on the definition whose attributes were replaced. */
  function NameAndNormalize(policy: Policy, replaced: Stmt, env: set<string>): (r: Named)
    requires replaced.Def?
    ensures r.def.Def? && r.def.name == replaced.name && r.def.params == replaced.params
  {
    var pre := Prefix(policy, replaced, env, "_cond") + "_";
    var named := NameTests.TestsStmt(replaced, pre, 0);
    Named(Normalizers.ElifStmt(named.code[0]), pre, named.next)
  }

  /** The body handed to the renamer and the renamer's configuration. */
  function Assemble(policy: Policy, h: Hoisted, flat: ReturnFlattening.Flattened, conds: set<string>,
                    env: set<string>, builtins: set<string>, strict: bool): (r: Result<Prepared>)
    requires flat.def.Def? && forall w | w in h.attrs :: w in h.table
    ensures r.Ok? ==> r.value.def.Def? && r.value.def.body.Indented? && r.value.hoisted == h
    ensures r.Ok? ==> r.value.def.name == flat.def.name && r.value.def.params == flat.def.params
    ensures r.Ok? ==> var c := r.value.config;
      && c.env == env + builtins && c.strict == strict
      && c.taken == ScopeNames(policy, r.value.def) + env + builtins + (if policy.Corrected? then c.finals else {})
    ensures r.Ok? ==> |h.attrs| <= |r.value.def.body.stmts| && r.value.def.body.stmts[..|h.attrs|] == InitReads(h)
  {
    match flat.def.body
    case Inline(_) => Err(Unmodelled(OneLineBody))
    case Indented(stmts) =>
      var body := InitReads(h) + stmts + flat.tail;
      assert body[..|h.attrs|] == InitReads(h);
      var ssaDef := ReturnFlattening.WithBody(flat.def, Indented(body));
      var finals := flat.added + conds;
      var taken := ScopeNames(policy, ssaDef) + env + builtins + (if policy.Corrected? then finals else {});
      Ok(Prepared(h, ssaDef, SsaRenaming.Config(taken, env + builtins, finals, flat.returning, strict)))
  }

  /**
   * Stages 1-4 and the configuration of the renamer. `env` is the
   * symbol table's names, `builtins` the names the renamer adds to it.
   */
  function Prepare(policy: Policy, tree: Stmt, env: set<string>, builtins: set<string>, strict: bool): (r: Result<Prepared>)
    ensures r.Ok? ==> tree.Def? && r.value.def.Def? && r.value.def.body.Indented?
    ensures r.Ok? ==> r.value.def.name == tree.name && r.value.def.params == tree.params
    ensures r.Ok? ==> var c := r.value.config;
      && c.env == env + builtins && c.strict == strict
      && c.taken == ScopeNames(policy, r.value.def) + env + builtins + (if policy.Corrected? then c.finals else {})
    ensures r.Ok? ==> var h := r.value.hoisted;
      && Wf(h) && (forall w :: w in h.attrs <==> w in StmtWritten(tree))
      && |h.attrs| <= |r.value.def.body.stmts| && r.value.def.body.stmts[..|h.attrs|] == InitReads(h)
  {
    if !tree.Def? then Err(TypeError(NotAFunction))
    else
      var h :- Hoist(policy, tree, env);
      var n := NameAndNormalize(policy, ReplaceStmt(tree, h.table), env);
      var flat :- ReturnFlattening.FlattenDef(n.def, Prefix(policy, n.def, env, "__"), h.aliases, strict);
      Assemble(policy, h, flat, CondNames(n.pre, n.count), env, builtins, strict)
  }

  /** `ssa(strict).rewrite(tree, env)` */
  function Rewrite(policy: Policy, tree: Stmt, env: set<string>, builtins: set<string>, strict: bool): (r: Result<Stmt>)
  {
    var p :- Prepare(policy, tree, env, builtins, strict);
    SsaRenaming.RenameDef(p.def, p.config)
  }

  // ---------------------------------------------------------------------
  // Properties
  // ---------------------------------------------------------------------

  /**
   * Only a function definition is accepted. Of a definition, the first
   * stage raises `NotImplementedError` exactly when some attribute is
   * written through an owner that is not a bare name, and raises nothing
   * else.
   */
  lemma EntryErrors(policy: Policy, tree: Stmt, env: set<string>, builtins: set<string>, strict: bool)
    ensures !tree.Def? ==> Rewrite(policy, tree, env, builtins, strict) == Err(TypeError(NotAFunction))
    ensures tree.Def? ==>
      (Prepare(policy, tree, env, builtins, strict) == Err(NotImplementedError(NonNameWrite)) <==> exists w | w in StmtWritten(tree) :: !w.owner.Name?)
    ensures tree.Def? && (exists w | w in StmtWritten(tree) :: !w.owner.Name?) ==>
      Rewrite(policy, tree, env, builtins, strict) == Err(NotImplementedError(NonNameWrite))
  {
    if tree.Def? {
      assert Prepare(policy, tree, env, builtins, strict).Err? ==> Rewrite(policy, tree, env, builtins, strict) == Prepare(policy, tree, env, builtins, strict).PropagateFailure();
    }
  }

  /**
   * A successful rewrite is the same function whose body is straight-line
   * code (lines and nested definitions only) in which every name that is
   * not final is stored exactly once, each time under a fresh version.
   */
  lemma RewriteSingleAssignment(policy: Policy, tree: Stmt, env: set<string>, builtins: set<string>, strict: bool)
    ensures var r := Rewrite(policy, tree, env, builtins, strict);
      r.Ok? ==>
        && r.value.Def? && r.value.name == tree.name && r.value.params == tree.params
        && r.value.body.Indented? && SsaRenaming.Linear(r.value.body.stmts)
    ensures var p := Prepare(policy, tree, env, builtins, strict);
      var r := Rewrite(policy, tree, env, builtins, strict);
      r.Ok? ==>
        var stores := SsaProperties.StmtsStores(p.value.config.finals, r.value.body.stmts);
        forall v | v in stores :: stores[v] == 1 && exists n: string, k: nat :: v == SsaRenaming.Version(p.value.config, n, k)
  {
    var p := Prepare(policy, tree, env, builtins, strict);
    if p.Ok? {
      assert Rewrite(policy, tree, env, builtins, strict) == SsaRenaming.RenameDef(p.value.def, p.value.config);
      SsaProperties.SingleAssignment(p.value.def, p.value.config);
    }
  }

  /**
   * With the correction, renaming a body without branches only renames:
   * taking every name of the output back to its origin gives the body
   * handed to the renamer.
   */
  lemma CorrectedErases(tree: Stmt, env: set<string>, builtins: set<string>, strict: bool)
    ensures var p := Prepare(Corrected, tree, env, builtins, strict);
      var r := Rewrite(Corrected, tree, env, builtins, strict);
      p.Ok? && SsaProperties.StraightLine(p.value.def.body.stmts) && r.Ok? ==>
        r.value.body.Indented? && SsaProperties.EraseLines(p.value.config, r.value.body.stmts) == p.value.def.body.stmts
  {
    var p := Prepare(Corrected, tree, env, builtins, strict);
    if p.Ok? && SsaProperties.StraightLine(p.value.def.body.stmts) {
      var d := p.value.def;
      assert Rewrite(Corrected, tree, env, builtins, strict) == SsaRenaming.RenameDef(d, p.value.config);
      StmtsNamesDeep(d.body.stmts);
      assert DeepBlock(d.body) <= DeepStmt(d);
      assert forall x | x in d.params :: x in DeepStmt(d);
      SsaProperties.DefErases(d, p.value.config);
    }
  }
}

=== FILE: ssa_properties.dfy ===
/**
 * What the SSA renamer guarantees: versions of different names, or
 * different versions of one name, never coincide; every assignment target
 * the renamer writes is a version minted by this walk and is written once;
 * the table after a join binds each name as the four-way rule says; and on
 * straight-line code, mapping every version back to its origin gives the
 * input back.
 */
module SsaProperties {
  import opened Results
  import opened Syntax
  import opened Strings
  import FreeNames
  import UsedNames
  import opened SsaRenaming

  predicate AllDigits(s: string)
  {
    forall i | 0 <= i < |s| :: IsDigit(s[i])
  }

  /** A version of `n` is `n`, an underscore, and a nonempty run of digits. */
  lemma VersionShape(c: Config, n: string, k: nat)
    ensures var v := Version(c, n, k);
      |n| + 1 < |v| && v[..|n|] == n && v[|n|] == '_' && AllDigits(v[|n| + 1..])
  {
    var pre := n + "_";
    var p := VersionPrefix(c, n);
    var v := Version(c, n, k);
    var d: string;
    if FreeNames.PrefixFree(c.taken, pre) {
      d := Str(k);
    } else {
      var j: nat :| p == pre + Str(j);
      d := Str(j) + Str(k);
    }
    assert v == n + "_" + d;
    assert v[|n| + 1..] == d;
  }

  /** `_make_name` never mints the same name twice. */
  lemma VersionInjective(c: Config, n: string, k: nat, m: string, j: nat)
    requires Version(c, n, k) == Version(c, m, j)
    ensures n == m && k == j
  {
    var v := Version(c, n, k);
    VersionShape(c, n, k);
    VersionShape(c, m, j);
    if |n| < |m| {
      assert false;
    }
    if |m| < |n| {
      assert false;
    }
    assert n == v[..|n|] == m;
    var p := VersionPrefix(c, n);
    assert Str(k) == v[|p|..] == Str(j);
    StrInjective(k, j);
  }

  /** The position of the last underscore of `v`, if any. */
  function LastUnderscore(v: string): (r: Option<nat>)
    ensures r.Some? ==> r.value < |v| && v[r.value] == '_' && forall i | r.value < i < |v| :: v[i] != '_'
    ensures r.None? ==> forall i | 0 <= i < |v| :: v[i] != '_'
    decreases |v|
  {
    if v == [] then None
    else if v[|v| - 1] == '_' then Some(|v| - 1)
    else LastUnderscore(v[..|v| - 1])
  }

  /**
   * The name a version was minted for: the text before the last underscore,
   * when the version prefix of that text starts the name and only digits
   * follow it. Any other name is its own origin.
   */
  function Origin(c: Config, v: string): string
  {
    match LastUnderscore(v)
    case None => v
    case Some(i) =>
      var n := v[..i];
      var p := VersionPrefix(c, n);
      if StartsWith(v, p) && |p| < |v| && AllDigits(v[|p|..]) then n else v
  }

  /** Every version leads back to the name it was minted for. */
  lemma OriginOfVersion(c: Config, n: string, k: nat)
    ensures Origin(c, Version(c, n, k)) == n
  {
    var v := Version(c, n, k);
    VersionShape(c, n, k);
    var u := LastUnderscore(v);
    assert u == Some(|n|);
    var p := VersionPrefix(c, n);
    assert v[..|n|] == n;
    assert v[|p|..] == Str(k);
  }

  /** A taken name is never mistaken for a version. */
  lemma OriginOfTaken(c: Config, x: string)
    requires x in c.taken
    ensures Origin(c, x) == x
  {
    match LastUnderscore(x)
    case None =>
    case Some(i) =>
      var p := VersionPrefix(c, x[..i]);
      assert FreeNames.PrefixFree(c.taken, p);
  }

  // ---------------------------------------------------------------------
  // Single assignment
  // ---------------------------------------------------------------------

  /** `v` is a version minted between index maps `a` and `b`. */
  ghost predicate MintedIn(c: Config, a: map<string, nat>, b: map<string, nat>, v: string)
  {
    exists n: string, k: nat | Uses(a, n) <= k < Uses(b, n) :: v == Version(c, n, k)
  }

  /** Every name of `vs` occurs once and was minted between `a` and `b`. */
  ghost predicate Fresh(c: Config, a: map<string, nat>, b: map<string, nat>, vs: multiset<string>)
  {
    forall v | v in vs :: vs[v] == 1 && MintedIn(c, a, b, v)
  }

  ghost predicate CountsLe(a: map<string, nat>, b: map<string, nat>)
  {
    forall n :: Uses(a, n) <= Uses(b, n)
  }

  lemma Widen(c: Config, a: map<string, nat>, b: map<string, nat>, a': map<string, nat>, b': map<string, nat>, vs: multiset<string>)
    requires Fresh(c, a, b, vs) && CountsLe(a', a) && CountsLe(b, b')
    ensures Fresh(c, a', b', vs)
  {
    forall v | v in vs ensures MintedIn(c, a', b', v) {
      var n: string, k: nat :| Uses(a, n) <= k < Uses(b, n) && v == Version(c, n, k);
      assert Uses(a', n) <= k < Uses(b', n);
    }
  }

  /** Names minted in consecutive stretches of the walk are distinct. */
  lemma Chain(c: Config, a: map<string, nat>, b: map<string, nat>, d: map<string, nat>, xs: multiset<string>, ys: multiset<string>)
    requires Fresh(c, a, b, xs) && Fresh(c, b, d, ys) && CountsLe(a, b) && CountsLe(b, d)
    ensures Fresh(c, a, d, xs + ys)
  {
    forall v | v in xs + ys ensures (xs + ys)[v] == 1 && MintedIn(c, a, d, v) {
      if v in xs && v in ys {
        var n: string, k: nat :| Uses(a, n) <= k < Uses(b, n) && v == Version(c, n, k);
        var m: string, j: nat :| Uses(b, m) <= j < Uses(d, m) && v == Version(c, m, j);
        VersionInjective(c, n, k, m, j);
        assert false;
      }
      if v in xs {
        var n: string, k: nat :| Uses(a, n) <= k < Uses(b, n) && v == Version(c, n, k);
        assert Uses(b, n) <= Uses(d, n);
      } else {
        var n: string, k: nat :| Uses(b, n) <= k < Uses(d, n) && v == Version(c, n, k);
        assert Uses(a, n) <= Uses(b, n);
      }
    }
  }

  /** The names an expression writes (store or delete context), outside `fin`. */
  function ExprStores(fin: set<string>, e: Expr): multiset<string>
  {
    match e
    case Name(id, ctx) => if ctx != Load && id !in fin then multiset{id} else multiset{}
    case Attr(owner, _) => ExprStores(fin, owner)
    case Unary(_, x) => ExprStores(fin, x)
    case BoolOp(_, vs) => ExprsStores(fin, vs)
    case BinOp(l, _, r) => ExprStores(fin, l) + ExprStores(fin, r)
    case Compare(l, _, r) => ExprStores(fin, l) + ExprStores(fin, r)
    case IfExp(t, b, o) => ExprStores(fin, t) + ExprStores(fin, b) + ExprStores(fin, o)
    case Call(f, args, kws) => ExprStores(fin, f) + ExprsStores(fin, args) + KeywordsStores(fin, kws)
    case Tuple(elts) => ExprsStores(fin, elts)
    case Lit(_) => multiset{}
  }

  function ExprsStores(fin: set<string>, es: seq<Expr>): multiset<string>
  {
    if es == [] then multiset{} else ExprStores(fin, es[0]) + ExprsStores(fin, es[1..])
  }

  function KeywordsStores(fin: set<string>, ks: seq<Keyword>): multiset<string>
  {
    if ks == [] then multiset{} else ExprStores(fin, ks[0].value) + KeywordsStores(fin, ks[1..])
  }

  /** The assignment targets of a statement: only an assignment's targets count. */
  function SmallStores(fin: set<string>, s: Small): multiset<string>
  {
    if s.Assign? then ExprsStores(fin, s.targets) else multiset{}
  }

  function SmallsStores(fin: set<string>, ss: seq<Small>): multiset<string>
  {
    if ss == [] then multiset{} else SmallStores(fin, ss[0]) + SmallsStores(fin, ss[1..])
  }

  function StmtStores(fin: set<string>, s: Stmt): multiset<string>
  {
    if s.Line? then SmallsStores(fin, s.smalls) else multiset{}
  }

  function StmtsStores(fin: set<string>, ss: seq<Stmt>): multiset<string>
  {
    if ss == [] then multiset{} else StmtStores(fin, ss[0]) + StmtsStores(fin, ss[1..])
  }

  lemma {:induction false} StmtsStoresAppend(fin: set<string>, a: seq<Stmt>, b: seq<Stmt>)
    ensures StmtsStores(fin, a + b) == StmtsStores(fin, a) + StmtsStores(fin, b)
    decreases |a|
  {
    if a == [] {
      assert a + b == b;
    } else {
      assert (a + b)[0] == a[0];
      assert (a + b)[1..] == a[1..] + b;
      StmtsStoresAppend(fin, a[1..], b);
    }
  }

  lemma {:induction false} ExprFresh(e: Expr, c: Config, st: St)
    requires |st.table| > 0
    ensures var r := RenameExpr(e, c, st);
      r.Ok? ==> Fresh(c, st.idx, r.value.st.idx, ExprStores(c.finals, r.value.code))
    decreases e, 1
  {
    var fin := c.finals;
    match e
    case Name(id, ctx) =>
      if id !in fin && ctx != Load {
        var m := Mint(c, id, st);
        assert MintedIn(c, st.idx, m.st.idx, m.code) by {
          assert Uses(st.idx, id) <= Count(st, id) < Uses(m.st.idx, id);
        }
      }
    case Attr(owner, _) =>
      ExprFresh(owner, c, st);
    case Unary(_, x) =>
      ExprFresh(x, c, st);
    case BoolOp(_, vs) =>
      ExprsFresh(vs, c, st);
    case BinOp(l, _, rt) =>
      ExprFresh(l, c, st);
      var a := RenameExpr(l, c, st);
      if a.Ok? {
        ExprFresh(rt, c, a.value.st);
        var b := RenameExpr(rt, c, a.value.st);
        if b.Ok? {
          Chain(c, st.idx, a.value.st.idx, b.value.st.idx, ExprStores(fin, a.value.code), ExprStores(fin, b.value.code));
        }
      }
    case Compare(l, _, rt) =>
      ExprFresh(l, c, st);
      var a := RenameExpr(l, c, st);
      if a.Ok? {
        ExprFresh(rt, c, a.value.st);
        var b := RenameExpr(rt, c, a.value.st);
        if b.Ok? {
          Chain(c, st.idx, a.value.st.idx, b.value.st.idx, ExprStores(fin, a.value.code), ExprStores(fin, b.value.code));
        }
      }
    case IfExp(test, body, orelse) =>
      ExprFresh(body, c, st);
      var b := RenameExpr(body, c, st);
      if b.Ok? {
        ExprFresh(test, c, b.value.st);
        var t := RenameExpr(test, c, b.value.st);
        if t.Ok? {
          ExprFresh(orelse, c, t.value.st);
          var o := RenameExpr(orelse, c, t.value.st);
          if o.Ok? {
            var bs, ts, os := ExprStores(fin, b.value.code), ExprStores(fin, t.value.code), ExprStores(fin, o.value.code);
            Chain(c, st.idx, b.value.st.idx, t.value.st.idx, bs, ts);
            Chain(c, st.idx, t.value.st.idx, o.value.st.idx, bs + ts, os);
            assert ts + bs + os == bs + ts + os;
          }
        }
      }
    case Call(f, args, kws) =>
      ExprFresh(f, c, st);
      var a := RenameExpr(f, c, st);
      if a.Ok? {
        ExprsFresh(args, c, a.value.st);
        var b := RenameExprs(args, c, a.value.st);
        if b.Ok? {
          KeywordsFresh(kws, c, b.value.st);
          var k := RenameKeywords(kws, c, b.value.st);
          if k.Ok? {
            var fs, as_, ks := ExprStores(fin, a.value.code), ExprsStores(fin, b.value.code), KeywordsStores(fin, k.value.code);
            Chain(c, st.idx, a.value.st.idx, b.value.st.idx, fs, as_);
            Chain(c, st.idx, b.value.st.idx, k.value.st.idx, fs + as_, ks);
          }
        }
      }
    case Tuple(elts) =>
      ExprsFresh(elts, c, st);
    case Lit(_) =>
  }

  lemma {:induction false} ExprsFresh(es: seq<Expr>, c: Config, st: St)
    requires |st.table| > 0
    ensures var r := RenameExprs(es, c, st);
      r.Ok? ==> Fresh(c, st.idx, r.value.st.idx, ExprsStores(c.finals, r.value.code))
    decreases es, 0
  {
    if es != [] {
      ExprFresh(es[0], c, st);
      var h := RenameExpr(es[0], c, st);
      if h.Ok? {
        ExprsFresh(es[1..], c, h.value.st);
        var t := RenameExprs(es[1..], c, h.value.st);
        if t.Ok? {
          var code := [h.value.code] + t.value.code;
          assert code[0] == h.value.code && code[1..] == t.value.code;
          Chain(c, st.idx, h.value.st.idx, t.value.st.idx, ExprStores(c.finals, h.value.code), ExprsStores(c.finals, t.value.code));
        }
      }
    }
  }

  lemma {:induction false} KeywordsFresh(ks: seq<Keyword>, c: Config, st: St)
    requires |st.table| > 0
    ensures var r := RenameKeywords(ks, c, st);
      r.Ok? ==> Fresh(c, st.idx, r.value.st.idx, KeywordsStores(c.finals, r.value.code))
    decreases ks, 0
  {
    if ks != [] {
      ExprFresh(ks[0].value, c, st);
      var h := RenameExpr(ks[0].value, c, st);
      if h.Ok? {
        KeywordsFresh(ks[1..], c, h.value.st);
        var t := RenameKeywords(ks[1..], c, h.value.st);
        if t.Ok? {
          var code := [Keyword(ks[0].arg, h.value.code)] + t.value.code;
          assert code[0].value == h.value.code && code[1..] == t.value.code;
          Chain(c, st.idx, h.value.st.idx, t.value.st.idx, ExprStores(c.finals, h.value.code), KeywordsStores(c.finals, t.value.code));
        }
      }
    }
  }

  lemma {:induction false} SmallFresh(s: Small, c: Config, st: St)
    requires |st.table| > 0
    ensures var r := RenameSmall(s, c, st);
      r.Ok? ==> Fresh(c, st.idx, r.value.st.idx, SmallStores(c.finals, r.value.code))
  {
    if s.Assign? {
      var v := RenameExpr(s.value, c, st);
      if v.Ok? {
        ExprsFresh(s.targets, c, v.value.st);
        var t := RenameExprs(s.targets, c, v.value.st);
        if t.Ok? {
          Widen(c, v.value.st.idx, t.value.st.idx, st.idx, t.value.st.idx, ExprsStores(c.finals, t.value.code));
        }
      }
    }
  }

  lemma {:induction false} SmallsFresh(ss: seq<Small>, c: Config, st: St)
    requires |st.table| > 0
    ensures var r := RenameSmalls(ss, c, st);
      r.Ok? ==> Fresh(c, st.idx, r.value.st.idx, SmallsStores(c.finals, r.value.code))
  {
    if ss != [] {
      SmallFresh(ss[0], c, st);
      var h := RenameSmall(ss[0], c, st);
      if h.Ok? {
        SmallsFresh(ss[1..], c, h.value.st);
        var t := RenameSmalls(ss[1..], c, h.value.st);
        if t.Ok? {
          var code := [h.value.code] + t.value.code;
          assert code[0] == h.value.code && code[1..] == t.value.code;
          Chain(c, st.idx, h.value.st.idx, t.value.st.idx, SmallStores(c.finals, h.value.code), SmallsStores(c.finals, t.value.code));
        }
      }
    }
  }

  lemma MuxLineStores(fin: set<string>, v: string, test: Expr, t: string, f: string)
    ensures StmtsStores(fin, [MuxLine(v, test, t, f)]) == if v in fin then multiset{} else multiset{v}
  {
    var s := MuxLine(v, test, t, f);
    assert SmallsStores(fin, s.smalls) == SmallStores(fin, s.smalls[0]) + SmallsStores(fin, []);
    assert ExprsStores(fin, [StoreName(v)]) == ExprStores(fin, StoreName(v)) + ExprsStores(fin, []);
  }

  lemma MuxOneFresh(n: string, test: Expr, t: map<string, string>, f: map<string, string>, c: Config, st: St)
    requires |st.table| > 0
    ensures var r := MuxOne(n, test, t, f, c, st);
      Fresh(c, st.idx, r.st.idx, StmtsStores(c.finals, r.code))
  {
    var outer := Lookup(st.table, n);
    if (n in t && n in f) || ((n in t || n in f) && outer.Some?) {
      var m := Mint(c, n, st);
      var tn := if n in t then t[n] else outer.value;
      var fn := if n in f then f[n] else outer.value;
      MuxLineStores(c.finals, m.code, test, tn, fn);
      assert MintedIn(c, st.idx, m.st.idx, m.code) by {
        assert Uses(st.idx, n) <= Count(st, n) < Uses(m.st.idx, n);
      }
    }
  }

  lemma {:induction false} MuxesFresh(names: seq<string>, test: Expr, t: map<string, string>, f: map<string, string>, c: Config, st: St)
    requires |st.table| > 0
    ensures var r := Muxes(names, test, t, f, c, st);
      Fresh(c, st.idx, r.st.idx, StmtsStores(c.finals, r.code))
  {
    if names != [] {
      var h := MuxOne(names[0], test, t, f, c, st);
      MuxOneFresh(names[0], test, t, f, c, st);
      MuxesFresh(names[1..], test, t, f, c, h.st);
      var rest := Muxes(names[1..], test, t, f, c, h.st);
      StmtsStoresAppend(c.finals, h.code, rest.code);
      Chain(c, st.idx, h.st.idx, rest.st.idx, StmtsStores(c.finals, h.code), StmtsStores(c.finals, rest.code));
    }
  }

  lemma JoinFresh(s: Stmt, test: Expr, t: map<string, string>, f: map<string, string>, c: Config, st: St)
    requires s.If? && |st.table| > 0
    ensures var r := Join(s, test, t, f, c, st);
      Fresh(c, st.idx, r.st.idx, StmtsStores(c.finals, r.code))
  {
    var tReturns := s.body in c.returning;
    var fReturns := s.orelse.Else? && s.orelse.block in c.returning;
    if !tReturns && !fReturns {
      MuxesFresh(SortedSet(t.Keys + f.Keys), test, t, f, c, st);
    }
  }

  lemma {:induction false} StmtFresh(s: Stmt, c: Config, st: St)
    requires |st.table| > 0
    ensures var r := RenameStmt(s, c, st);
      r.Ok? ==> Fresh(c, st.idx, r.value.st.idx, StmtsStores(c.finals, r.value.code))
    decreases s, 1
  {
    match s
    case Line(smalls) =>
      SmallsFresh(smalls, c, st);
      var o := RenameSmalls(smalls, c, st);
      if o.Ok? {
        assert StmtsStores(c.finals, [Line(o.value.code)]) == SmallsStores(c.finals, o.value.code) + StmtsStores(c.finals, []);
      }
    case If(_, _, _) => IfFresh(s, c, st);
    case Def(_, _, _, _, _) =>
      assert StmtsStores(c.finals, [s]) == StmtStores(c.finals, s) + StmtsStores(c.finals, []);
    case For(_, _, _, _) =>
    case While(_, _) =>
    case With(_, _, _) =>
    case Try(_, _) =>
    case Class(_, _, _) =>
  }

  lemma {:induction false} IfFresh(s: Stmt, c: Config, st: St)
    requires s.If? && |st.table| > 0
    ensures var r := RenameIf(s, c, st);
      r.Ok? ==> Fresh(c, st.idx, r.value.st.idx, StmtsStores(c.finals, r.value.code))
    decreases s, 0
  {
    if !s.orelse.Elif? {
      var fin := c.finals;
      var nt := RenameExpr(s.test, c, st);
      if nt.Ok? {
        var s1 := St([map[]] + nt.value.st.table, nt.value.st.idx);
        BlockFresh(s.body, c, s1);
        var tb := RenameBlock(s.body, c, s1);
        if tb.Ok? {
          var s2 := St([map[]] + nt.value.st.table, tb.value.st.idx);
          ElseFresh(s.orelse, c, s2);
          var fb := RenameElse(s.orelse, c, s2);
          if fb.Ok? {
            var back := St(nt.value.st.table, fb.value.st.idx);
            var j := Join(s, nt.value.code, tb.value.st.table[0], fb.value.st.table[0], c, back);
            JoinFresh(s, nt.value.code, tb.value.st.table[0], fb.value.st.table[0], c, back);
            var ts, fs, js := StmtsStores(fin, tb.value.code), StmtsStores(fin, fb.value.code), StmtsStores(fin, j.code);
            Chain(c, nt.value.st.idx, tb.value.st.idx, fb.value.st.idx, ts, fs);
            Chain(c, nt.value.st.idx, fb.value.st.idx, j.st.idx, ts + fs, js);
            Widen(c, nt.value.st.idx, j.st.idx, st.idx, j.st.idx, ts + fs + js);
            StmtsStoresAppend(fin, tb.value.code, fb.value.code);
            StmtsStoresAppend(fin, tb.value.code + fb.value.code, j.code);
          }
        }
      }
    }
  }

  lemma {:induction false} ElseFresh(o: OrElse, c: Config, st: St)
    requires |st.table| > 0 && !o.Elif?
    ensures var r := RenameElse(o, c, st);
      r.Ok? ==> Fresh(c, st.idx, r.value.st.idx, StmtsStores(c.finals, r.value.code))
    decreases o, 1
  {
    if o.Else? {
      BlockFresh(o.block, c, st);
    }
  }

  lemma {:induction false} StmtsFresh(ss: seq<Stmt>, c: Config, st: St)
    requires |st.table| > 0
    ensures var r := RenameStmts(ss, c, st);
      r.Ok? ==> Fresh(c, st.idx, r.value.st.idx, StmtsStores(c.finals, r.value.code))
    decreases ss, 1
  {
    if ss != [] {
      StmtFresh(ss[0], c, st);
      var h := RenameStmt(ss[0], c, st);
      if h.Ok? {
        StmtsFresh(ss[1..], c, h.value.st);
        var t := RenameStmts(ss[1..], c, h.value.st);
        if t.Ok? {
          StmtsStoresAppend(c.finals, h.value.code, t.value.code);
          Chain(c, st.idx, h.value.st.idx, t.value.st.idx, StmtsStores(c.finals, h.value.code), StmtsStores(c.finals, t.value.code));
        }
      }
    }
  }

  lemma {:induction false} BlockFresh(b: Block, c: Config, st: St)
    requires |st.table| > 0
    ensures var r := RenameBlock(b, c, st);
      r.Ok? ==> Fresh(c, st.idx, r.value.st.idx, StmtsStores(c.finals, r.value.code))
    decreases b, 1
  {
    match b
    case Indented(stmts) => StmtsFresh(stmts, c, st);
    case Inline(smalls) =>
      SmallsFresh(smalls, c, st);
      var o := RenameSmalls(smalls, c, st);
      if o.Ok? {
        assert StmtsStores(c.finals, [Line(o.value.code)]) == SmallsStores(c.finals, o.value.code) + StmtsStores(c.finals, []);
      }
  }

  /**
   * Single assignment: in the renamed body of a function, every assignment
   * target outside the names earlier steps introduced is written exactly
   * once, and is a version of some original name.
   */
  lemma SingleAssignment(def: Stmt, c: Config)
    requires def.Def? && def.body.Indented?
    ensures var r := RenameDef(def, c);
      r.Ok? ==> forall v | v in StmtsStores(c.finals, r.value.body.stmts) ::
        StmtsStores(c.finals, r.value.body.stmts)[v] == 1 && exists n: string, k: nat :: v == Version(c, n, k)
  {
    var st := St(InitialTable(c.env, def.params), map[]);
    StmtsFresh(def.body.stmts, c, st);
  }

  // ---------------------------------------------------------------------
  // The join
  // ---------------------------------------------------------------------

  lemma LookupAdopt(t: Table, b: map<string, string>, m: string)
    requires |t| > 0
    ensures Lookup(Adopt(t, b), m) == if m in b then Some(b[m]) else Lookup(t, m)
  {
    assert Adopt(t, b)[1..] == t[1..];
  }

  predicate Distinct(names: seq<string>)
  {
    forall i, j | 0 <= i < j < |names| :: names[i] != names[j]
  }

  /** The binding the four-way rule gives `n`, with `outer` its binding before the `if` and `minted` its next version. */
  ghost predicate JoinRule(n: string, t: map<string, string>, f: map<string, string>, strict: bool, outer: Option<string>, minted: string, now: Option<string>)
  {
    && (n in t && n in f ==> now == Some(minted))
    && ((n in t || n in f) && outer.Some? ==> now == Some(minted))
    && (n in t && n !in f && outer.None? ==> now == if strict then None else Some(t[n]))
    && (n !in t && n in f && outer.None? ==> now == if strict then None else Some(f[n]))
  }

  lemma MuxOneBind(n: string, test: Expr, t: map<string, string>, f: map<string, string>, c: Config, st: St)
    requires |st.table| > 0
    ensures var r := MuxOne(n, test, t, f, c, st);
      JoinRule(n, t, f, c.strict, Lookup(st.table, n), Version(c, n, Count(st, n)), Lookup(r.st.table, n))
    ensures var r := MuxOne(n, test, t, f, c, st);
      forall m | m != n :: Lookup(r.st.table, m) == Lookup(st.table, m) && Count(r.st, m) == Count(st, m)
  {
    var mt := Mint(c, n, st);
    forall m ensures Lookup(mt.st.table, m) == if m == n then Some(mt.code) else Lookup(st.table, m) {
      LookupBind(st.table, n, mt.code, m);
    }
    if n in t {
      forall m ensures Lookup(Bind(st.table, n, t[n]), m) == if m == n then Some(t[n]) else Lookup(st.table, m) {
        LookupBind(st.table, n, t[n], m);
      }
    }
    if n in f {
      forall m ensures Lookup(Bind(st.table, n, f[n]), m) == if m == n then Some(f[n]) else Lookup(st.table, m) {
        LookupBind(st.table, n, f[n], m);
      }
    }
  }

  /**
   * The four-way rule, name by name: a name bound in both arms, or in one
   * arm and outside, gets a new version; a name new in one arm only is
   * adopted in non-strict mode and left unbound in strict mode; every name
   * the loop does not visit keeps its binding and its count.
   */
  lemma {:induction false} MuxesBind(names: seq<string>, test: Expr, t: map<string, string>, f: map<string, string>, c: Config, st: St)
    requires |st.table| > 0 && Distinct(names)
    ensures var r := Muxes(names, test, t, f, c, st);
      forall n | n in names ::
        JoinRule(n, t, f, c.strict, Lookup(st.table, n), Version(c, n, Count(st, n)), Lookup(r.st.table, n))
    ensures var r := Muxes(names, test, t, f, c, st);
      forall n | n !in names :: Lookup(r.st.table, n) == Lookup(st.table, n) && Count(r.st, n) == Count(st, n)
  {
    if names != [] {
      var n0 := names[0];
      var h := MuxOne(n0, test, t, f, c, st);
      MuxOneBind(n0, test, t, f, c, st);
      var tail := names[1..];
      assert Distinct(tail) by {
        forall i, j | 0 <= i < j < |tail| ensures tail[i] != tail[j] {
          assert tail[i] == names[i + 1] && tail[j] == names[j + 1];
        }
      }
      assert n0 !in tail by {
        forall i | 0 <= i < |tail| ensures tail[i] != n0 {
          assert tail[i] == names[i + 1];
        }
      }
      MuxesBind(tail, test, t, f, c, h.st);
    }
  }

  /**
   * `leave_If`'s join: when both arms always return the outer table is
   * unchanged; when exactly one does, the outer table takes the other arm's
   * bindings as they are and no multiplexer is written.
   */
  lemma JoinReturning(s: Stmt, test: Expr, t: map<string, string>, f: map<string, string>, c: Config, st: St)
    requires s.If? && |st.table| > 0
    ensures var tReturns := s.body in c.returning;
      var fReturns := s.orelse.Else? && s.orelse.block in c.returning;
      var r := Join(s, test, t, f, c, st);
      && (tReturns && fReturns ==> r == Out([], st))
      && (tReturns && !fReturns ==> r.code == [] && forall n :: Lookup(r.st.table, n) == if n in f then Some(f[n]) else Lookup(st.table, n))
      && (!tReturns && fReturns ==> r.code == [] && forall n :: Lookup(r.st.table, n) == if n in t then Some(t[n]) else Lookup(st.table, n))
  {
    forall n ensures Lookup(Adopt(st.table, f), n) == (if n in f then Some(f[n]) else Lookup(st.table, n))
      && Lookup(Adopt(st.table, t), n) == (if n in t then Some(t[n]) else Lookup(st.table, n))
    {
      LookupAdopt(st.table, f, n);
      LookupAdopt(st.table, t, n);
    }
  }

  /** When neither arm always returns, the join applies the four-way rule to every name either arm bound, and to no other. */
  lemma JoinMuxes(s: Stmt, test: Expr, t: map<string, string>, f: map<string, string>, c: Config, st: St)
    requires s.If? && |st.table| > 0
    requires s.body !in c.returning && !(s.orelse.Else? && s.orelse.block in c.returning)
    ensures var r := Join(s, test, t, f, c, st);
      forall n | n in t || n in f ::
        JoinRule(n, t, f, c.strict, Lookup(st.table, n), Version(c, n, Count(st, n)), Lookup(r.st.table, n))
    ensures var r := Join(s, test, t, f, c, st);
      forall n | n !in t && n !in f :: Lookup(r.st.table, n) == Lookup(st.table, n)
  {
    var names := SortedSet(t.Keys + f.Keys);
    MuxesBind(names, test, t, f, c, st);
  }

  // ---------------------------------------------------------------------
  // Straight-line code: erasing versions gives the input back
  // ---------------------------------------------------------------------

  function EraseExpr(c: Config, e: Expr): Expr
  {
    match e
    case Name(id, ctx) => Name(Origin(c, id), ctx)
    case Attr(owner, field) => Attr(EraseExpr(c, owner), field)
    case Unary(op, x) => Unary(op, EraseExpr(c, x))
    case BoolOp(op, vs) => BoolOp(op, EraseExprs(c, vs))
    case BinOp(l, op, r) => BinOp(EraseExpr(c, l), op, EraseExpr(c, r))
    case Compare(l, op, r) => Compare(EraseExpr(c, l), op, EraseExpr(c, r))
    case IfExp(t, b, o) => IfExp(EraseExpr(c, t), EraseExpr(c, b), EraseExpr(c, o))
    case Call(fn, args, kws) => Call(EraseExpr(c, fn), EraseExprs(c, args), EraseKeywords(c, kws))
    case Tuple(elts) => Tuple(EraseExprs(c, elts))
    case Lit(_) => e
  }

  function EraseExprs(c: Config, es: seq<Expr>): (r: seq<Expr>)
    ensures |r| == |es|
  {
    if es == [] then [] else [EraseExpr(c, es[0])] + EraseExprs(c, es[1..])
  }

  function EraseKeywords(c: Config, ks: seq<Keyword>): (r: seq<Keyword>)
    ensures |r| == |ks|
  {
    if ks == [] then [] else [Keyword(ks[0].arg, EraseExpr(c, ks[0].value))] + EraseKeywords(c, ks[1..])
  }

  function EraseSmall(c: Config, s: Small): Small
  {
    match s
    case Assign(targets, value) => Assign(EraseExprs(c, targets), EraseExpr(c, value))
    case Return(r) => if r.Some? then Return(Some(EraseExpr(c, r.value))) else s
    case ExprStmt(x) => ExprStmt(EraseExpr(c, x))
    case Pass => s
    case Assert(x) => Assert(EraseExpr(c, x))
  }

  function EraseSmalls(c: Config, ss: seq<Small>): (r: seq<Small>)
    ensures |r| == |ss|
  {
    if ss == [] then [] else [EraseSmall(c, ss[0])] + EraseSmalls(c, ss[1..])
  }

  function EraseLines(c: Config, ss: seq<Stmt>): (r: seq<Stmt>)
    ensures |r| == |ss|
  {
    if ss == [] then []
    else [if ss[0].Line? then Line(EraseSmalls(c, ss[0].smalls)) else ss[0]] + EraseLines(c, ss[1..])
  }

  /** Every binding of the table is a name whose origin is the name it is bound for. */
  ghost predicate TableOrigins(c: Config, t: Table)
  {
    forall n | Lookup(t, n).Some? :: Origin(c, Lookup(t, n).value) == n
  }

  /** What the round trip needs: every name of the input, and every name introduced earlier, is taken. */
  ghost predicate Known(c: Config, names: set<string>, st: St)
  {
    names <= c.taken && c.finals <= c.taken && |st.table| > 0 && TableOrigins(c, st.table)
  }

  lemma TableOriginsBind(c: Config, t: Table, n: string, k: nat)
    requires |t| > 0 && TableOrigins(c, t)
    ensures TableOrigins(c, Bind(t, n, Version(c, n, k)))
  {
    var v := Version(c, n, k);
    forall m | Lookup(Bind(t, n, v), m).Some? ensures Origin(c, Lookup(Bind(t, n, v), m).value) == m {
      LookupBind(t, n, v, m);
      if m == n { OriginOfVersion(c, n, k); }
    }
  }

  lemma {:induction false} ExprErases(e: Expr, c: Config, st: St)
    requires Known(c, UsedNames.ExprNames(e), st)
    ensures var r := RenameExpr(e, c, st);
      r.Ok? ==> EraseExpr(c, r.value.code) == e && TableOrigins(c, r.value.st.table)
    decreases e, 1
  {
    match e
    case Name(id, ctx) =>
      if id in c.finals || (ctx == Load && Lookup(st.table, id).None?) {
        OriginOfTaken(c, id);
      } else if ctx != Load {
        TableOriginsBind(c, st.table, id, Count(st, id));
        OriginOfVersion(c, id, Count(st, id));
      }
    case Attr(owner, _) =>
      ExprErases(owner, c, st);
    case Unary(_, x) =>
      ExprErases(x, c, st);
    case BoolOp(_, vs) =>
      ExprsErases(vs, c, st);
    case BinOp(l, _, rt) =>
      ExprErases(l, c, st);
      var a := RenameExpr(l, c, st);
      if a.Ok? {
        ExprErases(rt, c, a.value.st);
      }
    case Compare(l, _, rt) =>
      ExprErases(l, c, st);
      var a := RenameExpr(l, c, st);
      if a.Ok? {
        ExprErases(rt, c, a.value.st);
      }
    case IfExp(test, body, orelse) =>
      ExprErases(body, c, st);
      var b := RenameExpr(body, c, st);
      if b.Ok? {
        ExprErases(test, c, b.value.st);
        var t := RenameExpr(test, c, b.value.st);
        if t.Ok? {
          ExprErases(orelse, c, t.value.st);
        }
      }
    case Call(f, args, kws) =>
      ExprErases(f, c, st);
      var a := RenameExpr(f, c, st);
      if a.Ok? {
        ExprsErases(args, c, a.value.st);
        var b := RenameExprs(args, c, a.value.st);
        if b.Ok? {
          KeywordsErases(kws, c, b.value.st);
        }
      }
    case Tuple(elts) =>
      ExprsErases(elts, c, st);
    case Lit(_) =>
  }

  lemma {:induction false} ExprsErases(es: seq<Expr>, c: Config, st: St)
    requires Known(c, UsedNames.ExprsNames(es), st)
    ensures var r := RenameExprs(es, c, st);
      r.Ok? ==> EraseExprs(c, r.value.code) == es && TableOrigins(c, r.value.st.table)
    decreases es, 0
  {
    if es != [] {
      ExprErases(es[0], c, st);
      var h := RenameExpr(es[0], c, st);
      if h.Ok? {
        ExprsErases(es[1..], c, h.value.st);
        var t := RenameExprs(es[1..], c, h.value.st);
        if t.Ok? {
          var code := [h.value.code] + t.value.code;
          assert code[0] == h.value.code && code[1..] == t.value.code;
          assert es == [es[0]] + es[1..];
        }
      }
    }
  }

  lemma {:induction false} KeywordsErases(ks: seq<Keyword>, c: Config, st: St)
    requires Known(c, UsedNames.KeywordsNames(ks), st)
    ensures var r := RenameKeywords(ks, c, st);
      r.Ok? ==> EraseKeywords(c, r.value.code) == ks && TableOrigins(c, r.value.st.table)
    decreases ks, 0
  {
    if ks != [] {
      ExprErases(ks[0].value, c, st);
      var h := RenameExpr(ks[0].value, c, st);
      if h.Ok? {
        KeywordsErases(ks[1..], c, h.value.st);
        var t := RenameKeywords(ks[1..], c, h.value.st);
        if t.Ok? {
          var code := [Keyword(ks[0].arg, h.value.code)] + t.value.code;
          assert code[0] == Keyword(ks[0].arg, h.value.code) && code[1..] == t.value.code;
          assert ks == [ks[0]] + ks[1..];
        }
      }
    }
  }

  lemma {:induction false} SmallErases(s: Small, c: Config, st: St)
    requires Known(c, UsedNames.SmallNames(s), st)
    ensures var r := RenameSmall(s, c, st);
      r.Ok? ==> EraseSmall(c, r.value.code) == s && TableOrigins(c, r.value.st.table)
  {
    match s
    case Assign(targets, value) =>
      ExprErases(value, c, st);
      var v := RenameExpr(value, c, st);
      if v.Ok? {
        ExprsErases(targets, c, v.value.st);
      }
    case Return(r) =>
      if r.Some? { ExprErases(r.value, c, st); }
    case ExprStmt(x) => ExprErases(x, c, st);
    case Pass =>
    case Assert(x) => ExprErases(x, c, st);
  }

  lemma {:induction false} SmallsErases(ss: seq<Small>, c: Config, st: St)
    requires Known(c, UsedNames.SmallsNames(ss), st)
    ensures var r := RenameSmalls(ss, c, st);
      r.Ok? ==> EraseSmalls(c, r.value.code) == ss && TableOrigins(c, r.value.st.table)
  {
    if ss != [] {
      SmallErases(ss[0], c, st);
      var h := RenameSmall(ss[0], c, st);
      if h.Ok? {
        SmallsErases(ss[1..], c, h.value.st);
        var t := RenameSmalls(ss[1..], c, h.value.st);
        if t.Ok? {
          var code := [h.value.code] + t.value.code;
          assert code[0] == h.value.code && code[1..] == t.value.code;
          assert ss == [ss[0]] + ss[1..];
        }
      }
    }
  }

  predicate StraightLine(ss: seq<Stmt>)
  {
    forall i | 0 <= i < |ss| :: ss[i].Line?
  }

  /**
   * On straight-line code the renamer changes nothing but names: mapping
   * every name of its output back to its origin gives the input back.
   */
  lemma {:induction false} StraightLineErases(ss: seq<Stmt>, c: Config, st: St)
    requires StraightLine(ss) && Known(c, UsedNames.StmtsNames(ss), st)
    ensures var r := RenameStmts(ss, c, st);
      r.Ok? ==> EraseLines(c, r.value.code) == ss && TableOrigins(c, r.value.st.table)
  {
    if ss != [] {
      assert ss[0].Line?;
      assert UsedNames.StmtsNames(ss) == UsedNames.SmallsNames(ss[0].smalls) + UsedNames.StmtsNames(ss[1..]);
      SmallsErases(ss[0].smalls, c, st);
      var h := RenameStmt(ss[0], c, st);
      if h.Ok? {
        assert StraightLine(ss[1..]) by {
          forall i | 0 <= i < |ss[1..]| ensures ss[1..][i].Line? {
            assert ss[1..][i] == ss[i + 1];
          }
        }
        StraightLineErases(ss[1..], c, h.value.st);
        var t := RenameStmts(ss[1..], c, h.value.st);
        if t.Ok? {
          var code := h.value.code + t.value.code;
          assert |h.value.code| == 1 && code[0] == h.value.code[0] && code[1..] == t.value.code;
          assert ss == [ss[0]] + ss[1..];
        }
      }
    }
  }

  /**
   * The whole function: when the parameters, the environment and every name
   * of a straight-line body are taken names, erasing the versions of the
   * renamed body gives the body back.
   */
  lemma DefErases(def: Stmt, c: Config)
    requires def.Def? && def.body.Indented? && StraightLine(def.body.stmts)
    requires UsedNames.StmtsNames(def.body.stmts) <= c.taken && c.finals <= c.taken && c.env <= c.taken
    requires forall p | p in def.params :: p in c.taken
    ensures var r := RenameDef(def, c);
      r.Ok? ==> r.value.body.Indented? && EraseLines(c, r.value.body.stmts) == def.body.stmts
  {
    var t := InitialTable(c.env, def.params);
    forall n | Lookup(t, n).Some? ensures Origin(c, Lookup(t, n).value) == n {
      OriginOfTaken(c, n);
    }
    StraightLineErases(def.body.stmts, c, St(t, map[]));
  }
}

=== FILE: ssa_reaching.dfy ===
/**
 * Reaching definitions in straight-line code. The SSA renamer rewrites
 * every load of a name into the version minted by the latest earlier store
 * to that name. When nothing stored the name yet, the load keeps the name
 * itself if the name is a parameter or an environment name, and is
 * otherwise unbound: an error in strict mode, the name unchanged if not.
 */
module SsaReaching {
  import opened Results
  import opened Syntax
  import opened SsaRenaming
  import opened SsaProperties

  /** The names a function body starts with bound to themselves: the environment and the parameters. */
  function Starting(c: Config, params: seq<string>): set<string>
  {
    c.env + (set p | p in params)
  }

  /** What a load of `n` reads after `k` stores to `n`, when `bound` holds the names bound at the start. */
  function Reaching(c: Config, n: string, k: nat, bound: set<string>): Option<string>
  {
    if k > 0 then Some(Version(c, n, k - 1)) else if n in bound then Some(n) else None
  }

  /** The table binds every name that is not final to the definition that reaches it. */
  ghost predicate Latest(c: Config, st: St, bound: set<string>)
  {
    |st.table| > 0 && forall n | n !in c.finals :: Lookup(st.table, n) == Reaching(c, n, Count(st, n), bound)
  }

  /** From `a` to `b` the count of every name grew by its number of stores in `w`. */
  ghost predicate Counted(a: St, b: St, w: multiset<string>)
  {
    forall n :: Count(b, n) == Count(a, n) + w[n]
  }

  lemma CountedChain(a: St, b: St, d: St, x: multiset<string>, y: multiset<string>)
    requires Counted(a, b, x) && Counted(b, d, y)
    ensures Counted(a, d, x + y)
  {
  }

  /** Three stretches of the walk in a row, the first two counted in the other order. */
  lemma CountedSwap(a: St, b: St, d: St, e: St, x: multiset<string>, y: multiset<string>, z: multiset<string>)
    requires Counted(a, b, x) && Counted(b, d, y) && Counted(d, e, z)
    ensures Counted(a, e, y + x + z)
  {
  }

  /**
   * The stores a simple statement makes, over every expression it holds,
   * in the order the renamer visits them. Only assignment targets store in
   * parsed code, so there this agrees with `SmallStores`.
   */
  function SmallWrites(fin: set<string>, s: Small): multiset<string>
  {
    match s
    case Assign(targets, value) => ExprStores(fin, value) + ExprsStores(fin, targets)
    case Return(x) => if x.Some? then ExprStores(fin, x.value) else multiset{}
    case ExprStmt(x) => ExprStores(fin, x)
    case Pass => multiset{}
    case Assert(x) => ExprStores(fin, x)
  }

  function SmallsWrites(fin: set<string>, ss: seq<Small>): multiset<string>
  {
    if ss == [] then multiset{} else SmallWrites(fin, ss[0]) + SmallsWrites(fin, ss[1..])
  }

  function LinesWrites(fin: set<string>, ss: seq<Stmt>): multiset<string>
  {
    if ss == [] then multiset{} else (if ss[0].Line? then SmallsWrites(fin, ss[0].smalls) else multiset{}) + LinesWrites(fin, ss[1..])
  }

  /**
   * A load reads the definition that reaches it: the latest version when
   * the name was stored before, else the name itself when it is bound at
   * the start, else nothing (an error in strict mode).
   */
  lemma LoadReadsLatest(id: string, c: Config, st: St, bound: set<string>)
    requires Latest(c, st, bound) && id !in c.finals
    ensures var r := RenameName(id, Load, c, st);
      (r.Ok? <==> Count(st, id) > 0 || id in bound || !c.strict)
      && (r.Ok? ==>
            r.value.st == st && r.value.code == Name(if Count(st, id) > 0 then Version(c, id, Count(st, id) - 1) else id, Load))
  {
  }

  /** A store makes the version it mints the one that reaches later loads. */
  lemma NameLatest(id: string, ctx: Ctx, c: Config, st: St, bound: set<string>)
    requires Latest(c, st, bound)
    ensures var r := RenameName(id, ctx, c, st);
      r.Ok? ==> Latest(c, r.value.st, bound) && Counted(st, r.value.st, ExprStores(c.finals, Name(id, ctx)))
  {
  }

  lemma {:induction false} ExprLatest(e: Expr, c: Config, st: St, bound: set<string>)
    requires Latest(c, st, bound)
    ensures var r := RenameExpr(e, c, st);
      r.Ok? ==> Latest(c, r.value.st, bound) && Counted(st, r.value.st, ExprStores(c.finals, e))
    decreases e, 1
  {
    match e
    case Name(id, ctx) => NameLatest(id, ctx, c, st, bound);
    case Attr(owner, _) => ExprLatest(owner, c, st, bound);
    case Unary(_, x) => ExprLatest(x, c, st, bound);
    case BoolOp(_, vs) => ExprsLatest(vs, c, st, bound);
    case BinOp(l, _, rt) =>
      ExprLatest(l, c, st, bound);
      var a := RenameExpr(l, c, st);
      if a.Ok? {
        ExprLatest(rt, c, a.value.st, bound);
        var b := RenameExpr(rt, c, a.value.st);
        if b.Ok? {
          CountedChain(st, a.value.st, b.value.st, ExprStores(c.finals, l), ExprStores(c.finals, rt));
        }
      }
    case Compare(l, _, rt) =>
      ExprLatest(l, c, st, bound);
      var a := RenameExpr(l, c, st);
      if a.Ok? {
        ExprLatest(rt, c, a.value.st, bound);
        var b := RenameExpr(rt, c, a.value.st);
        if b.Ok? {
          CountedChain(st, a.value.st, b.value.st, ExprStores(c.finals, l), ExprStores(c.finals, rt));
        }
      }
    case IfExp(test, body, orelse) =>
      // the body is visited first, then the test, then the `else`
      ExprLatest(body, c, st, bound);
      var b := RenameExpr(body, c, st);
      if b.Ok? {
        ExprLatest(test, c, b.value.st, bound);
        var t := RenameExpr(test, c, b.value.st);
        if t.Ok? {
          ExprLatest(orelse, c, t.value.st, bound);
          var o := RenameExpr(orelse, c, t.value.st);
          if o.Ok? {
            CountedSwap(st, b.value.st, t.value.st, o.value.st, ExprStores(c.finals, body), ExprStores(c.finals, test), ExprStores(c.finals, orelse));
          }
        }
      }
    case Call(f, args, kws) =>
      CallLatest(f, args, kws, c, st, bound);
    case Tuple(elts) => ExprsLatest(elts, c, st, bound);
    case Lit(_) =>
  }

  lemma {:induction false} CallLatest(f: Expr, args: seq<Expr>, kws: seq<Keyword>, c: Config, st: St, bound: set<string>)
    requires Latest(c, st, bound)
    ensures var r := RenameExpr(Call(f, args, kws), c, st);
      r.Ok? ==> Latest(c, r.value.st, bound) && Counted(st, r.value.st, ExprStores(c.finals, Call(f, args, kws)))
    decreases Call(f, args, kws), 0
  {
    var fin := c.finals;
    ExprLatest(f, c, st, bound);
    var a := RenameExpr(f, c, st);
    if a.Ok? {
      ExprsLatest(args, c, a.value.st, bound);
      var b := RenameExprs(args, c, a.value.st);
      if b.Ok? {
        KeywordsLatest(kws, c, b.value.st, bound);
        var k := RenameKeywords(kws, c, b.value.st);
        if k.Ok? {
          CountedChain(st, a.value.st, b.value.st, ExprStores(fin, f), ExprsStores(fin, args));
          CountedChain(st, b.value.st, k.value.st, ExprStores(fin, f) + ExprsStores(fin, args), KeywordsStores(fin, kws));
        }
      }
    }
  }

  lemma {:induction false} ExprsLatest(es: seq<Expr>, c: Config, st: St, bound: set<string>)
    requires Latest(c, st, bound)
    ensures var r := RenameExprs(es, c, st);
      r.Ok? ==> Latest(c, r.value.st, bound) && Counted(st, r.value.st, ExprsStores(c.finals, es))
    decreases es, 0
  {
    if es != [] {
      ExprLatest(es[0], c, st, bound);
      var h := RenameExpr(es[0], c, st);
      if h.Ok? {
        ExprsLatest(es[1..], c, h.value.st, bound);
        var t := RenameExprs(es[1..], c, h.value.st);
        if t.Ok? {
          CountedChain(st, h.value.st, t.value.st, ExprStores(c.finals, es[0]), ExprsStores(c.finals, es[1..]));
        }
      }
    }
  }

  lemma {:induction false} KeywordsLatest(ks: seq<Keyword>, c: Config, st: St, bound: set<string>)
    requires Latest(c, st, bound)
    ensures var r := RenameKeywords(ks, c, st);
      r.Ok? ==> Latest(c, r.value.st, bound) && Counted(st, r.value.st, KeywordsStores(c.finals, ks))
    decreases ks, 0
  {
    if ks != [] {
      ExprLatest(ks[0].value, c, st, bound);
      var h := RenameExpr(ks[0].value, c, st);
      if h.Ok? {
        KeywordsLatest(ks[1..], c, h.value.st, bound);
        var t := RenameKeywords(ks[1..], c, h.value.st);
        if t.Ok? {
          CountedChain(st, h.value.st, t.value.st, ExprStores(c.finals, ks[0].value), KeywordsStores(c.finals, ks[1..]));
        }
      }
    }
  }

  /** An assignment's value is read before its targets are bound, so `x = x + 1` reads the old `x`. */
  lemma {:induction false} SmallLatest(s: Small, c: Config, st: St, bound: set<string>)
    requires Latest(c, st, bound)
    ensures var r := RenameSmall(s, c, st);
      r.Ok? ==> Latest(c, r.value.st, bound) && Counted(st, r.value.st, SmallWrites(c.finals, s))
  {
    match s
    case Assign(targets, value) =>
      ExprLatest(value, c, st, bound);
      var v := RenameExpr(value, c, st);
      if v.Ok? {
        ExprsLatest(targets, c, v.value.st, bound);
        var t := RenameExprs(targets, c, v.value.st);
        if t.Ok? {
          CountedChain(st, v.value.st, t.value.st, ExprStores(c.finals, value), ExprsStores(c.finals, targets));
        }
      }
    case Return(x) =>
      if x.Some? { ExprLatest(x.value, c, st, bound); }
    case ExprStmt(x) => ExprLatest(x, c, st, bound);
    case Pass =>
    case Assert(x) => ExprLatest(x, c, st, bound);
  }

  lemma {:induction false} SmallsLatest(ss: seq<Small>, c: Config, st: St, bound: set<string>)
    requires Latest(c, st, bound)
    ensures var r := RenameSmalls(ss, c, st);
      r.Ok? ==> Latest(c, r.value.st, bound) && Counted(st, r.value.st, SmallsWrites(c.finals, ss))
  {
    if ss != [] {
      SmallLatest(ss[0], c, st, bound);
      var h := RenameSmall(ss[0], c, st);
      if h.Ok? {
        SmallsLatest(ss[1..], c, h.value.st, bound);
        var t := RenameSmalls(ss[1..], c, h.value.st);
        if t.Ok? {
          CountedChain(st, h.value.st, t.value.st, SmallWrites(c.finals, ss[0]), SmallsWrites(c.finals, ss[1..]));
        }
      }
    }
  }

  /** Renaming straight-line statements keeps every name bound to the definition that reaches it. */
  lemma {:induction false} LinesLatest(ss: seq<Stmt>, c: Config, st: St, bound: set<string>)
    requires StraightLine(ss) && Latest(c, st, bound)
    ensures var r := RenameStmts(ss, c, st);
      r.Ok? ==> Latest(c, r.value.st, bound) && Counted(st, r.value.st, LinesWrites(c.finals, ss))
  {
    if ss != [] {
      assert ss[0].Line?;
      SmallsLatest(ss[0].smalls, c, st, bound);
      var h := RenameStmt(ss[0], c, st);
      if h.Ok? {
        assert StraightLine(ss[1..]) by {
          forall i | 0 <= i < |ss[1..]| ensures ss[1..][i].Line? {
            assert ss[1..][i] == ss[i + 1];
          }
        }
        LinesLatest(ss[1..], c, h.value.st, bound);
        var t := RenameStmts(ss[1..], c, h.value.st);
        if t.Ok? {
          CountedChain(st, h.value.st, t.value.st, SmallsWrites(c.finals, ss[0].smalls), LinesWrites(c.finals, ss[1..]));
        }
      }
    }
  }

  /** A walk that ended in `x`, continued over `b`. */
  function Continue(x: Result<Out<seq<Stmt>>>, b: seq<Stmt>, c: Config): Result<Out<seq<Stmt>>>
    requires x.Ok? ==> |x.value.st.table| > 0
  {
    var p :- x;
    var q :- RenameStmts(b, c, p.st);
    Ok(Out(p.code + q.code, q.st))
  }

  /** The walk over `a + b` is the walk over `a` continued over `b` from where it ended. */
  lemma {:induction false} RenameStmtsAppend(a: seq<Stmt>, b: seq<Stmt>, c: Config, st: St)
    requires |st.table| > 0
    ensures RenameStmts(a + b, c, st) == Continue(RenameStmts(a, c, st), b, c)
    decreases a
  {
    if a == [] {
      assert a + b == b;
      var y := RenameStmts(b, c, st);
      if y.Ok? {
        assert [] + y.value.code == y.value.code;
      }
    } else {
      assert (a + b)[0] == a[0] && (a + b)[1..] == a[1..] + b;
      var h := RenameStmt(a[0], c, st);
      if h.Ok? {
        RenameStmtsAppend(a[1..], b, c, h.value.st);
        var x := RenameStmts(a[1..], c, h.value.st);
        if x.Ok? {
          var y := RenameStmts(b, c, x.value.st);
          if y.Ok? {
            assert h.value.code + (x.value.code + y.value.code) == (h.value.code + x.value.code) + y.value.code;
          }
        }
      }
    }
  }

  /** The table the body starts from binds exactly the starting names, and nothing was stored yet. */
  lemma StartLatest(c: Config, params: seq<string>)
    ensures Latest(c, St(InitialTable(c.env, params), map[]), Starting(c, params))
  {
  }

  /**
   * Reaching definitions over a straight-line function body `pre + rest`:
   * the renamed body is the renamed `pre` followed by `rest` renamed from a
   * table that binds every name that is not final to its latest version in
   * `pre`, or to itself when `pre` never stores it and it is a parameter or
   * an environment name, and leaves every other name unbound. With
   * `LoadReadsLatest`, the first load of a name in `rest` reads exactly that.
   */
  lemma DefReaching(def: Stmt, c: Config, pre: seq<Stmt>, rest: seq<Stmt>)
    requires def.Def? && def.body == Indented(pre + rest) && StraightLine(pre)
    ensures var x := RenameStmts(pre, c, St(InitialTable(c.env, def.params), map[]));
      RenameDef(def, c).Ok? ==>
        x.Ok?
        && RenameDef(def, c) == (var y :- Continue(x, rest, c); Ok(Def(def.name, def.params, def.decorators, Indented(y.code), def.isAsync)))
        && Latest(c, x.value.st, Starting(c, def.params))
        && forall n | n !in c.finals ::
             Lookup(x.value.st.table, n) == Reaching(c, n, LinesWrites(c.finals, pre)[n], Starting(c, def.params))
  {
    var st := St(InitialTable(c.env, def.params), map[]);
    RenameStmtsAppend(pre, rest, c, st);
    StartLatest(c, def.params);
    LinesLatest(pre, c, st, Starting(c, def.params));
    var x := RenameStmts(pre, c, st);
    if x.Ok? {
      forall n ensures Count(x.value.st, n) == LinesWrites(c.finals, pre)[n] {
        assert Count(st, n) == 0;
      }
    }
  }
}

=== FILE: ssa_renaming.dfy ===
/**
 * `SSATransformer` of `passes/ssa.py`: every store of a name gets a fresh
 * version, every load reads the current version from a scoped name table,
 * and each `if` is flattened into its two branches followed by
 * multiplexer assignments `n_k = t if test else f` at the join.
 *
 * The name table is a `ChainMap`: a stack of maps, innermost first,
 * looked up front to back and written at the front. A branch runs under a
 * fresh child map; afterwards the outer table is restored and the join
 * decides, per name, what it binds next.
 *
 * Expressions are visited in the order of libcst's children: the value of
 * an assignment before its targets, the body of a conditional expression
 * before its test, and only the owner of an attribute.
 */
module SsaRenaming {
  import opened Results
  import opened Syntax
  import opened Strings
  import FreeNames

  /**
   * The fixed inputs of the transformer: the names version prefixes must
   * avoid (the taken names of the function being rewritten, environment
   * included), the environment together with the builtins, the names
   * created by earlier steps (never renamed), the flattened blocks that
   * always returned, and the strictness switch.
   */
  datatype Config = Config(taken: set<string>, env: set<string>, finals: set<string>, returning: set<Block>, strict: bool)

  type Table = seq<map<string, string>>

  /** `ChainMap.__getitem__`: the first map holding the name decides. */
  function Lookup(t: Table, n: string): Option<string>
  {
    if t == [] then None
    else if n in t[0] then Some(t[0][n])
    else Lookup(t[1..], n)
  }

  /** `ChainMap.__setitem__`: write into the innermost map. */
  function Bind(t: Table, n: string, v: string): (r: Table)
    requires |t| > 0
    ensures |r| == |t| && r[1..] == t[1..]
  {
    [t[0][n := v]] + t[1..]
  }

  /** After a bind, looking up the bound name gives the new value, and every other name is as before. */
  lemma LookupBind(t: Table, n: string, v: string, m: string)
    requires |t| > 0
    ensures Lookup(Bind(t, n, v), m) == if m == n then Some(v) else Lookup(t, m)
  {
    assert Bind(t, n, v)[1..] == t[1..];
  }

  /** The table, and `name_idx`, the per-name count of versions made so far. */
  datatype St = St(table: Table, idx: map<string, nat>)

  /** The number of versions of `n` an index map records (`Counter` semantics: absent is 0). */
  function Uses(idx: map<string, nat>, n: string): nat
  {
    if n in idx then idx[n] else 0
  }

  function Count(st: St, n: string): nat
  {
    Uses(st.idx, n)
  }

  /**
   * The prefix of the versions of `n`: the free prefix for `n_`.
   * `name_formats` memoises it; it depends on nothing that changes during
   * the walk, so it is computed here on demand.
   */
  function VersionPrefix(c: Config, n: string): string
  {
    FreeNames.FreePrefixIn(c.taken, Some(n + "_"))
  }

  function Version(c: Config, n: string, k: nat): string
  {
    VersionPrefix(c, n) + Str(k)
  }

  /** The walk only counts up, and never changes the maps below the innermost one. */
  ghost predicate Advances(a: St, b: St)
  {
    |a.table| > 0 && |b.table| == |a.table| && b.table[1..] == a.table[1..]
    && forall n :: Uses(a.idx, n) <= Uses(b.idx, n)
  }

  datatype Out<T> = Out(code: T, st: St)

  /** `_make_name`: the next version of `n`, bound in the innermost map. */
  function Mint(c: Config, n: string, st: St): (r: Out<string>)
    requires |st.table| > 0
    ensures r.code == Version(c, n, Count(st, n))
    ensures Count(r.st, n) == Count(st, n) + 1
    ensures forall m | m != n :: Count(r.st, m) == Count(st, m)
    ensures Lookup(r.st.table, n) == Some(r.code)
    ensures forall m | m != n :: Lookup(r.st.table, m) == Lookup(st.table, m)
    ensures Advances(st, r.st)
  {
    var v := Version(c, n, Count(st, n));
    forall m | m != n ensures Lookup(Bind(st.table, n, v), m) == Lookup(st.table, m) {
      LookupBind(st.table, n, v, m);
    }
    Out(v, St(Bind(st.table, n, v), st.idx[n := Count(st, n) + 1]))
  }

  const UndefinedPrefix: string := "Cannot prove name `"
  const UndefinedSuffix: string := "` is defined"

  /**
   * `leave_Name`. A final name is left alone. A load reads the table: it
   * becomes the name's current binding, or stays as it is when the name is
   * unbound and the walk is not strict. A store or delete binds a new
   * version of the name and changes no other binding and no other count.
   */
  function RenameName(id: string, ctx: Ctx, c: Config, st: St): (r: Result<Out<Expr>>)
    requires |st.table| > 0
    ensures r.Ok? ==> Advances(st, r.value.st) && r.value.code.Name? && r.value.code.ctx == ctx
    ensures r.Err? <==> id !in c.finals && ctx == Load && Lookup(st.table, id).None? && c.strict
    ensures r.Err? ==> r.error == SyntaxError(UndefinedPrefix + id + UndefinedSuffix)
    ensures id in c.finals ==> r == Ok(Out(Name(id, ctx), st))
    ensures r.Ok? && id !in c.finals && ctx == Load ==>
      r.value.st == st && r.value.code.id == (if Lookup(st.table, id).Some? then Lookup(st.table, id).value else id)
    ensures id !in c.finals && ctx != Load ==>
      r.Ok? && r.value.code.id == Version(c, id, Count(st, id))
      && Lookup(r.value.st.table, id) == Some(r.value.code.id)
      && Count(r.value.st, id) == Count(st, id) + 1
      && (forall m | m != id :: Lookup(r.value.st.table, m) == Lookup(st.table, m) && Count(r.value.st, m) == Count(st, m))
  {
    if id in c.finals then Ok(Out(Name(id, ctx), st))
    else if ctx == Load then
      match Lookup(st.table, id)
      case Some(v) => Ok(Out(Name(v, ctx), st))
      case None =>
        if c.strict then Err(SyntaxError(UndefinedPrefix + id + UndefinedSuffix))
        else Ok(Out(Name(id, ctx), st))
    else
      var m := Mint(c, id, st);
      Ok(Out(Name(m.code, ctx), m.st))
  }

  function RenameExpr(e: Expr, c: Config, st: St): (r: Result<Out<Expr>>)
    requires |st.table| > 0
    ensures r.Ok? ==> Advances(st, r.value.st)
    decreases e, 1
  {
    match e
    case Name(id, ctx) => RenameName(id, ctx, c, st)
    case Attr(owner, field) =>
      var o :- RenameExpr(owner, c, st);
      Ok(Out(Attr(o.code, field), o.st))
    case Unary(op, x) =>
      var o :- RenameExpr(x, c, st);
      Ok(Out(Unary(op, o.code), o.st))
    case BoolOp(op, vs) =>
      var o :- RenameExprs(vs, c, st);
      Ok(Out(BoolOp(op, o.code), o.st))
    case BinOp(l, op, rt) =>
      var a :- RenameExpr(l, c, st);
      var b :- RenameExpr(rt, c, a.st);
      Ok(Out(BinOp(a.code, op, b.code), b.st))
    case Compare(l, op, rt) =>
      var a :- RenameExpr(l, c, st);
      var b :- RenameExpr(rt, c, a.st);
      Ok(Out(Compare(a.code, op, b.code), b.st))
    case IfExp(test, body, orelse) =>
      var b :- RenameExpr(body, c, st);
      var t :- RenameExpr(test, c, b.st);
      var o :- RenameExpr(orelse, c, t.st);
      Ok(Out(IfExp(t.code, b.code, o.code), o.st))
    case Call(f, args, kws) =>
      var a :- RenameExpr(f, c, st);
      var b :- RenameExprs(args, c, a.st);
      var k :- RenameKeywords(kws, c, b.st);
      Ok(Out(Call(a.code, b.code, k.code), k.st))
    case Tuple(elts) =>
      var o :- RenameExprs(elts, c, st);
      Ok(Out(Tuple(o.code), o.st))
    case Lit(_) => Ok(Out(e, st))
  }

  function RenameExprs(es: seq<Expr>, c: Config, st: St): (r: Result<Out<seq<Expr>>>)
    requires |st.table| > 0
    ensures r.Ok? ==> Advances(st, r.value.st) && |r.value.code| == |es|
    decreases es, 0
  {
    if es == [] then Ok(Out([], st))
    else
      var h :- RenameExpr(es[0], c, st);
      var t :- RenameExprs(es[1..], c, h.st);
      Ok(Out([h.code] + t.code, t.st))
  }

  /** The keyword of a keyword argument is not a name reference and is left alone. */
  function RenameKeywords(ks: seq<Keyword>, c: Config, st: St): (r: Result<Out<seq<Keyword>>>)
    requires |st.table| > 0
    ensures r.Ok? ==> Advances(st, r.value.st) && |r.value.code| == |ks|
    decreases ks, 0
  {
    if ks == [] then Ok(Out([], st))
    else
      var h :- RenameExpr(ks[0].value, c, st);
      var t :- RenameKeywords(ks[1..], c, h.st);
      Ok(Out([Keyword(ks[0].arg, h.code)] + t.code, t.st))
  }

  /** An assignment renames its value before its targets. */
  function RenameSmall(s: Small, c: Config, st: St): (r: Result<Out<Small>>)
    requires |st.table| > 0
    ensures r.Ok? ==> Advances(st, r.value.st)
  {
    match s
    case Assign(targets, value) =>
      var v :- RenameExpr(value, c, st);
      var t :- RenameExprs(targets, c, v.st);
      Ok(Out(Assign(t.code, v.code), t.st))
    case Return(None) => Ok(Out(s, st))
    case Return(Some(x)) =>
      var o :- RenameExpr(x, c, st);
      Ok(Out(Return(Some(o.code)), o.st))
    case ExprStmt(x) =>
      var o :- RenameExpr(x, c, st);
      Ok(Out(ExprStmt(o.code), o.st))
    case Pass => Ok(Out(s, st))
    case Assert(x) =>
      var o :- RenameExpr(x, c, st);
      Ok(Out(Assert(o.code), o.st))
  }

  function RenameSmalls(ss: seq<Small>, c: Config, st: St): (r: Result<Out<seq<Small>>>)
    requires |st.table| > 0
    ensures r.Ok? ==> Advances(st, r.value.st) && |r.value.code| == |ss|
  {
    if ss == [] then Ok(Out([], st))
    else
      var h :- RenameSmall(ss[0], c, st);
      var t :- RenameSmalls(ss[1..], c, h.st);
      Ok(Out([h.code] + t.code, t.st))
  }

  /** The code the transformer leaves: simple-statement lines and untouched nested definitions. */
  predicate Linear(ss: seq<Stmt>)
  {
    forall i | 0 <= i < |ss| :: ss[i].Line? || ss[i].Def?
  }

  /** The multiplexer `n_k = t if test else f`. */
  function MuxLine(v: string, test: Expr, t: string, f: string): Stmt
  {
    AssignLine(StoreName(v), IfExp(test, LoadName(t), LoadName(f)))
  }

  /**
   * One step of the join loop for `n`, with `st` holding the outer table: a
   * mux when both branches bound the name, or one did and the outer table
   * has it (the missing side reads the outer version); otherwise, in
   * non-strict mode only, the outer table adopts the branch's version.
   */
  function MuxOne(n: string, test: Expr, t: map<string, string>, f: map<string, string>, c: Config, st: St): (r: Out<seq<Stmt>>)
    requires |st.table| > 0
    ensures Advances(st, r.st) && Linear(r.code)
  {
    var outer := Lookup(st.table, n);
    if n in t && n in f then
      var m := Mint(c, n, st); Out([MuxLine(m.code, test, t[n], f[n])], m.st)
    else if n in t && outer.Some? then
      var m := Mint(c, n, st); Out([MuxLine(m.code, test, t[n], outer.value)], m.st)
    else if n in f && outer.Some? then
      var m := Mint(c, n, st); Out([MuxLine(m.code, test, outer.value, f[n])], m.st)
    else if n in t && !c.strict then Out([], St(Bind(st.table, n, t[n]), st.idx))
    else if n in f && !c.strict then Out([], St(Bind(st.table, n, f[n]), st.idx))
    else Out([], st)
  }

  /** The join loop, over the names in sorted order. */
  function Muxes(names: seq<string>, test: Expr, t: map<string, string>, f: map<string, string>, c: Config, st: St): (r: Out<seq<Stmt>>)
    requires |st.table| > 0
    ensures Advances(st, r.st) && Linear(r.code)
  {
    if names == [] then Out([], st)
    else
      var h := MuxOne(names[0], test, t, f, c, st);
      var rest := Muxes(names[1..], test, t, f, c, h.st);
      LinearAppend(h.code, rest.code);
      Out(h.code + rest.code, rest.st)
  }

  /** `nt.update(m)`: the branch's bindings overwrite the innermost map. */
  function Adopt(t: Table, m: map<string, string>): (r: Table)
    requires |t| > 0
    ensures |r| == |t| && r[1..] == t[1..]
  {
    [t[0] + m] + t[1..]
  }

  /** A statement becomes the straight-line statements that replace it. */
  function RenameStmt(s: Stmt, c: Config, st: St): (r: Result<Out<seq<Stmt>>>)
    requires |st.table| > 0
    ensures r.Ok? ==> Advances(st, r.value.st) && Linear(r.value.code)
    decreases s, 1
  {
    match s
    case Line(smalls) =>
      var o :- RenameSmalls(smalls, c, st);
      Ok(Out([Line(o.code)], o.st))
    case If(_, _, _) => RenameIf(s, c, st)
    case Def(_, _, _, _, _) => Ok(Out([s], st))
    case For(_, _, _, _) => Err(Unmodelled("for"))
    case While(_, _) => Err(Unmodelled("while"))
    case With(_, _, _) => Err(Unmodelled("with"))
    case Try(_, _) => Err(Unmodelled("try"))
    case Class(_, _, _) => Err(Unmodelled("class"))
  }

  /**
   * `leave_If`: the `if` is replaced by its renamed body, its renamed
   * `else`, and the join's multiplexers. A branch that always returns
   * contributes no bindings; an `elif` trips the transformer's assertion.
   */
  function RenameIf(s: Stmt, c: Config, st: St): (r: Result<Out<seq<Stmt>>>)
    requires s.If? && |st.table| > 0
    ensures r.Ok? ==> Advances(st, r.value.st) && Linear(r.value.code)
    ensures s.orelse.Elif? ==> r == Err(AssertionError)
    decreases s, 0
  {
    if s.orelse.Elif? then Err(AssertionError)
    else
      var nt :- RenameExpr(s.test, c, st);
      var tb :- RenameBlock(s.body, c, St([map[]] + nt.st.table, nt.st.idx));
      var fb :- RenameElse(s.orelse, c, St([map[]] + nt.st.table, tb.st.idx));
      LinearAppend(tb.code, fb.code);
      var back := St(nt.st.table, fb.st.idx);
      var j := Join(s, nt.code, tb.st.table[0], fb.st.table[0], c, back);
      LinearAppend(tb.code + fb.code, j.code);
      Ok(Out(tb.code + fb.code + j.code, j.st))
  }

  function RenameElse(o: OrElse, c: Config, st: St): (r: Result<Out<seq<Stmt>>>)
    requires |st.table| > 0 && !o.Elif?
    ensures r.Ok? ==> Advances(st, r.value.st) && Linear(r.value.code)
    decreases o, 1
  {
    if o.Else? then RenameBlock(o.block, c, st) else Ok(Out([], st))
  }

  /**
   * The join after an `if` whose branch maps were `t` and `f`, with `st`
   * holding the outer table again: a branch that always returns contributes
   * nothing, so when one does the outer map takes the other's bindings as
   * they are, and when neither does the multiplexers decide.
   */
  function Join(s: Stmt, test: Expr, t: map<string, string>, f: map<string, string>, c: Config, st: St): (r: Out<seq<Stmt>>)
    requires s.If? && |st.table| > 0
    ensures Advances(st, r.st) && Linear(r.code)
  {
    var tReturns := s.body in c.returning;
    var fReturns := s.orelse.Else? && s.orelse.block in c.returning;
    if tReturns && fReturns then Out([], st)
    else if tReturns then Out([], St(Adopt(st.table, f), st.idx))
    else if fReturns then Out([], St(Adopt(st.table, t), st.idx))
    else Muxes(SortedSet(t.Keys + f.Keys), test, t, f, c, st)
  }

  lemma LinearAppend(a: seq<Stmt>, b: seq<Stmt>)
    requires Linear(a) && Linear(b)
    ensures Linear(a + b)
  {
    forall i | 0 <= i < |a + b| ensures (a + b)[i].Line? || (a + b)[i].Def? {
      if i >= |a| { assert (a + b)[i] == b[i - |a|]; }
    }
  }

  function RenameStmts(ss: seq<Stmt>, c: Config, st: St): (r: Result<Out<seq<Stmt>>>)
    requires |st.table| > 0
    ensures r.Ok? ==> Advances(st, r.value.st) && Linear(r.value.code)
    decreases ss, 1
  {
    if ss == [] then Ok(Out([], st))
    else
      var h :- RenameStmt(ss[0], c, st);
      var t :- RenameStmts(ss[1..], c, h.st);
      LinearAppend(h.code, t.code);
      Ok(Out(h.code + t.code, t.st))
  }

  /** A branch body becomes a list of statements; a one-line suite becomes one line. */
  function RenameBlock(b: Block, c: Config, st: St): (r: Result<Out<seq<Stmt>>>)
    requires |st.table| > 0
    ensures r.Ok? ==> Advances(st, r.value.st) && Linear(r.value.code)
    decreases b, 1
  {
    match b
    case Indented(stmts) => RenameStmts(stmts, c, st)
    case Inline(smalls) =>
      var o :- RenameSmalls(smalls, c, st);
      Ok(Out([Line(o.code)], o.st))
  }

  /** The table before the body: every environment and builtin name, then every parameter, bound to itself. */
  function InitialTable(env: set<string>, params: seq<string>): (t: Table)
    ensures |t| == 1
    ensures forall n :: Lookup(t, n) == (if n in env || n in params then Some(n) else None)
  {
    var names := env + (set p | p in params);
    var m := map n | n in names :: n;
    assert forall n :: Lookup([m], n) == (if n in m then Some(m[n]) else Lookup([], n));
    [m]
  }

  /** `SSATransformer` on the root function: only its body is rewritten. */
  function RenameDef(def: Stmt, c: Config): (r: Result<Stmt>)
    requires def.Def?
    ensures r.Ok? ==>
      r.value.Def? && r.value.name == def.name && r.value.params == def.params && r.value.decorators == def.decorators
    ensures r.Ok? && def.body.Indented? ==> r.value.body.Indented? && Linear(r.value.body.stmts)
  {
    var st := St(InitialTable(c.env, def.params), map[]);
    match def.body
    case Indented(stmts) =>
      var o :- RenameStmts(stmts, c, st);
      Ok(Def(def.name, def.params, def.decorators, Indented(o.code), def.isAsync))
    case Inline(smalls) =>
      var o :- RenameSmalls(smalls, c, st);
      Ok(Def(def.name, def.params, def.decorators, Inline(o.code), def.isAsync))
  }
}

=== FILE: strings.dfy ===
/**
 * Python string facts the passes rely on: `str` of a natural number,
 * `str.startswith`, and the code-point ordering used by `sorted`.
 */
module Strings {

  predicate IsDigit(c: char) { '0' <= c <= '9' }

  function DigitChar(d: nat): (c: char)
    requires d < 10
    ensures IsDigit(c)
  {
    ('0' as int + d) as char
  }

  /** Python's `str(n)` (and `repr(n)`) for a natural number: its decimal digits. */
  function Str(n: nat): (s: string)
    ensures 1 <= |s|
    ensures forall i | 0 <= i < |s| :: IsDigit(s[i])
    decreases n
  {
    if n < 10 then [DigitChar(n)] else Str(n / 10) + [DigitChar(n % 10)]
  }

  function Pow10(k: nat): (p: nat)
    ensures 1 <= p
  {
    if k == 0 then 1 else 10 * Pow10(k - 1)
  }

  /** A number at least 10^k has more than k digits. */
  lemma {:induction false} StrLongerThan(n: nat, k: nat)
    requires Pow10(k) <= n
    ensures k < |Str(n)|
    decreases k
  {
    if k > 0 {
      StrLongerThan(n / 10, k - 1);
    }
  }

  /** Distinct numbers have distinct decimal forms. */
  lemma {:induction false} StrInjective(a: nat, b: nat)
    requires Str(a) == Str(b)
    ensures a == b
    decreases a
  {
    if a < 10 && b < 10 {
      assert Str(a)[0] == Str(b)[0];
    } else if 10 <= a && 10 <= b {
      var sa, sb := Str(a / 10), Str(b / 10);
      assert Str(a) == sa + [DigitChar(a % 10)];
      assert Str(b) == sb + [DigitChar(b % 10)];
      assert |sa| == |sb|;
      assert sa == Str(a)[..|sa|] == Str(b)[..|sb|] == sb;
      assert Str(a)[|sa|] == Str(b)[|sb|];
      StrInjective(a / 10, b / 10);
    }
  }

  /** Python's `s.startswith(p)`. */
  predicate StartsWith(s: string, p: string) { p <= s }

  /** Python's `a <= b` on strings: lexicographic by code point. */
  predicate LessEq(a: string, b: string)
    decreases |a|
  {
    |a| == 0 || (|b| > 0 && (a[0] < b[0] || (a[0] == b[0] && LessEq(a[1..], b[1..]))))
  }

  lemma {:induction false} LessEqTotal(a: string, b: string)
    ensures LessEq(a, b) || LessEq(b, a)
    decreases |a|
  {
    if |a| > 0 && |b| > 0 && a[0] == b[0] {
      LessEqTotal(a[1..], b[1..]);
    }
  }

  lemma {:induction false} LessEqAntisymmetric(a: string, b: string)
    requires LessEq(a, b) && LessEq(b, a)
    ensures a == b
    decreases |a|
  {
    if |a| > 0 {
      LessEqAntisymmetric(a[1..], b[1..]);
      assert a == [a[0]] + a[1..] && b == [b[0]] + b[1..];
    }
  }

  lemma {:induction false} LessEqTransitive(a: string, b: string, c: string)
    requires LessEq(a, b) && LessEq(b, c)
    ensures LessEq(a, c)
    decreases |a|
  {
    if |a| > 0 && a[0] == b[0] && b[0] == c[0] {
      LessEqTransitive(a[1..], b[1..], c[1..]);
    }
  }

  /** Strictly increasing, hence duplicate-free. */
  predicate StrictlySorted(s: seq<string>)
  {
    forall i, j | 0 <= i < j < |s| :: LessEq(s[i], s[j]) && s[i] != s[j]
  }

  lemma {:induction false} MinimumExists(s: set<string>)
    requires s != {}
    ensures exists m | m in s :: forall y | y in s :: LessEq(m, y)
    decreases |s|
  {
    var x :| x in s;
    if s == {x} {
      assert forall y | y in s :: LessEq(x, y) by {
        forall y | y in s ensures LessEq(x, y) { LessEqTotal(x, y); }
      }
    } else {
      MinimumExists(s - {x});
      var m :| m in s - {x} && forall y | y in s - {x} :: LessEq(m, y);
      if LessEq(m, x) {
        assert forall y | y in s :: LessEq(m, y);
      } else {
        LessEqTotal(m, x);
        forall y | y in s ensures LessEq(x, y) {
          if y != x { LessEqTransitive(x, m, y); }
          else { LessEqTotal(x, y); }
        }
      }
    }
  }

  /** The least string of a non-empty set. */
  function Minimum(s: set<string>): (m: string)
    requires s != {}
    ensures m in s && forall y | y in s :: LessEq(m, y)
  {
    MinimumExists(s);
    assert forall a, b | a in s && b in s && (forall y | y in s :: LessEq(a, y)) && (forall y | y in s :: LessEq(b, y)) :: a == b by {
      forall a, b | a in s && b in s && (forall y | y in s :: LessEq(a, y)) && (forall y | y in s :: LessEq(b, y))
        ensures a == b
      {
        LessEqAntisymmetric(a, b);
      }
    }
    var m :| m in s && forall y | y in s :: LessEq(m, y);
    m
  }

  /** Python's `sorted(s)` for a set of strings. */
  function SortedSet(s: set<string>): (r: seq<string>)
    ensures |r| == |s|
    ensures forall x :: x in r <==> x in s
    ensures StrictlySorted(r)
    decreases |s|
  {
    if s == {} then []
    else
      var m := Minimum(s);
      var rest := SortedSet(s - {m});
      PrependMinimum(m, s - {m}, rest);
      [m] + rest
  }

  lemma PrependMinimum(m: string, s: set<string>, rest: seq<string>)
    requires m !in s && forall y | y in s :: LessEq(m, y)
    requires (forall x :: x in rest <==> x in s) && StrictlySorted(rest)
    ensures StrictlySorted([m] + rest)
    ensures forall x :: x in [m] + rest <==> x in s + {m}
  {
    var r := [m] + rest;
    forall i, j | 0 <= i < j < |r| ensures LessEq(r[i], r[j]) && r[i] != r[j] {
      if i == 0 {
        assert r[j] == rest[j - 1] && rest[j - 1] in s;
      } else {
        assert r[i] == rest[i - 1] && r[j] == rest[j - 1];
      }
    }
  }
}

=== FILE: symbol_replacer.dfy ===
/**
 * `SymbolReplacer` and `replace_symbols` of
 * `transformers/symbol_replacer.py`: the node replacer keyed by the
 * identifier of a `Name`; every other node has no key and is entered.
 */
module SymbolReplacer {
  import opened Results
  import opened Syntax
  import opened Traversal
  import opened NodeReplacer
  import UsedNames

  /** `SymbolReplacer._get_key` */
  function NameKey(e: Expr): Option<string>
  {
    if e.Name? then Some(e.id) else None
  }

  /** `replace_symbols(tree, symbol_table)` */
  function ReplaceSymbols(tree: Stmt, symbols: map<string, Expr>): Stmt
  {
    ReplaceStmt(tree, NameKey, symbols)
  }

  /** No `Name` among `nodes` is bound in `symbols`. */
  predicate Unbound(nodes: seq<Expr>, symbols: map<string, Expr>)
  {
    forall n | n in nodes :: n.Name? ==> n.id !in symbols
  }

  /**
   * The names bound in the table are exactly the names of an expression
   * that change: a name in the table becomes its node, any other
   * expression keeps its name set.
   */
  lemma {:induction false} ExprSymbols(e: Expr, symbols: map<string, Expr>)
    requires forall x | x in symbols :: UsedNames.ExprNames(symbols[x]) !! symbols.Keys
    ensures UsedNames.ExprNames(ReplaceExpr(e, NameKey, symbols)) !! symbols.Keys
    ensures UsedNames.ExprNames(e) - symbols.Keys <= UsedNames.ExprNames(ReplaceExpr(e, NameKey, symbols))
    ensures UsedNames.ExprNames(e) !! symbols.Keys ==> ReplaceExpr(e, NameKey, symbols) == e
    decreases e, 1
  {
    match e
    case Name(_, _) =>
    case Attr(owner, _) => ExprSymbols(owner, symbols);
    case Unary(_, x) => ExprSymbols(x, symbols);
    case BoolOp(_, vs) => ExprsSymbols(vs, symbols);
    case BinOp(l, _, r) =>
      ExprSymbols(l, symbols);
      ExprSymbols(r, symbols);
    case Compare(l, _, r) =>
      ExprSymbols(l, symbols);
      ExprSymbols(r, symbols);
    case IfExp(t, b, o) =>
      ExprSymbols(t, symbols);
      ExprSymbols(b, symbols);
      ExprSymbols(o, symbols);
    case Call(f, args, kws) =>
      ExprSymbols(f, symbols);
      ExprsSymbols(args, symbols);
      KeywordsSymbols(kws, symbols);
    case Tuple(elts) => ExprsSymbols(elts, symbols);
    case Lit(_) =>
  }

  lemma {:induction false} ExprsSymbols(es: seq<Expr>, symbols: map<string, Expr>)
    requires forall x | x in symbols :: UsedNames.ExprNames(symbols[x]) !! symbols.Keys
    ensures UsedNames.ExprsNames(ReplaceExprs(es, NameKey, symbols)) !! symbols.Keys
    ensures UsedNames.ExprsNames(es) - symbols.Keys <= UsedNames.ExprsNames(ReplaceExprs(es, NameKey, symbols))
    ensures UsedNames.ExprsNames(es) !! symbols.Keys ==> ReplaceExprs(es, NameKey, symbols) == es
    decreases es, 0
  {
    if es != [] {
      ExprSymbols(es[0], symbols);
      ExprsSymbols(es[1..], symbols);
    }
  }

  lemma {:induction false} KeywordsSymbols(ks: seq<Keyword>, symbols: map<string, Expr>)
    requires forall x | x in symbols :: UsedNames.ExprNames(symbols[x]) !! symbols.Keys
    ensures UsedNames.KeywordsNames(ReplaceKeywords(ks, NameKey, symbols)) !! symbols.Keys
    ensures UsedNames.KeywordsNames(ks) - symbols.Keys <= UsedNames.KeywordsNames(ReplaceKeywords(ks, NameKey, symbols))
    ensures UsedNames.KeywordsNames(ks) !! symbols.Keys ==> ReplaceKeywords(ks, NameKey, symbols) == ks
    decreases ks, 0
  {
    if ks != [] {
      ExprSymbols(ks[0].value, symbols);
      KeywordsSymbols(ks[1..], symbols);
    }
  }

  // ---------------------------------------------------------------------
  // Replacing symbols undoes a replacement by fresh names
  // ---------------------------------------------------------------------

  /**
   * Every keyed node of `tbl` is replaced by a name that `symbols` maps
   * back to that very node.
   */
  ghost predicate Invertible<K>(key: Expr -> Option<K>, tbl: map<K, Expr>, symbols: map<string, Expr>)
  {
    forall e | key(e).Some? && key(e).value in tbl ::
      tbl[key(e).value].Name? && tbl[key(e).value].id in symbols && symbols[tbl[key(e).value].id] == e
  }

  /**
   * When the table's replacements are names that the tree does not use
   * and `symbols` maps them back, `replace_symbols` undoes the
   * replacement. The attribute aliases of `write_attrs_once` and the
   * names of the eliminated expressions of `cse` are such replacements.
   */
  lemma {:induction false} ExprRoundTrip<K>(e: Expr, key: Expr -> Option<K>, tbl: map<K, Expr>, symbols: map<string, Expr>)
    requires Invertible(key, tbl, symbols) && Unbound(ExprNodes(e), symbols)
    ensures ReplaceExpr(ReplaceExpr(e, key, tbl), NameKey, symbols) == e
    decreases e, 1
  {
    var k := key(e);
    if !(k.Some? && k.value in tbl) {
      match e
      case Name(_, _) =>
      case Attr(owner, _) => ExprRoundTrip(owner, key, tbl, symbols);
      case Unary(_, x) => ExprRoundTrip(x, key, tbl, symbols);
      case BoolOp(_, vs) => ExprsRoundTrip(vs, key, tbl, symbols);
      case BinOp(l, _, r) =>
        ExprRoundTrip(l, key, tbl, symbols);
        ExprRoundTrip(r, key, tbl, symbols);
      case Compare(l, _, r) =>
        ExprRoundTrip(l, key, tbl, symbols);
        ExprRoundTrip(r, key, tbl, symbols);
      case IfExp(t, b, o) =>
        ExprRoundTrip(t, key, tbl, symbols);
        ExprRoundTrip(b, key, tbl, symbols);
        ExprRoundTrip(o, key, tbl, symbols);
      case Call(f, args, kws) =>
        ExprRoundTrip(f, key, tbl, symbols);
        ExprsRoundTrip(args, key, tbl, symbols);
        KeywordsRoundTrip(kws, key, tbl, symbols);
      case Tuple(elts) => ExprsRoundTrip(elts, key, tbl, symbols);
      case Lit(_) =>
    }
  }

  lemma {:induction false} ExprsRoundTrip<K>(es: seq<Expr>, key: Expr -> Option<K>, tbl: map<K, Expr>, symbols: map<string, Expr>)
    requires Invertible(key, tbl, symbols) && Unbound(ExprsNodes(es), symbols)
    ensures ReplaceExprs(ReplaceExprs(es, key, tbl), NameKey, symbols) == es
    decreases es, 0
  {
    if es != [] {
      ExprRoundTrip(es[0], key, tbl, symbols);
      ExprsRoundTrip(es[1..], key, tbl, symbols);
    }
  }

  lemma {:induction false} KeywordsRoundTrip<K>(ks: seq<Keyword>, key: Expr -> Option<K>, tbl: map<K, Expr>, symbols: map<string, Expr>)
    requires Invertible(key, tbl, symbols) && Unbound(KeywordsNodes(ks), symbols)
    ensures ReplaceKeywords(ReplaceKeywords(ks, key, tbl), NameKey, symbols) == ks
    decreases ks, 0
  {
    if ks != [] {
      ExprRoundTrip(ks[0].value, key, tbl, symbols);
      KeywordsRoundTrip(ks[1..], key, tbl, symbols);
    }
  }

  /** A name table unbound over a concatenation is unbound over both parts. */
  lemma UnboundSplit(a: seq<Expr>, b: seq<Expr>, symbols: map<string, Expr>)
    requires Unbound(ExprsNodes(a + b), symbols)
    ensures Unbound(ExprsNodes(a), symbols) && Unbound(ExprsNodes(b), symbols)
  {
    ExprsNodesAppend(a, b);
  }

  lemma {:induction false} SmallRoundTrip<K>(s: Small, key: Expr -> Option<K>, tbl: map<K, Expr>, symbols: map<string, Expr>)
    requires Invertible(key, tbl, symbols) && Unbound(ExprsNodes(SmallExprs(s)), symbols)
    ensures ReplaceSmall(ReplaceSmall(s, key, tbl), NameKey, symbols) == s
  {
    match s
    case Assign(targets, value) =>
      UnboundSplit(targets, [value], symbols);
      ExprsRoundTrip(targets, key, tbl, symbols);
      ExprsRoundTrip([value], key, tbl, symbols);
    case Return(r) =>
      if r.Some? {
        ExprsRoundTrip([r.value], key, tbl, symbols);
      }
    case ExprStmt(e) => ExprsRoundTrip([e], key, tbl, symbols);
    case Pass =>
    case Assert(c) => ExprsRoundTrip([c], key, tbl, symbols);
  }

  lemma {:induction false} SmallsRoundTrip<K>(ss: seq<Small>, key: Expr -> Option<K>, tbl: map<K, Expr>, symbols: map<string, Expr>)
    requires Invertible(key, tbl, symbols) && Unbound(ExprsNodes(SmallsExprs(ss)), symbols)
    ensures ReplaceSmalls(ReplaceSmalls(ss, key, tbl), NameKey, symbols) == ss
  {
    if ss != [] {
      UnboundSplit(SmallExprs(ss[0]), SmallsExprs(ss[1..]), symbols);
      SmallRoundTrip(ss[0], key, tbl, symbols);
      SmallsRoundTrip(ss[1..], key, tbl, symbols);
    }
  }

  lemma {:induction false} StmtRoundTrip<K>(s: Stmt, key: Expr -> Option<K>, tbl: map<K, Expr>, symbols: map<string, Expr>)
    requires Invertible(key, tbl, symbols) && Unbound(ExprsNodes(StmtExprs(s)), symbols)
    ensures ReplaceStmt(ReplaceStmt(s, key, tbl), NameKey, symbols) == s
  {
    match s
    case Line(smalls) => SmallsRoundTrip(smalls, key, tbl, symbols);
    case If(test, body, orelse) =>
      ExprsNodesAppend([test], BlockExprs(body));
      ExprsNodesAppend([test] + BlockExprs(body), OrElseExprs(orelse));
      ExprsRoundTrip([test], key, tbl, symbols);
      BlockRoundTrip(body, key, tbl, symbols);
      OrElseRoundTrip(orelse, key, tbl, symbols);
    case For(target, iter, body, _) =>
      ExprsNodesAppend([target, iter], BlockExprs(body));
      ExprsRoundTrip([target, iter], key, tbl, symbols);
      BlockRoundTrip(body, key, tbl, symbols);
    case While(test, body) =>
      ExprsNodesAppend([test], BlockExprs(body));
      ExprsRoundTrip([test], key, tbl, symbols);
      BlockRoundTrip(body, key, tbl, symbols);
    case With(items, body, _) =>
      ExprsNodesAppend(items, BlockExprs(body));
      ExprsRoundTrip(items, key, tbl, symbols);
      BlockRoundTrip(body, key, tbl, symbols);
    case Try(body, handlers) =>
      ExprsNodesAppend(BlockExprs(body), BlocksExprs(handlers));
      BlockRoundTrip(body, key, tbl, symbols);
      BlocksRoundTrip(handlers, key, tbl, symbols);
    case Def(_, _, decorators, body, _) =>
      ExprsNodesAppend(BlockExprs(body), decorators);
      ExprsRoundTrip(decorators, key, tbl, symbols);
      BlockRoundTrip(body, key, tbl, symbols);
    case Class(_, decorators, body) =>
      ExprsNodesAppend(BlockExprs(body), decorators);
      ExprsRoundTrip(decorators, key, tbl, symbols);
      BlockRoundTrip(body, key, tbl, symbols);
  }

  lemma {:induction false} StmtsRoundTrip<K>(ss: seq<Stmt>, key: Expr -> Option<K>, tbl: map<K, Expr>, symbols: map<string, Expr>)
    requires Invertible(key, tbl, symbols) && Unbound(ExprsNodes(StmtsExprs(ss)), symbols)
    ensures ReplaceStmts(ReplaceStmts(ss, key, tbl), NameKey, symbols) == ss
  {
    if ss != [] {
      ExprsNodesAppend(StmtExprs(ss[0]), StmtsExprs(ss[1..]));
      StmtRoundTrip(ss[0], key, tbl, symbols);
      StmtsRoundTrip(ss[1..], key, tbl, symbols);
    }
  }

  lemma {:induction false} BlockRoundTrip<K>(b: Block, key: Expr -> Option<K>, tbl: map<K, Expr>, symbols: map<string, Expr>)
    requires Invertible(key, tbl, symbols) && Unbound(ExprsNodes(BlockExprs(b)), symbols)
    ensures ReplaceBlock(ReplaceBlock(b, key, tbl), NameKey, symbols) == b
  {
    match b
    case Indented(stmts) => StmtsRoundTrip(stmts, key, tbl, symbols);
    case Inline(smalls) => SmallsRoundTrip(smalls, key, tbl, symbols);
  }

  lemma {:induction false} BlocksRoundTrip<K>(bs: seq<Block>, key: Expr -> Option<K>, tbl: map<K, Expr>, symbols: map<string, Expr>)
    requires Invertible(key, tbl, symbols) && Unbound(ExprsNodes(BlocksExprs(bs)), symbols)
    ensures ReplaceBlocks(ReplaceBlocks(bs, key, tbl), NameKey, symbols) == bs
  {
    if bs != [] {
      ExprsNodesAppend(BlockExprs(bs[0]), BlocksExprs(bs[1..]));
      BlockRoundTrip(bs[0], key, tbl, symbols);
      BlocksRoundTrip(bs[1..], key, tbl, symbols);
    }
  }

  lemma {:induction false} OrElseRoundTrip<K>(o: OrElse, key: Expr -> Option<K>, tbl: map<K, Expr>, symbols: map<string, Expr>)
    requires Invertible(key, tbl, symbols) && Unbound(ExprsNodes(OrElseExprs(o)), symbols)
    ensures ReplaceOrElse(ReplaceOrElse(o, key, tbl), NameKey, symbols) == o
  {
    match o
    case NoElse =>
    case Else(b) => BlockRoundTrip(b, key, tbl, symbols);
    case Elif(s) => StmtRoundTrip(s, key, tbl, symbols);
  }
}

=== FILE: symbol_table.dfy ===
/**
 * The `SymbolTable` of `stack.py`: a read-only mapping that consults the
 * locals first and falls back to the globals.
 */
module SymbolTables {
  import opened Results

  datatype SymbolTable<V> = SymbolTable(locals: map<string, V>, globals: map<string, V>)

  /** `table[key]` */
  function Lookup<V>(t: SymbolTable<V>, key: string): (r: Result<V>)
    ensures key in t.locals ==> r == Ok(t.locals[key])
    ensures key !in t.locals && key in t.globals ==> r == Ok(t.globals[key])
    ensures key !in t.locals && key !in t.globals ==> r == Err(KeyError)
  {
    if key in t.locals then Ok(t.locals[key])
    else if key in t.globals then Ok(t.globals[key])
    else Err(KeyError)
  }

  /** Iteration yields the union of the local and global keys. */
  function Keys<V>(t: SymbolTable<V>): (ks: set<string>)
    ensures forall k :: k in ks <==> Lookup(t, k).Ok?
  {
    t.locals.Keys + t.globals.Keys
  }

  /** `len(table)`: the size of that union, so a key bound in both scopes counts once. */
  function Len<V>(t: SymbolTable<V>): (n: nat)
    ensures n == |Keys(t)|
    ensures |t.locals| <= n && |t.globals| <= n && n <= |t.locals| + |t.globals|
  {
    var ks := t.locals.Keys + t.globals.Keys;
    assert t.locals.Keys <= ks && t.globals.Keys <= ks;
    SubsetCard(t.locals.Keys, ks);
    SubsetCard(t.globals.Keys, ks);
    |ks|
  }

  lemma {:induction false} SubsetCard(a: set<string>, b: set<string>)
    requires a <= b
    ensures |a| <= |b|
    decreases |b|
  {
    if a != {} {
      var x :| x in a;
      SubsetCard(a - {x}, b - {x});
    }
  }

  /** A local binding shadows a global binding of the same key. */
  lemma LocalsShadowGlobals<V>(locals: map<string, V>, globals: map<string, V>, key: string, v: V)
    ensures Lookup(SymbolTable(locals[key := v], globals), key) == Ok(v)
  {
  }
}

=== FILE: syntax.dfy ===
/**
 * The closed Python grammar the passes are modelled over.
 *
 * The shape follows libcst: a statement is either a simple-statement line
 * holding small statements, or a compound statement whose body is an
 * indented block or a one-line suite; an `if` carries an optional `else`
 * or a chained `elif`. For the `ast`-based passes a small statement stands
 * for one `ast` statement and an `ast` orelse list is `NoElse` when empty
 * and `Else(Indented(..))` otherwise.
 *
 * A `Name` carries its expression context as a tag. An attribute carries
 * no context: every pass compares attributes by structure only.
 */
module Syntax {
  import opened Results

  datatype Ctx = Load | Store | Del

  datatype UnaryKind = Not | Invert | USub
  datatype BoolKind = And | Or
  datatype BinKind = Add | Sub | Mult | BitAnd | BitOr | BitXor
  datatype CmpKind = Eq | NotEq | Lt | LtE | Gt | GtE

  datatype Expr =
    | Name(id: string, ctx: Ctx)
    | Attr(owner: Expr, field: string)
    | Unary(uop: UnaryKind, operand: Expr)
    | BoolOp(bop: BoolKind, values: seq<Expr>)
    | BinOp(left: Expr, binop: BinKind, right: Expr)
    | Compare(lhs: Expr, cmp: CmpKind, rhs: Expr)
    | IfExp(test: Expr, body: Expr, orelse: Expr)
    | Call(func: Expr, args: seq<Expr>, keywords: seq<Keyword>)
    | Tuple(elts: seq<Expr>)
    | Lit(text: string)

  /** A keyword argument `arg=value` of a call. */
  datatype Keyword = Keyword(arg: string, value: Expr)

  datatype Small =
    | Assign(targets: seq<Expr>, value: Expr)
    | Return(result: Option<Expr>)
    | ExprStmt(expr: Expr)
    | Pass
    | Assert(cond: Expr)

  datatype Stmt =
    | Line(smalls: seq<Small>)
    | If(test: Expr, body: Block, orelse: OrElse)
    | For(target: Expr, iter: Expr, body: Block, isAsync: bool)
    | While(test: Expr, body: Block)
    | With(items: seq<Expr>, body: Block, isAsync: bool)
    | Try(body: Block, handlers: seq<Block>)
    | Def(name: string, params: seq<string>, decorators: seq<Expr>, body: Block, isAsync: bool)
    | Class(name: string, decorators: seq<Expr>, body: Block)

  /** An indented block of statements, or a one-line suite of small statements. */
  datatype Block = Indented(stmts: seq<Stmt>) | Inline(smalls: seq<Small>)

  datatype OrElse = NoElse | Else(block: Block) | Elif(branch: Stmt)

  function LoadName(id: string): Expr { Name(id, Ctx.Load) }
  function StoreName(id: string): Expr { Name(id, Ctx.Store) }
  function NotExpr(e: Expr): Expr { Unary(Not, e) }

  /** `make_assign(target, value)`: a line holding the single assignment. */
  function AssignLine(target: Expr, value: Expr): Stmt
  {
    Line([Assign([target], value)])
  }
}

=== FILE: traversal.dfy ===
/**
 * The visiting order of `ast.NodeVisitor.generic_visit`, which every
 * `ast`-based visitor and transformer of the library inherits: a node's
 * fields are visited in their declaration order, so an expression is met
 * before its children (pre-order), an assignment's targets before its
 * value, a definition's body before its decorators, and nested
 * definitions are entered.
 */
module Traversal {
  import opened Results
  import opened Syntax

  /** Every expression node of `e`, in pre-order. */
  function ExprNodes(e: Expr): (r: seq<Expr>)
    ensures |r| >= 1 && r[0] == e
  {
    [e] + match e
      case Name(_, _) => []
      case Attr(owner, _) => ExprNodes(owner)
      case Unary(_, operand) => ExprNodes(operand)
      case BoolOp(_, values) => ExprsNodes(values)
      case BinOp(l, _, r) => ExprNodes(l) + ExprNodes(r)
      case Compare(l, _, r) => ExprNodes(l) + ExprNodes(r)
      case IfExp(t, b, o) => ExprNodes(t) + ExprNodes(b) + ExprNodes(o)
      case Call(f, args, kws) => ExprNodes(f) + ExprsNodes(args) + KeywordsNodes(kws)
      case Tuple(elts) => ExprsNodes(elts)
      case Lit(_) => []
  }

  function ExprsNodes(es: seq<Expr>): seq<Expr>
  {
    if es == [] then [] else ExprNodes(es[0]) + ExprsNodes(es[1..])
  }

  function KeywordsNodes(ks: seq<Keyword>): seq<Expr>
  {
    if ks == [] then [] else ExprNodes(ks[0].value) + KeywordsNodes(ks[1..])
  }

  /** The expressions directly under a small statement, in field order. */
  function SmallExprs(s: Small): seq<Expr>
  {
    match s
    case Assign(targets, value) => targets + [value]
    case Return(r) => if r.Some? then [r.value] else []
    case ExprStmt(e) => [e]
    case Pass => []
    case Assert(c) => [c]
  }

  function SmallsExprs(ss: seq<Small>): seq<Expr>
  {
    if ss == [] then [] else SmallExprs(ss[0]) + SmallsExprs(ss[1..])
  }

  /**
   * The outermost expressions of a statement and of every statement
   * nested in it, in visiting order. A definition's body comes before its
   * decorators, as in the field order of `FunctionDef` and `ClassDef`.
   */
  function StmtExprs(s: Stmt): seq<Expr>
  {
    match s
    case Line(smalls) => SmallsExprs(smalls)
    case If(test, body, orelse) => [test] + BlockExprs(body) + OrElseExprs(orelse)
    case For(target, iter, body, _) => [target, iter] + BlockExprs(body)
    case While(test, body) => [test] + BlockExprs(body)
    case With(items, body, _) => items + BlockExprs(body)
    case Try(body, handlers) => BlockExprs(body) + BlocksExprs(handlers)
    case Def(_, _, decorators, body, _) => BlockExprs(body) + decorators
    case Class(_, decorators, body) => BlockExprs(body) + decorators
  }

  function StmtsExprs(ss: seq<Stmt>): seq<Expr>
  {
    if ss == [] then [] else StmtExprs(ss[0]) + StmtsExprs(ss[1..])
  }

  function BlockExprs(b: Block): seq<Expr>
  {
    match b
    case Indented(stmts) => StmtsExprs(stmts)
    case Inline(smalls) => SmallsExprs(smalls)
  }

  function BlocksExprs(bs: seq<Block>): seq<Expr>
  {
    if bs == [] then [] else BlockExprs(bs[0]) + BlocksExprs(bs[1..])
  }

  function OrElseExprs(o: OrElse): seq<Expr>
  {
    match o
    case NoElse => []
    case Else(b) => BlockExprs(b)
    case Elif(s) => StmtExprs(s)
  }

  /** Every expression node of a tree, in visiting order. */
  function TreeNodes(s: Stmt): seq<Expr>
  {
    ExprsNodes(StmtExprs(s))
  }

  /** Every small statement of a tree, nested definitions included, in visiting order. */
  function StmtSmalls(s: Stmt): seq<Small>
  {
    match s
    case Line(smalls) => smalls
    case If(_, body, orelse) => BlockSmalls(body) + OrElseSmalls(orelse)
    case For(_, _, body, _) => BlockSmalls(body)
    case While(_, body) => BlockSmalls(body)
    case With(_, body, _) => BlockSmalls(body)
    case Try(body, handlers) => BlockSmalls(body) + BlocksSmalls(handlers)
    case Def(_, _, _, body, _) => BlockSmalls(body)
    case Class(_, _, body) => BlockSmalls(body)
  }

  function StmtsSmalls(ss: seq<Stmt>): seq<Small>
  {
    if ss == [] then [] else StmtSmalls(ss[0]) + StmtsSmalls(ss[1..])
  }

  function BlockSmalls(b: Block): seq<Small>
  {
    match b
    case Indented(stmts) => StmtsSmalls(stmts)
    case Inline(smalls) => smalls
  }

  function BlocksSmalls(bs: seq<Block>): seq<Small>
  {
    if bs == [] then [] else BlockSmalls(bs[0]) + BlocksSmalls(bs[1..])
  }

  function OrElseSmalls(o: OrElse): seq<Small>
  {
    match o
    case NoElse => []
    case Else(b) => BlockSmalls(b)
    case Elif(s) => StmtSmalls(s)
  }

  /** The node lists of a concatenation concatenate. */
  lemma {:induction false} ExprsNodesAppend(a: seq<Expr>, b: seq<Expr>)
    ensures ExprsNodes(a + b) == ExprsNodes(a) + ExprsNodes(b)
  {
    if a == [] {
      assert a + b == b;
    } else {
      assert (a + b)[1..] == a[1..] + b;
      ExprsNodesAppend(a[1..], b);
    }
  }

  /** The identifiers of the `Name` nodes among `nodes`. */
  function NodeNames(nodes: seq<Expr>): set<string>
  {
    set x | x in nodes && x.Name? :: x.id
  }

  lemma NodeNamesAppend(a: seq<Expr>, b: seq<Expr>)
    ensures NodeNames(a + b) == NodeNames(a) + NodeNames(b)
  {
    assert forall x | x in a + b :: x in a || x in b;
  }

  /** The nodes of a conditional expression: itself, then those of its test, body and orelse. */
  lemma IfExpNodes(e: Expr)
    requires e.IfExp?
    ensures ExprNodes(e) == [e] + (ExprNodes(e.test) + ExprNodes(e.body) + ExprNodes(e.orelse))
  {
  }
}

=== FILE: tree_map.dfy ===
/**
 * A transformer that rewrites expressions only: `ast.NodeTransformer`'s
 * generic visit of the statements, with a rewrite of each outermost
 * expression that may raise. Statements are rebuilt in place from their
 * rewritten expressions; the first exception in visiting order ends the
 * visit.
 */
module TreeMap {
  import opened Results
  import opened Syntax
  import opened Traversal

  function MapExprs(es: seq<Expr>, f: Expr -> Result<Expr>): (r: Result<seq<Expr>>)
    ensures r.Ok? ==> |r.value| == |es|
  {
    if es == [] then Ok([])
    else
      var e :- f(es[0]);
      var rest :- MapExprs(es[1..], f);
      Ok([e] + rest)
  }

  /** The rewrite succeeds when every expression's does, and then maps them one by one. */
  lemma {:induction false} MapExprsPointwise(es: seq<Expr>, f: Expr -> Result<Expr>)
    ensures MapExprs(es, f).Ok? <==> forall i | 0 <= i < |es| :: f(es[i]).Ok?
    ensures MapExprs(es, f).Ok? ==> forall i | 0 <= i < |es| :: f(es[i]) == Ok(MapExprs(es, f).value[i])
  {
    if es != [] {
      MapExprsPointwise(es[1..], f);
      assert forall i | 1 <= i < |es| :: es[i] == es[1..][i - 1];
    }
  }

  lemma {:induction false} MapExprsAppend(a: seq<Expr>, b: seq<Expr>, f: Expr -> Result<Expr>)
    ensures MapExprs(a + b, f).Ok? <==> MapExprs(a, f).Ok? && MapExprs(b, f).Ok?
    ensures MapExprs(a + b, f).Ok? ==> MapExprs(a + b, f).value == MapExprs(a, f).value + MapExprs(b, f).value
  {
    if a == [] {
      assert a + b == b;
    } else {
      assert (a + b)[1..] == a[1..] + b;
      assert (a + b)[0] == a[0];
      MapExprsAppend(a[1..], b, f);
    }
  }

  lemma MapExprsOne(e: Expr, f: Expr -> Result<Expr>)
    ensures MapExprs([e], f).Ok? <==> f(e).Ok?
    ensures f(e).Ok? ==> MapExprs([e], f).value == [f(e).value]
  {
  }

  function MapSmall(s: Small, f: Expr -> Result<Expr>): (r: Result<Small>)
    ensures r.Ok? <==> MapExprs(SmallExprs(s), f).Ok?
    ensures r.Ok? ==> SmallExprs(r.value) == MapExprs(SmallExprs(s), f).value
  {
    match s
    case Assign(targets, value) =>
      MapExprsAppend(targets, [value], f);
      var ts :- MapExprs(targets, f);
      var v :- f(value);
      Ok(Assign(ts, v))
    case Return(r) =>
      if r.None? then Ok(s)
      else
        var v :- f(r.value);
        Ok(Return(Some(v)))
    case ExprStmt(e) =>
      var v :- f(e);
      Ok(ExprStmt(v))
    case Pass => Ok(Pass)
    case Assert(c) =>
      var v :- f(c);
      Ok(Assert(v))
  }

  function MapSmalls(ss: seq<Small>, f: Expr -> Result<Expr>): (r: Result<seq<Small>>)
    ensures r.Ok? <==> MapExprs(SmallsExprs(ss), f).Ok?
    ensures r.Ok? ==> SmallsExprs(r.value) == MapExprs(SmallsExprs(ss), f).value
  {
    if ss == [] then Ok([])
    else
      MapExprsAppend(SmallExprs(ss[0]), SmallsExprs(ss[1..]), f);
      var s :- MapSmall(ss[0], f);
      var rest :- MapSmalls(ss[1..], f);
      assert ([s] + rest)[1..] == rest;
      Ok([s] + rest)
  }

  /** The rewritten tree: its expressions are the rewritten expressions of the tree. */
  function MapStmt(s: Stmt, f: Expr -> Result<Expr>): (r: Result<Stmt>)
    ensures r.Ok? <==> MapExprs(StmtExprs(s), f).Ok?
    ensures r.Ok? ==> StmtExprs(r.value) == MapExprs(StmtExprs(s), f).value
    decreases s, 1
  {
    match s
    case Line(smalls) =>
      var ss :- MapSmalls(smalls, f);
      Ok(Line(ss))
    case If(test, body, orelse) =>
      MapExprsAppend([test], BlockExprs(body), f);
      MapExprsAppend([test] + BlockExprs(body), OrElseExprs(orelse), f);
      var t :- f(test);
      var b :- MapBlock(body, f);
      var o :- MapOrElse(orelse, f);
      Ok(If(t, b, o))
    case For(target, iter, body, isAsync) =>
      assert [target, iter] == [target] + [iter];
      MapExprsAppend([target], [iter], f);
      MapExprsAppend([target, iter], BlockExprs(body), f);
      var t :- f(target);
      var i :- f(iter);
      var b :- MapBlock(body, f);
      Ok(For(t, i, b, isAsync))
    case While(test, body) =>
      MapExprsAppend([test], BlockExprs(body), f);
      var t :- f(test);
      var b :- MapBlock(body, f);
      Ok(While(t, b))
    case With(items, body, isAsync) =>
      MapExprsAppend(items, BlockExprs(body), f);
      var its :- MapExprs(items, f);
      var b :- MapBlock(body, f);
      Ok(With(its, b, isAsync))
    case Try(body, handlers) =>
      MapExprsAppend(BlockExprs(body), BlocksExprs(handlers), f);
      var b :- MapBlock(body, f);
      var hs :- MapBlocks(handlers, f);
      Ok(Try(b, hs))
    case Def(name, params, decorators, body, isAsync) =>
      MapExprsAppend(BlockExprs(body), decorators, f);
      var b :- MapBlock(body, f);
      var ds :- MapExprs(decorators, f);
      Ok(Def(name, params, ds, b, isAsync))
    case Class(name, decorators, body) =>
      MapExprsAppend(BlockExprs(body), decorators, f);
      var b :- MapBlock(body, f);
      var ds :- MapExprs(decorators, f);
      Ok(Class(name, ds, b))
  }

  function MapStmts(ss: seq<Stmt>, f: Expr -> Result<Expr>): (r: Result<seq<Stmt>>)
    ensures r.Ok? <==> MapExprs(StmtsExprs(ss), f).Ok?
    ensures r.Ok? ==> StmtsExprs(r.value) == MapExprs(StmtsExprs(ss), f).value
    decreases ss, 0
  {
    if ss == [] then Ok([])
    else
      MapExprsAppend(StmtExprs(ss[0]), StmtsExprs(ss[1..]), f);
      var s :- MapStmt(ss[0], f);
      var rest :- MapStmts(ss[1..], f);
      assert ([s] + rest)[1..] == rest;
      Ok([s] + rest)
  }

  function MapBlock(b: Block, f: Expr -> Result<Expr>): (r: Result<Block>)
    ensures r.Ok? <==> MapExprs(BlockExprs(b), f).Ok?
    ensures r.Ok? ==> BlockExprs(r.value) == MapExprs(BlockExprs(b), f).value
    decreases b, 2
  {
    match b
    case Indented(stmts) =>
      var ss :- MapStmts(stmts, f);
      Ok(Indented(ss))
    case Inline(smalls) =>
      var ss :- MapSmalls(smalls, f);
      Ok(Inline(ss))
  }

  function MapBlocks(bs: seq<Block>, f: Expr -> Result<Expr>): (r: Result<seq<Block>>)
    ensures r.Ok? <==> MapExprs(BlocksExprs(bs), f).Ok?
    ensures r.Ok? ==> BlocksExprs(r.value) == MapExprs(BlocksExprs(bs), f).value
    decreases bs, 0
  {
    if bs == [] then Ok([])
    else
      MapExprsAppend(BlockExprs(bs[0]), BlocksExprs(bs[1..]), f);
      var b :- MapBlock(bs[0], f);
      var rest :- MapBlocks(bs[1..], f);
      assert ([b] + rest)[1..] == rest;
      Ok([b] + rest)
  }

  function MapOrElse(o: OrElse, f: Expr -> Result<Expr>): (r: Result<OrElse>)
    ensures r.Ok? <==> MapExprs(OrElseExprs(o), f).Ok?
    ensures r.Ok? ==> OrElseExprs(r.value) == MapExprs(OrElseExprs(o), f).value
    decreases o, 2
  {
    match o
    case NoElse => Ok(NoElse)
    case Else(b) =>
      var b' :- MapBlock(b, f);
      Ok(Else(b'))
    case Elif(s) =>
      var s' :- MapStmt(s, f);
      Ok(Elif(s'))
  }

  // ---------------------------------------------------------------------
  // Undoing a rewrite
  // ---------------------------------------------------------------------

  /** `g` undoes `f` on `e`. */
  predicate Undoes(f: Expr -> Result<Expr>, g: Expr -> Result<Expr>, e: Expr)
  {
    f(e).Ok? && g(f(e).value) == Ok(e)
  }

  /** A rewrite that `g` undoes on every expression of a statement is undone on the statement. */
  lemma {:induction false} MapExprsUndone(es: seq<Expr>, f: Expr -> Result<Expr>, g: Expr -> Result<Expr>)
    requires forall e | e in es :: Undoes(f, g, e)
    ensures MapExprs(es, f).Ok? && MapExprs(MapExprs(es, f).value, g) == Ok(es)
  {
    if es != [] {
      assert es[0] in es;
      assert forall e | e in es[1..] :: e in es;
      MapExprsUndone(es[1..], f, g);
      var rest := MapExprs(es[1..], f).value;
      assert MapExprs(es, f).value == [f(es[0]).value] + rest;
      assert ([f(es[0]).value] + rest)[1..] == rest;
      assert [es[0]] + es[1..] == es;
    }
  }

  lemma {:induction false} MapSmallUndone(s: Small, f: Expr -> Result<Expr>, g: Expr -> Result<Expr>)
    requires forall e | e in SmallExprs(s) :: Undoes(f, g, e)
    ensures MapSmall(s, f).Ok? && MapSmall(MapSmall(s, f).value, g) == Ok(s)
  {
    match s
    case Assign(targets, value) =>
      assert value in SmallExprs(s);
      MapExprsUndone(targets, f, g);
    case Return(r) =>
      if r.Some? { assert r.value in SmallExprs(s); }
    case ExprStmt(e) => assert e in SmallExprs(s);
    case Pass =>
    case Assert(c) => assert c in SmallExprs(s);
  }

  lemma {:induction false} MapSmallsUndone(ss: seq<Small>, f: Expr -> Result<Expr>, g: Expr -> Result<Expr>)
    requires forall e | e in SmallsExprs(ss) :: Undoes(f, g, e)
    ensures MapSmalls(ss, f).Ok? && MapSmalls(MapSmalls(ss, f).value, g) == Ok(ss)
  {
    if ss != [] {
      MapSmallUndone(ss[0], f, g);
      MapSmallsUndone(ss[1..], f, g);
      var rest := MapSmalls(ss[1..], f).value;
      assert MapSmalls(ss, f).value == [MapSmall(ss[0], f).value] + rest;
      assert ([MapSmall(ss[0], f).value] + rest)[1..] == rest;
      assert [ss[0]] + ss[1..] == ss;
    }
  }

  lemma {:induction false} MapStmtUndone(s: Stmt, f: Expr -> Result<Expr>, g: Expr -> Result<Expr>)
    requires forall e | e in StmtExprs(s) :: Undoes(f, g, e)
    ensures MapStmt(s, f).Ok? && MapStmt(MapStmt(s, f).value, g) == Ok(s)
    decreases s, 1
  {
    match s
    case Line(smalls) => MapSmallsUndone(smalls, f, g);
    case If(test, body, orelse) =>
      assert test in StmtExprs(s);
      MapBlockUndone(body, f, g);
      MapOrElseUndone(orelse, f, g);
    case For(target, iter, body, _) =>
      assert target in StmtExprs(s) && iter in StmtExprs(s);
      MapBlockUndone(body, f, g);
    case While(test, body) =>
      assert test in StmtExprs(s);
      MapBlockUndone(body, f, g);
    case With(items, body, _) =>
      MapExprsUndone(items, f, g);
      MapBlockUndone(body, f, g);
    case Try(body, handlers) =>
      MapBlockUndone(body, f, g);
      MapBlocksUndone(handlers, f, g);
    case Def(_, _, decorators, body, _) =>
      MapBlockUndone(body, f, g);
      MapExprsUndone(decorators, f, g);
    case Class(_, decorators, body) =>
      MapBlockUndone(body, f, g);
      MapExprsUndone(decorators, f, g);
  }

  lemma {:induction false} MapStmtsUndone(ss: seq<Stmt>, f: Expr -> Result<Expr>, g: Expr -> Result<Expr>)
    requires forall e | e in StmtsExprs(ss) :: Undoes(f, g, e)
    ensures MapStmts(ss, f).Ok? && MapStmts(MapStmts(ss, f).value, g) == Ok(ss)
    decreases ss, 0
  {
    if ss != [] {
      MapStmtUndone(ss[0], f, g);
      MapStmtsUndone(ss[1..], f, g);
      var rest := MapStmts(ss[1..], f).value;
      assert MapStmts(ss, f).value == [MapStmt(ss[0], f).value] + rest;
      assert ([MapStmt(ss[0], f).value] + rest)[1..] == rest;
      assert [ss[0]] + ss[1..] == ss;
    }
  }

  lemma {:induction false} MapBlockUndone(b: Block, f: Expr -> Result<Expr>, g: Expr -> Result<Expr>)
    requires forall e | e in BlockExprs(b) :: Undoes(f, g, e)
    ensures MapBlock(b, f).Ok? && MapBlock(MapBlock(b, f).value, g) == Ok(b)
    decreases b, 2
  {
    match b
    case Indented(stmts) => MapStmtsUndone(stmts, f, g);
    case Inline(smalls) => MapSmallsUndone(smalls, f, g);
  }

  lemma {:induction false} MapBlocksUndone(bs: seq<Block>, f: Expr -> Result<Expr>, g: Expr -> Result<Expr>)
    requires forall e | e in BlocksExprs(bs) :: Undoes(f, g, e)
    ensures MapBlocks(bs, f).Ok? && MapBlocks(MapBlocks(bs, f).value, g) == Ok(bs)
    decreases bs, 0
  {
    if bs != [] {
      MapBlockUndone(bs[0], f, g);
      MapBlocksUndone(bs[1..], f, g);
      var rest := MapBlocks(bs[1..], f).value;
      assert MapBlocks(bs, f).value == [MapBlock(bs[0], f).value] + rest;
      assert ([MapBlock(bs[0], f).value] + rest)[1..] == rest;
      assert [bs[0]] + bs[1..] == bs;
    }
  }

  lemma {:induction false} MapOrElseUndone(o: OrElse, f: Expr -> Result<Expr>, g: Expr -> Result<Expr>)
    requires forall e | e in OrElseExprs(o) :: Undoes(f, g, e)
    ensures MapOrElse(o, f).Ok? && MapOrElse(MapOrElse(o, f).value, g) == Ok(o)
    decreases o, 2
  {
    match o
    case NoElse =>
    case Else(b) => MapBlockUndone(b, f, g);
    case Elif(s) => MapStmtUndone(s, f, g);
  }
}

=== FILE: used_names.dfy ===
/**
 * The used-name collector of `visitors/used_names.py`: every `Name`
 * identifier, plus the names of function and class definitions, whose
 * bodies (and decorators) are not entered.
 */
module UsedNames {
  import opened Results
  import opened Syntax

  function ExprNames(e: Expr): set<string>
  {
    match e
    case Name(id, _) => {id}
    case Attr(owner, _) => ExprNames(owner)
    case Unary(_, operand) => ExprNames(operand)
    case BoolOp(_, values) => ExprsNames(values)
    case BinOp(l, _, r) => ExprNames(l) + ExprNames(r)
    case Compare(l, _, r) => ExprNames(l) + ExprNames(r)
    case IfExp(t, b, o) => ExprNames(t) + ExprNames(b) + ExprNames(o)
    case Call(f, args, kws) => ExprNames(f) + ExprsNames(args) + KeywordsNames(kws)
    case Tuple(elts) => ExprsNames(elts)
    case Lit(_) => {}
  }

  function ExprsNames(es: seq<Expr>): set<string>
  {
    if es == [] then {} else ExprNames(es[0]) + ExprsNames(es[1..])
  }

  function KeywordsNames(ks: seq<Keyword>): set<string>
  {
    if ks == [] then {} else ExprNames(ks[0].value) + KeywordsNames(ks[1..])
  }

  function SmallNames(s: Small): set<string>
  {
    match s
    case Assign(targets, value) => ExprsNames(targets) + ExprNames(value)
    case Return(r) => if r.Some? then ExprNames(r.value) else {}
    case ExprStmt(e) => ExprNames(e)
    case Pass => {}
    case Assert(c) => ExprNames(c)
  }

  function SmallsNames(ss: seq<Small>): set<string>
  {
    if ss == [] then {} else SmallNames(ss[0]) + SmallsNames(ss[1..])
  }

  /** `used_names(stmt)`; a definition contributes only its own name. */
  function StmtNames(s: Stmt): set<string>
  {
    match s
    case Line(smalls) => SmallsNames(smalls)
    case If(test, body, orelse) => ExprNames(test) + BlockNames(body) + OrElseNames(orelse)
    case For(target, iter, body, _) => ExprNames(target) + ExprNames(iter) + BlockNames(body)
    case While(test, body) => ExprNames(test) + BlockNames(body)
    case With(items, body, _) => ExprsNames(items) + BlockNames(body)
    case Try(body, handlers) => BlockNames(body) + BlocksNames(handlers)
    case Def(name, _, _, _, _) => {name}
    case Class(name, _, _) => {name}
  }

  function StmtsNames(ss: seq<Stmt>): set<string>
  {
    if ss == [] then {} else StmtNames(ss[0]) + StmtsNames(ss[1..])
  }

  function BlockNames(b: Block): set<string>
  {
    match b
    case Indented(stmts) => StmtsNames(stmts)
    case Inline(smalls) => SmallsNames(smalls)
  }

  function BlocksNames(bs: seq<Block>): set<string>
  {
    if bs == [] then {} else BlockNames(bs[0]) + BlocksNames(bs[1..])
  }

  function OrElseNames(o: OrElse): set<string>
  {
    match o
    case NoElse => {}
    case Else(b) => BlockNames(b)
    case Elif(s) => StmtNames(s)
  }

  /** A statement list uses exactly the names some of its statements use. */
  lemma {:induction false} StmtsNamesUnion(ss: seq<Stmt>, x: string)
    ensures x in StmtsNames(ss) <==> exists i | 0 <= i < |ss| :: x in StmtNames(ss[i])
  {
    if ss != [] {
      StmtsNamesUnion(ss[1..], x);
      if x in StmtsNames(ss[1..]) {
        var i :| 0 <= i < |ss[1..]| && x in StmtNames(ss[1..][i]);
        assert x in StmtNames(ss[i + 1]);
      }
      if exists i | 0 <= i < |ss| :: x in StmtNames(ss[i]) {
        var i :| 0 <= i < |ss| && x in StmtNames(ss[i]);
        if i > 0 { assert x in StmtNames(ss[1..][i - 1]); }
      }
    }
  }

  /**
   * The module of `tests/test_visitors.py`: nested definitions and the
   * class body are not entered, so only the top-level names are collected.
   */
  lemma TopLevelNamesExample()
    ensures StmtsNames([
      AssignLine(StoreName("x"), Lit("1")),
      Def("foo", [], [], Indented([Def("g", [], [], Inline([Pass]), false)]), false),
      Class("A", [], Indented([Def("__init__", ["self"], [], Inline([Pass]), false), Class("B", [], Inline([Pass]))])),
      Def("h", [], [], Inline([Pass]), true)
    ]) == {"x", "foo", "A", "h"}
  {
  }
}

=== FILE: write_attrs_once.dfy ===
/**
 * The `write_attrs_once` pass of `passes/write_attrs_once.py`: every
 * attribute a function assigns to gets one local alias named
 * `<owner>_<attr>` (made free), read from the attribute at entry; every
 * occurrence of the attribute is replaced by the alias, and the alias is
 * written back to the attribute before every `return` and, unless the
 * body always returns, at its end.
 *
 * The alias is made free against `used_names` of the function, which is
 * just the function's own name, and two different attributes can format
 * to the same alias (`a_b.c` and `a.b_c`). `Policy.AsWritten` models
 * that; `Policy.Corrected` makes each alias free against every name of
 * the definition and against the aliases already drawn.
 */
module WriteAttrsOnce {
  import opened Results
  import opened Syntax
  import opened Traversal
  import opened Strings
  import opened NodeReplacer
  import UsedNames
  import FreeNames
  import SymbolTables
  import SymbolReplacer
  import Reachability
  import CollectTargets
  import AttrHoisting
  import CollectNames
  import Normalizers
  import Seqs

  const NotAFunction: string := "Only supports rewriting of functions"
  const NonNameOwner: string := "Only supports writing attributes of Name"

  datatype Policy = AsWritten | Corrected

  // ---------------------------------------------------------------------
  // The written attributes: `collect_targets(tree, ast.Attribute)`
  // ---------------------------------------------------------------------

  predicate IsAttr(e: Expr) { e.Attr? }

  function AttrsOf(ts: seq<Expr>): (r: seq<Expr>)
    ensures forall x :: x in r <==> x in ts && x.Attr?
  {
    if ts == [] then [] else (if ts[0].Attr? then [ts[0]] else []) + AttrsOf(ts[1..])
  }

  /** The attribute targets of the assignments among `smalls`, in visiting order. */
  function AttrTargets(smalls: seq<Small>): (r: seq<Expr>)
    ensures forall w | w in r :: w.Attr?
  {
    if smalls == [] then []
    else (if smalls[0].Assign? then AttrsOf(smalls[0].targets) else []) + AttrTargets(smalls[1..])
  }

  /** The same attributes the target collector gathers with the `ast.Attribute` filter. */
  lemma {:induction false} AttrTargetsCollected(smalls: seq<Small>, x: Expr)
    ensures x in AttrTargets(smalls) <==> CollectTargets.IsTarget(smalls, Some(IsAttr), x)
  {
    if smalls != [] {
      AttrTargetsCollected(smalls[1..], x);
      if CollectTargets.IsTarget(smalls, Some(IsAttr), x) {
        var i :| 0 <= i < |smalls| && smalls[i].Assign? && x in smalls[i].targets && CollectTargets.Passes(Some(IsAttr), x);
        if i > 0 {
          assert smalls[1..][i - 1] == smalls[i];
        }
      }
      if CollectTargets.IsTarget(smalls[1..], Some(IsAttr), x) {
        var i :| 0 <= i < |smalls[1..]| && smalls[1..][i].Assign? && x in smalls[1..][i].targets && CollectTargets.Passes(Some(IsAttr), x);
        assert smalls[i + 1] == smalls[1..][i];
      }
      if smalls[0].Assign? && x in smalls[0].targets && x.Attr? {
        assert CollectTargets.Passes(Some(IsAttr), x);
      }
    }
  }

  // ---------------------------------------------------------------------
  // One alias per written attribute
  // ---------------------------------------------------------------------

  /** `'_'.join((t.value.id, t.attr))` */
  function Candidate(w: Expr): string
    requires w.Attr? && w.owner.Name?
  {
    w.owner.id + "_" + w.field
  }

  /** The names an alias must avoid. */
  function Scope(policy: Policy, tree: Stmt, env: set<string>): set<string>
  {
    (if policy.AsWritten? then UsedNames.StmtNames(tree) else AttrHoisting.DeepStmt(tree)) + env
  }

  /** The attributes met so far in order and the alias of each (`attr_table`). */
  datatype Aliased = Aliased(attrs: seq<Expr>, table: map<Expr, string>)

  function AliasValues(table: map<Expr, string>): set<string>
  {
    set w | w in table :: table[w]
  }

  predicate Wf(a: Aliased)
  {
    && (forall w | w in a.attrs :: w in a.table)
    && (forall w | w in a.table :: w in a.attrs && w.Attr? && w.owner.Name?)
    && (forall i, j | 0 <= i < j < |a.attrs| :: a.attrs[i] != a.attrs[j])
  }

  /** The alias `gen_free_name(tree, env, owner_attr)`, also kept apart from earlier aliases under the correction. */
  function AliasFor(policy: Policy, scope: set<string>, w: Expr, a: Aliased): (r: string)
    requires w.Attr? && w.owner.Name?
    ensures r !in scope
    ensures policy.Corrected? ==> r !in AliasValues(a.table)
  {
    if policy.AsWritten? then FreeNames.FreeNameIn(scope, Some(Candidate(w)))
    else FreeNames.FreeNameIn(scope + AliasValues(a.table), Some(Candidate(w)))
  }

  /**
   * The loop over the targets: an owner that is not a bare name raises,
   * an attribute met before keeps its entry (the source overwrites it with
   * the same name), any other is added under its alias.
   */
  function Alias(policy: Policy, scope: set<string>, ws: seq<Expr>, a: Aliased): (r: Result<Aliased>)
    requires forall w | w in ws :: w.Attr?
    decreases |ws|
  {
    if ws == [] then Ok(a)
    else
      var w := ws[0];
      if !w.owner.Name? then Err(NotImplementedError(NonNameOwner))
      else if w in a.table then Alias(policy, scope, ws[1..], a)
      else Alias(policy, scope, ws[1..], Aliased(a.attrs + [w], a.table[w := AliasFor(policy, scope, w, a)]))
  }

  /** Aliases are free in the scope, and distinct under the correction. */
  predicate Fresh(policy: Policy, scope: set<string>, a: Aliased)
  {
    && (forall w | w in a.table :: a.table[w] !in scope)
    && (policy.Corrected? ==> forall v, w | v in a.table && w in a.table && v != w :: a.table[v] != a.table[w])
  }

  /** The loop fails exactly when a target's owner is not a bare name, with `NotImplementedError`. */
  lemma {:induction false} AliasFails(policy: Policy, scope: set<string>, ws: seq<Expr>, a: Aliased)
    requires forall w | w in ws :: w.Attr?
    ensures Alias(policy, scope, ws, a).Err? <==> exists w | w in ws :: !w.owner.Name?
    ensures Alias(policy, scope, ws, a).Err? ==> Alias(policy, scope, ws, a).error == NotImplementedError(NonNameOwner)
    decreases |ws|
  {
    if ws != [] {
      var w := ws[0];
      assert forall v | v in ws[1..] :: v in ws;
      if w.owner.Name? {
        assert forall v | v in ws && v != w :: v in ws[1..];
        if w in a.table {
          AliasFails(policy, scope, ws[1..], a);
        } else {
          AliasFails(policy, scope, ws[1..], Aliased(a.attrs + [w], a.table[w := AliasFor(policy, scope, w, a)]));
        }
      }
    }
  }

  /** One added entry keeps the table well formed and its aliases fresh. */
  lemma AliasStep(policy: Policy, scope: set<string>, w: Expr, a: Aliased)
    requires w.Attr? && w.owner.Name? && w !in a.table
    requires Wf(a) && Fresh(policy, scope, a)
    ensures var a' := Aliased(a.attrs + [w], a.table[w := AliasFor(policy, scope, w, a)]);
      Wf(a') && Fresh(policy, scope, a')
  {
    var a' := Aliased(a.attrs + [w], a.table[w := AliasFor(policy, scope, w, a)]);
    forall i, j | 0 <= i < j < |a'.attrs| ensures a'.attrs[i] != a'.attrs[j] {
      if j == |a.attrs| {
        assert a'.attrs[i] == a.attrs[i];
      } else {
        assert a'.attrs[i] == a.attrs[i] && a'.attrs[j] == a.attrs[j];
      }
    }
    if policy.Corrected? {
      forall v | v in a.table ensures a.table[v] in AliasValues(a.table) { }
    }
  }

  /**
   * When the loop succeeds every target has an alias, the attributes are
   * listed once each, the aliases are free in the scope, and under the
   * correction no two attributes share one.
   */
  lemma {:induction false} AliasTable(policy: Policy, scope: set<string>, ws: seq<Expr>, a: Aliased)
    requires forall w | w in ws :: w.Attr?
    requires Wf(a) && Fresh(policy, scope, a)
    requires Alias(policy, scope, ws, a).Ok?
    ensures var r := Alias(policy, scope, ws, a).value;
      Wf(r) && Fresh(policy, scope, r) && r.table.Keys == a.table.Keys + (set w | w in ws)
    decreases |ws|
  {
    if ws != [] {
      var w := ws[0];
      assert forall v | v in ws[1..] :: v in ws;
      Seqs.SetOfCons(ws);
      if w in a.table {
        AliasTable(policy, scope, ws[1..], a);
      } else {
        AliasStep(policy, scope, w, a);
        AliasTable(policy, scope, ws[1..], Aliased(a.attrs + [w], a.table[w := AliasFor(policy, scope, w, a)]));
      }
    }
  }

  // ---------------------------------------------------------------------
  // Reads, writes and their insertion
  // ---------------------------------------------------------------------

  /** `alias = owner.attr`, one per alias, in table order. */
  function Reads(a: Aliased): (r: seq<Small>)
    requires forall w | w in a.attrs :: w in a.table
    ensures |r| == |a.attrs|
  {
    seq(|a.attrs|, i requires 0 <= i < |a.attrs| => Assign([StoreName(a.table[a.attrs[i]])], a.attrs[i]))
  }

  /** `owner.attr = alias`, one per alias, in table order. */
  function Writes(a: Aliased): (r: seq<Small>)
    requires forall w | w in a.attrs :: w in a.table
    ensures |r| == |a.attrs|
  {
    seq(|a.attrs|, i requires 0 <= i < |a.attrs| => Assign([a.attrs[i]], LoadName(a.table[a.attrs[i]])))
  }

  /** No `return` among the small statements. */
  predicate NoReturn(ss: seq<Small>)
  {
    forall i | 0 <= i < |ss| :: !ss[i].Return?
  }

  /** The returns of a statement sequence, in order. */
  function ReturnsOf(ss: seq<Small>): seq<Small>
  {
    if ss == [] then [] else ReturnsOfOne(ss[0]) + ReturnsOf(ss[1..])
  }

  /** One statement as a list of returns: itself when it is a `return`, else nothing. */
  function ReturnsOfOne(x: Small): seq<Small>
  {
    if x.Return? then [x] else []
  }

  /** `InsertWrites.visit_Return` on a statement list: the writes go before every `return`. */
  function Spread(ss: seq<Small>, w: seq<Small>): seq<Small>
  {
    if ss == [] then [] else SpreadOne(ss[0], w) + Spread(ss[1..], w)
  }

  /** One statement with the writes in front when it is a `return`. */
  function SpreadOne(x: Small, w: seq<Small>): seq<Small>
  {
    if x.Return? then w + [x] else [x]
  }

  lemma SpreadCons(ss: seq<Small>, w: seq<Small>)
    requires ss != []
    ensures Spread(ss, w) == SpreadOne(ss[0], w) + Spread(ss[1..], w)
  {
  }

  lemma ReturnsOfCons(ss: seq<Small>)
    requires ss != []
    ensures ReturnsOf(ss) == ReturnsOfOne(ss[0]) + ReturnsOf(ss[1..])
  {
  }

  lemma {:induction false} SpreadAppend(a: seq<Small>, b: seq<Small>, w: seq<Small>)
    ensures Spread(a + b, w) == Spread(a, w) + Spread(b, w)
  {
    if a == [] {
      Seqs.NilAppend(a, b);
    } else {
      SpreadAppend(a[1..], b, w);
      Seqs.ConsAppend(a, b);
      SpreadCons(a + b, w);
      SpreadCons(a, w);
    }
  }

  lemma {:induction false} SpreadNoReturn(ss: seq<Small>, w: seq<Small>)
    requires NoReturn(ss)
    ensures Spread(ss, w) == ss
  {
    if ss != [] {
      assert !ss[0].Return?;
      SpreadNoReturn(ss[1..], w);
    }
  }

  /** Every `return` of `r` comes right after a copy of `w`. */
  predicate Guarded(r: seq<Small>, w: seq<Small>)
  {
    forall i | 0 <= i < |r| && r[i].Return? :: |w| <= i && r[i - |w|..i] == w
  }

  lemma GuardedAppend(a: seq<Small>, b: seq<Small>, w: seq<Small>)
    requires Guarded(a, w) && Guarded(b, w)
    ensures Guarded(a + b, w)
  {
    var r := a + b;
    forall i | 0 <= i < |r| && r[i].Return?
      ensures |w| <= i && r[i - |w|..i] == w
    {
      if i < |a| {
        assert a[i] == r[i];
        assert r[i - |w|..i] == a[i - |w|..i];
      } else {
        var j := i - |a|;
        assert b[j] == r[i];
        assert |w| <= j;
        assert r[i - |w|..i] == b[j - |w|..j];
      }
    }
  }

  /** After the insertion every `return` is immediately preceded by the writes. */
  lemma {:induction false} SpreadGuards(ss: seq<Small>, w: seq<Small>)
    requires NoReturn(w)
    ensures Guarded(Spread(ss, w), w)
  {
    if ss != [] {
      SpreadGuards(ss[1..], w);
      var head := if ss[0].Return? then w + [ss[0]] else [ss[0]];
      assert Guarded(head, w) by {
        assert ss[0].Return? ==> forall k | 0 <= k < |w| :: head[k] == w[k];
        forall i | 0 <= i < |head| && head[i].Return?
          ensures |w| <= i && head[i - |w|..i] == w
        {
          assert ss[0].Return? && i == |w|;
          assert head[..|w|] == w;
        }
      }
      GuardedAppend(head, Spread(ss[1..], w), w);
    }
  }

  /** The insertion keeps the returns, in order. */
  lemma {:induction false} SpreadReturns(ss: seq<Small>, w: seq<Small>)
    requires NoReturn(w)
    ensures ReturnsOf(Spread(ss, w)) == ReturnsOf(ss)
  {
    if ss != [] {
      var x := ss[0];
      SpreadReturns(ss[1..], w);
      SpreadCons(ss, w);
      ReturnsOfCons(ss);
      ReturnsOfAppend(SpreadOne(x, w), Spread(ss[1..], w));
      SpreadOneReturns(x, w);
    }
  }

  lemma SpreadOneReturns(x: Small, w: seq<Small>)
    requires NoReturn(w)
    ensures ReturnsOf(SpreadOne(x, w)) == ReturnsOfOne(x)
  {
    assert [x][1..] == [];
    if x.Return? {
      ReturnsOfNone(w);
      ReturnsOfAppend(w, [x]);
    }
  }

  /** The insertion adds the writes once per return and nothing else. */
  lemma {:induction false} SpreadLength(ss: seq<Small>, w: seq<Small>)
    ensures |Spread(ss, w)| == |ss| + |w| * |ReturnsOf(ss)|
  {
    if ss != [] {
      var x := ss[0];
      SpreadLength(ss[1..], w);
      SpreadCons(ss, w);
      ReturnsOfCons(ss);
      var k := |ReturnsOf(ss[1..])|;
      var j := |ReturnsOfOne(x)|;
      assert |SpreadOne(x, w)| == 1 + |w| * j;
      assert |w| * (j + k) == |w| * j + |w| * k;
    }
  }

  lemma {:induction false} ReturnsOfAppend(a: seq<Small>, b: seq<Small>)
    ensures ReturnsOf(a + b) == ReturnsOf(a) + ReturnsOf(b)
  {
    if a == [] {
      Seqs.NilAppend(a, b);
    } else {
      ReturnsOfAppend(a[1..], b);
      Seqs.ConsAppend(a, b);
      ReturnsOfCons(a + b);
      ReturnsOfCons(a);
    }
  }

  lemma {:induction false} ReturnsOfNone(ss: seq<Small>)
    requires NoReturn(ss)
    ensures ReturnsOf(ss) == []
  {
    if ss != [] {
      assert !ss[0].Return?;
      ReturnsOfNone(ss[1..]);
    }
  }

  /** `InsertWrites` over a tree: statement lists at every depth, nested definitions included. */
  function InsertStmt(s: Stmt, w: seq<Small>): (r: Stmt)
    ensures StmtSmalls(r) == Spread(StmtSmalls(s), w)
    decreases s, 1
  {
    match s
    case Line(smalls) => Line(Spread(smalls, w))
    case If(test, body, orelse) =>
      SpreadAppend(BlockSmalls(body), OrElseSmalls(orelse), w);
      If(test, InsertBlock(body, w), InsertOrElse(orelse, w))
    case For(target, iter, body, isAsync) => For(target, iter, InsertBlock(body, w), isAsync)
    case While(test, body) => While(test, InsertBlock(body, w))
    case With(items, body, isAsync) => With(items, InsertBlock(body, w), isAsync)
    case Try(body, handlers) =>
      SpreadAppend(BlockSmalls(body), BlocksSmalls(handlers), w);
      Try(InsertBlock(body, w), InsertBlocks(handlers, w))
    case Def(name, params, decorators, body, isAsync) => Def(name, params, decorators, InsertBlock(body, w), isAsync)
    case Class(name, decorators, body) => Class(name, decorators, InsertBlock(body, w))
  }

  function InsertStmts(ss: seq<Stmt>, w: seq<Small>): (r: seq<Stmt>)
    ensures StmtsSmalls(r) == Spread(StmtsSmalls(ss), w)
    decreases ss, 0
  {
    if ss == [] then []
    else
      SpreadAppend(StmtSmalls(ss[0]), StmtsSmalls(ss[1..]), w);
      var r := [InsertStmt(ss[0], w)] + InsertStmts(ss[1..], w);
      assert r[1..] == InsertStmts(ss[1..], w);
      r
  }

  function InsertBlock(b: Block, w: seq<Small>): (r: Block)
    ensures BlockSmalls(r) == Spread(BlockSmalls(b), w)
    decreases b, 2
  {
    match b
    case Indented(stmts) => Indented(InsertStmts(stmts, w))
    case Inline(smalls) => Inline(Spread(smalls, w))
  }

  function InsertBlocks(bs: seq<Block>, w: seq<Small>): (r: seq<Block>)
    ensures BlocksSmalls(r) == Spread(BlocksSmalls(bs), w)
    decreases bs, 0
  {
    if bs == [] then []
    else
      SpreadAppend(BlockSmalls(bs[0]), BlocksSmalls(bs[1..]), w);
      var r := [InsertBlock(bs[0], w)] + InsertBlocks(bs[1..], w);
      assert r[1..] == InsertBlocks(bs[1..], w);
      r
  }

  function InsertOrElse(o: OrElse, w: seq<Small>): (r: OrElse)
    ensures OrElseSmalls(r) == Spread(OrElseSmalls(o), w)
    decreases o, 2
  {
    match o
    case NoElse => NoElse
    case Else(b) => Else(InsertBlock(b, w))
    case Elif(s) => Elif(InsertStmt(s, w))
  }

  /** Undoes `Spread`: drops the copy of `w` found right before each `return`. */
  function Unspread(ss: seq<Small>, w: seq<Small>): seq<Small>
    decreases |ss|
  {
    if ss == [] then []
    else if |w| < |ss| && ss[..|w|] == w && ss[|w|].Return? then [ss[|w|]] + Unspread(ss[|w| + 1..], w)
    else [ss[0]] + Unspread(ss[1..], w)
  }

  /** Removing the writes in front of the returns gives the statements back. */
  lemma {:induction false} SpreadUndone(ss: seq<Small>, w: seq<Small>)
    requires NoReturn(w)
    ensures Unspread(Spread(ss, w), w) == ss
  {
    if ss != [] {
      var x := ss[0];
      SpreadUndone(ss[1..], w);
      SpreadCons(ss, w);
      var tail := Spread(ss[1..], w);
      if x.Return? {
        UnspreadHit(x, tail, w);
      } else {
        SpreadGuards(ss[1..], w);
        UnspreadMiss(x, tail, w);
      }
      assert ss == [x] + ss[1..];
    }
  }

  /** A `return` right after the writes loses the writes. */
  lemma UnspreadHit(x: Small, tail: seq<Small>, w: seq<Small>)
    requires x.Return?
    ensures Unspread(w + [x] + tail, w) == [x] + Unspread(tail, w)
  {
    var r := w + [x] + tail;
    assert r[..|w|] == w && r[|w|] == x;
    assert r[|w| + 1..] == tail;
  }

  /** Any other statement in front of guarded statements is kept. */
  lemma UnspreadMiss(x: Small, tail: seq<Small>, w: seq<Small>)
    requires !x.Return? && Guarded(tail, w)
    ensures Unspread([x] + tail, w) == [x] + Unspread(tail, w)
  {
    var r := [x] + tail;
    assert |w| < |r| ==> r[|w|] == if |w| == 0 then x else tail[|w| - 1];
    assert r[1..] == tail;
  }

  // ---------------------------------------------------------------------
  // The pass
  // ---------------------------------------------------------------------

  /** `AttrReplacer.node_id`: an attribute is its own key, any other node has none. */
  function AttrKey(e: Expr): Option<Expr>
  {
    if e.Attr? then Some(e) else None
  }

  /** Each aliased attribute replaced by a load of its alias, in load and store positions alike. */
  function Replacements(a: Aliased): (r: map<Expr, Expr>)
    ensures r.Keys == a.table.Keys
  {
    map w | w in a.table :: LoadName(a.table[w])
  }

  /**
   * The aliases of the attributes a tree writes: none when some written
   * attribute's owner is not a bare name; otherwise one per attribute,
   * free in the scope, and distinct under the correction.
   */
  function Table<V>(policy: Policy, tree: Stmt, env: SymbolTables.SymbolTable<V>): (r: Result<Aliased>)
    ensures r.Err? <==> exists w | w in AttrTargets(StmtSmalls(tree)) :: !w.owner.Name?
    ensures r.Err? ==> r.error == NotImplementedError(NonNameOwner)
    ensures r.Ok? ==>
      Wf(r.value) && Fresh(policy, Scope(policy, tree, SymbolTables.Keys(env)), r.value) &&
      r.value.table.Keys == set w | w in AttrTargets(StmtSmalls(tree))
  {
    var ws := AttrTargets(StmtSmalls(tree));
    var scope := Scope(policy, tree, SymbolTables.Keys(env));
    AliasFails(policy, scope, ws, Aliased([], map[]));
    var r := Alias(policy, scope, ws, Aliased([], map[]));
    if r.Err? then r
    else
      AliasTable(policy, scope, ws, Aliased([], map[]));
      r
  }

  /** One statement per small statement. */
  function Lines(ss: seq<Small>): (r: seq<Stmt>)
    ensures StmtsSmalls(r) == ss
    ensures Reachability.StmtsReturn(r) == Reachability.SmallsReturn(ss)
  {
    if ss == [] then []
    else
      var r := [Line([ss[0]])] + Lines(ss[1..]);
      assert r[0] == Line([ss[0]]) && r[1..] == Lines(ss[1..]);
      assert [ss[0]][1..] == [];
      assert StmtSmalls(r[0]) == [ss[0]];
      assert Reachability.SmallsReturn([ss[0]]) == (ss[0].Return? || Reachability.SmallsReturn([]));
      r
  }

  /** The reads before the body, and the writes after it unless the body always returns. */
  function Wrap(body: Block, entry: seq<Small>, exit: seq<Small>): (r: Block)
    ensures BlockSmalls(r) == entry + BlockSmalls(body) + (if Reachability.BlockReturns(body) then [] else exit)
  {
    match body
    case Indented(stmts) =>
      var after := if Reachability.StmtsReturn(stmts) then [] else Lines(exit);
      Normalizers.StmtsAppend(Lines(entry), stmts);
      Normalizers.StmtsAppend(Lines(entry) + stmts, after);
      assert StmtsSmalls(after) == if Reachability.StmtsReturn(stmts) then [] else exit;
      assert StmtsSmalls(Lines(entry) + stmts + after) == entry + StmtsSmalls(stmts) + StmtsSmalls(after);
      assert Reachability.BlockReturns(body) == Reachability.StmtsReturn(stmts);
      assert BlockSmalls(body) == StmtsSmalls(stmts);
      Indented(Lines(entry) + stmts + after)
    case Inline(smalls) =>
      Inline(entry + smalls + (if Reachability.SmallsReturn(smalls) then [] else exit))
  }

  /** The rewritten function, from the function with its attributes replaced. */
  function Rewrite(t: Stmt, a: Aliased): (r: Stmt)
    requires t.Def? && Wf(a)
    ensures r.Def? && r.name == t.name && r.params == t.params && !r.isAsync
    ensures StmtSmalls(r) ==
      Spread(Reads(a) + BlockSmalls(t.body) + (if Reachability.BlockReturns(t.body) then [] else Writes(a)), Writes(a))
  {
    InsertStmt(Def(t.name, t.params, t.decorators, Wrap(t.body, Reads(a), Writes(a)), false), Writes(a))
  }

  /**
   * `write_attrs_once(tree, env, metadata)`: only a (non-async) function
   * is accepted; its attribute targets get aliases, the attributes are
   * replaced by the aliases throughout, the reads are put first, the
   * writes last unless the body always returns, and before every `return`.
   */
  function Pass<V, M>(policy: Policy, tree: Stmt, env: SymbolTables.SymbolTable<V>, metadata: M)
    : (r: Result<(Stmt, SymbolTables.SymbolTable<V>, M)>)
    ensures r.Err? <==> !tree.Def? || tree.isAsync || exists w | w in AttrTargets(StmtSmalls(tree)) :: !w.owner.Name?
    ensures r.Err? ==> r.error.NotImplementedError?
    ensures r.Ok? ==>
      && r.value.0.Def? && r.value.0.name == tree.name && r.value.0.params == tree.params && !r.value.0.isAsync
      && r.value.1 == env && r.value.2 == metadata
  {
    if !tree.Def? || tree.isAsync then Err(NotImplementedError(NotAFunction))
    else
      var a :- Table(policy, tree, env);
      Ok((Rewrite(ReplaceStmt(tree, AttrKey, Replacements(a)), a), env, metadata))
  }

  /** Reads and writes hold no `return`. */
  lemma ReadsWritesNoReturn(a: Aliased)
    requires forall w | w in a.attrs :: w in a.table
    ensures NoReturn(Reads(a)) && NoReturn(Writes(a))
    ensures Spread(Reads(a), Writes(a)) == Reads(a) && Spread(Writes(a), Writes(a)) == Writes(a)
  {
    SpreadNoReturn(Reads(a), Writes(a));
    SpreadNoReturn(Writes(a), Writes(a));
  }

  /** Reads and writes around a body: the returns are the body's, each right after the writes. */
  lemma AroundBody(entry: seq<Small>, body: seq<Small>, tail: seq<Small>, w: seq<Small>)
    requires NoReturn(entry) && NoReturn(tail) && NoReturn(w)
    ensures var out := Spread(entry + body + tail, w);
      && out == entry + Spread(body, w) + tail
      && Guarded(out, w)
      && ReturnsOf(out) == ReturnsOf(body)
  {
    SpreadNoReturn(entry, w);
    SpreadNoReturn(tail, w);
    SpreadAppend(entry + body, tail, w);
    SpreadAppend(entry, body, w);
    SpreadGuards(entry + body + tail, w);
    SpreadReturns(entry + body + tail, w);
    ReturnsOfAppend(entry + body, tail);
    ReturnsOfAppend(entry, body);
    ReturnsOfNone(entry);
    ReturnsOfNone(tail);
  }

  /** Each aliased attribute is read into its alias and written back from it. */
  lemma ReadsWritesCover(a: Aliased)
    requires Wf(a)
    ensures forall x | x in a.table ::
      Assign([StoreName(a.table[x])], x) in Reads(a) && Assign([x], LoadName(a.table[x])) in Writes(a)
  {
    forall x | x in a.table
      ensures Assign([StoreName(a.table[x])], x) in Reads(a) && Assign([x], LoadName(a.table[x])) in Writes(a)
    {
      var i :| 0 <= i < |a.attrs| && a.attrs[i] == x;
      assert Reads(a)[i] == Assign([StoreName(a.table[x])], x);
      assert Writes(a)[i] == Assign([x], LoadName(a.table[x]));
    }
  }

  /**
   * The statements of the rewritten function: the reads, then the body
   * with the attributes replaced and the writes before each `return`,
   * then the writes unless the body always returns. Every `return` comes
   * right after the writes, the returns are those of the input, and each
   * written attribute is read into its alias at entry and written back
   * from it.
   */
  lemma PassShape<V, M>(policy: Policy, tree: Stmt, env: SymbolTables.SymbolTable<V>, metadata: M)
    requires Pass(policy, tree, env, metadata).Ok?
    ensures var a := Table(policy, tree, env).value;
      var t := ReplaceStmt(tree, AttrKey, Replacements(a));
      var out := StmtSmalls(Pass(policy, tree, env, metadata).value.0);
      && out == Reads(a) + Spread(BlockSmalls(t.body), Writes(a)) + (if Reachability.BlockReturns(t.body) then [] else Writes(a))
      && Guarded(out, Writes(a))
      && ReturnsOf(out) == ReturnsOf(BlockSmalls(t.body))
      && forall x | x in AttrTargets(StmtSmalls(tree)) ::
           x in a.table && Assign([StoreName(a.table[x])], x) in Reads(a) && Assign([x], LoadName(a.table[x])) in Writes(a)
  {
    PassIsRewrite(policy, tree, env, metadata);
    var a := Table(policy, tree, env).value;
    RewriteShape(ReplaceStmt(tree, AttrKey, Replacements(a)), a);
    ReadsWritesCover(a);
  }

  /** A successful pass is `Rewrite` applied to the function with its attributes replaced. */
  lemma PassIsRewrite<V, M>(policy: Policy, tree: Stmt, env: SymbolTables.SymbolTable<V>, metadata: M)
    requires Pass(policy, tree, env, metadata).Ok?
    ensures tree.Def? && Table(policy, tree, env).Ok?
    ensures var a := Table(policy, tree, env).value;
      && ReplaceStmt(tree, AttrKey, Replacements(a)).Def? && Wf(a)
      && Pass(policy, tree, env, metadata).value.0 == Rewrite(ReplaceStmt(tree, AttrKey, Replacements(a)), a)
  {
  }

  /** The statements of `Rewrite(t, a)`: reads, the body with writes before each `return`, then the writes. */
  lemma RewriteShape(t: Stmt, a: Aliased)
    requires t.Def? && Wf(a)
    ensures var out := StmtSmalls(Rewrite(t, a));
      && out == Reads(a) + Spread(BlockSmalls(t.body), Writes(a)) + (if Reachability.BlockReturns(t.body) then [] else Writes(a))
      && Guarded(out, Writes(a))
      && ReturnsOf(out) == ReturnsOf(BlockSmalls(t.body))
  {
    ReadsWritesNoReturn(a);
    AroundBody(Reads(a), BlockSmalls(t.body), if Reachability.BlockReturns(t.body) then [] else Writes(a), Writes(a));
  }

  /** The aliases, when distinct, mapped back to their attributes. */
  function Symbols(a: Aliased): map<string, Expr>
    requires forall w | w in a.attrs :: w in a.table
  {
    AttrHoisting.Inverse(a.attrs, a.table)
  }

  /**
   * Under the correction the replacement can be undone: putting every
   * attribute back in place of its alias with `replace_symbols` gives
   * the input back.
   */
  lemma CorrectedUndone<V, M>(tree: Stmt, env: SymbolTables.SymbolTable<V>, metadata: M)
    requires Pass(Corrected, tree, env, metadata).Ok?
    ensures var a := Table(Corrected, tree, env).value;
      SymbolReplacer.ReplaceSymbols(ReplaceStmt(tree, AttrKey, Replacements(a)), Symbols(a)) == tree
  {
    PassIsRewrite(Corrected, tree, env, metadata);
    TableUndone(tree, env);
  }

  /** Distinct aliases map back to their attributes. */
  lemma AliasesInvertible(policy: Policy, scope: set<string>, a: Aliased)
    requires policy.Corrected? && Wf(a) && Fresh(policy, scope, a)
    ensures SymbolReplacer.Invertible(AttrKey, Replacements(a), Symbols(a))
  {
    AttrHoisting.InverseUndoes(a.attrs, a.table);
  }

  /** The corrected table's aliases are names the tree does not use, so mapping them back restores it. */
  lemma TableUndone<V>(tree: Stmt, env: SymbolTables.SymbolTable<V>)
    requires Table(Corrected, tree, env).Ok?
    ensures var a := Table(Corrected, tree, env).value;
      SymbolReplacer.ReplaceSymbols(ReplaceStmt(tree, AttrKey, Replacements(a)), Symbols(a)) == tree
  {
    var scope := Scope(Corrected, tree, SymbolTables.Keys(env));
    var a := Table(Corrected, tree, env).value;
    var inv := Symbols(a);
    AliasesInvertible(Corrected, scope, a);
    var nodes := ExprsNodes(StmtExprs(tree));
    CollectNames.ExprsAgreeWithUsedNames(StmtExprs(tree));
    AttrHoisting.StmtExprsDeep(tree);
    assert NodeNames(nodes) <= scope;
    forall n | n in nodes && n.Name?
      ensures n.id !in inv
    {
      assert n.id in NodeNames(nodes);
    }
    SymbolReplacer.StmtRoundTrip(tree, AttrKey, Replacements(a), inv);
  }

  // ---------------------------------------------------------------------
  // Without a `return` the insertion changes nothing
  // ---------------------------------------------------------------------

  lemma NoReturnAppend(a: seq<Small>, b: seq<Small>)
    ensures NoReturn(a + b) <==> NoReturn(a) && NoReturn(b)
  {
    if NoReturn(a + b) {
      forall i | 0 <= i < |a| ensures !a[i].Return? {
        assert a[i] == (a + b)[i];
      }
      forall i | 0 <= i < |b| ensures !b[i].Return? {
        assert b[i] == (a + b)[|a| + i];
      }
    }
    if NoReturn(a) && NoReturn(b) {
      forall i | 0 <= i < |a + b| ensures !(a + b)[i].Return? {
        if i < |a| {
          assert (a + b)[i] == a[i];
        } else {
          assert (a + b)[i] == b[i - |a|];
        }
      }
    }
  }

  lemma {:induction false} InsertStmtNoReturn(s: Stmt, w: seq<Small>)
    requires NoReturn(StmtSmalls(s))
    ensures InsertStmt(s, w) == s
    decreases s, 1
  {
    match s
    case Line(smalls) => SpreadNoReturn(smalls, w);
    case If(_, body, orelse) =>
      NoReturnAppend(BlockSmalls(body), OrElseSmalls(orelse));
      InsertBlockNoReturn(body, w);
      InsertOrElseNoReturn(orelse, w);
    case For(_, _, body, _) => InsertBlockNoReturn(body, w);
    case While(_, body) => InsertBlockNoReturn(body, w);
    case With(_, body, _) => InsertBlockNoReturn(body, w);
    case Try(body, handlers) =>
      NoReturnAppend(BlockSmalls(body), BlocksSmalls(handlers));
      InsertBlockNoReturn(body, w);
      InsertBlocksNoReturn(handlers, w);
    case Def(_, _, _, body, _) => InsertBlockNoReturn(body, w);
    case Class(_, _, body) => InsertBlockNoReturn(body, w);
  }

  lemma {:induction false} InsertStmtsNoReturn(ss: seq<Stmt>, w: seq<Small>)
    requires NoReturn(StmtsSmalls(ss))
    ensures InsertStmts(ss, w) == ss
    decreases ss, 0
  {
    if ss != [] {
      NoReturnAppend(StmtSmalls(ss[0]), StmtsSmalls(ss[1..]));
      InsertStmtNoReturn(ss[0], w);
      InsertStmtsNoReturn(ss[1..], w);
    }
  }

  lemma {:induction false} InsertBlockNoReturn(b: Block, w: seq<Small>)
    requires NoReturn(BlockSmalls(b))
    ensures InsertBlock(b, w) == b
    decreases b, 2
  {
    match b
    case Indented(stmts) => InsertStmtsNoReturn(stmts, w);
    case Inline(smalls) => SpreadNoReturn(smalls, w);
  }

  lemma {:induction false} InsertBlocksNoReturn(bs: seq<Block>, w: seq<Small>)
    requires NoReturn(BlocksSmalls(bs))
    ensures InsertBlocks(bs, w) == bs
    decreases bs, 0
  {
    if bs != [] {
      NoReturnAppend(BlockSmalls(bs[0]), BlocksSmalls(bs[1..]));
      InsertBlockNoReturn(bs[0], w);
      InsertBlocksNoReturn(bs[1..], w);
    }
  }

  lemma {:induction false} InsertOrElseNoReturn(o: OrElse, w: seq<Small>)
    requires NoReturn(OrElseSmalls(o))
    ensures InsertOrElse(o, w) == o
    decreases o, 2
  {
    match o
    case NoElse =>
    case Else(b) => InsertBlockNoReturn(b, w);
    case Elif(s) => InsertStmtNoReturn(s, w);
  }

  // ---------------------------------------------------------------------
  // Examples
  // ---------------------------------------------------------------------

  function TX(): Expr { Attr(LoadName("t"), "x") }

  /** `def f1(t, cond): if cond: t.x = 1 else: t.x = 0` */
  function Basic(): Stmt
  {
    Def("f1", ["t", "cond"], [], Indented([
      If(LoadName("cond"), Indented([AssignLine(TX(), Lit("1"))]), Else(Indented([AssignLine(TX(), Lit("0"))])))]), false)
  }

  /** `t_x = t.x`, the conditional on `t_x`, then `t.x = t_x`. */
  function BasicRewritten(): Stmt
  {
    Def("f1", ["t", "cond"], [], Indented([
      Line([Assign([StoreName("t_x")], TX())]),
      If(LoadName("cond"), Indented([AssignLine(LoadName("t_x"), Lit("1"))]), Else(Indented([AssignLine(LoadName("t_x"), Lit("0"))]))),
      Line([Assign([TX()], LoadName("t_x"))])]), false)
  }

  lemma BasicTable<V>(env: SymbolTables.SymbolTable<V>)
    requires env == SymbolTables.SymbolTable(map[], map[])
    ensures Table(AsWritten, Basic(), env) == Ok(Aliased([TX()], map[TX() := "t_x"]))
  {
    var a1 := [Assign([TX()], Lit("1"))];
    var a0 := [Assign([TX()], Lit("0"))];
    assert StmtsSmalls([Line(a1)]) == a1;
    assert StmtsSmalls([Line(a0)]) == a0;
    assert StmtsSmalls([Basic().body.stmts[0]]) == a1 + a0;
    assert StmtSmalls(Basic()) == a1 + a0;
    assert AttrsOf([TX()]) == [TX()];
    assert AttrTargets(a0) == [TX()];
    assert (a1 + a0)[1..] == a0;
    assert AttrTargets(a1 + a0) == [TX(), TX()];
    assert Scope(AsWritten, Basic(), SymbolTables.Keys(env)) == {"f1"};
    assert Candidate(TX()) == "t_x";
    var none := Aliased([], map[]);
    var first := Aliased([TX()], map[TX() := "t_x"]);
    assert AliasFor(AsWritten, {"f1"}, TX(), none) == "t_x";
    assert Aliased(none.attrs + [TX()], none.table[TX() := "t_x"]) == first;
    assert [TX(), TX()][1..] == [TX()];
    assert Alias(AsWritten, {"f1"}, [TX(), TX()], none) == Alias(AsWritten, {"f1"}, [TX()], first);
    assert Alias(AsWritten, {"f1"}, [TX()], first) == Alias(AsWritten, {"f1"}, [], first);
  }

  /** The conditional of `test_basic` on the alias. */
  function BasicReplacedIf(): Stmt
  {
    If(LoadName("cond"), Indented([AssignLine(LoadName("t_x"), Lit("1"))]), Else(Indented([AssignLine(LoadName("t_x"), Lit("0"))])))
  }

  lemma BasicReplaced()
    ensures ReplaceStmt(Basic(), AttrKey, Replacements(Aliased([TX()], map[TX() := "t_x"])))
         == Def("f1", ["t", "cond"], [], Indented([BasicReplacedIf()]), false)
  {
    var tbl := Replacements(Aliased([TX()], map[TX() := "t_x"]));
    assert tbl == map[TX() := LoadName("t_x")];
    assert ReplaceExprs([TX()], AttrKey, tbl) == [LoadName("t_x")];
    assert ReplaceSmalls([Assign([TX()], Lit("1"))], AttrKey, tbl) == [Assign([LoadName("t_x")], Lit("1"))];
    assert ReplaceSmalls([Assign([TX()], Lit("0"))], AttrKey, tbl) == [Assign([LoadName("t_x")], Lit("0"))];
    assert ReplaceStmts([AssignLine(TX(), Lit("1"))], AttrKey, tbl) == [AssignLine(LoadName("t_x"), Lit("1"))];
    assert ReplaceStmts([AssignLine(TX(), Lit("0"))], AttrKey, tbl) == [AssignLine(LoadName("t_x"), Lit("0"))];
    assert ReplaceOrElse(Else(Indented([AssignLine(TX(), Lit("0"))])), AttrKey, tbl)
        == Else(Indented([AssignLine(LoadName("t_x"), Lit("0"))]));
    assert ReplaceStmt(Basic().body.stmts[0], AttrKey, tbl) == BasicReplacedIf();
    assert ReplaceStmts(Basic().body.stmts, AttrKey, tbl) == [BasicReplacedIf()];
  }

  lemma BasicWrapped()
    ensures var a := Aliased([TX()], map[TX() := "t_x"]);
      Def("f1", ["t", "cond"], [], Wrap(Indented([BasicReplacedIf()]), Reads(a), Writes(a)), false) == BasicRewritten()
  {
    var a := Aliased([TX()], map[TX() := "t_x"]);
    assert !Reachability.StmtsReturn([BasicReplacedIf()]) by {
      var b1 := Assign([LoadName("t_x")], Lit("1"));
      assert !Reachability.SmallsReturn([b1]);
      assert !Reachability.StmtsReturn([Line([b1])]);
    }
    assert Reads(a) == [Assign([StoreName("t_x")], TX())];
    assert Writes(a) == [Assign([TX()], LoadName("t_x"))];
    assert Lines(Reads(a)) == [Line(Reads(a))];
    assert Lines(Writes(a)) == [Line(Writes(a))];
  }

  lemma BasicNoReturn()
    ensures NoReturn(StmtSmalls(BasicRewritten()))
  {
    var a := Aliased([TX()], map[TX() := "t_x"]);
    var b1 := Assign([LoadName("t_x")], Lit("1"));
    var b0 := Assign([LoadName("t_x")], Lit("0"));
    assert StmtsSmalls([Line([b1])]) == [b1];
    assert StmtsSmalls([Line([b0])]) == [b0];
    assert StmtSmalls(BasicReplacedIf()) == [b1, b0];
    var rd := [Assign([StoreName("t_x")], TX())];
    var wr := [Assign([TX()], LoadName("t_x"))];
    var stmts := BasicRewritten().body.stmts;
    assert StmtsSmalls(stmts[2..]) == wr;
    assert StmtsSmalls(stmts[1..]) == [b1, b0] + wr;
    assert StmtSmalls(BasicRewritten()) == rd + [b1, b0] + wr;
  }

  /** `test_basic`: the attribute is read once at entry and written once at the end. */
  lemma BasicExample<V>(env: SymbolTables.SymbolTable<V>, metadata: int)
    requires env == SymbolTables.SymbolTable(map[], map[])
    ensures Pass(AsWritten, Basic(), env, metadata) == Ok((BasicRewritten(), env, metadata))
  {
    var a := Aliased([TX()], map[TX() := "t_x"]);
    BasicTable(env);
    BasicReplaced();
    BasicWrapped();
    BasicNoReturn();
    InsertStmtNoReturn(BasicRewritten(), Writes(a));
    var t := ReplaceStmt(Basic(), AttrKey, Replacements(a));
    assert Rewrite(t, a) == BasicRewritten();
  }

  // ---------------------------------------------------------------------
  // Findings: aliases that collide
  // ---------------------------------------------------------------------

  /** `def f(a, a_b): a_b.c = 1; a.b_c = 2` */
  function Collide(): Stmt
  {
    Def("f", ["a", "a_b"], [], Inline([
      Assign([Attr(LoadName("a_b"), "c")], Lit("1")),
      Assign([Attr(LoadName("a"), "b_c")], Lit("2"))]), false)
  }

  /**
   * As written, `a_b.c` and `a.b_c` both get the alias `a_b_c`: the read
   * of the second overwrites the first, and at the end `a_b.c` receives
   * the value meant for `a.b_c`.
   */
  lemma CollidingAliases<V>(env: SymbolTables.SymbolTable<V>)
    requires env == SymbolTables.SymbolTable(map[], map[])
    ensures var r := Table(AsWritten, Collide(), env);
      r.Ok? && Attr(LoadName("a_b"), "c") != Attr(LoadName("a"), "b_c") &&
      r.value.table[Attr(LoadName("a_b"), "c")] == r.value.table[Attr(LoadName("a"), "b_c")] == "a_b_c"
  {
    var x, y := Attr(LoadName("a_b"), "c"), Attr(LoadName("a"), "b_c");
    var ss := Collide().body.smalls;
    assert ss[1..][1..] == [];
    assert AttrsOf([x]) == [x] && AttrsOf([y]) == [y];
    assert AttrTargets(ss[1..]) == [y];
    assert AttrTargets(ss) == [x, y];
    assert Scope(AsWritten, Collide(), SymbolTables.Keys(env)) == {"f"};
    assert Candidate(x) == "a_b_c" && Candidate(y) == "a_b_c";
    var none := Aliased([], map[]);
    var one := Aliased([x], map[x := "a_b_c"]);
    assert AliasFor(AsWritten, {"f"}, x, none) == "a_b_c";
    assert Aliased(none.attrs + [x], none.table[x := "a_b_c"]) == one;
    assert [x, y][1..] == [y];
    assert Alias(AsWritten, {"f"}, [x, y], none) == Alias(AsWritten, {"f"}, [y], one);
    assert AliasFor(AsWritten, {"f"}, y, one) == "a_b_c";
  }

  lemma CollideScope<V>(env: SymbolTables.SymbolTable<V>)
    requires env == SymbolTables.SymbolTable(map[], map[])
    ensures Scope(Corrected, Collide(), SymbolTables.Keys(env)) == {"f", "a", "a_b"}
    ensures AttrTargets(Collide().body.smalls) == [Attr(LoadName("a_b"), "c"), Attr(LoadName("a"), "b_c")]
  {
    var x, y := Attr(LoadName("a_b"), "c"), Attr(LoadName("a"), "b_c");
    var ss := Collide().body.smalls;
    assert ss[1..][1..] == [];
    assert AttrsOf([x]) == [x] && AttrsOf([y]) == [y];
    assert AttrTargets(ss[1..]) == [y];
    assert UsedNames.SmallsNames(ss[1..]) == {"a"};
    assert UsedNames.SmallsNames(ss) == {"a_b", "a"};
  }

  /** With the correction the second alias is drawn past the first: `a_b_c0`. */
  lemma CollidingCorrected<V>(env: SymbolTables.SymbolTable<V>)
    requires env == SymbolTables.SymbolTable(map[], map[])
    ensures var r := Table(Corrected, Collide(), env);
      r.Ok? && r.value.table[Attr(LoadName("a_b"), "c")] == "a_b_c" && r.value.table[Attr(LoadName("a"), "b_c")] == "a_b_c0"
  {
    CollideScope(env);
    CollideAliases();
  }

  /** The corrected loop over the two targets of `Collide`, in the scope the pass computes. */
  lemma CollideAliases()
    ensures var x, y := Attr(LoadName("a_b"), "c"), Attr(LoadName("a"), "b_c");
      Alias(Corrected, {"f", "a", "a_b"}, [x, y], Aliased([], map[]))
        == Ok(Aliased([x, y], map[x := "a_b_c", y := "a_b_c0"]))
  {
    var x, y := Attr(LoadName("a_b"), "c"), Attr(LoadName("a"), "b_c");
    var scope := {"f", "a", "a_b"};
    assert Candidate(x) == "a_b_c" && Candidate(y) == "a_b_c";
    var none := Aliased([], map[]);
    var one := Aliased([x], map[x := "a_b_c"]);
    assert AliasValues(none.table) == {};
    assert AliasFor(Corrected, scope, x, none) == "a_b_c";
    assert Aliased(none.attrs + [x], none.table[x := "a_b_c"]) == one;
    assert [x, y][1..] == [y];
    assert Alias(Corrected, scope, [x, y], none) == Alias(Corrected, scope, [y], one);
    assert AliasValues(one.table) == {"a_b_c"};
    assert Str(0) == "0";
    assert "a_b_c" + Str(0) == "a_b_c0";
    assert FreeNames.FirstFreeIndex(scope + {"a_b_c"}, "a_b_c", 0) == 0;
    assert AliasFor(Corrected, scope, y, one) == "a_b_c0";
    assert [y][1..] == [];
    assert one.attrs + [y] == [x, y];
    assert y !in one.table;
    assert one.table[y := "a_b_c0"] == map[x := "a_b_c", y := "a_b_c0"];
    assert Alias(Corrected, scope, [y], one) == Alias(Corrected, scope, [], Aliased([x, y], one.table[y := "a_b_c0"]));
  }

  // ---------------------------------------------------------------------
  // Findings: an alias that is a parameter
  // ---------------------------------------------------------------------

  /** `def f(t, t_x): t.x = t_x` */
  function Shadow(): Stmt
  {
    Def("f", ["t", "t_x"], [], Inline([Assign([TX()], LoadName("t_x"))]), false)
  }

  /**
   * As written the alias of `t.x` is `t_x`, the function's own parameter:
   * the read at entry overwrites the argument, so `t.x` ends up unchanged
   * instead of receiving it.
   */
  lemma ShadowedParameter<V>(env: SymbolTables.SymbolTable<V>)
    requires env == SymbolTables.SymbolTable(map[], map[])
    ensures var r := Table(AsWritten, Shadow(), env);
      r.Ok? && r.value.table[TX()] == "t_x" && "t_x" in Shadow().params
  {
    var ss := Shadow().body.smalls;
    assert AttrsOf([TX()]) == [TX()];
    assert AttrTargets(ss) == [TX()];
    assert Scope(AsWritten, Shadow(), SymbolTables.Keys(env)) == {"f"};
    assert Candidate(TX()) == "t_x";
  }

  /** With the correction the parameter is avoided: the alias is `t_x0`. */
  lemma ShadowedCorrected<V>(env: SymbolTables.SymbolTable<V>)
    requires env == SymbolTables.SymbolTable(map[], map[])
    ensures var r := Table(Corrected, Shadow(), env);
      r.Ok? && r.value.table[TX()] == "t_x0" && "t_x0" !in Shadow().params
  {
    var ss := Shadow().body.smalls;
    assert AttrsOf([TX()]) == [TX()];
    assert AttrTargets(ss) == [TX()];
    var scope := {"f", "t", "t_x"};
    assert UsedNames.SmallsNames(ss) == {"t", "t_x"};
    assert Scope(Corrected, Shadow(), SymbolTables.Keys(env)) == scope;
    assert Candidate(TX()) == "t_x";
    assert AliasValues(map[]) == {};
    assert Str(0) == "0";
    assert "t_x" + Str(0) == "t_x0";
    assert FreeNames.FirstFreeIndex(scope, "t_x", 0) == 0;
  }
}
